=== FILE: README.md ===
# MR2024 coursework algorithms in Dafny

This project models the hand-written algorithms and data structures of the
MR2024 coursework repository and proves properties of the models. It covers:

- the ordered trees and heaps: a binary search tree, a B-tree, a B+ tree, a
  binomial max-heap and a root-list max-heap;
- the graph algorithms: Dijkstra over an adjacency matrix, over a map graph
  and with a transfer limit, Bellman-Ford, Floyd-Warshall, topological sort
  by depth-first search, breadth-first reachability and path reconstruction;
- the string algorithms: Rabin-Karp and Boyer-Moore-Horspool search, CSV
  line splitting and separator splitting;
- the expression calculator: tokenizer, shunting-yard conversion and
  evaluation of reverse Polish notation;
- the small state machines: the robot command processor, the LRU cache, the
  greenhouse controller and the month-by-month loan simulation;
- one matrix class, and the Merkle tree.

Each source file is one Dafny module. Where the source changes objects in
place, the model is in most modules a class whose methods reassign its
fields, with a contract that ties the new state to a pure function of the
old one. Pointer-linked trees whose nodes are rebuilt recursively are
modelled as values. The B+ tree is modelled as values throughout: its
nodes are a datatype, the in-place edits and copy loops of its insertion
and removal become functions that rebuild nodes, and only the descent's
index scan stays a loop (see "## Left out"). Elsewhere loops stay loops, and
each carries the invariants its proof needs.
C integers are unbounded `int`s unless a row says otherwise.
Doubles are `real`s. I/O, clocks and randomness are parameters or are left
out, as listed below.

`wrappers.dfy` holds the `Option` and `Result` types that model thrown
exceptions and null results. `sequences.dfy` holds the sequence and
power-of-two helpers that several modules share.

## Model

| member | source | states |
|---|---|---|
| Farm.TomatoClimate | 0/farm/main.cxx:88-94 | the tomato preset is 20..30 degrees and 5..10 soil humidity, a well-formed band |
| Farm.Heater.constructor | 0/farm/main.cxx:53-56 | a new heater has no heating request |
| Farm.Ventilator.constructor | 0/farm/main.cxx:59-63 | a new ventilator has neither its temperature nor its schedule flag set |
| Farm.Heater.Command | 0/farm/main.cxx:132-140 | the heater is started exactly when its temperature flag is set, otherwise stopped |
| Farm.Ventilator.Command | 0/farm/main.cxx:143-151 | the ventilator starts iff the temperature or the schedule flag is set, and stops iff neither is |
| Farm.ControlTemperature | 0/farm/main.cxx:97-110 | the new heater and ventilator temperature flags are the controller's decision for the reading and the old flags; the schedule flag is untouched |
| Farm.HeaterAfterBand | 0/farm/main.cxx:102-109 | for a well-formed band: below the minimum the heater is on, above the maximum it is off, inside the band the flag is unchanged |
| Farm.VentilatorAfterMonotone | 0/farm/main.cxx:106-109 | the ventilator's temperature flag is set afterwards iff it was set or the reading is above the maximum; it is never cleared |
| Farm.ControlIdempotent | 0/farm/main.cxx:97-110 | a second control step with the same reading changes neither flag |
| Farm.Scheduled | 0/farm/main.cxx:116-120 | scheduled ventilation never happens before 6 or after 23 |
| Farm.ControlVentilation | 0/farm/main.cxx:113-129 | the schedule flag becomes the schedule's decision for the hour; the temperature flag is untouched |
| Farm.ScheduledHours | 0/farm/main.cxx:116-128 | the schedule is on exactly at hours 8, 12, 16 and 20 |
| Mortgage.Trunc | OrlovMS/task1.c:113 | the cast to Money truncates toward zero: the result is the integer part, for either sign |
| Mortgage.MonthlyInterest | OrlovMS/task1.c:113 | a month's interest on a non-negative amount at a non-negative rate is non-negative |
| Mortgage.Principal | OrlovMS/task1.c:114 | the monthly principal lies in 0..amount; the last month pays the whole rest, and an earlier month pays strictly less than the amount |
| Mortgage.AddSalary | OrlovMS/task1.c:103-106 | cash grows by the salary and nothing else changes |
| Mortgage.PayMortgage | OrlovMS/task1.c:109-119 | with no loan nothing changes; otherwise the loan drops by the principal, one month fewer remains, and the cash pays interest plus principal; the loan stays serviceable and never grows |
| Mortgage.AddDeposit | OrlovMS/task1.c:136-140 | all cash moves to the deposit: cash becomes 0, cash plus capital is conserved, nothing else changes |
| Mortgage.Month | OrlovMS/task1.c:175-190 | one month of operations in source order leaves no cash, keeps the loan serviceable, and advances the loan exactly as one mortgage payment |
| Mortgage.MonthAdvancesLoan | OrlovMS/task1.c:175-190 | n more payments after a month equal n+1 payments from before it, for the loan and for the months left |
| Mortgage.ZeroLoanStays | OrlovMS/task1.c:111 | a repaid loan stays repaid and its month counter stops |
| Mortgage.LoanRepaidAtTerm | OrlovMS/task1.c:114-117 | after at least as many payments as months remain, nothing is owed: the equal-principal scheme repays exactly |
| Mortgage.LoanAfterBounds | OrlovMS/task1.c:114-117 | the loan after any number of payments lies between 0 and the initial amount |
| Mortgage.Person.Set | OrlovMS/task1.c:59-76 | assigning a whole record sets every field to the given snapshot |
| Mortgage.Person.AliceInit | OrlovMS/task1.c:57-77 | every field of the buyer is set: no cash, salary 300000, no capital at deposit rate 0.2, a 15000000 flat, a 14000000 loan over 360 months at 0.17, no rent, food 20000, services 10000, personnel 15000 |
| Mortgage.Person.BobInit | OrlovMS/task1.c:80-100 | every field of the renter is set: no cash, salary 300000, capital 1000000 at deposit rate 0.2, no flat, no loan (0 months at rate 0), rent 30000, food 20000, services 10000, personnel 15000 |
| Mortgage.Person.PayMortgageStep | OrlovMS/task1.c:109-119 | the in-place payment leaves the fields equal to the payment function of the old fields and keeps the loan serviceable |
| Mortgage.Person.AddDepositStep | OrlovMS/task1.c:136-140 | the in-place update equals the deposit function of the old fields |
| Mortgage.Person.AddSalaryStep | OrlovMS/task1.c:103-106 | the in-place update equals the salary function of the old fields |
| Mortgage.Person.PayRentStep | OrlovMS/task1.c:122-125 | cash drops by the rent, nothing else changes |
| Mortgage.Person.PayBillsStep | OrlovMS/task1.c:128-133 | cash drops by the food, service and personnel costs, nothing else changes |
| Mortgage.Person.ProcessesStep | OrlovMS/task1.c:143-172 | capital grows by the deposit rate; salary, bills, rent and estate cost grow by 8% a year, each truncated monthly |
| Mortgage.Person.MonthOperations | OrlovMS/task1.c:175-190 | the month's ten operations, in order, leave the fields equal to the month function of the old fields |
| Mortgage.Date.constructor | OrlovMS/task1.c:212 | a date holds the given year and month |
| Mortgage.Date.Increment | OrlovMS/task1.c:199-207 | December wraps to January of the next year, any other month advances by one; a valid date moves exactly one month on |
| Mortgage.DateEqualIndex | OrlovMS/task1.c:193-196 | two valid dates are equal, year and month, iff they denote the same month |
| Mortgage.Simulation | OrlovMS/task1.c:210-223 | the loop runs exactly 30*12 months; each person's loan equals the loan after that many payments, and a loan of at most 360 months is repaid |
| Mortgage.MonthAdvancesLoanAt | OrlovMS/task1.c:216-222 | one more month advances the loan and months left from payment n to payment n+1 |
| CommandProcessor.Clamp | BazeltsevAA/MVP_bot/MVP_bot/raspberrypi_1/CommandProcessor.cpp:188-194 | the result lies in [lo, hi], equals x inside the range and the nearer bound outside it |
| CommandProcessor.Digit | BazeltsevAA/MVP_bot/MVP_bot/raspberrypi_1/CommandProcessor.cpp:189 | '0' plus a digit 0..9 is an ASCII digit |
| CommandProcessor.FrameDecodes | BazeltsevAA/MVP_bot/MVP_bot/raspberrypi_1/CommandProcessor.cpp:185-213 | every frame is five ASCII digits that read back as the clamped direction, the clamped three-digit speed and the clamped servo command |
| CommandProcessor.FrameInjective | BazeltsevAA/MVP_bot/MVP_bot/raspberrypi_1/CommandProcessor.cpp:185-213 | on the valid ranges two states with the same frame are the same state |
| CommandProcessor.DirectionKey | BazeltsevAA/MVP_bot/MVP_bot/raspberrypi_1/CommandProcessor.cpp:323-332 | a movement key selects a direction in 0..6 (w 1, s 2, d 3, a 4, e 5, q 6, n 0) |
| CommandProcessor.ServoKey | BazeltsevAA/MVP_bot/MVP_bot/raspberrypi_1/CommandProcessor.cpp:334-338 | a camera key selects a servo command in 0..4 (i 2, k 3, j 4, l 1, u 0) |
| CommandProcessor.InverseInvolution | BazeltsevAA/MVP_bot/MVP_bot/raspberrypi_1/CommandProcessor.cpp:70-81 | the inverse key map is an involution without fixed points, maps movement keys to movement keys and camera keys to camera keys, and covers every key except the two stop keys |
| CommandProcessor.Processor.constructor | BazeltsevAA/MVP_bot/MVP_bot/raspberrypi_1/CommandProcessor.cpp:37-47 | a new processor stops with speed 50, servo 0, previous speed 50 and no key pressed, and has sent nothing |
| CommandProcessor.Processor.SendFullCommand | BazeltsevAA/MVP_bot/MVP_bot/raspberrypi_1/CommandProcessor.cpp:177-226 | with the port open exactly the frame of the clamped state is written, otherwise nothing; no state field changes |
| CommandProcessor.Processor.SendCurrentCommand | BazeltsevAA/MVP_bot/MVP_bot/raspberrypi_1/CommandProcessor.cpp:274-277 | the frame of the current state is written when the port is open; no state field changes |
| CommandProcessor.Processor.SetDirection | BazeltsevAA/MVP_bot/MVP_bot/raspberrypi_1/CommandProcessor.cpp:228-252 | a direction outside 0..6 changes nothing and sends nothing; otherwise it becomes current, the key counts as pressed iff it is not 0, and the new frame is sent |
| CommandProcessor.Processor.SetServoCommand | BazeltsevAA/MVP_bot/MVP_bot/raspberrypi_1/CommandProcessor.cpp:254-272 | a servo command outside 0..4 changes nothing; otherwise it becomes current and the new frame is sent |
| CommandProcessor.Processor.ProcessSpeed | BazeltsevAA/MVP_bot/MVP_bot/raspberrypi_1/CommandProcessor.cpp:352-373 | a speed outside 0..100 or equal to the current one changes nothing; otherwise the old speed becomes the previous speed, and a frame is sent only while a direction key is pressed |
| CommandProcessor.SpeedKey | BazeltsevAA/MVP_bot/MVP_bot/raspberrypi_1/CommandProcessor.cpp:282-293 | exactly the four speed keys give a new speed: '+' or '=' raises it by 10 capped at 100, '-' or '_' lowers it by 10 floored at 10; from a speed in 0..100 the result is the clamp of speed ± 10 into 10..100, so 100 from above 90 and 10 from below 20 |
| CommandProcessor.Processor.ProcessCommand | BazeltsevAA/MVP_bot/MVP_bot/raspberrypi_1/CommandProcessor.cpp:279-349 | a speed key sets the speed SpeedKey gives, remembers the old speed when it changed, and sends the new frame only when it changed while a direction key is held and the port is open; a movement or camera key sets the direction or servo of the key map and sends the current frame when the port is open; 'x' and 'c' ask the streamer, when there is one, for a lower or higher resolution and send nothing; unknown keys send nothing; every field a key does not concern keeps its value |
| CommandProcessor.Processor.InverseCommand | BazeltsevAA/MVP_bot/MVP_bot/raspberrypi_1/CommandProcessor.cpp:584-591 | reports failure for a key without an inverse, otherwise the inverse key |
| Horspool.LastBefore | DubininBV/coursework/BoyerMooreHorspool.cpp:21-23 | the result is the last position below k holding c, or none when c does not occur below k |
| Horspool.FillTable | DubininBV/coursework/BoyerMooreHorspool.cpp:21-23 | the loop gives each character before the last position the distance from its last occurrence there to the last position, and no other character an entry |
| Horspool.AsWrittenTable | DubininBV/coursework/BoyerMooreHorspool.cpp:21-25 | the table has an entry exactly for the pattern's characters, every shift is at least 1, and the last character's shift is the pattern length |
| Horspool.BuildShiftTable | DubininBV/coursework/BoyerMooreHorspool.cpp:11-28 | fails exactly on an empty pattern; otherwise the loop builds the table as written |
| Horspool.CorrectedTable | DubininBV/coursework/BoyerMooreHorspool.cpp:21-23 | the table without the overwrite of line 25: every shift is at least 1 and no shift skips a possible match |
| Horspool.BuildCorrectedShiftTable | DubininBV/coursework/BoyerMooreHorspool.cpp:11-23 | fails exactly on an empty pattern; otherwise the loop builds the corrected table |
| Horspool.ScanSound | DubininBV/coursework/BoyerMooreHorspool.cpp:86-108 | for any table with positive shifts, every reported position is a match at or after the start |
| Horspool.ScanIncreasing | DubininBV/coursework/BoyerMooreHorspool.cpp:86-108 | for any table with positive shifts, the reported positions strictly increase |
| Horspool.SkipIsSafe | DubininBV/coursework/BoyerMooreHorspool.cpp:98-106 | a safe shift from a mismatching window jumps over no match |
| Horspool.ScanComplete | DubininBV/coursework/BoyerMooreHorspool.cpp:86-108 | with a safe table every match at or after the start is reported |
| Horspool.MatchesFromRight | DubininBV/coursework/BoyerMooreHorspool.cpp:88-95 | the right-to-left comparison succeeds exactly when the window equals the pattern |
| Horspool.Search | DubininBV/coursework/BoyerMooreHorspool.cpp:86-108 | the search loop reports exactly the positions of the scan: a match moves the window by one, a mismatch by the shift of the window's last character |
| Horspool.SearchAll | DubininBV/coursework/BoyerMooreHorspool.cpp:67-111 | fails exactly on an empty pattern, an empty text or a pattern longer than the text; otherwise reports the scan with the table as written, every reported position is a match, and the positions strictly increase |
| Horspool.AsWrittenMissesMatch | DubininBV/coursework/BoyerMooreHorspool.cpp:25 | in "ccaba" the pattern "aba" occurs at 2, yet the search with the table as written reports nothing, and that table is not safe |
| Horspool.SearchAllCorrected | DubininBV/coursework/BoyerMooreHorspool.cpp:67-111 | with the corrected table the search reports exactly the match positions, in increasing order, and fails on the same inputs |
| RabinKarp.CMod | DubininBV/coursework/RabinCarp.cpp:89-90 | C's remainder by 101 lies strictly between -101 and 101, is congruent to the dividend, equals the mathematical remainder for a non-negative dividend and is at most 0 for a negative one |
| RabinKarp.PowerAdd | DubininBV/coursework/RabinCarp.cpp:15-28 | exponents add: b^(e1+e2) = b^e1 * b^e2 |
| RabinKarp.PowerSquare | DubininBV/coursework/RabinCarp.cpp:24-25 | squaring the base halves the exponent: (b*b)^e = b^(2e) |
| RabinKarp.PowerMod | DubininBV/coursework/RabinCarp.cpp:18 | reducing the base modulo 101 first leaves the power unchanged modulo 101 |
| RabinKarp.PowStep | DubininBV/coursework/RabinCarp.cpp:20-26 | one square-and-multiply round keeps result * x^e unchanged modulo 101 |
| RabinKarp.Pow | DubininBV/coursework/RabinCarp.cpp:15-28 | for a non-negative base the loop returns a^b mod 101, and 1 for a non-positive exponent |
| RabinKarp.ValueFirst | DubininBV/coursework/RabinCarp.cpp:110 | the first character of a window weighs 256 to the power of the window length minus one |
| RabinKarp.HashC | DubininBV/coursework/RabinCarp.cpp:88-91 | the first window's hash as computed with C's remainder lies in (-101, 101) and is congruent to the window's base-256 value |
| RabinKarp.HashE | DubininBV/coursework/RabinCarp.cpp:88-91 | with each remainder normalised the hash is exactly the window's value modulo 101 |
| RabinKarp.NormalizeCMod | DubininBV/coursework/RabinCarp.cpp:112-114 | adding 101 to a negative C remainder yields the mathematical remainder |
| RabinKarp.HitsSound | DubininBV/coursework/RabinCarp.cpp:94-106 | every reported window is a match, and reported positions strictly increase |
| RabinKarp.HitsMembership | DubininBV/coursework/RabinCarp.cpp:94-106 | a position is reported exactly when its window hash equals the pattern hash and the window matches |
| RabinKarp.RollStep | DubininBV/coursework/RabinCarp.cpp:109-115 | the rolling update maps the hash of one window to the hash of the next, in [0, 101) |
| RabinKarp.RollHash | DubininBV/coursework/RabinCarp.cpp:110-114 | the rolling update, with the negative remainder lifted, lies in [0, 101) |
| RabinKarp.WindowHashCorrect | DubininBV/coursework/RabinCarp.cpp:109-115 | once the first hash is normalised, every rolled window hash equals the window's value modulo 101 |
| RabinKarp.HitsComplete | DubininBV/coursework/RabinCarp.cpp:94-106 | with normalised hashes every match is reported, because equal windows have equal hashes |
| RabinKarp.CorrectedHits | DubininBV/coursework/RabinCarp.cpp:94-106 | with normalised hashes the reported positions are exactly the match positions, in increasing order |
| RabinKarp.InitialHashes | DubininBV/coursework/RabinCarp.cpp:85-91 | the loop computes the pattern hash and the first window hash as written, with C's remainder |
| RabinKarp.InitialHashesNormalized | DubininBV/coursework/RabinCarp.cpp:85-91 | the same loop with each remainder normalised computes both values modulo 101 |
| RabinKarp.WindowMatches | DubininBV/coursework/RabinCarp.cpp:96-102 | the character loop succeeds exactly when the window equals the pattern |
| RabinKarp.ScanWindows | DubininBV/coursework/RabinCarp.cpp:94-116 | the window loop reports exactly the windows whose rolled hash equals the pattern hash and whose characters match |
| RabinKarp.SearchAll | DubininBV/coursework/RabinCarp.cpp:66-119 | fails exactly on an empty pattern, an empty text or a pattern longer than the text; otherwise every reported index is a match and the indices strictly increase |
| RabinKarp.AsWrittenMissesNegativeChar | DubininBV/coursework/RabinCarp.cpp:88-91 | for text [65, -1] and pattern [-1] the pattern occurs at 1 and the search as written reports nothing |
| RabinKarp.SearchAllCorrected | DubininBV/coursework/RabinCarp.cpp:66-119 | with the first hashes normalised the search reports exactly the match positions, in increasing order, and fails on the same inputs |
| ChatServer.SplitFrom | DrachkovaIU/coursework/server.cpp:31-55 | the scan from any position yields at least one part |
| ChatServer.IsSplitterAt | DrachkovaIU/coursework/server.cpp:35-43 | the comparison loop succeeds exactly when the separator occurs at the position |
| ChatServer.Split | DrachkovaIU/coursework/server.cpp:26-57 | the parts are those of the left-to-right scan, there is at least one, joining them with the separator gives back the input, and for a one-character separator no part contains it |
| ChatServer.Count | DrachkovaIU/coursework/server.cpp:26-57 | counts the occurrences of a character (a reference for the part count) |
| ChatServer.JoinAppendChar | DrachkovaIU/coursework/server.cpp:52 | appending a character to the current part appends it to the joined text |
| ChatServer.CountConcat | DrachkovaIU/coursework/server.cpp:26-57 | occurrences in a concatenation add up |
| ChatServer.CountAbsent | DrachkovaIU/coursework/server.cpp:26-57 | a character that does not occur is counted zero times |
| ChatServer.PartsCount | DrachkovaIU/coursework/server.cpp:26-57 | for a one-character separator there is one part more than the separator has occurrences in the input |
| ChatServer.RemoveFirst | DrachkovaIU/coursework/server.cpp:59-70 | without the value the sequence is unchanged; otherwise it is one shorter and its multiset loses exactly one copy of the value |
| ChatServer.RemoveElementFromVectorByName | DrachkovaIU/coursework/server.cpp:59-70 | the scan erases the first equal element |
| ChatServer.RemoveFirstAt | DrachkovaIU/coursework/server.cpp:59-70 | only the first occurrence goes, and the elements before and after it keep their order |
| ChatServer.FindName | DrachkovaIU/coursework/server.cpp:111-119 | the index returned is the first room with that name, or no room has it |
| ChatServer.FindRoom | DrachkovaIU/coursework/server.cpp:175-184 | the index returned is the first room with that name and password, or no room has both |
| ChatServer.Create | DrachkovaIU/coursework/server.cpp:107-128 | a room is added, with no users, exactly when its name is free; otherwise the list is unchanged; names stay distinct |
| ChatServer.Remove | DrachkovaIU/coursework/server.cpp:137-162 | an unknown name answers "Wrong name" and a wrong password "Wrong password", changing nothing; otherwise exactly that room is erased; names stay distinct |
| ChatServer.Open | DrachkovaIU/coursework/server.cpp:171-190 | with no matching room nothing changes; otherwise the user is appended to the first matching room, the room index becomes that room, and every other room is unchanged |
| ChatServer.DispatchKeepsNamesDistinct | DrachkovaIU/coursework/server.cpp:87-197 | no command breaks the distinct room names, and the user's room index stays valid |
| ChatServer.Handle | DrachkovaIU/coursework/server.cpp:74-198 | the handler fails exactly where the source indexes the room list out of range: an invalid room index, or "!exit" from a user in no room |
| ChatServer.HandleKeepsInvariant | DrachkovaIU/coursework/server.cpp:74-198 | any message keeps the room names distinct and the room index valid; "!exit" leaves the user in no room and removes them from their room once |
| ChatServer.Server.constructor | DrachkovaIU/coursework/server.cpp:72 | the server starts with no rooms and has sent nothing |
| ChatServer.Server.IsTakenName | DrachkovaIU/coursework/server.cpp:110-119 | the loop reports a name as taken exactly when some room has it |
| ChatServer.Server.CreateRoom | DrachkovaIU/coursework/server.cpp:107-128 | the room list and the reply are those of Create, and names stay distinct |
| ChatServer.Server.RemoveRoom | DrachkovaIU/coursework/server.cpp:137-162 | the room list and the reply are those of Remove |
| ChatServer.Server.OpenRoom | DrachkovaIU/coursework/server.cpp:171-190 | the room list, the new room index and the reply are those of Open |
| ChatServer.Server.ForwardToRoom | DrachkovaIU/coursework/server.cpp:87-95 | every user of the room but the sender gets the message, in the room's order; the rooms are unchanged |
| ChatServer.Server.ListRooms | DrachkovaIU/coursework/server.cpp:97-105 | the user gets each room's name, in list order |
| ChatServer.Server.ExitRoom | DrachkovaIU/coursework/server.cpp:79-85 | the user leaves the room, the other rooms stay, and the user is told which room they left |
| ChatServer.Server.MessageHandler | DrachkovaIU/coursework/server.cpp:74-198 | fails, changing nothing, exactly when Handle fails; otherwise the rooms, the messages sent and the new room index are those of Handle |
| ChatServer.Server.Dispatcher | DrachkovaIU/coursework/server.cpp:87-197 | once "!exit" is handled, the rooms, the messages sent and the room index are those of the command dispatch |
| MerkleTree.CreateLeaf | KorhutMA/coursework/merkle_tree.c:38-45 | a leaf holds the digest of its data and has no children |
| MerkleTree.BuildParent | KorhutMA/coursework/merkle_tree.c:48-61 | the parent digests its children's digests concatenated, the left one twice when there is no right child, and links both children |
| MerkleTree.RightIndex | KorhutMA/coursework/merkle_tree.c:72-73 | the right partner is the next node, or the node itself when it is the last of an odd layer |
| MerkleTree.ParentLayer | KorhutMA/coursework/merkle_tree.c:67-81 | the layer above has (count + 1) / 2 parents, parent i built from nodes 2i and its right partner |
| MerkleTree.BuildLayer | KorhutMA/coursework/merkle_tree.c:67-81 | the loop builds exactly the parent layer |
| MerkleTree.BuildMerkleLayer | KorhutMA/coursework/merkle_tree.c:64-86 | the recursion returns the single node left after pairing layers |
| MerkleTree.BuildMerkleTree | KorhutMA/coursework/merkle_tree.c:89-107 | no data gives no tree; otherwise the root is the one built over the leaves of the data items, in order |
| MerkleTree.Leaves | KorhutMA/coursework/merkle_tree.c:95-102 | leaf i is the leaf for data item i |
| MerkleTree.GetMerkleRoot | KorhutMA/coursework/merkle_tree.c:118-120 | the root digest of a tree, and none exactly for the empty tree |
| MerkleTree.Hashes | KorhutMA/coursework/merkle_tree.c:48-61 | the digests of a layer, position by position |
| MerkleTree.LayerRootProperties | KorhutMA/coursework/merkle_tree.c:64-86 | the root over a layer depends only on the layer's digests (it is the pairwise digest reference), is well formed, and lies Rounds(count) levels above the layer |
| MerkleTree.MerkleTreeProperties | KorhutMA/coursework/merkle_tree.c:89-107 | the tree over non-empty data is well formed, its root digest is the pairwise digest of the items' digests, and its height is the number of rounds |
| MerkleTree.RoundsIsCeilLog2 | KorhutMA/coursework/merkle_tree.c:64-86 | the number of pairing rounds is the base-2 logarithm of the count, rounded up |
| SearchTree.SearchFindsKeys | KhomenkoVS/splay_tree_2.cpp:29-37 | in an ordered tree the search walk succeeds exactly when the key is in the tree |
| SearchTree.Exist | KhomenkoVS/splay_tree_2.cpp:29-37 | the loop returns the outcome of the search walk, and on an ordered tree that is membership of the key |
| SearchTree.Insert | KhomenkoVS/splay_tree_2.cpp:41-56 | a key the search already finds leaves the tree as it is; the keys become the old keys plus the new one; ordering is preserved |
| SearchTree.SearchContainsKey | KhomenkoVS/splay_tree_2.cpp:29-37 | whatever the tree's shape, a successful search has met the key |
| SearchTree.DepthBounds | KhomenkoVS/splay_tree_2.cpp:59-63 | a tree's depth is at most its size, and it holds fewer than 2^depth nodes |
| SearchTree.InsertDepth | KhomenkoVS/splay_tree_2.cpp:41-63 | one insertion deepens the tree by at most one level and never makes it shallower |
| SearchTree.LeftmostIsMin | KhomenkoVS/splay_tree_2.cpp:91-95 | in an ordered tree the key at the end of the left spine is in the tree and is its smallest key |
| SearchTree.DeleteNode | KhomenkoVS/splay_tree_2.cpp:66-105 | on an ordered tree the result is ordered and holds the old keys minus the deleted one; on any tree it gains no key, and a key not present changes no key set |
| BPlusTree.FirstGreater | MakarovIM/b_plus_tree/src/b_plus_tree.cpp:26-29 | the index returned has every earlier key at most the key and the key at it (if any) greater: the child the descent takes and the upper_bound insertion point |
| BPlusTree.FirstNotLess | MakarovIM/b_plus_tree/src/b_plus_tree.cpp:127-130 | the index has every earlier separator below the promoted key and the one at it (if any) not below: where the promoted key is put |
| BPlusTree.RemoveFirst | MakarovIM/b_plus_tree/src/b_plus_tree.cpp:209-211 | a present key loses exactly one copy (one element shorter, multiset minus the key); an absent key leaves the keys unchanged |
| BPlusTree.SplitLeaf | MakarovIM/b_plus_tree/src/b_plus_tree.cpp:60-72 | the two leaves concatenate back to the overfull leaf, the left keeps (n + 1) / 2 keys, and the promoted key is the first key of the right leaf |
| BPlusTree.SplitInternal | MakarovIM/b_plus_tree/src/b_plus_tree.cpp:97-116 | the left separators, the promoted one and the right separators concatenate back to the node's, the children split between the halves, the left keeps n / 2 separators, and each half has one child more than separators |
| BPlusTree.InsertIntoParts | MakarovIM/b_plus_tree/src/b_plus_tree.cpp:41-135 | insertion below a node keeps the shape (one child more than separators, leaves at equal depth, the same height) and adds exactly one copy of the key |
| BPlusTree.InsertOrdered | MakarovIM/b_plus_tree/src/b_plus_tree.cpp:41-135 | inserting a key not yet stored, within a subtree's bounds, keeps the subtree's search order, including across splits |
| BPlusTree.AddChildElems | MakarovIM/b_plus_tree/src/b_plus_tree.cpp:84-90 | putting a split child's two halves in its place spreads exactly that child's keys over the halves, with the other children's keys unchanged |
| BPlusTree.AddChildShape | MakarovIM/b_plus_tree/src/b_plus_tree.cpp:84-90 | the parent with the halves and their separator put in still has one child more than separators, all of the same height |
| BPlusTree.AddChildOrdered | MakarovIM/b_plus_tree/src/b_plus_tree.cpp:84-90 | halves ordered on either side of a separator that lies within the split child's bounds keep the parent ordered |
| BPlusTree.TakeInParts | MakarovIM/b_plus_tree/src/b_plus_tree.cpp:82-95 | a parent taking in a grown child, and splitting again when it then has more than M children, keeps the shape one level up and gains exactly the inserted key |
| BPlusTree.TakeInOrdered | MakarovIM/b_plus_tree/src/b_plus_tree.cpp:82-95 | a parent taking in a child grown within its bounds stays ordered, whether or not it splits again |
| BPlusTree.ReplacePairShape | MakarovIM/b_plus_tree/src/b_plus_tree.cpp:148-170 | after a borrow, the two siblings put back under their new separator keep the parent well formed at the same height |
| BPlusTree.ReplacePairElems | MakarovIM/b_plus_tree/src/b_plus_tree.cpp:231-245 | a borrow that only moves keys between two siblings leaves the parent's keys as they were |
| BPlusTree.ReplacePairOrdered | MakarovIM/b_plus_tree/src/b_plus_tree.cpp:231-245 | two siblings ordered on either side of the new separator keep the parent ordered |
| BPlusTree.MergePairShape | MakarovIM/b_plus_tree/src/b_plus_tree.cpp:173-193 | replacing two siblings by their merge and dropping their separator keeps the parent well formed at the same height |
| BPlusTree.MergePairElems | MakarovIM/b_plus_tree/src/b_plus_tree.cpp:248-262 | a merge that keeps both siblings' keys leaves the parent's keys as they were |
| BPlusTree.MergePairOrdered | MakarovIM/b_plus_tree/src/b_plus_tree.cpp:248-262 | a merged node ordered within the outer bounds of the two siblings keeps the parent ordered |
| BPlusTree.LeafFor | MakarovIM/b_plus_tree/src/b_plus_tree.cpp:22-32 | the descent from any well-formed node ends at a leaf |
| BPlusTree.LeafForFinds | MakarovIM/b_plus_tree/src/b_plus_tree.cpp:22-39 | in an ordered tree a key is stored exactly when the leaf the descent reaches holds it |
| BPlusTree.ElemsOfMember | MakarovIM/b_plus_tree/src/b_plus_tree.cpp:22-32 | a key is stored under a node's children exactly when some child stores it |
| BPlusTree.ElemsInRange | MakarovIM/b_plus_tree/src/b_plus_tree.cpp:22-32 | every key of an ordered subtree lies between the subtree's bounds |
| BPlusTree.FixLeaf | MakarovIM/b_plus_tree/src/b_plus_tree.cpp:225-262 | fixing an underfull leaf leaves an internal node with one child more than separators, and one child fewer exactly when a merge happened |
| BPlusTree.FixLeafElems | MakarovIM/b_plus_tree/src/b_plus_tree.cpp:225-262 | borrowing from or merging with a sibling leaf keeps the parent's keys |
| BPlusTree.FixInternal | MakarovIM/b_plus_tree/src/b_plus_tree.cpp:138-193 | the same shape guarantees for an underfull internal node |
| BPlusTree.FixInternalElems | MakarovIM/b_plus_tree/src/b_plus_tree.cpp:138-193 | borrowing from or merging with a sibling internal node keeps the parent's keys |
| BPlusTree.Absorb | MakarovIM/b_plus_tree/src/b_plus_tree.cpp:220-223 | the parent keeps the child's found flag, and it underflows only after a merge left it with fewer than the minimum children |
| BPlusTree.RemoveFrom | MakarovIM/b_plus_tree/src/b_plus_tree.cpp:206-223 | removal keeps the shape and the height; when the key is not found nothing changes |
| BPlusTree.RemoveFromElems | MakarovIM/b_plus_tree/src/b_plus_tree.cpp:205-274 | removal finds the key exactly when the leaf the descent reaches holds it, and then takes out exactly one copy |
| BPlusTree.RemoveFromOrdered | MakarovIM/b_plus_tree/src/b_plus_tree.cpp:138-274 | removal, with its borrows and merges, keeps an ordered subtree ordered within the same bounds |
| BPlusTree.ChildIndex | MakarovIM/b_plus_tree/src/b_plus_tree.cpp:26-29 | the scan stops at the first separator above the key |
| BPlusTree.FindLeaf | MakarovIM/b_plus_tree/src/b_plus_tree.cpp:22-32 | the walk reaches the leaf LeafFor names |
| BPlusTree.GrowParts | MakarovIM/b_plus_tree/src/b_plus_tree.cpp:74-81 | a split that reaches the root gives a well-formed new root holding the old keys plus the new one |
| BPlusTree.GrowOrdered | MakarovIM/b_plus_tree/src/b_plus_tree.cpp:118-124 | the new root above the two halves keeps the whole tree ordered |
| BPlusTree.ShrinkParts | MakarovIM/b_plus_tree/src/b_plus_tree.cpp:213-219 | an emptied root leaf empties the tree and a one-child root gives way to its child, keeping every key, the shape and the order |
| BPlusTree.Tree.constructor | MakarovIM/b_plus_tree/src/b_plus_tree.cpp:16 | a new tree is empty and ordered |
| BPlusTree.Tree.Search | MakarovIM/b_plus_tree/src/b_plus_tree.cpp:34-39 | the answer is whether the leaf the descent reaches holds the key, and in an ordered tree that is whether the tree stores it |
| BPlusTree.Tree.Insert | MakarovIM/b_plus_tree/src/b_plus_tree.cpp:41-57 | the tree stays well formed and gains one copy of the key; the first key makes a one-key leaf root; a key not yet stored keeps the tree ordered |
| BPlusTree.Tree.Remove | MakarovIM/b_plus_tree/src/b_plus_tree.cpp:205-274 | the tree stays well formed; removal succeeds exactly when the reached leaf holds the key and then takes out one copy, otherwise changes nothing; the last key empties the tree; order is kept, and in an ordered tree success means the key was stored |
| BTree.SwapDown | LapkinYD/b_tree/BTree.cpp:74-81 | exchanging neighbouring entries keeps the length and the multiset |
| BTree.Settle | LapkinYD/b_tree/BTree.cpp:69-90 | in the gnome sort, a carried element larger than its left neighbour leaves the prefix up to the walk position in order |
| BTree.StepDown | LapkinYD/b_tree/BTree.cpp:74-81 | exchanging the carried element with a larger-or-equal left neighbour keeps the gnome-sort invariant one slot further down |
| BTree.Node.constructor | LapkinYD/b_tree/BTree.cpp:4-18 | a new node has 2T-1 key slots all zero, 2T null child slots, no keys in use and the given parent |
| BTree.Node.SearchInNode | LapkinYD/b_tree/BTree.cpp:190-197 | the slot returned is the first live slot holding the value, and none exactly when no live key equals it |
| BTree.Node.Place | LapkinYD/b_tree/BTree.cpp:106-109 | a node with room gains exactly one copy of the value, its live keys end up non-decreasing, and its children stay children of the tree |
| BTree.Node.ShiftOut | LapkinYD/b_tree/BTree.cpp:237-240 | the live keys become the old ones without slot i, one fewer, and the dead slots keep their contents |
| BTree.Node.DropKey | LapkinYD/b_tree/BTree.cpp:235-243 | the first live slot holding the value is removed; without one the node is unchanged; a leaf keeps its shape |
| BTree.Node.SortChildPointers | LapkinYD/b_tree/BTree.cpp:39-61 | the child slots end up with present children first, ordered by their first key, as a rearrangement of the old slots, the other slots untouched |
| BTree.Node.GnomeWalk | LapkinYD/b_tree/BTree.cpp:44-60 | the walk over the present children leaves them a rearrangement of the old ones with ascending first keys |
| BTree.Node.GnomeStep | LapkinYD/b_tree/BTree.cpp:44-60 | one pass keeps the children a rearrangement, keeps the gnome-sort invariant and makes progress |
| BTree.Node.ExchangeChildren | LapkinYD/b_tree/BTree.cpp:50-52 | exactly the two neighbouring child slots trade places |
| BTree.Node.Exchange | LapkinYD/b_tree/BTree.cpp:74-81 | the key and child sequences each swap the two neighbouring slots, and nothing past the live slots changes |
| BTree.Node.SortKeys | LapkinYD/b_tree/BTree.cpp:63-91 | the live keys end up non-decreasing and a rearrangement of the old ones, each child pointer travelling with its key |
| BTree.Node.KeyStep | LapkinYD/b_tree/BTree.cpp:69-90 | one pass keeps the keys and key-child pairs a rearrangement, keeps the gnome-sort invariant and makes progress |
| BTree.LeadingRun | LapkinYD/b_tree/BTree.cpp:39-61 | a slot sequence with nulls last splits into a run of present children and a run of nulls |
| BTree.SortedChildren | LapkinYD/b_tree/BTree.cpp:39-61 | the sorted present children followed by the nulls are a rearrangement of the old slots, ordered by first key |
| BTree.ZipSwapDown | LapkinYD/b_tree/BTree.cpp:74-81 | swapping keys and children together swaps the key-child pairs |
| BTree.ZipSecondsIn | LapkinYD/b_tree/BTree.cpp:63-91 | after a rearrangement of key-child pairs every child is one of the old children |
| BTree.FirstNotBelow | LapkinYD/b_tree/BTree.cpp:165-188 | the index has every earlier key below the value and the one at it (if any) not below |
| BTree.Without | LapkinYD/b_tree/BTree.cpp:237-240 | dropping slot i shifts every later entry one place left |
| BTree.IndexOfKey | LapkinYD/b_tree/BTree.cpp:235-236 | the first slot holding the value |
| BTree.ShiftReads | LapkinYD/b_tree/BTree.cpp:237-239 | the slots the shift loop reads as written are exactly those after i up to the key count |
| BTree.ShiftReadsPastFullNode | LapkinYD/b_tree/BTree.cpp:237-239 | removing from a full node reads slot 2T-1, one past the end of its keys array |
| BTree.BagRemove | LapkinYD/b_tree/BTree.cpp:199-247 | the multiset of keys in use across nodes is any one node's keys plus those of the others |
| BTree.BagUpdate | LapkinYD/b_tree/BTree.cpp:105-109 | replacing or adding one node's keys leaves the other nodes' share of the tree's keys as it was |
| BTree.WithoutMultiset | LapkinYD/b_tree/BTree.cpp:237-240 | dropping slot i takes exactly one occurrence of its key out of the node's keys |
| BTree.ReplaceMultiset | LapkinYD/b_tree/BTree.cpp:230 | overwriting a slot trades one occurrence of its old key for the new one |
| BTree.TakeOne | LapkinYD/b_tree/BTree.cpp:228-230 | a multiset that is another after adding one x is that other with one x taken out |
| BTree.BagGains | LapkinYD/b_tree/BTree.cpp:105-109 | a node whose keys gain one occurrence of a value adds exactly that occurrence to the tree's keys |
| BTree.BagDrop | LapkinYD/b_tree/BTree.cpp:234-243 | a node dropping its first occurrence of a key takes exactly one occurrence out of the tree's keys |
| BTree.BagReplace | LapkinYD/b_tree/BTree.cpp:230 | overwriting a live slot trades that slot's key for the new one in the tree's keys |
| BTree.PredecessorMoved | LapkinYD/b_tree/BTree.cpp:228-230 | moving the predecessor out of its leaf into the removed key's slot takes exactly one occurrence of the removed key out of the tree's keys; into a dead slot it takes out the predecessor itself |
| BTree.Tree.Target | LapkinYD/b_tree/BTree.cpp:165-188 | the search walk from a node ends at a node of the tree no higher than where it started, or at a null child, which a node without keys never leads to |
| BTree.Tree.InContents | LapkinYD/b_tree/BTree.cpp:160-163 | a key in use at any node is among the tree's keys |
| BTree.Tree.TargetInComplete | LapkinYD/b_tree/BTree.cpp:165-188 | in a complete tree the walk always ends, at a node holding the value or at a leaf |
| BTree.Tree.constructor | LapkinYD/b_tree/BTree.cpp:4-18 | a new tree is a single empty root leaf of minimum degree t, complete and holding no keys |
| BTree.Tree.SearchNode | LapkinYD/b_tree/BTree.cpp:165-188 | the walk the loop performs is the one Target describes |
| BTree.Tree.Search | LapkinYD/b_tree/BTree.cpp:160-163 | a slot is found exactly when the walk reaches a node holding the value; the slot is live and holds it, so the value is in the tree |
| BTree.Tree.InsertToNode | LapkinYD/b_tree/BTree.cpp:105-109 | a node with room gains the value, sorted in, and the tree's keys gain exactly one occurrence of it; a full node is left untouched (see Left out) |
| BTree.Tree.Insert | LapkinYD/b_tree/BTree.cpp:93-103 | a value the walk finds leaves the tree untouched; otherwise a target with room gains it, so the tree's keys gain exactly one occurrence, and completeness is kept |
| BTree.Tree.InsertAt | LapkinYD/b_tree/BTree.cpp:96-102 | a value already in the node changes nothing; otherwise a node with room adds exactly one occurrence of it to the tree's keys |
| BTree.Tree.CreateRootParent | LapkinYD/b_tree/BTree.cpp:20-37 | a fresh empty root above the old root, linked both ways, with the tree's keys unchanged |
| BTree.Tree.RemoveFromLeaf | LapkinYD/b_tree/BTree.cpp:234-247 | the first slot holding the value is shifted out, so the tree's keys lose exactly one occurrence of it (none when the node lacks it); the flag is set exactly when the node is left short of T-1 keys below a parent (see Left out) |
| BTree.Tree.LeafDrop | LapkinYD/b_tree/BTree.cpp:235-243 | the removal within a leaf, with the tree's other nodes unchanged |
| BTree.Tree.Rightmost | LapkinYD/b_tree/BTree.cpp:221-226 | the descent along last children ends at a leaf no higher than its start, or at a null child |
| BTree.Tree.KeySlot | LapkinYD/b_tree/BTree.cpp:216-218 | the first live slot holding the value, or keysCount exactly when no live slot holds it |
| BTree.Tree.PredecessorLeaf | LapkinYD/b_tree/BTree.cpp:216-228 | the leaf found holds at least one key and sits below the node; none on the paths that would follow a null child, read keys[-1] or write past the keys |
| BTree.Tree.RemoveFromNode | LapkinYD/b_tree/BTree.cpp:210-232 | succeeds exactly when the node is a leaf or the predecessor leaf exists; a leaf loses the value's first slot; an internal node's slot of the value takes the predecessor; a stored value loses exactly one occurrence from the tree's keys, and a missing one at an internal node costs the predecessor; failure changes nothing; completeness is kept |
| BTree.Tree.RemoveFromInternal | LapkinYD/b_tree/BTree.cpp:214-231 | the internal-node case of RemoveFromNode, with the same success condition and the same new keys |
| BTree.Tree.FindPredecessor | LapkinYD/b_tree/BTree.cpp:216-227 | the loops compute the slot and the predecessor leaf that KeySlot and PredecessorLeaf describe, and change nothing |
| BTree.Tree.DescendRight | LapkinYD/b_tree/BTree.cpp:221-226 | the loop reaches the leaf Rightmost describes |
| BTree.Tree.TakePredecessor | LapkinYD/b_tree/BTree.cpp:228-230 | slot keyIndex now holds the leaf's last key; the tree's keys lose exactly one occurrence of the overwritten key, or of the moved key when the slot was dead; the shape is kept |
| BTree.Tree.WriteKey | LapkinYD/b_tree/BTree.cpp:230 | slot i holds the new key; only slot i of the node changes, and only a live slot changes its keys in use |
| BTree.Tree.Collapse | LapkinYD/b_tree/BTree.cpp:202-207 | a keyless root with a child gives way to that child and every key stays; otherwise nothing changes; completeness is kept |
| BTree.Tree.RemoveAtTarget | LapkinYD/b_tree/BTree.cpp:200 | succeeds exactly when the walk ends at a node where removal can finish; a found value loses exactly one occurrence; in a complete tree a value not found changes no key; completeness is kept |
| BTree.Tree.Remove | LapkinYD/b_tree/BTree.cpp:199-208 | succeeds exactly when the walk ends at a node where removal can finish; a found value loses exactly one occurrence from the tree's keys and nothing else changes in them; in a complete tree a value not found changes no key; a walk that meets a null child changes nothing; a keyless root collapses into its first child; completeness is kept |
| Binomial.CapacityIsPow2 | RyabkovNA/kursovaya/2.cpp:29 | the 64 table slots correspond to 2^64 values |
| Binomial.Singleton | RyabkovNA/kursovaya/2.cpp:16 | a new node holds just its value and is a heap-ordered binomial tree of order 0 |
| Binomial.ValuesOfAppend | RyabkovNA/kursovaya/2.cpp:66-68 | appending trees adds their values |
| Binomial.ValuesOfEmpty | RyabkovNA/kursovaya/2.cpp:58 | a tree list holds no value exactly when it has no tree |
| Binomial.ValuesOfRemove | RyabkovNA/kursovaya/2.cpp:64 | erasing tree i takes out exactly its values |
| Binomial.MergeTrees | RyabkovNA/kursovaya/2.cpp:21-26 | the merged tree holds both trees' values under the larger root, stays heap-ordered, and two binomial trees of one order make one of the next order |
| Binomial.Attached | RyabkovNA/kursovaya/2.cpp:23-24 | appending a tree to another's children adds its values, keeps heap order when its root is not larger, and keeps the binomial shape when the orders agree |
| Binomial.BinomialSize | RyabkovNA/kursovaya/2.cpp:21-26 | a binomial tree of order k holds 2^k values |
| Binomial.ChildrenSize | RyabkovNA/kursovaya/2.cpp:21-26 | the first k children of a binomial tree hold 2^k - 1 values |
| Binomial.OrderBound | RyabkovNA/kursovaya/2.cpp:29-42 | in a heap of fewer than 2^64 values no tree reaches order 64, so every order indexes the table |
| Binomial.RootIsMax | RyabkovNA/kursovaya/2.cpp:21-26 | in a heap-ordered tree the root holds the largest value |
| Binomial.ForestBelow | RyabkovNA/kursovaya/2.cpp:66-68 | heap-ordered trees whose roots are at most m hold nothing above m |
| Binomial.TableUpdate | RyabkovNA/kursovaya/2.cpp:38-42 | replacing one table slot trades its values for the new ones |
| Binomial.BinomialHeap.constructor | RyabkovNA/kursovaya/2.cpp:19 | a new heap is valid and empty |
| Binomial.BinomialHeap.Consolidate | RyabkovNA/kursovaya/2.cpp:28-48 | the trees end up good and in strictly increasing orders, no two of one order, holding the same values |
| Binomial.BinomialHeap.Insert | RyabkovNA/kursovaya/2.cpp:51-55 | the heap stays valid and gains exactly the value |
| Binomial.BinomialHeap.ExtractMax | RyabkovNA/kursovaya/2.cpp:57-74 | an empty heap fails ("Heap is empty") and stays as it is; otherwise the result is the largest value, it is removed once, and the heap stays valid |
| Binomial.BinomialHeap.PushBack | RyabkovNA/kursovaya/2.cpp:66-68 | the trees go to the back of the list, in order |
| Binomial.BinomialHeap.Empty | RyabkovNA/kursovaya/2.cpp:76-78 | true exactly when the heap holds no value |
| Binomial.Carry | RyabkovNA/kursovaya/2.cpp:34-42 | merging with occupied slots and parking keeps the table good and adds exactly the tree's values |
| Binomial.Merged | RyabkovNA/kursovaya/2.cpp:37-40 | one pass of the carry loop empties the slot and merges its tree into the carried one, which gains an order and keeps every value |
| Binomial.MergedGood | RyabkovNA/kursovaya/2.cpp:39 | two good trees of one order merge into a good tree of the next order with both trees' values |
| Binomial.Emptied | RyabkovNA/kursovaya/2.cpp:38 | emptying an occupied slot removes exactly its tree's values |
| Binomial.Parked | RyabkovNA/kursovaya/2.cpp:42 | parking a good tree of order k in the free slot k keeps the table good and adds its values |
| Binomial.ParkAll | RyabkovNA/kursovaya/2.cpp:31-43 | carrying every tree of the list into the table keeps it good and adds exactly the list's values |
| Binomial.Pending | RyabkovNA/kursovaya/2.cpp:31-33 | taking tree i from the front adds its values to what the first i trees put in the table, within the heap's count |
| Binomial.Collect | RyabkovNA/kursovaya/2.cpp:45-47 | the table read back in slot order gives good trees in strictly increasing orders, holding the table's values |
| Binomial.Snoc | RyabkovNA/kursovaya/2.cpp:46 | appending a good tree of order k to trees below k keeps the orders increasing and adds its values |
| Binomial.TablePrefix | RyabkovNA/kursovaya/2.cpp:45-47 | reading one more slot adds that slot's values |
| Binomial.Detach | RyabkovNA/kursovaya/2.cpp:63-68 | erasing tree i and putting its subtrees at the back removes only its root's value and keeps every tree good |
| Binomial.HeapMax | RyabkovNA/kursovaya/2.cpp:60-63 | the first tree with the largest root holds the largest value of the heap |
| Binomial.EmptyTable | RyabkovNA/kursovaya/2.cpp:29 | a table with every slot free is good and holds nothing |
| Fibonacci.MaxIndex | RyabkovNA/kursovaya/33.cpp:64-70 | no position exactly for an empty root list; otherwise a root whose value is at least every root's, with every earlier root strictly smaller (the first largest, as the strict comparison picks) |
| Fibonacci.ValuesOfAppend | RyabkovNA/kursovaya/33.cpp:51-54 | appending roots adds their values |
| Fibonacci.ValuesOfEmpty | RyabkovNA/kursovaya/33.cpp:42-43 | a root list holds no value exactly when it has no root |
| Fibonacci.RootIsMax | RyabkovNA/kursovaya/33.cpp:12-17 | a heap-ordered node's own value is its largest |
| Fibonacci.ForestBelow | RyabkovNA/kursovaya/33.cpp:12-17 | heap-ordered nodes whose values are at most m hold nothing above m |
| Fibonacci.Detach | RyabkovNA/kursovaya/33.cpp:46-54 | erasing root i and appending its children removes exactly the root's value and keeps every root heap-ordered |
| Fibonacci.HeapMax | RyabkovNA/kursovaya/33.cpp:41-72 | the first largest root holds the largest value of the heap |
| Fibonacci.ValuesAppended | RyabkovNA/kursovaya/33.cpp:27 | appending a node adds its values |
| Fibonacci.MaxAppended | RyabkovNA/kursovaya/33.cpp:31-33 | the maximum moves to an appended node exactly when the list was empty or the node beats the old maximum |
| Fibonacci.OrderedAppended | RyabkovNA/kursovaya/33.cpp:27 | appending a heap-ordered node keeps every root heap-ordered |
| Fibonacci.Pushed | RyabkovNA/kursovaya/33.cpp:24-34 | appending a one-value root keeps the roots heap-ordered, adds exactly that value, moves the maximum as insert does, and every value is at most the new maximum root |
| Fibonacci.FibonacciHeap.constructor | RyabkovNA/kursovaya/33.cpp:19-21 | a new heap has no roots, no maximum and size 0 |
| Fibonacci.FibonacciHeap.Insert | RyabkovNA/kursovaya/33.cpp:24-34 | the value is appended as a new root and counted; the heap stays valid (size, ordering, maximum pointer) and its contents gain exactly the value |
| Fibonacci.FibonacciHeap.ExtractMax | RyabkovNA/kursovaya/33.cpp:41-73 | an empty heap fails with "Heap is empty" and stays as it is; otherwise the result is the largest value, it is removed once, the size drops by one, and the heap stays valid |
| Fibonacci.FibonacciHeap.PushBack | RyabkovNA/kursovaya/33.cpp:51-54 | the children are appended to the roots in order and the size is unchanged |
| Fibonacci.FibonacciHeap.FindMax | RyabkovNA/kursovaya/33.cpp:64-70 | the scan sets the maximum pointer to the first largest root, changing nothing else |
| Fibonacci.FibonacciHeap.Empty | RyabkovNA/kursovaya/33.cpp:75-77 | true exactly when the heap holds no value |
| TopoSort.BuildBuckets | VasilievGV/kursach.cpp:94-100 | every node lands in the bucket of its rank, each bucket in increasing node order, and every node in exactly one bucket |
| TopoSort.Successors | VasilievGV/kursach.cpp:106-115 | a node's out-edges are exactly the nodes of higher rank whose coin came up |
| TopoSort.PushFinished | VasilievGV/kursach.cpp:159-160 | pushing a grey node whose successors are all black, and blackening it, keeps the stack a finishing order |
| TopoSort.ReverseSameMembers | VasilievGV/kursach.cpp:179 | reversing keeps the members |
| TopoSort.ReverseDistinct | VasilievGV/kursach.cpp:179 | reversing a list of distinct nodes keeps them distinct |
| TopoSort.ReverseFinishOrder | VasilievGV/kursach.cpp:178-180 | reversing a finishing order makes every edge point forward |
| TopoSort.BlackPrefixGrows | VasilievGV/kursach.cpp:150-157 | colours only darken, so the successors already searched stay black |
| TopoSort.Graph.GreyCycle | VasilievGV/kursach.cpp:138-141 | reaching a grey node again closes a cycle along the grey walk |
| TopoSort.Graph.constructor | VasilievGV/kursach.cpp:85-118 | the graph has the given number of nodes, all white, and an edge u to v exactly when rank[u] < rank[v] and the coin for the pair came up |
| TopoSort.Graph.Dfs | VasilievGV/kursach.cpp:136-162 | a cycle is reported only when there is one, and always on a grey node; a black node is skipped; otherwise the node ends black and on the stack, with colours only darkening |
| TopoSort.Graph.VisitSuccessors | VasilievGV/kursach.cpp:149-157 | stops at the first cycle, which exists; otherwise every successor ends black and the stack stays a finishing order |
| TopoSort.Graph.TopologicalSort | VasilievGV/kursach.cpp:164-182 | succeeds exactly when the graph has no cycle, and then returns every node once with every edge pointing forward |
| TopoSort.Graph.ReversedStackIsOrder | VasilievGV/kursach.cpp:178-181 | when every node is black, the reversed finishing stack is a topological order |
| TopoSort.Graph.PotentialExcludesCycle | VasilievGV/kursach.cpp:102-117 | a potential that grows along every edge rules out cycles |
| TopoSort.Graph.PotentialGrows | VasilievGV/kursach.cpp:102-117 | along a cycle such a potential grows by at least one per edge |
| TopoSort.Graph.OrderExcludesCycle | VasilievGV/kursach.cpp:164-182 | a graph with a topological order has no cycle, the converse of the sort's success |
| TopoSort.Graph.RankedIsAcyclic | VasilievGV/kursach.cpp:102-117 | edges only from lower to higher rank leave the graph without a cycle |
| TopoSort.SortRanked | VasilievGV/kursach.cpp:184-198 | sorting a freshly built ranked graph always succeeds and lists every node once |
| DijkstraMatrix.MinDistance | DegtevaDA/dijkstra.cpp:107-118 | -1 exactly when every unvisited vertex is beyond INT_MAX; otherwise an unvisited vertex of least distance, the last one on ties |
| DijkstraMatrix.ChainLeadsToStart | DegtevaDA/dijkstra.cpp:134-137 | under the shortest-path-tree facts, the parent chain of a reached vertex reaches start, so the path printer's walk ends |
| DijkstraMatrix.Dijkstra | DegtevaDA/dijkstra.cpp:147-173 | start has distance 0 and is its own parent; unreached vertices keep INT_MAX and parent -1; every reached vertex other than start was reached from its parent along a non-zero edge, with the parent's distance plus that weight, and its parent chain leads back to start |
| DijkstraMatrix.VisitKeepsInv | DegtevaDA/dijkstra.cpp:161-172 | one round, visiting the nearest unvisited vertex and relaxing from it, keeps the loop invariant |
| DijkstraMatrix.RelaxKeepsTree | DegtevaDA/dijkstra.cpp:166-172 | a relaxation pass keeps the shortest-path-tree facts, each parent visited before its child |
| DijkstraMatrix.Relax | DegtevaDA/dijkstra.cpp:166-172 | only unvisited vertices with a non-zero edge from u change, to u's distance plus that weight and parent u, and only when strictly shorter; no distance grows |
| DijkstraMatrix.NewArrays | DegtevaDA/dijkstra.cpp:148-156 | three fresh arrays of the vertex count, every distance INT_MAX, nothing visited and every parent -1 |
| DijkstraMatrix.InitialInv | DegtevaDA/dijkstra.cpp:158-159 | once start has distance 0 and is its own parent, the round invariant holds before the first round |
| DijkstraMatrix.Visit | DegtevaDA/dijkstra.cpp:161-172 | marking the nearest unvisited vertex and relaxing from it moves the round invariant from one round to the next |
| DijkstraMatrix.FinalFacts | DegtevaDA/dijkstra.cpp:161-173 | the round invariant at loop exit gives the shortest-path-tree facts, with every reached vertex's parent chain leading back to start |
| PathFinder.KeysDistinct | KlestovAD/Coursework/pathfinder.cpp:17 | two entries of the graph map never share a key |
| PathFinder.ReachableStep | KlestovAD/Coursework/pathfinder.cpp:43-48 | an edge out of a point reachable from start leads to a point reachable from start |
| PathFinder.SumConcat | KlestovAD/Coursework/pathfinder.cpp:120 | the weight of two walks laid end to end is the sum of their weights |
| PathFinder.WalkEdge | KlestovAD/Coursework/pathfinder.cpp:104-109 | a single edge is a walk of its weight |
| PathFinder.WalkJoin | KlestovAD/Coursework/pathfinder.cpp:117-121 | a walk from i to k followed by one from k to j is a walk from i to j of the summed weight |
| PathFinder.WalkSnoc | KlestovAD/Coursework/pathfinder.cpp:44-46 | a walk to a followed by an edge from a to b is a walk to b of the summed weight |
| PathFinder.PathSplit | KlestovAD/Coursework/pathfinder.cpp:114-125 | a path cut at any of its points gives two paths that together carry all its weights |
| PathFinder.CollectEdges | KlestovAD/Coursework/pathfinder.cpp:34-39 | the list holds every edge of the graph with its source key, and nothing that is not an edge |
| PathFinder.EdgesOf | KlestovAD/Coursework/pathfinder.cpp:36-38 | the pairs collected for one point are edges of the graph with that point's key as source, and every edge of that point is among them |
| PathFinder.EdgeOfFacts | KlestovAD/Coursework/pathfinder.cpp:34-39 | a collected pair names a key and an edge leaving it |
| PathFinder.InitDistances | KlestovAD/Coursework/pathfinder.cpp:28-31 | every key at INT_MAX except start at 0, and no other entry |
| PathFinder.InitialBounds | KlestovAD/Coursework/pathfinder.cpp:28-31 | the initial distances are walk weights from start and bound every walk of no edges |
| PathFinder.RelaxAll | KlestovAD/Coursework/pathfinder.cpp:43-49 | one pass over all edges raises no distance and leaves every edge's destination no further than its source was before the pass plus the weight; finite distances stay walk weights from start, at points reachable from start, each with a predecessor that is a reached key with an edge to it |
| PathFinder.RelaxStep | KlestovAD/Coursework/pathfinder.cpp:44-47 | relaxing one improving edge keeps every invariant of the pass, one edge further |
| PathFinder.RelaxLowers | KlestovAD/Coursework/pathfinder.cpp:44-47 | lowering an edge's destination to its source's distance plus the weight raises nothing and bounds that edge |
| PathFinder.SkipLowers | KlestovAD/Coursework/pathfinder.cpp:44-45 | an edge that does not improve its destination is already bounded |
| PathFinder.RelaxKeepsInv | KlestovAD/Coursework/pathfinder.cpp:44-47 | lowering a destination's distance through a reached key, and recording that key as its predecessor, keeps the invariant |
| PathFinder.RelaxKeepsPredecessors | KlestovAD/Coursework/pathfinder.cpp:46-47 | the new predecessor is a reached key with an edge to the destination |
| PathFinder.RelaxKeepsWalked | KlestovAD/Coursework/pathfinder.cpp:46 | the lowered distance is the weight of a walk from start |
| PathFinder.PassStep | KlestovAD/Coursework/pathfinder.cpp:42-50 | after i passes a distance is at most every walk of at most i edges from start, and one more pass makes it i + 1 |
| PathFinder.BoundAtEnd | KlestovAD/Coursework/pathfinder.cpp:62 | after the passes end's distance is at most every walk of at most that many edges from start to end |
| PathFinder.Distances | KlestovAD/Coursework/pathfinder.cpp:25-50 | after the |V| - 1 passes end's distance is finite only when a walk reaches end, and is then the weight of such a walk; it is at most the weight of every walk of fewer than |V| edges whose running sums stay below INT_MAX, so any such walk makes it finite |
| PathFinder.BellmanFord | KlestovAD/Coursework/pathfinder.cpp:17-74 | a missing endpoint or an unreachable end gives an empty path and INT_MAX; the commented-out negative-cycle check never fires; a non-empty path runs from start to end along edges and its length is a walk weight from start to end, at most every walk of fewer than |V| edges; otherwise the source's path loop never ends |
| PathFinder.KeyNotEmpty | KlestovAD/Coursework/pathfinder.cpp:68 | no key is the empty name that ends the predecessor loop |
| PathFinder.PredecessorStep | KlestovAD/Coursework/pathfinder.cpp:68 | a reached point without a recorded predecessor is start; one with a predecessor has a reached key with an edge to it |
| PathFinder.TraceBack | KlestovAD/Coursework/pathfinder.cpp:66-73 | the predecessor chain from end, reversed, runs from start to end along edges and carries end's distance; the outcome is `Diverges` exactly when the chain never reaches the empty name |
| PathFinder.TraceStep | KlestovAD/Coursework/pathfinder.cpp:68-69 | one more predecessor keeps the loop's invariant |
| PathFinder.TraceEndsStep | KlestovAD/Coursework/pathfinder.cpp:68-69 | one more predecessor keeps the path's last point at end and its points reached |
| PathFinder.TraceDone | KlestovAD/Coursework/pathfinder.cpp:68-71 | when the chain reaches the empty name the reversed path runs from start to end along edges |
| PathFinder.PredecessorsLoop | KlestovAD/Coursework/pathfinder.cpp:68-70 | a chain of more predecessors than points repeats a point, so it never reaches the empty name |
| PathFinder.BackChainSnoc | KlestovAD/Coursework/pathfinder.cpp:69 | a chain of predecessor links extended by a predecessor is still one |
| PathFinder.ReversedBackChain | KlestovAD/Coursework/pathfinder.cpp:71 | reversing a chain of predecessor links gives a walk along edges |
| PathFinder.IndexOfKey | KlestovAD/Coursework/pathfinder.cpp:87-89 | the position of a point's name in map order |
| PathFinder.IndexOfKeyUnique | KlestovAD/Coursework/pathfinder.cpp:87-89 | with distinct keys, the name of entry j is found at position j |
| PathFinder.LighterEdgeKeepsTables | KlestovAD/Coursework/pathfinder.cpp:106-109 | keeping the lighter of an entry and a parallel edge keeps the tables' shape and edge facts |
| PathFinder.RowBoundedLower | KlestovAD/Coursework/pathfinder.cpp:106-107 | lowering an entry keeps the row within the edges already seen |
| PathFinder.RowBoundedStep | KlestovAD/Coursework/pathfinder.cpp:105-109 | once the entry of an edge's destination is within its weight, the row is within one more edge |
| PathFinder.AddEdgesOf | KlestovAD/Coursework/pathfinder.cpp:104-111 | the edges leaving one point lower its row to at most each edge's weight, each moved entry holding an edge's weight and destination, and the other rows stay |
| PathFinder.InitTables | KlestovAD/Coursework/pathfinder.cpp:95-111 | 0 on the diagonal and INT_MAX elsewhere unless an edge is lighter; moved entries hold an edge and its destination as next hop; no entry exceeds a parallel edge's weight, so every entry bounds the walks without inner points |
| PathFinder.TablesHopsOk | KlestovAD/Coursework/pathfinder.cpp:104-111 | every next hop set from an edge is a key with an edge from its point, and the diagonal has no next hop unless it is negative |
| PathFinder.NoInnerPoint | KlestovAD/Coursework/pathfinder.cpp:104-111 | a simple walk without inner points is a single edge or none |
| PathFinder.EdgeBound | KlestovAD/Coursework/pathfinder.cpp:95-111 | diagonal entries at most 0 and rows within their edges bound every walk without inner points |
| PathFinder.RelaxKeepsTables | KlestovAD/Coursework/pathfinder.cpp:117-121 | lowering entry (i, j) through k keeps every next hop an edge, the hop set exactly where the entry fell, and every finite entry a walk weight |
| PathFinder.Update2D | KlestovAD/Coursework/pathfinder.cpp:120-121 | writing one entry of a table changes that entry only |
| PathFinder.KeepsNextHops | KlestovAD/Coursework/pathfinder.cpp:121 | a next hop replaced by an unset one or an edge keeps every next hop an edge |
| PathFinder.KeepsHopsSet | KlestovAD/Coursework/pathfinder.cpp:120-121 | an entry still below its initial value exactly where its hop is set keeps that fact for the table |
| PathFinder.KeepsWitnessed | KlestovAD/Coursework/pathfinder.cpp:120 | an entry replaced by a walk weight keeps every finite entry a walk weight |
| PathFinder.KeepsLowered | KlestovAD/Coursework/pathfinder.cpp:120 | an entry replaced by a lower one keeps the table no higher than before |
| PathFinder.RowRelaxStep | KlestovAD/Coursework/pathfinder.cpp:116-122 | relaxing entry (i, j) through k keeps the row's invariant one column further |
| PathFinder.RowSkipStep | KlestovAD/Coursework/pathfinder.cpp:116-119 | an entry that going through k does not improve is already within it |
| PathFinder.RelaxRow | KlestovAD/Coursework/pathfinder.cpp:116-123 | the inner loop lowers each entry of row i to at most going through k, raising none and keeping the tables' facts |
| PathFinder.RoundStep | KlestovAD/Coursework/pathfinder.cpp:115-124 | one more row relaxed through k keeps the rows done within going through k |
| PathFinder.RelaxRound | KlestovAD/Coursework/pathfinder.cpp:115-124 | one round for k leaves every entry at most going through k |
| PathFinder.SplitLeft | KlestovAD/Coursework/pathfinder.cpp:117-120 | the part of a simple walk before its inner point k is a simple walk with inner points below k |
| PathFinder.SplitRight | KlestovAD/Coursework/pathfinder.cpp:117-120 | the part of a simple walk after its inner point k is a simple walk with inner points below k |
| PathFinder.LeftBound | KlestovAD/Coursework/pathfinder.cpp:117-120 | the entry from the walk's start to k bounds the part before k |
| PathFinder.RightBound | KlestovAD/Coursework/pathfinder.cpp:117-120 | the entry from k to the walk's end bounds the part after k |
| PathFinder.ThroughPoint | KlestovAD/Coursework/pathfinder.cpp:117-120 | after round k a simple walk through k is bounded by its entry |
| PathFinder.BoundOf | KlestovAD/Coursework/pathfinder.cpp:114-125 | an entry bounding every simple walk with inner points below k bounds such a walk |
| PathFinder.ThroughAt | KlestovAD/Coursework/pathfinder.cpp:117-120 | after round k an entry is at most going through k |
| PathFinder.ThroughStep | KlestovAD/Coursework/pathfinder.cpp:114-125 | round k extends the walks every entry bounds from inner points below k to inner points below k + 1 |
| PathFinder.RelaxThrough | KlestovAD/Coursework/pathfinder.cpp:114-125 | the triple loop raises no entry, keeps the tables' facts, and leaves every entry at most the weight of every simple walk between its points whose stretches stay below INT_MAX |
| PathFinder.Tables | KlestovAD/Coursework/pathfinder.cpp:95-125 | every finite entry is the weight of a walk and at most every simple walk between its points; every next hop is unset or an edge, set exactly where the entry fell below its initial value |
| PathFinder.FullBound | KlestovAD/Coursework/pathfinder.cpp:114-125 | after the triple loop an entry is at most every simple walk between its points |
| PathFinder.NegativeDiagonal | KlestovAD/Coursework/pathfinder.cpp:128 | a negative diagonal entry is the weight of a negative closed walk through its point |
| PathFinder.CycleMakesDiagonalNegative | KlestovAD/Coursework/pathfinder.cpp:128 | a negative simple cycle through a point makes its diagonal entry negative |
| PathFinder.FloydWarshall | KlestovAD/Coursework/pathfinder.cpp:77-144 | a missing endpoint gives an empty path and INT_MAX; the negative-cycle exception exactly when a negative cycle passes through start or end (a closed walk one way, a simple cycle the other); a non-empty path runs from start to end along edges and its length is a walk weight at most every simple walk from start to end; from a point to itself the path is empty |
| PathFinder.FollowHops | KlestovAD/Coursework/pathfinder.cpp:137-143 | the path is the first points of the hop chain from start, stopping at the first end and carrying the given distance; `Diverges` exactly when the chain never reaches end |
| PathFinder.HopNext | KlestovAD/Coursework/pathfinder.cpp:138 | the next point of the hop chain is the current point's next hop towards end |
| PathFinder.HopsStep | KlestovAD/Coursework/pathfinder.cpp:138-139 | one more hop keeps the loop's invariant |
| PathFinder.HopsLoop | KlestovAD/Coursework/pathfinder.cpp:138-140 | a hop chain longer than the number of points without end repeats a point, so it never reaches end |
| PathFinder.HopFromNonKey | KlestovAD/Coursework/pathfinder.cpp:138 | a name that is not a key has no next hop |
| PathFinder.HopsStuck | KlestovAD/Coursework/pathfinder.cpp:138-140 | a chain that steps off the keys never reaches end |
| PathFinder.StuckAfter | KlestovAD/Coursework/pathfinder.cpp:138 | once off the keys the chain stays off them |
| PathFinder.NextHopEdge | KlestovAD/Coursework/pathfinder.cpp:138 | a next hop that is a key is reached from its row's point by an edge |
| PathFinder.IsWalkSnoc | KlestovAD/Coursework/pathfinder.cpp:138-141 | extending a walk by an edge gives a walk |
| Sequences.IterateTrapped | KlestovAD/Coursework/pathfinder.cpp:68-70 | an iteration whose first values, more of them than a list of candidates, all lie in that list keeps returning to them |
| Sequences.IterateRepeats | KlestovAD/Coursework/pathfinder.cpp:68-70 | once an iteration repeats a value, every later value is one of those before the repeat |
| Sequences.IterateSettles | KlestovAD/Coursework/pathfinder.cpp:68-70 | an iteration that steps onto a fixed point stays there |
| Sequences.Pigeonhole | KlestovAD/Coursework/pathfinder.cpp:68-70 | a sequence drawn from a shorter one repeats an element |
| AirportFinder.Lower | PanteleimonovBB/airportfinder.cpp:123 | lower-casing keeps the length and lowers each character on its own |
| AirportFinder.LowerIdempotent | PanteleimonovBB/airportfinder.cpp:122-132 | lower-casing twice is lower-casing once |
| AirportFinder.MatchIgnoresCase | PanteleimonovBB/airportfinder.cpp:122-134 | whether a query matches an airport does not depend on the query's case |
| AirportFinder.PathDistanceSnoc | PanteleimonovBB/airportfinder.cpp:197-207 | extending a path by one airport adds the weight of the first flight of its last leg |
| AirportFinder.PathDistanceNonNegative | PanteleimonovBB/airportfinder.cpp:193-210 | with no negative flight, no path has a negative length |
| AirportFinder.FirstWeightNonNegative | PanteleimonovBB/airportfinder.cpp:201-206 | with no negative flight, a leg adds a non-negative weight |
| AirportFinder.SumUpdate | PanteleimonovBB/airportfinder.cpp:170-175 | lowering one distance changes the sum of distances by exactly the difference (the measure the search loop decreases) |
| AirportFinder.SumNonNegative | PanteleimonovBB/airportfinder.cpp:170-175 | non-negative distances have a non-negative sum |
| AirportFinder.Cheapest | PanteleimonovBB/airportfinder.cpp:42 | the weight a leg costs at best: no flight from the list to the airport is shorter, and when one goes there some flight has exactly that weight |
| AirportFinder.CheapestNonNegative | PanteleimonovBB/airportfinder.cpp:42 | with no negative flight, the shortest flight of a leg is not negative |
| AirportFinder.CostSnoc | PanteleimonovBB/airportfinder.cpp:42 | extending a route by one airport adds the shortest flight of its last leg to the route's cost |
| AirportFinder.RouteCons | PanteleimonovBB/airportfinder.cpp:184-188 | a flight into the first airport of a route extends the route at the front |
| AirportFinder.Reversed | PanteleimonovBB/airportfinder.cpp:188 | the reversal holds the elements of the collected path, last first |
| AirportFinder.PopMin | PanteleimonovBB/airportfinder.cpp:156-159 | the popped pair was in the queue and is the least by (distance, id); the rest is the queue without one copy of it, and every other entry stays |
| AirportFinder.RelaxedFromStep | PanteleimonovBB/airportfinder.cpp:170-175 | lowering one airport's distance through a flight of u within the transfer limit keeps what relaxing u may change: predecessor u, one more transfer, a distance no shorter than u's plus the leg's shortest flight |
| AirportFinder.RelaxedUpToStep | PanteleimonovBB/airportfinder.cpp:164-177 | relaxing one more flight of u, with no distance growing, leaves every flight seen so far relaxed |
| AirportFinder.PushedStep | PanteleimonovBB/airportfinder.cpp:172-175 | lowering an airport's distance and queueing it at that distance keeps the queue holding every lowered airport at its new distance, with no entry nearer than u |
| AirportFinder.FlightGraph.constructor | PanteleimonovBB/airportfinder.cpp:92-119 | the graph holds the adjacency list and airport list as loaded, and is valid exactly when every flight leads to a listed airport id with a non-negative distance |
| AirportFinder.FlightGraph.ResolveAirport | PanteleimonovBB/airportfinder.cpp:121-140 | fails with "No matching airport for: " and the input exactly when no airport's code, name or city equals the input ignoring case; otherwise the id of the first one that does, in map order |
| AirportFinder.FlightGraph.RelaxFrom | PanteleimonovBB/airportfinder.cpp:164-177 | the search state stays consistent; u keeps its distance, no distance grows, a lowered distance comes through a flight from u within the transfer limit with u as predecessor, an untouched airport keeps its predecessor and transfer count, every lowered airport is queued at its new distance, every flight of u is relaxed when the limit lets it through, and the sum of distances plus the queue length does not grow |
| AirportFinder.FlightGraph.RelaxFlight | PanteleimonovBB/airportfinder.cpp:165-176 | one flight of u is taken exactly when the limit allows one more transfer and the new distance is strictly shorter; the state stays consistent, no distance grows, and afterwards the flight's destination is no farther than u's distance plus the flight when the limit allowed it |
| AirportFinder.FlightGraph.FindShortestPath | PanteleimonovBB/airportfinder.cpp:142-191 | for a graph whose flights all have non-negative distances: start == end gives just start; otherwise a route from start to end along flights, or the error "No path exists with given constraints"; under a limit (anything but -1) the route has at most that many flights and a limit below 1 always fails; with no limit the route is a cheapest one and failure means every route costs INT_MAX or more; the result is one a stopped search can give (Outcome) |
| AirportFinder.FlightGraph.Search | PanteleimonovBB/airportfinder.cpp:151-178 | from start alone in the queue the loop stops with the state consistent, every done airport settled at a distance no greater than the last key taken, every reached airport not done queued at its distance, every predecessor done and nearer by at least the leg's shortest flight, every done airport but end relaxed, and either end taken last or the queue empty |
| AirportFinder.FlightGraph.SearchStep | PanteleimonovBB/airportfinder.cpp:155-178 | one pass of the loop: a stale pair is dropped, taking end stops the search in a finished state, and taking another airport relaxes its flights; short of stopping, the loop invariant holds again and the sum of distances plus the queue length drops |
| AirportFinder.FlightGraph.TracePredecessors | PanteleimonovBB/airportfinder.cpp:184-188 | the predecessors followed back from a reached end, reversed, run from start to end along flights; the route has as many flights as end has transfers and costs no more than end's distance |
| AirportFinder.FlightGraph.FindShortestPathWithin | PanteleimonovBB/airportfinder.cpp:142-191 | the corrected search: start == end gives just start; with -1 it is the search above; otherwise a route of at most maxTransfers flights that no route of at most maxTransfers flights undercuts, or the same error when every such route costs INT_MAX or more |
| AirportFinder.FlightGraph.RelaxLayer | PanteleimonovBB/airportfinder.cpp:164-177 | one round extends the best routes of at most i flights by one flight: afterwards every best is witnessed by a route of at most i + 1 flights and no route of at most i + 1 flights is cheaper |
| AirportFinder.FlightGraph.RelaxLayerFrom | PanteleimonovBB/airportfinder.cpp:164-177 | the flights of u relaxed from u's best of the previous round: no best grows, every new best is witnessed, and u's flights are relaxed |
| AirportFinder.FlightGraph.GetPathDistance | PanteleimonovBB/airportfinder.cpp:193-210 | fewer than two airports give 0; otherwise the sum over the legs of the first flight's weight, a leg without a flight adding nothing |
| AirportFinder.RelaxKeepsSearchInv | PanteleimonovBB/airportfinder.cpp:170-175 | lowering one airport's distance through a flight within the transfer limit keeps the search state consistent |
| AirportFinder.SkipKeepsFrontier | PanteleimonovBB/airportfinder.cpp:161 | dropping a stale pair keeps every reached airport that is not done queued at its distance |
| AirportFinder.TakeKeepsFrontier | PanteleimonovBB/airportfinder.cpp:156-161 | the least pair, when not stale, holds its airport's distance; the airport joins the done ones and its distance becomes the last key |
| AirportFinder.RelaxKeepsFrontier | PanteleimonovBB/airportfinder.cpp:164-177 | relaxing the flights of the airport just taken leaves every done airport as it was and keeps every reached airport queued at its distance, with no queued key below the last one taken |
| AirportFinder.RelaxKeepsChained | PanteleimonovBB/airportfinder.cpp:170-175 | relaxing the flights of a done airport keeps every predecessor done, one transfer fewer and nearer by at least the leg's shortest flight |
| AirportFinder.RelaxKeepsClosed | PanteleimonovBB/airportfinder.cpp:164-177 | once its flights are relaxed, the airport just taken joins the airports whose every flight within the limit is relaxed |
| AirportFinder.SkipKeepsSearching | PanteleimonovBB/airportfinder.cpp:161 | dropping a stale pair keeps the loop invariant |
| AirportFinder.TakeEndFinishes | PanteleimonovBB/airportfinder.cpp:162 | taking end when it is not stale stops the search in a finished state |
| AirportFinder.RelaxKeepsSearch | PanteleimonovBB/airportfinder.cpp:164-177 | taking an airport other than end and relaxing its flights keeps the loop invariant with the airport done, and the measure drops |
| AirportFinder.TracedCons | PanteleimonovBB/airportfinder.cpp:184-186 | putting the predecessor of a traced chain's first airport in front keeps a route to end whose cost, on top of its first airport's distance, is at most end's distance, with flights matching the transfers |
| AirportFinder.OutcomeOf | PanteleimonovBB/airportfinder.cpp:180-190 | a stopped search whose end distance agrees with the result witnesses that result |
| AirportFinder.RouteBound | PanteleimonovBB/airportfinder.cpp:155-178 | with no limit, a route from start either stays among done airports and costs at least its last airport's distance, or costs at least end's distance (end taken) or INT_MAX (queue empty) |
| AirportFinder.RoutePrefix | PanteleimonovBB/airportfinder.cpp:184-188 | a route of two or more airports is a shorter route from the same airport plus one last flight |
| AirportFinder.FinishedIsCheapest | PanteleimonovBB/airportfinder.cpp:142-191 | with no limit, a stopped search has end no farther than any route from start to end costs |
| AirportFinder.LayerZero | PanteleimonovBB/airportfinder.cpp:151-153 | before any round only start is reached, by the route of no flight |
| AirportFinder.RouteExtends | PanteleimonovBB/airportfinder.cpp:164-177 | the best route to u of at most i flights plus one flight of u is a route of at most i + 1 flights costing at most u's best plus the flight |
| AirportFinder.ExtendKeepsPartial | PanteleimonovBB/airportfinder.cpp:170-175 | taking a flight of u that improves on its destination's new best keeps the round's partial state |
| AirportFinder.PartialNext | PanteleimonovBB/airportfinder.cpp:164-177 | once all flights of u are relaxed, u joins the airports the round has finished |
| AirportFinder.LayerStep | PanteleimonovBB/airportfinder.cpp:164-177 | after every airport's flights are relaxed, no route of at most i + 1 flights undercuts the new bests |
| AirportFinder.DetourDefeatsLimit | PanteleimonovBB/airportfinder.cpp:164-177 | on flights 0→1 (1), 1→2 (1), 0→2 (5), 2→3 (1) with at most two flights, 0→2→3 is a route of two flights costing 6, yet every result a stopped search can give from 0 to 3 is a failure |
| AirportFinder.DetourRoute | PanteleimonovBB/airportfinder.cpp:164-177 | 0→2→3 is a route of two flights costing 6 in that example |
| AirportFinder.DetourLastLeg | PanteleimonovBB/airportfinder.cpp:170-175 | in that example a search state that reached 3 under the limit did so from 2, which it reached straight from 0 at distance 5 or more |
| AirportFinder.DetourShortcut | PanteleimonovBB/airportfinder.cpp:155-178 | in that example a search state that closed 0 and took 2 found 2 at distance 2 or less |
| AirportFinder.DetourFirstHop | PanteleimonovBB/airportfinder.cpp:164-177 | in that example closing 0 finds 1 at distance 1 or less |
| AirportFinder.DetourSecondHop | PanteleimonovBB/airportfinder.cpp:164-177 | in that example closing 1 under the limit finds 2 no farther than one past 1 |
| AirportFinder.DetourShortRoute | PanteleimonovBB/airportfinder.cpp:142-191 | in that example 0→2→3 is the only route from 0 to 3 of at most two flights |
| AirportFinder.DetourRun | PanteleimonovBB/airportfinder.cpp:142-191 | in that example the search as written fails, while the corrected search returns 0→2→3 |
| FlightPlanner.PrefixStep | Berko_VA/flightplanner/src/flightpathplanner.cpp:20-33 | how the quote count, the unquoted text and the list of positions of commas outside quotes each extend by one character |
| FlightPlanner.TerminatedSnoc | Berko_VA/flightplanner/src/flightpathplanner.cpp:28 | closing one more field appends it and its comma |
| FlightPlanner.CsvQuote | Berko_VA/flightplanner/src/flightpathplanner.cpp:22-23 | a quote toggles the quote state and adds nothing to any field |
| FlightPlanner.CsvComma | Berko_VA/flightplanner/src/flightpathplanner.cpp:24-29 | a comma outside quotes closes the open field |
| FlightPlanner.CsvChar | Berko_VA/flightplanner/src/flightpathplanner.cpp:30-31 | any other character, a comma inside quotes included, extends the open field |
| FlightPlanner.CommaPositionsIncrease | Berko_VA/flightplanner/src/flightpathplanner.cpp:20-33 | the commas outside quotes are commas of the line, listed in strictly increasing order |
| FlightPlanner.BetweenKept | Berko_VA/flightplanner/src/flightpathplanner.cpp:20-33 | a piece that ends before a new last character is not changed by it |
| FlightPlanner.BetweenClosed | Berko_VA/flightplanner/src/flightpathplanner.cpp:24-29 | a comma outside quotes ends the last piece unchanged and starts an empty one |
| FlightPlanner.BetweenGrows | Berko_VA/flightplanner/src/flightpathplanner.cpp:22-31 | any other character extends the last piece by itself, or by nothing when it is a quote |
| FlightPlanner.PiecesClose | Berko_VA/flightplanner/src/flightpathplanner.cpp:24-29 | closing the open field at a comma outside quotes keeps the fields equal to the prefix's pieces |
| FlightPlanner.PiecesExtend | Berko_VA/flightplanner/src/flightpathplanner.cpp:20-33 | a quote or any character that is not a comma outside quotes keeps the fields equal to the prefix's pieces |
| FlightPlanner.PiecesDone | Berko_VA/flightplanner/src/flightpathplanner.cpp:34-40 | at the end of the line, the closed fields plus a non-empty open field are the line's fields |
| FlightPlanner.ScanInv | Berko_VA/flightplanner/src/flightpathplanner.cpp:20-33 | after any prefix the splitter's state keeps the quote parity, the unquoted text and one field per outside comma |
| FlightPlanner.ScanParity | Berko_VA/flightplanner/src/flightpathplanner.cpp:22-23 | after any prefix the splitter is inside quotes exactly when the prefix holds an odd number of quotes |
| FlightPlanner.ScanPieces | Berko_VA/flightplanner/src/flightpathplanner.cpp:20-33 | after any prefix the splitter's closed fields and open field are that prefix's pieces |
| FlightPlanner.QuotedCommaKept | Berko_VA/flightplanner/src/flightpathplanner.cpp:20-33 | the line "a,b",c splits into a,b and c: a comma inside quotes does not split |
| FlightPlanner.ParseCsvLine | Berko_VA/flightplanner/src/flightpathplanner.cpp:15-41 | the fields are exactly the line's pieces between consecutive commas outside quotes, each without its quotes, less a final empty piece (CsvFields); no field holds a quote; and the fields written back with those commas give the line without its quotes |
| FlightPlanner.TotalSnoc | Berko_VA/flightplanner/src/flightpathplanner.cpp:141-143 | the total air time of one more leg adds its time |
| FlightPlanner.TotalReverse | Berko_VA/flightplanner/src/flightpathplanner.cpp:152-153 | reversing the leg times keeps their total |
| FlightPlanner.PopNearest | Berko_VA/flightplanner/src/flightpathplanner.cpp:119-120 | the popped entry was queued and has the least distance, and the rest is the queue without one copy of it |
| FlightPlanner.RelaxStart | Berko_VA/flightplanner/src/flightpathplanner.cpp:123 | before the first flight of u nothing has changed |
| FlightPlanner.RelaxImproves | Berko_VA/flightplanner/src/flightpathplanner.cpp:124-129 | a flight that improves on v gives v u's distance plus the air time, u as predecessor and a queue entry, keeping the relaxation invariant |
| FlightPlanner.RelaxKeeps | Berko_VA/flightplanner/src/flightpathplanner.cpp:125 | a flight that does not improve on v changes nothing |
| FlightPlanner.RelaxStep | Berko_VA/flightplanner/src/flightpathplanner.cpp:123-130 | one flight of the relaxation loop keeps its invariant one flight further |
| FlightPlanner.RelaxFrom | Berko_VA/flightplanner/src/flightpathplanner.cpp:121-130 | relaxing the flights of the airport taken keeps the search state with it settled; an already settled airport changes nothing; no distance grows and every changed one comes through a flight from it |
| FlightPlanner.RelaxFlights | Berko_VA/flightplanner/src/flightpathplanner.cpp:123-130 | the loop relaxes every flight of u |
| FlightPlanner.RelaxDone | Berko_VA/flightplanner/src/flightpathplanner.cpp:118-130 | after all of u's flights the search state holds with u settled |
| FlightPlanner.PopStale | Berko_VA/flightplanner/src/flightpathplanner.cpp:121 | skipping a stale entry keeps the search state |
| FlightPlanner.PopFresh | Berko_VA/flightplanner/src/flightpathplanner.cpp:119-121 | the nearest fresh entry is taken at its airport's distance |
| FlightPlanner.Dijkstra | Berko_VA/flightplanner/src/flightpathplanner.cpp:107-133 | with positive air times the search ends with origin at 0, every reached airport closed (no flight improves on it), and every reached airport but origin having a predecessor flight that makes up the difference |
| FlightPlanner.SettleShrinks | Berko_VA/flightplanner/src/flightpathplanner.cpp:118-131 | settling a new airport shrinks the unsettled ones, which bounds the loop |
| FlightPlanner.SearchDone | Berko_VA/flightplanner/src/flightpathplanner.cpp:118-132 | with the queue empty every reached airport is settled, closed and has its predecessor recorded |
| FlightPlanner.ClosedBoundsPaths | Berko_VA/flightplanner/src/flightpathplanner.cpp:107-133 | closed distances bound every flight path: its end is reached and no farther than its start plus its total air time |
| FlightPlanner.AppendKeepsValid | Berko_VA/flightplanner/src/flightpathplanner.cpp:88-91 | appending a flight of positive air time and recording both its airports keeps every flight positive with known airports |
| FlightPlanner.FlightPathPlanner.constructor | Berko_VA/flightplanner/src/flightpathplanner.cpp:10-13 | the planner starts with no flights and no airports |
| FlightPlanner.FlightPathPlanner.AddFlight | Berko_VA/flightplanner/src/flightpathplanner.cpp:84-91 | a non-positive air time changes nothing; otherwise the flight is appended to its origin's list and both airports recorded |
| FlightPlanner.FlightPathPlanner.Clear | Berko_VA/flightplanner/src/flightpathplanner.cpp:98-101 | no flights and no airports remain |
| FlightPlanner.FlightPathPlanner.ReconstructPath | Berko_VA/flightplanner/src/flightpathplanner.cpp:135-155 | the route is empty exactly when origin is not a known airport; otherwise it runs from origin to dest along flights and its total air time is the difference of their distances |
| FlightPlanner.FlightPathPlanner.FindFlightPathBetween | Berko_VA/flightplanner/src/flightpathplanner.cpp:157-166 | an unknown airport gives empty vectors; a route exists exactly when some flight path connects the two, and then it runs from origin to dest along flights and no flight path between them takes less air time |
| FlightRoutes.CategoryToString | Sokolov/Lab2.3.cpp:29-35 | each category has its name: "Domestic", "International" or "Unknown" |
| FlightRoutes.CategoryToStringInjective | Sokolov/Lab2.3.cpp:29-35 | different categories have different names |
| FlightRoutes.ToLower | Sokolov/Lab2.3.cpp:38-39 | lower-casing keeps the length and lowers each character on its own |
| FlightRoutes.ParseFlightCategoryCases | Sokolov/Lab2.3.cpp:37-45 | the parse ignores case; it is domestic exactly for "d" and "du" in any case, international exactly for "i" in any case, and unknown otherwise |
| FlightRoutes.FilterValid | Sokolov/Lab2.3.cpp:289-303 | the kept flights are exactly those with at least one departure and the domestic category, and never more than the input |
| FlightRoutes.FilterFlights | Sokolov/Lab2.3.cpp:289-297 | the loop keeps the flights FilterValid keeps, in their order |
| FlightRoutes.FilterIdempotent | Sokolov/Lab2.3.cpp:289-303 | filtering twice is filtering once |
| FlightRoutes.FilterAppend | Sokolov/Lab2.3.cpp:289-297 | filtering a concatenation concatenates the filtered parts, so the order is kept |
| FlightRoutes.AdjustedCapacity | Sokolov/Lab2.3.cpp:144-159 | more than three quarters used doubles the capacity, capped at 1000; less than a quarter halves it, floored at 10; otherwise it stays; a capacity within [10, 1000] stays within it, and the capacity never drops below the size |
| FlightRoutes.Without | Sokolov/Lab2.3.cpp:114 | the entries without the one for the key |
| FlightRoutes.WithoutEntries | Sokolov/Lab2.3.cpp:114 | exactly the entries of other keys remain |
| FlightRoutes.WithoutDistinct | Sokolov/Lab2.3.cpp:114 | keys stay distinct, and a present key loses exactly one entry |
| FlightRoutes.WithoutAbsent | Sokolov/Lab2.3.cpp:114 | without an absent key nothing changes |
| FlightRoutes.AsMapKeys | Sokolov/Lab2.3.cpp:110 | the map has exactly the list's keys |
| FlightRoutes.AsMapValue | Sokolov/Lab2.3.cpp:115 | with distinct keys, the map gives each entry's value |
| FlightRoutes.AsMapWithout | Sokolov/Lab2.3.cpp:136-137 | taking an entry out of the list takes its key out of the map |
| FlightRoutes.AsMapDropLast | Sokolov/Lab2.3.cpp:134-137 | dropping the back entry drops its key from the map |
| FlightRoutes.PushFront | Sokolov/Lab2.3.cpp:139-140 | a new key in front stays distinct and is added to the map |
| FlightRoutes.LruCache.constructor | Sokolov/Lab2.3.cpp:106 | an empty cache with the given capacity |
| FlightRoutes.LruCache.Get | Sokolov/Lab2.3.cpp:108-117 | a miss returns nothing and changes nothing; a hit returns the stored value and moves its entry to the front; the map and capacity are unchanged |
| FlightRoutes.LruCache.Put | Sokolov/Lab2.3.cpp:119-141 | the new entry is at the front; an existing key is updated and moved without changing the capacity; a new key adjusts the capacity, evicts the back entry when the list is full, and the list and map stay in sync |
| FlightRoutes.LruCache.MoveToFront | Sokolov/Lab2.3.cpp:122-126 | an existing key's entry gets the new value and moves to the front |
| FlightRoutes.FlightsFrom | Sokolov/Lab2.3.cpp:314-318 | an airport without an entry has no flights |
| FlightRoutes.ReachableSelf | Sokolov/Lab2.3.cpp:331-337 | every airport is reachable from itself |
| FlightRoutes.ClosedHoldsReachable | Sokolov/Lab2.3.cpp:333-345 | a set holding the start and closed under flights holds every airport reachable from it (why a search that runs out finds nothing) |
| FlightRoutes.RouteStaysInside | Sokolov/Lab2.3.cpp:333-345 | a route from inside such a set never leaves it |
| FlightRoutes.FlightGraph.constructor | Sokolov/Lab2.3.cpp:349 | a new graph has no flights |
| FlightRoutes.FlightGraph.AddFlight | Sokolov/Lab2.3.cpp:311-313 | the flight is appended to its origin's list and nothing else changes |
| FlightRoutes.FlightGraph.GetFlightsFrom | Sokolov/Lab2.3.cpp:314-318 | an airport's flights, or none when it has no entry |
| FlightRoutes.FlightGraph.IsReachable | Sokolov/Lab2.3.cpp:328-347 | true exactly when some sequence of flights leads from start to destination |
| FlightRoutes.VisitSuccessors | Sokolov/Lab2.3.cpp:338-344 | every destination of cur ends up visited; exactly the newly visited airports are queued, in flight order; and each has a route from start |
| FlightRoutes.SearchStep | Sokolov/Lab2.3.cpp:333-344 | taking a non-destination airport off the queue and visiting its successors keeps the search invariant (every seen airport done or queued, done airports have all successors seen, each seen airport has a route from start) and makes progress |
| FlightRoutes.SuccessorsInDestinations | Sokolov/Lab2.3.cpp:338-339 | a flight's destination is some flight's destination, which bounds the search |
| FlightRoutes.SuccessorsCovered | Sokolov/Lab2.3.cpp:338-344 | once every destination of cur's flights is in a set, all of cur's successors are |
| FlightRoutes.ExtendRoutes | Sokolov/Lab2.3.cpp:340-342 | a route to cur followed by a flight from cur is a route to that flight's destination |
| FlightRoutes.ReachableFrom | Sokolov/Lab2.3.cpp:328-347 | a route witnesses reachability |
| RpnCalc.CharToken | Zhavoronkov_IA/Coursework/rpn_calc.cpp:27-30 | '(' and ')' become parenthesis tokens and every other character an operator token, exactly |
| RpnCalc.Priority | Zhavoronkov_IA/Coursework/rpn_calc.cpp:32-40 | the priority is 4 exactly for unary operators, 3 exactly for binary ^, 2 exactly for binary * and /, 1 exactly for binary + and -, and 0 otherwise |
| RpnCalc.DigitsEnd | Zhavoronkov_IA/Coursework/rpn_calc.cpp:100 | the digit run that stod reads ends at the first non-digit, and every character before it is a digit |
| RpnCalc.Pow10 | Zhavoronkov_IA/Coursework/rpn_calc.cpp:100 | a power of ten is at least one |
| RpnCalc.Stod | Zhavoronkov_IA/Coursework/rpn_calc.cpp:100 | reading a number fails exactly when the text starts neither with a digit nor with a dot followed by a digit |
| RpnCalc.SkipSpaces | Zhavoronkov_IA/Coursework/rpn_calc.cpp:57 | the scan stops at the end or at the first non-space, and skips only spaces |
| RpnCalc.PrevNonSpace | Zhavoronkov_IA/Coursework/rpn_calc.cpp:69-72 | the backward scan stops at the last non-space before the sign, or at -1, and passes only spaces |
| RpnCalc.NumberEnd | Zhavoronkov_IA/Coursework/rpn_calc.cpp:97-99 | the number run ends at the end or at the first character that is neither a digit nor a dot |
| RpnCalc.NextToken | Zhavoronkov_IA/Coursework/rpn_calc.cpp:56-109 | a token that is read always moves the position forward, and never past the end |
| RpnCalc.NextTokenErrors | Zhavoronkov_IA/Coursework/rpn_calc.cpp:56-109 | only spaces left is an "Unexpected end" error; a character that is not a digit, a dot, an operator or a parenthesis is an error |
| RpnCalc.SignedNumber | Zhavoronkov_IA/Coursework/rpn_calc.cpp:88-93 | a sign applied to the next token succeeds exactly when that token is a number, negating it for '-' and keeping the position after it |
| RpnCalc.NumberToken | Zhavoronkov_IA/Coursework/rpn_calc.cpp:97-100 | the run of digits and dots is read by stod: the token fails exactly when stod fails, and otherwise ends after the run, past the start |
| RpnCalc.SignToken | Zhavoronkov_IA/Coursework/rpn_calc.cpp:85-94 | a unary sign reads the next token and applies the sign to it |
| RpnCalc.OperatorToken | Zhavoronkov_IA/Coursework/rpn_calc.cpp:103-106 | an operator or parenthesis character that is not a unary sign reads as its own token, one position on |
| RpnCalc.NextTokenSkipsSpaces | Zhavoronkov_IA/Coursework/rpn_calc.cpp:57 | reading from a position is reading from the first non-space at or after it |
| RpnCalc.SignedAgrees | Zhavoronkov_IA/Coursework/rpn_calc.cpp:88-93 | applying a sign after the recursive read fails when the read fails or gives a non-number, and otherwise negates the number for '-' |
| RpnCalc.NoUnaryTokens | Zhavoronkov_IA/Coursework/rpn_calc.cpp:85-94 | the tokenizer never yields a unary operator token: a unary sign is folded into the number after it |
| RpnCalc.UnaryAfterOperator | Zhavoronkov_IA/Coursework/rpn_calc.cpp:78-91 | in "2*-3" the minus is unary and becomes the number -3 |
| RpnCalc.BinaryAfterNumber | Zhavoronkov_IA/Coursework/rpn_calc.cpp:62-83 | in "2-3" the minus follows a number and stays a binary operator |
| RpnCalc.TrailingSpaceFails | Zhavoronkov_IA/Coursework/rpn_calc.cpp:57-111 | the end test does not skip spaces, so an expression ending in a space fails with an unexpected end |
| RpnCalc.Tokenizer.constructor | Zhavoronkov_IA/Coursework/rpn_calc.cpp:54 | the tokenizer holds the expression and starts at position 0 |
| RpnCalc.Tokenizer.Next | Zhavoronkov_IA/Coursework/rpn_calc.cpp:56-109 | the method yields the token NextToken describes and advances past it, or fails exactly when NextToken fails |
| RpnCalc.Tokenizer.NextSigned | Zhavoronkov_IA/Coursework/rpn_calc.cpp:85-94 | the unary branch, with its recursive call, yields the token and position NextToken gives, or its error |
| RpnCalc.Tokenizer.NextPlain | Zhavoronkov_IA/Coursework/rpn_calc.cpp:97-108 | the number, operator and invalid-character branches yield the token and position NextToken gives, or its error |
| RpnCalc.Tokenizer.SkipSpaceChars | Zhavoronkov_IA/Coursework/rpn_calc.cpp:57 | the position moves to the first non-space at or after it |
| RpnCalc.Tokenizer.SignIsUnary | Zhavoronkov_IA/Coursework/rpn_calc.cpp:62-83 | a sign is unary exactly when it starts the expression, has only spaces before it, or follows '(' or an operator |
| RpnCalc.Tokenizer.ReadNumber | Zhavoronkov_IA/Coursework/rpn_calc.cpp:97-100 | the position moves past the run of digits and dots, and the token is that run's value, or an error exactly when stod fails on it |
| RpnCalc.Associativity | Zhavoronkov_IA/Coursework/rpn_calc.cpp:177-180 | between binary operators of equal priority the one on the stack leaves first unless the new one is ^, so ^ is right-associative and the others are left-associative |
| RpnCalc.MoveTop | Zhavoronkov_IA/Coursework/rpn_calc.cpp:167-182 | moving the top operator from the stack to the output loses and duplicates no token |
| RpnCalc.PopOperatorsKeeps | Zhavoronkov_IA/Coursework/rpn_calc.cpp:177-184 | popping operators before an operator is pushed loses and duplicates no token |
| RpnCalc.PopToParenKeeps | Zhavoronkov_IA/Coursework/rpn_calc.cpp:166-174 | a ')' fails exactly when no '(' is on the stack, and otherwise closes one and loses no token |
| RpnCalc.StepNumber | Zhavoronkov_IA/Coursework/rpn_calc.cpp:158-159 | a number goes straight to the output, keeping the numbers in order |
| RpnCalc.StepLeftParen | Zhavoronkov_IA/Coursework/rpn_calc.cpp:162-163 | '(' is pushed onto the stack and opens one parenthesis |
| RpnCalc.StepOperator | Zhavoronkov_IA/Coursework/rpn_calc.cpp:176-185 | an operator is pushed after the pops, and every token is still held once |
| RpnCalc.StepKeeps | Zhavoronkov_IA/Coursework/rpn_calc.cpp:155-188 | one conversion step fails exactly on a ')' with no '(' open, and otherwise keeps every token |
| RpnCalc.PrefixesOpenSnoc | Zhavoronkov_IA/Coursework/rpn_calc.cpp:172 | a sequence never closes an unopened parenthesis exactly when its prefix never does and it ends at depth at least 0 |
| RpnCalc.FoldKeeps | Zhavoronkov_IA/Coursework/rpn_calc.cpp:155-188 | the main loop succeeds exactly when no prefix closes an unopened parenthesis, and then keeps every token |
| RpnCalc.FinishKeeps | Zhavoronkov_IA/Coursework/rpn_calc.cpp:190-195 | emptying the stack fails exactly when a '(' is still open; otherwise the output has no parentheses and keeps the numbers in order |
| RpnCalc.ShuntCorrect | Zhavoronkov_IA/Coursework/rpn_calc.cpp:150-198 | the conversion succeeds exactly on balanced parentheses; its output has no parentheses, keeps the numbers in order and holds every other token exactly once |
| RpnCalc.FoldFailurePersists | Zhavoronkov_IA/Coursework/rpn_calc.cpp:172 | once the conversion of a prefix fails, the conversion of any longer input fails |
| RpnCalc.PrependAssoc | Zhavoronkov_IA/Coursework/rpn_calc.cpp:155-156 | prepending two token runs one after the other equals prepending them joined |
| RpnCalc.PopOperatorsLoop | Zhavoronkov_IA/Coursework/rpn_calc.cpp:177-184 | the loop leaves the stack and output that the pop rule describes |
| RpnCalc.PopToParenLoop | Zhavoronkov_IA/Coursework/rpn_calc.cpp:167-173 | the loop pops up to the nearest '(' and drops it, or fails when there is none |
| RpnCalc.FinishLoop | Zhavoronkov_IA/Coursework/rpn_calc.cpp:190-195 | the loop moves the rest of the stack to the output, failing on a leftover '(' |
| RpnCalc.InfixToRPN | Zhavoronkov_IA/Coursework/rpn_calc.cpp:150-198 | the converter succeeds exactly when the expression tokenizes and its parentheses balance, and yields the conversion of its tokens |
| RpnCalc.ConvertFails | Zhavoronkov_IA/Coursework/rpn_calc.cpp:155-172 | a conversion that fails on the tokens read so far makes the whole conversion fail |
| RpnCalc.ApplyOp | Zhavoronkov_IA/Coursework/rpn_calc.cpp:206-225 | unary + and - succeed and give a or -a; binary + - * ^ succeed; / succeeds exactly for a non-zero divisor and its quotient times the divisor is the dividend; any other operator is an error |
| RpnCalc.EvalStep | Zhavoronkov_IA/Coursework/rpn_calc.cpp:253-270 | a number is pushed; a unary operator needs one operand and keeps the height; a binary one needs two and lowers it by one |
| RpnCalc.EvaluateRPN | Zhavoronkov_IA/Coursework/rpn_calc.cpp:246-277 | the loop over the queue computes the stack evaluation of the whole queue |
| RpnCalc.PostfixEval | Zhavoronkov_IA/Coursework/rpn_calc.cpp:249-273 | evaluating an expression tree's postfix form pushes the tree's value onto any stack, or fails as the tree does |
| RpnCalc.EvaluatesTrees | Zhavoronkov_IA/Coursework/rpn_calc.cpp:246-277 | the evaluator computes the value of any expression tree from its postfix form |
| RpnCalc.LeftoverFails | Zhavoronkov_IA/Coursework/rpn_calc.cpp:275-276 | at the end of the queue the evaluation succeeds exactly when one value is left |
| Matrices.FromFlat | ArtamonovEA/matrix.cpp:16-20 | row-major storage of rows * cols values describes a well-formed rows-by-cols matrix |
| Matrices.FlatEntry | ArtamonovEA/matrix.cpp:79-84 | entry (r, c) of the matrix is the stored value at index r * cols + c |
| Matrices.FromFlatInjective | ArtamonovEA/matrix.cpp:16-20 | two storages describe the same matrix exactly when they are equal |
| Matrices.Pointwise | ArtamonovEA/matrix.cpp:104-106 | the result has the shape of the first operand and each entry is op of the two matching entries |
| Matrices.Map | ArtamonovEA/matrix.cpp:156-158 | the result has the operand's shape and each entry is f of the matching entry |
| Matrices.FlatPointwise | ArtamonovEA/matrix.cpp:104-106 | filling storage index by index with op of two storages gives their element-wise matrix |
| Matrices.FlatMap | ArtamonovEA/matrix.cpp:156-158 | filling storage index by index with f of a storage gives its mapped matrix |
| Matrices.AddSubInverse | ArtamonovEA/matrix.cpp:97-125 | subtracting a matrix undoes adding it |
| Matrices.AddCommutes | ArtamonovEA/matrix.cpp:97-109 | matrix addition commutes |
| Matrices.ScalarInverses | ArtamonovEA/matrix.cpp:152-201 | subtracting a scalar undoes adding it, and dividing by a non-zero scalar undoes multiplying by it |
| Matrices.Transposed | ArtamonovEA/matrix.cpp:338-344 | the transpose is cols-by-rows and entry (r, c) of it is entry (c, r) of the matrix |
| Matrices.TransposeInvolution | ArtamonovEA/matrix.cpp:336-352 | transposing twice gives the matrix back |
| Matrices.DotStep | ArtamonovEA/matrix.cpp:142-144 | one more step of the inner loop adds the next product to the sum |
| Matrices.MatMul | ArtamonovEA/matrix.cpp:137-146 | the product is rows-by-other.cols and entry (r, c) is row r times column c, summed in index order |
| Matrices.DotTransposed | ArtamonovEA/matrix.cpp:142-144 | row r of a times column c of b equals row c of b's transpose times column r of a's transpose |
| Matrices.TransposeOfProduct | ArtamonovEA/matrix.cpp:128-149 | the transpose of a product is the product of the transposes in reverse order |
| Matrices.MulAssoc | ArtamonovEA/matrix.cpp:128-149 | matrix multiplication is associative |
| Matrices.Ones | ArtamonovEA/matrix.cpp:416-430 | identity builds the n-by-n matrix with every entry equal to one |
| Matrices.Skip | ArtamonovEA/matrix.cpp:439-450 | the index skipping the excluded one never equals it and keeps the order relative to it |
| Matrices.MinorOf | ArtamonovEA/matrix.cpp:433-453 | the minor is (n-1)-by-(n-1) and holds the entries of the matrix outside the excluded row and column, in order |
| Matrices.MinorOfTransposed | ArtamonovEA/matrix.cpp:433-453 | the minor of the transpose is the transpose of the minor with row and column swapped |
| Matrices.DetTwoByTwo | ArtamonovEA/matrix.cpp:466-475 | the 2-by-2 shortcut ad - bc agrees with expansion along the first row |
| Matrices.DetZeroFirstRow | ArtamonovEA/matrix.cpp:456-478 | a matrix whose first row is zero has determinant zero |
| Matrices.PowSucc | ArtamonovEA/matrix.cpp:519-524 | for a positive power, the next power is the previous one times the matrix |
| Matrices.PowAdd | ArtamonovEA/matrix.cpp:515-532 | positive powers add: m^(j+k) is m^j times m^k |
| Matrices.Zeros | ArtamonovEA/matrix.cpp:25 | the new matrix has the requested shape and zero in every cell |
| Matrices.FlatUpdate | ArtamonovEA/matrix.cpp:79-84 | writing index row * cols + col changes entry (row, col) and no other |
| Matrices.SkipSubIndex | ArtamonovEA/matrix.cpp:439-450 | the position in the minor and the position in the matrix are inverse to each other |
| Matrices.OutsideWriteFails | ArtamonovEA/matrix.cpp:445 | a copy that lands outside the minor makes minor fail |
| Matrices.MinorFailsWitness | ArtamonovEA/matrix.cpp:439-450 | whenever minor fails, a named copied cell lands outside the result |
| Matrices.MinorComplete | ArtamonovEA/matrix.cpp:439-453 | once every row is copied, the result is the minor |
| Matrices.Matrix.Empty | ArtamonovEA/matrix.cpp:24 | the default matrix is 0-by-0 |
| Matrices.Matrix.constructor | ArtamonovEA/matrix.cpp:25 | a rows-by-cols matrix of the given shape starts with every entry zero |
| Matrices.Matrix.Copy | ArtamonovEA/matrix.cpp:26 | a copy has the same shape and entries |
| Matrices.Matrix.Get | ArtamonovEA/matrix.cpp:87-94 | the read succeeds exactly for a row and a column inside the matrix, and gives that entry |
| Matrices.Matrix.Set | ArtamonovEA/matrix.cpp:79-84 | the write succeeds exactly inside the matrix; it then changes that entry only, and a failed write changes nothing |
| Matrices.Matrix.GetRows | ArtamonovEA/matrix.cpp:36 | the storage holds rows times cols values |
| Matrices.Matrix.GetColsAsWritten | ArtamonovEA/matrix.cpp:37 | get_cols as written answers the number of rows |
| Matrices.Matrix.GetCols | ArtamonovEA/matrix.cpp:37 | get_cols as intended: with get_rows it gives the size of the storage |
| Matrices.Matrix.Add | ArtamonovEA/matrix.cpp:97-109 | the sum fails exactly on different shapes and is otherwise the element-wise sum |
| Matrices.Matrix.Sub | ArtamonovEA/matrix.cpp:112-125 | the difference fails exactly on different shapes and is otherwise the element-wise difference |
| Matrices.Matrix.DivMatrix | ArtamonovEA/matrix.cpp:43 | division by a matrix always fails |
| Matrices.Matrix.MapScalar | ArtamonovEA/matrix.cpp:152-201 | a fresh matrix holds f of every entry |
| Matrices.Matrix.AddScalar | ArtamonovEA/matrix.cpp:152-161 | a fresh matrix holds every entry plus the scalar |
| Matrices.Matrix.SubScalar | ArtamonovEA/matrix.cpp:164-173 | a fresh matrix holds every entry minus the scalar |
| Matrices.Matrix.MulScalar | ArtamonovEA/matrix.cpp:176-185 | a fresh matrix holds every entry times the scalar |
| Matrices.Matrix.DivScalar | ArtamonovEA/matrix.cpp:188-201 | division fails exactly for a zero scalar and otherwise divides every entry |
| Matrices.Matrix.Equals | ArtamonovEA/matrix.cpp:314-327 | two matrices compare equal exactly when they have the same shape and the same entries |
| Matrices.Matrix.NotEquals | ArtamonovEA/matrix.cpp:330-333 | != is the negation of == |
| Matrices.Matrix.ZipAssign | ArtamonovEA/matrix.cpp:218-243 | the compound assignment fails exactly on different shapes, then changing nothing, and otherwise stores op of the two matrices |
| Matrices.Matrix.AddAssign | ArtamonovEA/matrix.cpp:218-229 | += fails exactly on different shapes, changing nothing, and otherwise stores the sum |
| Matrices.Matrix.SubAssign | ArtamonovEA/matrix.cpp:232-243 | -= fails exactly on different shapes, changing nothing, and otherwise stores the difference |
| Matrices.Matrix.MapAssign | ArtamonovEA/matrix.cpp:268-305 | the shape is kept and every entry is replaced by f of it |
| Matrices.Matrix.AddScalarAssign | ArtamonovEA/matrix.cpp:268-275 | += by a scalar adds it to every entry |
| Matrices.Matrix.SubScalarAssign | ArtamonovEA/matrix.cpp:278-285 | -= by a scalar subtracts it from every entry |
| Matrices.Matrix.MulScalarAssign | ArtamonovEA/matrix.cpp:288-295 | *= by a scalar multiplies every entry |
| Matrices.Matrix.DivScalarAssign | ArtamonovEA/matrix.cpp:298-305 | /= by a non-zero scalar divides every entry |
| Matrices.Matrix.RowDot | ArtamonovEA/matrix.cpp:141-144 | the inner loop computes row row times column col, summed in index order |
| Matrices.Matrix.ProductRow | ArtamonovEA/matrix.cpp:140-145 | after one pass of the column loop, one more row of the result holds the product |
| Matrices.Matrix.Product | ArtamonovEA/matrix.cpp:137-148 | the loops build a fresh matrix holding the product |
| Matrices.Matrix.Mul | ArtamonovEA/matrix.cpp:128-149 | the product fails exactly when the column count differs from the other's row count, and is otherwise the matrix product |
| Matrices.Matrix.MulAssign | ArtamonovEA/matrix.cpp:246-265 | *= fails exactly on mismatched shapes, changing nothing, and otherwise stores the product |
| Matrices.Matrix.TransposedCopy | ArtamonovEA/matrix.cpp:338-344 | the loops build a fresh matrix holding the transpose |
| Matrices.TransposeStorage | ArtamonovEA/matrix.cpp:340-344 | the two loops turn row-major storage of a matrix into row-major storage of its transpose |
| Matrices.TransposeRow | ArtamonovEA/matrix.cpp:341-343 | the inner loop copies one more row of the source into the matching column of the result, keeping the rows already copied |
| Matrices.TransposeStep | ArtamonovEA/matrix.cpp:342 | one copy stays inside both storages and extends the copied part by one entry |
| Matrices.TransposeComplete | ArtamonovEA/matrix.cpp:340-344 | once every row is copied, the result is the transpose |
| Matrices.Matrix.Transpose | ArtamonovEA/matrix.cpp:336-352 | in place the matrix becomes its transpose and nothing is returned; otherwise the transpose is returned and the matrix is unchanged |
| Matrices.Matrix.AsSquare | ArtamonovEA/matrix.cpp:408-413 | the square view is refused exactly when rows and columns differ, and otherwise holds the same entries |
| Matrices.Matrix.Identity | ArtamonovEA/matrix.cpp:416-430 | identity returns a matrix of ones of this size and, in place, also becomes it; otherwise the matrix is unchanged |
| Matrices.Matrix.MinorRow | ArtamonovEA/matrix.cpp:441-449 | a row is copied without the excluded column, or the copy fails only when minor fails |
| Matrices.MinorCopy | ArtamonovEA/matrix.cpp:445-446 | one copy into the minor stays inside both storages, keeps the rows already copied and extends the current row by one entry |
| Matrices.Matrix.Minor | ArtamonovEA/matrix.cpp:433-453 | minor fails exactly when a copy lands outside the result, and otherwise returns the matrix without the excluded row and column |
| Matrices.Matrix.Determinant | ArtamonovEA/matrix.cpp:456-478 | the determinant fails exactly for a 0-by-0 matrix and is otherwise the first-row expansion |
| Matrices.Matrix.ExpandFirstRow | ArtamonovEA/matrix.cpp:470-477 | the loop sums every term of the first-row expansion |
| Matrices.Matrix.ExpansionTerm | ArtamonovEA/matrix.cpp:473-474 | one term is the signed first-row entry times the determinant of its minor |
| Matrices.Matrix.MinorDeterminant | ArtamonovEA/matrix.cpp:473-474 | the recursive call returns the determinant of the minor without the first row and the given column |
| Matrices.Matrix.PowerCopy | ArtamonovEA/matrix.cpp:519-524 | for a positive power, repeated multiplication gives the power |
| Matrices.Matrix.Pow | ArtamonovEA/matrix.cpp:515-532 | pow returns the power (all ones for power 0) and, in place, also becomes it; otherwise the matrix is unchanged |
| Matrices.NewOnes | ArtamonovEA/matrix.cpp:418-422 | the loop fills a fresh n-by-n matrix with ones |
| Matrices.TransposeExample | ArtamonovEA/matrix.cpp:336-352 | [[1, 2, 3], [4, 5, 6]] transposes to [[1, 4], [2, 5], [3, 6]] |
| Matrices.MinorAndDetExample | ArtamonovEA/matrix.cpp:433-478 | for [[1, 2], [3, 4]] the minor at (0, 0) is [[4]] and the determinant is -2 |
| Matrices.ColsAsWrittenWrong | ArtamonovEA/matrix.cpp:37 | for a 2-by-3 matrix get_cols answers 2, and rows times that is not the size of the storage |

## Left out

Whole parts of the programs that are outside the model:

- Sockets, the UART port, log files, console input and output, CSV and text file reading, threads and mutexes are not modelled. What a program sends becomes a recorded sequence (the chat server's outbox, the robot's frames). Files that were read become constructor arguments.
- Randomness and clocks are parameters. These are the rank and edge draws of the topological-sort graph, the thermometer reading and the hour of the greenhouse controller, and the exponentiation `pow` of the calculator.
- C and C++ integer widths are not modelled. Integers are unbounded unless a member's row says otherwise. This covers the `int` sums of distances in `DegtevaDA/dijkstra.cpp`, `KlestovAD/Coursework/pathfinder.cpp` and `PanteleimonovBB/airportfinder.cpp`, the hash arithmetic of `DubininBV/coursework/RabinCarp.cpp`, and every `size_t`.
- Doubles are exact reals. Rounding, NaN and infinities are not modelled.
- `LapkinYD/b_tree/BTree.h`, `MakarovIM/b_plus_tree/src/b_plus_tree.hpp` and `Berko_VA/flightplanner/src/flightpathplanner.hpp` are not part of this model. The B-tree degree T and the B+ tree's M and minimum fills are constructor arguments.
- The robot's `processLine` and its script thread, and the video streamer beyond recording its resolution requests, are not modelled.
- The chat server's per-client thread (`ClientHandler`) and the socket bookkeeping are not modelled. Only the message handler's room logic is.
- `destroy_merkle_tree` and the allocation-failure paths of `KorhutMA/coursework/merkle_tree.c` are not modelled. SHA-256 is an arbitrary function passed as a parameter.
- `Sokolov/Lab2.3.cpp`'s `sort_flights`, file reader thread pool and the cache mutex are not modelled.
- `ArtamonovEA/matrix.cpp`'s `inverse`, `exp`, division by a square matrix (which uses `inverse`), `print` and `ZeroMatrix` are not modelled. They are floating-point numerics or output.
- The quote stripping of `Berko_VA/flightplanner/src/flightpathplanner.cpp:25-27` and `:35-37` is not modelled. The splitter never puts a quote into a field, so it never fires.

Members deliberately weaker than, or narrower than, the source:

- BTree.Tree.Insert: a key that belongs in a full node is not inserted. The split on `LapkinYD/b_tree/BTree.cpp:110-157` is not modelled, so the contract states the new keys only for a target node with room.
- InsertToNode (BTree.Tree.InsertToNode): the split of a full node on `LapkinYD/b_tree/BTree.cpp:110-157` (createRootParent, the median moving up, the new sibling) is not modelled; a full node is left as it is.
- RemoveFromLeaf (BTree.Tree.RemoveFromLeaf): the borrow from a sibling and the merge on `LapkinYD/b_tree/BTree.cpp:249-340` are not modelled; the result only reports whether the source would start them.
- BTree.Tree.Remove: as a consequence, the minimum fill of T-1 keys per node is not kept; completeness here is the shape of each node (a leaf has no children, an internal node has keysCount+1 of them).
- BTree.Tree.Remove, BTree.Tree.Search: the order of keys across nodes (every key of a child's subtree between the parent's neighbouring keys) is not stated or kept. The contracts therefore speak of the value the search walk finds, not of every stored copy: a value stored off the walk's path is neither found nor removed. Only the order of keys within a node is stated (Place, SortKeys).
- BTree.Tree.RemoveFromNode: where the source would read `keys[-1]` of an empty leaf, or write one slot past a full node's keys, the model returns false and changes nothing.
- BPlusTree.SplitLeaf, BPlusTree.SplitInternal, BPlusTree.AddChild, BPlusTree.TakeIn, BPlusTree.FixLeaf, BPlusTree.FixInternal, BPlusTree.MergePair: `MakarovIM/b_plus_tree/src/b_plus_tree.cpp` edits node vectors in place (insert, erase and resize) and copies keys and children with index loops (lines 85-88, 106-116, 127-130, 142-145, 176-179, 186-189, 225-228, 250 and 257); the model rebuilds each node as a value with sequence operations instead, and finds a child by the index of the path it descends rather than by scanning the parent's children. What it does not capture is the order of the individual writes and any aliasing between nodes: two parents can never share a child, and a node changes only by being replaced.
- BPlusTree.SplitLeaf: the `next` links between leaves (set on `MakarovIM/b_plus_tree/src/b_plus_tree.cpp:69-70` when a leaf splits and relinked on lines 251 and 258 when leaves merge) are not modelled. Nodes are values here, the links are used by no operation of the core, and the leaves in link order would be the leaves in tree order.
- BPlusTree.Tree.Insert: duplicate keys are accepted, as in the source, but the key order is proved only when the inserted key is new. With M = 3 and two keys per leaf at least, inserting 1, 5, 5, 6 and 7 and then removing 5 leaves a 5 that search no longer finds. The intended meaning of duplicates is not evident from the code.
- Binomial.BinomialHeap.Insert: requires fewer than 2^64 - 1 values. The order table of `RyabkovNA/kursovaya/2.cpp` has 64 slots, and the model does not cover what happens when it overflows.
- Fibonacci.FibonacciHeap: the `self` iterator of a node is its index in the root list, and `size` is an unbounded natural number.
- FlightRoutes.LruCache.constructor: requires a capacity of at least one. With capacity 0 the source's first `put` would pop from an empty list.
- ChatServer.SplitFrom: requires a non-empty separator, and every caller passes a space. A separator match that would run past the end of the text counts as no match, where the source reads past the end.
- ChatServer.Handle: an `!exit` from a user in no room, or a room index outside the list, is a failure. The source indexes the room list out of range there.
- Matrices.Matrix.Minor: requires a matrix of at least one row. For a 0-by-0 matrix the source's `rows - 1` wraps around as a `size_t`.
- Matrices.Matrix.DivScalarAssign: requires a non-zero scalar. `Matrix::operator/=` on `ArtamonovEA/matrix.cpp:298-305` does not check for zero and would produce infinities.
- Matrices.Matrix: `operator/=(const Matrix&)` on `ArtamonovEA/matrix.cpp:56` always throws `UndefinedOperationException` and changes nothing; it is not modelled.
- RpnCalc.Stod: covers only the digit-and-dot runs the tokenizer hands to `stod`. Exponents and other forms are not modelled.
- RabinKarp.Pow: requires a non-negative base, which is every base the search passes.
- DijkstraMatrix.Dijkstra: states the initialisation, the bounds and that every reached vertex's parent chain leads back to the start. It does not state that the distances are minimal: the weights are signed `int`s read from standard input (`DegtevaDA/dijkstra.cpp:193`), nothing rejects a negative one, and with negative weights Dijkstra's greedy choice need not give the least distance.
- AirportFinder.FlightGraph.FindShortestPath: the search, with its helpers Search, SearchStep, RelaxFrom and RelaxFlight and the corrected FindShortestPathWithin, is modelled only for graphs whose flights all have non-negative distances (FlightsOk, part of Valid). `load_graph` (`PanteleimonovBB/airportfinder.cpp:113-117`) reads distances with `stoi` and accepts negative ones. The termination measure of the search (the sum of the distances) and the settled-airport argument behind every cheapest-route statement rest on that sign. With negative distances the source can return a dearer route: with 0→1 (5), 0→2 (1), 1→2 (−10) and 2→3 (1) it answers 0, 2, 3 at cost 2, although 0, 1, 2, 3 costs −4. With a negative cycle and no limit its loop can keep relaxing forever. The model states nothing for such graphs.
- AirportFinder.FlightGraph.FindShortestPath: a route's cost (`Cost`) counts the shortest flight of each leg, while `get_path_distance` on lines 193-210 adds the first flight listed. The cheapest-route statements are about `Cost`, and they coincide with `get_path_distance` only when no two flights join the same pair of airports. Under a transfer limit the contract states the flight bound and the stopped-search outcome but not minimality, which the code does not achieve (see Findings).
- PathFinder.TraceBack, PathFinder.FollowHops: where the source's path loop never ends, the model returns `Diverges`; the contracts say this happens exactly when the chain never reaches its stop.
- PathFinder.WellFormed: the graph may not use the empty name as a key. The source accepts it, but uses "" as its "no predecessor" and "no next hop" marker, so such a key would end the path loops early.
- PathFinder.BellmanFord, PathFinder.FloydWarshall: the distance bounds cover only walks whose running sums stay below INT_MAX, which is how far the source's `int` comparisons are meaningful.
- TopoSort.Graph.constructor: the source draws ranks and edges with `rand()`. The model receives the drawn ranks and a decision per candidate edge as parameters.

## Findings

| source | as written | input that shows it | evidently intended | confidence | as-written member | corrected member |
|---|---|---|---|---|---|---|
| DubininBV/coursework/BoyerMooreHorspool.cpp:25 | after the table is filled, the entry of the pattern's last character is overwritten with the pattern length, even when that character also occurs earlier in the pattern | text "ccaba", pattern "aba": the first window ends in 'a', which now shifts by 3, so the match at 2 is skipped | Horspool's table: the last character keeps the shift of its last earlier occurrence, and only characters absent from the first m-1 positions shift by m | high, not executed | Horspool.AsWrittenMissesMatch | Horspool.SearchAllCorrected |
| DubininBV/coursework/RabinCarp.cpp:88-91 | the first pattern and window hashes use C's `%`, which is negative for a negative dividend, while every rolled hash is moved into [0, 101) | with a signed `char`, text [65, -1] and pattern [-1]: the pattern hash is -1, the second window's rolled hash is 100, and the match at 1 is not reported | normalise the first hashes into [0, 101) as the rolling update does | medium (needs a platform whose `char` is signed), not executed | RabinKarp.AsWrittenMissesNegativeChar | RabinKarp.SearchAllCorrected |
| ArtamonovEA/matrix.cpp:37 | `get_cols` returns the number of rows | a 2-by-3 matrix: `get_cols` answers 2, and rows times that is not the size of the storage | return the number of columns | high, not executed | Matrices.ColsAsWrittenWrong | Matrices.Matrix.GetCols |
| LapkinYD/b_tree/BTree.cpp:237-239 | the shift loop of `removeFromLeaf` runs while k < keysCount and reads keys[k + 1] | degree T = 2 and a full leaf holding 1, 2 and 3: removing 1 reads keys[3], one past the 2T-1 key slots that `createNode` initialises | stop the shift at keysCount - 1 | medium (the array sizes are declared in BTree.h, which is not part of this model), not executed | BTree.ShiftReadsPastFullNode | BTree.Node.ShiftOut |
| PanteleimonovBB/airportfinder.cpp:164-177 | a relaxation is taken only when the new distance is strictly shorter, so each airport keeps just the transfer count of its cheapest route found so far; a dearer route with fewer flights is dropped, and under a transfer limit the search can miss every route that keeps to it | flights 0→1 (1), 1→2 (1), 0→2 (5) and 2→3 (1), from 0 to 3 with max_transfers = 2: 2 is settled at 2 via 1 with two flights, 2→3 would be a third, and the search fails although 0→2→3 has two flights | the cheapest route among those of at most max_transfers flights (a search over (airport, flights used) states, or one round of relaxation per allowed flight) | high, not executed | AirportFinder.DetourDefeatsLimit | AirportFinder.FlightGraph.FindShortestPathWithin |

=== FILE: airport_finder.dfy ===
// The flight graph of PanteleimonovBB/airportfinder.cpp: airports resolved
// from user input, a Dijkstra search bounded by a number of transfers, and the
// length of a path. Loading the two CSV files and printing are I/O and are
// left out; the graph is given to the constructor as already loaded.
// Distances are unbounded integers (the C `int` sum is not wrapped).

module AirportFinder {

  import opened Wrappers

  const INT_MAX: int := 2147483647

  datatype AirportInfo = AirportInfo(code: string, name: string, city: string)

  /** One flight: destination id and distance, as in the adjacency list. */
  type Flight = (int, int)

  /** ::tolower in the C locale: only 'A'..'Z' change. */
  function LowerChar(c: char): char
  {
    if 'A' <= c <= 'Z' then (c as int + 32) as char else c
  }

  function Lower(s: string): (r: string)
    ensures |r| == |s| && forall i :: 0 <= i < |s| ==> r[i] == LowerChar(s[i])
  {
    if s == [] then [] else [LowerChar(s[0])] + Lower(s[1..])
  }

  lemma LowerIdempotent(s: string)
    ensures Lower(Lower(s)) == Lower(s)
  {
    assert forall i :: 0 <= i < |s| ==> Lower(Lower(s))[i] == Lower(s)[i];
  }

  /** The query equals the airport's code, name or city, ignoring case. */
  predicate Matches(info: AirportInfo, query: string)
  {
    Lower(info.code) == Lower(query) || Lower(info.name) == Lower(query) || Lower(info.city) == Lower(query)
  }

  /** Matching does not depend on the case of the query. */
  lemma MatchIgnoresCase(info: AirportInfo, query: string)
    ensures Matches(info, query) <==> Matches(info, Lower(query))
  {
    LowerIdempotent(query);
  }

  /**
   * Every flight leads to an airport id of the list and has a non-negative
   * distance.
   */
  ghost predicate FlightsOk(adjacency: seq<seq<Flight>>)
  {
    forall u, k :: 0 <= u < |adjacency| && 0 <= k < |adjacency[u]| ==>
      0 <= adjacency[u][k].0 < |adjacency| && 0 <= adjacency[u][k].1
  }

  /** Some flight of the list goes to `to`. */
  ghost predicate Serves(flights: seq<Flight>, to: int)
  {
    exists k :: 0 <= k < |flights| && flights[k].0 == to
  }

  /** A flight from u to v exists in the adjacency list. */
  ghost predicate HasFlight(adjacency: seq<seq<Flight>>, u: int, v: int)
  {
    0 <= u < |adjacency| && Serves(adjacency[u], v)
  }

  ghost predicate IsRoute(adjacency: seq<seq<Flight>>, path: seq<int>)
  {
    forall i :: 0 <= i < |path| - 1 ==> HasFlight(adjacency, path[i], path[i + 1])
  }

  /** A flight into the first airport of a route extends it at the front. */
  lemma RouteCons(adjacency: seq<seq<Flight>>, v: int, path: seq<int>)
    requires IsRoute(adjacency, path) && (path != [] ==> HasFlight(adjacency, v, path[0]))
    ensures IsRoute(adjacency, [v] + path)
  {
  }

  /** path is a route from a to b. */
  ghost predicate RouteBetween(adjacency: seq<seq<Flight>>, path: seq<int>, a: int, b: int)
  {
    |path| > 0 && path[0] == a && path[|path| - 1] == b && IsRoute(adjacency, path)
  }

  /** The shortest of the flights to `to` (0 when none goes there). */
  ghost function Cheapest(flights: seq<Flight>, to: int): (w: int)
    ensures forall k :: 0 <= k < |flights| && flights[k].0 == to ==> w <= flights[k].1
    ensures Serves(flights, to) ==> exists k :: 0 <= k < |flights| && flights[k].0 == to && flights[k].1 == w
  {
    if flights == [] then 0
    else if flights[0].0 == to && (!Serves(flights[1..], to) || flights[0].1 <= Cheapest(flights[1..], to)) then
      flights[0].1
    else
      assert Serves(flights, to) && flights[0].0 == to ==> Serves(flights[1..], to);
      assert forall k :: 1 <= k < |flights| ==> flights[k] == flights[1..][k - 1];
      Cheapest(flights[1..], to)
  }

  /** The shortest flight to an airport the list serves is not negative. */
  lemma CheapestNonNegative(adjacency: seq<seq<Flight>>, u: int, v: int)
    requires FlightsOk(adjacency) && HasFlight(adjacency, u, v)
    ensures Cheapest(adjacency[u], v) >= 0
  {
  }

  /**
   * The length of a route that takes the shortest flight on every leg (a
   * leg leaving an id outside the list adds nothing; routes have none).
   */
  ghost function Cost(adjacency: seq<seq<Flight>>, path: seq<int>): int
  {
    if |path| < 2 then 0
    else if 0 <= path[0] < |adjacency| then Cheapest(adjacency[path[0]], path[1]) + Cost(adjacency, path[1..])
    else Cost(adjacency, path[1..])
  }

  /** Extending a route by one airport adds its last leg's shortest flight. */
  lemma {:induction false} CostSnoc(adjacency: seq<seq<Flight>>, path: seq<int>, x: int)
    requires |path| > 0 && forall i :: 0 <= i < |path| ==> 0 <= path[i] < |adjacency|
    ensures Cost(adjacency, path + [x]) == Cost(adjacency, path) + Cheapest(adjacency[path[|path| - 1]], x)
  {
    if |path| > 1 {
      assert (path + [x])[1..] == path[1..] + [x];
      CostSnoc(adjacency, path[1..], x);
    }
  }

  /** The weight of the first flight from `flights` to `to`, or 0 if none. */
  function FirstWeight(flights: seq<Flight>, to: int): int
  {
    if flights == [] then 0
    else if flights[0].0 == to then flights[0].1
    else FirstWeight(flights[1..], to)
  }

  /** The length of a path as the source adds it up (lines 193-210). */
  function PathDistance(adjacency: seq<seq<Flight>>, path: seq<int>): int
    requires forall i :: 0 <= i < |path| - 1 ==> 0 <= path[i] < |adjacency|
  {
    if |path| < 2 then 0
    else FirstWeight(adjacency[path[0]], path[1]) + PathDistance(adjacency, path[1..])
  }

  /** Extending a path by one airport adds the weight of its last leg. */
  lemma {:induction false} PathDistanceSnoc(adjacency: seq<seq<Flight>>, path: seq<int>, x: int)
    requires |path| > 0 && forall i :: 0 <= i < |path| ==> 0 <= path[i] < |adjacency|
    ensures PathDistance(adjacency, path + [x]) ==
      PathDistance(adjacency, path) + FirstWeight(adjacency[path[|path| - 1]], x)
  {
    if |path| > 1 {
      assert (path + [x])[1..] == path[1..] + [x];
      PathDistanceSnoc(adjacency, path[1..], x);
    }
  }

  /** With no negative flight, no path has a negative length. */
  lemma {:induction false} PathDistanceNonNegative(adjacency: seq<seq<Flight>>, path: seq<int>)
    requires forall i :: 0 <= i < |path| - 1 ==> 0 <= path[i] < |adjacency|
    requires forall u, k :: 0 <= u < |adjacency| && 0 <= k < |adjacency[u]| ==> 0 <= adjacency[u][k].1
    ensures PathDistance(adjacency, path) >= 0
  {
    if |path| >= 2 {
      FirstWeightNonNegative(adjacency[path[0]], path[1]);
      PathDistanceNonNegative(adjacency, path[1..]);
    }
  }

  lemma {:induction false} FirstWeightNonNegative(flights: seq<Flight>, to: int)
    requires forall k :: 0 <= k < |flights| ==> 0 <= flights[k].1
    ensures FirstWeight(flights, to) >= 0
  {
    if flights != [] && flights[0].0 != to {
      FirstWeightNonNegative(flights[1..], to);
    }
  }

  function Sum(s: seq<int>): int
  {
    if s == [] then 0 else s[0] + Sum(s[1..])
  }

  lemma {:induction false} SumUpdate(s: seq<int>, i: nat, x: int)
    requires i < |s|
    ensures Sum(s[i := x]) == Sum(s) - s[i] + x
  {
    if i > 0 {
      assert s[i := x][1..] == s[1..][i - 1 := x];
      SumUpdate(s[1..], i - 1, x);
    }
  }

  lemma {:induction false} SumNonNegative(s: seq<int>)
    requires forall i :: 0 <= i < |s| ==> 0 <= s[i]
    ensures Sum(s) >= 0
  {
    if s != [] {
      SumNonNegative(s[1..]);
    }
  }

  /** Order of the priority queue's (distance, id) pairs; the least is on top. */
  predicate PairLessEq(a: (int, int), b: (int, int))
  {
    a.0 < b.0 || (a.0 == b.0 && a.1 <= b.1)
  }

  /** The reversal of line 188: the elements of s, last first. */
  method Reversed(s: seq<int>) returns (r: seq<int>)
    ensures |r| == |s| && forall j :: 0 <= j < |s| ==> r[j] == s[|s| - 1 - j]
  {
    r := [];
    var i := |s|;
    while i > 0
      invariant 0 <= i <= |s| && |r| == |s| - i
      invariant forall j :: 0 <= j < |r| ==> r[j] == s[|s| - 1 - j]
    {
      r := r + [s[i - 1]];
      i := i - 1;
    }
  }

  /** priority_queue top and pop with std::greater: the least pair leaves the queue. */
  method PopMin(queue: seq<(int, int)>) returns (top: (int, int), rest: seq<(int, int)>)
    requires |queue| > 0
    ensures top in queue && multiset(queue) == multiset(rest) + multiset{top}
    ensures |rest| == |queue| - 1 && forall e :: e in rest ==> e in queue
    ensures forall e :: e in queue && e != top ==> e in rest
    ensures forall e :: e in queue ==> PairLessEq(top, e)
  {
    var m := 0;
    var i := 1;
    while i < |queue|
      invariant 0 <= m < |queue| && 1 <= i <= |queue|
      invariant forall j :: 0 <= j < i ==> PairLessEq(queue[m], queue[j])
    {
      if !PairLessEq(queue[m], queue[i]) {
        m := i;
      }
      i := i + 1;
    }
    top := queue[m];
    rest := queue[..m] + queue[m + 1..];
    assert queue == queue[..m] + [queue[m]] + queue[m + 1..];
  }

  /** p comes before v on a predecessor chain: nearer, or as near with fewer transfers. */
  ghost predicate Before(dist: seq<int>, transfers: seq<int>, p: int, v: int)
    requires 0 <= p < |dist| && 0 <= v < |dist| && |transfers| == |dist|
  {
    dist[p] < dist[v] || (dist[p] == dist[v] && transfers[p] < transfers[v])
  }

  /**
   * The search state (dist, prev, transfers per airport) during the main
   * loop: distances lie in [0, INT_MAX]; start is at 0 with no predecessor
   * and 0 transfers; every other airport without a predecessor is
   * unreached; a reached airport other than start has at least one transfer,
   * and no more than maxTransfers unless that is -1; a predecessor is an
   * airport with a flight to its successor that comes Before it.
   */
  ghost predicate SearchInv(adjacency: seq<seq<Flight>>, start: int, maxTransfers: int,
                            dist: seq<int>, prev: seq<int>, transfers: seq<int>)
  {
    var n := |adjacency|;
    0 <= start < n && |dist| == n && |prev| == n && |transfers| == n &&
    (forall v :: 0 <= v < n ==> 0 <= dist[v] <= INT_MAX) &&
    dist[start] == 0 && prev[start] == -1 && transfers[start] == 0 &&
    (forall v :: 0 <= v < n && v != start && prev[v] == -1 ==> dist[v] == INT_MAX) &&
    (forall v :: 0 <= v < n && v != start && dist[v] < INT_MAX ==>
       1 <= transfers[v] && (maxTransfers == -1 || transfers[v] <= maxTransfers)) &&
    (forall v {:trigger prev[v]} :: 0 <= v < n && prev[v] != -1 ==>
       0 <= prev[v] < n && dist[v] < INT_MAX && HasFlight(adjacency, prev[v], v) &&
       Before(dist, transfers, prev[v], v))
  }

  /**
   * Dijkstra's frontier: `done` holds the airports taken from the queue, at
   * distances below INT_MAX and no farther than lastKey, the distance of the
   * last one taken; a queued entry names an airport, lies in [lastKey,
   * INT_MAX) and is no nearer than its airport; and every reached airport
   * not yet done is queued at its distance.
   */
  ghost predicate Frontier(n: nat, dist: seq<int>, queue: seq<(int, int)>, done: set<int>, lastKey: int)
  {
    |dist| == n &&
    (forall w :: w in done ==> 0 <= w < n && dist[w] <= lastKey && dist[w] < INT_MAX) &&
    (forall e :: e in queue ==> 0 <= e.1 < n && lastKey <= e.0 < INT_MAX && dist[e.1] <= e.0) &&
    (forall v :: 0 <= v < n && v !in done && dist[v] < INT_MAX ==> (dist[v], v) in queue)
  }

  /**
   * A predecessor is done, has one transfer fewer than its successor, and
   * is nearer than it by at least the shortest flight between them.
   */
  ghost predicate Chained(adjacency: seq<seq<Flight>>, dist: seq<int>, prev: seq<int>, transfers: seq<int>,
                          done: set<int>)
  {
    |dist| == |adjacency| && |prev| == |adjacency| && |transfers| == |adjacency| &&
    forall v {:trigger prev[v]} :: 0 <= v < |adjacency| && prev[v] != -1 ==>
      0 <= prev[v] < |adjacency| && prev[v] in done && transfers[v] == transfers[prev[v]] + 1 &&
      dist[prev[v]] + Cheapest(adjacency[prev[v]], v) <= dist[v]
  }

  /**
   * Every flight leaving an airport of `closed` that the transfer limit lets
   * through has been relaxed: its destination is no farther than the
   * airport's distance plus the flight.
   */
  ghost predicate Closed(adjacency: seq<seq<Flight>>, maxTransfers: int, dist: seq<int>, transfers: seq<int>,
                         closed: set<int>)
  {
    |dist| == |adjacency| && |transfers| == |adjacency| &&
    forall w, k ::
      (w in closed && 0 <= w < |adjacency| && 0 <= k < |adjacency[w]| && 0 <= adjacency[w][k].0 < |adjacency| &&
       (maxTransfers == -1 || transfers[w] + 1 <= maxTransfers)) ==>
        dist[adjacency[w][k].0] <= dist[w] + adjacency[w][k].1
  }

  /**
   * The search state when the main loop stops: either the queue ran dry and
   * end was never taken, or end was just taken at distance lastKey; every
   * done airport other than end has had its flights relaxed.
   */
  ghost predicate Finished(adjacency: seq<seq<Flight>>, start: int, end: int, maxTransfers: int,
                           dist: seq<int>, prev: seq<int>, transfers: seq<int>, queue: seq<(int, int)>,
                           done: set<int>, lastKey: int)
  {
    SearchInv(adjacency, start, maxTransfers, dist, prev, transfers) &&
    Frontier(|adjacency|, dist, queue, done, lastKey) &&
    Chained(adjacency, dist, prev, transfers, done) &&
    Closed(adjacency, maxTransfers, dist, transfers, done - {end}) &&
    0 <= end < |adjacency| &&
    (end in done ==> lastKey == dist[end]) && (end !in done ==> queue == [])
  }

  /** The invariant of the search loop, with end not yet taken. */
  ghost predicate Searching(adjacency: seq<seq<Flight>>, start: int, end: int, maxTransfers: int,
                            dist: seq<int>, prev: seq<int>, transfers: seq<int>, queue: seq<(int, int)>,
                            done: set<int>, lastKey: int)
  {
    SearchInv(adjacency, start, maxTransfers, dist, prev, transfers) &&
    QueueOk(queue, |adjacency|) && Sum(dist) >= 0 &&
    Frontier(|adjacency|, dist, queue, done, lastKey) &&
    Chained(adjacency, dist, prev, transfers, done) &&
    Closed(adjacency, maxTransfers, dist, transfers, done) &&
    0 <= end < |adjacency| && end !in done
  }

  /** r fails exactly when end is unreached in some state the search can stop in. */
  ghost predicate Outcome(adjacency: seq<seq<Flight>>, start: int, end: int, maxTransfers: int,
                          r: Result<seq<int>>)
  {
    exists dist, prev, transfers, queue, done, lastKey ::
      Finished(adjacency, start, end, maxTransfers, dist, prev, transfers, queue, done, lastKey) &&
      (r.Failure? <==> dist[end] == INT_MAX)
  }

  /**
   * chain is a route of known airports that ends at end and costs no more,
   * on top of the distance of its first airport, than end's distance; its
   * flights add up to the transfers end has beyond its first airport.
   */
  ghost predicate Traced(adjacency: seq<seq<Flight>>, dist: seq<int>, transfers: seq<int>, end: int, chain: seq<int>)
    requires |dist| == |adjacency| && |transfers| == |adjacency|
  {
    chain != [] && (forall j :: 0 <= j < |chain| ==> 0 <= chain[j] < |adjacency|) &&
    chain[|chain| - 1] == end && IsRoute(adjacency, chain) &&
    dist[chain[0]] + Cost(adjacency, chain) <= dist[end] && transfers[chain[0]] + |chain| - 1 == transfers[end]
  }

  /** Putting the predecessor of a traced chain's first airport (or end itself) in front keeps it traced. */
  lemma TracedCons(adjacency: seq<seq<Flight>>, start: int, maxTransfers: int, dist: seq<int>, prev: seq<int>,
                   transfers: seq<int>, done: set<int>, end: int, v: int, chain: seq<int>)
    requires SearchInv(adjacency, start, maxTransfers, dist, prev, transfers)
    requires Chained(adjacency, dist, prev, transfers, done)
    requires 0 <= v < |adjacency| && 0 <= end < |adjacency|
    requires chain == [] ==> v == end
    requires chain != [] ==> Traced(adjacency, dist, transfers, end, chain) && v == prev[chain[0]]
    ensures Traced(adjacency, dist, transfers, end, [v] + chain)
  {
    if chain != [] {
      assert ([v] + chain)[1..] == chain;
      RouteCons(adjacency, v, chain);
    }
  }

  /** A state the search stops in that agrees with r witnesses Outcome. */
  lemma OutcomeOf(adjacency: seq<seq<Flight>>, start: int, end: int, maxTransfers: int, r: Result<seq<int>>,
                  dist: seq<int>, prev: seq<int>, transfers: seq<int>, queue: seq<(int, int)>,
                  done: set<int>, lastKey: int)
    requires Finished(adjacency, start, end, maxTransfers, dist, prev, transfers, queue, done, lastKey)
    requires r.Failure? <==> dist[end] == INT_MAX
    ensures Outcome(adjacency, start, end, maxTransfers, r)
  {
  }

  /**
   * dist', prev' and transfers' differ from dist, prev and transfers only
   * where a flight from u lowered the distance: there the predecessor is u,
   * with one transfer more than u, within maxTransfers unless that is -1,
   * and the new distance is u's plus at least the shortest flight to it.
   */
  ghost predicate RelaxedFrom(adjacency: seq<seq<Flight>>, maxTransfers: int, u: int,
                              dist: seq<int>, prev: seq<int>, transfers: seq<int>,
                              dist': seq<int>, prev': seq<int>, transfers': seq<int>)
  {
    var n := |adjacency|;
    0 <= u < n && |dist| == n && |prev| == n && |transfers| == n &&
    |dist'| == n && |prev'| == n && |transfers'| == n &&
    dist'[u] == dist[u] && transfers'[u] == transfers[u] &&
    (forall v :: 0 <= v < n ==> dist'[v] <= dist[v]) &&
    (forall v :: 0 <= v < n && dist'[v] != dist[v] ==>
       prev'[v] == u && transfers'[v] == transfers[u] + 1 && HasFlight(adjacency, u, v) &&
       (maxTransfers == -1 || transfers'[v] <= maxTransfers) &&
       dist[u] <= dist'[v] && dist[u] + Cheapest(adjacency[u], v) <= dist'[v]) &&
    (forall v :: 0 <= v < n && dist'[v] == dist[v] ==> prev'[v] == prev[v] && transfers'[v] == transfers[v])
  }

  /** Lowering the distance of v != u through flight k of u keeps RelaxedFrom. */
  lemma RelaxedFromStep(adjacency: seq<seq<Flight>>, maxTransfers: int, u: int,
                        dist: seq<int>, prev: seq<int>, transfers: seq<int>,
                        d0: seq<int>, p0: seq<int>, t0: seq<int>, k: int, v: int, newDist: int)
    requires RelaxedFrom(adjacency, maxTransfers, u, dist, prev, transfers, d0, p0, t0)
    requires 0 <= k < |adjacency[u]| && adjacency[u][k].0 == v && 0 <= adjacency[u][k].1
    requires 0 <= v < |adjacency| && v != u && newDist == d0[u] + adjacency[u][k].1 && newDist < d0[v]
    requires maxTransfers == -1 || t0[u] + 1 <= maxTransfers
    ensures RelaxedFrom(adjacency, maxTransfers, u, dist, prev, transfers,
                        d0[v := newDist], p0[v := u], t0[v := t0[u] + 1])
  {
    assert HasFlight(adjacency, u, v);
  }

  /** Queue entries name airports. */
  ghost predicate QueueOk(queue: seq<(int, int)>, n: nat)
  {
    forall e :: e in queue ==> 0 <= e.1 < n
  }

  /**
   * What relaxing the flights of u did to the queue: nothing left it; a new
   * entry is no nearer than u, below INT_MAX and no nearer than its airport;
   * every lowered airport is queued at its new distance.
   */
  ghost predicate Pushed(n: nat, du: int, dist: seq<int>, queue: seq<(int, int)>,
                         dist': seq<int>, queue': seq<(int, int)>)
  {
    |dist| == n && |dist'| == n && QueueOk(queue', n) &&
    (forall e :: e in queue ==> e in queue') &&
    (forall e :: e in queue' && e !in queue ==> du <= e.0 < INT_MAX && dist'[e.1] <= e.0) &&
    (forall v :: 0 <= v < n && dist'[v] != dist[v] ==> (dist'[v], v) in queue')
  }

  /** The first k flights are relaxed from the distance du of the airport they leave. */
  ghost predicate RelaxedUpTo(flights: seq<Flight>, k: int, du: int, dist: seq<int>)
  {
    forall j :: 0 <= j < k && j < |flights| && 0 <= flights[j].0 < |dist| ==> dist[flights[j].0] <= du + flights[j].1
  }

  /** Relaxing flight k, with no distance growing, extends RelaxedUpTo by one. */
  lemma RelaxedUpToStep(flights: seq<Flight>, k: int, du: int, dist: seq<int>, dist': seq<int>)
    requires 0 <= k < |flights| && 0 <= flights[k].0 < |dist| && |dist'| == |dist|
    requires RelaxedUpTo(flights, k, du, dist) && forall x :: 0 <= x < |dist| ==> dist'[x] <= dist[x]
    requires dist'[flights[k].0] <= du + flights[k].1
    ensures RelaxedUpTo(flights, k + 1, du, dist')
  {
  }

  /** Lowering v to x, no nearer than du and below INT_MAX, and queueing (x, v) keeps Pushed. */
  lemma PushedStep(n: nat, du: int, dist: seq<int>, queue: seq<(int, int)>, d0: seq<int>, q0: seq<(int, int)>,
                   v: int, x: int)
    requires Pushed(n, du, dist, queue, d0, q0)
    requires 0 <= v < n && du <= x < d0[v] <= INT_MAX
    ensures Pushed(n, du, dist, queue, d0[v := x], q0 + [(x, v)])
  {
    var d1, q1 := d0[v := x], q0 + [(x, v)];
    forall e | e in q1 && e !in queue
      ensures du <= e.0 < INT_MAX && d1[e.1] <= e.0
    {
      if e != (x, v) {
        assert e in q0;
      }
    }
  }

  /** Every flight of u within the transfer limit has been relaxed from u's distance du. */
  ghost predicate RelaxedAll(adjacency: seq<seq<Flight>>, maxTransfers: int, u: int, du: int, tu: int,
                             dist': seq<int>)
    requires 0 <= u < |adjacency| && FlightsOk(adjacency) && |dist'| == |adjacency|
  {
    forall k :: 0 <= k < |adjacency[u]| && (maxTransfers == -1 || tu + 1 <= maxTransfers) ==>
      dist'[adjacency[u][k].0] <= du + adjacency[u][k].1
  }

  class FlightGraph {
    /** adjacency_list_: the flights leaving each airport id. */
    var adjacency: seq<seq<Flight>>
    /** id_to_airport_, in the map's iteration order. */
    var airports: seq<(int, AirportInfo)>

    ghost predicate Valid()
      reads this
    {
      FlightsOk(adjacency)
    }

    /** The graph as load_mappings and load_graph leave it. */
    constructor(adjacency: seq<seq<Flight>>, airports: seq<(int, AirportInfo)>)
      ensures this.adjacency == adjacency && this.airports == airports
      ensures Valid() <==> FlightsOk(adjacency)
    {
      this.adjacency := adjacency;
      this.airports := airports;
    }

    /**
     * The id of the first airport, in map order, whose code, name or city
     * equals the input ignoring case; an error when none does (lines 121-140).
     */
    method ResolveAirport(userInput: string) returns (r: Result<int>)
      ensures r.Failure? <==> forall i :: 0 <= i < |airports| ==> !Matches(airports[i].1, userInput)
      ensures r.Failure? ==> r.error == "No matching airport for: " + userInput
      ensures r.Success? ==>
        exists i :: 0 <= i < |airports| && airports[i].0 == r.value && Matches(airports[i].1, userInput) &&
          forall j :: 0 <= j < i ==> !Matches(airports[j].1, userInput)
    {
      var query := Lower(userInput);
      var i := 0;
      while i < |airports|
        invariant 0 <= i <= |airports|
        invariant forall j :: 0 <= j < i ==> !Matches(airports[j].1, userInput)
      {
        var info := airports[i].1;
        var code, name, city := Lower(info.code), Lower(info.name), Lower(info.city);
        if code == query || name == query || city == query {
          return Success(airports[i].0);
        }
        i := i + 1;
      }
      return Failure("No matching airport for: " + userInput);
    }

    /**
     * The relaxation loop over the flights leaving u (lines 164-177): a
     * flight to v lowers v's distance to u's plus the flight when that is
     * strictly shorter and the new transfer count is within maxTransfers (or
     * maxTransfers is -1); v then records u and one transfer more than u, and
     * is queued. The search state stays consistent, every lowered airport is
     * queued at its new distance, every flight within the limit ends up
     * relaxed, and every queued entry lowered the sum of distances by at
     * least one.
     */
    method RelaxFrom(u: int, start: int, maxTransfers: int, dist: seq<int>, prev: seq<int>,
                     transfers: seq<int>, queue: seq<(int, int)>)
      returns (dist': seq<int>, prev': seq<int>, transfers': seq<int>, queue': seq<(int, int)>)
      requires Valid() && SearchInv(adjacency, start, maxTransfers, dist, prev, transfers)
      requires 0 <= u < |adjacency| && QueueOk(queue, |adjacency|)
      ensures SearchInv(adjacency, start, maxTransfers, dist', prev', transfers')
      ensures QueueOk(queue', |adjacency|)
      ensures Sum(dist') + |queue'| <= Sum(dist) + |queue|
      ensures RelaxedFrom(adjacency, maxTransfers, u, dist, prev, transfers, dist', prev', transfers')
      ensures Pushed(|adjacency|, dist[u], dist, queue, dist', queue')
      ensures RelaxedAll(adjacency, maxTransfers, u, dist[u], transfers[u], dist')
    {
      dist', prev', transfers', queue' := dist, prev, transfers, queue;
      var flights := adjacency[u];
      var k := 0;
      while k < |flights|
        invariant 0 <= k <= |flights|
        invariant SearchInv(adjacency, start, maxTransfers, dist', prev', transfers')
        invariant Sum(dist') + |queue'| <= Sum(dist) + |queue|
        invariant RelaxedFrom(adjacency, maxTransfers, u, dist, prev, transfers, dist', prev', transfers')
        invariant Pushed(|adjacency|, dist[u], dist, queue, dist', queue')
        invariant (maxTransfers == -1 || transfers[u] + 1 <= maxTransfers) ==> RelaxedUpTo(flights, k, dist[u], dist')
      {
        ghost var before := dist';
        dist', prev', transfers', queue' :=
          RelaxFlight(u, k, start, maxTransfers, dist, prev, transfers, queue, dist', prev', transfers', queue');
        if maxTransfers == -1 || transfers[u] + 1 <= maxTransfers {
          RelaxedUpToStep(flights, k, dist[u], before, dist');
        }
        k := k + 1;
      }
    }

    /**
     * Flight k of u (lines 166-176) in the state d0, p0, t0, q0 reached from
     * dist, prev, transfers, queue: taken when the new transfer count is
     * within the limit and the new distance strictly shorter. The relaxation
     * bookkeeping is kept, no distance grows, the flight ends up relaxed
     * when the limit lets it through, and the sum of distances plus the
     * queue length does not grow.
     */
    method RelaxFlight(u: int, k: int, start: int, maxTransfers: int,
                       dist: seq<int>, prev: seq<int>, transfers: seq<int>, queue: seq<(int, int)>,
                       d0: seq<int>, p0: seq<int>, t0: seq<int>, q0: seq<(int, int)>)
      returns (d1: seq<int>, p1: seq<int>, t1: seq<int>, q1: seq<(int, int)>)
      requires Valid() && 0 <= u < |adjacency| && 0 <= k < |adjacency[u]|
      requires SearchInv(adjacency, start, maxTransfers, d0, p0, t0)
      requires RelaxedFrom(adjacency, maxTransfers, u, dist, prev, transfers, d0, p0, t0)
      requires Pushed(|adjacency|, dist[u], dist, queue, d0, q0)
      ensures SearchInv(adjacency, start, maxTransfers, d1, p1, t1)
      ensures RelaxedFrom(adjacency, maxTransfers, u, dist, prev, transfers, d1, p1, t1)
      ensures Pushed(|adjacency|, dist[u], dist, queue, d1, q1)
      ensures Sum(d1) + |q1| <= Sum(d0) + |q0|
      ensures forall x :: 0 <= x < |d0| ==> d1[x] <= d0[x]
      ensures maxTransfers == -1 || transfers[u] + 1 <= maxTransfers ==>
        d1[adjacency[u][k].0] <= dist[u] + adjacency[u][k].1
    {
      d1, p1, t1, q1 := d0, p0, t0, q0;
      var (v, weight) := adjacency[u][k];
      var newDist := d0[u] + weight;
      var newTransfers := t0[u] + 1;
      if (maxTransfers == -1 || newTransfers <= maxTransfers) && newDist < d0[v] {
        assert HasFlight(adjacency, u, v) && v != u by {
          assert adjacency[u][k].0 == v && weight >= 0;
        }
        SumUpdate(d0, v, newDist);
        PushedStep(|adjacency|, dist[u], dist, queue, d0, q0, v, newDist);
        d1 := d0[v := newDist];
        p1 := p0[v := u];
        t1 := t0[v := newTransfers];
        q1 := q0 + [(newDist, v)];
        RelaxKeepsSearchInv(adjacency, start, maxTransfers, u, v, d0, p0, t0, newDist, d1, p1, t1);
        RelaxedFromStep(adjacency, maxTransfers, u, dist, prev, transfers, d0, p0, t0, k, v, newDist);
      }
    }

    /**
     * Dijkstra from start to end with at most maxTransfers flights, -1
     * meaning no limit (lines 142-191): start == end gives [start]; otherwise
     * the least queued (distance, id) pair is taken, stale entries skipped,
     * the search stops when end is taken, and an unreached end is an error.
     * The path follows predecessors from end back to start. A path found
     * under a limit keeps to it; with no limit the path is a cheapest route,
     * and the search fails only when every route costs INT_MAX or more. The
     * result agrees with a state the search can stop in (Outcome).
     */
    method FindShortestPath(start: int, end: int, maxTransfers: int) returns (r: Result<seq<int>>)
      requires Valid()
      requires start != end ==> 0 <= start < |adjacency| && 0 <= end < |adjacency|
      ensures start == end ==> r == Success([start])
      ensures r.Failure? ==> r.error == "No path exists with given constraints"
      ensures r.Success? ==> RouteBetween(adjacency, r.value, start, end)
      ensures start != end && maxTransfers != -1 && r.Success? ==> |r.value| - 1 <= maxTransfers
      ensures start != end && maxTransfers != -1 && maxTransfers < 1 ==> r.Failure?
      ensures start != end && maxTransfers == -1 && r.Success? ==>
        forall p :: RouteBetween(adjacency, p, start, end) ==> Cost(adjacency, r.value) <= Cost(adjacency, p)
      ensures start != end && maxTransfers == -1 && r.Failure? ==>
        forall p :: RouteBetween(adjacency, p, start, end) ==> INT_MAX <= Cost(adjacency, p)
      ensures start != end ==> Outcome(adjacency, start, end, maxTransfers, r)
    {
      if start == end {
        return Success([start]);
      }
      var dist, prev, transfers, queue, done, lastKey := Search(start, end, maxTransfers);
      if maxTransfers == -1 {
        FinishedIsCheapest(adjacency, start, end, dist, prev, transfers, queue, done, lastKey);
      }
      if dist[end] == INT_MAX {
        r := Failure("No path exists with given constraints");
      } else {
        var path := TracePredecessors(start, end, maxTransfers, dist, prev, transfers, done);
        r := Success(path);
      }
      OutcomeOf(adjacency, start, end, maxTransfers, r, dist, prev, transfers, queue, done, lastKey);
    }

    /**
     * Lines 151-178: from start alone in the queue, take steps
     * until the queue runs dry or end is taken. It stops in a state where
     * Finished holds.
     */
    method Search(start: int, end: int, maxTransfers: int)
      returns (dist: seq<int>, prev: seq<int>, transfers: seq<int>,
               ghost queue: seq<(int, int)>, ghost done: set<int>, ghost lastKey: int)
      requires Valid() && start != end
      requires 0 <= start < |adjacency| && 0 <= end < |adjacency|
      ensures Finished(adjacency, start, end, maxTransfers, dist, prev, transfers, queue, done, lastKey)
    {
      var n := |adjacency|;
      dist := seq(n, _ => INT_MAX)[start := 0];
      prev := seq(n, _ => -1);
      transfers := seq(n, _ => -1)[start := 0];
      var q := [(0, start)];
      done, lastKey := {}, 0;
      SumNonNegative(dist);
      while q != []
        invariant Searching(adjacency, start, end, maxTransfers, dist, prev, transfers, q, done, lastKey)
        decreases Sum(dist) + |q|
      {
        var reached;
        dist, prev, transfers, q, done, lastKey, reached := SearchStep(start, end, maxTransfers, dist, prev, transfers, q, done, lastKey);
        if reached {
          queue := q;
          return;
        }
      }
      assert done - {end} == done;
      queue := q;
    }

    /**
     * One pass of the loop of lines 155-178: take the least queued pair
     * (lines 156-159); a stale one is dropped (line 161), end stops the
     * search (line 162), any other airport has its flights relaxed. Either end was
     * reached and the search can stop, or the loop's invariant holds again
     * on a smaller measure.
     */
    method SearchStep(start: int, end: int, maxTransfers: int, dist: seq<int>, prev: seq<int>,
                      transfers: seq<int>, queue: seq<(int, int)>, ghost done: set<int>, ghost lastKey: int)
      returns (dist': seq<int>, prev': seq<int>, transfers': seq<int>, queue': seq<(int, int)>,
               ghost done': set<int>, ghost lastKey': int, reached: bool)
      requires Valid() && queue != []
      requires Searching(adjacency, start, end, maxTransfers, dist, prev, transfers, queue, done, lastKey)
      ensures reached ==>
        Finished(adjacency, start, end, maxTransfers, dist', prev', transfers', queue', done', lastKey')
      ensures !reached ==>
        Searching(adjacency, start, end, maxTransfers, dist', prev', transfers', queue', done', lastKey') &&
        Sum(dist') + |queue'| < Sum(dist) + |queue|
    {
      var current, rest := PopMin(queue);
      var (currentDist, u) := current;
      if currentDist > dist[u] {
        SkipKeepsSearching(adjacency, start, end, maxTransfers, dist, prev, transfers, queue, current, rest, done, lastKey);
        return dist, prev, transfers, rest, done, lastKey, false;
      }
      if u == end {
        TakeEndFinishes(adjacency, start, end, maxTransfers, dist, prev, transfers, queue, current, rest, done, lastKey);
        return dist, prev, transfers, rest, done + {u}, currentDist, true;
      }
      TakeKeepsFrontier(|adjacency|, dist, queue, current, rest, done, lastKey);
      dist', prev', transfers', queue' := RelaxFrom(u, start, maxTransfers, dist, prev, transfers, rest);
      RelaxKeepsSearch(adjacency, start, end, maxTransfers, u, dist, prev, transfers, queue, rest, done, lastKey,
                       currentDist, dist', prev', transfers', queue');
      done', lastKey', reached := done + {u}, currentDist, false;
    }

    /**
     * Lines 184-188: predecessors from end, then reversed. The
     * route has as many flights as end has transfers and costs no more than
     * end's distance.
     */
    method TracePredecessors(start: int, end: int, maxTransfers: int, dist: seq<int>, prev: seq<int>,
                             transfers: seq<int>, ghost done: set<int>) returns (path: seq<int>)
      requires SearchInv(adjacency, start, maxTransfers, dist, prev, transfers)
      requires Chained(adjacency, dist, prev, transfers, done)
      requires 0 <= end < |adjacency| && dist[end] < INT_MAX
      ensures RouteBetween(adjacency, path, start, end)
      ensures forall i :: 0 <= i < |path| ==> 0 <= path[i] < |adjacency|
      ensures |path| - 1 == transfers[end] && Cost(adjacency, path) <= dist[end]
    {
      var back: seq<int> := [];
      ghost var chain: seq<int> := [];
      var v := end;
      while v != -1
        invariant v != -1 ==> 0 <= v < |adjacency| && dist[v] < INT_MAX
        invariant back == [] <==> v == end
        invariant |chain| == |back| && forall j :: 0 <= j < |back| ==> chain[j] == back[|back| - 1 - j]
        invariant chain != [] ==> Traced(adjacency, dist, transfers, end, chain)
        invariant chain != [] ==> if v == -1 then chain[0] == start else v == prev[chain[0]]
        decreases if v == -1 then 0 else dist[v] + 1, if v == -1 then 0 else transfers[v] + 1
      {
        TracedCons(adjacency, start, maxTransfers, dist, prev, transfers, done, end, v, chain);
        back := back + [v];
        chain := [v] + chain;
        if prev[v] != -1 {
          assert Before(dist, transfers, prev[v], v);
        }
        v := prev[v];
      }
      path := Reversed(back);
      assert path == chain;
    }

    /**
     * The search as evidently intended under a transfer limit: a cheapest
     * route among those of at most maxTransfers flights. With -1 (no limit)
     * the Dijkstra search above already finds one; otherwise maxTransfers
     * rounds of relaxation, round i extending the best routes of at most i
     * flights by one flight each.
     */
    method FindShortestPathWithin(start: int, end: int, maxTransfers: int) returns (r: Result<seq<int>>)
      requires Valid()
      requires start != end ==> 0 <= start < |adjacency| && 0 <= end < |adjacency|
      ensures start == end ==> r == Success([start])
      ensures r.Failure? ==> r.error == "No path exists with given constraints"
      ensures r.Success? ==> RouteBetween(adjacency, r.value, start, end)
      ensures start != end && maxTransfers != -1 && r.Success? ==> |r.value| - 1 <= maxTransfers
      ensures start != end && r.Success? ==>
        forall p :: RouteBetween(adjacency, p, start, end) && (maxTransfers == -1 || |p| - 1 <= maxTransfers) ==>
          Cost(adjacency, r.value) <= Cost(adjacency, p)
      ensures start != end && r.Failure? ==>
        forall p :: RouteBetween(adjacency, p, start, end) && (maxTransfers == -1 || |p| - 1 <= maxTransfers) ==>
          INT_MAX <= Cost(adjacency, p)
    {
      if start == end {
        return Success([start]);
      }
      if maxTransfers == -1 {
        r := FindShortestPath(start, end, -1);
        return;
      }
      if maxTransfers < 0 {
        return Failure("No path exists with given constraints");
      }
      var n := |adjacency|;
      var best := seq(n, _ => INT_MAX)[start := 0];
      var routes := seq(n, v => [v]);
      LayerZero(adjacency, start, best, routes);
      var i := 0;
      while i < maxTransfers
        invariant 0 <= i <= maxTransfers
        invariant Layer(adjacency, start, i, best, routes)
      {
        best, routes := RelaxLayer(start, i, best, routes);
        i := i + 1;
      }
      if best[end] == INT_MAX {
        return Failure("No path exists with given constraints");
      }
      return Success(routes[end]);
    }

    /** One round: every best route of at most i flights extended by one flight. */
    method RelaxLayer(start: int, i: nat, best: seq<int>, routes: seq<seq<int>>)
      returns (next: seq<int>, nextRoutes: seq<seq<int>>)
      requires Valid() && Layer(adjacency, start, i, best, routes)
      ensures Layer(adjacency, start, i + 1, next, nextRoutes)
    {
      next, nextRoutes := best, routes;
      var u := 0;
      while u < |adjacency|
        invariant 0 <= u <= |adjacency|
        invariant Partial(adjacency, start, i, best, next, nextRoutes, u)
      {
        next, nextRoutes := RelaxLayerFrom(u, start, i, best, routes, next, nextRoutes);
        u := u + 1;
      }
      LayerStep(adjacency, start, i, best, routes, next, nextRoutes);
    }

    /** The flights of u in one round, relaxed from u's best of the previous round. */
    method RelaxLayerFrom(u: int, start: int, i: nat, best: seq<int>, routes: seq<seq<int>>,
                          next: seq<int>, nextRoutes: seq<seq<int>>)
      returns (next': seq<int>, nextRoutes': seq<seq<int>>)
      requires Valid() && Layer(adjacency, start, i, best, routes)
      requires 0 <= u < |adjacency| && Partial(adjacency, start, i, best, next, nextRoutes, u)
      ensures Partial(adjacency, start, i, best, next', nextRoutes', u + 1)
    {
      next', nextRoutes' := next, nextRoutes;
      var flights := adjacency[u];
      var k := 0;
      while k < |flights|
        invariant 0 <= k <= |flights|
        invariant Partial(adjacency, start, i, best, next', nextRoutes', u)
        invariant RelaxedUpTo(flights, k, best[u], next')
      {
        ghost var before := next';
        var (v, weight) := flights[k];
        if best[u] + weight < next'[v] {
          ExtendKeepsPartial(adjacency, start, i, best, routes, next', nextRoutes', u, k, v, weight);
          next' := next'[v := best[u] + weight];
          nextRoutes' := nextRoutes'[v := routes[u] + [v]];
        }
        RelaxedUpToStep(flights, k, best[u], before, next');
        k := k + 1;
      }
      PartialNext(adjacency, start, i, best, next', nextRoutes', u);
    }

    /**
     * The length of a path (lines 193-210): 0 for fewer than two airports,
     * otherwise for each leg the weight of the first flight between its
     * airports, a leg without a flight adding nothing.
     */
    method GetPathDistance(path: seq<int>) returns (distance: int)
      requires forall i :: 0 <= i < |path| ==> 0 <= path[i] < |adjacency|
      ensures distance == PathDistance(adjacency, path)
      ensures |path| < 2 ==> distance == 0
    {
      if |path| < 2 {
        return 0;
      }
      distance := 0;
      var i := 0;
      while i < |path| - 1
        invariant 0 <= i <= |path| - 1
        invariant distance == PathDistance(adjacency, path[..i + 1])
      {
        var from, to := path[i], path[i + 1];
        var flights := adjacency[from];
        var k := 0;
        while k < |flights|
          invariant 0 <= k <= |flights|
          invariant FirstWeight(flights, to) == FirstWeight(flights[k..], to)
        {
          if flights[k].0 == to {
            distance := distance + flights[k].1;
            break;
          }
          assert flights[k..][1..] == flights[k + 1..];
          k := k + 1;
        }
        assert path[..i + 2] == path[..i + 1] + [to];
        PathDistanceSnoc(adjacency, path[..i + 1], to);
        i := i + 1;
      }
      assert path[..i + 1] == path;
    }
  }

  /** Lowering v's distance through u keeps the search state consistent. */
  lemma RelaxKeepsSearchInv(adjacency: seq<seq<Flight>>, start: int, maxTransfers: int, u: int, v: int,
                            d0: seq<int>, p0: seq<int>, t0: seq<int>, x: int,
                            d1: seq<int>, p1: seq<int>, t1: seq<int>)
    requires SearchInv(adjacency, start, maxTransfers, d0, p0, t0)
    requires 0 <= u < |adjacency| && 0 <= v < |adjacency| && HasFlight(adjacency, u, v)
    requires d0[u] <= x < d0[v]
    requires maxTransfers == -1 || t0[u] + 1 <= maxTransfers
    requires d1 == d0[v := x] && p1 == p0[v := u] && t1 == t0[v := t0[u] + 1]
    ensures SearchInv(adjacency, start, maxTransfers, d1, p1, t1)
  {
    var n := |adjacency|;
    assert v != start && v != u;
    forall w {:trigger p1[w]} | 0 <= w < n && p1[w] != -1
      ensures 0 <= p1[w] < n && d1[w] < INT_MAX && HasFlight(adjacency, p1[w], w) && Before(d1, t1, p1[w], w)
    {
      if w != v {
        assert p1[w] == p0[w] && Before(d0, t0, p0[w], w);
      }
    }
  }

  /** Dropping a stale entry (farther than its airport) keeps the frontier. */
  lemma SkipKeepsFrontier(n: nat, dist: seq<int>, queue: seq<(int, int)>, top: (int, int), rest: seq<(int, int)>,
                          done: set<int>, lastKey: int)
    requires Frontier(n, dist, queue, done, lastKey)
    requires top in queue && (forall e :: e in rest ==> e in queue) && (forall e :: e in queue && e != top ==> e in rest)
    requires 0 <= top.1 < n && top.0 > dist[top.1]
    ensures Frontier(n, dist, rest, done, lastKey)
  {
    forall v | 0 <= v < n && v !in done && dist[v] < INT_MAX
      ensures (dist[v], v) in rest
    {
      assert (dist[v], v) in queue && (dist[v], v) != top;
    }
  }

  /**
   * Taking the least entry, when it is not stale, finds its airport at
   * exactly the entry's distance; the airport joins done and the entry's
   * distance becomes lastKey.
   */
  lemma TakeKeepsFrontier(n: nat, dist: seq<int>, queue: seq<(int, int)>, top: (int, int), rest: seq<(int, int)>,
                          done: set<int>, lastKey: int)
    requires Frontier(n, dist, queue, done, lastKey)
    requires top in queue && (forall e :: e in rest ==> e in queue) && (forall e :: e in queue && e != top ==> e in rest)
    requires forall e :: e in queue ==> PairLessEq(top, e)
    requires 0 <= top.1 < n && top.0 <= dist[top.1]
    ensures top.0 == dist[top.1] && QueueOk(rest, n)
    ensures Frontier(n, dist, rest, done + {top.1}, top.0)
  {
    forall v | 0 <= v < n && v !in done + {top.1} && dist[v] < INT_MAX
      ensures (dist[v], v) in rest
    {
      assert (dist[v], v) in queue && (dist[v], v) != top;
    }
  }

  /**
   * Relaxing the flights of u, just taken at distance lastKey, leaves done
   * airports as they were and keeps the frontier.
   */
  lemma RelaxKeepsFrontier(adjacency: seq<seq<Flight>>, maxTransfers: int, u: int,
                           dist: seq<int>, prev: seq<int>, transfers: seq<int>, queue: seq<(int, int)>,
                           done: set<int>, lastKey: int,
                           dist': seq<int>, prev': seq<int>, transfers': seq<int>, queue': seq<(int, int)>)
    requires Frontier(|adjacency|, dist, queue, done, lastKey) && u in done && lastKey == dist[u]
    requires RelaxedFrom(adjacency, maxTransfers, u, dist, prev, transfers, dist', prev', transfers')
    requires Pushed(|adjacency|, dist[u], dist, queue, dist', queue')
    ensures forall w :: w in done ==>
      0 <= w < |adjacency| && dist'[w] == dist[w] && prev'[w] == prev[w] && transfers'[w] == transfers[w]
    ensures Frontier(|adjacency|, dist', queue', done, lastKey)
  {
  }

  /** Relaxing the flights of u, a done airport, keeps the predecessor chains. */
  lemma RelaxKeepsChained(adjacency: seq<seq<Flight>>, maxTransfers: int, u: int,
                          dist: seq<int>, prev: seq<int>, transfers: seq<int>, done: set<int>,
                          dist': seq<int>, prev': seq<int>, transfers': seq<int>)
    requires Chained(adjacency, dist, prev, transfers, done) && u in done
    requires RelaxedFrom(adjacency, maxTransfers, u, dist, prev, transfers, dist', prev', transfers')
    requires forall w :: w in done ==>
      0 <= w < |adjacency| && dist'[w] == dist[w] && prev'[w] == prev[w] && transfers'[w] == transfers[w]
    ensures Chained(adjacency, dist', prev', transfers', done)
  {
    forall v {:trigger prev'[v]} | 0 <= v < |adjacency| && prev'[v] != -1
      ensures 0 <= prev'[v] < |adjacency| && prev'[v] in done && transfers'[v] == transfers'[prev'[v]] + 1 &&
        dist'[prev'[v]] + Cheapest(adjacency[prev'[v]], v) <= dist'[v]
    {
      if dist'[v] == dist[v] {
        assert prev'[v] == prev[v];
      }
    }
  }

  /** Once its flights are relaxed, u joins the closed airports. */
  lemma RelaxKeepsClosed(adjacency: seq<seq<Flight>>, maxTransfers: int, u: int,
                         dist: seq<int>, transfers: seq<int>, closed: set<int>,
                         dist': seq<int>, transfers': seq<int>)
    requires FlightsOk(adjacency) && 0 <= u < |adjacency|
    requires Closed(adjacency, maxTransfers, dist, transfers, closed)
    requires |dist'| == |adjacency| && |transfers'| == |adjacency|
    requires forall v :: 0 <= v < |adjacency| ==> dist'[v] <= dist[v]
    requires forall w :: w in closed + {u} ==> 0 <= w < |adjacency| && dist'[w] == dist[w] && transfers'[w] == transfers[w]
    requires RelaxedAll(adjacency, maxTransfers, u, dist[u], transfers[u], dist')
    ensures Closed(adjacency, maxTransfers, dist', transfers', closed + {u})
  {
  }

  /** Dropping a stale entry keeps the loop's invariant. */
  lemma SkipKeepsSearching(adjacency: seq<seq<Flight>>, start: int, end: int, maxTransfers: int,
                           dist: seq<int>, prev: seq<int>, transfers: seq<int>, queue: seq<(int, int)>,
                           top: (int, int), rest: seq<(int, int)>, done: set<int>, lastKey: int)
    requires Searching(adjacency, start, end, maxTransfers, dist, prev, transfers, queue, done, lastKey)
    requires top in queue && (forall e :: e in rest ==> e in queue) && (forall e :: e in queue && e != top ==> e in rest)
    requires 0 <= top.1 < |dist| && top.0 > dist[top.1]
    ensures Searching(adjacency, start, end, maxTransfers, dist, prev, transfers, rest, done, lastKey)
  {
    SkipKeepsFrontier(|adjacency|, dist, queue, top, rest, done, lastKey);
  }

  /** Taking end when it is not stale stops the search in a state where Finished holds. */
  lemma TakeEndFinishes(adjacency: seq<seq<Flight>>, start: int, end: int, maxTransfers: int,
                        dist: seq<int>, prev: seq<int>, transfers: seq<int>, queue: seq<(int, int)>,
                        top: (int, int), rest: seq<(int, int)>, done: set<int>, lastKey: int)
    requires Searching(adjacency, start, end, maxTransfers, dist, prev, transfers, queue, done, lastKey)
    requires top in queue && (forall e :: e in rest ==> e in queue) && (forall e :: e in queue && e != top ==> e in rest)
    requires forall e :: e in queue ==> PairLessEq(top, e)
    requires top.1 == end && 0 <= end < |dist| && top.0 <= dist[end]
    ensures Finished(adjacency, start, end, maxTransfers, dist, prev, transfers, rest, done + {end}, top.0)
  {
    TakeKeepsFrontier(|adjacency|, dist, queue, top, rest, done, lastKey);
    assert (done + {end}) - {end} == done;
  }

  /**
   * Relaxing the flights of u, just taken at distance lastKey, keeps the
   * loop's invariant with u done, and the measure drops.
   */
  lemma RelaxKeepsSearch(adjacency: seq<seq<Flight>>, start: int, end: int, maxTransfers: int, u: int,
                         dist: seq<int>, prev: seq<int>, transfers: seq<int>, queue: seq<(int, int)>,
                         rest: seq<(int, int)>, taken: set<int>, oldKey: int, lastKey: int,
                         dist': seq<int>, prev': seq<int>, transfers': seq<int>, queue': seq<(int, int)>)
    requires FlightsOk(adjacency)
    requires Searching(adjacency, start, end, maxTransfers, dist, prev, transfers, queue, taken, oldKey)
    requires 0 <= u < |adjacency| && u != end && lastKey == dist[u] && |rest| == |queue| - 1
    requires Frontier(|adjacency|, dist, rest, taken + {u}, lastKey)
    requires SearchInv(adjacency, start, maxTransfers, dist', prev', transfers') && QueueOk(queue', |adjacency|)
    requires Sum(dist') + |queue'| <= Sum(dist) + |rest|
    requires RelaxedFrom(adjacency, maxTransfers, u, dist, prev, transfers, dist', prev', transfers')
    requires Pushed(|adjacency|, dist[u], dist, rest, dist', queue')
    requires RelaxedAll(adjacency, maxTransfers, u, dist[u], transfers[u], dist')
    ensures Searching(adjacency, start, end, maxTransfers, dist', prev', transfers', queue', taken + {u}, lastKey)
    ensures Sum(dist') + |queue'| < Sum(dist) + |queue|
  {
    var done := taken + {u};
    RelaxKeepsFrontier(adjacency, maxTransfers, u, dist, prev, transfers, rest, done, lastKey, dist', prev', transfers', queue');
    RelaxKeepsChained(adjacency, maxTransfers, u, dist, prev, transfers, done, dist', prev', transfers');
    RelaxKeepsClosed(adjacency, maxTransfers, u, dist, transfers, taken, dist', transfers');
    SumNonNegative(dist');
  }

  /**
   * When the search stops with no transfer limit, a route from start either
   * stays among the done airports and reaches its last one no shorter than
   * that airport's distance, or costs at least the stopping bound: end's
   * distance when end was taken, INT_MAX when the queue ran dry.
   */
  lemma {:induction false} RouteBound(adjacency: seq<seq<Flight>>, start: int, end: int,
                                      dist: seq<int>, prev: seq<int>, transfers: seq<int>,
                                      queue: seq<(int, int)>, done: set<int>, lastKey: int, p: seq<int>)
    requires FlightsOk(adjacency)
    requires Finished(adjacency, start, end, -1, dist, prev, transfers, queue, done, lastKey)
    requires |p| > 0 && p[0] == start && IsRoute(adjacency, p)
    ensures forall i :: 0 <= i < |p| ==> 0 <= p[i] < |adjacency|
    ensures ((forall i :: 0 <= i < |p| ==> p[i] in done) && dist[p[|p| - 1]] <= Cost(adjacency, p)) ||
            (if end in done then dist[end] else INT_MAX) <= Cost(adjacency, p)
    decreases |p|
  {
    if |p| == 1 {
      if start !in done {
        assert (dist[start], start) in queue;
      }
    } else {
      var q, y := RoutePrefix(adjacency, p);
      RouteBound(adjacency, start, end, dist, prev, transfers, queue, done, lastKey, q);
      var x := q[|q| - 1];
      CostSnoc(adjacency, q, y);
      CheapestNonNegative(adjacency, x, y);
      if (forall i :: 0 <= i < |q| ==> q[i] in done) && dist[x] <= Cost(adjacency, q) && x != end {
        var k :| 0 <= k < |adjacency[x]| && adjacency[x][k].0 == y && adjacency[x][k].1 == Cheapest(adjacency[x], y);
        assert dist[y] <= dist[x] + adjacency[x][k].1;
        if y !in done && dist[y] < INT_MAX {
          assert (dist[y], y) in queue;
        }
      }
    }
  }

  /** A route of two or more airports is a shorter route plus one last flight. */
  lemma RoutePrefix(adjacency: seq<seq<Flight>>, p: seq<int>) returns (q: seq<int>, y: int)
    requires FlightsOk(adjacency) && |p| >= 2 && IsRoute(adjacency, p) && 0 <= p[0] < |adjacency|
    ensures q == p[..|p| - 1] && y == p[|p| - 1] && p == q + [y]
    ensures |q| > 0 && q[0] == p[0] && IsRoute(adjacency, q) && HasFlight(adjacency, q[|q| - 1], y)
    ensures forall i :: 0 <= i < |p| ==> 0 <= p[i] < |adjacency|
  {
    q, y := p[..|p| - 1], p[|p| - 1];
    assert p == q + [y];
    assert HasFlight(adjacency, p[|p| - 2], p[|p| - 1]);
    forall i | 0 <= i < |p|
      ensures 0 <= p[i] < |adjacency|
    {
      if i > 0 {
        assert HasFlight(adjacency, p[i - 1], p[i]);
      }
    }
  }

  /**
   * With no transfer limit, a finished search has end no farther than any
   * route from start to end costs.
   */
  lemma FinishedIsCheapest(adjacency: seq<seq<Flight>>, start: int, end: int,
                           dist: seq<int>, prev: seq<int>, transfers: seq<int>,
                           queue: seq<(int, int)>, done: set<int>, lastKey: int)
    requires FlightsOk(adjacency)
    requires Finished(adjacency, start, end, -1, dist, prev, transfers, queue, done, lastKey)
    ensures forall p :: RouteBetween(adjacency, p, start, end) ==> dist[end] <= Cost(adjacency, p)
  {
    forall p | RouteBetween(adjacency, p, start, end)
      ensures dist[end] <= Cost(adjacency, p)
    {
      RouteBound(adjacency, start, end, dist, prev, transfers, queue, done, lastKey, p);
    }
  }

  /**
   * A best cost below INT_MAX after some rounds is the bound of a recorded
   * route from start of at most `flights` flights.
   */
  ghost predicate Witnessed(adjacency: seq<seq<Flight>>, start: int, flights: int, best: seq<int>,
                            routes: seq<seq<int>>)
  {
    |best| == |adjacency| && |routes| == |adjacency| &&
    forall v :: 0 <= v < |best| && best[v] < INT_MAX ==>
      RouteBetween(adjacency, routes[v], start, v) && |routes[v]| - 1 <= flights &&
      Cost(adjacency, routes[v]) <= best[v]
  }

  /**
   * best and routes after i rounds: no best above INT_MAX, every best below
   * it witnessed by a route of at most i flights, and no route from start
   * of at most i flights cheaper than the best of its last airport.
   */
  ghost predicate Layer(adjacency: seq<seq<Flight>>, start: int, i: nat, best: seq<int>, routes: seq<seq<int>>)
  {
    0 <= start < |adjacency| &&
    Witnessed(adjacency, start, i, best, routes) &&
    (forall v :: 0 <= v < |best| ==> best[v] <= INT_MAX) &&
    forall v, p :: 0 <= v < |best| && RouteBetween(adjacency, p, start, v) && |p| - 1 <= i ==>
      best[v] <= Cost(adjacency, p)
  }

  /**
   * Part of round i + 1: no best grew, the new bests are witnessed by
   * routes of at most i + 1 flights, and the flights of airports below u
   * have been relaxed from the previous round's bests.
   */
  ghost predicate Partial(adjacency: seq<seq<Flight>>, start: int, i: nat, best: seq<int>,
                          next: seq<int>, nextRoutes: seq<seq<int>>, u: int)
  {
    |best| == |adjacency| &&
    Witnessed(adjacency, start, i + 1, next, nextRoutes) &&
    (forall v :: 0 <= v < |next| ==> next[v] <= best[v]) &&
    forall w, k :: 0 <= w < u && w < |adjacency| && 0 <= k < |adjacency[w]| && 0 <= adjacency[w][k].0 < |next| ==>
      next[adjacency[w][k].0] <= best[w] + adjacency[w][k].1
  }

  /** Before any round only start is reached, by the route [start] of no flight. */
  lemma LayerZero(adjacency: seq<seq<Flight>>, start: int, best: seq<int>, routes: seq<seq<int>>)
    requires 0 <= start < |adjacency| && |best| == |adjacency| && |routes| == |adjacency|
    requires best[start] == 0 && routes[start] == [start]
    requires forall v :: 0 <= v < |best| && v != start ==> best[v] == INT_MAX
    ensures Layer(adjacency, start, 0, best, routes)
  {
  }

  /** The best route to u, of at most i flights, extended by flight k of u. */
  lemma RouteExtends(adjacency: seq<seq<Flight>>, start: int, i: nat, best: seq<int>, routes: seq<seq<int>>,
                     u: int, k: int)
    requires FlightsOk(adjacency) && Layer(adjacency, start, i, best, routes)
    requires 0 <= u < |adjacency| && 0 <= k < |adjacency[u]| && best[u] < INT_MAX
    ensures RouteBetween(adjacency, routes[u] + [adjacency[u][k].0], start, adjacency[u][k].0)
    ensures |routes[u] + [adjacency[u][k].0]| - 1 <= i + 1
    ensures Cost(adjacency, routes[u] + [adjacency[u][k].0]) <= best[u] + adjacency[u][k].1
  {
    var route, v := routes[u], adjacency[u][k].0;
    assert HasFlight(adjacency, u, v);
    forall j | 0 <= j < |route|
      ensures 0 <= route[j] < |adjacency|
    {
      if j < |route| - 1 {
        assert HasFlight(adjacency, route[j], route[j + 1]);
      }
    }
    CostSnoc(adjacency, route, v);
  }

  /** Taking flight k of u, when it improves on v's new best, keeps the round's partial state. */
  lemma ExtendKeepsPartial(adjacency: seq<seq<Flight>>, start: int, i: nat, best: seq<int>, routes: seq<seq<int>>,
                           next: seq<int>, nextRoutes: seq<seq<int>>, u: int, k: int, v: int, weight: int)
    requires FlightsOk(adjacency) && Layer(adjacency, start, i, best, routes)
    requires 0 <= u < |adjacency| && 0 <= k < |adjacency[u]| && adjacency[u][k] == (v, weight)
    requires Partial(adjacency, start, i, best, next, nextRoutes, u) && best[u] + weight < next[v]
    ensures Partial(adjacency, start, i, best, next[v := best[u] + weight], nextRoutes[v := routes[u] + [v]], u)
  {
    RouteExtends(adjacency, start, i, best, routes, u, k);
  }

  /** Once all flights of u are relaxed, u joins the airports the round has finished. */
  lemma PartialNext(adjacency: seq<seq<Flight>>, start: int, i: nat, best: seq<int>,
                    next: seq<int>, nextRoutes: seq<seq<int>>, u: int)
    requires FlightsOk(adjacency) && 0 <= u < |adjacency|
    requires Partial(adjacency, start, i, best, next, nextRoutes, u)
    requires RelaxedUpTo(adjacency[u], |adjacency[u]|, best[u], next)
    ensures Partial(adjacency, start, i, best, next, nextRoutes, u + 1)
  {
  }

  /** After every airport's flights are relaxed, round i + 1 is complete. */
  lemma LayerStep(adjacency: seq<seq<Flight>>, start: int, i: nat, best: seq<int>, routes: seq<seq<int>>,
                  next: seq<int>, nextRoutes: seq<seq<int>>)
    requires FlightsOk(adjacency) && Layer(adjacency, start, i, best, routes)
    requires Partial(adjacency, start, i, best, next, nextRoutes, |adjacency|)
    ensures Layer(adjacency, start, i + 1, next, nextRoutes)
  {
    forall v, p | 0 <= v < |next| && RouteBetween(adjacency, p, start, v) && |p| - 1 <= i + 1
      ensures next[v] <= Cost(adjacency, p)
    {
      if |p| - 1 > i {
        var q, y := RoutePrefix(adjacency, p);
        var u := q[|q| - 1];
        CostSnoc(adjacency, q, y);
        var k :| 0 <= k < |adjacency[u]| && adjacency[u][k].0 == y && adjacency[u][k].1 == Cheapest(adjacency[u], y);
        assert RouteBetween(adjacency, q, start, u);
      }
    }
  }

  /** The flights 0→1 (1), 0→2 (5), 1→2 (1) and 2→3 (1). */
  function DetourExample(): (adjacency: seq<seq<Flight>>)
    ensures |adjacency| == 4 && FlightsOk(adjacency)
  {
    [[(1, 1), (2, 5)], [(2, 1)], [(3, 1)], []]
  }

  /**
   * With at most two flights from 0 to 3, the route 0→2→3 qualifies, yet
   * the search cannot reach 3: it settles 2 through the cheaper 0→1→2,
   * which already uses both flights, and never relaxes 2→3.
   */
  lemma DetourDefeatsLimit(r: Result<seq<int>>)
    requires Outcome(DetourExample(), 0, 3, 2, r)
    ensures RouteBetween(DetourExample(), [0, 2, 3], 0, 3) && Cost(DetourExample(), [0, 2, 3]) == 6
    ensures r.Failure?
  {
    DetourRoute();
    var dist, prev, transfers, queue, done, lastKey :|
      Finished(DetourExample(), 0, 3, 2, dist, prev, transfers, queue, done, lastKey) &&
      (r.Failure? <==> dist[3] == INT_MAX);
    if dist[3] < INT_MAX {
      DetourLastLeg(dist, prev, transfers, done);
      DetourShortcut(dist, prev, transfers, queue, done, lastKey);
      assert false;
    }
  }

  /** The flights of DetourExample(), pair by pair. */
  lemma DetourFlights(u: int, v: int)
    requires HasFlight(DetourExample(), u, v)
    ensures (u == 0 && (v == 1 || v == 2)) || (u == 1 && v == 2) || (u == 2 && v == 3)
  {
    var g: seq<seq<Flight>> := DetourExample();
    var k :| 0 <= k < |g[u]| && g[u][k].0 == v;
  }

  /** In DetourExample() the route 0→2→3 has two flights and costs 6. */
  lemma DetourRoute()
    ensures RouteBetween(DetourExample(), [0, 2, 3], 0, 3) && Cost(DetourExample(), [0, 2, 3]) == 6
  {
    var g: seq<seq<Flight>> := DetourExample();
    assert g[0][1].0 == 2 && g[2][0].0 == 3;
    assert Cheapest(g[0], 2) == 5 && Cheapest(g[2], 3) == 1;
    assert [0, 2, 3][1..] == [2, 3] && [2, 3][1..] == [3];
  }

  /**
   * A search state on DetourExample() under a limit of two flights that has
   * reached 3 did so from 2, which it reached straight from 0 at distance 5
   * or more.
   */
  lemma DetourLastLeg(dist: seq<int>, prev: seq<int>, transfers: seq<int>, done: set<int>)
    requires SearchInv(DetourExample(), 0, 2, dist, prev, transfers)
    requires Chained(DetourExample(), dist, prev, transfers, done)
    requires dist[3] < INT_MAX
    ensures 0 in done && 2 in done && prev[2] == 0 && 5 <= dist[2]
  {
    var g: seq<seq<Flight>> := DetourExample();
    assert prev[3] != -1;
    DetourFlights(prev[3], 3);
    assert transfers[2] == 1;
    var u := prev[2];
    assert u != -1;
    CheapestNonNegative(g, u, 2);
    assert u == 0;
    assert Cheapest(g[0], 2) == 5 by {
      assert g[0][1] == (2, 5);
    }
  }

  /**
   * A search state on DetourExample() under a limit of two flights that has
   * closed 0 and taken 2 found 2 at distance 2 or less, through 1.
   */
  lemma DetourShortcut(dist: seq<int>, prev: seq<int>, transfers: seq<int>, queue: seq<(int, int)>,
                       done: set<int>, lastKey: int)
    requires SearchInv(DetourExample(), 0, 2, dist, prev, transfers)
    requires Chained(DetourExample(), dist, prev, transfers, done) && Frontier(4, dist, queue, done, lastKey)
    requires Closed(DetourExample(), 2, dist, transfers, done - {3})
    requires 0 in done && 2 in done
    ensures dist[2] <= 2
  {
    DetourFirstHop(dist, prev, transfers, done);
    if 1 in done {
      DetourSecondHop(dist, prev, transfers, done);
    } else {
      assert (dist[1], 1) in queue;
    }
  }

  /** Closing 0 in DetourExample() finds 1 at distance 1 or less. */
  lemma DetourFirstHop(dist: seq<int>, prev: seq<int>, transfers: seq<int>, done: set<int>)
    requires SearchInv(DetourExample(), 0, 2, dist, prev, transfers)
    requires Closed(DetourExample(), 2, dist, transfers, done - {3}) && 0 in done
    ensures dist[1] <= 1
  {
    var g: seq<seq<Flight>> := DetourExample();
    assert g[0][0] == (1, 1);
    assert 0 in done - {3};
  }

  /**
   * Closing 1 in DetourExample() under a limit of two flights finds 2 no
   * farther than one past 1.
   */
  lemma DetourSecondHop(dist: seq<int>, prev: seq<int>, transfers: seq<int>, done: set<int>)
    requires SearchInv(DetourExample(), 0, 2, dist, prev, transfers)
    requires Chained(DetourExample(), dist, prev, transfers, done)
    requires Closed(DetourExample(), 2, dist, transfers, done - {3}) && 1 in done && dist[1] < INT_MAX
    ensures dist[2] <= dist[1] + 1
  {
    var g: seq<seq<Flight>> := DetourExample();
    assert prev[1] != -1;
    DetourFlights(prev[1], 1);
    assert transfers[1] == 1;
    assert g[1][0] == (2, 1);
    assert 1 in done - {3};
  }

  /** The only route from 0 to 3 of at most two flights in DetourExample() is 0→2→3. */
  lemma DetourShortRoute(p: seq<int>)
    requires RouteBetween(DetourExample(), p, 0, 3) && |p| - 1 <= 2
    ensures p == [0, 2, 3]
  {
    var g: seq<seq<Flight>> := DetourExample();
    assert HasFlight(g, p[|p| - 2], 3);
    assert HasFlight(g, p[0], p[1]);
  }

  /**
   * On DetourExample() with a limit of two flights from 0 to 3 the search
   * fails, while the corrected search returns 0→2→3.
   */
  method DetourRun() returns (asWritten: Result<seq<int>>, corrected: Result<seq<int>>)
    ensures asWritten.Failure? && corrected == Success([0, 2, 3])
  {
    var graph := new FlightGraph(DetourExample(), []);
    asWritten := graph.FindShortestPath(0, 3, 2);
    DetourDefeatsLimit(asWritten);
    corrected := graph.FindShortestPathWithin(0, 3, 2);
    if corrected.Success? {
      DetourShortRoute(corrected.value);
    }
  }
}

=== FILE: b_plus_tree.dfy ===
/**
 * The B+ tree of MakarovIM/b_plus_tree/src/b_plus_tree.cpp: keys live in the
 * leaves, internal nodes hold separators; a full leaf or internal node is
 * split and its middle key promoted, an underfull one borrows from a sibling
 * or is merged with it.
 *
 * Nodes are values. The tree object keeps the root and the three sizing
 * constants (the order M and the two minimum fills, which live in
 * b_plus_tree.hpp; that header is not part of this model, so they are
 * constructor arguments). Splitting, borrowing and merging are functions
 * from the nodes along the search path to their replacements.
 */
module BPlusTree {
  import opened Wrappers
  import opened Sequences

  datatype Node = Leaf(keys: seq<int>) | Internal(keys: seq<int>, children: seq<Node>)

  /**
   * The first index whose key is greater than key: the child find_leaf
   * descends to (lines 26-29), and the insertion point std::upper_bound
   * picks in a sorted leaf (line 51).
   */
  function FirstGreater(ks: seq<int>, key: int): (i: nat)
    ensures i <= |ks|
    ensures forall j :: 0 <= j < i ==> ks[j] <= key
    ensures i < |ks| ==> key < ks[i]
  {
    if |ks| == 0 || key < ks[0] then 0 else 1 + FirstGreater(ks[1..], key)
  }

  /** The first index whose key is not below s: where split_internal puts the promoted key (line 128). */
  function FirstNotLess(ks: seq<int>, s: int): (i: nat)
    ensures i <= |ks|
    ensures forall j :: 0 <= j < i ==> ks[j] < s
    ensures i < |ks| ==> s <= ks[i]
  {
    if |ks| == 0 || s <= ks[0] then 0 else 1 + FirstNotLess(ks[1..], s)
  }

  /** ks without its first occurrence of key (the erase at line 211). */
  function RemoveFirst(ks: seq<int>, key: int): (r: seq<int>)
    ensures key in ks ==> |r| == |ks| - 1 && multiset(r) == multiset(ks) - multiset{key}
    ensures key !in ks ==> r == ks
  {
    if |ks| == 0 then ks
    else
      assert ks == [ks[0]] + ks[1..];
      if ks[0] == key then ks[1..] else [ks[0]] + RemoveFirst(ks[1..], key)
  }

  function Height(n: Node): nat
  {
    match n
    case Leaf(_) => 0
    case Internal(_, cs) => if |cs| == 0 then 1 else 1 + Height(cs[0])
  }

  /** One child more than separators at every internal node, and all leaves at the same depth. */
  ghost predicate WellFormed(n: Node)
  {
    match n
    case Leaf(_) => true
    case Internal(ks, cs) =>
      |cs| == |ks| + 1 &&
      forall j :: 0 <= j < |cs| ==> Height(cs[j]) == Height(cs[0]) && WellFormed(cs[j])
  }

  /** The keys stored in the leaves under n, with multiplicity. */
  ghost function Elems(n: Node): multiset<int>
  {
    match n
    case Leaf(ks) => multiset(ks)
    case Internal(_, cs) => ElemsOf(cs)
  }

  ghost function ElemsOf(cs: seq<Node>): multiset<int>
  {
    if cs == [] then multiset{} else ElemsOf(cs[..|cs| - 1]) + Elems(cs[|cs| - 1])
  }

  lemma {:induction false} ElemsOfAppend(a: seq<Node>, b: seq<Node>)
    ensures ElemsOf(a + b) == ElemsOf(a) + ElemsOf(b)
    decreases |b|
  {
    if b == [] {
      assert a + b == a;
    } else {
      assert (a + b)[..|a + b| - 1] == a + b[..|b| - 1];
      ElemsOfAppend(a, b[..|b| - 1]);
    }
  }

  lemma ElemsOfSingle(c: Node)
    ensures ElemsOf([c]) == Elems(c)
  {
    assert [c][..0] == [];
  }

  /** The multiset of a children sequence, taken apart around position i. */
  lemma ElemsOfAt(cs: seq<Node>, i: nat)
    requires i < |cs|
    ensures ElemsOf(cs) == ElemsOf(cs[..i]) + Elems(cs[i]) + ElemsOf(cs[i + 1..])
  {
    SplitAround(cs, i);
    ElemsOfAppend(cs[..i] + [cs[i]], cs[i + 1..]);
    ElemsOfAppend(cs[..i], [cs[i]]);
    ElemsOfSingle(cs[i]);
  }

  /** Replacing child i changes the multiset by exactly that child's part. */
  lemma ElemsOfUpdate(cs: seq<Node>, i: nat, c: Node)
    requires i < |cs|
    ensures ElemsOf(cs[i := c]) + Elems(cs[i]) == ElemsOf(cs) + Elems(c)
  {
    ElemsOfAt(cs, i);
    ElemsOfAt(cs[i := c], i);
    assert cs[i := c][..i] == cs[..i];
    assert cs[i := c][i + 1..] == cs[i + 1..];
  }

  /** Cancelling the same part on both sides of a multiset equation. */
  lemma Cancel(x: multiset<int>, a: multiset<int>, b: multiset<int>, k: multiset<int>)
    requires x + a == b + (a + k)
    ensures x == b + k
  {
    forall e
      ensures x[e] == (b + k)[e]
    {
      assert (x + a)[e] == (b + (a + k))[e];
    }
  }

  /** The same, with the shared part on the other side. */
  lemma CancelShared(x: multiset<int>, a: multiset<int>, g: multiset<int>, b: multiset<int>)
    requires x + (a + g) == b + a
    ensures x + g == b
  {
    forall e
      ensures (x + g)[e] == b[e]
    {
      assert (x + (a + g))[e] == (b + a)[e];
    }
  }

  /** The outcome of inserting into a node: it still fits, or it split around a promoted key. */
  datatype Grown = Fit(node: Node) | Split(left: Node, sep: int, right: Node)

  ghost function GrownElems(g: Grown): multiset<int>
  {
    match g
    case Fit(n) => Elems(n)
    case Split(l, _, r) => Elems(l) + Elems(r)
  }

  /**
   * Lines 60-72: the overfull leaf keeps its first (total + 1) / 2 keys, the
   * new leaf takes the rest, and the first key of the new leaf is promoted.
   */
  function SplitLeaf(ks: seq<int>): (g: Grown)
    requires |ks| >= 2
    ensures g.Split? && g.left.Leaf? && g.right.Leaf?
    ensures g.left.keys + g.right.keys == ks
    ensures |g.left.keys| == (|ks| + 1) / 2 && |g.right.keys| >= 1
    ensures g.sep == g.right.keys[0]
  {
    var mid := (|ks| + 1) / 2;
    assert ks[..mid] + ks[mid..] == ks;
    Split(Leaf(ks[..mid]), ks[mid], Leaf(ks[mid..]))
  }

  /**
   * Lines 97-116: the overfull internal node keeps the separators before
   * the middle one and the children up to it, the new node takes those after
   * it, and the middle separator is promoted.
   */
  function SplitInternal(ks: seq<int>, cs: seq<Node>): (g: Grown)
    requires |cs| == |ks| + 1 && |ks| >= 1
    ensures g.Split? && g.left.Internal? && g.right.Internal?
    ensures g.left.keys + [g.sep] + g.right.keys == ks
    ensures g.left.children + g.right.children == cs
    ensures |g.left.keys| == |ks| / 2
    ensures |g.left.children| == |g.left.keys| + 1 && |g.right.children| == |g.right.keys| + 1
  {
    var mid := |ks| / 2;
    assert ks[..mid] + [ks[mid]] + ks[mid + 1..] == ks;
    assert cs[..mid + 1] + cs[mid + 1..] == cs;
    Split(Internal(ks[..mid], cs[..mid + 1]), ks[mid], Internal(ks[mid + 1..], cs[mid + 1..]))
  }

  /**
   * Lines 84-88 and 127-130: the child at i, now only the left half, stays
   * in place; the promoted key goes in at idx and the new right half just
   * after the child at idx.
   */
  function AddChild(ks: seq<int>, cs: seq<Node>, i: nat, l: Node, s: int, r: Node, idx: nat): Node
    requires i < |cs| && idx <= |ks| < |cs|
  {
    var cs' := cs[i := l];
    Internal(ks[..idx] + [s] + ks[idx..], cs'[..idx + 1] + [r] + cs'[idx + 1..])
  }

  /** Lines 49-56 with lines 60-135: insertion below n, splitting what overflows on the way up. */
  function InsertInto(n: Node, key: int, m: nat): (g: Grown)
    requires WellFormed(n) && m >= 1
  {
    match n
    case Leaf(ks) =>
      var p := FirstGreater(ks, key);
      var ks' := ks[..p] + [key] + ks[p..];
      if |ks'| > m then SplitLeaf(ks') else Fit(Leaf(ks'))
    case Internal(ks, cs) =>
      var i := FirstGreater(ks, key);
      TakeIn(ks, cs, i, InsertInto(cs[i], key, m), m)
  }

  /**
   * The parent's side of a split (lines 83-92 and 125-133): child i grew
   * into g; a split child hands its promoted key and right half up, and an
   * internal node left with more than m children is split in turn.
   */
  function TakeIn(ks: seq<int>, cs: seq<Node>, i: nat, g: Grown, m: nat): Grown
    requires |cs| == |ks| + 1 && i < |cs|
  {
    match g
    case Fit(c) => Fit(Internal(ks, cs[i := c]))
    case Split(l, s, r) =>
      var idx := if cs[i].Leaf? then i else FirstNotLess(ks, s);
      var p := AddChild(ks, cs, i, l, s, r, idx);
      if |p.children| > m then SplitInternal(p.keys, p.children) else Fit(p)
  }

  /** Every node of cs is well formed and of height h. */
  ghost predicate Uniform(cs: seq<Node>, h: nat)
  {
    forall j :: 0 <= j < |cs| ==> Height(cs[j]) == h && WellFormed(cs[j])
  }

  lemma UniformNode(ks: seq<int>, cs: seq<Node>, h: nat)
    requires |cs| == |ks| + 1 && Uniform(cs, h)
    ensures WellFormed(Internal(ks, cs)) && Height(Internal(ks, cs)) == h + 1
  {
  }

  lemma NodeUniform(n: Node)
    requires WellFormed(n) && n.Internal?
    ensures Uniform(n.children, Height(n) - 1) && Height(n) >= 1
  {
  }

  /** Both halves of a split, or the node that still fits, are well formed and as high as before. */
  ghost predicate GrownShape(g: Grown, h: nat)
  {
    match g
    case Fit(n) => WellFormed(n) && Height(n) == h
    case Split(l, _, r) => WellFormed(l) && WellFormed(r) && Height(l) == h && Height(r) == h
  }

  /** The multiset of children after AddChild: the split child's part is now spread over l and r. */
  lemma AddChildElems(ks: seq<int>, cs: seq<Node>, i: nat, l: Node, s: int, r: Node, idx: nat)
    requires i < |cs| && idx <= |ks| < |cs|
    ensures ElemsOf(AddChild(ks, cs, i, l, s, r, idx).children) + Elems(cs[i]) == ElemsOf(cs) + Elems(l) + Elems(r)
  {
    var cs' := cs[i := l];
    assert cs' == cs'[..idx + 1] + cs'[idx + 1..];
    ElemsOfAppend(cs'[..idx + 1], cs'[idx + 1..]);
    ElemsOfAppend(cs'[..idx + 1] + [r], cs'[idx + 1..]);
    ElemsOfAppend(cs'[..idx + 1], [r]);
    ElemsOfSingle(r);
    ElemsOfUpdate(cs, i, l);
  }

  lemma AddChildShape(ks: seq<int>, cs: seq<Node>, i: nat, l: Node, s: int, r: Node, idx: nat, h: nat)
    requires i < |cs| && idx <= |ks| && |cs| == |ks| + 1
    requires Uniform(cs, h) && WellFormed(l) && WellFormed(r) && Height(l) == h && Height(r) == h
    ensures Uniform(AddChild(ks, cs, i, l, s, r, idx).children, h)
    ensures |AddChild(ks, cs, i, l, s, r, idx).children| == |AddChild(ks, cs, i, l, s, r, idx).keys| + 1
  {
  }

  lemma SplitInternalParts(ks: seq<int>, cs: seq<Node>, h: nat)
    requires |cs| == |ks| + 1 && |ks| >= 1 && Uniform(cs, h)
    ensures GrownShape(SplitInternal(ks, cs), h + 1)
    ensures GrownElems(SplitInternal(ks, cs)) == ElemsOf(cs)
  {
    var g := SplitInternal(ks, cs);
    assert Uniform(g.left.children, h);
    assert Uniform(g.right.children, h);
    UniformNode(g.left.keys, g.left.children, h);
    UniformNode(g.right.keys, g.right.children, h);
    ElemsOfAppend(g.left.children, g.right.children);
  }

  /** Insertion keeps the tree well formed and adds exactly one copy of key. */
  lemma {:induction false} InsertIntoParts(n: Node, key: int, m: nat)
    requires WellFormed(n) && m >= 1
    ensures GrownShape(InsertInto(n, key, m), Height(n))
    ensures GrownElems(InsertInto(n, key, m)) == Elems(n) + multiset{key}
  {
    match n
    case Leaf(ks) =>
      InsertLeafParts(ks, key, m);
    case Internal(ks, cs) =>
      var i := FirstGreater(ks, key);
      NodeUniform(n);
      InsertIntoParts(cs[i], key, m);
      TakeInParts(ks, cs, i, InsertInto(cs[i], key, m), key, m, Height(n) - 1);
  }

  lemma InsertLeafParts(ks: seq<int>, key: int, m: nat)
    requires m >= 1
    ensures GrownShape(InsertInto(Leaf(ks), key, m), 0)
    ensures GrownElems(InsertInto(Leaf(ks), key, m)) == multiset(ks) + multiset{key}
  {
    var p := FirstGreater(ks, key);
    assert ks == ks[..p] + ks[p..];
    var ks' := ks[..p] + [key] + ks[p..];
    assert multiset(ks') == multiset(ks) + multiset{key};
    if |ks'| > m {
      var g := SplitLeaf(ks');
      assert multiset(g.left.keys) + multiset(g.right.keys) == multiset(ks');
    }
  }

  /** One level of the way up: child i grew into g, and the node takes g in. */
  lemma TakeInParts(ks: seq<int>, cs: seq<Node>, i: nat, g: Grown, key: int, m: nat, h: nat)
    requires |cs| == |ks| + 1 && Uniform(cs, h) && m >= 1
    requires i < |cs|
    requires GrownShape(g, h) && GrownElems(g) == Elems(cs[i]) + multiset{key}
    ensures GrownShape(TakeIn(ks, cs, i, g, m), h + 1)
    ensures GrownElems(TakeIn(ks, cs, i, g, m)) == ElemsOf(cs) + multiset{key}
  {
    TakeInShape(ks, cs, i, g, m, h);
    TakeInElems(ks, cs, i, g, key, m);
  }

  lemma TakeInShape(ks: seq<int>, cs: seq<Node>, i: nat, g: Grown, m: nat, h: nat)
    requires |cs| == |ks| + 1 && Uniform(cs, h) && i < |cs| && GrownShape(g, h)
    ensures GrownShape(TakeIn(ks, cs, i, g, m), h + 1)
  {
    match g
    case Fit(c) =>
      assert Uniform(cs[i := c], h);
      UniformNode(ks, cs[i := c], h);
    case Split(l, s, r) =>
      var idx := if cs[i].Leaf? then i else FirstNotLess(ks, s);
      var p := AddChild(ks, cs, i, l, s, r, idx);
      AddChildShape(ks, cs, i, l, s, r, idx, h);
      if |p.children| > m {
        SplitInternalParts(p.keys, p.children, h);
      } else {
        UniformNode(p.keys, p.children, h);
      }
  }

  lemma TakeInElems(ks: seq<int>, cs: seq<Node>, i: nat, g: Grown, key: int, m: nat)
    requires |cs| == |ks| + 1 && i < |cs|
    requires GrownElems(g) == Elems(cs[i]) + multiset{key}
    ensures GrownElems(TakeIn(ks, cs, i, g, m)) == ElemsOf(cs) + multiset{key}
  {
    match g
    case Fit(c) =>
      ElemsOfUpdate(cs, i, c);
      Cancel(ElemsOf(cs[i := c]), Elems(cs[i]), ElemsOf(cs), multiset{key});
    case Split(l, s, r) =>
      var idx := if cs[i].Leaf? then i else FirstNotLess(ks, s);
      var p := AddChild(ks, cs, i, l, s, r, idx);
      AddChildElems(ks, cs, i, l, s, r, idx);
      Cancel(ElemsOf(p.children), Elems(cs[i]), ElemsOf(cs), multiset{key});
      if |p.children| > m {
        var sp := SplitInternal(p.keys, p.children);
        ElemsOfAppend(sp.left.children, sp.right.children);
      }
  }

  // Search order. A subtree hangs between two bounds: its leaf keys are at
  // least the lower one and below the upper one, its separators strictly
  // between them. None stands for no bound.

  ghost predicate AtLeast(lo: Option<int>, k: int)
  {
    lo.None? || lo.value <= k
  }

  ghost predicate Above(lo: Option<int>, k: int)
  {
    lo.None? || lo.value < k
  }

  ghost predicate Below(hi: Option<int>, k: int)
  {
    hi.None? || k < hi.value
  }

  function LowerOf(ks: seq<int>, lo: Option<int>, j: nat): Option<int>
    requires j <= |ks|
  {
    if j == 0 then lo else Some(ks[j - 1])
  }

  function UpperOf(ks: seq<int>, hi: Option<int>, j: nat): Option<int>
    requires j <= |ks|
  {
    if j == |ks| then hi else Some(ks[j])
  }

  ghost predicate Increasing(ks: seq<int>)
  {
    forall a, b :: 0 <= a < b < |ks| ==> ks[a] < ks[b]
  }

  /** Keys strictly increasing within every node, each child between the separators around it. */
  ghost predicate Ordered(n: Node, lo: Option<int>, hi: Option<int>)
  {
    match n
    case Leaf(ks) =>
      Increasing(ks) && forall j :: 0 <= j < |ks| ==> AtLeast(lo, ks[j]) && Below(hi, ks[j])
    case Internal(ks, cs) =>
      |cs| == |ks| + 1 && Increasing(ks) && SeparatorsWithin(ks, lo, hi) && ChildrenOrdered(ks, cs, lo, hi)
  }

  ghost predicate SeparatorsWithin(ks: seq<int>, lo: Option<int>, hi: Option<int>)
  {
    forall j :: 0 <= j < |ks| ==> Above(lo, ks[j]) && Below(hi, ks[j])
  }

  ghost predicate ChildrenOrdered(ks: seq<int>, cs: seq<Node>, lo: Option<int>, hi: Option<int>)
    requires |cs| == |ks| + 1
    decreases cs
  {
    forall j :: 0 <= j < |cs| ==> Ordered(cs[j], LowerOf(ks, lo, j), UpperOf(ks, hi, j))
  }

  /** A key of some child is a key of the children sequence, and conversely. */
  lemma {:induction false} ElemsOfMember(cs: seq<Node>, k: int)
    ensures k in ElemsOf(cs) <==> exists j :: 0 <= j < |cs| && k in Elems(cs[j])
    decreases |cs|
  {
    if cs != [] {
      var last := cs[|cs| - 1];
      ElemsOfMember(cs[..|cs| - 1], k);
      if k in Elems(last) {
        assert k in Elems(cs[|cs| - 1]);
      }
      if exists j :: 0 <= j < |cs| && k in Elems(cs[j]) {
        var j :| 0 <= j < |cs| && k in Elems(cs[j]);
        if j < |cs| - 1 {
          assert cs[..|cs| - 1][j] == cs[j];
        }
      }
    }
  }

  /** Every leaf key of an ordered subtree lies between its bounds. */
  lemma {:induction false} ElemsInRange(n: Node, lo: Option<int>, hi: Option<int>, k: int)
    requires Ordered(n, lo, hi) && k in Elems(n)
    ensures AtLeast(lo, k) && Below(hi, k)
  {
    match n
    case Leaf(ks) =>
      var j :| 0 <= j < |ks| && ks[j] == k;
    case Internal(ks, cs) =>
      ElemsOfMember(cs, k);
      var j :| 0 <= j < |cs| && k in Elems(cs[j]);
      ElemsInRange(cs[j], LowerOf(ks, lo, j), UpperOf(ks, hi, j), k);
  }

  /** Between the bounds of child j, find_leaf's scan stops at j. */
  lemma ChildOfKey(ks: seq<int>, lo: Option<int>, hi: Option<int>, j: nat, k: int)
    requires Increasing(ks) && j <= |ks|
    requires AtLeast(LowerOf(ks, lo, j), k) && Below(UpperOf(ks, hi, j), k)
    ensures FirstGreater(ks, k) == j
  {
  }

  /** The leaf find_leaf reaches from n (lines 22-32). */
  function LeafFor(n: Node, key: int): (leaf: Node)
    requires WellFormed(n)
    ensures leaf.Leaf?
  {
    match n
    case Leaf(_) => n
    case Internal(ks, cs) => LeafFor(cs[FirstGreater(ks, key)], key)
  }

  /** In an ordered tree, a key is stored exactly when the leaf find_leaf reaches holds it. */
  lemma {:induction false} LeafForFinds(n: Node, lo: Option<int>, hi: Option<int>, key: int)
    requires WellFormed(n) && Ordered(n, lo, hi)
    ensures key in Elems(n) <==> key in LeafFor(n, key).keys
  {
    match n
    case Leaf(_) =>
    case Internal(ks, cs) =>
      var i := FirstGreater(ks, key);
      LeafForFinds(cs[i], LowerOf(ks, lo, i), UpperOf(ks, hi, i), key);
      ElemsOfMember(cs, key);
      if key in Elems(n) {
        var j :| 0 <= j < |cs| && key in Elems(cs[j]);
        ElemsInRange(cs[j], LowerOf(ks, lo, j), UpperOf(ks, hi, j), key);
        ChildOfKey(ks, lo, hi, j, key);
      }
  }

  /** Ordered parts of an insertion: the node that still fits, or the halves around the promoted key. */
  ghost predicate GrownOrdered(g: Grown, lo: Option<int>, hi: Option<int>)
  {
    match g
    case Fit(n) => Ordered(n, lo, hi)
    case Split(l, s, r) => Ordered(l, lo, Some(s)) && Ordered(r, Some(s), hi) && Above(lo, s) && Below(hi, s)
  }

  /** A key put in at position p, between smaller and larger neighbours, keeps the keys increasing. */
  lemma InsertKeyAt(ks: seq<int>, p: nat, key: int)
    requires Increasing(ks) && p <= |ks|
    requires p > 0 ==> ks[p - 1] < key
    requires p < |ks| ==> key < ks[p]
    ensures Increasing(ks[..p] + [key] + ks[p..])
  {
    InsertAtIndex(ks, p, key);
  }

  /** upper_bound puts a new key between its neighbours, and the split point is a key of the right half. */
  lemma InsertLeafOrdered(ks: seq<int>, key: int, m: nat, lo: Option<int>, hi: Option<int>)
    requires m >= 1 && Ordered(Leaf(ks), lo, hi) && key !in ks && AtLeast(lo, key) && Below(hi, key)
    ensures GrownOrdered(InsertInto(Leaf(ks), key, m), lo, hi)
  {
    var p := FirstGreater(ks, key);
    if p > 0 {
      assert ks[p - 1] != key;
    }
    InsertKeyAt(ks, p, key);
    InsertAtIndex(ks, p, key);
    var ks' := ks[..p] + [key] + ks[p..];
    assert Ordered(Leaf(ks'), lo, hi);
    if |ks'| > m {
      SplitLeafOrdered(ks', lo, hi);
    }
  }

  lemma SplitLeafOrdered(ks: seq<int>, lo: Option<int>, hi: Option<int>)
    requires |ks| >= 2 && Ordered(Leaf(ks), lo, hi)
    ensures GrownOrdered(SplitLeaf(ks), lo, hi)
  {
    SplitLeafAtOrdered(ks, (|ks| + 1) / 2, lo, hi);
  }

  /** split_internal's scan finds the slot of a key promoted from child i. */
  lemma SeparatorSlot(ks: seq<int>, lo: Option<int>, hi: Option<int>, i: nat, s: int)
    requires Increasing(ks) && i <= |ks|
    requires Above(LowerOf(ks, lo, i), s) && Below(UpperOf(ks, hi, i), s)
    ensures FirstNotLess(ks, s) == i
  {
  }

  /** Putting the halves of child i and their separator in at i keeps the node ordered. */
  lemma AddChildOrdered(ks: seq<int>, cs: seq<Node>, i: nat, l: Node, s: int, r: Node, lo: Option<int>, hi: Option<int>)
    requires Ordered(Internal(ks, cs), lo, hi) && i < |cs|
    requires Above(LowerOf(ks, lo, i), s) && Below(UpperOf(ks, hi, i), s)
    requires Ordered(l, LowerOf(ks, lo, i), Some(s)) && Ordered(r, Some(s), UpperOf(ks, hi, i))
    ensures Ordered(AddChild(ks, cs, i, l, s, r, i), lo, hi)
  {
    var cs' := cs[i := l];
    InsertKeyAt(ks, i, s);
    InsertAtIndex(ks, i, s);
    AddChildChildren(ks, cs, i, l, s, r, lo, hi);
  }

  lemma AddChildChildren(ks: seq<int>, cs: seq<Node>, i: nat, l: Node, s: int, r: Node, lo: Option<int>, hi: Option<int>)
    requires |cs| == |ks| + 1 && ChildrenOrdered(ks, cs, lo, hi) && i < |cs|
    requires Ordered(l, LowerOf(ks, lo, i), Some(s)) && Ordered(r, Some(s), UpperOf(ks, hi, i))
    ensures ChildrenOrdered(ks[..i] + [s] + ks[i..], cs[i := l][..i + 1] + [r] + cs[i := l][i + 1..], lo, hi)
  {
    var cs' := cs[i := l];
    var nks := ks[..i] + [s] + ks[i..];
    var ncs := cs'[..i + 1] + [r] + cs'[i + 1..];
    InsertAtIndex(ks, i, s);
    InsertAtIndex(cs', i + 1, r);
    forall j | 0 <= j < |ncs|
      ensures Ordered(ncs[j], LowerOf(nks, lo, j), UpperOf(nks, hi, j))
    {
      if j < i {
        assert ncs[j] == cs[j];
        assert LowerOf(nks, lo, j) == LowerOf(ks, lo, j) && UpperOf(nks, hi, j) == UpperOf(ks, hi, j);
      } else if j == i {
        assert ncs[j] == l;
      } else if j == i + 1 {
        assert ncs[j] == r;
        assert UpperOf(nks, hi, j) == UpperOf(ks, hi, i);
      } else {
        assert ncs[j] == cs[j - 1];
        assert LowerOf(nks, lo, j) == LowerOf(ks, lo, j - 1) && UpperOf(nks, hi, j) == UpperOf(ks, hi, j - 1);
      }
    }
  }

  /** Splitting an ordered internal node gives two ordered halves around its middle separator. */
  lemma SplitInternalOrdered(ks: seq<int>, cs: seq<Node>, lo: Option<int>, hi: Option<int>)
    requires Ordered(Internal(ks, cs), lo, hi) && |ks| >= 1
    ensures GrownOrdered(SplitInternal(ks, cs), lo, hi)
  {
    SplitInternalAtOrdered(ks, cs, |ks| / 2, lo, hi);
  }

  lemma SplitLowerChildren(ks: seq<int>, cs: seq<Node>, mid: nat, lo: Option<int>, hi: Option<int>)
    requires |cs| == |ks| + 1 && ChildrenOrdered(ks, cs, lo, hi) && mid < |ks|
    ensures ChildrenOrdered(ks[..mid], cs[..mid + 1], lo, Some(ks[mid]))
  {
    forall j | 0 <= j < mid + 1
      ensures Ordered(cs[..mid + 1][j], LowerOf(ks[..mid], lo, j), UpperOf(ks[..mid], Some(ks[mid]), j))
    {
      assert cs[..mid + 1][j] == cs[j];
      assert LowerOf(ks[..mid], lo, j) == LowerOf(ks, lo, j) && UpperOf(ks[..mid], Some(ks[mid]), j) == UpperOf(ks, hi, j);
    }
  }

  lemma SplitUpperChildren(ks: seq<int>, cs: seq<Node>, mid: nat, lo: Option<int>, hi: Option<int>)
    requires |cs| == |ks| + 1 && ChildrenOrdered(ks, cs, lo, hi) && mid < |ks|
    ensures ChildrenOrdered(ks[mid + 1..], cs[mid + 1..], Some(ks[mid]), hi)
  {
    var ks', cs' := ks[mid + 1..], cs[mid + 1..];
    forall j | 0 <= j < |cs'|
      ensures Ordered(cs'[j], LowerOf(ks', Some(ks[mid]), j), UpperOf(ks', hi, j))
    {
      assert cs[mid + 1..][j] == cs[mid + 1 + j];
      assert LowerOf(ks[mid + 1..], Some(ks[mid]), j) == LowerOf(ks, lo, mid + 1 + j);
      assert UpperOf(ks[mid + 1..], hi, j) == UpperOf(ks, hi, mid + 1 + j);
    }
  }

  /** The parent's side of a split keeps the order. */
  lemma TakeInOrdered(ks: seq<int>, cs: seq<Node>, i: nat, g: Grown, m: nat, lo: Option<int>, hi: Option<int>)
    requires Ordered(Internal(ks, cs), lo, hi) && i < |cs|
    requires GrownOrdered(g, LowerOf(ks, lo, i), UpperOf(ks, hi, i))
    ensures GrownOrdered(TakeIn(ks, cs, i, g, m), lo, hi)
  {
    match g
    case Fit(c) =>
      assert Ordered(Internal(ks, cs[i := c]), lo, hi) by {
        forall j | 0 <= j < |cs|
          ensures Ordered(cs[i := c][j], LowerOf(ks, lo, j), UpperOf(ks, hi, j))
        {
        }
      }
    case Split(l, s, r) =>
      SeparatorSlot(ks, lo, hi, i, s);
      var idx := if cs[i].Leaf? then i else FirstNotLess(ks, s);
      AddChildOrdered(ks, cs, i, l, s, r, lo, hi);
      var p := AddChild(ks, cs, i, l, s, r, idx);
      if |p.children| > m {
        SplitInternalOrdered(p.keys, p.children, lo, hi);
      }
  }

  /** Inserting a key not yet stored, within the bounds, keeps an ordered subtree ordered. */
  lemma {:induction false} InsertOrdered(n: Node, key: int, m: nat, lo: Option<int>, hi: Option<int>)
    requires WellFormed(n) && m >= 1 && Ordered(n, lo, hi)
    requires key !in Elems(n) && AtLeast(lo, key) && Below(hi, key)
    ensures GrownOrdered(InsertInto(n, key, m), lo, hi)
  {
    match n
    case Leaf(ks) =>
      InsertLeafOrdered(ks, key, m, lo, hi);
    case Internal(ks, cs) =>
      var i := FirstGreater(ks, key);
      ElemsOfMember(cs, key);
      assert key !in Elems(cs[i]);
      InsertOrdered(cs[i], key, m, LowerOf(ks, lo, i), UpperOf(ks, hi, i));
      TakeInOrdered(ks, cs, i, InsertInto(cs[i], key, m), m, lo, hi);
  }

  // Removal (lines 205-274 and 138-203).

  /** The parent after a borrow: children k and k + 1 become a and b, and the separator between them s. */
  function ReplacePair(ks: seq<int>, cs: seq<Node>, k: nat, a: Node, s: int, b: Node): Node
    requires |cs| == |ks| + 1 && k + 1 < |cs|
  {
    Internal(ks[k := s], cs[k := a][k + 1 := b])
  }

  /** The parent after a merge: children k and k + 1 become the one node merged, and the separator between them goes. */
  function MergePair(ks: seq<int>, cs: seq<Node>, k: nat, merged: Node): Node
    requires |cs| == |ks| + 1 && k + 1 < |cs|
  {
    Internal(ks[..k] + ks[k + 1..], cs[..k] + [merged] + cs[k + 2..])
  }

  /**
   * Lines 225-262: leaf i has fallen below minKeys. It borrows the last key
   * of its left sibling or the first of its right one when that sibling has
   * keys to spare, and the separator between them becomes the first key of
   * the right one of the pair; otherwise it is merged with a sibling and the
   * separator between them dropped. The flag says whether the parent must
   * be looked at: it lost a child, or there was no sibling at all.
   */
  function FixLeaf(ks: seq<int>, cs: seq<Node>, i: nat, minKeys: nat): (r: (Node, bool))
    requires |cs| == |ks| + 1 && i < |cs| && minKeys >= 1
    requires forall j :: 0 <= j < |cs| ==> cs[j].Leaf?
    ensures r.0.Internal?
    ensures |r.0.children| == |r.0.keys| + 1
    ensures |r.0.children| == if r.1 && |cs| > 1 then |cs| - 1 else |cs|
  {
    var leaf := cs[i].keys;
    if i > 0 && |cs[i - 1].keys| > minKeys then
      var left := cs[i - 1].keys;
      var borrowed := left[|left| - 1];
      (ReplacePair(ks, cs, i - 1, Leaf(left[..|left| - 1]), borrowed, Leaf([borrowed] + leaf)), false)
    else if i + 1 < |cs| && |cs[i + 1].keys| > minKeys then
      var right := cs[i + 1].keys;
      (ReplacePair(ks, cs, i, Leaf(leaf + [right[0]]), right[1], Leaf(right[1..])), false)
    else if i > 0 then
      (MergePair(ks, cs, i - 1, Leaf(cs[i - 1].keys + leaf)), true)
    else if i + 1 < |cs| then
      (MergePair(ks, cs, i, Leaf(leaf + cs[i + 1].keys)), true)
    else
      (Internal(ks, cs), true)
  }

  /**
   * Lines 138-193: internal node i has fallen below minChildren children. It
   * takes the last child of its left sibling, or the first of its right one,
   * when that sibling has children to spare: the separator between them
   * comes down into node i and the sibling's outer key goes up in its place.
   * Otherwise node i is merged with a sibling around the separator between
   * them. The flag is as for FixLeaf.
   */
  function FixInternal(ks: seq<int>, cs: seq<Node>, i: nat, minChildren: nat): (r: (Node, bool))
    requires |cs| == |ks| + 1 && i < |cs| && minChildren >= 1
    requires forall j :: 0 <= j < |cs| ==> cs[j].Internal? && |cs[j].children| == |cs[j].keys| + 1
    ensures r.0.Internal?
    ensures |r.0.children| == |r.0.keys| + 1
    ensures |r.0.children| == if r.1 && |cs| > 1 then |cs| - 1 else |cs|
  {
    var node := cs[i];
    if i > 0 && |cs[i - 1].children| > minChildren then
      var lk, lc := cs[i - 1].keys, cs[i - 1].children;
      var node' := Internal([ks[i - 1]] + node.keys, [lc[|lc| - 1]] + node.children);
      (ReplacePair(ks, cs, i - 1, Internal(lk[..|lk| - 1], lc[..|lc| - 1]), lk[|lk| - 1], node'), false)
    else if i + 1 < |cs| && |cs[i + 1].children| > minChildren then
      var rk, rc := cs[i + 1].keys, cs[i + 1].children;
      var node' := Internal(node.keys + [ks[i]], node.children + [rc[0]]);
      (ReplacePair(ks, cs, i, node', rk[0], Internal(rk[1..], rc[1..])), false)
    else if i > 0 then
      var left := cs[i - 1];
      (MergePair(ks, cs, i - 1, Internal(left.keys + [ks[i - 1]] + node.keys, left.children + node.children)), true)
    else if i + 1 < |cs| then
      var right := cs[i + 1];
      (MergePair(ks, cs, i, Internal(node.keys + [ks[i]] + right.keys, node.children + right.children)), true)
    else
      (Internal(ks, cs), true)
  }

  /**
   * The outcome of removing below a node: its replacement, whether key was
   * found, whether the node is now underfull, and whether a child's
   * underflow was resolved by merging or could not be (no sibling), which
   * is when the root may be left with a single child.
   */
  datatype Removal = Removal(node: Node, found: bool, underflow: bool, merged: bool)

  /**
   * The parent's side of a removal in child i: a child that underflowed is
   * fixed, and the parent itself underflows when, after a merge, it was
   * left with fewer than minChildren children (lines 220-223, 263-272 and
   * 194-202).
   */
  function Absorb(ks: seq<int>, cs: seq<Node>, i: nat, sub: Removal, minKeys: nat, minChildren: nat): (r: Removal)
    requires WellFormed(Internal(ks, cs)) && i < |cs| && minKeys >= 1 && minChildren >= 1
    requires WellFormed(sub.node) && Height(sub.node) == Height(cs[i])
    ensures r.found == sub.found && r.node.Internal?
    ensures r.underflow ==> r.merged && |r.node.children| < minChildren
  {
    if !sub.underflow then
      Removal(Internal(ks, cs[i := sub.node]), sub.found, false, false)
    else
      var cs' := cs[i := sub.node];
      NodeUniform(Internal(ks, cs));
      assert Uniform(cs', Height(Internal(ks, cs)) - 1);
      KindsAgree(cs', Height(Internal(ks, cs)) - 1);
      var fixed := if sub.node.Leaf? then FixLeaf(ks, cs', i, minKeys) else FixInternal(ks, cs', i, minChildren);
      Removal(fixed.0, sub.found, fixed.1 && |fixed.0.children| < minChildren, fixed.1)
  }

  /**
   * Lines 206-223: the key's first occurrence is erased from the leaf
   * find_leaf reaches, and underfull nodes are fixed on the way back up. A
   * leaf underflows when it keeps fewer than minKeys keys.
   */
  function RemoveFrom(n: Node, key: int, minKeys: nat, minChildren: nat): (r: Removal)
    requires WellFormed(n) && minKeys >= 1 && minChildren >= 1
    ensures WellFormed(r.node) && Height(r.node) == Height(n)
    ensures !r.found ==> r.node == n && !r.underflow && !r.merged
    ensures r.merged ==> n.Internal?
  {
    match n
    case Leaf(ks) =>
      if key in ks then
        var ks' := RemoveFirst(ks, key);
        Removal(Leaf(ks'), true, |ks'| < minKeys, false)
      else
        Removal(n, false, false, false)
    case Internal(ks, cs) =>
      var i := FirstGreater(ks, key);
      var sub := RemoveFrom(cs[i], key, minKeys, minChildren);
      AbsorbShape(ks, cs, i, sub, minKeys, minChildren);
      Absorb(ks, cs, i, sub, minKeys, minChildren)
  }

  lemma AbsorbShape(ks: seq<int>, cs: seq<Node>, i: nat, sub: Removal, minKeys: nat, minChildren: nat)
    requires WellFormed(Internal(ks, cs)) && i < |cs| && minKeys >= 1 && minChildren >= 1
    requires WellFormed(sub.node) && Height(sub.node) == Height(cs[i])
    requires !sub.found ==> sub.node == cs[i] && !sub.underflow
    ensures WellFormed(Absorb(ks, cs, i, sub, minKeys, minChildren).node)
    ensures Height(Absorb(ks, cs, i, sub, minKeys, minChildren).node) == Height(Internal(ks, cs))
    ensures !sub.found ==> Absorb(ks, cs, i, sub, minKeys, minChildren) == Removal(Internal(ks, cs), false, false, false)
  {
    var n := Internal(ks, cs);
    NodeUniform(n);
    var h := Height(n) - 1;
    var cs' := cs[i := sub.node];
    assert Uniform(cs', h);
    if !sub.underflow {
      UniformNode(ks, cs', h);
    } else if sub.node.Leaf? {
      FixLeafShape(ks, cs', i, minKeys);
    } else {
      FixInternalShape(ks, cs', i, minChildren, h);
    }
  }

  /** Children of one height are all leaves or all well-formed internal nodes. */
  lemma KindsAgree(cs: seq<Node>, h: nat)
    requires Uniform(cs, h)
    ensures h == 0 ==> forall j :: 0 <= j < |cs| ==> cs[j].Leaf?
    ensures h > 0 ==> forall j :: 0 <= j < |cs| ==> cs[j].Internal? && |cs[j].children| == |cs[j].keys| + 1
  {
  }

  lemma FixLeafShape(ks: seq<int>, cs: seq<Node>, i: nat, minKeys: nat)
    requires |cs| == |ks| + 1 && i < |cs| && minKeys >= 1 && Uniform(cs, 0)
    ensures forall j :: 0 <= j < |cs| ==> cs[j].Leaf?
    ensures WellFormed(FixLeaf(ks, cs, i, minKeys).0) && Height(FixLeaf(ks, cs, i, minKeys).0) == 1
  {
    var r := FixLeaf(ks, cs, i, minKeys).0;
    assert Uniform(r.children, 0);
    UniformNode(r.keys, r.children, 0);
  }

  lemma FixInternalShape(ks: seq<int>, cs: seq<Node>, i: nat, minChildren: nat, h: nat)
    requires |cs| == |ks| + 1 && i < |cs| && minChildren >= 1 && Uniform(cs, h) && cs[i].Internal?
    ensures forall j :: 0 <= j < |cs| ==> cs[j].Internal? && |cs[j].children| == |cs[j].keys| + 1
    ensures WellFormed(FixInternal(ks, cs, i, minChildren).0) && Height(FixInternal(ks, cs, i, minChildren).0) == h + 1
  {
    KindsAgree(cs, h);
    if i > 0 && |cs[i - 1].children| > minChildren {
      BorrowLeftInternalShape(ks, cs, i, minChildren, h);
    } else if i + 1 < |cs| && |cs[i + 1].children| > minChildren {
      BorrowRightInternalShape(ks, cs, i, minChildren, h);
    } else if i > 0 {
      MergeInternalShape(ks, cs, i - 1, h);
    } else if i + 1 < |cs| {
      MergeInternalShape(ks, cs, i, h);
    } else {
      UniformNode(ks, cs, h);
    }
  }

  lemma BorrowLeftInternalShape(ks: seq<int>, cs: seq<Node>, i: nat, minChildren: nat, h: nat)
    requires |cs| == |ks| + 1 && i < |cs| && minChildren >= 1 && Uniform(cs, h) && h > 0
    requires forall j :: 0 <= j < |cs| ==> cs[j].Internal? && |cs[j].children| == |cs[j].keys| + 1
    requires i > 0 && |cs[i - 1].children| > minChildren
    ensures WellFormed(FixInternal(ks, cs, i, minChildren).0) && Height(FixInternal(ks, cs, i, minChildren).0) == h + 1
  {
    var node, lk, lc := cs[i], cs[i - 1].keys, cs[i - 1].children;
    NodeUniform(node);
    NodeUniform(cs[i - 1]);
    var a, b := Internal(lk[..|lk| - 1], lc[..|lc| - 1]), Internal([ks[i - 1]] + node.keys, [lc[|lc| - 1]] + node.children);
    UniformNode(a.keys, a.children, h - 1);
    UniformNode(b.keys, b.children, h - 1);
    ReplacePairShape(ks, cs, i - 1, a, lk[|lk| - 1], b, h);
  }

  lemma BorrowRightInternalShape(ks: seq<int>, cs: seq<Node>, i: nat, minChildren: nat, h: nat)
    requires |cs| == |ks| + 1 && i < |cs| && minChildren >= 1 && Uniform(cs, h) && h > 0
    requires forall j :: 0 <= j < |cs| ==> cs[j].Internal? && |cs[j].children| == |cs[j].keys| + 1
    requires !(i > 0 && |cs[i - 1].children| > minChildren) && i + 1 < |cs| && |cs[i + 1].children| > minChildren
    ensures WellFormed(FixInternal(ks, cs, i, minChildren).0) && Height(FixInternal(ks, cs, i, minChildren).0) == h + 1
  {
    var node, rk, rc := cs[i], cs[i + 1].keys, cs[i + 1].children;
    NodeUniform(node);
    NodeUniform(cs[i + 1]);
    var a, b := Internal(node.keys + [ks[i]], node.children + [rc[0]]), Internal(rk[1..], rc[1..]);
    UniformNode(a.keys, a.children, h - 1);
    UniformNode(b.keys, b.children, h - 1);
    ReplacePairShape(ks, cs, i, a, rk[0], b, h);
  }

  lemma MergeInternalShape(ks: seq<int>, cs: seq<Node>, k: nat, h: nat)
    requires |cs| == |ks| + 1 && k + 1 < |cs| && Uniform(cs, h) && h > 0
    requires cs[k].Internal? && cs[k + 1].Internal?
    ensures WellFormed(MergePair(ks, cs, k, Internal(cs[k].keys + [ks[k]] + cs[k + 1].keys, cs[k].children + cs[k + 1].children)))
    ensures Height(MergePair(ks, cs, k, Internal(cs[k].keys + [ks[k]] + cs[k + 1].keys, cs[k].children + cs[k + 1].children))) == h + 1
  {
    var l, r := cs[k], cs[k + 1];
    NodeUniform(l);
    NodeUniform(r);
    var merged := Internal(l.keys + [ks[k]] + r.keys, l.children + r.children);
    UniformNode(merged.keys, merged.children, h - 1);
    MergePairShape(ks, cs, k, merged, h);
  }

  lemma ReplacePairShape(ks: seq<int>, cs: seq<Node>, k: nat, a: Node, s: int, b: Node, h: nat)
    requires |cs| == |ks| + 1 && k + 1 < |cs| && Uniform(cs, h)
    requires WellFormed(a) && Height(a) == h && WellFormed(b) && Height(b) == h
    ensures WellFormed(ReplacePair(ks, cs, k, a, s, b)) && Height(ReplacePair(ks, cs, k, a, s, b)) == h + 1
  {
    var p := ReplacePair(ks, cs, k, a, s, b);
    assert Uniform(p.children, h);
    UniformNode(p.keys, p.children, h);
  }

  lemma MergePairShape(ks: seq<int>, cs: seq<Node>, k: nat, merged: Node, h: nat)
    requires |cs| == |ks| + 1 && k + 1 < |cs| && Uniform(cs, h)
    requires WellFormed(merged) && Height(merged) == h
    ensures WellFormed(MergePair(ks, cs, k, merged)) && Height(MergePair(ks, cs, k, merged)) == h + 1
  {
    var p := MergePair(ks, cs, k, merged);
    CollapseAtIndex(cs, k, merged);
    assert Uniform(p.children, h);
    UniformNode(p.keys, p.children, h);
  }

  // What a removal does to the stored keys.

  /** The multiset of a children sequence, taken apart around the pair at k and k + 1. */
  lemma ElemsOfPair(cs: seq<Node>, k: nat)
    requires k + 1 < |cs|
    ensures ElemsOf(cs) == ElemsOf(cs[..k]) + (Elems(cs[k]) + Elems(cs[k + 1])) + ElemsOf(cs[k + 2..])
  {
    ElemsOfAt(cs, k);
    var rest := cs[k + 1..];
    ElemsOfAt(rest, 0);
    assert rest[..0] == [] && rest[0] == cs[k + 1] && rest[1..] == cs[k + 2..];
    var a, b, c, d := ElemsOf(cs[..k]), Elems(cs[k]), Elems(cs[k + 1]), ElemsOf(cs[k + 2..]);
    assert ElemsOf(rest) == c + d;
    assert a + b + (c + d) == a + (b + c) + d;
  }

  /** A borrow moves keys between the two siblings and loses none. */
  lemma ReplacePairElems(ks: seq<int>, cs: seq<Node>, k: nat, a: Node, s: int, b: Node)
    requires |cs| == |ks| + 1 && k + 1 < |cs|
    requires Elems(a) + Elems(b) == Elems(cs[k]) + Elems(cs[k + 1])
    ensures Elems(ReplacePair(ks, cs, k, a, s, b)) == ElemsOf(cs)
  {
    var cs' := cs[k := a][k + 1 := b];
    ElemsOfPair(cs, k);
    ElemsOfPair(cs', k);
    assert cs'[..k] == cs[..k] && cs'[k + 2..] == cs[k + 2..];
  }

  /** A merge keeps every key of both siblings. */
  lemma MergePairElems(ks: seq<int>, cs: seq<Node>, k: nat, merged: Node)
    requires |cs| == |ks| + 1 && k + 1 < |cs|
    requires Elems(merged) == Elems(cs[k]) + Elems(cs[k + 1])
    ensures Elems(MergePair(ks, cs, k, merged)) == ElemsOf(cs)
  {
    var cs' := cs[..k] + [merged] + cs[k + 2..];
    ElemsOfPair(cs, k);
    ElemsOfAt(cs', k);
    assert cs'[..k] == cs[..k] && cs'[k + 1..] == cs[k + 2..];
  }

  /** Fixing an underfull leaf keeps the parent's keys. */
  lemma FixLeafElems(ks: seq<int>, cs: seq<Node>, i: nat, minKeys: nat)
    requires |cs| == |ks| + 1 && i < |cs| && minKeys >= 1
    requires forall j :: 0 <= j < |cs| ==> cs[j].Leaf?
    ensures Elems(FixLeaf(ks, cs, i, minKeys).0) == ElemsOf(cs)
  {
    var leaf := cs[i].keys;
    if i > 0 && |cs[i - 1].keys| > minKeys {
      BorrowLeftLeafElems(ks, cs, i, minKeys);
    } else if i + 1 < |cs| && |cs[i + 1].keys| > minKeys {
      BorrowRightLeafElems(ks, cs, i, minKeys);
    } else if i > 0 {
      MergePairElems(ks, cs, i - 1, Leaf(cs[i - 1].keys + leaf));
    } else if i + 1 < |cs| {
      MergePairElems(ks, cs, i, Leaf(leaf + cs[i + 1].keys));
    }
  }

  lemma BorrowLeftLeafElems(ks: seq<int>, cs: seq<Node>, i: nat, minKeys: nat)
    requires |cs| == |ks| + 1 && i < |cs| && minKeys >= 1
    requires forall j :: 0 <= j < |cs| ==> cs[j].Leaf?
    requires i > 0 && |cs[i - 1].keys| > minKeys
    ensures Elems(FixLeaf(ks, cs, i, minKeys).0) == ElemsOf(cs)
  {
    var leaf, left := cs[i].keys, cs[i - 1].keys;
    var borrowed := left[|left| - 1];
    MovedKeys(left[..|left| - 1], [borrowed], leaf);
    assert left[..|left| - 1] + [borrowed] == left;
    ReplacePairElems(ks, cs, i - 1, Leaf(left[..|left| - 1]), borrowed, Leaf([borrowed] + leaf));
  }

  lemma BorrowRightLeafElems(ks: seq<int>, cs: seq<Node>, i: nat, minKeys: nat)
    requires |cs| == |ks| + 1 && i < |cs| && minKeys >= 1
    requires forall j :: 0 <= j < |cs| ==> cs[j].Leaf?
    requires !(i > 0 && |cs[i - 1].keys| > minKeys) && i + 1 < |cs| && |cs[i + 1].keys| > minKeys
    ensures Elems(FixLeaf(ks, cs, i, minKeys).0) == ElemsOf(cs)
  {
    var leaf, right := cs[i].keys, cs[i + 1].keys;
    MovedKeys(leaf, [right[0]], right[1..]);
    assert [right[0]] + right[1..] == right;
    ReplacePairElems(ks, cs, i, Leaf(leaf + [right[0]]), right[1], Leaf(right[1..]));
  }

  /** Keys m moved from the end of one sibling to the front of the next, or back: none is lost. */
  lemma MovedKeys(a: seq<int>, m: seq<int>, b: seq<int>)
    ensures multiset(a) + multiset(m + b) == multiset(a + m) + multiset(b)
  {
  }

  /** Fixing an underfull internal node keeps the parent's keys. */
  lemma FixInternalElems(ks: seq<int>, cs: seq<Node>, i: nat, minChildren: nat)
    requires |cs| == |ks| + 1 && i < |cs| && minChildren >= 1
    requires forall j :: 0 <= j < |cs| ==> cs[j].Internal? && |cs[j].children| == |cs[j].keys| + 1
    ensures Elems(FixInternal(ks, cs, i, minChildren).0) == ElemsOf(cs)
  {
    var node := cs[i];
    if i > 0 && |cs[i - 1].children| > minChildren {
      BorrowLeftInternalElems(ks, cs, i, minChildren);
    } else if i + 1 < |cs| && |cs[i + 1].children| > minChildren {
      BorrowRightInternalElems(ks, cs, i, minChildren);
    } else if i > 0 {
      MergeInternalElems(ks, cs, i - 1);
    } else if i + 1 < |cs| {
      MergeInternalElems(ks, cs, i);
    }
  }

  lemma MergeInternalElems(ks: seq<int>, cs: seq<Node>, k: nat)
    requires |cs| == |ks| + 1 && k + 1 < |cs| && cs[k].Internal? && cs[k + 1].Internal?
    ensures Elems(MergePair(ks, cs, k, Internal(cs[k].keys + [ks[k]] + cs[k + 1].keys, cs[k].children + cs[k + 1].children))) == ElemsOf(cs)
  {
    ElemsOfAppend(cs[k].children, cs[k + 1].children);
    MergePairElems(ks, cs, k, Internal(cs[k].keys + [ks[k]] + cs[k + 1].keys, cs[k].children + cs[k + 1].children));
  }

  lemma BorrowLeftInternalElems(ks: seq<int>, cs: seq<Node>, i: nat, minChildren: nat)
    requires |cs| == |ks| + 1 && i < |cs| && minChildren >= 1
    requires forall j :: 0 <= j < |cs| ==> cs[j].Internal? && |cs[j].children| == |cs[j].keys| + 1
    requires i > 0 && |cs[i - 1].children| > minChildren
    ensures Elems(FixInternal(ks, cs, i, minChildren).0) == ElemsOf(cs)
  {
    var node, lk, lc := cs[i], cs[i - 1].keys, cs[i - 1].children;
    var last := lc[|lc| - 1];
    ElemsOfAppend([last], node.children);
    ElemsOfSingle(last);
    ReplacePairElems(ks, cs, i - 1, Internal(lk[..|lk| - 1], lc[..|lc| - 1]), lk[|lk| - 1],
      Internal([ks[i - 1]] + node.keys, [last] + node.children));
  }

  lemma BorrowRightInternalElems(ks: seq<int>, cs: seq<Node>, i: nat, minChildren: nat)
    requires |cs| == |ks| + 1 && i < |cs| && minChildren >= 1
    requires forall j :: 0 <= j < |cs| ==> cs[j].Internal? && |cs[j].children| == |cs[j].keys| + 1
    requires !(i > 0 && |cs[i - 1].children| > minChildren) && i + 1 < |cs| && |cs[i + 1].children| > minChildren
    ensures Elems(FixInternal(ks, cs, i, minChildren).0) == ElemsOf(cs)
  {
    var node, rk, rc := cs[i], cs[i + 1].keys, cs[i + 1].children;
    assert rc == [rc[0]] + rc[1..];
    ElemsOfAppend([rc[0]], rc[1..]);
    ElemsOfAppend(node.children, [rc[0]]);
    ElemsOfSingle(rc[0]);
    ReplacePairElems(ks, cs, i, Internal(node.keys + [ks[i]], node.children + [rc[0]]), rk[0], Internal(rk[1..], rc[1..]));
  }

  /** The parent's side of a removal keeps every key the child kept. */
  lemma AbsorbElems(ks: seq<int>, cs: seq<Node>, i: nat, sub: Removal, minKeys: nat, minChildren: nat, gone: multiset<int>)
    requires WellFormed(Internal(ks, cs)) && i < |cs| && minKeys >= 1 && minChildren >= 1
    requires WellFormed(sub.node) && Height(sub.node) == Height(cs[i])
    requires Elems(sub.node) + gone == Elems(cs[i])
    ensures Elems(Absorb(ks, cs, i, sub, minKeys, minChildren).node) + gone == ElemsOf(cs)
  {
    var cs' := cs[i := sub.node];
    ElemsOfUpdate(cs, i, sub.node);
    CancelShared(ElemsOf(cs'), Elems(sub.node), gone, ElemsOf(cs));
    if sub.underflow {
      NodeUniform(Internal(ks, cs));
      assert Uniform(cs', Height(Internal(ks, cs)) - 1);
      KindsAgree(cs', Height(Internal(ks, cs)) - 1);
      if sub.node.Leaf? {
        FixLeafElems(ks, cs', i, minKeys);
      } else {
        FixInternalElems(ks, cs', i, minChildren);
      }
    }
  }

  /**
   * Removal finds key exactly when the leaf find_leaf reaches holds it, and
   * then takes out exactly one copy; otherwise every key stays.
   */
  lemma {:induction false} RemoveFromElems(n: Node, key: int, minKeys: nat, minChildren: nat)
    requires WellFormed(n) && minKeys >= 1 && minChildren >= 1
    ensures RemoveFrom(n, key, minKeys, minChildren).found == (key in LeafFor(n, key).keys)
    ensures Elems(RemoveFrom(n, key, minKeys, minChildren).node) + Gone(RemoveFrom(n, key, minKeys, minChildren).found, key) == Elems(n)
  {
    match n
    case Leaf(ks) =>
    case Internal(ks, cs) =>
      var i := FirstGreater(ks, key);
      var sub := RemoveFrom(cs[i], key, minKeys, minChildren);
      RemoveFromElems(cs[i], key, minKeys, minChildren);
      AbsorbElems(ks, cs, i, sub, minKeys, minChildren, Gone(sub.found, key));
  }

  /** The keys a removal takes out: one copy of key when it was found. */
  function Gone(found: bool, key: int): multiset<int>
  {
    if found then multiset{key} else multiset{}
  }

  // What a removal does to the search order. A borrow is a merge of the
  // pair followed by a split at another point, so both reduce to merging
  // and splitting ordered siblings.

  /** Two neighbouring children and the separator between them lie within the pair's outer bounds. */
  lemma PairOrdered(ks: seq<int>, cs: seq<Node>, k: nat, lo: Option<int>, hi: Option<int>)
    requires Ordered(Internal(ks, cs), lo, hi) && k + 1 < |cs|
    ensures GrownOrdered(Split(cs[k], ks[k], cs[k + 1]), LowerOf(ks, lo, k), UpperOf(ks, hi, k + 1))
  {
    assert Ordered(cs[k], LowerOf(ks, lo, k), UpperOf(ks, hi, k));
    assert Ordered(cs[k + 1], LowerOf(ks, lo, k + 1), UpperOf(ks, hi, k + 1));
  }

  /** An ordered pair put back in place of children k and k + 1 keeps the parent ordered. */
  lemma ReplacePairOrdered(ks: seq<int>, cs: seq<Node>, k: nat, a: Node, s: int, b: Node, lo: Option<int>, hi: Option<int>)
    requires Ordered(Internal(ks, cs), lo, hi) && k + 1 < |cs|
    requires GrownOrdered(Split(a, s, b), LowerOf(ks, lo, k), UpperOf(ks, hi, k + 1))
    ensures Ordered(ReplacePair(ks, cs, k, a, s, b), lo, hi)
  {
    var ks', cs' := ks[k := s], cs[k := a][k + 1 := b];
    forall x, y | 0 <= x < y < |ks'|
      ensures ks'[x] < ks'[y]
    {
      if x == k {
        assert s < ks[k + 1] && ks[k + 1] <= ks[y];
      } else if y == k {
        assert ks[x] <= ks[k - 1] < s;
      }
    }
    forall j | 0 <= j < |ks'|
      ensures Above(lo, ks'[j]) && Below(hi, ks'[j])
    {
      if j == k {
        if k > 0 {
          assert Above(lo, ks[k - 1]);
        }
        if k + 1 < |ks| {
          assert Below(hi, ks[k + 1]);
        }
      }
    }
    forall j | 0 <= j < |cs'|
      ensures Ordered(cs'[j], LowerOf(ks', lo, j), UpperOf(ks', hi, j))
    {
      if j < k || j > k + 1 {
        assert cs'[j] == cs[j];
        assert LowerOf(ks', lo, j) == LowerOf(ks, lo, j) && UpperOf(ks', hi, j) == UpperOf(ks, hi, j);
      } else if j == k {
        assert LowerOf(ks', lo, j) == LowerOf(ks, lo, k);
      } else {
        assert UpperOf(ks', hi, j) == UpperOf(ks, hi, k + 1);
      }
    }
  }

  /** A node merged from children k and k + 1, ordered within their outer bounds, keeps the parent ordered. */
  lemma MergePairOrdered(ks: seq<int>, cs: seq<Node>, k: nat, merged: Node, lo: Option<int>, hi: Option<int>)
    requires Ordered(Internal(ks, cs), lo, hi) && k + 1 < |cs|
    requires Ordered(merged, LowerOf(ks, lo, k), UpperOf(ks, hi, k + 1))
    ensures Ordered(MergePair(ks, cs, k, merged), lo, hi)
  {
    var ks' := ks[..k] + ks[k + 1..];
    RemoveAtIndex(ks, k);
    forall x, y | 0 <= x < y < |ks'|
      ensures ks'[x] < ks'[y]
    {
      var x', y' := if x < k then x else x + 1, if y < k then y else y + 1;
      assert ks'[x] == ks[x'] && ks'[y] == ks[y'];
    }
    forall j | 0 <= j < |ks'|
      ensures Above(lo, ks'[j]) && Below(hi, ks'[j])
    {
      assert ks'[j] == ks[if j < k then j else j + 1];
    }
    MergePairChildren(ks, cs, k, merged, lo, hi);
  }

  lemma MergePairChildren(ks: seq<int>, cs: seq<Node>, k: nat, merged: Node, lo: Option<int>, hi: Option<int>)
    requires |cs| == |ks| + 1 && ChildrenOrdered(ks, cs, lo, hi) && k + 1 < |cs|
    requires Ordered(merged, LowerOf(ks, lo, k), UpperOf(ks, hi, k + 1))
    ensures ChildrenOrdered(ks[..k] + ks[k + 1..], cs[..k] + [merged] + cs[k + 2..], lo, hi)
  {
    var ks', cs' := ks[..k] + ks[k + 1..], cs[..k] + [merged] + cs[k + 2..];
    RemoveAtIndex(ks, k);
    CollapseAtIndex(cs, k, merged);
    forall j | 0 <= j < |cs'|
      ensures Ordered(cs'[j], LowerOf(ks', lo, j), UpperOf(ks', hi, j))
    {
      if j < k {
        assert cs'[j] == cs[j];
        assert LowerOf(ks', lo, j) == LowerOf(ks, lo, j) && UpperOf(ks', hi, j) == UpperOf(ks, hi, j);
      } else if j == k {
        assert LowerOf(ks', lo, j) == LowerOf(ks, lo, k) && UpperOf(ks', hi, j) == UpperOf(ks, hi, k + 1);
      } else {
        assert cs'[j] == cs[j + 1];
        assert LowerOf(ks', lo, j) == LowerOf(ks, lo, j + 1) && UpperOf(ks', hi, j) == UpperOf(ks, hi, j + 1);
      }
    }
  }

  /** Two ordered sibling leaves around their separator merge into one ordered leaf. */
  lemma MergeLeavesOrdered(l: seq<int>, s: int, r: seq<int>, lo: Option<int>, hi: Option<int>)
    requires GrownOrdered(Split(Leaf(l), s, Leaf(r)), lo, hi)
    ensures Ordered(Leaf(l + r), lo, hi)
  {
    var m := l + r;
    forall x, y | 0 <= x < y < |m|
      ensures m[x] < m[y]
    {
      if y < |l| {
        assert m[x] == l[x] && m[y] == l[y];
      } else if x >= |l| {
        assert m[x] == r[x - |l|] && m[y] == r[y - |l|];
      } else {
        assert m[x] == l[x] < s <= r[y - |l|] == m[y];
      }
    }
    forall j | 0 <= j < |m|
      ensures AtLeast(lo, m[j]) && Below(hi, m[j])
    {
      if j < |l| {
        assert m[j] == l[j] < s;
      } else {
        assert s <= r[j - |l|] == m[j];
      }
    }
  }

  /** An ordered leaf cut at any inner point gives two ordered leaves around the first key of the second. */
  lemma SplitLeafAtOrdered(ks: seq<int>, p: nat, lo: Option<int>, hi: Option<int>)
    requires Ordered(Leaf(ks), lo, hi) && 0 < p < |ks|
    ensures GrownOrdered(Split(Leaf(ks[..p]), ks[p], Leaf(ks[p..])), lo, hi)
  {
    assert ks[0] < ks[p];
    forall j | 0 <= j < |ks[p..]|
      ensures ks[p] <= ks[p..][j]
    {
      assert ks[p..][j] == ks[p + j];
    }
  }

  /** Two ordered sibling internal nodes merge, around their separator, into one ordered node. */
  lemma MergeInternalOrdered(lk: seq<int>, lc: seq<Node>, s: int, rk: seq<int>, rc: seq<Node>, lo: Option<int>, hi: Option<int>)
    requires GrownOrdered(Split(Internal(lk, lc), s, Internal(rk, rc)), lo, hi)
    ensures Ordered(Internal(lk + [s] + rk, lc + rc), lo, hi)
  {
    MergedSeparators(lk, s, rk, lo, hi);
    MergedChildren(lk, lc, s, rk, rc, lo, hi);
  }

  lemma MergedSeparators(lk: seq<int>, s: int, rk: seq<int>, lo: Option<int>, hi: Option<int>)
    requires Increasing(lk) && SeparatorsWithin(lk, lo, Some(s))
    requires Increasing(rk) && SeparatorsWithin(rk, Some(s), hi)
    requires Above(lo, s) && Below(hi, s)
    ensures Increasing(lk + [s] + rk) && SeparatorsWithin(lk + [s] + rk, lo, hi)
  {
    var m := lk + [s] + rk;
    forall x | 0 <= x < |m|
      ensures (x < |lk| ==> m[x] == lk[x] && m[x] < s) && (x == |lk| ==> m[x] == s)
      ensures (x > |lk| ==> m[x] == rk[x - |lk| - 1] && s < m[x])
    {
    }
  }

  lemma MergedChildren(lk: seq<int>, lc: seq<Node>, s: int, rk: seq<int>, rc: seq<Node>, lo: Option<int>, hi: Option<int>)
    requires |lc| == |lk| + 1 && ChildrenOrdered(lk, lc, lo, Some(s))
    requires |rc| == |rk| + 1 && ChildrenOrdered(rk, rc, Some(s), hi)
    ensures ChildrenOrdered(lk + [s] + rk, lc + rc, lo, hi)
  {
    var mk, mc := lk + [s] + rk, lc + rc;
    forall j | 0 <= j < |mc|
      ensures Ordered(mc[j], LowerOf(mk, lo, j), UpperOf(mk, hi, j))
    {
      if j < |lc| {
        assert mc[j] == lc[j];
        assert LowerOf(mk, lo, j) == LowerOf(lk, lo, j);
        assert UpperOf(mk, hi, j) == UpperOf(lk, Some(s), j);
      } else {
        var t := j - |lc|;
        assert mc[j] == rc[t];
        assert LowerOf(mk, lo, j) == LowerOf(rk, Some(s), t);
        assert UpperOf(mk, hi, j) == UpperOf(rk, hi, t);
      }
    }
  }

  /** An ordered internal node cut at separator p gives two ordered nodes around that separator. */
  lemma SplitInternalAtOrdered(ks: seq<int>, cs: seq<Node>, p: nat, lo: Option<int>, hi: Option<int>)
    requires Ordered(Internal(ks, cs), lo, hi) && p < |ks|
    ensures GrownOrdered(Split(Internal(ks[..p], cs[..p + 1]), ks[p], Internal(ks[p + 1..], cs[p + 1..])), lo, hi)
  {
    SplitLowerChildren(ks, cs, p, lo, hi);
    SplitUpperChildren(ks, cs, p, lo, hi);
    var upper := ks[p + 1..];
    forall j | 0 <= j < |upper|
      ensures upper[j] == ks[p + 1 + j]
    {
    }
  }

  /** Fixing an underfull leaf keeps an ordered parent ordered. */
  lemma FixLeafOrdered(ks: seq<int>, cs: seq<Node>, i: nat, minKeys: nat, lo: Option<int>, hi: Option<int>)
    requires Ordered(Internal(ks, cs), lo, hi) && i < |cs| && minKeys >= 1
    requires forall j :: 0 <= j < |cs| ==> cs[j].Leaf?
    ensures Ordered(FixLeaf(ks, cs, i, minKeys).0, lo, hi)
  {
    if i > 0 && |cs[i - 1].keys| > minKeys {
      BorrowLeftLeafOrdered(ks, cs, i, minKeys, lo, hi);
    } else if i + 1 < |cs| && |cs[i + 1].keys| > minKeys {
      BorrowRightLeafOrdered(ks, cs, i, minKeys, lo, hi);
    } else if i > 0 {
      MergeLeafPairOrdered(ks, cs, i - 1, lo, hi);
    } else if i + 1 < |cs| {
      MergeLeafPairOrdered(ks, cs, i, lo, hi);
    }
  }

  lemma BorrowLeftLeafOrdered(ks: seq<int>, cs: seq<Node>, i: nat, minKeys: nat, lo: Option<int>, hi: Option<int>)
    requires Ordered(Internal(ks, cs), lo, hi) && i < |cs| && minKeys >= 1
    requires forall j :: 0 <= j < |cs| ==> cs[j].Leaf?
    requires i > 0 && |cs[i - 1].keys| > minKeys
    ensures Ordered(FixLeaf(ks, cs, i, minKeys).0, lo, hi)
  {
    var k, leaf, left := i - 1, cs[i].keys, cs[i - 1].keys;
    var lower, upper := LowerOf(ks, lo, k), UpperOf(ks, hi, k + 1);
    PairOrdered(ks, cs, k, lo, hi);
    MergeLeavesOrdered(left, ks[k], leaf, lower, upper);
    var m, p := left + leaf, |left| - 1;
    SplitLeafAtOrdered(m, p, lower, upper);
    assert m[..p] == left[..p] && m[p] == left[p] && m[p..] == [left[p]] + leaf;
    ReplacePairOrdered(ks, cs, k, Leaf(left[..p]), left[p], Leaf([left[p]] + leaf), lo, hi);
  }

  lemma BorrowRightLeafOrdered(ks: seq<int>, cs: seq<Node>, i: nat, minKeys: nat, lo: Option<int>, hi: Option<int>)
    requires Ordered(Internal(ks, cs), lo, hi) && i < |cs| && minKeys >= 1
    requires forall j :: 0 <= j < |cs| ==> cs[j].Leaf?
    requires !(i > 0 && |cs[i - 1].keys| > minKeys) && i + 1 < |cs| && |cs[i + 1].keys| > minKeys
    ensures Ordered(FixLeaf(ks, cs, i, minKeys).0, lo, hi)
  {
    var leaf, right := cs[i].keys, cs[i + 1].keys;
    var lower, upper := LowerOf(ks, lo, i), UpperOf(ks, hi, i + 1);
    PairOrdered(ks, cs, i, lo, hi);
    MergeLeavesOrdered(leaf, ks[i], right, lower, upper);
    var m, p := leaf + right, |leaf| + 1;
    SplitLeafAtOrdered(m, p, lower, upper);
    assert m[..p] == leaf + [right[0]] && m[p] == right[1] && m[p..] == right[1..];
    ReplacePairOrdered(ks, cs, i, Leaf(leaf + [right[0]]), right[1], Leaf(right[1..]), lo, hi);
  }

  lemma MergeLeafPairOrdered(ks: seq<int>, cs: seq<Node>, k: nat, lo: Option<int>, hi: Option<int>)
    requires Ordered(Internal(ks, cs), lo, hi) && k + 1 < |cs| && cs[k].Leaf? && cs[k + 1].Leaf?
    ensures Ordered(MergePair(ks, cs, k, Leaf(cs[k].keys + cs[k + 1].keys)), lo, hi)
  {
    PairOrdered(ks, cs, k, lo, hi);
    MergeLeavesOrdered(cs[k].keys, ks[k], cs[k + 1].keys, LowerOf(ks, lo, k), UpperOf(ks, hi, k + 1));
    MergePairOrdered(ks, cs, k, Leaf(cs[k].keys + cs[k + 1].keys), lo, hi);
  }

  /** Fixing an underfull internal node keeps an ordered parent ordered. */
  lemma FixInternalOrdered(ks: seq<int>, cs: seq<Node>, i: nat, minChildren: nat, lo: Option<int>, hi: Option<int>)
    requires Ordered(Internal(ks, cs), lo, hi) && i < |cs| && minChildren >= 1
    requires forall j :: 0 <= j < |cs| ==> cs[j].Internal? && |cs[j].children| == |cs[j].keys| + 1
    ensures Ordered(FixInternal(ks, cs, i, minChildren).0, lo, hi)
  {
    if i > 0 && |cs[i - 1].children| > minChildren {
      BorrowLeftInternalOrdered(ks, cs, i, minChildren, lo, hi);
    } else if i + 1 < |cs| && |cs[i + 1].children| > minChildren {
      BorrowRightInternalOrdered(ks, cs, i, minChildren, lo, hi);
    } else if i > 0 {
      MergeInternalPairOrdered(ks, cs, i - 1, lo, hi);
    } else if i + 1 < |cs| {
      MergeInternalPairOrdered(ks, cs, i, lo, hi);
    }
  }

  lemma BorrowLeftInternalOrdered(ks: seq<int>, cs: seq<Node>, i: nat, minChildren: nat, lo: Option<int>, hi: Option<int>)
    requires Ordered(Internal(ks, cs), lo, hi) && i < |cs| && minChildren >= 1
    requires forall j :: 0 <= j < |cs| ==> cs[j].Internal? && |cs[j].children| == |cs[j].keys| + 1
    requires i > 0 && |cs[i - 1].children| > minChildren
    ensures Ordered(FixInternal(ks, cs, i, minChildren).0, lo, hi)
  {
    var k, node := i - 1, cs[i];
    var lk, lc := cs[k].keys, cs[k].children;
    var lower, upper := LowerOf(ks, lo, k), UpperOf(ks, hi, k + 1);
    PairOrdered(ks, cs, k, lo, hi);
    MergeInternalOrdered(lk, lc, ks[k], node.keys, node.children, lower, upper);
    var mk, mc, p := lk + [ks[k]] + node.keys, lc + node.children, |lk| - 1;
    SplitInternalAtOrdered(mk, mc, p, lower, upper);
    assert mk[..p] == lk[..p] && mc[..p + 1] == lc[..|lc| - 1] && mk[p] == lk[p];
    assert mk[p + 1..] == [ks[k]] + node.keys && mc[p + 1..] == [lc[|lc| - 1]] + node.children;
    ReplacePairOrdered(ks, cs, k, Internal(lk[..p], lc[..|lc| - 1]), lk[p],
      Internal([ks[k]] + node.keys, [lc[|lc| - 1]] + node.children), lo, hi);
  }

  lemma BorrowRightInternalOrdered(ks: seq<int>, cs: seq<Node>, i: nat, minChildren: nat, lo: Option<int>, hi: Option<int>)
    requires Ordered(Internal(ks, cs), lo, hi) && i < |cs| && minChildren >= 1
    requires forall j :: 0 <= j < |cs| ==> cs[j].Internal? && |cs[j].children| == |cs[j].keys| + 1
    requires !(i > 0 && |cs[i - 1].children| > minChildren) && i + 1 < |cs| && |cs[i + 1].children| > minChildren
    ensures Ordered(FixInternal(ks, cs, i, minChildren).0, lo, hi)
  {
    var node, rk, rc := cs[i], cs[i + 1].keys, cs[i + 1].children;
    var lower, upper := LowerOf(ks, lo, i), UpperOf(ks, hi, i + 1);
    PairOrdered(ks, cs, i, lo, hi);
    MergeInternalOrdered(node.keys, node.children, ks[i], rk, rc, lower, upper);
    var mk, mc, p := node.keys + [ks[i]] + rk, node.children + rc, |node.keys| + 1;
    SplitInternalAtOrdered(mk, mc, p, lower, upper);
    assert mk[..p] == node.keys + [ks[i]] && mc[..p + 1] == node.children + [rc[0]] && mk[p] == rk[0];
    assert mk[p + 1..] == rk[1..] && mc[p + 1..] == rc[1..];
    ReplacePairOrdered(ks, cs, i, Internal(node.keys + [ks[i]], node.children + [rc[0]]), rk[0],
      Internal(rk[1..], rc[1..]), lo, hi);
  }

  lemma MergeInternalPairOrdered(ks: seq<int>, cs: seq<Node>, k: nat, lo: Option<int>, hi: Option<int>)
    requires Ordered(Internal(ks, cs), lo, hi) && k + 1 < |cs| && cs[k].Internal? && cs[k + 1].Internal?
    ensures Ordered(MergePair(ks, cs, k, Internal(cs[k].keys + [ks[k]] + cs[k + 1].keys, cs[k].children + cs[k + 1].children)), lo, hi)
  {
    var l, r := cs[k], cs[k + 1];
    PairOrdered(ks, cs, k, lo, hi);
    MergeInternalOrdered(l.keys, l.children, ks[k], r.keys, r.children, LowerOf(ks, lo, k), UpperOf(ks, hi, k + 1));
    MergePairOrdered(ks, cs, k, Internal(l.keys + [ks[k]] + r.keys, l.children + r.children), lo, hi);
  }

  /** Erasing a key from an ordered leaf leaves it ordered. */
  lemma {:induction false} RemoveFirstOrdered(ks: seq<int>, key: int, lo: Option<int>, hi: Option<int>)
    requires Ordered(Leaf(ks), lo, hi)
    ensures Ordered(Leaf(RemoveFirst(ks, key)), lo, hi)
  {
    if |ks| > 0 {
      var tail := ks[1..];
      // The keys after the first are at least one more than it.
      var above := Some(ks[0] + 1);
      assert Ordered(Leaf(tail), above, hi) by {
        forall j | 0 <= j < |tail|
          ensures tail[j] == ks[j + 1]
        {
        }
      }
      if ks[0] != key {
        RemoveFirstOrdered(tail, key, above, hi);
        var r := RemoveFirst(tail, key);
        assert RemoveFirst(ks, key) == [ks[0]] + r;
      }
    }
  }

  /** The parent's side of a removal keeps an ordered node ordered. */
  lemma AbsorbOrdered(ks: seq<int>, cs: seq<Node>, i: nat, sub: Removal, minKeys: nat, minChildren: nat, lo: Option<int>, hi: Option<int>)
    requires WellFormed(Internal(ks, cs)) && i < |cs| && minKeys >= 1 && minChildren >= 1
    requires WellFormed(sub.node) && Height(sub.node) == Height(cs[i])
    requires Ordered(Internal(ks, cs), lo, hi) && Ordered(sub.node, LowerOf(ks, lo, i), UpperOf(ks, hi, i))
    ensures Ordered(Absorb(ks, cs, i, sub, minKeys, minChildren).node, lo, hi)
  {
    var cs' := cs[i := sub.node];
    assert Ordered(Internal(ks, cs'), lo, hi) by {
      forall j | 0 <= j < |cs'|
        ensures Ordered(cs'[j], LowerOf(ks, lo, j), UpperOf(ks, hi, j))
      {
      }
    }
    if sub.underflow {
      NodeUniform(Internal(ks, cs));
      assert Uniform(cs', Height(Internal(ks, cs)) - 1);
      KindsAgree(cs', Height(Internal(ks, cs)) - 1);
      if sub.node.Leaf? {
        FixLeafOrdered(ks, cs', i, minKeys, lo, hi);
      } else {
        FixInternalOrdered(ks, cs', i, minChildren, lo, hi);
      }
    }
  }

  /** Removal keeps an ordered subtree ordered within the same bounds. */
  lemma {:induction false} RemoveFromOrdered(n: Node, key: int, minKeys: nat, minChildren: nat, lo: Option<int>, hi: Option<int>)
    requires WellFormed(n) && minKeys >= 1 && minChildren >= 1 && Ordered(n, lo, hi)
    ensures Ordered(RemoveFrom(n, key, minKeys, minChildren).node, lo, hi)
  {
    match n
    case Leaf(ks) =>
      RemoveFirstOrdered(ks, key, lo, hi);
    case Internal(ks, cs) =>
      var i := FirstGreater(ks, key);
      var sub := RemoveFrom(cs[i], key, minKeys, minChildren);
      RemoveFromOrdered(cs[i], key, minKeys, minChildren, LowerOf(ks, lo, i), UpperOf(ks, hi, i));
      AbsorbOrdered(ks, cs, i, sub, minKeys, minChildren, lo, hi);
  }

  // The tree object (lines 16-57 and 205-274).

  /** Lines 26-29: the index scan of find_leaf, the first separator above key. */
  method ChildIndex(ks: seq<int>, key: int) returns (i: nat)
    ensures i == FirstGreater(ks, key)
  {
    i := 0;
    while i < |ks| && key >= ks[i]
      invariant i <= FirstGreater(ks, key)
    {
      i := i + 1;
    }
  }

  /** Lines 22-32: descends from n to the leaf where key is or would be stored. */
  method FindLeaf(n: Node, key: int) returns (leaf: Node)
    requires WellFormed(n)
    ensures leaf == LeafFor(n, key)
    decreases n
  {
    if n.Leaf? {
      return n;
    }
    var i := ChildIndex(n.keys, key);
    leaf := FindLeaf(n.children[i], key);
  }

  /** The keys a whole tree stores: none for the empty tree. */
  ghost function Stored(root: Option<Node>): multiset<int>
  {
    if root.None? then multiset{} else Elems(root.value)
  }

  /** Lines 75-81 and 118-124: a split that reaches the root puts a new root with one separator above the halves. */
  function Grow(g: Grown): Node
  {
    match g
    case Fit(n) => n
    case Split(l, s, r) => Internal([s], [l, r])
  }

  /** Insertion below the root, with the root grown when it split, keeps the tree well formed and adds key once. */
  lemma GrowParts(n: Node, key: int, m: nat)
    requires WellFormed(n) && m >= 1
    ensures WellFormed(Grow(InsertInto(n, key, m)))
    ensures Elems(Grow(InsertInto(n, key, m))) == Elems(n) + multiset{key}
  {
    InsertIntoParts(n, key, m);
    var g := InsertInto(n, key, m);
    if g.Split? {
      var l, r := g.left, g.right;
      assert Uniform([l, r], Height(n));
      UniformNode([g.sep], [l, r], Height(n));
      assert [l, r] == [l] + [r];
      ElemsOfAppend([l], [r]);
      ElemsOfSingle(l);
      ElemsOfSingle(r);
    }
  }

  /** Inserting a key not yet stored keeps the whole tree ordered. */
  lemma GrowOrdered(n: Node, key: int, m: nat)
    requires WellFormed(n) && m >= 1 && Ordered(n, None, None) && key !in Elems(n)
    ensures Ordered(Grow(InsertInto(n, key, m)), None, None)
  {
    InsertOrdered(n, key, m, None, None);
    var g := InsertInto(n, key, m);
    if g.Split? {
      var top := Internal([g.sep], [g.left, g.right]);
      assert ChildrenOrdered(top.keys, top.children, None, None) by {
        assert LowerOf(top.keys, None, 0) == None && UpperOf(top.keys, None, 0) == Some(g.sep);
        assert LowerOf(top.keys, None, 1) == Some(g.sep) && UpperOf(top.keys, None, 1) == None;
      }
    }
  }

  /**
   * Lines 213-219, 264-269 and 195-198: a root leaf left empty empties the
   * tree, and a root that a merge left with a single child gives way to it.
   */
  function Shrink(r: Removal): Option<Node>
  {
    match r.node
    case Leaf(ks) => if |ks| == 0 then None else Some(r.node)
    case Internal(ks, cs) => if r.merged && |cs| == 1 then Some(cs[0]) else Some(r.node)
  }

  /** Shrinking the root keeps every key, the shape and the order. */
  lemma ShrinkParts(r: Removal)
    requires WellFormed(r.node)
    ensures Stored(Shrink(r)) == Elems(r.node)
    ensures Shrink(r).Some? ==> WellFormed(Shrink(r).value)
    ensures Ordered(r.node, None, None) && Shrink(r).Some? ==> Ordered(Shrink(r).value, None, None)
  {
    match r.node
    case Leaf(ks) =>
    case Internal(ks, cs) =>
      if r.merged && |cs| == 1 {
        assert cs == [cs[0]];
        ElemsOfSingle(cs[0]);
        if Ordered(r.node, None, None) {
          assert ChildrenOrdered(ks, cs, None, None);
          assert LowerOf(ks, None, 0) == None && UpperOf(ks, None, 0) == None;
        }
      }
  }

  class Tree {
    var root: Option<Node>
    /** The order M: a leaf holds at most this many keys, an internal node this many children. */
    const order: nat
    /** MIN_KEYS_LEAF: a non-root leaf with fewer keys is underfull. */
    const minKeys: nat
    /** MIN_CHILDREN: a non-root internal node with fewer children is underfull. */
    const minChildren: nat

    ghost predicate Valid()
      reads this
    {
      order >= 1 && minKeys >= 1 && minChildren >= 1 && (root.Some? ==> WellFormed(root.value))
    }

    ghost function Contents(): multiset<int>
      reads this
    {
      Stored(root)
    }

    /** Search order over the whole tree, with no outer bounds. */
    ghost predicate Sorted()
      reads this
    {
      root.Some? ==> Ordered(root.value, None, None)
    }

    /** Line 16: an empty tree. */
    constructor (order: nat, minKeys: nat, minChildren: nat)
      requires order >= 1 && minKeys >= 1 && minChildren >= 1
      ensures Valid() && Sorted() && root.None? && Contents() == multiset{}
      ensures this.order == order && this.minKeys == minKeys && this.minChildren == minChildren
    {
      this.order, this.minKeys, this.minChildren := order, minKeys, minChildren;
      root := None;
    }

    /**
     * Lines 34-39: looks key up in the leaf find_leaf reaches. In an ordered
     * tree that is the same as asking whether the tree stores key.
     */
    method Search(key: int) returns (found: bool)
      requires Valid()
      ensures found == (root.Some? && key in LeafFor(root.value, key).keys)
      ensures Sorted() ==> (found <==> key in Contents())
    {
      if root.None? {
        return false;
      }
      var leaf := FindLeaf(root.value, key);
      found := key in leaf.keys;
      if Sorted() {
        LeafForFinds(root.value, None, None, key);
      }
    }

    /**
     * Lines 41-57 with lines 74-81 and 118-124: the first key makes a
     * one-key leaf root; otherwise the key goes into its leaf, and a split
     * that reaches the root puts a new root with one separator above the
     * two halves. The tree grows by one copy of key and, when key was not
     * yet stored, stays ordered.
     */
    method Insert(key: int)
      requires Valid()
      modifies this
      ensures Valid()
      ensures Contents() == old(Contents()) + multiset{key}
      ensures old(root).None? ==> root == Some(Leaf([key]))
      ensures old(Sorted()) && key !in old(Contents()) ==> Sorted()
    {
      if root.None? {
        root := Some(Leaf([key]));
        return;
      }
      GrowParts(root.value, key, order);
      if Sorted() && key !in Contents() {
        GrowOrdered(root.value, key, order);
      }
      root := Some(Grow(InsertInto(root.value, key, order)));
    }

    /**
     * Lines 205-274: erases one copy of key from the leaf find_leaf reaches
     * and reports whether there was one. A root leaf left empty empties the
     * tree; a root that a merge leaves with one child is replaced by that
     * child (lines 264-269 and 195-198).
     */
    method Remove(key: int) returns (removed: bool)
      requires Valid()
      modifies this
      ensures Valid()
      ensures removed == (old(root).Some? && key in LeafFor(old(root).value, key).keys)
      ensures !removed ==> root == old(root)
      ensures Contents() + Gone(removed, key) == old(Contents())
      ensures old(root) == Some(Leaf([key])) ==> root.None?
      ensures old(Sorted()) ==> Sorted() && (removed <==> key in old(Contents()))
    {
      if root.None? {
        return false;
      }
      var n := root.value;
      var r := RemoveFrom(n, key, minKeys, minChildren);
      RemoveFromElems(n, key, minKeys, minChildren);
      if Ordered(n, None, None) {
        RemoveFromOrdered(n, key, minKeys, minChildren, None, None);
        LeafForFinds(n, None, None, key);
      }
      if !r.found {
        return false;
      }
      ShrinkParts(r);
      removed := true;
      root := Shrink(r);
    }
  }
}

=== FILE: b_tree.dfy ===
/**
 * The B-tree of LapkinYD/b_tree/BTree.cpp: nodes with a fixed array of
 * 2T-1 keys and 2T child pointers, keysCount live keys, and a parent link.
 * The minimum degree T is declared in BTree.h, which is not part of this
 * model; it is a constructor argument here. Keys are doubles in the source
 * and reals here: only comparisons and copies are applied to them.
 */
module BTree {
  import opened Wrappers
  import Sequences

  /** Non-decreasing. */
  ghost predicate Ascending(s: seq<real>)
  {
    forall p, q :: 0 <= p < q < |s| ==> s[p] <= s[q]
  }

  /**
   * The invariant of the gnome sort in sortKeys and sortChildPointers: the
   * element at i is being carried down, everything else below j is in order,
   * and the carried element is no larger than what it has passed.
   */
  ghost predicate Carrying(s: seq<real>, i: nat, j: nat)
  {
    (forall p, q :: 0 <= p < q < |s| && q < j && p != i && q != i ==> s[p] <= s[q]) &&
    (forall q :: i < q < |s| && q < j ==> s[i] <= s[q])
  }

  /** s with the adjacent entries at i-1 and i exchanged. */
  function SwapDown<T>(s: seq<T>, i: nat): (r: seq<T>)
    requires 0 < i < |s|
    ensures |r| == |s| && multiset(r) == multiset(s)
  {
    SwapDownMultiset(s, i);
    s[i - 1 := s[i]][i := s[i - 1]]
  }

  lemma SwapDownMultiset<T>(s: seq<T>, i: nat)
    requires 0 < i < |s|
    ensures multiset(s[i - 1 := s[i]][i := s[i - 1]]) == multiset(s)
  {
    var r := s[i - 1 := s[i]][i := s[i - 1]];
    assert s == s[..i - 1] + [s[i - 1], s[i]] + s[i + 1..];
    assert r == s[..i - 1] + [s[i], s[i - 1]] + s[i + 1..];
  }

  /** A carried element that is larger than its left neighbour settles: the prefix below j is in order. */
  lemma Settle(s: seq<real>, i: nat, j: nat)
    requires i < j && Carrying(s, i, j)
    requires i == 0 || i >= |s| || s[i - 1] < s[i]
    ensures Carrying(s, j, j + 1)
  {
    forall p, q | 0 <= p < q < |s| && q < j + 1 && p != j && q != j
      ensures s[p] <= s[q]
    {
      if q == i && p < i - 1 {
        assert s[p] <= s[i - 1];
      }
    }
  }

  /** Exchanging the carried element with a larger-or-equal left neighbour carries it one step further. */
  lemma StepDown(s: seq<real>, i: nat, j: nat)
    requires 0 < i < j && i < |s| && Carrying(s, i, j) && s[i] <= s[i - 1]
    ensures Carrying(SwapDown(s, i), i - 1, j)
  {
    var r := SwapDown(s, i);
    forall q | i - 1 < q < |r| && q < j
      ensures r[i - 1] <= r[q]
    {
      if q > i {
        assert r[q] == s[q];
      }
    }
    forall p, q | 0 <= p < q < |r| && q < j && p != i - 1 && q != i - 1
      ensures r[p] <= r[q]
    {
      if q == i {
        assert r[q] == s[i - 1];
      } else if p == i {
        assert r[p] == s[i - 1] && r[q] == s[q];
      } else {
        assert r[p] == s[p] && r[q] == s[q];
      }
    }
  }

  class Node {
    const keys: array<real>
    const children: array<Node?>
    var keysCount: nat
    var parent: Node?
    /** How far the node sits above the leaves; a child is always lower than its parent. */
    ghost const height: nat

    /** Lines 4-18 (createNode): no keys, every key slot zero and every child slot null. */
    constructor (t: nat, parent: Node?, ghost height: nat)
      requires t >= 1
      ensures keys.Length == 2 * t - 1 && children.Length == 2 * t
      ensures fresh(keys) && fresh(children)
      ensures keysCount == 0 && this.parent == parent && this.height == height
      ensures forall k :: 0 <= k < children.Length ==> children[k] == null
      ensures forall k :: 0 <= k < keys.Length ==> keys[k] == 0.0
    {
      keys := new real[2 * t - 1](_ => 0.0);
      children := new Node?[2 * t](_ => null);
      keysCount := 0;
      this.parent := parent;
      this.height := height;
    }

    ghost predicate Sized()
      reads this
    {
      keysCount <= keys.Length && keys.Length < children.Length
    }

    /** The keys in use: the first keysCount slots. */
    ghost function Live(): seq<real>
      reads this, keys
      requires keysCount <= keys.Length
    {
      keys[..keysCount]
    }

    /** Lines 190-197 (searchInNode): the first slot among the live keys that holds value. */
    method SearchInNode(value: real) returns (pos: Option<nat>)
      requires keysCount <= keys.Length
      ensures pos.Some? ==> pos.value < keysCount && keys[pos.value] == value && value !in keys[..pos.value]
      ensures pos.None? <==> value !in Live()
    {
      var i := 0;
      while i < keysCount
        invariant i <= keysCount
        invariant value !in keys[..i]
      {
        if value == keys[i] {
          return Some(i);
        }
        i := i + 1;
      }
      assert keys[..i] == Live();
      return None;
    }

    /**
     * The shape of a B-tree node: a leaf has no child in any slot; any other
     * node holds at least one key and has a child in each of its
     * keysCount+1 child slots.
     */
    ghost predicate Shaped()
      reads this, children
    {
      0 < children.Length && keysCount < children.Length &&
      if children[0] == null then forall k :: 0 <= k < children.Length ==> children[k] == null
      else keysCount > 0 && forall k :: 0 <= k <= keysCount ==> children[k] != null
    }

    /** Every child comes from kids and sits lower than below. */
    ghost predicate Within(kids: set<Node>, below: nat)
      reads this, children
    {
      forall k :: 0 <= k < children.Length && children[k] != null ==> children[k] in kids && children[k].height < below
    }

    /**
     * Lines 106-109 (insertToNode, a node with room): value goes to the first
     * free key slot, then sortKeys.
     */
    method Place(value: real, ghost kids: set<Node>, ghost below: nat)
      requires Sized() && keysCount < keys.Length && Within(kids, below)
      modifies this, keys, children
      ensures keysCount == old(keysCount) + 1 && parent == old(parent)
      ensures Ascending(Live()) && multiset(Live()) == old(multiset(Live())) + multiset{value}
      ensures Within(kids, below)
    {
      keys[keysCount] := value;
      keysCount := keysCount + 1;
      assert keys[..keysCount] == old(Live()) + [value];
      SortKeys(kids, below);
    }

    /**
     * Lines 237-240 (removeFromLeaf), with the copy stopping at the last
     * live key: the keys after slot i move one slot left and the node has
     * one key fewer. The source copies one slot further; see ShiftReads.
     */
    method ShiftOut(i: nat)
      requires keysCount <= keys.Length && i < keysCount
      modifies this, keys
      ensures keysCount == old(keysCount) - 1 && parent == old(parent)
      ensures Live() == Without(old(Live()), i)
      ensures forall q :: keysCount <= q < keys.Length ==> keys[q] == old(keys[q])
    {
      var k := i;
      while k < keysCount - 1
        invariant i <= k <= keysCount - 1 && keysCount == old(keysCount) && parent == old(parent)
        invariant forall q :: 0 <= q < i ==> keys[q] == old(keys[q])
        invariant forall q :: i <= q < k ==> keys[q] == old(keys[q + 1])
        invariant forall q :: k <= q < keys.Length ==> keys[q] == old(keys[q])
      {
        keys[k] := keys[k + 1];
        k := k + 1;
      }
      keysCount := keysCount - 1;
    }

    /**
     * Lines 235-243 (removeFromLeaf, the removal itself): the first live
     * slot holding value is shifted out; without one the node stays as it
     * is.
     */
    method DropKey(value: real)
      requires keysCount <= keys.Length
      modifies this, keys
      ensures keysCount <= keys.Length && parent == old(parent)
      ensures value in old(Live()) ==> Live() == Without(old(Live()), IndexOfKey(old(Live()), value))
      ensures value !in old(Live()) ==> Live() == old(Live())
      ensures old(Shaped()) && children[0] == null ==> Shaped()
    {
      var pos := SearchInNode(value);
      if pos.Some? {
        assert IndexOfKey(Live(), value) == pos.value;
        ShiftOut(pos.value);
      }
    }

    /**
     * Lines 39-61 (sortChildPointers): a gnome sort over the first
     * keysCount+1 child slots, ordered by each child's first key slot. A
     * null child counts as in place, and the children compared must be
     * present: no child may follow a null slot.
     */
    method SortChildPointers()
      requires Sized()
      requires NullsLast(children[..keysCount + 1])
      requires forall k :: 0 <= k <= keysCount && children[k] != null ==> children[k].keys.Length > 0
      modifies children
      ensures NullsLast(children[..keysCount + 1])
      ensures forall p, q :: 0 <= p < q <= keysCount && children[q] != null ==>
                children[p] != null && children[p].keys.Length > 0 && children[q].keys.Length > 0 &&
                children[p].keys[0] <= children[q].keys[0]
      ensures multiset(children[..keysCount + 1]) == multiset(old(children[..keysCount + 1]))
      ensures children[keysCount + 1..] == old(children[keysCount + 1..])
    {
      ghost var before := children[..keysCount + 1];
      ghost var m := LeadingRun(before);
      ghost var live, rest := before[..m], before[m..];
      assert before == live + rest;
      ghost var first, fk := RecordFirsts(live);
      live, fk := GnomeWalk(live, first, fk);
      ghost var after := children[..keysCount + 1];
      assert after == live + rest;
      SortedChildren(before, live, rest, first, fk);
      assert multiset(after) == multiset(before);
      assert children[..keysCount + 1] == after;
      assert old(children[..keysCount + 1]) == before;
      assert multiset(children[..keysCount + 1]) == multiset(before);
      forall p, q | 0 <= p < q <= keysCount && children[q] != null
        ensures children[p] != null && children[p].keys.Length > 0 && children[q].keys.Length > 0
        ensures children[p].keys[0] <= children[q].keys[0]
      {
        var a, b := children[p], children[q];
        assert a == after[p] && b == after[q];
        assert a.keys[0] == old(a.keys[0]) && b.keys[0] == old(b.keys[0]);
      }
    }

    /**
     * The loop on lines 44-60 over the present children, tracked in live
     * with their first keys fk as recorded in first: it leaves them ordered
     * by first key.
     */
    method GnomeWalk(ghost live0: seq<Node?>, ghost first: map<Node, real>, ghost fk0: seq<real>)
      returns (ghost live: seq<Node?>, ghost fk: seq<real>)
      requires Sized() && Holds(live0) && Labels(live0, first, fk0)
      requires forall c :: c in first ==> c.keys.Length > 0 && c.keys[0] == first[c]
      modifies children
      ensures |live| == |live0| && Holds(live)
      ensures Labels(live, first, fk) && multiset(live) == multiset(live0) && Ascending(fk)
      ensures forall k :: keysCount < k < children.Length ==> children[k] == old(children[k])
    {
      var i: nat, j: nat := 1, 2;
      live, fk := live0, fk0;
      while i < keysCount + 1
        invariant |live| == |live0| && Holds(live)
        invariant Labels(live, first, fk) && multiset(live) == multiset(live0)
        invariant forall k :: keysCount < k < children.Length ==> children[k] == old(children[k])
        invariant 0 < i < j && (j <= keysCount + 1 || j == i + 1)
        invariant Carrying(fk, i, j)
        decreases keysCount + 2 - j, i
      {
        i, j, live, fk := GnomeStep(i, j, live, first, fk);
      }
    }

    /** The child slots hold the children in live, then null slots up to keysCount. */
    ghost predicate Holds(live: seq<Node?>)
      reads this, children
    {
      |live| <= keysCount + 1 <= children.Length &&
      (forall k :: 0 <= k < |live| ==> children[k] == live[k]) &&
      (forall k :: |live| <= k <= keysCount ==> children[k] == null)
    }

    /**
     * One pass of the loop on lines 44-60: the child at i either stays, and
     * the walk jumps ahead to j, or trades places with its left neighbour.
     * The present children are tracked in live, with their first keys fk as
     * recorded in first.
     */
    method GnomeStep(i: nat, j: nat, ghost live: seq<Node?>, ghost first: map<Node, real>, ghost fk: seq<real>)
      returns (i': nat, j': nat, ghost live': seq<Node?>, ghost fk': seq<real>)
      requires Sized() && 0 < i < keysCount + 1 && Holds(live) && Labels(live, first, fk)
      requires forall c :: c in first ==> c.keys.Length > 0 && c.keys[0] == first[c]
      requires i < j && (j <= keysCount + 1 || j == i + 1) && Carrying(fk, i, j)
      modifies children
      ensures |live'| == |live| && Holds(live')
      ensures Labels(live', first, fk') && multiset(live') == multiset(live)
      ensures forall k :: keysCount < k < children.Length ==> children[k] == old(children[k])
      ensures 0 < i' < j' && (j' <= keysCount + 1 || j' == i' + 1) && Carrying(fk', i', j')
      ensures j' > j || (j' == j && i' < i)
    {
      if i < |live| {
        var c, d := children[i], children[i - 1];
        assert c == live[i] && d == live[i - 1];
        assert c.keys[0] == fk[i] && d.keys[0] == fk[i - 1];
      }
      if children[i] == null || children[i].keys[0] > children[i - 1].keys[0] {
        Settle(fk, i, j);
        i', j', live', fk' := j, j + 1, live, fk;
      } else {
        StepDown(fk, i, j);
        LabelsSwapDown(live, first, fk, i);
        ExchangeChildren(i);
        i', j', live', fk' := i - 1, j, SwapDown(live, i), SwapDown(fk, i);
        if i' == 0 {
          Settle(fk', i', j');
          i', j' := j', j' + 1;
        }
      }
    }

    /** Lines 50-52: the children in slots i and i-1 trade places. */
    method ExchangeChildren(i: nat)
      requires 0 < i < children.Length
      modifies children
      ensures children[i] == old(children[i - 1]) && children[i - 1] == old(children[i])
      ensures forall k :: 0 <= k < children.Length && k != i && k != i - 1 ==> children[k] == old(children[k])
    {
      var temp := children[i];
      children[i] := children[i - 1];
      children[i - 1] := temp;
    }

    /** Lines 74-81: the key and the child in slot i trade places with those in slot i-1. */
    method Exchange(i: nat, ghost kids: set<Node>, ghost below: nat)
      requires Sized() && 0 < i < keysCount && Within(kids, below)
      modifies keys, children
      ensures Within(kids, below)
      ensures keys[..keysCount] == SwapDown(old(keys[..keysCount]), i)
      ensures children[..keysCount] == SwapDown(old(children[..keysCount]), i)
      ensures keys[keysCount..] == old(keys[keysCount..])
      ensures children[keysCount..] == old(children[keysCount..])
    {
      var tempKey := keys[i];
      var tempChild := children[i];
      keys[i] := keys[i - 1];
      children[i] := children[i - 1];
      keys[i - 1] := tempKey;
      children[i - 1] := tempChild;
    }

    /**
     * Lines 63-91 (sortKeys): a gnome sort of the live keys in which each
     * child pointer travels with the key in the same slot. Equal keys are
     * exchanged too, so the result is non-decreasing.
     */
    method SortKeys(ghost kids: set<Node>, ghost below: nat)
      requires Sized() && Within(kids, below)
      modifies keys, children
      ensures Within(kids, below)
      ensures Ascending(Live())
      ensures multiset(Live()) == old(multiset(Live()))
      ensures multiset(Zip(keys[..keysCount], children[..keysCount])) ==
              old(multiset(Zip(keys[..keysCount], children[..keysCount])))
      ensures keys[keysCount..] == old(keys[keysCount..])
      ensures children[keysCount..] == old(children[keysCount..])
    {
      var i: nat, j: nat := 1, 2;
      ghost var before, pairs := multiset(Live()), multiset(Zip(keys[..keysCount], children[..keysCount]));
      while i < keysCount
        invariant 0 < i < j && (j <= keysCount || j == i + 1)
        invariant Carrying(keys[..keysCount], i, j)
        invariant multiset(keys[..keysCount]) == before
        invariant multiset(Zip(keys[..keysCount], children[..keysCount])) == pairs
        invariant keys[keysCount..] == old(keys[keysCount..])
        invariant children[keysCount..] == old(children[keysCount..])
        invariant Within(kids, below)
        decreases keysCount + 1 - j, i
      {
        i, j := KeyStep(i, j, kids, below);
      }
    }

    /**
     * One pass of the loop on lines 69-90: the key at i either stays, and
     * the walk jumps ahead to j, or trades places with its left neighbour,
     * taking its child pointer along.
     */
    method KeyStep(i: nat, j: nat, ghost kids: set<Node>, ghost below: nat) returns (i': nat, j': nat)
      requires Sized() && Within(kids, below)
      requires 0 < i < keysCount && i < j && (j <= keysCount || j == i + 1)
      requires Carrying(keys[..keysCount], i, j)
      modifies keys, children
      ensures Within(kids, below)
      ensures 0 < i' < j' && (j' <= keysCount || j' == i' + 1) && Carrying(keys[..keysCount], i', j')
      ensures j' > j || (j' == j && i' < i)
      ensures multiset(keys[..keysCount]) == old(multiset(keys[..keysCount]))
      ensures multiset(Zip(keys[..keysCount], children[..keysCount])) ==
              old(multiset(Zip(keys[..keysCount], children[..keysCount])))
      ensures keys[keysCount..] == old(keys[keysCount..])
      ensures children[keysCount..] == old(children[keysCount..])
    {
      ghost var ks, cs := keys[..keysCount], children[..keysCount];
      if keys[i] > keys[i - 1] {
        Settle(ks, i, j);
        i', j' := j, j + 1;
      } else {
        StepDown(ks, i, j);
        ZipSwapDown(ks, cs, i);
        Exchange(i, kids, below);
        ks, cs := SwapDown(ks, i), SwapDown(cs, i);
        i', j' := i - 1, j;
        if i' == 0 {
          Settle(ks, i', j');
          i', j' := j', j' + 1;
        }
      }
    }
  }

  /** Present children first, null slots after them. */
  ghost predicate NullsLast(cs: seq<Node?>)
  {
    forall k :: 0 < k < |cs| && cs[k] != null ==> cs[k - 1] != null
  }

  /** The length of the leading run of present children. */
  lemma LeadingRun(cs: seq<Node?>) returns (m: nat)
    requires NullsLast(cs)
    ensures m <= |cs| && null !in cs[..m] && forall k :: m <= k < |cs| ==> cs[k] == null
  {
    m := 0;
    while m < |cs| && cs[m] != null
      invariant m <= |cs| && null !in cs[..m]
    {
      m := m + 1;
    }
    var t := m;
    while t < |cs|
      invariant m <= t <= |cs| && forall k :: m <= k < t ==> cs[k] == null
    {
      assert t > m ==> cs[t - 1] == null;
      t := t + 1;
    }
  }

  /** Each child in live is present and recorded with its first key in the same slot of fk. */
  predicate Labels(live: seq<Node?>, first: map<Node, real>, fk: seq<real>)
  {
    |fk| == |live| &&
    forall k :: 0 <= k < |live| ==> live[k] != null && live[k] in first && first[live[k]] == fk[k]
  }

  /** The first key slots of the children in live, recorded before the sort moves them. */
  lemma RecordFirsts(live: seq<Node?>) returns (first: map<Node, real>, fk: seq<real>)
    requires null !in live && forall k :: 0 <= k < |live| ==> live[k].keys.Length > 0
    ensures Labels(live, first, fk)
    ensures forall c :: c in first ==> c.keys.Length > 0 && c.keys[0] == first[c]
  {
    first := map k | 0 <= k < |live| :: live[k] := live[k].keys[0];
    fk := seq(|live|, k requires 0 <= k < |live| => first[live[k]]);
  }

  /** Exchanging two children exchanges their labels. */
  lemma LabelsSwapDown(live: seq<Node?>, first: map<Node, real>, fk: seq<real>, i: nat)
    requires Labels(live, first, fk) && 0 < i < |live|
    ensures Labels(SwapDown(live, i), first, SwapDown(fk, i))
  {
  }

  /**
   * After the sort the child slots hold the sorted live children followed
   * by the null slots that were behind them.
   */
  lemma SortedChildren(before: seq<Node?>, live: seq<Node?>, rest: seq<Node?>, first: map<Node, real>, fk: seq<real>)
    requires multiset(before) == multiset(live) + multiset(rest) && null !in live
    requires forall k :: 0 <= k < |rest| ==> rest[k] == null
    requires Labels(live, first, fk) && Ascending(fk)
    ensures NullsLast(live + rest) && multiset(live + rest) == multiset(before)
    ensures forall p, q :: 0 <= p < q < |live + rest| && (live + rest)[q] != null ==>
              (live + rest)[p] != null && (live + rest)[p] in first && (live + rest)[q] in first &&
              first[(live + rest)[p]] <= first[(live + rest)[q]]
  {
  }

  /** Each key paired with the child pointer in the same slot. */
  function Zip(ks: seq<real>, cs: seq<Node?>): (r: seq<(real, Node?)>)
    requires |ks| == |cs|
    ensures |r| == |ks|
  {
    if ks == [] then [] else [(ks[0], cs[0])] + Zip(ks[1..], cs[1..])
  }

  lemma ZipSwapDown(ks: seq<real>, cs: seq<Node?>, i: nat)
    requires |ks| == |cs| && 0 < i < |ks|
    ensures Zip(SwapDown(ks, i), SwapDown(cs, i)) == SwapDown(Zip(ks, cs), i)
  {
    ZipIndex(ks, cs);
    ZipIndex(SwapDown(ks, i), SwapDown(cs, i));
  }

  lemma {:induction false} ZipIndex(ks: seq<real>, cs: seq<Node?>)
    requires |ks| == |cs|
    ensures forall k :: 0 <= k < |ks| ==> Zip(ks, cs)[k] == (ks[k], cs[k])
  {
    if ks != [] {
      ZipIndex(ks[1..], cs[1..]);
    }
  }

  /** A pairing of keys with children that is a rearrangement of another pairs up only children of the other. */
  lemma ZipSecondsIn(ks: seq<real>, cs: seq<Node?>, ks': seq<real>, cs': seq<Node?>)
    requires |ks| == |cs| && |ks'| == |cs'|
    requires multiset(Zip(ks', cs')) == multiset(Zip(ks, cs))
    ensures forall k :: 0 <= k < |cs'| ==> cs'[k] in cs
  {
    ZipIndex(ks, cs);
    ZipIndex(ks', cs');
    forall k | 0 <= k < |cs'|
      ensures cs'[k] in cs
    {
      assert Zip(ks', cs')[k] in multiset(Zip(ks, cs));
      var j :| 0 <= j < |ks| && Zip(ks, cs)[j] == Zip(ks', cs')[k];
      assert cs[j] == cs'[k];
    }
  }

  /** The index of the first entry of s that is not below value; |s| when every entry is. */
  function FirstNotBelow(s: seq<real>, value: real): (i: nat)
    ensures i <= |s| && forall k :: 0 <= k < i ==> s[k] < value
    ensures i < |s| ==> value <= s[i]
  {
    if s == [] || value <= s[0] then 0 else 1 + FirstNotBelow(s[1..], value)
  }

  /** s without its entry at i. */
  function Without(s: seq<real>, i: nat): (r: seq<real>)
    requires i < |s|
    ensures |r| == |s| - 1
    ensures forall k :: 0 <= k < |r| ==> r[k] == if k < i then s[k] else s[k + 1]
  {
    s[..i] + s[i + 1..]
  }

  /** The first slot of s holding x. */
  function IndexOfKey(s: seq<real>, x: real): (i: nat)
    requires x in s
    ensures i < |s| && s[i] == x && x !in s[..i]
  {
    if s[0] == x then 0 else
      assert s == [s[0]] + s[1..];
      1 + IndexOfKey(s[1..], x)
  }

  /**
   * The key slots the shift loop on lines 237-239 reads, as written, from
   * the pass with k onwards: each pass reads slot k+1 while k < count.
   */
  function ShiftReads(k: nat, count: nat): (r: seq<nat>)
    ensures forall q :: q in r <==> k < q <= count
    decreases count - k
  {
    if k < count then [k + 1] + ShiftReads(k + 1, count) else []
  }

  /**
   * Removing from a full node (2T-1 keys) reads slot 2T-1, one past the end
   * of its keys array.
   */
  lemma ShiftReadsPastFullNode(t: nat, i: nat)
    requires t >= 1 && i < 2 * t - 1
    ensures 2 * t - 1 in ShiftReads(i, 2 * t - 1)
  {
  }

  /** Every key held by some node of lm, once for each slot that holds it. */
  ghost function Bag(lm: map<Node, seq<real>>): multiset<real>
    decreases |lm.Keys|
  {
    if lm == map[] then multiset{}
    else
      assert exists n :: n in lm by {
        assert lm.Keys != {};
        var n :| n in lm.Keys;
      }
      var n :| n in lm;
      assert (lm - {n}).Keys < lm.Keys;
      Sequences.ProperSubsetSmaller((lm - {n}).Keys, lm.Keys);
      multiset(lm[n]) + Bag(lm - {n})
  }

  /** Any node's keys can be taken out of the fold first. */
  lemma {:induction false} BagRemove(lm: map<Node, seq<real>>, n: Node)
    requires n in lm
    ensures Bag(lm) == multiset(lm[n]) + Bag(lm - {n})
    decreases |lm.Keys|
  {
    assert exists m :: m in lm && Bag(lm) == multiset(lm[m]) + Bag(lm - {m});
    var m :| m in lm && Bag(lm) == multiset(lm[m]) + Bag(lm - {m});
    if m != n {
      Sequences.ProperSubsetSmaller((lm - {m}).Keys, lm.Keys);
      Sequences.ProperSubsetSmaller((lm - {n}).Keys, lm.Keys);
      BagRemove(lm - {m}, n);
      BagRemove(lm - {n}, m);
      assert lm - {m} - {n} == lm - {n} - {m};
      assert (lm - {m})[n] == lm[n] && (lm - {n})[m] == lm[m];
    }
  }

  /** Replacing (or adding) one node's keys leaves the other nodes' share of the fold as it was. */
  lemma BagUpdate(lm: map<Node, seq<real>>, n: Node, s: seq<real>)
    ensures Bag(lm[n := s]) == Bag(lm - {n}) + multiset(s)
    ensures n in lm ==> Bag(lm) == Bag(lm - {n}) + multiset(lm[n])
    ensures n !in lm ==> Bag(lm - {n}) == Bag(lm)
  {
    BagRemove(lm[n := s], n);
    assert lm[n := s] - {n} == lm - {n};
    if n in lm {
      BagRemove(lm, n);
    } else {
      assert lm - {n} == lm;
    }
  }

  /** Dropping one entry takes one occurrence of it out of the multiset. */
  lemma WithoutMultiset(s: seq<real>, i: nat)
    requires i < |s|
    ensures multiset(Without(s, i)) + multiset{s[i]} == multiset(s)
  {
    assert s == s[..i] + [s[i]] + s[i + 1..];
  }

  /** Overwriting slot i with v trades one occurrence of the old entry for v. */
  lemma ReplaceMultiset(s: seq<real>, i: nat, v: real)
    requires i < |s|
    ensures multiset(s[i := v]) + multiset{s[i]} == multiset(s) + multiset{v}
  {
    assert s == s[..i] + [s[i]] + s[i + 1..];
    assert s[i := v] == s[..i] + [v] + s[i + 1..];
  }

  /** A multiset that is b after adding one x is b with that x taken out. */
  lemma TakeOne(a: multiset<real>, b: multiset<real>, x: real)
    requires a + multiset{x} == b
    ensures a == b - multiset{x}
  {
    assert forall y :: a[y] == b[y] - multiset{x}[y];
  }

  /** A node whose keys gain one occurrence of v adds exactly v to the fold. */
  lemma BagGains(lm: map<Node, seq<real>>, n: Node, s: seq<real>, v: real)
    requires n in lm && multiset(s) == multiset(lm[n]) + multiset{v}
    ensures Bag(lm[n := s]) == Bag(lm) + multiset{v}
  {
    BagUpdate(lm, n, s);
  }

  /** A node that drops its first occurrence of r takes one r out of the fold. */
  lemma BagDrop(lm: map<Node, seq<real>>, n: Node, r: real)
    requires n in lm && r in lm[n]
    ensures Bag(lm[n := Without(lm[n], IndexOfKey(lm[n], r))]) + multiset{r} == Bag(lm)
  {
    var s := Without(lm[n], IndexOfKey(lm[n], r));
    WithoutMultiset(lm[n], IndexOfKey(lm[n], r));
    BagUpdate(lm, n, s);
    var rest := Bag(lm - {n});
    assert Bag(lm[n := s]) == rest + multiset(s);
    assert Bag(lm) == rest + multiset(lm[n]);
  }

  /** Overwriting slot i of a node's keys with r trades that slot's key for r in the fold. */
  lemma BagReplace(lm: map<Node, seq<real>>, n: Node, i: nat, r: real)
    requires n in lm && i < |lm[n]|
    ensures Bag(lm[n := lm[n][i := r]]) + multiset{lm[n][i]} == Bag(lm) + multiset{r}
  {
    var s := lm[n][i := r];
    ReplaceMultiset(lm[n], i, r);
    BagUpdate(lm, n, s);
    var rest := Bag(lm - {n});
    assert Bag(lm[n := s]) == rest + multiset(s);
    assert Bag(lm) == rest + multiset(lm[n]);
  }

  /**
   * Moving key r out of node leaf into slot i of node n (a dead slot when
   * i is past n's keys in use) takes n's old key at slot i out of the fold,
   * or r itself when the slot is dead, and adds nothing.
   */
  lemma PredecessorMoved(lm0: map<Node, seq<real>>, lm2: map<Node, seq<real>>,
                         leaf: Node, n: Node, i: nat, r: real)
    requires leaf in lm0 && n in lm0 && leaf != n && r in lm0[leaf]
    requires lm2 == lm0[leaf := Without(lm0[leaf], IndexOfKey(lm0[leaf], r))]
                       [n := if i < |lm0[n]| then lm0[n][i := r] else lm0[n]]
    ensures i < |lm0[n]| ==> Bag(lm2) == Bag(lm0) - multiset{lm0[n][i]}
    ensures i >= |lm0[n]| ==> Bag(lm2) == Bag(lm0) - multiset{r}
  {
    var lm1 := lm0[leaf := Without(lm0[leaf], IndexOfKey(lm0[leaf], r))];
    BagDrop(lm0, leaf, r);
    if i < |lm0[n]| {
      assert lm1[n] == lm0[n];
      BagReplace(lm1, n, i, r);
      assert lm1[n := lm1[n][i := r]] == lm2;
      TakeOne(Bag(lm2), Bag(lm0), lm0[n][i]);
    } else {
      assert lm2 == lm1;
      TakeOne(Bag(lm2), Bag(lm0), r);
    }
  }

  class Tree {
    /** The minimum degree T of BTree.h: every node has 2T-1 key slots and 2T child slots. */
    const t: nat
    var root: Node
    /** Every node allocated for this tree; a node released by the root collapse stays here, empty. */
    ghost var nodes: set<Node>
    ghost var Repr: set<object>

    /**
     * The nodes have the array sizes of BTree.h, every child is a node of the
     * tree and sits lower than its parent, and no two nodes share an array.
     */
    ghost predicate Valid()
      reads this, Repr
    {
      this in Repr && nodes <= Repr && root in nodes && t >= 1 &&
      (forall n :: n in nodes ==>
         n.keys in Repr && n.children in Repr &&
         n.keys.Length == 2 * t - 1 && n.children.Length == 2 * t && n.keysCount <= 2 * t - 1) &&
      (forall n, k :: n in nodes && 0 <= k < n.children.Length && n.children[k] != null ==>
         n.children[k] in nodes && n.children[k].height < n.height) &&
      (forall n, m :: n in nodes && m in nodes && n != m ==> n.keys != m.keys && n.children != m.children)
    }

    /** The shape a B-tree keeps between operations, at every node. */
    ghost predicate Complete()
      reads this, Repr
      requires Valid()
    {
      forall n :: n in nodes ==> n.Shaped()
    }

    /** The keys in use in each node. */
    ghost function Lives(): map<Node, seq<real>>
      reads this, Repr
      requires Valid()
    {
      map n | n in nodes :: n.Live()
    }

    /** The keys in use across the tree, with one occurrence per live slot. */
    ghost function Contents(): multiset<real>
      reads this, Repr
      requires Valid()
    {
      Bag(Lives())
    }

    /**
     * The node the walk of searchNode reaches from n, or None where the walk
     * would follow a null child pointer.
     */
    ghost function Target(n: Node, value: real): (r: Option<Node>)
      reads this, Repr
      requires Valid() && n in nodes
      ensures r.Some? ==> r.value in nodes && r.value.height <= n.height
      ensures r.None? ==> n.keysCount > 0
      decreases n.height
    {
      if n.keysCount == 0 then Some(n)
      else if value > n.keys[n.keysCount - 1] then
        if n.children[0] == null then Some(n)
        else if n.children[n.keysCount] == null then None
        else Target(n.children[n.keysCount], value)
      else
        var i := FirstNotBelow(n.keys[..n.keysCount], value);
        if value == n.keys[i] || n.children[i] == null then Some(n)
        else Target(n.children[i], value)
    }

    /** The search walk from the root ends at a node that holds value. */
    ghost predicate Found(value: real)
      reads this, Repr
      requires Valid()
    {
      Target(root, value).Some? && value in Target(root, value).value.Live()
    }

    lemma InContents(n: Node, x: real)
      requires Valid() && n in nodes && x in n.Live()
      ensures x in Contents()
    {
      BagUpdate(Lives(), n, n.Live());
      assert Lives()[n := n.Live()] == Lives();
    }

    /**
     * In a complete tree the walk always ends, at a node that holds value or
     * at a leaf.
     */
    lemma {:induction false} TargetInComplete(n: Node, value: real)
      requires Valid() && Complete() && n in nodes
      ensures Target(n, value).Some?
      ensures value in Target(n, value).value.Live() || Target(n, value).value.children[0] == null
      decreases n.height
    {
      if n.keysCount == 0 {
        assert Target(n, value) == Some(n) && n.children[0] == null;
      } else if value > n.keys[n.keysCount - 1] {
        if n.children[0] == null {
          assert Target(n, value) == Some(n);
        } else {
          var c := n.children[n.keysCount];
          assert c != null && Target(n, value) == Target(c, value);
          TargetInComplete(c, value);
        }
      } else {
        var i := FirstNotBelow(n.keys[..n.keysCount], value);
        var c := n.children[i];
        if value == n.keys[i] {
          assert Target(n, value) == Some(n) && n.keys[..n.keysCount][i] == value;
        } else if c != null {
          assert Target(n, value) == Target(c, value);
          TargetInComplete(c, value);
        } else {
          assert Target(n, value) == Some(n) && n.children[0] == null;
        }
      }
    }

    /** An empty tree: a root leaf made by createNode, of minimum degree t. */
    constructor (t: nat)
      requires t >= 1
      ensures Valid() && Complete() && Contents() == multiset{} && this.t == t
    {
      var r := new Node(t, null, 0);
      this.t := t;
      root := r;
      nodes := {r};
      new;
      Repr := {this, r, r.keys, r.children};
      BagUpdate(map[], r, []);
      assert Lives() == map[][r := []];
    }

    /**
     * Lines 165-188 (searchNode): from cur, go right of the last key when
     * value exceeds it, otherwise stop at the first key not below value or
     * go down to its left. The null return after the scan is never reached:
     * value is at most the last key, so the scan stops at the latest there.
     */
    method SearchNode(cur: Node, value: real) returns (r: Option<Node>)
      requires Valid() && cur in nodes
      ensures r == Target(cur, value)
      decreases cur.height
    {
      if cur.keysCount == 0 {
        return Some(cur);
      }
      if value > cur.keys[cur.keysCount - 1] {
        if cur.children[0] == null {
          return Some(cur);
        }
        if cur.children[cur.keysCount] == null {
          return None;
        }
        r := SearchNode(cur.children[cur.keysCount], value);
        return;
      }
      var i := 0;
      while true
        invariant i < cur.keysCount
        invariant forall k :: 0 <= k < i ==> cur.keys[k] < value
        decreases cur.keysCount - i
      {
        if value == cur.keys[i] || value < cur.keys[i] {
          assert FirstNotBelow(cur.keys[..cur.keysCount], value) == i;
          if value == cur.keys[i] || cur.children[i] == null {
            return Some(cur);
          }
          r := SearchNode(cur.children[i], value);
          return;
        }
        i := i + 1;
      }
    }

    /** Lines 160-163 (search): the slot holding value in the node the walk reaches. */
    method Search(value: real) returns (r: Option<(Node, nat)>)
      requires Valid()
      ensures r.Some? <==> Found(value)
      ensures r.Some? ==> r.value.0 == Target(root, value).value && r.value.1 < r.value.0.keysCount &&
                          r.value.0.keys[r.value.1] == value
      ensures r.Some? ==> value in Contents()
    {
      var target := SearchNode(root, value);
      if target.None? {
        return None;
      }
      var pos := target.value.SearchInNode(value);
      if pos.None? {
        return None;
      }
      r := Some((target.value, pos.value));
      assert target.value.Live()[pos.value] == value;
      InContents(target.value, value);
    }

    /**
     * A change confined to node n and its arrays keeps the tree valid as
     * long as n's children are still lower nodes of the tree, and changes
     * the keys in use of n alone.
     */
    twostate lemma Touched(n: Node)
      requires old(Valid()) && n in old(nodes) && unchanged(this)
      requires forall m :: m in old(nodes) && m != n ==> unchanged(m) && unchanged(m.keys) && unchanged(m.children)
      requires n.keysCount <= 2 * t - 1
      requires forall k :: 0 <= k < n.children.Length && n.children[k] != null ==>
                 n.children[k] in nodes && n.children[k].height < n.height
      ensures Valid() && Lives() == old(Lives())[n := n.Live()]
      ensures old(Complete()) && n.Shaped() ==> Complete()
    {
      assert forall m :: m in nodes && m != n ==> m.Live() == old(m.Live());
    }

    /**
     * Lines 105-109 (insertToNode, a node with room): value goes to the
     * first free key slot and the node's keys are sorted again. A full node
     * is left as it is: the split on lines 110-157 is not part of this model.
     */
    method InsertToNode(n: Node, value: real)
      requires Valid() && n in nodes
      modifies n, n.keys, n.children
      ensures Valid() && n.parent == old(n.parent)
      ensures old(n.keysCount) < 2 * t - 1 ==>
                n.keysCount == old(n.keysCount) + 1 && Ascending(n.Live()) &&
                multiset(n.Live()) == old(multiset(n.Live())) + multiset{value}
      ensures old(n.keysCount) < 2 * t - 1 ==> Contents() == old(Contents()) + multiset{value}
      ensures old(n.keysCount) == 2 * t - 1 ==> unchanged(n, n.keys, n.children)
      ensures old(Complete()) && old(n.children[0]) == null ==> Complete()
    {
      if n.keysCount < 2 * t - 1 {
        ghost var lives := Lives();
        ghost var kids := set k | 0 <= k < n.children.Length && n.children[k] != null :: n.children[k];
        assert kids <= nodes;
        n.Place(value, kids, n.height);
        Touched(n);
        BagGains(lives, n, n.Live(), value);
      }
    }

    /** A step that changes nothing the tree owns leaves every view of it as it was. */
    twostate lemma Unmoved(value: real)
      requires old(Valid()) && unchanged(this) && unchanged(Repr)
      ensures Valid() && Complete() == old(Complete()) && Contents() == old(Contents())
      ensures Target(root, value) == old(Target(root, value)) && Found(value) == old(Found(value))
    {
    }

    /** Nor does it change whether removeFromNode can finish where the walk for value ends. */
    twostate lemma UnmovedRemovable(value: real)
      requires old(Valid()) && unchanged(this) && unchanged(Repr)
      requires old(Target(root, value)).Some?
      ensures Valid() && Target(root, value) == old(Target(root, value))
      ensures Removable(Target(root, value).value, value) == old(Removable(Target(root, value).value, value))
    {
    }

    /**
     * Lines 93-103 (insert): a value the walk finds is left alone (the source
     * only reports it); otherwise it goes into the node the walk reaches.
     */
    method Insert(value: real)
      requires Valid()
      modifies Repr
      ensures Valid() && nodes == old(nodes) && Repr == old(Repr) && root == old(root)
      ensures old(Found(value)) ==> unchanged(Repr)
      ensures old(Target(root, value)).Some? && !old(Found(value)) &&
              old(Target(root, value).value.keysCount) < 2 * t - 1 ==>
                Contents() == old(Contents()) + multiset{value}
      ensures old(Complete()) ==> Complete()
    {
      var target := SearchNode(root, value);
      if target.None? {
        return;
      }
      Unmoved(value);
      ghost var complete := Complete();
      if complete {
        TargetInComplete(root, value);
      }
      InsertAt(target.value, value);
    }

    /**
     * Lines 96-102: a value already among n's keys is only reported;
     * otherwise it goes into n.
     */
    method InsertAt(n: Node, value: real)
      requires Valid() && n in nodes
      modifies n, n.keys, n.children
      ensures Valid()
      ensures value in old(n.Live()) ==> unchanged(n, n.keys, n.children)
      ensures value !in old(n.Live()) && old(n.keysCount) < 2 * t - 1 ==>
                Contents() == old(Contents()) + multiset{value}
      ensures old(Complete()) && (value in old(n.Live()) || old(n.children[0]) == null) ==> Complete()
    {
      var position := n.SearchInNode(value);
      Unmoved(value);
      if position.Some? {
        return;
      }
      InsertToNode(n, value);
    }

    /**
     * Adding a new node with no keys in use, whose children are nodes of
     * the tree below it, keeps the tree valid and adds no keys.
     */
    twostate lemma Adopted(new p: Node)
      requires old(Valid()) && fresh(p) && fresh(p.keys) && fresh(p.children)
      requires nodes == old(nodes) + {p} && Repr == old(Repr) + {p, p.keys, p.children} && root in nodes
      requires forall m :: m in old(nodes) ==> m.keysCount == old(m.keysCount)
      requires forall m :: m in old(nodes) ==> unchanged(m.keys) && unchanged(m.children)
      requires p.keysCount == 0 && p.keys.Length == 2 * t - 1 && p.children.Length == 2 * t
      requires forall k :: 0 <= k < p.children.Length && p.children[k] != null ==>
                 p.children[k] in nodes && p.children[k].height < p.height
      ensures Valid() && Lives() == old(Lives())[p := []]
    {
      assert forall m :: m in old(nodes) ==> m.Live() == old(m.Live());
      assert p.Live() == [];
    }

    /**
     * Lines 20-37 (createRootParent): a new empty root whose first child is
     * the old root. It sits one level above the old root.
     */
    method CreateRootParent() returns (p: Node)
      requires Valid()
      modifies this, root
      ensures Valid() && fresh(p) && root == p && nodes == old(nodes) + {p}
      ensures p.keysCount == 0 && p.parent == null && p.children[0] == old(root) && old(root).parent == p
      ensures forall k :: 1 <= k < p.children.Length ==> p.children[k] == null
      ensures Contents() == old(Contents())
    {
      ghost var lives := Lives();
      p := new Node(t, null, root.height + 1);
      root.parent := p;
      p.children[0] := root;
      root := p;
      nodes := nodes + {p};
      Repr := Repr + {p, p.keys, p.children};
      Adopted(p);
      BagUpdate(lives, p, []);
    }

    /**
     * Lines 234-247 (removeFromLeaf) up to the rebalancing test: the first
     * slot holding value is shifted out (ShiftOut) and the result says
     * whether the node is left short of T-1 keys below a parent, where the
     * source goes on to borrow or merge.
     */
    method RemoveFromLeaf(n: Node, value: real) returns (rebalance: bool)
      requires Valid() && n in nodes
      modifies n, n.keys
      ensures Valid() && n.parent == old(n.parent)
      ensures value in old(n.Live()) ==> n.Live() == Without(old(n.Live()), IndexOfKey(old(n.Live()), value))
      ensures value !in old(n.Live()) ==> n.Live() == old(n.Live())
      ensures Lives() == old(Lives())[n := n.Live()]
      ensures value in old(n.Live()) ==> Contents() == old(Contents()) - multiset{value}
      ensures value !in old(n.Live()) ==> Contents() == old(Contents())
      ensures old(Complete()) && n.children[0] == null ==> Complete()
      ensures rebalance <==> n.parent != null && n.keysCount < t - 1
    {
      ghost var live, lives := n.Live(), Lives();
      LeafDrop(n, value);
      BagUpdate(lives, n, n.Live());
      if value in live {
        WithoutMultiset(live, IndexOfKey(live, value));
        assert multiset(n.Live()) + multiset{value} == multiset(live);
      }
      rebalance := !(n.parent == null || n.keysCount >= t - 1);
    }

    /** Lines 235-243: the removal itself, as DropKey does it, within the tree. */
    method LeafDrop(n: Node, value: real)
      requires Valid() && n in nodes
      modifies n, n.keys
      ensures Valid() && n.parent == old(n.parent)
      ensures value in old(n.Live()) ==> n.Live() == Without(old(n.Live()), IndexOfKey(old(n.Live()), value))
      ensures value !in old(n.Live()) ==> n.Live() == old(n.Live())
      ensures Lives() == old(Lives())[n := n.Live()]
      ensures old(Complete()) && n.children[0] == null ==> Complete()
    {
      n.DropKey(value);
      Touched(n);
    }

    /**
     * The leaf the descent on lines 221-226 reaches from c, always taking
     * the child after the last key; None where that child is null.
     */
    ghost function Rightmost(c: Node): (r: Option<Node>)
      reads this, Repr
      requires Valid() && c in nodes
      ensures r.Some? ==> r.value in nodes && r.value.children[0] == null && r.value.height <= c.height
      decreases c.height
    {
      if c.children[0] == null then Some(c)
      else if c.children[c.keysCount] == null then None
      else Rightmost(c.children[c.keysCount])
    }

    /** Where the loop on lines 216-218 stops: the first live slot holding value, keysCount without one. */
    ghost function KeySlot(n: Node, value: real): (k: nat)
      reads this, Repr
      requires Valid() && n in nodes
      ensures k <= n.keysCount && (k < n.keysCount <==> value in n.Live())
      ensures k < n.keysCount ==> n.keys[k] == value
    {
      if value in n.Live() then IndexOfKey(n.Live(), value) else n.keysCount
    }

    /**
     * The leaf whose last key removeFromNode moves into the slot of value
     * in the internal node n: the rightmost leaf below the child at that
     * slot. None where the source would follow a null child, read keys[-1]
     * of an empty leaf or write one slot past a full node's keys.
     */
    ghost function PredecessorLeaf(n: Node, value: real): (r: Option<Node>)
      reads this, Repr
      requires Valid() && n in nodes
      ensures r.Some? ==> r.value in nodes && r.value.children[0] == null &&
                          0 < r.value.keysCount && r.value.height < n.height
    {
      var k := KeySlot(n, value);
      if k == n.keys.Length || n.children[k] == null then None
      else match Rightmost(n.children[k])
        case None => None
        case Some(leaf) => if leaf.keysCount == 0 then None else Some(leaf)
    }

    /** Line 228: the key that takes the slot of value in n. */
    ghost function Predecessor(n: Node, value: real): real
      reads this, Repr
      requires Valid() && n in nodes && PredecessorLeaf(n, value).Some?
    {
      var leaf := PredecessorLeaf(n, value).value;
      leaf.keys[leaf.keysCount - 1]
    }

    /** removeFromNode finishes at n: n is a leaf, or the key to move up exists. */
    ghost predicate Removable(n: Node, value: real)
      reads this, Repr
      requires Valid() && n in nodes
    {
      n.children[0] == null || PredecessorLeaf(n, value).Some?
    }

    /**
     * Lines 210-232 (removeFromNode): a leaf removes value itself; any other
     * node overwrites the slot of value with the largest key of the subtree
     * to its left (the rightmost leaf below that child), which is removed
     * from that leaf first. Where the source would follow a null child,
     * read keys[-1] of an empty leaf or write one slot past a full node's
     * keys, the result is false and nothing changes. A value missing from
     * an internal node still costs the tree a key: the predecessor leaves
     * its leaf for the dead slot after n's keys.
     */
    method RemoveFromNode(n: Node, value: real) returns (ok: bool)
      requires Valid() && n in nodes
      modifies nodes, set m | m in nodes :: m.keys
      ensures Valid()
      ensures ok <==> old(Removable(n, value))
      ensures !ok ==> Lives() == old(Lives())
      ensures old(n.children[0]) == null ==> Lives() == old(Lives())[n := n.Live()]
      ensures old(n.children[0]) == null && value in old(n.Live()) ==>
                n.Live() == Without(old(n.Live()), IndexOfKey(old(n.Live()), value))
      ensures old(n.children[0]) == null && value !in old(n.Live()) ==> Contents() == old(Contents())
      ensures ok && value in old(n.Live()) ==> Contents() == old(Contents()) - multiset{value}
      ensures ok && old(n.children[0]) != null ==>
                n.keys[old(KeySlot(n, value))] == old(Predecessor(n, value)) &&
                n.Live() == if value in old(n.Live()) then old(n.Live())[old(KeySlot(n, value)) := old(Predecessor(n, value))]
                            else old(n.Live())
      ensures ok && old(n.children[0]) != null && value !in old(n.Live()) ==>
                Contents() == old(Contents()) - multiset{old(Predecessor(n, value))}
      ensures old(Complete()) ==> Complete()
    {
      if n.children[0] == null {
        var _ := RemoveFromLeaf(n, value);
        return true;
      }
      ok := RemoveFromInternal(n, value);
    }

    /** Lines 214-231: removeFromNode at a node with children. */
    method RemoveFromInternal(n: Node, value: real) returns (ok: bool)
      requires Valid() && n in nodes && n.children[0] != null
      modifies nodes, set m | m in nodes :: m.keys
      ensures Valid()
      ensures ok <==> old(PredecessorLeaf(n, value)).Some?
      ensures !ok ==> Lives() == old(Lives())
      ensures ok ==>
                n.keys[old(KeySlot(n, value))] == old(Predecessor(n, value)) &&
                n.Live() == if value in old(n.Live()) then old(n.Live())[old(KeySlot(n, value)) := old(Predecessor(n, value))]
                            else old(n.Live())
      ensures ok && value in old(n.Live()) ==> Contents() == old(Contents()) - multiset{value}
      ensures ok && value !in old(n.Live()) ==> Contents() == old(Contents()) - multiset{old(Predecessor(n, value))}
      ensures old(Complete()) ==> Complete()
    {
      ghost var live, contents := n.Live(), Contents();
      var keyIndex, leaf := FindPredecessor(n, value);
      if leaf.None? {
        return false;
      }
      ghost var moved := leaf.value.keys[leaf.value.keysCount - 1];
      TakePredecessor(n, keyIndex, leaf.value);
      assert n.Live() == if value in live then live[keyIndex := moved] else live;
      assert Contents() == contents - multiset{if value in live then value else moved};
      ok := true;
    }

    /**
     * Lines 216-227: the slot of value in n and the leaf holding the key
     * that replaces it, or None where the source fails on the way there.
     */
    method FindPredecessor(n: Node, value: real) returns (keyIndex: nat, leaf: Option<Node>)
      requires Valid() && n in nodes && n.children[0] != null
      ensures keyIndex == KeySlot(n, value) && leaf == PredecessorLeaf(n, value)
      ensures leaf.Some? ==> keyIndex < n.keys.Length &&
                             leaf.value.keys[leaf.value.keysCount - 1] == Predecessor(n, value)
      ensures Lives() == old(Lives()) && n.Live() == old(n.Live())
    {
      keyIndex := 0;
      while keyIndex < n.keysCount && value != n.keys[keyIndex]
        invariant keyIndex <= n.keysCount
        invariant value !in n.keys[..keyIndex]
      {
        keyIndex := keyIndex + 1;
      }
      assert keyIndex == KeySlot(n, value) by {
        if keyIndex < n.keysCount {
          assert n.Live()[keyIndex] == value && n.Live()[..keyIndex] == n.keys[..keyIndex];
        } else {
          assert n.keys[..keyIndex] == n.Live();
        }
      }
      var cur := n.children[keyIndex];
      if cur == null {
        return keyIndex, None;
      }
      leaf := DescendRight(cur);
      if leaf.None? || leaf.value.keysCount == 0 || keyIndex == n.keys.Length {
        leaf := None;
      }
    }

    /** Lines 221-226: from c, follow the child after the last key down to a leaf. */
    method DescendRight(c: Node) returns (r: Option<Node>)
      requires Valid() && c in nodes
      ensures r == Rightmost(c)
    {
      var cur := c;
      while cur.children[0] != null
        invariant cur in nodes && Rightmost(cur) == Rightmost(c)
        decreases cur.height
      {
        var next := cur.children[cur.keysCount];
        if next == null {
          return None;
        }
        cur := next;
      }
      return Some(cur);
    }

    /**
     * Lines 228-230: the last key of leaf, the rightmost leaf below the
     * child left of slot keyIndex, is removed from that leaf and written
     * into slot keyIndex of n. The recursive removeFromNode call on line 229
     * reaches a leaf, so it is removeFromLeaf, whose removal step LeafDrop
     * models (the rebalancing after it is not part of this model).
     */
    method TakePredecessor(n: Node, keyIndex: nat, leaf: Node)
      requires Valid() && n in nodes && leaf in nodes && leaf.height < n.height
      requires leaf.children[0] == null && leaf.keysCount > 0
      requires keyIndex < n.keys.Length && keyIndex <= n.keysCount
      modifies leaf, leaf.keys, n.keys
      ensures Valid()
      ensures n.keys[keyIndex] == old(leaf.keys[leaf.keysCount - 1])
      ensures n.Live() == if keyIndex < old(n.keysCount) then old(n.Live())[keyIndex := old(leaf.keys[leaf.keysCount - 1])]
                          else old(n.Live())
      ensures keyIndex < old(n.keysCount) ==> Contents() == old(Contents()) - multiset{old(n.keys[keyIndex])}
      ensures keyIndex == old(n.keysCount) ==> Contents() == old(Contents()) - multiset{old(leaf.keys[leaf.keysCount - 1])}
      ensures old(Complete()) ==> Complete()
    {
      var replacement := leaf.keys[leaf.keysCount - 1];
      ghost var lives0 := Lives();
      assert replacement in leaf.Live() by {
        assert leaf.Live()[leaf.keysCount - 1] == replacement;
      }
      LeafDrop(leaf, replacement);
      WriteKey(n, keyIndex, replacement);
      PredecessorMoved(lives0, Lives(), leaf, n, keyIndex, replacement);
    }

    /** Line 230: slot i of n's keys takes v; only a live slot changes the keys in use. */
    method WriteKey(n: Node, i: nat, v: real)
      requires Valid() && n in nodes && i < n.keys.Length
      modifies n.keys
      ensures Valid() && n.keys[i] == v
      ensures n.Live() == if i < n.keysCount then old(n.Live())[i := v] else old(n.Live())
      ensures Lives() == old(Lives())[n := n.Live()]
      ensures old(Complete()) ==> Complete()
    {
      n.keys[i] := v;
      Touched(n);
    }

    /**
     * Moving the root to another node of the tree and changing parent
     * pointers keeps the tree valid and the keys in use where they were.
     */
    twostate lemma Rerooted()
      requires old(Valid()) && root in old(nodes)
      requires nodes == old(nodes) && Repr == old(Repr)
      requires forall m :: m in old(nodes) ==> m.keysCount == old(m.keysCount)
      requires forall m :: m in old(nodes) ==> unchanged(m.keys) && unchanged(m.children)
      ensures Valid() && Lives() == old(Lives())
    {
      assert forall m :: m in nodes ==> m.Live() == old(m.Live());
    }

    /**
     * Lines 202-207: a root without keys but with a child is released and
     * its first child becomes the root. The released node stays among the
     * nodes, with no keys in use.
     */
    method Collapse()
      requires Valid()
      modifies this, root.children[0]
      ensures Valid() && nodes == old(nodes) && Repr == old(Repr) && Lives() == old(Lives())
      ensures old(root.keysCount == 0 && root.children[0] != null) ==>
                root == old(root.children[0]) && root.parent == null
      ensures !old(root.keysCount == 0 && root.children[0] != null) ==> root == old(root) && unchanged(Repr)
      ensures old(root).keysCount == old(root.keysCount)
      ensures old(Complete()) ==> Complete()
    {
      if root.keysCount == 0 && root.children[0] != null {
        var newRoot := root.children[0];
        root := newRoot;
        root.parent := null;
        Rerooted();
      }
    }

    /**
     * Lines 199-208 (remove): removal at the node the search walk reaches
     * (RemoveAtTarget); a root left without keys but with a child is then
     * released and its first child becomes the root.
     */
    method Remove(value: real) returns (ok: bool)
      requires Valid()
      modifies Repr
      ensures Valid() && nodes == old(nodes) && Repr == old(Repr)
      ensures ok <==> old(Target(root, value)).Some? && old(Removable(Target(root, value).value, value))
      ensures ok && old(Found(value)) ==> Contents() == old(Contents()) - multiset{value}
      ensures old(Complete()) && !old(Found(value)) ==> Contents() == old(Contents())
      ensures old(Complete()) ==> Complete()
      ensures old(Target(root, value)).None? ==> unchanged(Repr)
      ensures old(root).keysCount == 0 && old(root).children[0] != null ==>
                root == old(root).children[0] && root.parent == null
      ensures !(old(root).keysCount == 0 && old(root).children[0] != null) ==> root == old(root)
    {
      ok := RemoveAtTarget(value);
      Collapse();
    }

    /**
     * Line 200: removeFromNode at the node searchNode reaches; a walk that
     * meets a null child gives false and changes nothing.
     */
    method RemoveAtTarget(value: real) returns (ok: bool)
      requires Valid()
      modifies nodes, set m | m in nodes :: m.keys
      ensures Valid() && root == old(root)
      ensures ok <==> old(Target(root, value)).Some? && old(Removable(Target(root, value).value, value))
      ensures ok && old(Found(value)) ==> Contents() == old(Contents()) - multiset{value}
      ensures old(Complete()) && !old(Found(value)) ==> Contents() == old(Contents())
      ensures old(Complete()) ==> Complete()
      ensures old(Target(root, value)).None? ==> unchanged(Repr)
    {
      var target := SearchNode(root, value);
      if target.None? {
        return false;
      }
      Unmoved(value);
      UnmovedRemovable(value);
      ghost var complete := Complete();
      if complete {
        TargetInComplete(root, value);
      }
      ok := RemoveFromNode(target.value, value);
    }
  }
}

=== FILE: binomial_heap.dfy ===
/**
 * The binomial max-heap of RyabkovNA/kursovaya/2.cpp: a list of trees,
 * merged two of a kind by consolidate through a table of 64 slots indexed
 * by tree order.
 *
 * A tree is a value: mergeTrees appending one root to the other's children
 * becomes building the merged tree. The heap object keeps the list of
 * trees as a sequence that its methods reassign.
 */
module Binomial {
  import opened Wrappers
  import opened Sequences

  /** The slots of order_table (line 29). */
  const TableSize: nat := 64

  /**
   * 2^64, the number of values at which a tree of order TableSize would
   * first be needed; written as a literal so that proofs about the table
   * need not evaluate Pow2.
   */
  const Capacity: nat := 0x1_0000_0000_0000_0000

  lemma CapacityIsPow2()
    ensures Pow2(TableSize) == Capacity
  {
    Pow2Of32();
    Pow2Sum(32, 32);
  }

  lemma Pow2Of32()
    ensures Pow2(32) == 0x1_0000_0000
  {
    Pow2Of16();
    Pow2Sum(16, 16);
  }

  lemma Pow2Of16()
    ensures Pow2(16) == 0x1_0000
  {
    assert Pow2(8) == 0x100;
    Pow2Sum(8, 8);
  }

  /** A node with its value, its subtrees in the order they were appended, and its order. */
  datatype Tree = Tree(value: int, children: seq<Tree>, order: nat)

  /** Line 16: a new node has no children and order 0. */
  function Singleton(v: int): (t: Tree)
    ensures Values(t) == multiset{v} && Binomial(t) && HeapOrdered(t)
  {
    Tree(v, [], 0)
  }

  /** The values stored in a tree. */
  ghost function Values(t: Tree): multiset<int>
    decreases t, 1
  {
    multiset{t.value} + ValuesOf(t.children)
  }

  /** The values stored in a list of trees. */
  ghost function ValuesOf(ts: seq<Tree>): multiset<int>
    decreases ts, 0
  {
    if ts == [] then multiset{} else ValuesOf(ts[..|ts| - 1]) + Values(ts[|ts| - 1])
  }

  /** A binomial tree of order k: its i-th child is a binomial tree of order i, for i < k. */
  ghost predicate Binomial(t: Tree)
  {
    t.order == |t.children| &&
    forall i :: 0 <= i < |t.children| ==> t.children[i].order == i && Binomial(t.children[i])
  }

  /** No child holds a value larger than its parent's. */
  ghost predicate HeapOrdered(t: Tree)
  {
    forall i :: 0 <= i < |t.children| ==> t.children[i].value <= t.value && HeapOrdered(t.children[i])
  }

  /** The shape every tree of the heap keeps. */
  ghost predicate Good(t: Tree)
  {
    Binomial(t) && HeapOrdered(t)
  }

  ghost predicate AllGood(ts: seq<Tree>)
  {
    forall i :: 0 <= i < |ts| ==> Good(ts[i])
  }

  /** Strictly increasing orders from the front of the list: no two trees share an order. */
  ghost predicate OrdersAscending(ts: seq<Tree>)
  {
    forall i, j :: 0 <= i < j < |ts| ==> ts[i].order < ts[j].order
  }

  /** The root values, in list order. */
  function Roots(ts: seq<Tree>): (r: seq<int>)
    ensures |r| == |ts| && forall i :: 0 <= i < |ts| ==> r[i] == ts[i].value
  {
    seq(|ts|, i requires 0 <= i < |ts| => ts[i].value)
  }

  lemma {:induction false} ValuesOfAppend(ts: seq<Tree>, us: seq<Tree>)
    ensures ValuesOf(ts + us) == ValuesOf(ts) + ValuesOf(us)
    decreases |us|
  {
    if us == [] {
      assert ts + us == ts;
    } else {
      assert (ts + us)[..|ts + us| - 1] == ts + us[..|us| - 1];
      ValuesOfAppend(ts, us[..|us| - 1]);
    }
  }

  /** A list of trees holds nothing exactly when it has no tree: every tree holds its root. */
  lemma {:induction false} ValuesOfEmpty(ts: seq<Tree>)
    ensures ValuesOf(ts) == multiset{} <==> ts == []
  {
    if ts != [] {
      assert ts[|ts| - 1].value in Values(ts[|ts| - 1]);
    }
  }

  /** The list without the tree at position i holds that tree's values fewer. */
  lemma {:induction false} ValuesOfRemove(ts: seq<Tree>, i: nat)
    requires i < |ts|
    ensures ValuesOf(ts[..i] + ts[i + 1..]) + Values(ts[i]) == ValuesOf(ts)
  {
    assert ts == (ts[..i] + [ts[i]]) + ts[i + 1..];
    ValuesOfAppend(ts[..i] + [ts[i]], ts[i + 1..]);
    ValuesOfAppend(ts[..i], ts[i + 1..]);
    assert (ts[..i] + [ts[i]])[..i] == ts[..i];
  }

  /** Lines 21-26: the root with the smaller value becomes the last child of the other. */
  function MergeTrees(a: Tree, b: Tree): (r: Tree)
    ensures Values(r) == Values(a) + Values(b)
    ensures r.value == if a.value < b.value then b.value else a.value
    ensures HeapOrdered(a) && HeapOrdered(b) ==> HeapOrdered(r)
    ensures a.order == b.order && Binomial(a) && Binomial(b) ==> Binomial(r) && r.order == a.order + 1
  {
    var (hi, lo) := if a.value < b.value then (b, a) else (a, b);
    Attached(hi, lo);
    Tree(hi.value, hi.children + [lo], hi.order + 1)
  }

  /** What appending lo to the children of hi keeps. */
  lemma {:induction false} Attached(hi: Tree, lo: Tree)
    ensures Values(Tree(hi.value, hi.children + [lo], hi.order + 1)) == Values(hi) + Values(lo)
    ensures HeapOrdered(hi) && HeapOrdered(lo) && lo.value <= hi.value ==>
              HeapOrdered(Tree(hi.value, hi.children + [lo], hi.order + 1))
    ensures hi.order == lo.order && Binomial(hi) && Binomial(lo) ==>
              Binomial(Tree(hi.value, hi.children + [lo], hi.order + 1))
  {
    var cs := hi.children + [lo];
    assert cs[..|cs| - 1] == hi.children;
    assert forall i :: 0 <= i < |cs| ==> cs[i] == if i < |hi.children| then hi.children[i] else lo;
    if HeapOrdered(hi) && HeapOrdered(lo) && lo.value <= hi.value {
      forall i | 0 <= i < |cs|
        ensures cs[i].value <= hi.value && HeapOrdered(cs[i])
      {
        if i < |hi.children| {
          assert cs[i] == hi.children[i];
        }
      }
    }
    if hi.order == lo.order && Binomial(hi) && Binomial(lo) {
      var r := Tree(hi.value, cs, hi.order + 1);
      assert r.order == |r.children|;
      forall i | 0 <= i < |r.children|
        ensures r.children[i].order == i && Binomial(r.children[i])
      {
        if i < |hi.children| {
          assert r.children[i] == hi.children[i];
        } else {
          assert r.children[i] == lo;
        }
      }
      assert Binomial(r);
    }
  }

  /** A binomial tree of order k holds 2^k values. */
  lemma {:induction false} BinomialSize(t: Tree)
    requires Binomial(t)
    ensures |Values(t)| == Pow2(t.order)
    decreases t, 1
  {
    ChildrenSize(t, |t.children|);
    assert t.children[..|t.children|] == t.children;
  }

  /** The first k children of a binomial tree hold 2^k - 1 values. */
  lemma {:induction false} ChildrenSize(t: Tree, k: nat)
    requires Binomial(t) && k <= |t.children|
    ensures |ValuesOf(t.children[..k])| + 1 == Pow2(k)
    decreases t, 0, k
  {
    if k > 0 {
      ChildrenSize(t, k - 1);
      BinomialSize(t.children[k - 1]);
      assert t.children[..k][..k - 1] == t.children[..k - 1];
    }
  }

  /** Within a heap of fewer than 2^64 values no binomial tree reaches order 64. */
  lemma {:induction false} OrderBound(t: Tree, rest: multiset<int>)
    requires Binomial(t) && |rest + Values(t)| < Capacity
    ensures t.order < TableSize
  {
    BinomialSize(t);
    CapacityIsPow2();
    if t.order >= TableSize {
      PowMonotone(TableSize, t.order);
    }
  }

  /** In a heap-ordered tree the root holds the largest value. */
  lemma {:induction false} RootIsMax(t: Tree)
    requires HeapOrdered(t)
    ensures forall x :: x in Values(t) ==> x <= t.value
    decreases t, 1
  {
    ForestBelow(t.children, t.value);
  }

  /** Heap-ordered trees whose roots are at most m hold nothing above m. */
  lemma {:induction false} ForestBelow(ts: seq<Tree>, m: int)
    requires forall i :: 0 <= i < |ts| ==> HeapOrdered(ts[i]) && ts[i].value <= m
    ensures forall x :: x in ValuesOf(ts) ==> x <= m
    decreases ts, 0
  {
    if ts != [] {
      RootIsMax(ts[|ts| - 1]);
      ForestBelow(ts[..|ts| - 1], m);
    }
  }

  /** The values stored in the occupied slots of a table. */
  ghost function TableValues(s: seq<Option<Tree>>): multiset<int>
  {
    if s == [] then multiset{} else TableValues(s[..|s| - 1]) + OptValues(s[|s| - 1])
  }

  ghost function OptValues(o: Option<Tree>): multiset<int>
  {
    if o.Some? then Values(o.value) else multiset{}
  }

  /** Replacing one slot of a table trades that slot's values for the new ones. */
  lemma {:induction false} TableUpdate(s: seq<Option<Tree>>, k: nat, o: Option<Tree>)
    requires k < |s|
    ensures TableValues(s[k := o]) + OptValues(s[k]) == TableValues(s) + OptValues(o)
  {
    if k < |s| - 1 {
      var p, last := s[..|s| - 1], s[|s| - 1];
      assert s[k := o][..|s| - 1] == p[k := o] && s[k := o][|s| - 1] == last;
      assert TableValues(s[k := o]) == TableValues(p[k := o]) + OptValues(last);
      assert TableValues(s) == TableValues(p) + OptValues(last);
      TableUpdate(p, k, o);
      assert p[k] == s[k];
      calc {
        TableValues(s[k := o]) + OptValues(s[k]);
        TableValues(p[k := o]) + OptValues(last) + OptValues(p[k]);
        (TableValues(p[k := o]) + OptValues(p[k])) + OptValues(last);
        TableValues(p) + OptValues(o) + OptValues(last);
        TableValues(s) + OptValues(o);
      }
    } else {
      assert s[k := o][..|s| - 1] == s[..|s| - 1];
    }
  }

  /** Each occupied slot holds a good tree of the slot's order. */
  ghost predicate TableGood(s: seq<Option<Tree>>)
  {
    forall k :: 0 <= k < |s| && s[k].Some? ==> s[k].value.order == k && Good(s[k].value)
  }

  /** Lines 10-79: the heap object. */
  class BinomialHeap {
    var trees: seq<Tree>

    /** Every tree is a heap-ordered binomial tree, of distinct orders, and the heap holds fewer than 2^64 values. */
    ghost predicate Valid()
      reads this
    {
      AllGood(trees) && OrdersAscending(trees) && |ValuesOf(trees)| < Capacity
    }

    ghost function Contents(): multiset<int>
      reads this
    {
      ValuesOf(trees)
    }

    constructor ()
      ensures Valid() && Contents() == multiset{}
    {
      trees := [];
    }

    /**
     * Lines 28-48: each tree in turn leaves the front of the list and is
     * carried into the table of 64 slots indexed by order; the table is
     * then read back into the list in order.
     */
    method Consolidate()
      requires AllGood(trees) && |ValuesOf(trees)| < Capacity
      modifies this
      ensures AllGood(trees) && OrdersAscending(trees)
      ensures ValuesOf(trees) == old(ValuesOf(trees))
    {
      var table := new Option<Tree>[TableSize](_ => None);
      EmptyTable(table[..]);
      ParkAll(trees, table);
      trees := Collect(table);
    }

    /** Lines 51-55: a one-node tree goes to the back of the list, then consolidate. */
    method Insert(value: int)
      requires Valid() && |Contents()| + 1 < Capacity
      modifies this
      ensures Valid() && Contents() == old(Contents()) + multiset{value}
    {
      assert (trees + [Singleton(value)])[..|trees|] == trees;
      trees := trees + [Singleton(value)];
      Consolidate();
    }

    /**
     * Lines 57-74: an empty heap throws; otherwise the first tree with the
     * largest root leaves the list, its children go to the back, and the
     * list is consolidated. The result is the removed root's value.
     */
    method ExtractMax() returns (r: Result<int>)
      requires Valid()
      modifies this
      ensures Valid()
      ensures r.Failure? <==> old(Contents()) == multiset{}
      ensures r.Failure? ==> trees == old(trees)
      ensures r.Success? ==> r.value in old(Contents())
      ensures r.Success? ==> forall x :: x in old(Contents()) ==> x <= r.value
      ensures r.Success? ==> Contents() == old(Contents()) - multiset{r.value}
    {
      ValuesOfEmpty(trees);
      if trees == [] {
        return Failure("Heap is empty");
      }
      var i := FirstMax(Roots(trees));
      var maxNode := trees[i];
      HeapMax(trees, i);
      Detach(trees, i);
      trees := trees[..i] + trees[i + 1..];
      PushBack(maxNode.children);
      var maxValue := maxNode.value;
      Consolidate();
      r := Success(maxValue);
    }

    /** Lines 66-68: the trees of cs go to the back of the list, in order. */
    method PushBack(cs: seq<Tree>)
      modifies this
      ensures trees == old(trees) + cs
    {
      for c := 0 to |cs|
        invariant trees == old(trees) + cs[..c]
      {
        assert cs[..c + 1] == cs[..c] + [cs[c]];
        trees := trees + [cs[c]];
      }
      assert cs[..|cs|] == cs;
    }

    /** Lines 76-78: the list is empty exactly when the heap holds nothing. */
    function Empty(): (b: bool)
      reads this
      ensures b <==> Contents() == multiset{}
    {
      ValuesOfEmpty(trees);
      trees == []
    }
  }

  /**
   * Lines 34-42: current is merged with the table's tree of its order, as
   * long as that slot is taken, and then parked in the free slot of its
   * order. Over a heap of fewer than 2^64 values no order reaches 64.
   */
  method Carry(table: array<Option<Tree>>, current: Tree)
    requires table.Length == TableSize && TableGood(table[..]) && Good(current)
    requires |TableValues(table[..]) + Values(current)| < Capacity
    modifies table
    ensures TableGood(table[..])
    ensures TableValues(table[..]) == old(TableValues(table[..])) + Values(current)
  {
    var current, order := current, current.order;
    ghost var target := TableValues(table[..]) + Values(current);
    OrderBound(current, TableValues(table[..]));
    while table[order].Some?
      invariant order == current.order < TableSize && Good(current)
      invariant TableGood(table[..])
      invariant TableValues(table[..]) + Values(current) == target
      decreases TableSize - order
    {
      var other := table[order].value;
      Merged(table[..], order, current);
      table[order] := None;
      current := MergeTrees(current, other);
      order := order + 1;
      OrderBound(current, TableValues(table[..]));
    }
    Parked(table[..], order, current);
    table[order] := Some(current);
  }

  /** One pass of the carry loop: the slot is emptied and its tree merged into current. */
  lemma {:induction false} Merged(s: seq<Option<Tree>>, k: nat, current: Tree)
    requires k < |s| && s[k].Some? && TableGood(s) && Good(current) && current.order == k
    ensures TableGood(s[k := None])
    ensures Good(MergeTrees(current, s[k].value)) && MergeTrees(current, s[k].value).order == k + 1
    ensures TableValues(s[k := None]) + Values(MergeTrees(current, s[k].value)) ==
            TableValues(s) + Values(current)
  {
    var other := s[k].value;
    MergedGood(current, other);
    Emptied(s, k);
  }

  lemma MergedGood(current: Tree, other: Tree)
    requires Good(current) && Good(other) && current.order == other.order
    ensures Good(MergeTrees(current, other)) && MergeTrees(current, other).order == other.order + 1
    ensures Values(MergeTrees(current, other)) == Values(current) + Values(other)
  {
  }

  /** Emptying slot k of a good table removes exactly the values of its tree. */
  lemma Emptied(s: seq<Option<Tree>>, k: nat)
    requires k < |s| && s[k].Some? && TableGood(s)
    ensures TableGood(s[k := None]) && s[k].value.order == k && Good(s[k].value)
    ensures TableValues(s[k := None]) + Values(s[k].value) == TableValues(s)
  {
    TableUpdate(s, k, None);
  }

  /** Parking a good tree of order k in the free slot k. */
  lemma {:induction false} Parked(s: seq<Option<Tree>>, k: nat, current: Tree)
    requires k < |s| && s[k].None? && TableGood(s) && Good(current) && current.order == k
    ensures TableGood(s[k := Some(current)])
    ensures TableValues(s[k := Some(current)]) == TableValues(s) + Values(current)
  {
    TableUpdate(s, k, Some(current));
  }

  /** Lines 31-43: the trees of the list, front first, each carried into the table. */
  method ParkAll(ts: seq<Tree>, table: array<Option<Tree>>)
    requires table.Length == TableSize && TableGood(table[..]) && AllGood(ts)
    requires |TableValues(table[..]) + ValuesOf(ts)| < Capacity
    modifies table
    ensures TableGood(table[..])
    ensures TableValues(table[..]) == old(TableValues(table[..])) + ValuesOf(ts)
  {
    ghost var start := TableValues(table[..]);
    for i := 0 to |ts|
      invariant TableGood(table[..])
      invariant TableValues(table[..]) == start + ValuesOf(ts[..i])
    {
      Pending(ts, i, start);
      ghost var before := TableValues(table[..]);
      assert Good(ts[i]);
      Carry(table, ts[i]);
      assert TableValues(table[..]) == before + Values(ts[i]);
    }
    assert ts[..|ts|] == ts;
  }

  /** Carrying tree i adds it to what the first i trees put in the table, within the heap's count. */
  lemma {:induction false} Pending(ts: seq<Tree>, i: nat, start: multiset<int>)
    requires i < |ts| && |start + ValuesOf(ts)| < Capacity
    ensures ValuesOf(ts[..i + 1]) == ValuesOf(ts[..i]) + Values(ts[i])
    ensures |start + ValuesOf(ts[..i]) + Values(ts[i])| < Capacity
  {
    assert ts[..i + 1][..i] == ts[..i];
    assert ts == ts[..i + 1] + ts[i + 1..];
    ValuesOfAppend(ts[..i + 1], ts[i + 1..]);
  }

  /** Lines 45-47: the parked trees, read back in slot order. */
  method Collect(table: array<Option<Tree>>) returns (ts: seq<Tree>)
    requires TableGood(table[..])
    ensures AllGood(ts) && OrdersAscending(ts)
    ensures ValuesOf(ts) == TableValues(table[..])
  {
    ts := [];
    for k := 0 to table.Length
      invariant Below(ts, k) && ValuesOf(ts) == TableValues(table[..k])
    {
      TablePrefix(table[..], k);
      assert table[..][..k] == table[..k] && table[..][..k + 1] == table[..k + 1];
      if table[k].Some? {
        Snoc(ts, table[k].value, k);
        ts := ts + [table[k].value];
      }
    }
    assert table[..table.Length] == table[..];
  }

  /** Good trees in strictly increasing orders, all below k. */
  ghost predicate Below(ts: seq<Tree>, k: nat)
  {
    AllGood(ts) && OrdersAscending(ts) && forall i :: 0 <= i < |ts| ==> ts[i].order < k
  }

  /** Appending a good tree of order k to trees below k. */
  lemma {:induction false} Snoc(ts: seq<Tree>, x: Tree, k: nat)
    requires Below(ts, k) && Good(x) && x.order == k
    ensures Below(ts + [x], k + 1)
    ensures ValuesOf(ts + [x]) == ValuesOf(ts) + Values(x)
  {
    assert (ts + [x])[..|ts|] == ts;
  }

  lemma {:induction false} TablePrefix(s: seq<Option<Tree>>, k: nat)
    requires k < |s|
    ensures TableValues(s[..k + 1]) == TableValues(s[..k]) + OptValues(s[k])
  {
    assert s[..k + 1][..k] == s[..k];
  }

  /**
   * Taking tree i out of the list and putting its subtrees at the back
   * removes one value, its root, and keeps every tree good.
   */
  lemma {:induction false} Detach(ts: seq<Tree>, i: nat)
    requires AllGood(ts) && i < |ts|
    ensures AllGood(ts[..i] + ts[i + 1..] + ts[i].children)
    ensures ValuesOf(ts[..i] + ts[i + 1..] + ts[i].children) == ValuesOf(ts) - multiset{ts[i].value}
  {
    var rest, cs := ts[..i] + ts[i + 1..], ts[i].children;
    ValuesOfRemove(ts, i);
    ValuesOfAppend(rest, cs);
    assert Good(ts[i]);
    forall j | 0 <= j < |rest + cs|
      ensures Good((rest + cs)[j])
    {
      if j >= |rest| {
        assert (rest + cs)[j] == cs[j - |rest|];
      } else {
        assert (rest + cs)[j] == ts[if j < i then j else j + 1];
      }
    }
  }

  /** The first tree with the largest root holds the largest value of the heap. */
  lemma {:induction false} HeapMax(ts: seq<Tree>, i: nat)
    requires AllGood(ts) && |ts| > 0 && i == FirstMax(Roots(ts))
    ensures ts[i].value in ValuesOf(ts)
    ensures forall x :: x in ValuesOf(ts) ==> x <= ts[i].value
  {
    ValuesOfRemove(ts, i);
    assert ts[i].value in Values(ts[i]);
    ForestBelow(ts, ts[i].value);
  }

  /** A table with every slot free holds nothing. */
  lemma {:induction false} EmptyTable(s: seq<Option<Tree>>)
    requires forall j :: 0 <= j < |s| ==> s[j].None?
    ensures TableGood(s) && TableValues(s) == multiset{}
  {
    if s != [] {
      EmptyTable(s[..|s| - 1]);
    }
  }
}

=== FILE: chat_server.dfy ===
/**
 * Chat-room server logic (DrachkovaIU/coursework/server.cpp).
 *
 * A client's message is split at spaces; its first word selects a command
 * that lists, creates, removes or opens rooms, and a client inside a room
 * has its messages forwarded to the room's other users.  The global room
 * list is a field of the server; what the source sends over sockets is
 * recorded in an outbox of (recipient, text) pairs.
 */
module ChatServer {
  import opened Wrappers

  /** The parts joined back together with the separator between them. */
  function Join(parts: seq<string>, sep: string): string
    requires |parts| >= 1
  {
    if |parts| == 1 then parts[0] else Join(parts[..|parts| - 1], sep) + sep + parts[|parts| - 1]
  }

  /** The separator occurs in s at position i; positions past the end never match. */
  predicate SeparatorAt(s: string, sep: string, i: int)
    requires 0 <= i < |s| && |sep| >= 1
  {
    i + |sep| <= |s| && s[i..i + |sep|] == sep
  }

  /** Number of occurrences of c in s. */
  function Count(s: string, c: char): nat {
    if |s| == 0 then 0 else Count(s[..|s| - 1], c) + (if s[|s| - 1] == c then 1 else 0)
  }

  /**
   * The parts of s[i..] after the current part so far, scanning left to
   * right: a separator closes the current part, any other character is
   * appended to it, and the last part is added at the end.
   */
  function SplitFrom(s: string, sep: string, i: nat, current: string): (parts: seq<string>)
    requires |sep| >= 1
    ensures |parts| >= 1
    decreases |s| - i
  {
    if i >= |s| then [current]
    else if s[i] == sep[0] && SeparatorAt(s, sep, i) then [current] + SplitFrom(s, sep, i + |sep|, "")
    else SplitFrom(s, sep, i + 1, current + [s[i]])
  }

  function SplitWords(s: string, sep: string): seq<string>
    requires |sep| >= 1
  {
    SplitFrom(s, sep, 0, "")
  }

  /** Compares the separator with s from position i on. */
  method IsSplitterAt(s: string, sep: string, i: nat) returns (isSplitter: bool)
    requires i < |s| && |sep| >= 1 && s[i] == sep[0]
    ensures isSplitter == SeparatorAt(s, sep, i)
  {
    isSplitter := true;
    var j := 1;
    while j < |sep|
      invariant 1 <= j <= |sep| && i + j <= |s|
      invariant forall t :: 0 <= t < j ==> s[i + t] == sep[t]
    {
      if i + j >= |s| || s[i + j] != sep[j] {
        isSplitter := false;
        break;
      }
      j := j + 1;
    }
    if isSplitter {
      assert s[i..i + |sep|] == sep;
    } else {
      if i + |sep| <= |s| {
        assert s[i..i + |sep|][j] == s[i + j];
      }
    }
  }

  /**
   * Splits s at each occurrence of sep, scanning left to right; the part
   * after the last separator is always added, so there is at least one.
   * Joining the parts with the separator gives back s.
   */
  method Split(s: string, sep: string) returns (parts: seq<string>)
    requires |sep| >= 1
    ensures parts == SplitWords(s, sep)
    ensures |parts| >= 1
    ensures Join(parts, sep) == s
    ensures |sep| == 1 ==> forall k :: 0 <= k < |parts| ==> sep[0] !in parts[k]
  {
    parts := [];
    var current := "";
    var i := 0;
    ghost var all := SplitWords(s, sep);
    while i < |s|
      invariant 0 <= i <= |s|
      invariant Join(parts + [current], sep) == s[..i]
      invariant parts + SplitFrom(s, sep, i, current) == all
      invariant |sep| == 1 ==> sep[0] !in current && forall k :: 0 <= k < |parts| ==> sep[0] !in parts[k]
    {
      if s[i] == sep[0] {
        var isSplitter := IsSplitterAt(s, sep, i);
        if isSplitter {
          JoinSeparator(s, sep, i, parts + [current]);
          SplitSeparatorStep(s, sep, i, parts, current, all);
          parts := parts + [current];
          current := "";
          i := i + |sep|;
          continue;
        }
      }
      SplitCharStep(s, sep, i, parts, current, all);
      current := current + [s[i]];
      i := i + 1;
    }
    assert s[..|s|] == s;
    parts := parts + [current];
  }

  /** A separator at i closes the current part. */
  lemma SplitSeparatorStep(s: string, sep: string, i: nat, parts: seq<string>, current: string, all: seq<string>)
    requires |sep| >= 1 && i < |s| && s[i] == sep[0] && SeparatorAt(s, sep, i)
    requires parts + SplitFrom(s, sep, i, current) == all
    ensures i + |sep| <= |s|
    ensures parts + [current] + SplitFrom(s, sep, i + |sep|, "") == all
  {
    var rest := SplitFrom(s, sep, i + |sep|, "");
    SplitFromSeparator(s, sep, i, current);
    assert parts + ([current] + rest) == parts + [current] + rest;
  }

  lemma SplitFromSeparator(s: string, sep: string, i: nat, current: string)
    requires |sep| >= 1 && i < |s| && s[i] == sep[0] && SeparatorAt(s, sep, i)
    ensures SplitFrom(s, sep, i, current) == [current] + SplitFrom(s, sep, i + |sep|, "")
  {
  }

  /** Joining one more, empty, part adds the separator. */
  lemma JoinSeparator(s: string, sep: string, i: nat, parts: seq<string>)
    requires |sep| >= 1 && i < |s| && SeparatorAt(s, sep, i) && |parts| >= 1
    requires Join(parts, sep) == s[..i]
    ensures Join(parts + [""], sep) == s[..i + |sep|]
  {
    var ps := parts + [""];
    assert ps[..|ps| - 1] == parts && ps[|ps| - 1] == "";
    assert Join(ps, sep) == s[..i] + sep + "";
    assert s[..i + |sep|] == s[..i] + s[i..i + |sep|];
  }

  /** Any other character at i is appended to the current part. */
  lemma SplitCharStep(s: string, sep: string, i: nat, parts: seq<string>, current: string, all: seq<string>)
    requires |sep| >= 1 && i < |s| && !(s[i] == sep[0] && SeparatorAt(s, sep, i))
    requires Join(parts + [current], sep) == s[..i]
    requires parts + SplitFrom(s, sep, i, current) == all
    ensures |sep| == 1 ==> s[i] != sep[0]
    ensures Join(parts + [current + [s[i]]], sep) == s[..i + 1]
    ensures parts + SplitFrom(s, sep, i + 1, current + [s[i]]) == all
  {
    if |sep| == 1 {
      assert s[i..i + 1] == [s[i]] && sep == [sep[0]];
    }
    JoinAppendChar(parts, current, s[i], sep);
    assert s[..i + 1] == s[..i] + [s[i]];
  }

  lemma JoinAppendChar(parts: seq<string>, current: string, c: char, sep: string)
    ensures Join(parts + [current + [c]], sep) == Join(parts + [current], sep) + [c]
  {
    if |parts| > 0 {
      assert (parts + [current + [c]])[..|parts|] == parts;
      assert (parts + [current])[..|parts|] == parts;
    }
  }

  lemma {:induction false} CountConcat(a: string, b: string, c: char)
    ensures Count(a + b, c) == Count(a, c) + Count(b, c)
    decreases |b|
  {
    if |b| == 0 {
      assert a + b == a;
    } else {
      assert (a + b)[..|a + b| - 1] == a + b[..|b| - 1];
      CountConcat(a, b[..|b| - 1], c);
    }
  }

  lemma {:induction false} CountAbsent(s: string, c: char)
    requires c !in s
    ensures Count(s, c) == 0
    decreases |s|
  {
    if |s| > 0 {
      CountAbsent(s[..|s| - 1], c);
    }
  }

  /**
   * For a one-character separator, parts free of it that join to s are one
   * more than the separator's occurrences in s.
   */
  lemma {:induction false} PartsCount(parts: seq<string>, c: char)
    requires |parts| >= 1
    requires forall k :: 0 <= k < |parts| ==> c !in parts[k]
    ensures |parts| == Count(Join(parts, [c]), c) + 1
    decreases |parts|
  {
    if |parts| == 1 {
      CountAbsent(parts[0], c);
    } else {
      var init := parts[..|parts| - 1];
      PartsCount(init, c);
      CountConcat(Join(init, [c]) + [c], parts[|parts| - 1], c);
      CountConcat(Join(init, [c]), [c], c);
      assert [c][..0] == [];
      CountAbsent(parts[|parts| - 1], c);
    }
  }

  /** v without its first occurrence of x; v itself when x is absent. */
  function RemoveFirst(v: seq<int>, x: int): (r: seq<int>)
    ensures x !in v ==> r == v
    ensures |r| == if x in v then |v| - 1 else |v|
    ensures multiset(r) == multiset(v) - multiset{x}
  {
    if |v| == 0 then v
    else if v[0] == x then
      assert v == [v[0]] + v[1..];
      v[1..]
    else
      assert v == [v[0]] + v[1..];
      [v[0]] + RemoveFirst(v[1..], x)
  }

  /** Erases the first element equal to x by a scan from the front. */
  method RemoveElementFromVectorByName(v: seq<int>, x: int) returns (r: seq<int>)
    ensures r == RemoveFirst(v, x)
  {
    r := v;
    var i := 0;
    while i < |v|
      invariant 0 <= i <= |v|
      invariant x !in v[..i]
      invariant r == v
    {
      if v[i] == x {
        RemoveFirstAt(v, x, i);
        r := v[..i] + v[i + 1..];
        return;
      }
      assert v[..i + 1] == v[..i] + [v[i]];
      i := i + 1;
    }
    assert v[..|v|] == v;
  }

  /** Only the first occurrence goes; the elements before and after it keep their order. */
  lemma {:induction false} RemoveFirstAt(v: seq<int>, x: int, i: nat)
    requires i < |v| && v[i] == x && x !in v[..i]
    ensures RemoveFirst(v, x) == v[..i] + v[i + 1..]
    decreases i
  {
    if i > 0 {
      var t := v[1..];
      assert v[..i][0] == v[0] && v[0] != x;
      assert t[..i - 1] == v[1..i] && x !in t[..i - 1];
      RemoveFirstAt(t, x, i - 1);
      assert RemoveFirst(v, x) == [v[0]] + RemoveFirst(t, x);
      assert v[..i] == [v[0]] + t[..i - 1];
      assert v[i + 1..] == t[i..];
    }
  }

  datatype Room = Room(name: string, password: string, users: seq<int>)

  /** What is sent: a text to one client. */
  datatype Send = Send(to: int, text: string)

  /** No two rooms share a name. */
  predicate DistinctNames(rooms: seq<Room>) {
    forall i, j :: 0 <= i < j < |rooms| ==> rooms[i].name != rooms[j].name
  }

  /** The index of the room called name, if there is one. */
  function FindName(rooms: seq<Room>, name: string): (r: Option<nat>)
    ensures r.Some? ==> r.value < |rooms| && rooms[r.value].name == name &&
                        forall k :: 0 <= k < r.value ==> rooms[k].name != name
    ensures r.None? ==> forall k :: 0 <= k < |rooms| ==> rooms[k].name != name
  {
    if |rooms| == 0 then None
    else if rooms[0].name == name then Some(0)
    else
      var r := FindName(rooms[1..], name);
      if r.Some? then Some(r.value + 1) else None
  }

  /** The first room with this name and password, if there is one. */
  function FindRoom(rooms: seq<Room>, name: string, password: string): (r: Option<nat>)
    ensures r.Some? ==> r.value < |rooms| && rooms[r.value].name == name && rooms[r.value].password == password &&
                        forall k :: 0 <= k < r.value ==> !(rooms[k].name == name && rooms[k].password == password)
    ensures r.None? ==> forall k :: 0 <= k < |rooms| ==> !(rooms[k].name == name && rooms[k].password == password)
  {
    if |rooms| == 0 then None
    else if rooms[0].name == name && rooms[0].password == password then Some(0)
    else
      var r := FindRoom(rooms[1..], name, password);
      if r.Some? then Some(r.value + 1) else None
  }

  /** "create name password": the room is added when its name is free. */
  function Create(rooms: seq<Room>, name: string, password: string): (r: (seq<Room>, string))
    ensures FindName(rooms, name).None? ==> r.0 == rooms + [Room(name, password, [])]
    ensures FindName(rooms, name).Some? ==> r.0 == rooms
    ensures DistinctNames(rooms) ==> DistinctNames(r.0)
  {
    if FindName(rooms, name).Some? then (rooms, "This room name alredy taken")
    else (rooms + [Room(name, password, [])], "You are created room: " + name)
  }

  /** "remove name password": the room is erased only when the name and the password both match. */
  function Remove(rooms: seq<Room>, name: string, password: string): (r: (seq<Room>, string))
    ensures FindName(rooms, name).None? ==> r == (rooms, "Wrong name")
    ensures FindName(rooms, name).Some? && rooms[FindName(rooms, name).value].password != password ==>
              r == (rooms, "Wrong password")
    ensures FindName(rooms, name).Some? && rooms[FindName(rooms, name).value].password == password ==>
              var k := FindName(rooms, name).value;
              r.0 == rooms[..k] + rooms[k + 1..] && |r.0| == |rooms| - 1
    ensures DistinctNames(rooms) ==> DistinctNames(r.0)
  {
    match FindName(rooms, name)
    case None => (rooms, "Wrong name")
    case Some(k) =>
      if rooms[k].password == password then
        (rooms[..k] + rooms[k + 1..], "You are remove room: " + name)
      else (rooms, "Wrong password")
  }

  /** "open name password": the user joins the first room with that name and password. */
  function Open(rooms: seq<Room>, user: int, name: string, password: string, roomId: int): (r: (seq<Room>, int, string))
    ensures FindRoom(rooms, name, password).None? ==> r == (rooms, roomId, "Wrong room name or password")
    ensures FindRoom(rooms, name, password).Some? ==>
              var k := FindRoom(rooms, name, password).value;
              r.1 == k && |r.0| == |rooms| && r.0[k].users == rooms[k].users + [user] &&
              r.0[k].name == rooms[k].name && r.0[k].password == rooms[k].password &&
              forall j :: 0 <= j < |rooms| && j != k ==> r.0[j] == rooms[j]
  {
    match FindRoom(rooms, name, password)
    case None => (rooms, roomId, "Wrong room name or password")
    case Some(k) => (rooms[k := rooms[k].(users := rooms[k].users + [user])], k, "Opened room: " + name)
  }

  /** The effect of one message. */
  datatype Outcome = Outcome(rooms: seq<Room>, roomId: int, sends: seq<Send>)

  /** Copies of msg for every user of the room but the sender. */
  function Forward(users: seq<int>, sender: int, msg: string): seq<Send> {
    if |users| == 0 then []
    else Forward(users[..|users| - 1], sender, msg) +
         (if users[|users| - 1] != sender then [Send(users[|users| - 1], msg)] else [])
  }

  /** One reply per room, naming it. */
  function RoomNames(rooms: seq<Room>, user: int): seq<Send> {
    if |rooms| == 0 then [] else RoomNames(rooms[..|rooms| - 1], user) + [Send(user, rooms[|rooms| - 1].name)]
  }

  const CreateUsage := "Wrong command. You have to specify room name and password\nCommand usage: create room_name room_password"
  const RemoveUsage := "Wrong command. You have to specify room name and password\nCommand usage: remove room_name room_password"
  const OpenUsage := "Wrong command. You have to specify room name and password\nCommand usage: open room_name room_password"

  /**
   * The handler's effect once "!exit" has been dealt with: inside a room
   * the message is forwarded; otherwise the commands.
   */
  function Dispatch(rooms: seq<Room>, user: int, words: seq<string>, msg: string, roomId: int): Outcome
    requires |words| >= 1
    requires roomId == -1 || 0 <= roomId < |rooms|
  {
    if roomId != -1 then Outcome(rooms, roomId, Forward(rooms[roomId].users, user, msg))
    else if words[0] == "ls" then Outcome(rooms, roomId, RoomNames(rooms, user))
    else if words[0] == "create" && |words| >= 3 then
      var (rs, text) := Create(rooms, words[1], words[2]); Outcome(rs, roomId, [Send(user, text)])
    else if words[0] == "create" then Outcome(rooms, roomId, [Send(user, CreateUsage)])
    else if words[0] == "remove" && |words| >= 3 then
      var (rs, text) := Remove(rooms, words[1], words[2]); Outcome(rs, roomId, [Send(user, text)])
    else if words[0] == "remove" then Outcome(rooms, roomId, [Send(user, RemoveUsage)])
    else if words[0] == "open" && |words| >= 3 then
      var (rs, id, text) := Open(rooms, user, words[1], words[2], roomId); Outcome(rs, id, [Send(user, text)])
    else if words[0] == "open" then Outcome(rooms, roomId, [Send(user, OpenUsage)])
    else Outcome(rooms, roomId, [])
  }

  /** Rooms stay uniquely named whatever a message does. */
  lemma DispatchKeepsNamesDistinct(rooms: seq<Room>, user: int, words: seq<string>, msg: string, roomId: int)
    requires |words| >= 1 && (roomId == -1 || 0 <= roomId < |rooms|)
    requires DistinctNames(rooms)
    ensures DistinctNames(Dispatch(rooms, user, words, msg, roomId).rooms)
    ensures var o := Dispatch(rooms, user, words, msg, roomId);
            o.roomId == -1 || 0 <= o.roomId < |o.rooms|
  {
    if roomId == -1 && words[0] == "open" && |words| >= 3 {
      var o := Open(rooms, user, words[1], words[2], roomId);
      forall i, j | 0 <= i < j < |o.0|
        ensures o.0[i].name != o.0[j].name
      {
        assert o.0[i].name == rooms[i].name && o.0[j].name == rooms[j].name;
      }
    }
  }

  /** The reply to a user leaving a room. */
  function ExitMessage(name: string): string {
    "Your exit room with name: " + name
  }

  /**
   * The effect of one message of a user whose room index is roomId (-1:
   * in no room).  "!exit" takes the user out of the room first.  A
   * "!exit" from a user in no room, or a room index outside the list,
   * indexes the room list out of range in the source; here it is a
   * failure.
   */
  function Handle(rooms: seq<Room>, user: int, msg: string, roomId: int): (r: Result<Outcome>)
    ensures r.Failure? <==> roomId < -1 || roomId >= |rooms| || (roomId == -1 && SplitWords(msg, " ")[0] == "!exit")
  {
    var words := SplitWords(msg, " ");
    if roomId < -1 || roomId >= |rooms| then Failure("room index out of range")
    else if words[0] == "!exit" then
      if roomId == -1 then Failure("room index out of range")
      else
        var left := rooms[roomId := rooms[roomId].(users := RemoveFirst(rooms[roomId].users, user))];
        var o := Dispatch(left, user, words, msg, -1);
        Success(Outcome(o.rooms, o.roomId, [Send(user, ExitMessage(rooms[roomId].name))] + o.sends))
    else Success(Dispatch(rooms, user, words, msg, roomId))
  }

  /**
   * Whatever the message, rooms stay uniquely named, the user's room index
   * stays valid, and "!exit" leaves the user in no room.
   */
  lemma HandleKeepsInvariant(rooms: seq<Room>, user: int, msg: string, roomId: int)
    requires DistinctNames(rooms)
    ensures Handle(rooms, user, msg, roomId).Success? ==>
              var o := Handle(rooms, user, msg, roomId).value;
              DistinctNames(o.rooms) && (o.roomId == -1 || 0 <= o.roomId < |o.rooms|)
    ensures Handle(rooms, user, msg, roomId).Success? && SplitWords(msg, " ")[0] == "!exit" ==>
              Handle(rooms, user, msg, roomId).value.roomId == -1 &&
              Handle(rooms, user, msg, roomId).value.rooms[roomId].users == RemoveFirst(rooms[roomId].users, user)
  {
    var words := SplitWords(msg, " ");
    if -1 <= roomId < |rooms| {
      if words[0] == "!exit" && roomId != -1 {
        var left := rooms[roomId := rooms[roomId].(users := RemoveFirst(rooms[roomId].users, user))];
        assert forall k :: 0 <= k < |left| ==> left[k].name == rooms[k].name;
        DispatchKeepsNamesDistinct(left, user, words, msg, -1);
      } else if words[0] != "!exit" {
        DispatchKeepsNamesDistinct(rooms, user, words, msg, roomId);
      }
    }
  }

  class Server {
    var rooms: seq<Room>
    var outbox: seq<Send>

    predicate Valid()
      reads this
    {
      DistinctNames(rooms)
    }

    constructor()
      ensures Valid() && rooms == [] && outbox == []
    {
      rooms := [];
      outbox := [];
    }

    /** Scans for a room of that name. */
    method IsTakenName(name: string) returns (taken: bool)
      ensures taken <==> FindName(rooms, name).Some?
    {
      taken := false;
      for i := 0 to |rooms|
        invariant forall k :: 0 <= k < i ==> rooms[k].name != name
      {
        if rooms[i].name == name {
          return true;
        }
      }
    }

    method CreateRoom(name: string, password: string) returns (message: string)
      requires Valid()
      modifies this
      ensures Valid()
      ensures (rooms, message) == Create(old(rooms), name, password)
      ensures outbox == old(outbox)
    {
      message := "You are created room: " + name;
      var taken := IsTakenName(name);
      if taken {
        message := "This room name alredy taken";
      } else {
        rooms := rooms + [Room(name, password, [])];
      }
    }

    method RemoveRoom(name: string, password: string) returns (message: string)
      requires Valid()
      modifies this
      ensures Valid()
      ensures (rooms, message) == Remove(old(rooms), name, password)
      ensures outbox == old(outbox)
    {
      message := "You are remove room: " + name;
      var wasThisRoom := false;
      var i := 0;
      ghost var before := rooms;
      while i < |rooms|
        invariant rooms == before
        invariant 0 <= i <= |rooms|
        invariant !wasThisRoom ==> forall k :: 0 <= k < i ==> rooms[k].name != name
        invariant !wasThisRoom ==> message == "You are remove room: " + name
        invariant wasThisRoom ==> FindName(rooms, name).Some? && FindName(rooms, name).value < i &&
                                  rooms[FindName(rooms, name).value].password != password &&
                                  message == "Wrong password"
      {
        if rooms[i].name == name {
          wasThisRoom := true;
          if rooms[i].password == password {
            assert FindName(rooms, name) == Some(i);
            rooms := rooms[..i] + rooms[i + 1..];
            return;
          } else {
            message := "Wrong password";
          }
        }
        i := i + 1;
      }
      if !wasThisRoom {
        message := "Wrong name";
      }
    }

    method OpenRoom(user: int, name: string, password: string, roomId: int) returns (message: string, newRoomId: int)
      requires Valid()
      modifies this
      ensures Valid()
      ensures (rooms, newRoomId, message) == Open(old(rooms), user, name, password, roomId)
      ensures outbox == old(outbox)
    {
      message := "Opened room: " + name;
      newRoomId := roomId;
      for i := 0 to |rooms|
        invariant rooms == old(rooms)
        invariant forall k :: 0 <= k < i ==> !(rooms[k].name == name && rooms[k].password == password)
      {
        if rooms[i].name == name && rooms[i].password == password {
          assert FindRoom(rooms, name, password) == Some(i);
          rooms := rooms[i := rooms[i].(users := rooms[i].users + [user])];
          newRoomId := i;
          forall a, b | 0 <= a < b < |rooms|
            ensures rooms[a].name != rooms[b].name
          {
            assert rooms[a].name == old(rooms)[a].name && rooms[b].name == old(rooms)[b].name;
          }
          return;
        }
      }
      message := "Wrong room name or password";
    }

    /** Sends msg to every user of the room but the sender. */
    method ForwardToRoom(roomId: nat, user: int, msg: string)
      requires roomId < |rooms|
      modifies this
      ensures rooms == old(rooms)
      ensures outbox == old(outbox) + Forward(rooms[roomId].users, user, msg)
    {
      var users := rooms[roomId].users;
      for k := 0 to |users|
        invariant rooms == old(rooms)
        invariant outbox == old(outbox) + Forward(users[..k], user, msg)
      {
        assert users[..k + 1][..k] == users[..k];
        if user != users[k] {
          outbox := outbox + [Send(users[k], msg)];
        }
      }
      assert users[..|users|] == users;
    }

    /** Sends the name of every room to the user. */
    method ListRooms(user: int)
      modifies this
      ensures rooms == old(rooms)
      ensures outbox == old(outbox) + RoomNames(rooms, user)
    {
      for i := 0 to |rooms|
        invariant rooms == old(rooms)
        invariant outbox == old(outbox) + RoomNames(rooms[..i], user)
      {
        assert rooms[..i + 1][..i] == rooms[..i];
        outbox := outbox + [Send(user, rooms[i].name)];
      }
      assert rooms[..|rooms|] == rooms;
    }

    /**
     * Handles one message of a user whose room index is roomId and
     * returns the user's new room index.
     */
    method MessageHandler(user: int, msg: string, roomId: int) returns (r: Result<int>)
      requires Valid()
      modifies this
      ensures Valid()
      ensures r.Failure? <==> Handle(old(rooms), user, msg, roomId).Failure?
      ensures r.Failure? ==> rooms == old(rooms) && outbox == old(outbox)
      ensures r.Success? ==>
                var o := Handle(old(rooms), user, msg, roomId).value;
                rooms == o.rooms && outbox == old(outbox) + o.sends && r.value == o.roomId
    {
      var words := Split(msg, " ");
      if roomId < -1 || roomId >= |rooms| {
        return Failure("room index out of range");
      }
      if words[0] == "!exit" {
        if roomId == -1 {
          return Failure("room index out of range");
        }
        ExitRoom(user, roomId);
        ghost var left, sent := rooms, [Send(user, ExitMessage(old(rooms)[roomId].name))];
        r := Dispatcher(user, words, msg, -1);
        assert outbox == old(outbox) + (sent + Dispatch(left, user, words, msg, -1).sends);
      } else {
        r := Dispatcher(user, words, msg, roomId);
      }
    }

    /** "!exit": takes the user out of the room and tells them so. */
    method ExitRoom(user: int, roomId: nat)
      requires Valid() && roomId < |rooms|
      modifies this
      ensures Valid()
      ensures rooms == old(rooms)[roomId := old(rooms)[roomId].(users := RemoveFirst(old(rooms)[roomId].users, user))]
      ensures outbox == old(outbox) + [Send(user, ExitMessage(old(rooms)[roomId].name))]
    {
      var name := rooms[roomId].name;
      var users := RemoveElementFromVectorByName(rooms[roomId].users, user);
      rooms := rooms[roomId := rooms[roomId].(users := users)];
      assert forall k :: 0 <= k < |rooms| ==> rooms[k].name == old(rooms)[k].name;
      outbox := outbox + [Send(user, ExitMessage(name))];
    }

    /** The command part of the handler, once "!exit" has been dealt with. */
    method Dispatcher(user: int, words: seq<string>, msg: string, roomId: int) returns (r: Result<int>)
      requires Valid()
      requires |words| >= 1 && (roomId == -1 || 0 <= roomId < |rooms|)
      modifies this
      ensures Valid()
      ensures var o := Dispatch(old(rooms), user, words, msg, roomId);
              r == Success(o.roomId) && rooms == o.rooms && outbox == old(outbox) + o.sends
    {
      DispatchKeepsNamesDistinct(rooms, user, words, msg, roomId);
      if roomId != -1 {
        ForwardToRoom(roomId, user, msg);
        return Success(roomId);
      }
      if words[0] == "ls" {
        ListRooms(user);
        return Success(roomId);
      }
      if words[0] == "create" && |words| >= 3 {
        var message := CreateRoom(words[1], words[2]);
        outbox := outbox + [Send(user, message)];
        return Success(roomId);
      }
      if words[0] == "create" {
        outbox := outbox + [Send(user, CreateUsage)];
        return Success(roomId);
      }
      if words[0] == "remove" && |words| >= 3 {
        var message := RemoveRoom(words[1], words[2]);
        outbox := outbox + [Send(user, message)];
        return Success(roomId);
      }
      if words[0] == "remove" {
        outbox := outbox + [Send(user, RemoveUsage)];
        return Success(roomId);
      }
      if words[0] == "open" && |words| >= 3 {
        var message, id := OpenRoom(user, words[1], words[2], roomId);
        outbox := outbox + [Send(user, message)];
        return Success(id);
      }
      if words[0] == "open" {
        outbox := outbox + [Send(user, OpenUsage)];
        return Success(roomId);
      }
      return Success(roomId);
    }
  }
}

=== FILE: command_processor.dfy ===
/**
 * Robot command processor (BazeltsevAA/MVP_bot/MVP_bot/raspberrypi_1/CommandProcessor.cpp).
 *
 * The processor keeps the current direction, speed and servo command,
 * turns keys into state changes and sends the whole state to the motor
 * controller as a five-digit frame.  The serial port is modelled by the
 * sequence of frames written to it (`sent`) and by whether the port is
 * open; the video streamer by the sequence of resolution requests it got.
 */
module CommandProcessor {
  import opened Wrappers

  /** Clamps x into [lo, hi]. */
  function Clamp(x: int, lo: int, hi: int): (r: int)
    requires lo <= hi
    ensures lo <= r <= hi
    ensures lo <= x <= hi ==> r == x
    ensures x < lo ==> r == lo
    ensures x > hi ==> r == hi
  {
    if x < lo then lo else if x > hi then hi else x
  }

  predicate IsDigit(c: char) {
    '0' <= c <= '9'
  }

  function Digit(d: int): (c: char)
    requires 0 <= d <= 9
    ensures IsDigit(c)
  {
    ('0' as int + d) as char
  }

  function DigitValue(c: char): int
    requires IsDigit(c)
  {
    c as int - '0' as int
  }

  /**
   * The frame for a state: direction (one digit, clamped to 0..6), speed
   * (three digits, clamped to 10..100) and servo command (one digit,
   * clamped to 0..4).
   */
  function Frame(direction: int, speed: int, servo: int): seq<char>
  {
    var spd := Clamp(speed, 10, 100);
    [Digit(Clamp(direction, 0, 6)),
     Digit(spd / 100), Digit(spd / 10 % 10), Digit(spd % 10),
     Digit(Clamp(servo, 0, 4))]
  }

  /** Reads a frame back: direction, speed, servo. */
  function DecodeFrame(f: seq<char>): Option<(int, int, int)>
  {
    if |f| != 5 || exists i :: 0 <= i < 5 && !IsDigit(f[i]) then None
    else Some((DigitValue(f[0]),
               100 * DigitValue(f[1]) + 10 * DigitValue(f[2]) + DigitValue(f[3]),
               DigitValue(f[4])))
  }

  /** Every frame is five digits and decodes to the clamped state. */
  lemma FrameDecodes(direction: int, speed: int, servo: int)
    ensures |Frame(direction, speed, servo)| == 5
    ensures forall i :: 0 <= i < 5 ==> IsDigit(Frame(direction, speed, servo)[i])
    ensures DecodeFrame(Frame(direction, speed, servo)) ==
              Some((Clamp(direction, 0, 6), Clamp(speed, 10, 100), Clamp(servo, 0, 4)))
  {
    var spd := Clamp(speed, 10, 100);
    assert 100 * (spd / 100) + 10 * (spd / 10 % 10) + spd % 10 == spd;
  }

  /** On the valid range, encoding is one-to-one: the frame determines the state. */
  lemma FrameInjective(d1: int, s1: int, v1: int, d2: int, s2: int, v2: int)
    requires 0 <= d1 <= 6 && 10 <= s1 <= 100 && 0 <= v1 <= 4
    requires 0 <= d2 <= 6 && 10 <= s2 <= 100 && 0 <= v2 <= 4
    requires Frame(d1, s1, v1) == Frame(d2, s2, v2)
    ensures d1 == d2 && s1 == s2 && v1 == v2
  {
    FrameDecodes(d1, s1, v1);
    FrameDecodes(d2, s2, v2);
  }

  /** The direction a movement key selects. */
  function DirectionKey(cmd: char): (r: Option<int>)
    ensures r.Some? ==> 0 <= r.value <= 6
  {
    match cmd
    case 'w' => Some(1)
    case 's' => Some(2)
    case 'd' => Some(3)
    case 'a' => Some(4)
    case 'q' => Some(6)
    case 'e' => Some(5)
    case 'n' => Some(0)
    case _ => None
  }

  /** The servo command a camera key selects. */
  function ServoKey(cmd: char): (r: Option<int>)
    ensures r.Some? ==> 0 <= r.value <= 4
  {
    match cmd
    case 'i' => Some(2)
    case 'k' => Some(3)
    case 'j' => Some(4)
    case 'l' => Some(1)
    case 'u' => Some(0)
    case _ => None
  }

  /** The speed a speed key asks for: ten more or ten less, kept within 10..100. */
  function SpeedKey(cmd: char, speed: int): (r: Option<int>)
    ensures r.Some? <==> cmd in "+=-_"
    ensures r.Some? && 0 <= speed <= 100 ==> 10 <= r.value <= 100
    ensures (cmd == '+' || cmd == '=') && speed + 10 <= 100 ==> r == Some(speed + 10)
    ensures (cmd == '-' || cmd == '_') && speed - 10 >= 10 ==> r == Some(speed - 10)
    ensures (cmd == '+' || cmd == '=') && 0 <= speed <= 100 ==> r == Some(Clamp(speed + 10, 10, 100))
    ensures (cmd == '-' || cmd == '_') && 0 <= speed <= 100 ==> r == Some(Clamp(speed - 10, 10, 100))
    ensures (cmd == '+' || cmd == '=') && speed + 10 > 100 ==> r == Some(100)
    ensures (cmd == '-' || cmd == '_') && speed - 10 < 10 ==> r == Some(10)
  {
    if cmd == '+' || cmd == '=' then Some(if speed + 10 > 100 then 100 else speed + 10)
    else if cmd == '-' || cmd == '_' then Some(if speed - 10 < 10 then 10 else speed - 10)
    else None
  }

  /** The command dictionary: the keys the processor knows. */
  predicate Known(cmd: char) {
    cmd in "wsadqenikjlu+-xc"
  }

  /** The key that undoes a movement or camera key. */
  function Inverse(cmd: char): Option<char>
  {
    match cmd
    case 'w' => Some('s')
    case 's' => Some('w')
    case 'a' => Some('d')
    case 'd' => Some('a')
    case 'q' => Some('e')
    case 'e' => Some('q')
    case 'i' => Some('k')
    case 'k' => Some('i')
    case 'j' => Some('l')
    case 'l' => Some('j')
    case _ => None
  }

  /**
   * The inverse map is an involution, and it maps movement keys to
   * movement keys and camera keys to camera keys; the stop keys have no
   * inverse.
   */
  lemma InverseInvolution(cmd: char)
    ensures Inverse(cmd).Some? ==> Inverse(Inverse(cmd).value) == Some(cmd)
    ensures Inverse(cmd).Some? ==> Inverse(cmd).value != cmd && Known(Inverse(cmd).value)
    ensures Inverse(cmd).Some? && DirectionKey(cmd).Some? ==> DirectionKey(Inverse(cmd).value).Some?
    ensures Inverse(cmd).Some? && ServoKey(cmd).Some? ==> ServoKey(Inverse(cmd).value).Some?
    ensures Inverse(cmd).Some? <==> (DirectionKey(cmd).Some? || ServoKey(cmd).Some?) && cmd != 'n' && cmd != 'u'
  {
  }

  /** A resolution request to the video streamer. */
  datatype VideoRequest = ResolutionDown | ResolutionUp

  class Processor {
    var currentDirection: int
    var currentSpeed: int
    var currentServoCommand: int
    var directionKeyPressed: bool
    var previousSpeed: int
    /** The serial port was opened successfully. */
    var uartOpen: bool
    /** Frames written to the serial port, oldest first. */
    var sent: seq<seq<char>>
    /** A video streamer is attached. */
    var hasStreamer: bool
    /** Requests passed to the video streamer, oldest first. */
    var videoRequests: seq<VideoRequest>

    /**
     * The state stays within the ranges the frame can carry, and the
     * direction key counts as pressed exactly while the robot moves.
     */
    predicate Valid()
      reads this
    {
      0 <= currentDirection <= 6 && 0 <= currentSpeed <= 100 &&
      0 <= currentServoCommand <= 4 && 0 <= previousSpeed <= 100 &&
      directionKeyPressed == (currentDirection != 0)
    }

    constructor(uartOpen: bool, hasStreamer: bool)
      ensures Valid()
      ensures currentDirection == 0 && currentSpeed == 50 && currentServoCommand == 0
      ensures !directionKeyPressed && previousSpeed == 50
      ensures this.uartOpen == uartOpen && this.hasStreamer == hasStreamer
      ensures sent == [] && videoRequests == []
    {
      currentDirection := 0;
      currentSpeed := 50;
      currentServoCommand := 0;
      directionKeyPressed := false;
      previousSpeed := 50;
      this.uartOpen := uartOpen;
      sent := [];
      this.hasStreamer := hasStreamer;
      videoRequests := [];
    }

    /** Writes one frame for the given state, when the port is open. */
    method SendFullCommand(direction: int, speed: int, servoCommand: int)
      modifies this
      ensures uartOpen ==> sent == old(sent) + [Frame(direction, speed, servoCommand)]
      ensures !uartOpen ==> sent == old(sent)
      ensures currentDirection == old(currentDirection) && currentSpeed == old(currentSpeed)
      ensures currentServoCommand == old(currentServoCommand) && previousSpeed == old(previousSpeed)
      ensures directionKeyPressed == old(directionKeyPressed) && uartOpen == old(uartOpen)
      ensures hasStreamer == old(hasStreamer) && videoRequests == old(videoRequests)
    {
      if !uartOpen {
        return;
      }
      var command := new char[5];
      var dir := if direction < 0 then 0 else if direction > 6 then 6 else direction;
      command[0] := Digit(dir);
      var spd := speed;
      if spd < 10 { spd := 10; }
      if spd > 100 { spd := 100; }
      if spd >= 100 {
        command[1], command[2], command[3] := '1', '0', '0';
      } else {
        command[1] := '0';
        command[2] := Digit(spd / 10);
        command[3] := Digit(spd % 10);
      }
      var servo := if servoCommand < 0 then 0 else if servoCommand > 4 then 4 else servoCommand;
      command[4] := Digit(servo);
      assert spd == Clamp(speed, 10, 100);
      assert spd < 100 ==> spd / 100 == 0 && spd / 10 % 10 == spd / 10;
      assert command[..] == Frame(direction, speed, servoCommand);
      sent := sent + [command[..]];
    }

    method SendCurrentCommand()
      modifies this
      ensures uartOpen ==> sent == old(sent) + [Frame(currentDirection, currentSpeed, currentServoCommand)]
      ensures !uartOpen ==> sent == old(sent)
      ensures currentDirection == old(currentDirection) && currentSpeed == old(currentSpeed)
      ensures currentServoCommand == old(currentServoCommand) && previousSpeed == old(previousSpeed)
      ensures directionKeyPressed == old(directionKeyPressed) && uartOpen == old(uartOpen)
      ensures hasStreamer == old(hasStreamer) && videoRequests == old(videoRequests)
    {
      SendFullCommand(currentDirection, currentSpeed, currentServoCommand);
    }

    /** Selects a direction 0..6 and sends the new state; other values are ignored. */
    method SetDirection(direction: int)
      requires Valid()
      modifies this
      ensures Valid()
      ensures (direction < 0 || direction > 6) ==>
                currentDirection == old(currentDirection) && sent == old(sent)
      ensures 0 <= direction <= 6 ==>
                currentDirection == direction && directionKeyPressed == (direction != 0) &&
                (uartOpen ==> sent == old(sent) + [Frame(direction, currentSpeed, currentServoCommand)]) &&
                (!uartOpen ==> sent == old(sent))
      ensures currentSpeed == old(currentSpeed) && previousSpeed == old(previousSpeed)
      ensures currentServoCommand == old(currentServoCommand)
      ensures uartOpen == old(uartOpen) && hasStreamer == old(hasStreamer) && videoRequests == old(videoRequests)
    {
      if direction < 0 || direction > 6 {
        return;
      }
      currentDirection := direction;
      if direction == 0 {
        directionKeyPressed := false;
      } else {
        directionKeyPressed := true;
      }
      SendCurrentCommand();
    }

    /** Selects a servo command 0..4 and sends the new state; other values are ignored. */
    method SetServoCommand(servoCommand: int)
      requires Valid()
      modifies this
      ensures Valid()
      ensures (servoCommand < 0 || servoCommand > 4) ==>
                currentServoCommand == old(currentServoCommand) && sent == old(sent)
      ensures 0 <= servoCommand <= 4 ==>
                currentServoCommand == servoCommand &&
                (uartOpen ==> sent == old(sent) + [Frame(currentDirection, currentSpeed, servoCommand)]) &&
                (!uartOpen ==> sent == old(sent))
      ensures currentDirection == old(currentDirection) && directionKeyPressed == old(directionKeyPressed)
      ensures currentSpeed == old(currentSpeed) && previousSpeed == old(previousSpeed)
      ensures uartOpen == old(uartOpen) && hasStreamer == old(hasStreamer) && videoRequests == old(videoRequests)
    {
      if servoCommand < 0 || servoCommand > 4 {
        return;
      }
      currentServoCommand := servoCommand;
      SendCurrentCommand();
    }

    /**
     * Changes the speed.  A speed outside 0..100 or equal to the current
     * one is ignored; otherwise the old speed is remembered and the new
     * state is sent only while a direction key is pressed.
     */
    method ProcessSpeed(speed: int)
      requires Valid()
      modifies this
      ensures Valid()
      ensures (speed < 0 || speed > 100 || speed == old(currentSpeed)) ==>
                currentSpeed == old(currentSpeed) && previousSpeed == old(previousSpeed) && sent == old(sent)
      ensures (0 <= speed <= 100 && speed != old(currentSpeed)) ==>
                currentSpeed == speed && previousSpeed == old(currentSpeed) &&
                (directionKeyPressed && uartOpen ==> sent == old(sent) + [Frame(currentDirection, speed, currentServoCommand)]) &&
                (!directionKeyPressed || !uartOpen ==> sent == old(sent))
      ensures currentDirection == old(currentDirection) && directionKeyPressed == old(directionKeyPressed)
      ensures currentServoCommand == old(currentServoCommand)
      ensures uartOpen == old(uartOpen) && hasStreamer == old(hasStreamer) && videoRequests == old(videoRequests)
    {
      if speed < 0 || speed > 100 {
        return;
      }
      if speed == currentSpeed {
        return;
      }
      previousSpeed := currentSpeed;
      currentSpeed := speed;
      if directionKeyPressed {
        SendCurrentCommand();
      }
    }

    /**
     * Handles one key: speed keys step the speed by 10 within 10..100,
     * 'x' and 'c' go to the video streamer, movement and camera keys set
     * the direction or servo command, and unknown keys change nothing.
     */
    method ProcessCommand(cmd: char)
      requires Valid()
      modifies this
      ensures Valid()
      ensures SpeedKey(cmd, old(currentSpeed)).Some? ==>
                var speed := SpeedKey(cmd, old(currentSpeed)).value;
                currentSpeed == speed &&
                previousSpeed == (if speed == old(currentSpeed) then old(previousSpeed) else old(currentSpeed)) &&
                sent == old(sent) + (if speed != old(currentSpeed) && directionKeyPressed && uartOpen
                                     then [Frame(currentDirection, speed, currentServoCommand)] else [])
      ensures SpeedKey(cmd, old(currentSpeed)).None? ==>
                currentSpeed == old(currentSpeed) && previousSpeed == old(previousSpeed)
      ensures DirectionKey(cmd).Some? ==>
                currentDirection == DirectionKey(cmd).value && directionKeyPressed == (currentDirection != 0) &&
                sent == old(sent) + (if uartOpen then [Frame(currentDirection, currentSpeed, currentServoCommand)] else [])
      ensures DirectionKey(cmd).None? ==>
                currentDirection == old(currentDirection) && directionKeyPressed == old(directionKeyPressed)
      ensures ServoKey(cmd).Some? ==>
                currentServoCommand == ServoKey(cmd).value &&
                sent == old(sent) + (if uartOpen then [Frame(currentDirection, currentSpeed, currentServoCommand)] else [])
      ensures ServoKey(cmd).None? ==> currentServoCommand == old(currentServoCommand)
      ensures cmd == 'x' || cmd == 'c' ==> sent == old(sent)
      ensures cmd == 'x' && hasStreamer ==> videoRequests == old(videoRequests) + [ResolutionDown]
      ensures cmd == 'c' && hasStreamer ==> videoRequests == old(videoRequests) + [ResolutionUp]
      ensures !(cmd in "xc" && hasStreamer) ==> videoRequests == old(videoRequests)
      ensures !Known(cmd) && cmd != '=' && cmd != '_' ==> sent == old(sent)
      ensures uartOpen == old(uartOpen) && hasStreamer == old(hasStreamer)
    {
      if cmd == '+' || cmd == '=' {
        var newSpeed := currentSpeed + 10;
        if newSpeed > 100 { newSpeed := 100; }
        ProcessSpeed(newSpeed);
        return;
      } else if cmd == '-' || cmd == '_' {
        var newSpeed := currentSpeed - 10;
        if newSpeed < 10 { newSpeed := 10; }
        ProcessSpeed(newSpeed);
        return;
      }
      if cmd == 'x' {
        if hasStreamer {
          videoRequests := videoRequests + [ResolutionDown];
        }
        return;
      } else if cmd == 'c' {
        if hasStreamer {
          videoRequests := videoRequests + [ResolutionUp];
        }
        return;
      }
      var direction := DirectionKey(cmd);
      if direction.Some? {
        SetDirection(direction.value);
        return;
      }
      var servo := ServoKey(cmd);
      if servo.Some? {
        SetServoCommand(servo.value);
      }
    }

    /** The key undoing cmd, if it has one. */
    method InverseCommand(cmd: char) returns (found: bool, inv: char)
      ensures found <==> Inverse(cmd).Some?
      ensures found ==> inv == Inverse(cmd).value
    {
      var r := Inverse(cmd);
      if r.None? {
        return false, cmd;
      }
      return true, r.value;
    }
  }
}

=== FILE: dijkstra_matrix.dfy ===
// Dijkstra's algorithm over a fixed-size adjacency matrix
// (DegtevaDA/dijkstra.cpp). A zero entry means "no edge". The distance,
// visited and parent arrays are updated in place as in the source; C `int`
// overflow of distance + weight is not modelled (integers are unbounded).

module DijkstraMatrix {

  import opened Sequences

  /** The number of vertices, fixed at compile time in the source. */
  const N: nat := 5
  /** The "infinite" distance of an unreached vertex. */
  const INT_MAX: int := 2147483647

  ghost predicate IsGraph(graph: seq<seq<int>>)
  {
    |graph| == N && forall u :: 0 <= u < N ==> |graph[u]| == N
  }

  /**
   * Index of an unvisited vertex of least distance, the last one on ties,
   * or -1 when no unvisited vertex has distance at most INT_MAX (lines 107-118).
   */
  method MinDistance(distance: array<int>, checked: array<bool>) returns (minIndex: int)
    requires distance.Length == N && checked.Length == N
    ensures -1 <= minIndex < N
    ensures minIndex == -1 <==> forall v :: 0 <= v < N && !checked[v] ==> distance[v] > INT_MAX
    ensures minIndex >= 0 ==> !checked[minIndex] && distance[minIndex] <= INT_MAX
    ensures minIndex >= 0 ==> forall v :: 0 <= v < N && !checked[v] ==> distance[minIndex] <= distance[v]
    ensures minIndex >= 0 ==> forall v :: minIndex < v < N && !checked[v] ==> distance[minIndex] < distance[v]
  {
    var min := INT_MAX;
    minIndex := -1;
    var v := 0;
    while v < N
      invariant 0 <= v <= N && -1 <= minIndex < v
      invariant minIndex == -1 ==> min == INT_MAX && forall w :: 0 <= w < v && !checked[w] ==> distance[w] > INT_MAX
      invariant minIndex >= 0 ==> !checked[minIndex] && min == distance[minIndex] <= INT_MAX
      invariant forall w :: 0 <= w < v && !checked[w] ==> min <= distance[w]
      invariant minIndex >= 0 ==> forall w :: minIndex < w < v && !checked[w] ==> min < distance[w]
    {
      if !checked[v] && distance[v] <= min {
        min := distance[v];
        minIndex := v;
      }
      v := v + 1;
    }
  }

  /** Following parents from v reaches start within `fuel` steps. */
  ghost predicate LeadsTo(parent: seq<int>, start: nat, v: nat, fuel: nat)
    requires |parent| == N
    decreases fuel
  {
    v == start ||
    (fuel > 0 && v < N && 0 <= parent[v] < N && LeadsTo(parent, start, parent[v] as nat, fuel - 1))
  }

  /**
   * The shortest-path tree facts: every reached vertex other than start was
   * reached from its parent, a visited vertex, along a non-zero edge, and
   * its distance is the parent's plus that edge's weight; the parent was
   * visited earlier (`time` is the visit step, N for "never").
   */
  ghost predicate TreeInv(graph: seq<seq<int>>, start: nat, distance: seq<int>, parent: seq<int>, time: seq<int>)
    requires IsGraph(graph) && |distance| == N && |parent| == N && |time| == N && start < N
  {
    forall v {:trigger parent[v]} :: 0 <= v < N && v != start && distance[v] < INT_MAX ==>
      0 <= parent[v] < N && distance[parent[v]] < INT_MAX && time[parent[v]] < time[v] &&
      graph[parent[v]][v] != 0 && distance[v] == distance[parent[v]] + graph[parent[v]][v]
  }

  /** Under TreeInv, the parent chain of a reached vertex leads to start. */
  lemma {:induction false} ChainLeadsToStart(graph: seq<seq<int>>, start: nat, distance: seq<int>,
                                           parent: seq<int>, time: seq<int>, v: nat, fuel: nat)
    requires IsGraph(graph) && |distance| == N && |parent| == N && |time| == N && start < N
    requires TreeInv(graph, start, distance, parent, time)
    requires forall w :: 0 <= w < N ==> 0 <= time[w]
    requires v < N && distance[v] < INT_MAX && time[v] <= fuel
    ensures LeadsTo(parent, start, v, fuel)
    decreases fuel
  {
    if v != start {
      var p := parent[v];
      ChainLeadsToStart(graph, start, distance, parent, time, p as nat, fuel - 1);
    }
  }

  /**
   * Dijkstra from start (lines 147-173): all distances start at INT_MAX and
   * parents at -1, start gets 0 and is its own parent; then N-1 times the
   * nearest unvisited vertex is visited and its non-zero edges relax the
   * distances of unvisited vertices.
   */
  method Dijkstra(graph: seq<seq<int>>, start: nat)
    returns (distance: array<int>, parent: array<int>)
    requires IsGraph(graph) && start < N
    ensures distance.Length == N && parent.Length == N
    ensures PathTree(graph, start, distance[..], parent[..])
  {
    var checked;
    distance, checked, parent := NewArrays();
    distance[start] := 0;
    parent[start] := start;

    ghost var time: seq<int> := seq(N, _ => N);
    InitialInv(graph, start, distance[..], checked[..], parent[..], time);
    var count := 0;
    while count < N - 1
      invariant 0 <= count && |time| == N
      invariant LoopInv(graph, start, count, distance[..], checked[..], parent[..], time)
    {
      var u := MinDistance(distance, checked);
      if u == -1 {
        break;
      }
      time := Visit(graph, start, count, u, distance, checked, parent, time);
      count := count + 1;
    }
    FinalFacts(graph, start, count, distance[..], checked[..], parent[..], time);
  }

  /**
   * What Dijkstra leaves in the arrays: start has distance 0 and is its own
   * parent; distances never exceed INT_MAX; an unreached vertex keeps parent
   * -1; a reached vertex other than start was reached from its parent, a
   * reached vertex, along a non-zero edge whose weight makes up the
   * difference; and the parent chain of every reached vertex leads to start.
   */
  ghost predicate PathTree(graph: seq<seq<int>>, start: nat, distance: seq<int>, parent: seq<int>)
    requires IsGraph(graph) && start < N && |distance| == N && |parent| == N
  {
    distance[start] == 0 && parent[start] == start &&
    (forall v :: 0 <= v < N ==> distance[v] <= INT_MAX) &&
    (forall v :: 0 <= v < N && v != start && distance[v] == INT_MAX ==> parent[v] == -1) &&
    (forall v {:trigger parent[v]} :: 0 <= v < N && v != start && distance[v] < INT_MAX ==>
      0 <= parent[v] < N && distance[parent[v]] < INT_MAX &&
      graph[parent[v]][v] != 0 && distance[v] == distance[parent[v]] + graph[parent[v]][v]) &&
    (forall v :: 0 <= v < N && distance[v] < INT_MAX ==> LeadsTo(parent, start, v, N))
  }

  /** One round of lines 161-172: visit the nearest unvisited u, then relax from it. */
  method Visit(graph: seq<seq<int>>, start: nat, count: nat, u: int, distance: array<int>,
               checked: array<bool>, parent: array<int>, ghost time: seq<int>) returns (ghost time': seq<int>)
    requires distance.Length == N && checked.Length == N && parent.Length == N && distance != parent
    requires LoopInv(graph, start, count, distance[..], checked[..], parent[..], time) && count < N - 1
    requires 0 <= u < N && !checked[u] && distance[u] <= INT_MAX
    requires forall v :: 0 <= v < N && !checked[v] ==> distance[u] <= distance[v]
    modifies distance, checked, parent
    ensures LoopInv(graph, start, count + 1, distance[..], checked[..], parent[..], time')
  {
    ghost var c0, d0, p0, t0 := checked[..], distance[..], parent[..], time;
    checked[u] := true;
    time' := time[u := count];
    assert distance[..] == d0 && parent[..] == p0;
    Relax(graph, u, distance, checked, parent);
    VisitKeepsInv(graph, start, count, u, c0, d0, p0, t0, checked[..], distance[..], parent[..], time');
  }

  /** Lines 149-153: every distance INT_MAX, nothing visited, every parent -1. */
  method NewArrays() returns (distance: array<int>, checked: array<bool>, parent: array<int>)
    ensures fresh(distance) && fresh(checked) && fresh(parent) && distance != parent
    ensures distance.Length == N && checked.Length == N && parent.Length == N
    ensures forall v :: 0 <= v < N ==> distance[v] == INT_MAX && !checked[v] && parent[v] == -1
  {
    distance := new int[N];
    checked := new bool[N];
    parent := new int[N];
    var i := 0;
    while i < N
      invariant 0 <= i <= N
      invariant forall v :: 0 <= v < i ==> distance[v] == INT_MAX && !checked[v] && parent[v] == -1
    {
      distance[i] := INT_MAX;
      checked[i] := false;
      parent[i] := -1;
      i := i + 1;
    }
  }

  /** After the start vertex is set up, LoopInv holds before round 0. */
  lemma InitialInv(graph: seq<seq<int>>, start: nat, distance: seq<int>, checked: seq<bool>,
                   parent: seq<int>, time: seq<int>)
    requires IsGraph(graph) && start < N
    requires |distance| == N && |checked| == N && |parent| == N && time == seq(N, _ => N)
    requires distance[start] == 0 && parent[start] == start
    requires forall v :: 0 <= v < N && v != start ==> distance[v] == INT_MAX && parent[v] == -1
    requires forall v :: 0 <= v < N ==> !checked[v]
    ensures LoopInv(graph, start, 0, distance, checked, parent, time)
  {
  }

  /** LoopInv at loop exit gives Dijkstra's postconditions. */
  lemma FinalFacts(graph: seq<seq<int>>, start: nat, count: nat, distance: seq<int>, checked: seq<bool>,
                   parent: seq<int>, time: seq<int>)
    requires LoopInv(graph, start, count, distance, checked, parent, time)
    ensures PathTree(graph, start, distance, parent)
  {
    forall v | 0 <= v < N && distance[v] < INT_MAX
      ensures LeadsTo(parent, start, v, N)
    {
      ChainLeadsToStart(graph, start, distance, parent, time, v, N);
    }
  }

  /**
   * What holds before each round of the main loop: `time` records the round
   * in which each vertex was visited (N when not yet); distances never
   * exceed INT_MAX; start keeps distance 0 and parent start and is visited in
   * round 0; unreached vertices keep parent -1; and TreeInv.
   */
  ghost predicate LoopInv(graph: seq<seq<int>>, start: nat, count: nat, distance: seq<int>,
                          checked: seq<bool>, parent: seq<int>, time: seq<int>)
  {
    IsGraph(graph) && start < N && count <= N - 1 &&
    |distance| == N && |checked| == N && |parent| == N && |time| == N &&
    (forall v :: 0 <= v < N ==> 0 <= time[v] <= N && (checked[v] <==> time[v] < N) && (checked[v] ==> time[v] < count)) &&
    (forall v :: 0 <= v < N ==> distance[v] <= INT_MAX) &&
    distance[start] == 0 && parent[start] == start &&
    (count > 0 ==> checked[start]) &&
    (count == 0 ==> forall v :: 0 <= v < N && v != start ==> distance[v] == INT_MAX) &&
    (forall v :: 0 <= v < N && v != start && distance[v] == INT_MAX ==> parent[v] == -1) &&
    TreeInv(graph, start, distance, parent, time)
  }

  /** One round (visit the nearest unvisited u, then relax from it) keeps LoopInv. */
  lemma VisitKeepsInv(graph: seq<seq<int>>, start: nat, count: nat, u: nat,
                      c0: seq<bool>, d0: seq<int>, p0: seq<int>, t0: seq<int>,
                      c1: seq<bool>, d1: seq<int>, p1: seq<int>, t1: seq<int>)
    requires LoopInv(graph, start, count, d0, c0, p0, t0) && count < N - 1
    requires u < N && !c0[u] && d0[u] <= INT_MAX
    requires forall v :: 0 <= v < N && !c0[v] ==> d0[u] <= d0[v]
    requires c1 == c0[u := true] && t1 == t0[u := count]
    requires |d1| == N && |p1| == N
    requires RelaxedFrom(graph, u, c1, d0, p0, d1, p1)
    ensures LoopInv(graph, start, count + 1, d1, c1, p1, t1)
  {
    if count == 0 {
      assert !c0[start];
      assert u == start;
    }
    assert c1[start];
    RelaxKeepsTree(graph, start, u, count, c1, t0, d0, p0, t1, d1, p1);
  }

  /**
   * d1/p1 are d0/p0 after the relaxation pass from u: no distance grows;
   * a visited vertex, or one whose distance is unchanged, keeps its
   * distance and parent; a vertex whose distance changed is unvisited, has a
   * non-zero edge from u, and now has u's distance plus that edge and
   * parent u.
   */
  ghost predicate RelaxedFrom(graph: seq<seq<int>>, u: nat, checked: seq<bool>,
                              d0: seq<int>, p0: seq<int>, d1: seq<int>, p1: seq<int>)
    requires IsGraph(graph) && u < N
    requires |checked| == N && |d0| == N && |p0| == N && |d1| == N && |p1| == N
  {
    (forall v :: 0 <= v < N ==> d1[v] <= d0[v]) &&
    (forall v :: 0 <= v < N && (checked[v] || d1[v] == d0[v]) ==> d1[v] == d0[v] && p1[v] == p0[v]) &&
    (forall v :: 0 <= v < N && d1[v] != d0[v] ==>
      !checked[v] && graph[u][v] != 0 && d0[u] != INT_MAX && d1[v] == d0[u] + graph[u][v] && p1[v] == u)
  }

  /** A visit followed by its relaxation pass keeps TreeInv. */
  lemma RelaxKeepsTree(graph: seq<seq<int>>, start: nat, u: nat, count: nat, checked: seq<bool>,
                       t0: seq<int>, d0: seq<int>, p0: seq<int>, t1: seq<int>, d1: seq<int>, p1: seq<int>)
    requires IsGraph(graph) && start < N && u < N && count < N && |checked| == N
    requires |t0| == N && |d0| == N && |p0| == N && |d1| == N && |p1| == N
    requires TreeInv(graph, start, d0, p0, t0)
    requires t0[u] == N && t1 == t0[u := count] && d0[u] <= INT_MAX
    requires forall v :: 0 <= v < N ==> 0 <= t0[v] <= N && (t0[v] < N ==> t0[v] < count)
    requires forall v :: 0 <= v < N ==> (checked[v] <==> t1[v] < N)
    requires RelaxedFrom(graph, u, checked, d0, p0, d1, p1)
    ensures TreeInv(graph, start, d1, p1, t1)
  {
    forall v | 0 <= v < N && v != start && d1[v] < INT_MAX
      ensures 0 <= p1[v] < N && d1[p1[v]] < INT_MAX && t1[p1[v]] < t1[v] &&
        graph[p1[v]][v] != 0 && d1[v] == d1[p1[v]] + graph[p1[v]][v]
    {
      assert checked[u];
      if d1[v] == d0[v] {
        var p := p0[v];
        assert 0 <= p < N && t0[p] < t0[v];
        assert checked[p] && p != u;
      }
    }
  }

  /**
   * The relaxation pass from the just-visited vertex u (lines 166-172): an
   * unvisited v with a non-zero edge from u gets distance[u] + w and parent
   * u when that is strictly shorter; nothing else changes.
   */
  method Relax(graph: seq<seq<int>>, u: nat, distance: array<int>, checked: array<bool>,
               parent: array<int>)
    requires IsGraph(graph) && u < N
    requires distance.Length == N && checked.Length == N && parent.Length == N
    requires distance != parent && checked[u]
    modifies distance, parent
    ensures RelaxedFrom(graph, u, checked[..], old(distance[..]), old(parent[..]), distance[..], parent[..])
  {
    var v := 0;
    while v < N
      invariant 0 <= v <= N
      invariant distance[u] == old(distance[u])
      invariant forall w :: 0 <= w < N ==> distance[w] <= old(distance[w])
      invariant forall w :: 0 <= w < N && (w >= v || checked[w] || distance[w] == old(distance[w])) ==>
        distance[w] == old(distance[w]) && parent[w] == old(parent[w])
      invariant forall w :: 0 <= w < v && distance[w] < old(distance[w]) ==>
        !checked[w] && graph[u][w] != 0 && old(distance[u]) != INT_MAX &&
        distance[w] == old(distance[u]) + graph[u][w] && parent[w] == u
    {
      if !checked[v] && graph[u][v] != 0 && distance[u] != INT_MAX
        && distance[u] + graph[u][v] < distance[v] {
        distance[v] := distance[u] + graph[u][v];
        parent[v] := u;
      }
      v := v + 1;
    }
  }
}

=== FILE: farm.dfy ===
/**
 * Greenhouse climate control (0/farm/main.cxx).
 *
 * The heater and the ventilator are objects whose flags the controllers
 * update in place; the climate band, the thermometer reading and the clock
 * hour are passed by value and become plain values here.
 */
module Farm {

  /** Climate band for one crop. */
  datatype Climate = Climate(temperatureMin: int, temperatureMax: int,
                             humidityDirtMin: int, humidityDirtMax: int)
  {
    /** The band is well formed: the minimum lies strictly below the maximum. */
    predicate WellFormed() {
      temperatureMin < temperatureMax && humidityDirtMin < humidityDirtMax
    }
  }

  /** What an actuator is told to do. */
  datatype Action = Start | Stop

  /** The climate preset for tomatoes. */
  function TomatoClimate(): (c: Climate)
    ensures c.WellFormed()
    ensures c.temperatureMin == 20 && c.temperatureMax == 30
    ensures c.humidityDirtMin == 5 && c.humidityDirtMax == 10
  {
    Climate(20, 30, 5, 10)
  }

  class Heater {
    /** Heating was requested by the temperature controller. */
    var onTemperature: bool

    constructor()
      ensures !onTemperature
    {
      onTemperature := false;
    }

    /** The command the heater is given for its current flag. */
    function Command(): (a: Action)
      reads this
      ensures a == Start <==> onTemperature
    {
      if onTemperature then Start else Stop
    }
  }

  class Ventilator {
    /** Ventilation was requested by the temperature controller. */
    var onTemperature: bool
    /** Ventilation is due according to the hourly schedule. */
    var onSchedule: bool

    constructor()
      ensures !onTemperature && !onSchedule
    {
      onSchedule := false;
      onTemperature := false;
    }

    /** The ventilator runs when either controller asks for it. */
    function Command(): (a: Action)
      reads this
      ensures a == Start <==> (onTemperature || onSchedule)
      ensures a == Stop <==> (!onTemperature && !onSchedule)
    {
      if onTemperature || onSchedule then Start else Stop
    }
  }

  /**
   * The heater flag after one temperature control step, given the flag
   * before it.
   */
  function HeaterAfter(climate: Climate, temperature: int, heating: bool): bool
  {
    if temperature > climate.temperatureMax then false
    else if temperature < climate.temperatureMin then true
    else heating
  }

  /** The ventilator's temperature flag after one control step. */
  function VentilatorAfter(climate: Climate, temperature: int, venting: bool): bool
  {
    if temperature > climate.temperatureMax then true else venting
  }

  /** One temperature control step: below the band heat, above it stop heating and vent. */
  method ControlTemperature(climate: Climate, temperature: int, heater: Heater, ventilator: Ventilator)
    modifies heater, ventilator
    ensures heater.onTemperature == HeaterAfter(climate, temperature, old(heater.onTemperature))
    ensures ventilator.onTemperature == VentilatorAfter(climate, temperature, old(ventilator.onTemperature))
    ensures ventilator.onSchedule == old(ventilator.onSchedule)
  {
    if temperature < climate.temperatureMin {
      heater.onTemperature := true;
    }
    if temperature > climate.temperatureMax {
      heater.onTemperature := false;
      ventilator.onTemperature := true;
    }
  }

  /**
   * For a well-formed band the controller heats exactly below the band,
   * stops exactly above it and otherwise keeps the previous decision.
   */
  lemma HeaterAfterBand(climate: Climate, temperature: int, heating: bool)
    requires climate.WellFormed()
    ensures temperature < climate.temperatureMin ==> HeaterAfter(climate, temperature, heating)
    ensures temperature > climate.temperatureMax ==> !HeaterAfter(climate, temperature, heating)
    ensures climate.temperatureMin <= temperature <= climate.temperatureMax ==>
              HeaterAfter(climate, temperature, heating) == heating
  {
  }

  /** Ventilation for temperature is only ever switched on, never off. */
  lemma VentilatorAfterMonotone(climate: Climate, temperature: int, venting: bool)
    ensures venting ==> VentilatorAfter(climate, temperature, venting)
    ensures VentilatorAfter(climate, temperature, venting) <==>
              venting || temperature > climate.temperatureMax
  {
  }

  /** Repeating a control step with the same reading changes nothing more. */
  lemma ControlIdempotent(climate: Climate, temperature: int, heating: bool, venting: bool)
    ensures HeaterAfter(climate, temperature, HeaterAfter(climate, temperature, heating))
            == HeaterAfter(climate, temperature, heating)
    ensures VentilatorAfter(climate, temperature, VentilatorAfter(climate, temperature, venting))
            == VentilatorAfter(climate, temperature, venting)
  {
  }

  /** Scheduled ventilation: never at night, otherwise every fourth hour. */
  function Scheduled(hour: int): (on: bool)
    ensures on ==> 6 <= hour <= 23
  {
    if hour < 6 || hour > 23 then false
    else hour % 4 == 0
  }

  /** The schedule sets the ventilator's schedule flag and nothing else. */
  method ControlVentilation(hour: int, ventilator: Ventilator)
    modifies ventilator
    ensures ventilator.onSchedule == Scheduled(hour)
    ensures ventilator.onTemperature == old(ventilator.onTemperature)
  {
    if hour < 6 || hour > 23 {
      ventilator.onSchedule := false;
      return;
    }
    if hour % 4 == 0 {
      ventilator.onSchedule := true;
    } else {
      ventilator.onSchedule := false;
    }
  }

  /** Over any day the scheduled hours are exactly 8, 12, 16 and 20. */
  lemma ScheduledHours(hour: int)
    ensures Scheduled(hour) <==> hour == 8 || hour == 12 || hour == 16 || hour == 20
  {
    if 6 <= hour <= 23 {
      if hour % 4 == 0 {
        assert hour == 8 || hour == 12 || hour == 16 || hour == 20;
      }
    }
  }
}

=== FILE: fibonacci_heap.dfy ===
/**
 * The "Fibonacci" max-heap of RyabkovNA/kursovaya/33.cpp: a list of root
 * nodes, the number of values, and a pointer to the first root with the
 * largest value. Insertion appends a root; extraction removes the pointed
 * root, appends its children to the list and rescans the roots for the
 * new maximum. No operation ever links one root under another, so the
 * children lists stay empty in every heap the program builds; the model
 * still moves them as extraction does.
 *
 * Nodes are values; `max_node` becomes the index of that root in the
 * list of roots, and the `self` iterator of a node is its position.
 */
module Fibonacci {
  import opened Wrappers
  import opened Sequences

  /** Lines 12-17: a node with its value and its children. */
  datatype Node = Node(value: int, children: seq<Node>)

  /** The values stored in a node and its descendants. */
  ghost function Values(n: Node): multiset<int>
    decreases n, 1
  {
    multiset{n.value} + ValuesOf(n.children)
  }

  /** The values stored in a list of nodes. */
  ghost function ValuesOf(ns: seq<Node>): multiset<int>
    decreases ns, 0
  {
    if ns == [] then multiset{} else ValuesOf(ns[..|ns| - 1]) + Values(ns[|ns| - 1])
  }

  /** No child holds a value larger than its parent's. */
  ghost predicate HeapOrdered(n: Node)
  {
    forall i :: 0 <= i < |n.children| ==> n.children[i].value <= n.value && HeapOrdered(n.children[i])
  }

  ghost predicate AllOrdered(ns: seq<Node>)
  {
    forall i :: 0 <= i < |ns| ==> HeapOrdered(ns[i])
  }

  /** The root values, in list order. */
  function Roots(ns: seq<Node>): (r: seq<int>)
    ensures |r| == |ns| && forall i :: 0 <= i < |ns| ==> r[i] == ns[i].value
  {
    seq(|ns|, i requires 0 <= i < |ns| => ns[i].value)
  }

  /** Where max_node points in a list of roots: nowhere when empty, else at the first largest root. */
  function MaxIndex(ns: seq<Node>): (m: Option<nat>)
    ensures m.None? <==> ns == []
    ensures m.Some? ==> m.value < |ns| && forall j :: 0 <= j < |ns| ==> ns[j].value <= ns[m.value].value
    ensures m.Some? ==> forall j :: 0 <= j < m.value ==> ns[j].value < ns[m.value].value
  {
    if ns == [] then None else Some(FirstMax(Roots(ns)))
  }

  lemma {:induction false} ValuesOfAppend(ns: seq<Node>, us: seq<Node>)
    ensures ValuesOf(ns + us) == ValuesOf(ns) + ValuesOf(us)
    decreases |us|
  {
    if us == [] {
      assert ns + us == ns;
    } else {
      assert (ns + us)[..|ns + us| - 1] == ns + us[..|us| - 1];
      ValuesOfAppend(ns, us[..|us| - 1]);
    }
  }

  /** A list of nodes holds nothing exactly when it has no node: every node holds its own value. */
  lemma {:induction false} ValuesOfEmpty(ns: seq<Node>)
    ensures ValuesOf(ns) == multiset{} <==> ns == []
  {
    if ns != [] {
      assert ns[|ns| - 1].value in Values(ns[|ns| - 1]);
    }
  }

  /** In a heap-ordered node the node's own value is the largest. */
  lemma {:induction false} RootIsMax(n: Node)
    requires HeapOrdered(n)
    ensures forall x :: x in Values(n) ==> x <= n.value
    decreases n, 1
  {
    ForestBelow(n.children, n.value);
  }

  /** Heap-ordered nodes whose values are at most m hold nothing above m. */
  lemma {:induction false} ForestBelow(ns: seq<Node>, m: int)
    requires forall i :: 0 <= i < |ns| ==> HeapOrdered(ns[i]) && ns[i].value <= m
    ensures forall x :: x in ValuesOf(ns) ==> x <= m
    decreases ns, 0
  {
    if ns != [] {
      RootIsMax(ns[|ns| - 1]);
      ForestBelow(ns[..|ns| - 1], m);
    }
  }

  /**
   * Erasing root i and appending its children removes one value, the
   * root's, and keeps every root heap-ordered.
   */
  lemma {:induction false} Detach(ns: seq<Node>, i: nat)
    requires AllOrdered(ns) && i < |ns|
    ensures AllOrdered(ns[..i] + ns[i + 1..] + ns[i].children)
    ensures ValuesOf(ns[..i] + ns[i + 1..] + ns[i].children) == ValuesOf(ns) - multiset{ns[i].value}
  {
    var rest, cs := ns[..i] + ns[i + 1..], ns[i].children;
    assert ns == (ns[..i] + [ns[i]]) + ns[i + 1..];
    ValuesOfAppend(ns[..i] + [ns[i]], ns[i + 1..]);
    ValuesOfAppend(ns[..i], ns[i + 1..]);
    assert (ns[..i] + [ns[i]])[..i] == ns[..i];
    ValuesOfAppend(rest, cs);
    assert HeapOrdered(ns[i]);
    forall j | 0 <= j < |rest + cs|
      ensures HeapOrdered((rest + cs)[j])
    {
      if j >= |rest| {
        assert (rest + cs)[j] == cs[j - |rest|];
      } else {
        assert (rest + cs)[j] == ns[if j < i then j else j + 1];
      }
    }
  }

  /** The first largest root holds the largest value of the heap. */
  lemma {:induction false} HeapMax(ns: seq<Node>)
    requires AllOrdered(ns) && ns != []
    ensures ns[MaxIndex(ns).value].value in ValuesOf(ns)
    ensures forall x :: x in ValuesOf(ns) ==> x <= ns[MaxIndex(ns).value].value
  {
    var i := MaxIndex(ns).value;
    assert ns == (ns[..i] + [ns[i]]) + ns[i + 1..];
    ValuesOfAppend(ns[..i] + [ns[i]], ns[i + 1..]);
    ValuesOfAppend(ns[..i], [ns[i]]);
    assert [ns[i]][..0] == [];
    assert ns[i].value in Values(ns[i]);
    ForestBelow(ns, ns[i].value);
  }

  /** Appending a node adds its values. */
  lemma ValuesAppended(ns: seq<Node>, n: Node)
    ensures ValuesOf(ns + [n]) == ValuesOf(ns) + Values(n)
  {
    assert (ns + [n])[..|ns|] == ns;
  }

  /**
   * The first largest root moves to an appended node exactly when the list
   * was empty or the node's value beats the old maximum.
   */
  lemma MaxAppended(ns: seq<Node>, n: Node)
    ensures MaxIndex(ns + [n]) ==
      if ns == [] || n.value > ns[MaxIndex(ns).value].value then Some(|ns|) else MaxIndex(ns)
  {
    assert Roots(ns + [n])[..|ns|] == Roots(ns);
  }

  lemma OrderedAppended(ns: seq<Node>, n: Node)
    requires AllOrdered(ns) && HeapOrdered(n)
    ensures AllOrdered(ns + [n])
  {
    forall i | 0 <= i < |ns + [n]|
      ensures HeapOrdered((ns + [n])[i])
    {
      if i < |ns| {
        assert (ns + [n])[i] == ns[i];
      }
    }
  }

  /** What inserting v does to a list of roots: lines 27-33 as one step. */
  lemma Pushed(ns: seq<Node>, v: int)
    requires AllOrdered(ns)
    ensures AllOrdered(ns + [Node(v, [])])
    ensures ValuesOf(ns + [Node(v, [])]) == ValuesOf(ns) + multiset{v}
    ensures MaxIndex(ns + [Node(v, [])]) ==
      if ns == [] || v > ns[MaxIndex(ns).value].value then Some(|ns|) else MaxIndex(ns)
    ensures forall x :: x in ValuesOf(ns + [Node(v, [])]) ==>
      x <= (ns + [Node(v, [])])[MaxIndex(ns + [Node(v, [])]).value].value
  {
    var n := Node(v, []);
    assert Values(n) == multiset{v} by {
      assert ValuesOf(n.children) == multiset{};
    }
    ValuesAppended(ns, n);
    MaxAppended(ns, n);
    OrderedAppended(ns, n);
    HeapMax(ns + [n]);
  }

  /** Lines 10-84: the heap object. */
  class FibonacciHeap {
    var roots: seq<Node>
    var maxNode: Option<nat>
    var size: nat

    /**
     * Every root is heap-ordered, size counts the values, and maxNode
     * points at the first root with the largest value.
     */
    ghost predicate Valid()
      reads this
    {
      AllOrdered(roots) && size == |ValuesOf(roots)| && maxNode == MaxIndex(roots)
    }

    ghost function Contents(): multiset<int>
      reads this
    {
      ValuesOf(roots)
    }

    constructor ()
      ensures Valid() && Contents() == multiset{} && size == 0
    {
      roots := [];
      maxNode := None;
      size := 0;
    }

    /**
     * Lines 24-34: a new childless root goes to the back of the list, the
     * count grows by one, and maxNode moves to it when there was no
     * maximum or its value is strictly larger.
     */
    method Insert(value: int)
      requires Valid()
      modifies this
      ensures Valid() && Contents() == old(Contents()) + multiset{value}
      ensures size == old(size) + 1
      ensures roots == old(roots) + [Node(value, [])]
      ensures maxNode.Some? && forall x :: x in Contents() ==> x <= roots[maxNode.value].value
    {
      var node := Node(value, []);
      Pushed(roots, value);
      roots := roots + [node];
      size := size + 1;
      if maxNode.None? || value > roots[maxNode.value].value {
        maxNode := Some(|roots| - 1);
      }
    }

    /**
     * Lines 41-73: an empty heap throws; otherwise the root maxNode points
     * at is erased, its children go to the back of the list, and the roots
     * are rescanned for the new maximum. The result is the erased root's
     * value, the largest of the heap.
     */
    method ExtractMax() returns (r: Result<int>)
      requires Valid()
      modifies this
      ensures Valid()
      ensures r.Failure? <==> old(Contents()) == multiset{}
      ensures r.Failure? ==> roots == old(roots) && size == old(size)
      ensures r.Success? ==> r.value in old(Contents())
      ensures r.Success? ==> forall x :: x in old(Contents()) ==> x <= r.value
      ensures r.Success? ==> Contents() == old(Contents()) - multiset{r.value}
      ensures r.Success? ==> size == old(size) - 1
    {
      ValuesOfEmpty(roots);
      if roots == [] {
        return Failure("Heap is empty");
      }
      var i := maxNode.value;
      var oldMax := roots[i];
      HeapMax(roots);
      Detach(roots, i);
      roots := roots[..i] + roots[i + 1..];
      size := size - 1;
      PushBack(oldMax.children);
      var maxValue := oldMax.value;
      FindMax();
      r := Success(maxValue);
    }

    /** Lines 51-54: the nodes of cs go to the back of the list, in order. */
    method PushBack(cs: seq<Node>)
      modifies this
      ensures roots == old(roots) + cs
      ensures size == old(size)
    {
      for c := 0 to |cs|
        invariant roots == old(roots) + cs[..c]
        invariant size == old(size)
      {
        assert cs[..c + 1] == cs[..c] + [cs[c]];
        roots := roots + [cs[c]];
      }
      assert cs[..|cs|] == cs;
    }

    /**
     * Lines 65-70: a scan from the front that moves maxNode to a root only
     * when its value is strictly larger leaves maxNode at the first largest root.
     */
    method FindMax()
      modifies this
      ensures roots == old(roots) && size == old(size)
      ensures maxNode == MaxIndex(roots)
    {
      maxNode := None;
      var k := 0;
      while k < |roots|
        invariant k <= |roots|
        invariant maxNode == MaxIndex(roots[..k])
        invariant roots == old(roots) && size == old(size)
      {
        assert roots[..k + 1] == roots[..k] + [roots[k]];
        MaxAppended(roots[..k], roots[k]);
        if maxNode.None? || roots[k].value > roots[maxNode.value].value {
          maxNode := Some(k);
        }
        k := k + 1;
      }
      assert roots[..k] == roots;
    }

    /** Lines 75-77: the list of roots is empty exactly when the heap holds nothing. */
    function Empty(): (b: bool)
      reads this
      ensures b <==> Contents() == multiset{}
    {
      ValuesOfEmpty(roots);
      roots == []
    }
  }
}

=== FILE: flight_planner.dfy ===
// The flight path planner of Berko_VA/flightplanner: a quote-aware CSV line
// splitter, the air-time filter applied while loading flights, Dijkstra over
// air times with a priority queue, and the reconstruction of the fastest
// route. Air times are C++ doubles and are modelled as exact reals; reading
// files and converting text to numbers are left out.

module FlightPlanner {

  import opened Sequences

  // ---------------------------------------------------------------------
  // parseCsvLine (src/flightpathplanner.cpp:15-41)

  function QuoteCount(s: string): nat
  {
    if s == [] then 0 else QuoteCount(s[..|s| - 1]) + (if s[|s| - 1] == '"' then 1 else 0)
  }

  /** The line with every double quote removed. */
  function Unquoted(s: string): string
  {
    if s == [] then [] else Unquoted(s[..|s| - 1]) + (if s[|s| - 1] == '"' then [] else [s[|s| - 1]])
  }

  /**
   * The positions of the commas that stand outside quotes (after an even
   * number of quotes), in increasing order.
   */
  function CommaPositions(s: string): seq<nat>
  {
    if s == [] then []
    else
      var last := if s[|s| - 1] == ',' && QuoteCount(s[..|s| - 1]) % 2 == 0 then [|s| - 1] else [];
      CommaPositions(s[..|s| - 1]) + last
  }

  /** Cut positions inside a line of length len, in increasing order. */
  ghost predicate Cuts(c: seq<nat>, len: nat)
  {
    (forall k :: 0 <= k < |c| ==> c[k] < len) &&
    (forall k :: 0 < k < |c| ==> c[k - 1] < c[k])
  }

  /** The commas outside quotes are commas of the line, listed in increasing order. */
  lemma {:induction false} CommaPositionsIncrease(s: string)
    ensures Cuts(CommaPositions(s), |s|)
    ensures forall k :: 0 <= k < |CommaPositions(s)| ==> s[CommaPositions(s)[k]] == ','
  {
    if s != [] {
      var p := s[..|s| - 1];
      CommaPositionsIncrease(p);
      assert forall k :: 0 <= k < |CommaPositions(p)| ==> s[CommaPositions(p)[k]] == p[CommaPositions(p)[k]];
    }
  }

  /** Where field k starts: at 0, or just after the k-th cut. */
  function FieldStart(c: seq<nat>, k: nat): nat
    requires k <= |c|
  {
    if k == 0 then 0 else c[k - 1] + 1
  }

  /** Where field k ends: at the (k+1)-th cut, or at the end of the line. */
  function FieldEnd(c: seq<nat>, k: nat, len: nat): nat
    requires k <= |c|
  {
    if k == |c| then len else c[k]
  }

  /** The text between cut k - 1 and cut k, without its quotes. */
  ghost function Between(s: string, c: seq<nat>, k: nat): string
    requires Cuts(c, |s|) && k <= |c|
  {
    Unquoted(s[FieldStart(c, k)..FieldEnd(c, k, |s|)])
  }

  /**
   * Piece k of the line: the text between the k-th and the (k+1)-th comma
   * outside quotes (or the start and the end of the line), without its
   * quotes. A line with n such commas has the pieces 0..n.
   */
  ghost function Piece(s: string, k: nat): string
    requires k <= |CommaPositions(s)|
  {
    CommaPositionsIncrease(s);
    Between(s, CommaPositions(s), k)
  }

  /** The fields of a CSV line: its pieces, less a final empty one. */
  ghost function CsvFields(s: string): (r: seq<string>)
    ensures |r| == |CommaPositions(s)| || |r| == |CommaPositions(s)| + 1
  {
    var n := |CommaPositions(s)|;
    var count := if Piece(s, n) == [] then n else n + 1;
    seq(count, k requires 0 <= k < count => Piece(s, k))
  }

  /** A piece that ends before a new last character is not affected by it. */
  lemma BetweenKept(s: string, ch: char, c: seq<nat>, d: seq<nat>, k: nat)
    requires Cuts(c, |s|) && Cuts(d, |s| + 1) && k < |c| <= |d| && d[..|c|] == c
    ensures Between(s + [ch], d, k) == Between(s, c, k)
  {
    assert d[k] == c[k];
    assert k > 0 ==> d[k - 1] == c[k - 1];
    var a := FieldStart(c, k);
    assert (s + [ch])[a..c[k]] == s[a..c[k]];
  }

  /** A comma outside quotes ends the last piece and opens an empty one. */
  lemma BetweenClosed(s: string, c: seq<nat>)
    requires Cuts(c, |s|)
    ensures Cuts(c + [|s|], |s| + 1)
    ensures Between(s + [','], c + [|s|], |c|) == Between(s, c, |c|)
    ensures Between(s + [','], c + [|s|], |c| + 1) == []
  {
    var d := c + [|s|];
    var a := FieldStart(c, |c|);
    assert |c| > 0 ==> d[|c| - 1] == c[|c| - 1];
    assert FieldStart(d, |c|) == a && FieldEnd(d, |c|, |s| + 1) == |s|;
    assert (s + [','])[a..|s|] == s[a..|s|];
    assert (s + [','])[|s| + 1..|s| + 1] == [];
  }

  /** Any other character extends the last piece, unless it is a quote. */
  lemma BetweenGrows(s: string, ch: char, c: seq<nat>)
    requires Cuts(c, |s|)
    ensures Cuts(c, |s| + 1)
    ensures Between(s + [ch], c, |c|) == Between(s, c, |c|) + (if ch == '"' then [] else [ch])
  {
    var a := FieldStart(c, |c|);
    var x := s[a..|s|];
    assert (s + [ch])[a..|s| + 1] == x + [ch];
    assert (x + [ch])[..|x|] == x;
  }

  /** The fields, each followed by a comma. */
  function Terminated(fields: seq<string>): string
  {
    if fields == [] then [] else Terminated(fields[..|fields| - 1]) + fields[|fields| - 1] + [',']
  }

  /** How the counting functions extend by one character. */
  lemma PrefixStep(line: string, i: nat)
    requires i < |line|
    ensures QuoteCount(line[..i + 1]) == QuoteCount(line[..i]) + (if line[i] == '"' then 1 else 0)
    ensures Unquoted(line[..i + 1]) == Unquoted(line[..i]) + (if line[i] == '"' then [] else [line[i]])
    ensures CommaPositions(line[..i + 1]) ==
      CommaPositions(line[..i]) + (if line[i] == ',' && QuoteCount(line[..i]) % 2 == 0 then [i] else [])
  {
    assert line[..i + 1][..i] == line[..i];
  }

  lemma TerminatedSnoc(fields: seq<string>, field: string)
    ensures Terminated(fields + [field]) == Terminated(fields) + field + [',']
  {
    assert (fields + [field])[..|fields|] == fields;
  }

  /**
   * The fields closed after the first i characters are the pieces of that
   * prefix, and the open field is its last piece.
   */
  ghost predicate PiecesSoFar(line: string, i: nat, fields: seq<string>, field: string)
    requires i <= |line|
  {
    var c := CommaPositions(line[..i]);
    Cuts(c, i) && |fields| == |c| &&
    (forall k :: 0 <= k < |fields| ==> fields[k] == Between(line[..i], c, k)) &&
    field == Between(line[..i], c, |c|)
  }

  /** A comma outside quotes closes the open field as the next piece. */
  lemma PiecesClose(line: string, i: nat, fields: seq<string>, field: string)
    requires i < |line| && PiecesSoFar(line, i, fields, field)
    requires line[i] == ',' && QuoteCount(line[..i]) % 2 == 0
    ensures PiecesSoFar(line, i + 1, fields + [field], [])
  {
    var p := line[..i];
    assert line[..i + 1] == p + [','];
    PrefixStep(line, i);
    var c := CommaPositions(p);
    var d := CommaPositions(line[..i + 1]);
    BetweenClosed(p, c);
    assert d == c + [i];
    assert d[..|c|] == c;
    forall k | 0 <= k < |c|
      ensures (fields + [field])[k] == Between(p + [','], d, k)
    {
      BetweenKept(p, ',', c, d, k);
    }
  }

  /** Any other character extends the open field, unless it is a quote. */
  lemma PiecesExtend(line: string, i: nat, fields: seq<string>, field: string)
    requires i < |line| && PiecesSoFar(line, i, fields, field)
    requires !(line[i] == ',' && QuoteCount(line[..i]) % 2 == 0)
    ensures line[i] == '"' ==> PiecesSoFar(line, i + 1, fields, field)
    ensures line[i] != '"' ==> PiecesSoFar(line, i + 1, fields, field + [line[i]])
  {
    var p := line[..i];
    var ch := line[i];
    assert line[..i + 1] == p + [ch];
    PrefixStep(line, i);
    var c := CommaPositions(p);
    BetweenGrows(p, ch, c);
    assert CommaPositions(line[..i + 1]) == c;
    assert c[..|c|] == c;
    forall k | 0 <= k < |c|
      ensures fields[k] == Between(p + [ch], c, k)
    {
      BetweenKept(p, ch, c, c, k);
    }
    assert field + [] == field;
  }

  /** At the end of the line the fields, with a non-empty open field added, are the line's fields. */
  lemma PiecesDone(line: string, fields: seq<string>, field: string)
    requires PiecesSoFar(line, |line|, fields, field)
    ensures (if field == [] then fields else fields + [field]) == CsvFields(line)
  {
    assert line[..|line|] == line;
    CommaPositionsIncrease(line);
    var r := if field == [] then fields else fields + [field];
    var q := CsvFields(line);
    assert |r| == |q|;
    forall k | 0 <= k < |r|
      ensures r[k] == q[k]
    {
      assert q[k] == Piece(line, k);
    }
  }

  /**
   * What the splitter knows after the first i characters: the quote state
   * is the parity of the quotes read, no field holds a quote, the closed
   * fields with their commas, followed by the open field, are the prefix
   * without its quotes, and one field was closed per comma outside quotes.
   */
  ghost predicate CsvInv(line: string, i: nat, fields: seq<string>, field: string, inQuotes: bool)
  {
    i <= |line| &&
    (inQuotes <==> QuoteCount(line[..i]) % 2 == 1) &&
    Unquoted(line[..i]) == Terminated(fields) + field &&
    |fields| == |CommaPositions(line[..i])| &&
    (forall j :: 0 <= j < |fields| ==> '"' !in fields[j]) &&
    '"' !in field
  }

  /** One more quote flips the parity. */
  lemma ParityFlips(n: nat)
    ensures (n + 1) % 2 == 1 <==> n % 2 != 1
  {
  }

  /** A quote toggles the quote state and adds nothing. */
  lemma CsvQuote(line: string, i: nat, fields: seq<string>, field: string, inQuotes: bool)
    requires CsvInv(line, i, fields, field, inQuotes) && i < |line| && line[i] == '"'
    ensures CsvInv(line, i + 1, fields, field, !inQuotes)
  {
    PrefixStep(line, i);
    ParityFlips(QuoteCount(line[..i]));
  }

  /** A comma outside quotes closes the open field. */
  lemma CsvComma(line: string, i: nat, fields: seq<string>, field: string, inQuotes: bool)
    requires CsvInv(line, i, fields, field, inQuotes) && i < |line| && line[i] == ',' && !inQuotes
    ensures CsvInv(line, i + 1, fields + [field], [], inQuotes)
  {
    PrefixStep(line, i);
    TerminatedSnoc(fields, field);
  }

  /** Any other character extends the open field. */
  lemma CsvChar(line: string, i: nat, fields: seq<string>, field: string, inQuotes: bool)
    requires CsvInv(line, i, fields, field, inQuotes) && i < |line| && line[i] != '"'
    requires line[i] != ',' || inQuotes
    ensures CsvInv(line, i + 1, fields, field + [line[i]], inQuotes)
  {
    PrefixStep(line, i);
  }

  /**
   * The splitter's state after reading s: the closed fields, the open
   * field and whether a quote is open.
   */
  function Scan(s: string): (seq<string>, string, bool)
  {
    if s == [] then ([], [], false)
    else
      var (fields, field, inQuotes) := Scan(s[..|s| - 1]);
      var c := s[|s| - 1];
      if c == '"' then (fields, field, !inQuotes)
      else if c == ',' && !inQuotes then (fields + [field], [], inQuotes)
      else (fields, field + [c], inQuotes)
  }

  /** The state after any prefix satisfies the splitter's invariant. */
  lemma {:induction false} ScanInv(line: string, i: nat)
    requires i <= |line|
    ensures CsvInv(line, i, Scan(line[..i]).0, Scan(line[..i]).1, Scan(line[..i]).2)
  {
    if i == 0 {
      assert line[..0] == [];
    } else {
      ScanInv(line, i - 1);
      assert line[..i][..i - 1] == line[..i - 1];
      var (fields, field, inQuotes) := Scan(line[..i - 1]);
      if line[i - 1] == '"' {
        CsvQuote(line, i - 1, fields, field, inQuotes);
      } else if line[i - 1] == ',' && !inQuotes {
        CsvComma(line, i - 1, fields, field, inQuotes);
      } else {
        CsvChar(line, i - 1, fields, field, inQuotes);
      }
    }
  }

  /** The quote state after any prefix is the parity of its quotes. */
  lemma {:induction false} ScanParity(line: string, i: nat)
    requires i <= |line|
    ensures Scan(line[..i]).2 <==> QuoteCount(line[..i]) % 2 == 1
  {
    if i == 0 {
      assert line[..0] == [];
    } else {
      ScanParity(line, i - 1);
      assert line[..i][..i - 1] == line[..i - 1];
      ParityFlips(QuoteCount(line[..i - 1]));
    }
  }

  /** The fields after any prefix are that prefix's pieces. */
  lemma {:induction false} ScanPieces(line: string, i: nat)
    requires i <= |line|
    ensures PiecesSoFar(line, i, Scan(line[..i]).0, Scan(line[..i]).1)
  {
    if i == 0 {
      assert line[..0] == [];
    } else {
      ScanPieces(line, i - 1);
      ScanParity(line, i - 1);
      assert line[..i][..i - 1] == line[..i - 1];
      var (fields, field, inQuotes) := Scan(line[..i - 1]);
      if line[i - 1] == ',' && !inQuotes {
        PiecesClose(line, i - 1, fields, field);
      } else {
        PiecesExtend(line, i - 1, fields, field);
      }
    }
  }


  /**
   * Splits a CSV line (lines 15-41). A double quote toggles quoting and is
   * itself dropped; a comma outside quotes ends a field; any other
   * character, a comma inside quotes included, extends the field. A final
   * field is kept only when it is not empty. Since no quote ever enters a
   * field, the source's stripping of surrounding quotes (lines 25-27 and
   * 35-37) never applies and is not modelled.
   *
   * The contract: the fields are the line cut at its commas outside
   * quotes, with the quotes dropped and a final empty field left out; no
   * field holds a quote; and writing the fields back with those commas
   * gives the line without its quotes.
   */
  method ParseCsvLine(line: string) returns (fields: seq<string>)
    ensures fields == CsvFields(line)
    ensures forall i :: 0 <= i < |fields| ==> '"' !in fields[i]
    ensures |fields| == |CommaPositions(line)| ==> Unquoted(line) == Terminated(fields)
    ensures |fields| != |CommaPositions(line)| ==>
      |fields| == |CommaPositions(line)| + 1 && fields[|fields| - 1] != [] &&
      Unquoted(line) == Terminated(fields[..|fields| - 1]) + fields[|fields| - 1]
  {
    fields := [];
    var field: string := [];
    var inQuotes := false;
    var i := 0;
    assert line[..0] == [];
    while i < |line|
      invariant i <= |line|
      invariant (fields, field, inQuotes) == Scan(line[..i])
    {
      assert line[..i + 1][..i] == line[..i];
      var c := line[i];
      if c == '"' {
        inQuotes := !inQuotes;
      } else if c == ',' && !inQuotes {
        fields := fields + [field];
        field := [];
      } else {
        field := field + [c];
      }
      i := i + 1;
    }
    ScanInv(line, i);
    ScanPieces(line, i);
    assert line[..i] == line;
    PiecesDone(line, fields, field);
    if field != [] {
      assert (fields + [field])[..|fields|] == fields;
      fields := fields + [field];
    }
  }

  /** A comma inside quotes stays in its field: "a,b",c splits into a,b and c. */
  lemma QuotedCommaKept()
    ensures CsvFields("\"a,b\",c") == ["a,b", "c"]
  {
    var s := "\"a,b\",c";
    var p := ["\"", "\"a", "\"a,", "\"a,b", "\"a,b\"", "\"a,b\","];
    assert p[0][..0] == [];
    assert p[1][..1] == p[0] && p[2][..2] == p[1] && p[3][..3] == p[2];
    assert p[4][..4] == p[3] && p[5][..5] == p[4] && s[..6] == p[5];
    assert QuoteCount(p[0]) == 1 && QuoteCount(p[1]) == 1 && QuoteCount(p[2]) == 1;
    assert QuoteCount(p[3]) == 1 && QuoteCount(p[4]) == 2;
    assert CommaPositions(p[2]) == [] && CommaPositions(p[4]) == [];
    assert CommaPositions(p[5]) == [5] && CommaPositions(s) == [5];
    assert Unquoted(p[2]) == "a," && Unquoted(p[4]) == "a,b";
    assert s[0..5] == p[4] && s[6..7] == "c" && "c"[..0] == [];
    assert Piece(s, 0) == "a,b" && Piece(s, 1) == "c";
  }

  // ---------------------------------------------------------------------
  // The flight graph and Dijkstra (src/flightpathplanner.cpp:43-166)

  datatype FlightInfo = FlightInfo(airTime: real, origin: int, dest: int, year: int, quarter: int, month: int)

  /** flightGraph: the flights leaving each origin, with their destination. */
  type Graph = map<int, seq<(int, FlightInfo)>>

  /** The flights leaving u; an absent origin reads as no flights. */
  function FlightsFrom(graph: Graph, u: int): seq<(int, FlightInfo)>
  {
    if u in graph then graph[u] else []
  }

  ghost predicate PositiveTimes(graph: Graph)
  {
    forall u, k :: u in graph && 0 <= k < |graph[u]| ==> graph[u][k].1.airTime > 0.0
  }

  /** A flight from u to v with air time t exists. */
  ghost predicate HasFlight(graph: Graph, u: int, v: int, t: real)
  {
    u in graph && exists k :: 0 <= k < |graph[u]| && graph[u][k].0 == v && graph[u][k].1.airTime == t
  }

  /** route[i] to route[i+1] is a flight of air time times[i]. */
  ghost predicate IsFlightPath(graph: Graph, route: seq<int>, times: seq<real>)
  {
    |route| == |times| + 1 &&
    forall i :: 0 <= i < |times| ==> HasFlight(graph, route[i], route[i + 1], times[i])
  }

  function Total(times: seq<real>): real
  {
    if times == [] then 0.0 else times[0] + Total(times[1..])
  }

  lemma {:induction false} TotalSnoc(times: seq<real>, t: real)
    ensures Total(times + [t]) == Total(times) + t
  {
    if times != [] {
      assert (times + [t])[1..] == times[1..] + [t];
      TotalSnoc(times[1..], t);
    }
  }

  lemma {:induction false} TotalReverse(times: seq<real>)
    ensures Total(Reverse(times)) == Total(times)
  {
    if times != [] {
      TotalReverse(times[1..]);
      assert Reverse(times) == Reverse(times[1..]) + [times[0]];
      TotalSnoc(Reverse(times[1..]), times[0]);
    }
  }

  /** The origin and every destination: all airports a search can reach. */
  ghost function Universe(graph: Graph, origin: int): set<int>
  {
    {origin} + set u, k | u in graph && 0 <= k < |graph[u]| :: graph[u][k].0
  }

  /** No flight out of s leads below s's distance plus its air time. */
  ghost predicate Closed(graph: Graph, dist: map<int, real>, s: int)
  {
    s in dist &&
    forall k :: 0 <= k < |FlightsFrom(graph, s)| ==>
      FlightsFrom(graph, s)[k].0 in dist &&
      dist[FlightsFrom(graph, s)[k].0] <= dist[s] + FlightsFrom(graph, s)[k].1.airTime
  }

  /** origin is at distance 0, and every reached airport is in the universe, at a distance of at least 0. */
  ghost predicate DistOk(graph: Graph, origin: int, dist: map<int, real>)
  {
    origin in dist && dist[origin] == 0.0 &&
    forall v :: v in dist ==> v in Universe(graph, origin) && dist[v] >= 0.0
  }

  /** Queue entries name reached airports and are no nearer than their distance. */
  ghost predicate QueueOk(dist: map<int, real>, queue: seq<(real, int)>)
  {
    forall e :: e in queue ==> e.1 in dist && e.0 >= dist[e.1]
  }

  /**
   * Settled airports (those whose flights were relaxed at their final
   * distance) are no farther than any queued entry and are Closed.
   */
  ghost predicate SettledOk(graph: Graph, dist: map<int, real>, settled: set<int>, queue: seq<(real, int)>)
  {
    (forall s :: s in settled ==> Closed(graph, dist, s)) &&
    (forall s, e :: s in settled && e in queue ==> dist[s] <= e.0)
  }

  /** Every reached airport is settled or queued at its distance. */
  ghost predicate Pending(dist: map<int, real>, settled: set<int>, queue: seq<(real, int)>)
  {
    forall v :: v in dist ==> v in settled || (dist[v], v) in queue
  }

  /**
   * v has a distance. Named, so that the quantifier below over reached
   * airports is instantiated only where a proof names it, and does not
   * chase predecessors of predecessors on its own.
   */
  ghost predicate Reached(dist: map<int, real>, v: int)
  {
    v in dist
  }

  /**
   * Every reached airport but origin has a recorded predecessor: a settled
   * airport with a flight to it whose air time is recorded, and the two
   * distances differ by exactly that air time.
   */
  ghost predicate TreeOk(graph: Graph, origin: int, dist: map<int, real>, info: map<int, (int, real)>,
                         settled: set<int>)
  {
    (forall v :: Reached(dist, v) && v != origin ==> v in info) &&
    (forall v :: v in info ==>
       v in dist && v != origin && info[v].0 in settled && info[v].0 in dist &&
       dist[v] == dist[info[v].0] + info[v].1 && HasFlight(graph, info[v].0, v, info[v].1))
  }

  ghost predicate SearchInv(graph: Graph, origin: int, dist: map<int, real>, info: map<int, (int, real)>,
                            settled: set<int>, queue: seq<(real, int)>)
  {
    DistOk(graph, origin, dist) && QueueOk(dist, queue) && SettledOk(graph, dist, settled, queue) &&
    Pending(dist, settled, queue) && TreeOk(graph, origin, dist, info, settled) &&
    settled <= Universe(graph, origin)
  }

  /** The priority queue's top and pop: an entry of least distance leaves the queue. */
  method PopNearest(queue: seq<(real, int)>) returns (top: (real, int), rest: seq<(real, int)>)
    requires |queue| > 0
    ensures top in queue && multiset(queue) == multiset(rest) + multiset{top}
    ensures |rest| == |queue| - 1 && forall e :: e in rest ==> e in queue
    ensures forall e :: e in queue && e != top ==> e in rest
    ensures forall e :: e in queue ==> top.0 <= e.0
  {
    var m := 0;
    var i := 1;
    while i < |queue|
      invariant 0 <= m < |queue| && 1 <= i <= |queue|
      invariant forall j :: 0 <= j < i ==> queue[m].0 <= queue[j].0
    {
      if queue[i].0 < queue[m].0 {
        m := i;
      }
      i := i + 1;
    }
    top := queue[m];
    rest := queue[..m] + queue[m + 1..];
    assert queue == queue[..m] + [queue[m]] + queue[m + 1..];
  }

  /**
   * What RelaxFrom(u) needs: u was just taken from the queue at its
   * distance, so it is no nearer than any settled airport and no farther
   * than any queued entry; and apart from u the search state holds.
   */
  ghost predicate TakenAt(graph: Graph, origin: int, u: int, dist: map<int, real>, info: map<int, (int, real)>,
                          queue: seq<(real, int)>, settled: set<int>)
  {
    PositiveTimes(graph) && u in dist && u in Universe(graph, origin) &&
    DistOk(graph, origin, dist) && QueueOk(dist, queue) && SettledOk(graph, dist, settled, queue) &&
    (forall s :: s in settled ==> dist[s] <= dist[u]) &&
    (forall e :: e in queue ==> dist[u] <= e.0) &&
    Pending(dist, settled + {u}, queue) && TreeOk(graph, origin, dist, info, settled) &&
    settled <= Universe(graph, origin)
  }

  /** u and the settled airports keep their distances, and no distance grew. */
  ghost predicate Kept(dist: map<int, real>, settled: set<int>, u: int, d: map<int, real>)
  {
    u in dist && u in d && d[u] == dist[u] &&
    (forall s :: s in settled ==> s in dist && s in d && d[s] == dist[s]) &&
    (forall v :: v in dist ==> v in d && d[v] <= dist[v])
  }

  /** The first k flights of u lead no farther than u's distance plus their air time. */
  ghost predicate FirstRelaxed(graph: Graph, u: int, dist: map<int, real>, k: nat, d: map<int, real>)
    requires u in dist
  {
    k <= |FlightsFrom(graph, u)| &&
    forall j :: 0 <= j < k ==>
      FlightsFrom(graph, u)[j].0 in d && d[FlightsFrom(graph, u)[j].0] <= dist[u] + FlightsFrom(graph, u)[j].1.airTime
  }

  /** Every changed distance is u's distance plus a flight from u, recorded with u as predecessor. */
  ghost predicate ChangedBy(graph: Graph, u: int, dist: map<int, real>, d: map<int, real>, i: map<int, (int, real)>)
    requires u in dist
  {
    forall v :: Reached(d, v) && (v !in dist || d[v] != dist[v]) ==>
      (v !in dist || d[v] < dist[v]) && v in i && i[v].0 == u && d[v] == dist[u] + i[v].1 &&
      HasFlight(graph, u, v, i[v].1)
  }

  ghost predicate AllClosed(graph: Graph, d: map<int, real>, settled: set<int>)
  {
    forall s :: s in settled ==> Closed(graph, d, s)
  }

  /** The airports of S are no farther than any queued entry. */
  ghost predicate QueueAbove(d: map<int, real>, S: set<int>, q: seq<(real, int)>)
  {
    forall s, e :: s in S && s in d && e in q ==> d[s] <= e.0
  }

  /**
   * Where the relaxation of u's first k flights stands: air times are
   * positive and the settled airports are no farther than u, as when u was
   * taken; u and the settled airports keep their distances and no distance
   * grew; the first k flights lead no farther than u's distance plus their
   * air time; and every changed distance is u's distance plus a flight from
   * u, with u recorded as predecessor.
   */
  ghost predicate Progress(graph: Graph, u: int, dist: map<int, real>, settled: set<int>, k: nat,
                           d: map<int, real>, i: map<int, (int, real)>)
  {
    PositiveTimes(graph) && u in dist && (forall s :: s in settled ==> s in dist && dist[s] <= dist[u]) &&
    Kept(dist, settled, u, d) && FirstRelaxed(graph, u, dist, k, d) && ChangedBy(graph, u, dist, d, i)
  }

  /**
   * The search state in the middle of relaxing u: it holds with u counted as
   * settled, except that u need not be Closed yet.
   */
  ghost predicate Partial(graph: Graph, origin: int, u: int, settled: set<int>,
                          d: map<int, real>, i: map<int, (int, real)>, q: seq<(real, int)>)
  {
    DistOk(graph, origin, d) && QueueOk(d, q) && AllClosed(graph, d, settled) &&
    QueueAbove(d, settled + {u}, q) && Pending(d, settled + {u}, q) &&
    TreeOk(graph, origin, d, i, settled + {u})
  }

  /**
   * The relaxation of u's first k flights has turned (dist, info, queue)
   * into (d, i, q), and nothing changes when u was settled already.
   */
  ghost predicate RelaxedUpTo(graph: Graph, origin: int, u: int, dist: map<int, real>, info: map<int, (int, real)>,
                              queue: seq<(real, int)>, settled: set<int>, k: nat,
                              d: map<int, real>, i: map<int, (int, real)>, q: seq<(real, int)>)
  {
    Progress(graph, u, dist, settled, k, d, i) && Partial(graph, origin, u, settled, d, i, q) &&
    (u in settled ==> d == dist && i == info && q == queue)
  }

  /** Before the first flight nothing has changed. */
  lemma RelaxStart(graph: Graph, origin: int, u: int, dist: map<int, real>, info: map<int, (int, real)>,
                   queue: seq<(real, int)>, settled: set<int>)
    requires TakenAt(graph, origin, u, dist, info, queue, settled)
    ensures RelaxedUpTo(graph, origin, u, dist, info, queue, settled, 0, dist, info, queue)
  {
    assert TreeOk(graph, origin, dist, info, settled + {u});
  }

  // The pieces of RelaxedUpTo after v improves to u's distance plus t. Each
  // is stated over d[v := d[u] + t] itself, the term RelaxImproves promises.

  lemma KeptImproves(dist: map<int, real>, settled: set<int>, u: int, d: map<int, real>, v: int, t: real)
    requires Kept(dist, settled, u, d) && v != u && v !in settled && (v !in d || d[u] + t < d[v])
    ensures Kept(dist, settled, u, d[v := d[u] + t])
  {
  }

  lemma FirstRelaxedImproves(graph: Graph, u: int, dist: map<int, real>, k: nat, d: map<int, real>, v: int, t: real)
    requires u in dist && u in d && d[u] == dist[u] && FirstRelaxed(graph, u, dist, k, d) && k < |FlightsFrom(graph, u)|
    requires FlightsFrom(graph, u)[k].0 == v && FlightsFrom(graph, u)[k].1.airTime == t
    requires v !in d || d[u] + t < d[v]
    ensures FirstRelaxed(graph, u, dist, k + 1, d[v := d[u] + t])
  {
  }

  lemma DistOkImproves(graph: Graph, origin: int, d: map<int, real>, u: int, v: int, t: real)
    requires DistOk(graph, origin, d) && u in d && v in Universe(graph, origin) && v != origin && t > 0.0
    ensures DistOk(graph, origin, d[v := d[u] + t])
  {
  }

  lemma QueueOkImproves(d: map<int, real>, q: seq<(real, int)>, u: int, v: int, t: real)
    requires QueueOk(d, q) && u in d && (v !in d || d[u] + t < d[v])
    ensures QueueOk(d[v := d[u] + t], q + [(d[u] + t, v)])
  {
  }

  lemma AllClosedImproves(graph: Graph, d: map<int, real>, settled: set<int>, u: int, v: int, t: real)
    requires AllClosed(graph, d, settled) && u in d && v !in settled && (v !in d || d[u] + t < d[v])
    ensures AllClosed(graph, d[v := d[u] + t], settled)
  {
    forall s | s in settled
      ensures Closed(graph, d[v := d[u] + t], s)
    {
      assert Closed(graph, d, s);
    }
  }

  lemma QueueAboveImproves(d: map<int, real>, S: set<int>, q: seq<(real, int)>, u: int, v: int, t: real)
    requires QueueAbove(d, S, q) && u in d && v !in S
    requires forall s :: s in S && s in d ==> d[s] <= d[u] + t
    ensures QueueAbove(d[v := d[u] + t], S, q + [(d[u] + t, v)])
  {
  }

  lemma PendingImproves(d: map<int, real>, S: set<int>, q: seq<(real, int)>, u: int, v: int, t: real)
    requires Pending(d, S, q) && u in d
    ensures Pending(d[v := d[u] + t], S, q + [(d[u] + t, v)])
  {
  }

  lemma TreeOkImproves(graph: Graph, origin: int, d: map<int, real>, i: map<int, (int, real)>, S: set<int>,
                       u: int, v: int, t: real)
    requires TreeOk(graph, origin, d, i, S) && u in S && u in d && v !in S && v != origin
    requires HasFlight(graph, u, v, t)
    ensures TreeOk(graph, origin, d[v := d[u] + t], i[v := (u, t)], S)
  {
  }

  lemma ChangedByImproves(graph: Graph, u: int, dist: map<int, real>, d: map<int, real>, i: map<int, (int, real)>,
                          v: int, t: real)
    requires u in dist && u in d && d[u] == dist[u] && ChangedBy(graph, u, dist, d, i) && HasFlight(graph, u, v, t)
    requires forall w :: w in dist ==> w in d && d[w] <= dist[w]
    requires v !in d || d[u] + t < d[v]
    ensures ChangedBy(graph, u, dist, d[v := d[u] + t], i[v := (u, t)])
  {
  }

  /**
   * Relaxing flight k of u, to v with air time t, when it improves on v:
   * v gets u's distance plus t, u as predecessor, and a queue entry.
   */
  lemma RelaxImproves(graph: Graph, origin: int, u: int, dist: map<int, real>, info: map<int, (int, real)>,
                      queue: seq<(real, int)>, settled: set<int>, k: nat,
                      d: map<int, real>, i: map<int, (int, real)>, q: seq<(real, int)>, v: int, t: real)
    requires RelaxedUpTo(graph, origin, u, dist, info, queue, settled, k, d, i, q) && k < |FlightsFrom(graph, u)|
    requires FlightsFrom(graph, u)[k].0 == v && FlightsFrom(graph, u)[k].1.airTime == t
    requires v !in d || d[u] + t < d[v]
    ensures RelaxedUpTo(graph, origin, u, dist, info, queue, settled, k + 1,
                        d[v := d[u] + t], i[v := (u, t)], q + [(d[u] + t, v)])
  {
    assert u in graph && graph[u][k].0 == v && graph[u][k].1.airTime == t;
    assert t > 0.0;
    assert HasFlight(graph, u, v, t);
    assert v in Universe(graph, origin);
    assert v !in settled && v != u && v != origin;
    assert u !in settled;
    KeptImproves(dist, settled, u, d, v, t);
    FirstRelaxedImproves(graph, u, dist, k, d, v, t);
    DistOkImproves(graph, origin, d, u, v, t);
    QueueOkImproves(d, q, u, v, t);
    AllClosedImproves(graph, d, settled, u, v, t);
    assert forall s :: s in settled + {u} && s in d ==> d[s] <= d[u] + t;
    QueueAboveImproves(d, settled + {u}, q, u, v, t);
    PendingImproves(d, settled + {u}, q, u, v, t);
    TreeOkImproves(graph, origin, d, i, settled + {u}, u, v, t);
    ChangedByImproves(graph, u, dist, d, i, v, t);
  }

  /** Relaxing flight k of u, to v with air time t, when it does not improve on v: nothing changes. */
  lemma RelaxKeeps(graph: Graph, origin: int, u: int, dist: map<int, real>, info: map<int, (int, real)>,
                   queue: seq<(real, int)>, settled: set<int>, k: nat,
                   d: map<int, real>, i: map<int, (int, real)>, q: seq<(real, int)>, v: int, t: real)
    requires RelaxedUpTo(graph, origin, u, dist, info, queue, settled, k, d, i, q) && k < |FlightsFrom(graph, u)|
    requires FlightsFrom(graph, u)[k].0 == v && FlightsFrom(graph, u)[k].1.airTime == t
    requires v in d && d[v] <= d[u] + t
    ensures RelaxedUpTo(graph, origin, u, dist, info, queue, settled, k + 1, d, i, q)
  {
  }

  /**
   * The body of the relaxation loop for a flight from u to v of air time t:
   * when v is not reached yet or u's distance plus t is strictly shorter, v
   * gets that distance, u as predecessor with t, and a queue entry.
   */
  function RelaxEdge(d: map<int, real>, i: map<int, (int, real)>, q: seq<(real, int)>, u: int, v: int, t: real)
    : (map<int, real>, map<int, (int, real)>, seq<(real, int)>)
    requires u in d
  {
    var newDist := d[u] + t;
    if v !in d || newDist < d[v] then (d[v := newDist], i[v := (u, t)], q + [(newDist, v)]) else (d, i, q)
  }

  /** Relaxing flight k of u, to v with air time t, keeps RelaxedUpTo one flight further. */
  lemma RelaxStep(graph: Graph, origin: int, u: int, dist: map<int, real>, info: map<int, (int, real)>,
                  queue: seq<(real, int)>, settled: set<int>, k: nat,
                  d: map<int, real>, i: map<int, (int, real)>, q: seq<(real, int)>, v: int, t: real)
    requires RelaxedUpTo(graph, origin, u, dist, info, queue, settled, k, d, i, q) && k < |FlightsFrom(graph, u)|
    requires FlightsFrom(graph, u)[k].0 == v && FlightsFrom(graph, u)[k].1.airTime == t
    ensures u in d
    ensures RelaxedUpTo(graph, origin, u, dist, info, queue, settled, k + 1,
                        RelaxEdge(d, i, q, u, v, t).0, RelaxEdge(d, i, q, u, v, t).1, RelaxEdge(d, i, q, u, v, t).2)
  {
    if v !in d || d[u] + t < d[v] {
      RelaxImproves(graph, origin, u, dist, info, queue, settled, k, d, i, q, v, t);
      assert RelaxEdge(d, i, q, u, v, t) == (d[v := d[u] + t], i[v := (u, t)], q + [(d[u] + t, v)]);
    } else {
      RelaxKeeps(graph, origin, u, dist, info, queue, settled, k, d, i, q, v, t);
      assert RelaxEdge(d, i, q, u, v, t) == (d, i, q);
    }
  }

  /**
   * One round of Dijkstra's loop after u was taken: its flights are relaxed
   * (RelaxFlights). Relaxing an already settled airport changes nothing;
   * otherwise u becomes settled. No distance grows, and each changed one is
   * u's distance plus a flight from u, recorded with u as predecessor.
   */
  method RelaxFrom(graph: Graph, origin: int, u: int, dist: map<int, real>, info: map<int, (int, real)>,
                   queue: seq<(real, int)>, ghost settled: set<int>)
    returns (dist': map<int, real>, info': map<int, (int, real)>, queue': seq<(real, int)>)
    requires TakenAt(graph, origin, u, dist, info, queue, settled)
    ensures SearchInv(graph, origin, dist', info', settled + {u}, queue')
    ensures u in settled ==> dist' == dist && info' == info && queue' == queue
    ensures forall v :: v in dist ==> v in dist' && dist'[v] <= dist[v]
    ensures forall v :: v in dist' && (v !in dist || dist'[v] != dist[v]) ==>
      (v !in dist || dist'[v] < dist[v]) && v in info' && info'[v].0 == u && dist'[v] == dist[u] + info'[v].1 &&
      HasFlight(graph, u, v, info'[v].1)
  {
    RelaxStart(graph, origin, u, dist, info, queue, settled);
    dist', info', queue' := RelaxFlights(graph, origin, u, dist, info, queue, settled);
    RelaxDone(graph, origin, u, dist, info, queue, settled, dist', info', queue');
  }

  /**
   * The relaxation loop over the flights leaving u (lines 123-130): a flight
   * to v of air time t records u's distance plus t for v, u as its
   * predecessor and queues v, when v is not reached yet or that is strictly
   * shorter.
   */
  method RelaxFlights(graph: Graph, origin: int, u: int, dist: map<int, real>, info: map<int, (int, real)>,
                      queue: seq<(real, int)>, ghost settled: set<int>)
    returns (dist': map<int, real>, info': map<int, (int, real)>, queue': seq<(real, int)>)
    requires RelaxedUpTo(graph, origin, u, dist, info, queue, settled, 0, dist, info, queue)
    ensures RelaxedUpTo(graph, origin, u, dist, info, queue, settled, |FlightsFrom(graph, u)|, dist', info', queue')
  {
    dist', info', queue' := dist, info, queue;
    var flights := FlightsFrom(graph, u);
    var k := 0;
    while k < |flights|
      invariant k <= |flights|
      invariant RelaxedUpTo(graph, origin, u, dist, info, queue, settled, k, dist', info', queue')
    {
      var (v, flight) := flights[k];
      RelaxStep(graph, origin, u, dist, info, queue, settled, k, dist', info', queue', v, flight.airTime);
      var next := RelaxEdge(dist', info', queue', u, v, flight.airTime);
      dist', info', queue' := next.0, next.1, next.2;
      k := k + 1;
    }
  }

  /** After all of u's flights, the search state holds with u settled. */
  lemma RelaxDone(graph: Graph, origin: int, u: int, dist: map<int, real>, info: map<int, (int, real)>,
                  queue: seq<(real, int)>, settled: set<int>,
                  d: map<int, real>, i: map<int, (int, real)>, q: seq<(real, int)>)
    requires TakenAt(graph, origin, u, dist, info, queue, settled)
    requires RelaxedUpTo(graph, origin, u, dist, info, queue, settled, |FlightsFrom(graph, u)|, d, i, q)
    ensures SearchInv(graph, origin, d, i, settled + {u}, q)
  {
    assert Closed(graph, d, u);
  }

  /** Taking a stale entry off the queue keeps the search state. */
  lemma PopStale(graph: Graph, origin: int, dist: map<int, real>, info: map<int, (int, real)>,
                 settled: set<int>, queue: seq<(real, int)>, top: (real, int), rest: seq<(real, int)>)
    requires SearchInv(graph, origin, dist, info, settled, queue)
    requires top in queue && forall e :: e in rest ==> e in queue
    requires forall e :: e in queue && e != top ==> e in rest
    requires top.1 in dist && top.0 > dist[top.1]
    ensures SearchInv(graph, origin, dist, info, settled, rest)
  {
  }

  /** Taking the nearest entry at its airport's distance sets up RelaxFrom. */
  lemma PopFresh(graph: Graph, origin: int, dist: map<int, real>, info: map<int, (int, real)>,
                 settled: set<int>, queue: seq<(real, int)>, top: (real, int), rest: seq<(real, int)>)
    requires PositiveTimes(graph) && SearchInv(graph, origin, dist, info, settled, queue)
    requires top in queue && forall e :: e in rest ==> e in queue
    requires forall e :: e in queue && e != top ==> e in rest
    requires forall e :: e in queue ==> top.0 <= e.0
    requires top.1 in dist && top.0 <= dist[top.1]
    ensures top.0 == dist[top.1]
    ensures TakenAt(graph, origin, top.1, dist, info, rest, settled)
  {
  }

  /**
   * Dijkstra from origin over air times (lines 107-133): origin at 0, then
   * the nearest queued airport is taken, a stale entry skipped, and its
   * flights relaxed, until the queue is empty. With positive air times this
   * ends, and the result is a shortest-path tree: every reached airport is
   * Closed (no flight improves on it), and every reached airport but origin
   * has a predecessor flight whose air time makes up the difference.
   */
  method Dijkstra(graph: Graph, origin: int) returns (dist: map<int, real>, info: map<int, (int, real)>)
    requires PositiveTimes(graph)
    ensures DistOk(graph, origin, dist)
    ensures forall v :: v in dist ==> Closed(graph, dist, v)
    ensures TreeOk(graph, origin, dist, info, dist.Keys)
  {
    dist := map[origin := 0.0];
    info := map[];
    var queue := [(0.0, origin)];
    ghost var settled: set<int> := {};
    while queue != []
      invariant SearchInv(graph, origin, dist, info, settled, queue)
      decreases |Universe(graph, origin) - settled|, |queue|
    {
      var top, rest := PopNearest(queue);
      var (d, u) := top;
      if d > dist[u] {
        PopStale(graph, origin, dist, info, settled, queue, top, rest);
        queue := rest;
        continue;
      }
      PopFresh(graph, origin, dist, info, settled, queue, top, rest);
      queue := rest;
      SettleShrinks(Universe(graph, origin), settled, u);
      dist, info, queue := RelaxFrom(graph, origin, u, dist, info, queue, settled);
      settled := settled + {u};
    }
    SearchDone(graph, origin, dist, info, settled);
  }

  /** Settling u leaves fewer unsettled airports, or the same settled set when u was settled already. */
  lemma SettleShrinks(universe: set<int>, settled: set<int>, u: int)
    requires u in universe
    ensures u !in settled ==> |universe - (settled + {u})| < |universe - settled|
    ensures u in settled ==> settled + {u} == settled
  {
    if u !in settled {
      assert universe - (settled + {u}) < universe - settled;
      ProperSubsetSmaller(universe - (settled + {u}), universe - settled);
    }
  }

  /** With the queue empty, every reached airport is settled, hence Closed, and has its predecessor recorded. */
  lemma SearchDone(graph: Graph, origin: int, dist: map<int, real>, info: map<int, (int, real)>, settled: set<int>)
    requires SearchInv(graph, origin, dist, info, settled, [])
    ensures DistOk(graph, origin, dist)
    ensures forall v :: v in dist ==> Closed(graph, dist, v)
    ensures TreeOk(graph, origin, dist, info, dist.Keys)
  {
    assert forall v :: v in dist ==> v in settled;
    forall v | v in info
      ensures info[v].0 in dist.Keys
    {
    }
  }

  /** The reached airports nearer than r. */
  ghost function Nearer(dist: map<int, real>, r: real): set<int>
  {
    set x | x in dist && dist[x] < r
  }

  /**
   * Distances Closed everywhere bound every flight path: starting from a
   * reached airport, each airport on it is reached, and the last one is no
   * farther than the first plus the total air time.
   */
  lemma {:induction false} ClosedBoundsPaths(graph: Graph, dist: map<int, real>, route: seq<int>, times: seq<real>)
    requires forall v :: v in dist ==> Closed(graph, dist, v)
    requires IsFlightPath(graph, route, times) && route[0] in dist
    ensures route[|route| - 1] in dist && dist[route[|route| - 1]] <= dist[route[0]] + Total(times)
  {
    if times != [] {
      assert HasFlight(graph, route[0], route[1], times[0]);
      var k :| 0 <= k < |graph[route[0]]| && graph[route[0]][k].0 == route[1] &&
        graph[route[0]][k].1.airTime == times[0];
      assert FlightsFrom(graph, route[0])[k] == graph[route[0]][k];
      assert IsFlightPath(graph, route[1..], times[1..]) by {
        forall i | 0 <= i < |times[1..]|
          ensures HasFlight(graph, route[1..][i], route[1..][i + 1], times[1..][i])
        {
          assert HasFlight(graph, route[i + 1], route[i + 2], times[i + 1]);
        }
      }
      ClosedBoundsPaths(graph, dist, route[1..], times[1..]);
    }
  }

  ghost predicate ConnectedByFlights(graph: Graph, a: int, b: int)
  {
    exists r, t :: IsFlightPath(graph, r, t) && r[0] == a && r[|r| - 1] == b
  }

  /** Every flight has a positive air time, and its airports are known. */
  ghost predicate Consistent(graph: Graph, airports: set<int>)
  {
    PositiveTimes(graph) &&
    forall u, k :: u in graph && 0 <= k < |graph[u]| ==> u in airports && graph[u][k].0 in airports
  }

  /** Appending a flight of positive air time, and recording both its airports, keeps the planner's invariant. */
  lemma AppendKeepsValid(graph: Graph, airports: set<int>, origin: int, dest: int, flight: FlightInfo)
    requires Consistent(graph, airports) && flight.airTime > 0.0
    ensures Consistent(graph[origin := FlightsFrom(graph, origin) + [(dest, flight)]], airports + {origin, dest})
  {
    var before := FlightsFrom(graph, origin);
    var g: Graph := graph[origin := before + [(dest, flight)]];
    forall u, k | u in g && 0 <= k < |g[u]|
      ensures g[u][k].1.airTime > 0.0 && u in airports + {origin, dest} && g[u][k].0 in airports + {origin, dest}
    {
      if u == origin && k < |before| {
        assert g[u][k] == before[k] == graph[u][k];
      }
    }
  }

  class FlightPathPlanner {
    var flightGraph: Graph
    var airports: set<int>

    ghost predicate Valid()
      reads this
    {
      Consistent(flightGraph, airports)
    }

    /** The singleton's default state (lines 10-13): no flights, no airports. */
    constructor()
      ensures flightGraph == map[] && airports == {} && Valid()
    {
      flightGraph := map[];
      airports := {};
    }

    /**
     * One parsed row of the flights file (lines 84-91): a row whose air
     * time is not positive is skipped; otherwise the flight is appended to
     * its origin's list and both airports are recorded.
     */
    method AddFlight(airTime: real, origin: int, dest: int, year: int, quarter: int, month: int)
      requires Valid()
      modifies this
      ensures Valid()
      ensures airTime <= 0.0 ==> flightGraph == old(flightGraph) && airports == old(airports)
      ensures airTime > 0.0 ==>
        flightGraph == old(flightGraph)[origin := FlightsFrom(old(flightGraph), origin) +
          [(dest, FlightInfo(airTime, origin, dest, year, quarter, month))]] &&
        airports == old(airports) + {origin, dest}
    {
      if airTime > 0.0 {
        var flight := FlightInfo(airTime, origin, dest, year, quarter, month);
        var before := FlightsFrom(flightGraph, origin);
        flightGraph := flightGraph[origin := before + [(dest, flight)]];
        airports := airports + {origin, dest};
        AppendKeepsValid(old(flightGraph), old(airports), origin, dest, flight);
      }
    }

    /** Lines 98-101. */
    method Clear()
      modifies this
      ensures flightGraph == map[] && airports == {} && Valid()
    {
      flightGraph := map[];
      airports := {};
    }

    predicate ContainsAirport(index: int)
      reads this
    {
      index in airports
    }

    /**
     * Follows recorded predecessors from dest (lines 135-155), collecting
     * airports and air times, then reverses both. The chain ends at origin;
     * an unknown end airport gives empty vectors.
     */
    method ReconstructPath(info: map<int, (int, real)>, dest: int, ghost origin: int, ghost dist: map<int, real>)
      returns (route: seq<int>, times: seq<real>)
      requires PositiveTimes(flightGraph) && TreeOk(flightGraph, origin, dist, info, dist.Keys)
      requires dest in dist && origin in dist
      ensures route == [] <==> !ContainsAirport(origin)
      ensures route == [] ==> times == []
      ensures route != [] ==>
        route[0] == origin && route[|route| - 1] == dest && IsFlightPath(flightGraph, route, times) &&
        Total(times) == dist[dest] - dist[origin]
    {
      var back: seq<int> := [];
      var backTimes: seq<real> := [];
      var current := dest;
      while current in info
        invariant current in dist && |back| == |backTimes|
        invariant back == [] ==> current == dest
        invariant back != [] ==> back[0] == dest
        invariant forall i :: 0 <= i < |back| - 1 ==> HasFlight(flightGraph, back[i + 1], back[i], backTimes[i])
        invariant back != [] ==> HasFlight(flightGraph, current, back[|back| - 1], backTimes[|back| - 1])
        invariant Total(backTimes) + dist[current] == dist[dest]
        decreases |Nearer(dist, dist[current])|
      {
        var (parent, time) := info[current];
        ghost var below := Nearer(dist, dist[current]);
        assert time > 0.0 by {
          var k :| 0 <= k < |flightGraph[parent]| && flightGraph[parent][k].0 == current &&
            flightGraph[parent][k].1.airTime == time;
        }
        assert Nearer(dist, dist[parent]) < below by {
          assert parent in below;
        }
        ProperSubsetSmaller(Nearer(dist, dist[parent]), below);
        TotalSnoc(backTimes, time);
        back := back + [current];
        backTimes := backTimes + [time];
        current := parent;
      }
      assert current == origin;
      back := back + [current];
      if !ContainsAirport(current) {
        return [], [];
      }
      route := Reverse(back);
      times := Reverse(backTimes);
      TotalReverse(backTimes);
      forall i | 0 <= i < |times|
        ensures HasFlight(flightGraph, route[i], route[i + 1], times[i])
      {
        var j := |backTimes| - 1 - i;
        assert route[i] == back[j + 1] && route[i + 1] == back[j] && times[i] == backTimes[j];
        assert HasFlight(flightGraph, back[j + 1], back[j], backTimes[j]);
      }
    }

    /**
     * The fastest route between two airports (lines 157-166): empty when
     * either is unknown or dest is not reached. Otherwise it starts at origin,
     * ends at dest, consists of flights, and no flight path between the two
     * takes less air time; and dest is reached whenever some flight path
     * leads there.
     */
    method FindFlightPathBetween(originIndex: int, destIndex: int) returns (route: seq<int>, times: seq<real>)
      requires Valid()
      ensures !ContainsAirport(originIndex) || !ContainsAirport(destIndex) ==> route == [] && times == []
      ensures route == [] ==> times == []
      ensures route != [] ==>
        route[0] == originIndex && route[|route| - 1] == destIndex && IsFlightPath(flightGraph, route, times)
      ensures route != [] ==> forall r, t {:trigger IsFlightPath(flightGraph, r, t)} ::
        IsFlightPath(flightGraph, r, t) && r[0] == originIndex && r[|r| - 1] == destIndex ==>
        Total(times) <= Total(t)
      ensures ContainsAirport(originIndex) && ContainsAirport(destIndex) ==>
        (route != [] <==> ConnectedByFlights(flightGraph, originIndex, destIndex))
    {
      if !ContainsAirport(originIndex) || !ContainsAirport(destIndex) {
        return [], [];
      }
      var dist, info := Dijkstra(flightGraph, originIndex);
      if destIndex !in dist {
        forall r, t | IsFlightPath(flightGraph, r, t) && r[0] == originIndex && r[|r| - 1] == destIndex
          ensures false
        {
          ClosedBoundsPaths(flightGraph, dist, r, t);
        }
        return [], [];
      }
      route, times := ReconstructPath(info, destIndex, originIndex, dist);
      forall r, t | IsFlightPath(flightGraph, r, t) && r[0] == originIndex && r[|r| - 1] == destIndex
        ensures Total(times) <= Total(t)
      {
        ClosedBoundsPaths(flightGraph, dist, r, t);
      }
    }
  }
}

=== FILE: flight_routes.dfy ===
/**
 * Flight data tools (Sokolov/Lab2.3.cpp): flight categories, a
 * route cache with least-recently-used eviction and a capacity that
 * follows the load, the filter for regular domestic flights, and a flight
 * graph with breadth-first reachability.
 */
module FlightRoutes {
  import opened Wrappers

  datatype FlightCategory = Domestic | International | Unknown

  function CategoryToString(fc: FlightCategory): (s: string)
    ensures fc == Domestic ==> s == "Domestic"
    ensures fc == International ==> s == "International"
    ensures fc == Unknown ==> s == "Unknown"
  {
    match fc
    case Domestic => "Domestic"
    case International => "International"
    case Unknown => "Unknown"
  }

  /** The names of different categories differ. */
  lemma CategoryToStringInjective(a: FlightCategory, b: FlightCategory)
    ensures CategoryToString(a) == CategoryToString(b) ==> a == b
  {
    if a != b {
      assert CategoryToString(a)[0] != CategoryToString(b)[0] || |CategoryToString(a)| != |CategoryToString(b)|;
    }
  }

  /** ASCII lower case, as the C library's tolower in the default locale. */
  function ToLowerChar(c: char): char {
    if 'A' <= c <= 'Z' then (c as int + 32) as char else c
  }

  function ToLower(s: string): (r: string)
    ensures |r| == |s| && forall i :: 0 <= i < |s| ==> r[i] == ToLowerChar(s[i])
  {
    seq(|s|, i requires 0 <= i < |s| => ToLowerChar(s[i]))
  }

  /** The category of a data-source code: "d" or "du" is domestic, "i" international, in any case. */
  function ParseFlightCategory(s: string): FlightCategory
  {
    var lower := ToLower(s);
    if lower == "d" || lower == "du" then Domestic
    else if lower == "i" then International
    else Unknown
  }

  /** The parse ignores case, and names exactly the codes it accepts. */
  lemma ParseFlightCategoryCases(s: string)
    ensures ParseFlightCategory(s) == ParseFlightCategory(ToLower(s))
    ensures ParseFlightCategory(s) == Domestic <==> s in {"d", "D", "du", "dU", "Du", "DU"}
    ensures ParseFlightCategory(s) == International <==> s in {"i", "I"}
  {
    var lower := ToLower(s);
    assert ToLower(lower) == lower;
    if |s| == 1 {
      assert lower == [ToLowerChar(s[0])];
      if lower == "d" { assert s == "d" || s == "D"; }
      if lower == "i" { assert s == "i" || s == "I"; }
    }
    if |s| == 2 {
      assert lower == [ToLowerChar(s[0]), ToLowerChar(s[1])];
      if lower == "du" {
        assert s[0] == 'd' || s[0] == 'D';
        assert s[1] == 'u' || s[1] == 'U';
        assert s == [s[0], s[1]];
      }
    }
  }

  /** A flight: duration in seconds and distance in miles. */
  datatype Flight = Flight(origin: string, destination: string, frequency: int,
                           category: FlightCategory, duration: int, distance: real)

  /** A regular domestic flight: at least one departure and the domestic category. */
  predicate IsValid(fl: Flight) {
    fl.frequency >= 1 && fl.category == Domestic
  }

  /** The regular domestic flights of all, in their original order. */
  function FilterValid(all: seq<Flight>): (r: seq<Flight>)
    ensures |r| <= |all|
    ensures forall fl :: fl in r <==> fl in all && IsValid(fl)
  {
    if |all| == 0 then []
    else FilterValid(all[..|all| - 1]) + (if IsValid(all[|all| - 1]) then [all[|all| - 1]] else [])
  }

  method FilterFlights(all: seq<Flight>) returns (valid: seq<Flight>)
    ensures valid == FilterValid(all)
  {
    valid := [];
    for i := 0 to |all|
      invariant valid == FilterValid(all[..i])
    {
      assert all[..i + 1][..i] == all[..i];
      if all[i].frequency >= 1 && all[i].category == Domestic {
        valid := valid + [all[i]];
      }
    }
    assert all[..|all|] == all;
  }

  /** Filtering twice keeps what filtering once kept. */
  lemma {:induction false} FilterIdempotent(all: seq<Flight>)
    ensures FilterValid(FilterValid(all)) == FilterValid(all)
    decreases |all|
  {
    if |all| > 0 {
      var init := all[..|all| - 1];
      FilterIdempotent(init);
      FilterAppend(FilterValid(init), if IsValid(all[|all| - 1]) then [all[|all| - 1]] else []);
    }
  }

  lemma {:induction false} FilterAppend(a: seq<Flight>, b: seq<Flight>)
    ensures FilterValid(a + b) == FilterValid(a) + FilterValid(b)
    decreases |b|
  {
    if |b| == 0 {
      assert a + b == a;
    } else {
      assert (a + b)[..|a + b| - 1] == a + b[..|b| - 1];
      FilterAppend(a, b[..|b| - 1]);
    }
  }

  // ---------------------------------------------------------------------
  // Route cache
  // ---------------------------------------------------------------------

  const MinCapacity := 10
  const MaxCapacity := 1000

  /**
   * The capacity after adjusting to the current size: doubled (at most
   * 1000) when more than three quarters are used, halved (at least 10)
   * when less than a quarter is used.
   */
  function AdjustedCapacity(size: nat, capacity: nat): (c: nat)
    ensures 4 * size > 3 * capacity && capacity < MaxCapacity ==> c == if 2 * capacity > MaxCapacity then MaxCapacity else 2 * capacity
    ensures !(4 * size > 3 * capacity && capacity < MaxCapacity) && 4 * size < capacity && capacity > MinCapacity ==>
              c == if capacity / 2 < MinCapacity then MinCapacity else capacity / 2
    ensures MinCapacity <= capacity <= MaxCapacity ==> MinCapacity <= c <= MaxCapacity
    ensures capacity >= 1 ==> c >= 1
    ensures size <= capacity ==> size <= c
  {
    if 4 * size > 3 * capacity && capacity < MaxCapacity then
      if 2 * capacity > MaxCapacity then MaxCapacity else 2 * capacity
    else if 4 * size < capacity && capacity > MinCapacity then
      if capacity / 2 < MinCapacity then MinCapacity else capacity / 2
    else capacity
  }

  /** The keys of the entries, front first. */
  function Keys<K(!new), V(!new)>(items: seq<(K, V)>): (ks: seq<K>)
    ensures |ks| == |items| && forall i :: 0 <= i < |items| ==> ks[i] == items[i].0
  {
    seq(|items|, i requires 0 <= i < |items| => items[i].0)
  }

  /** No key occurs twice. */
  ghost predicate DistinctKeys<K(!new), V(!new)>(items: seq<(K, V)>) {
    forall i, j :: 0 <= i < j < |items| ==> items[i].0 != items[j].0
  }

  /** The entries without the one for key, in their order. */
  function Without<K(==,!new), V(!new)>(items: seq<(K, V)>, key: K): (r: seq<(K, V)>)
    ensures |r| <= |items|
    ensures forall k :: k in Keys(r) <==> k in Keys(items) && k != key
  {
    if |items| == 0 then []
    else
      var rest := Without(items[1..], key);
      assert Keys(items) == [items[0].0] + Keys(items[1..]);
      if items[0].0 == key then rest
      else
        assert Keys([items[0]] + rest) == [items[0].0] + Keys(rest);
        [items[0]] + rest
  }

  /** Without keeps exactly the entries of other keys. */
  lemma {:induction false} WithoutEntries<K(!new), V(!new)>(items: seq<(K, V)>, key: K)
    ensures forall e :: e in Without(items, key) <==> e in items && e.0 != key
    decreases |items|
  {
    if |items| > 0 {
      WithoutEntries(items[1..], key);
      assert forall e :: e in items <==> e == items[0] || e in items[1..];
    }
  }

  /** Without keeps keys distinct and, for a present key, removes one entry. */
  lemma {:induction false} WithoutDistinct<K(!new), V(!new)>(items: seq<(K, V)>, key: K)
    requires DistinctKeys(items)
    ensures DistinctKeys(Without(items, key))
    ensures key in Keys(items) ==> |Without(items, key)| == |items| - 1
    decreases |items|
  {
    if |items| > 0 {
      var rest := Without(items[1..], key);
      WithoutDistinct(items[1..], key);
      assert Keys(items) == [items[0].0] + Keys(items[1..]);
      if items[0].0 != key {
        var r := [items[0]] + rest;
        forall i, j | 0 <= i < j < |r|
          ensures r[i].0 != r[j].0
        {
          if i == 0 {
            assert r[j].0 in Keys(rest);
            var t :| 0 <= t < |items[1..]| && Keys(items[1..])[t] == r[j].0;
            assert items[t + 1].0 == r[j].0;
          }
        }
      } else {
        assert key !in Keys(items[1..]);
        WithoutAbsent(items[1..], key);
      }
    }
  }

  /** Without an absent key nothing changes. */
  lemma {:induction false} WithoutAbsent<K(!new), V(!new)>(items: seq<(K, V)>, key: K)
    requires key !in Keys(items)
    ensures Without(items, key) == items
    decreases |items|
  {
    if |items| > 0 {
      assert Keys(items) == [items[0].0] + Keys(items[1..]);
      WithoutAbsent(items[1..], key);
    }
  }

  /** The map the list corresponds to. */
  function AsMap<K(==,!new), V(!new)>(items: seq<(K, V)>): map<K, V> {
    if |items| == 0 then map[] else AsMap(items[1..])[items[0].0 := items[0].1]
  }

  lemma {:induction false} AsMapKeys<K(!new), V(!new)>(items: seq<(K, V)>)
    ensures forall k :: k in AsMap(items) <==> k in Keys(items)
    decreases |items|
  {
    if |items| > 0 {
      AsMapKeys(items[1..]);
      assert Keys(items) == [items[0].0] + Keys(items[1..]);
    }
  }

  lemma {:induction false} AsMapValue<K(!new), V(!new)>(items: seq<(K, V)>, i: nat)
    requires DistinctKeys(items) && i < |items|
    ensures items[i].0 in AsMap(items) && AsMap(items)[items[i].0] == items[i].1
    decreases i
  {
    if i > 0 {
      AsMapValue(items[1..], i - 1);
    }
  }

  /** Taking an entry out of the list takes its key out of the map. */
  lemma {:induction false} AsMapWithout<K(!new), V(!new)>(items: seq<(K, V)>, key: K)
    ensures AsMap(Without(items, key)) == AsMap(items) - {key}
    decreases |items|
  {
    if |items| > 0 {
      AsMapWithout(items[1..], key);
      if items[0].0 != key {
        var rest := Without(items[1..], key);
        assert ([items[0]] + rest)[1..] == rest;
      }
    }
  }

  /** Dropping the back entry drops its key from the map. */
  lemma {:induction false} AsMapDropLast<K(!new), V(!new)>(items: seq<(K, V)>)
    requires DistinctKeys(items) && |items| > 0
    ensures AsMap(items[..|items| - 1]) == AsMap(items) - {items[|items| - 1].0}
    decreases |items|
  {
    if |items| > 1 {
      var rest := items[1..];
      AsMapDropLast(rest);
      assert items[..|items| - 1] == [items[0]] + rest[..|rest| - 1];
      assert ([items[0]] + rest[..|rest| - 1])[1..] == rest[..|rest| - 1];
    }
  }

  /** A key not yet in the list may go in front. */
  lemma PushFront<K(!new), V(!new)>(items: seq<(K, V)>, key: K, value: V)
    requires DistinctKeys(items) && key !in Keys(items)
    ensures DistinctKeys([(key, value)] + items)
    ensures AsMap([(key, value)] + items) == AsMap(items)[key := value]
  {
    var r := [(key, value)] + items;
    assert r[1..] == items;
    forall i, j | 0 <= i < j < |r|
      ensures r[i].0 != r[j].0
    {
      assert r[j] == items[j - 1];
      if i == 0 {
        assert Keys(items)[j - 1] == r[j].0;
      } else {
        assert r[i] == items[i - 1];
      }
    }
  }

  class LruCache<K(==,!new), V(!new)> {
    /** Entries, most recently used first. */
    var items: seq<(K, V)>
    /** Key to entry, mirroring items. */
    var index: map<K, V>
    var capacity: nat

    /** The list and the map stay in sync, and the list never outgrows the capacity. */
    ghost predicate Valid()
      reads this
    {
      DistinctKeys(items) && index == AsMap(items) &&
      capacity >= 1 && |items| <= capacity
    }

    constructor(initialCapacity: nat)
      requires initialCapacity >= 1
      ensures Valid() && items == [] && capacity == initialCapacity
    {
      items := [];
      index := map[];
      capacity := initialCapacity;
    }

    /**
     * Looks a key up: a miss changes nothing; a hit returns the value
     * stored for the key and moves its entry to the front.
     */
    method Get(key: K) returns (r: Option<V>)
      requires Valid()
      modifies this
      ensures Valid()
      ensures r.None? <==> key !in old(index)
      ensures r.None? ==> items == old(items)
      ensures r.Some? ==> r.value == old(index)[key] && items == [(key, r.value)] + Without(old(items), key)
      ensures index == old(index) && capacity == old(capacity)
    {
      if key !in index {
        return None;
      }
      var value := index[key];
      MoveToFront(key, value);
      return Some(value);
    }

    /**
     * Stores a value.  An existing key gets the new value and moves to the
     * front.  A new key first adjusts the capacity to the load; when the
     * list is full the least recently used entry (the back) is evicted;
     * the new entry goes to the front.
     */
    method Put(key: K, value: V)
      requires Valid()
      modifies this
      ensures Valid()
      ensures index == (if key in old(index) || |old(items)| < capacity then old(index)
                        else old(index) - {old(items)[|old(items)| - 1].0})[key := value]
      ensures |items| > 0 && items[0] == (key, value)
      ensures key in old(index) ==>
                items == [(key, value)] + Without(old(items), key) && capacity == old(capacity)
      ensures key !in old(index) ==>
                capacity == AdjustedCapacity(|old(items)|, old(capacity)) &&
                (|old(items)| >= capacity ==> items == [(key, value)] + old(items)[..|old(items)| - 1]) &&
                (|old(items)| < capacity ==> items == [(key, value)] + old(items))
    {
      if key in index {
        MoveToFront(key, value);
        return;
      }
      AsMapKeys(items);
      capacity := AdjustedCapacity(|items|, capacity);
      if |items| >= capacity {
        var last := items[|items| - 1];
        AsMapDropLast(items);
        index := index - {last.0};
        items := items[..|items| - 1];
      }
      assert key !in Keys(items) by {
        AsMapKeys(items);
      }
      PushFront(items, key, value);
      items := [(key, value)] + items;
      index := index[key := value];
    }

    /** Stores value for key, which is in the list, and moves its entry to the front. */
    method MoveToFront(key: K, value: V)
      requires Valid() && key in index
      modifies this
      ensures Valid()
      ensures items == [(key, value)] + Without(old(items), key)
      ensures index == old(index)[key := value] && capacity == old(capacity)
    {
      AsMapKeys(items);
      var rest := Without(items, key);
      AsMapWithout(items, key);
      WithoutDistinct(items, key);
      assert key !in Keys(rest);
      PushFront(rest, key, value);
      items := [(key, value)] + rest;
      index := index[key := value];
    }
  }

  // ---------------------------------------------------------------------
  // Flight graph
  // ---------------------------------------------------------------------

  /** The flights leaving airport, or none when it has no entry. */
  function FlightsFrom(g: map<string, seq<Flight>>, airport: string): (r: seq<Flight>)
    ensures airport !in g ==> r == []
    ensures forall fl :: fl in r ==> fl in g[airport]
  {
    if airport in g then g[airport] else []
  }

  /** The airports one flight away from airport. */
  ghost function Successors(g: map<string, seq<Flight>>, airport: string): set<string> {
    set fl | fl in FlightsFrom(g, airport) :: fl.destination
  }

  /** Every airport that some flight arrives at. */
  ghost function Destinations(g: map<string, seq<Flight>>): set<string> {
    set o, fl | o in g && fl in g[o] :: fl.destination
  }

  /** p is a route of flights from s to d. */
  ghost predicate IsRoute(g: map<string, seq<Flight>>, p: seq<string>, s: string, d: string) {
    |p| >= 1 && p[0] == s && p[|p| - 1] == d &&
    forall i :: 0 <= i < |p| - 1 ==> p[i + 1] in Successors(g, p[i])
  }

  ghost predicate Reachable(g: map<string, seq<Flight>>, s: string, d: string) {
    exists p :: IsRoute(g, p, s, d)
  }

  /** Every airport is reachable from itself, by the empty route. */
  lemma ReachableSelf(g: map<string, seq<Flight>>, s: string)
    ensures Reachable(g, s, s)
  {
    assert IsRoute(g, [s], s, s);
  }

  /** A set holding s and closed under flights holds everything reachable from s. */
  lemma ClosedHoldsReachable(g: map<string, seq<Flight>>, closed: set<string>, s: string)
    requires s in closed
    requires forall v :: v in closed ==> Successors(g, v) <= closed
    ensures forall d :: Reachable(g, s, d) ==> d in closed
  {
    forall d | Reachable(g, s, d)
      ensures d in closed
    {
      var p :| IsRoute(g, p, s, d);
      RouteStaysInside(g, closed, p, s, |p| - 1);
    }
  }

  lemma {:induction false} RouteStaysInside(g: map<string, seq<Flight>>, closed: set<string>, p: seq<string>, s: string, k: nat)
    requires s in closed
    requires forall v :: v in closed ==> Successors(g, v) <= closed
    requires |p| >= 1 && IsRoute(g, p, s, p[|p| - 1]) && k < |p|
    ensures p[k] in closed
    decreases k
  {
    if k > 0 {
      RouteStaysInside(g, closed, p, s, k - 1);
      assert p[k] in Successors(g, p[k - 1]);
    }
  }

  lemma SubsetCardinality(a: set<string>, b: set<string>)
    requires a <= b
    ensures |a| <= |b|
  {
    assert b == a + (b - a);
  }

  class FlightGraph {
    /** Origin airport to the flights leaving it, in the order they were added. */
    var flightsMap: map<string, seq<Flight>>

    constructor()
      ensures flightsMap == map[]
    {
      flightsMap := map[];
    }

    /** Appends fl to the flights of its origin; no other airport changes. */
    method AddFlight(fl: Flight)
      modifies this
      ensures flightsMap == old(flightsMap)[fl.origin := FlightsFrom(old(flightsMap), fl.origin) + [fl]]
    {
      var existing := if fl.origin in flightsMap then flightsMap[fl.origin] else [];
      flightsMap := flightsMap[fl.origin := existing + [fl]];
    }

    function GetFlightsFrom(airport: string): (r: seq<Flight>)
      reads this
      ensures airport in flightsMap ==> r == flightsMap[airport]
      ensures airport !in flightsMap ==> r == []
    {
      FlightsFrom(flightsMap, airport)
    }

    /**
     * Breadth-first search from start: true exactly when some sequence of
     * flights leads from start to destination.
     */
    method IsReachable(start: string, destination: string) returns (reachable: bool)
      ensures reachable <==> Reachable(flightsMap, start, destination)
    {
      var g := flightsMap;
      ghost var universe := {start} + Destinations(g);
      var queue := [start];
      var visited := {start};
      ghost var done: set<string> := {};
      ghost var routes: map<string, seq<string>> := map[start := [start]];
      while |queue| > 0
        invariant SearchState(g, universe, start, destination, visited, queue, done, routes)
        decreases |universe| - |visited|, |queue|
      {
        var cur := queue[0];
        if cur == destination {
          ReachableFrom(g, routes[cur], start, cur);
          return true;
        }
        ghost var q0, v0, d0, r0 := queue, visited, done, routes;
        visited, queue, routes := VisitSuccessors(g, start, cur, visited, queue[1..], routes);
        done := done + {cur};
        SearchStep(g, universe, start, destination, v0, q0, d0, r0, visited, queue, routes);
      }
      ClosedHoldsReachable(g, visited, start);
      return false;
    }
  }

  /**
   * The breadth-first search's loop invariant: every airport seen is done
   * or queued, the done ones have all their successors seen, the
   * destination has not been taken off the queue, and each seen airport has
   * a route to it from start.
   */
  ghost predicate SearchState(g: map<string, seq<Flight>>, universe: set<string>, start: string, destination: string,
                              visited: set<string>, queue: seq<string>, done: set<string>, routes: map<string, seq<string>>)
  {
    visited <= universe && start in visited &&
    (forall v :: v in visited <==> v in done || v in queue) &&
    (forall v :: v in done ==> Successors(g, v) <= visited) &&
    destination !in done &&
    RoutesTo(g, routes, visited, start)
  }

  /**
   * Taking the front airport (not the destination) off the queue and
   * visiting its successors keeps the invariant and sees strictly more
   * airports or shortens the queue.
   */
  lemma SearchStep(g: map<string, seq<Flight>>, universe: set<string>, start: string, destination: string,
                   visited: set<string>, queue: seq<string>, done: set<string>, routes: map<string, seq<string>>,
                   visited': set<string>, queue': seq<string>, routes': map<string, seq<string>>)
    requires universe == {start} + Destinations(g)
    requires SearchState(g, universe, start, destination, visited, queue, done, routes)
    requires |queue| > 0 && queue[0] != destination
    requires visited <= visited' <= visited + Successors(g, queue[0])
    requires Successors(g, queue[0]) <= visited'
    requires |queue| - 1 <= |queue'| && queue'[..|queue| - 1] == queue[1..]
    requires forall v :: v in visited' <==> v in visited || v in queue'[|queue| - 1..]
    requires |visited'| - |visited| == |queue'| - (|queue| - 1)
    requires RoutesTo(g, routes', visited', start)
    ensures SearchState(g, universe, start, destination, visited', queue', done + {queue[0]}, routes')
    ensures |universe| - |visited'| < |universe| - |visited| ||
            (|visited'| == |visited| && |queue'| < |queue|)
    ensures 0 <= |universe| - |visited'|
  {
    var cur := queue[0];
    SuccessorsInDestinations(g, cur);
    SubsetCardinality(visited', universe);
    SearchStepSeen(visited, queue, done, visited', queue');
  }

  /** The airports seen after the step are the ones done or still queued. */
  lemma SearchStepSeen(visited: set<string>, queue: seq<string>, done: set<string>,
                       visited': set<string>, queue': seq<string>)
    requires |queue| > 0
    requires forall v :: v in visited <==> v in done || v in queue
    requires visited <= visited'
    requires |queue| - 1 <= |queue'| && queue'[..|queue| - 1] == queue[1..]
    requires forall v :: v in visited' <==> v in visited || v in queue'[|queue| - 1..]
    ensures forall v :: v in visited' <==> v in done + {queue[0]} || v in queue'
  {
    var n := |queue| - 1;
    forall v | v in visited'
      ensures v in done + {queue[0]} || v in queue'
    {
      if v !in visited {
        var j :| 0 <= j < |queue'| - n && queue'[n..][j] == v;
        assert queue'[n + j] == v;
      } else if v !in done && v != queue[0] {
        var j :| 0 <= j < |queue| && queue[j] == v;
        assert queue[1..][j - 1] == v;
        assert queue'[j - 1] == v;
      }
    }
    forall v | v in queue'
      ensures v in visited'
    {
      var j :| 0 <= j < |queue'| && queue'[j] == v;
      if j < n {
        assert queue[1..][j] == v;
        assert queue[j + 1] == v;
      } else {
        assert queue'[n..][j - n] == v;
      }
    }
  }

  /**
   * Marks the unvisited destinations of the flights from cur as visited
   * and queues them, in flight order.
   */
  method VisitSuccessors(g: map<string, seq<Flight>>, start: string, cur: string, visited: set<string>,
                         queue: seq<string>, ghost routes: map<string, seq<string>>)
    returns (visited': set<string>, queue': seq<string>, ghost routes': map<string, seq<string>>)
    requires cur in visited
    requires RoutesTo(g, routes, visited, start)
    ensures visited <= visited' <= visited + Successors(g, cur)
    ensures Successors(g, cur) <= visited'
    ensures |queue| <= |queue'| && queue'[..|queue|] == queue
    ensures forall v :: v in visited' <==> v in visited || v in queue'[|queue|..]
    ensures |visited'| - |visited| == |queue'| - |queue|
    ensures RoutesTo(g, routes', visited', start)
  {
    visited', queue', routes' := visited, queue, routes;
    ghost var added: seq<string> := [];
    var flights := FlightsFrom(g, cur);
    for i := 0 to |flights|
      invariant queue' == queue + added
      invariant Visiting(g, start, cur, visited, visited', added, routes')
      invariant forall j :: 0 <= j < i ==> flights[j].destination in visited'
    {
      var next := flights[i].destination;
      if next !in visited' {
        VisitOne(g, start, cur, visited, visited', added, routes', flights[i]);
        visited' := visited' + {next};
        routes' := routes'[next := routes'[cur] + [next]];
        added := added + [next];
        queue' := queue' + [next];
      }
    }
    assert queue'[|queue|..] == added;
    SuccessorsCovered(g, cur, visited');
  }

  /**
   * The inner loop's invariant: the airports seen so far are the ones seen
   * before plus those added, each added one a successor of cur and new, and
   * every seen airport has a route from start.
   */
  ghost predicate Visiting(g: map<string, seq<Flight>>, start: string, cur: string, visited: set<string>,
                           visited': set<string>, added: seq<string>, routes': map<string, seq<string>>)
  {
    cur in visited && visited <= visited' &&
    (forall j :: 0 <= j < |added| ==> added[j] in Successors(g, cur)) &&
    (forall v :: v in visited' <==> v in visited || v in added) &&
    |visited'| - |visited| == |added| &&
    RoutesTo(g, routes', visited', start)
  }

  /** Seeing one more flight destination, not seen before, keeps the invariant. */
  lemma VisitOne(g: map<string, seq<Flight>>, start: string, cur: string, visited: set<string>,
                 visited': set<string>, added: seq<string>, routes': map<string, seq<string>>, fl: Flight)
    requires Visiting(g, start, cur, visited, visited', added, routes')
    requires fl in FlightsFrom(g, cur) && fl.destination !in visited'
    ensures Visiting(g, start, cur, visited, visited' + {fl.destination}, added + [fl.destination],
                     routes'[fl.destination := routes'[cur] + [fl.destination]])
  {
    var next := fl.destination;
    assert next in Successors(g, cur);
    ExtendRoutes(g, routes', visited', start, cur, fl);
    var a := added + [next];
    forall j | 0 <= j < |a|
      ensures a[j] in Successors(g, cur)
    {
      if j < |added| {
        assert a[j] == added[j];
      }
    }
    forall v
      ensures v in visited' + {next} <==> v in visited || v in a
    {
      if v in added {
        var j :| 0 <= j < |added| && added[j] == v;
        assert a[j] == v;
      }
      if v in a && v != next {
        var j :| 0 <= j < |a| && a[j] == v;
        assert added[j] == v;
      }
    }
  }

  lemma SuccessorsInDestinations(g: map<string, seq<Flight>>, o: string)
    ensures Successors(g, o) <= Destinations(g)
  {
    forall x | x in Successors(g, o)
      ensures x in Destinations(g)
    {
      var fl :| fl in FlightsFrom(g, o) && fl.destination == x;
      assert o in g && fl in g[o];
    }
  }

  lemma SuccessorsCovered(g: map<string, seq<Flight>>, cur: string, s: set<string>)
    requires forall j :: 0 <= j < |FlightsFrom(g, cur)| ==> FlightsFrom(g, cur)[j].destination in s
    ensures Successors(g, cur) <= s
  {
    forall x | x in Successors(g, cur)
      ensures x in s
    {
      var fl :| fl in FlightsFrom(g, cur) && fl.destination == x;
      var j :| 0 <= j < |FlightsFrom(g, cur)| && FlightsFrom(g, cur)[j] == fl;
    }
  }

  /** routes holds, for each airport of visited, a route to it from start. */
  ghost predicate RoutesTo(g: map<string, seq<Flight>>, routes: map<string, seq<string>>, visited: set<string>, start: string) {
    forall v :: v in visited ==> v in routes && IsRoute(g, routes[v], start, v)
  }

  /** A route to cur followed by a flight from cur is a route to that flight's destination. */
  lemma ExtendRoutes(g: map<string, seq<Flight>>, routes: map<string, seq<string>>, visited: set<string>, start: string, cur: string, fl: Flight)
    requires RoutesTo(g, routes, visited, start) && cur in visited
    requires fl in FlightsFrom(g, cur)
    ensures RoutesTo(g, routes[fl.destination := routes[cur] + [fl.destination]], visited + {fl.destination}, start)
  {
    assert fl.destination in Successors(g, cur);
    var p := routes[cur] + [fl.destination];
    assert IsRoute(g, p, start, fl.destination);
  }

  lemma ReachableFrom(g: map<string, seq<Flight>>, p: seq<string>, s: string, d: string)
    requires IsRoute(g, p, s, d)
    ensures Reachable(g, s, d)
  {
  }
}

=== FILE: horspool.dfy ===
/**
 * Boyer-Moore-Horspool substring search (DubininBV/coursework/BoyerMooreHorspool.cpp).
 *
 * The shift table maps a character to the distance the window moves when
 * that character is the last one under the window and the window does not
 * match; characters missing from the table shift by the pattern length.
 * The search loop is shared by the table as written and by the corrected
 * table.
 */
module Horspool {
  import opened Wrappers

  /** The pattern occurs in text at position i. */
  predicate MatchAt(text: string, pattern: string, i: int) {
    0 <= i && i + |pattern| <= |text| && forall j :: 0 <= j < |pattern| ==> text[i + j] == pattern[j]
  }

  /** The table entry for c, or the pattern length when c is absent. */
  function ShiftFor(table: map<char, int>, c: char, m: int): int {
    if c in table then table[c] else m
  }

  /** Every shift moves the window forward. */
  predicate PositiveShifts(table: map<char, int>) {
    forall c :: c in table ==> table[c] >= 1
  }

  /**
   * No shift jumps over a possible match: no shift exceeds the pattern
   * length, and if c occurs at position j of the pattern before its last
   * position, the shift for c is at most the distance from j to the last
   * position.
   */
  predicate SafeShifts(pattern: string, table: map<char, int>)
    requires |pattern| >= 1
  {
    (forall c :: c in table ==> table[c] <= |pattern|) &&
    (forall j :: 0 <= j < |pattern| - 1 ==> ShiftFor(table, pattern[j], |pattern|) <= |pattern| - 1 - j)
  }

  /** The last index below k at which c occurs in s, if any. */
  function LastBefore(s: string, c: char, k: nat): (r: Option<nat>)
    requires k <= |s|
    ensures r.Some? ==> r.value < k && s[r.value] == c &&
                        forall j :: r.value < j < k ==> s[j] != c
    ensures r.None? ==> forall j :: 0 <= j < k ==> s[j] != c
  {
    if k == 0 then None
    else if s[k - 1] == c then Some(k - 1)
    else LastBefore(s, c, k - 1)
  }

  /**
   * The table the source builds: for each character of the pattern but
   * the last, the distance from its last such occurrence to the end; then
   * the last character's entry is set to the full pattern length.
   */
  function AsWrittenTable(pattern: string): (t: map<char, int>)
    requires |pattern| >= 1
    ensures forall c :: c in t <==> c in pattern
    ensures PositiveShifts(t)
    ensures t[pattern[|pattern| - 1]] == |pattern|
  {
    var m := |pattern|;
    map c | c in pattern :: if c == pattern[m - 1] then m else m - 1 - LastBefore(pattern, c, m - 1).value
  }

  /**
   * The loop both tables share: each character of the pattern but the last
   * gets the distance from its last occurrence before the last position to
   * that position.
   */
  method FillTable(pattern: string) returns (table: map<char, int>)
    requires |pattern| >= 1
    ensures forall c :: c in table <==> c in pattern[..|pattern| - 1]
    ensures forall c :: c in table ==> LastBefore(pattern, c, |pattern| - 1).Some? &&
                                        table[c] == |pattern| - 1 - LastBefore(pattern, c, |pattern| - 1).value
  {
    var m := |pattern|;
    table := map[];
    var i := 0;
    while i < m - 1
      invariant 0 <= i <= m - 1
      invariant forall c :: c in table <==> c in pattern[..i]
      invariant forall c :: c in table ==> LastBefore(pattern, c, i).Some? &&
                                            table[c] == m - 1 - LastBefore(pattern, c, i).value
    {
      table := table[pattern[i] := m - 1 - i];
      i := i + 1;
    }
  }

  /**
   * Builds the shift table, failing on an empty pattern.
   */
  method BuildShiftTable(pattern: string) returns (r: Result<map<char, int>>)
    ensures |pattern| == 0 <==> r.Failure?
    ensures r.Success? ==> r.value == AsWrittenTable(pattern)
  {
    var m := |pattern|;
    if m == 0 {
      return Failure("Pattern cannot be empty");
    }
    var table := FillTable(pattern);
    table := table[pattern[m - 1] := m];
    assert pattern[..m - 1] + [pattern[m - 1]] == pattern;
    return Success(table);
  }

  /**
   * Horspool's table: only the characters before the last position have
   * entries, so the last character keeps the distance of its previous
   * occurrence when it has one.
   */
  function CorrectedTable(pattern: string): (t: map<char, int>)
    requires |pattern| >= 1
    ensures PositiveShifts(t)
    ensures SafeShifts(pattern, t)
  {
    var m := |pattern|;
    var body := pattern[..m - 1];
    map c | c in body :: m - 1 - LastBefore(pattern, c, m - 1).value
  }

  /** Builds Horspool's table with a loop over all but the last character. */
  method BuildCorrectedShiftTable(pattern: string) returns (r: Result<map<char, int>>)
    ensures |pattern| == 0 <==> r.Failure?
    ensures r.Success? ==> r.value == CorrectedTable(pattern)
  {
    var m := |pattern|;
    if m == 0 {
      return Failure("Pattern cannot be empty");
    }
    var table := FillTable(pattern);
    return Success(table);
  }

  /**
   * The positions the search reports, starting from window i: a matching
   * window is reported and the window moves by one; otherwise it moves by
   * the shift of the text character under the window's last position.
   */
  function Scan(text: string, pattern: string, table: map<char, int>, i: nat): seq<int>
    requires |pattern| >= 1 && PositiveShifts(table)
    decreases |text| - i
  {
    var m := |pattern|;
    if i + m > |text| then []
    else if MatchAt(text, pattern, i) then [i] + Scan(text, pattern, table, i + 1)
    else Scan(text, pattern, table, i + ShiftFor(table, text[i + m - 1], m))
  }

  /** The search loop's invariant: what is reported so far, then the scan from i, is the whole scan. */
  ghost predicate StillToReport(text: string, pattern: string, table: map<char, int>, occurrences: seq<int>, i: nat)
    requires |pattern| >= 1 && PositiveShifts(table)
  {
    occurrences + Scan(text, pattern, table, i) == Scan(text, pattern, table, 0)
  }

  /** Once the window is past the end, everything has been reported. */
  lemma ScanDone(text: string, pattern: string, table: map<char, int>, occurrences: seq<int>, i: nat)
    requires |pattern| >= 1 && PositiveShifts(table) && i + |pattern| > |text|
    requires StillToReport(text, pattern, table, occurrences, i)
    ensures occurrences == Scan(text, pattern, table, 0)
  {
    assert Scan(text, pattern, table, i) == [];
    assert occurrences + [] == occurrences;
  }

  /** A matching window: reporting it and moving by one keeps the positions still to report. */
  lemma ReportStep(text: string, pattern: string, table: map<char, int>, occurrences: seq<int>, i: nat)
    requires |pattern| >= 1 && PositiveShifts(table) && MatchAt(text, pattern, i)
    requires StillToReport(text, pattern, table, occurrences, i)
    ensures StillToReport(text, pattern, table, occurrences + [i], i + 1)
  {
    var rest := Scan(text, pattern, table, i + 1);
    assert Scan(text, pattern, table, i) == [i] + rest;
    assert occurrences + [i] + rest == occurrences + ([i] + rest);
  }

  /** A window that does not match: moving by its shift keeps the positions still to report. */
  lemma ShiftStep(text: string, pattern: string, table: map<char, int>, occurrences: seq<int>, i: nat)
    requires |pattern| >= 1 && PositiveShifts(table) && i + |pattern| <= |text| && !MatchAt(text, pattern, i)
    requires StillToReport(text, pattern, table, occurrences, i)
    ensures StillToReport(text, pattern, table, occurrences, i + ShiftFor(table, text[i + |pattern| - 1], |pattern|))
  {
  }

  /** Whatever the table, every reported position is a match at or after i. */
  lemma {:induction false} ScanSound(text: string, pattern: string, table: map<char, int>, i: nat)
    requires |pattern| >= 1 && PositiveShifts(table)
    ensures forall k :: 0 <= k < |Scan(text, pattern, table, i)| ==>
              Scan(text, pattern, table, i)[k] >= i && MatchAt(text, pattern, Scan(text, pattern, table, i)[k])
    decreases |text| - i
  {
    var m := |pattern|;
    if i + m > |text| {
    } else if MatchAt(text, pattern, i) {
      ScanSound(text, pattern, table, i + 1);
    } else {
      ScanSound(text, pattern, table, i + ShiftFor(table, text[i + m - 1], m));
    }
  }

  /** Whatever the table, the reported positions are strictly increasing. */
  lemma {:induction false} ScanIncreasing(text: string, pattern: string, table: map<char, int>, i: nat)
    requires |pattern| >= 1 && PositiveShifts(table)
    ensures forall k, l :: 0 <= k < l < |Scan(text, pattern, table, i)| ==>
              Scan(text, pattern, table, i)[k] < Scan(text, pattern, table, i)[l]
    decreases |text| - i
  {
    var m := |pattern|;
    if i + m > |text| {
    } else if MatchAt(text, pattern, i) {
      ScanSound(text, pattern, table, i + 1);
      ScanIncreasing(text, pattern, table, i + 1);
    } else {
      ScanIncreasing(text, pattern, table, i + ShiftFor(table, text[i + m - 1], m));
    }
  }

  /** A window that does not match and is shifted by a safe table skips no match. */
  lemma SkipIsSafe(text: string, pattern: string, table: map<char, int>, i: nat, k: nat)
    requires |pattern| >= 1 && SafeShifts(pattern, table)
    requires i + |pattern| <= |text|
    requires i < k < i + ShiftFor(table, text[i + |pattern| - 1], |pattern|)
    ensures !MatchAt(text, pattern, k)
  {
    var m := |pattern|;
    var c := text[i + m - 1];
    assert ShiftFor(table, c, m) <= m;
    var j := i + m - 1 - k;
    assert 0 <= j < m - 1;
    assert ShiftFor(table, pattern[j], m) <= k - i < ShiftFor(table, c, m);
    assert text[k + j] != pattern[j];
  }

  /** With a safe table every match at or after i is reported. */
  lemma {:induction false} ScanComplete(text: string, pattern: string, table: map<char, int>, i: nat, k: nat)
    requires |pattern| >= 1 && PositiveShifts(table) && SafeShifts(pattern, table)
    requires k >= i && MatchAt(text, pattern, k)
    ensures k in Scan(text, pattern, table, i)
    decreases |text| - i
  {
    var m := |pattern|;
    if k == i {
    } else if MatchAt(text, pattern, i) {
      ScanComplete(text, pattern, table, i + 1, k);
    } else {
      var s := ShiftFor(table, text[i + m - 1], m);
      if k < i + s {
        SkipIsSafe(text, pattern, table, i, k);
      } else {
        ScanComplete(text, pattern, table, i + s, k);
      }
    }
  }

  /** Compares the window at i with the pattern from its last character backwards. */
  method MatchesFromRight(text: string, pattern: string, i: nat) returns (matched: bool)
    requires i + |pattern| <= |text|
    ensures matched == MatchAt(text, pattern, i)
  {
    var m := |pattern|;
    var j := m - 1;
    while j >= 0 && text[i + j] == pattern[j]
      invariant -1 <= j <= m - 1
      invariant forall t :: j < t < m ==> text[i + t] == pattern[t]
    {
      j := j - 1;
    }
    if j >= 0 {
      assert text[i..i + m][j] != pattern[j];
    } else {
      assert text[i..i + m] == pattern;
    }
    matched := j < 0;
  }

  /**
   * The search loop: compares the window right to left, reports a match
   * and moves by one, or moves by the table's shift.
   */
  method Search(text: string, pattern: string, table: map<char, int>) returns (occurrences: seq<int>)
    requires 1 <= |pattern| <= |text| && PositiveShifts(table)
    ensures occurrences == Scan(text, pattern, table, 0)
  {
    var n, m := |text|, |pattern|;
    occurrences := [];
    var i := 0;
    while i <= n - m
      invariant 0 <= i
      invariant StillToReport(text, pattern, table, occurrences, i)
      decreases n - i
    {
      var matched := MatchesFromRight(text, pattern, i);
      if matched {
        ReportStep(text, pattern, table, occurrences, i);
        occurrences := occurrences + [i];
        i := i + 1;
      } else {
        var shift := m;
        if text[i + m - 1] in table {
          shift := table[text[i + m - 1]];
        }
        ShiftStep(text, pattern, table, occurrences, i);
        i := i + shift;
      }
    }
    ScanDone(text, pattern, table, occurrences, i);
  }

  /** The search as written: fails on bad lengths, reports only matches, in increasing order. */
  method SearchAll(text: string, pattern: string) returns (r: Result<seq<int>>)
    ensures r.Failure? <==> |pattern| == 0 || |text| == 0 || |pattern| > |text|
    ensures r.Success? ==> r.value == Scan(text, pattern, AsWrittenTable(pattern), 0)
    ensures r.Success? ==> forall k :: 0 <= k < |r.value| ==> MatchAt(text, pattern, r.value[k])
    ensures r.Success? ==> forall k, l :: 0 <= k < l < |r.value| ==> r.value[k] < r.value[l]
  {
    if |pattern| == 0 {
      return Failure("Pattern is empty");
    }
    if |text| == 0 {
      return Failure("Text is empty");
    }
    if |pattern| > |text| {
      return Failure("Pattern length longer than text length");
    }
    var table := BuildShiftTable(pattern);
    var occurrences := Search(text, pattern, table.value);
    ScanSound(text, pattern, table.value, 0);
    ScanIncreasing(text, pattern, table.value, 0);
    return Success(occurrences);
  }

  /**
   * The table as written is unsafe: in "ccaba" the window at 0 ends in
   * 'a', which the table shifts by 3, jumping over the match at 2.
   */
  lemma AsWrittenMissesMatch()
    ensures MatchAt("ccaba", "aba", 2)
    ensures Scan("ccaba", "aba", AsWrittenTable("aba"), 0) == []
    ensures !SafeShifts("aba", AsWrittenTable("aba"))
  {
    var t := AsWrittenTable("aba");
    assert t['a'] == 3;
    assert "ccaba"[2..5] == "aba";
    assert !MatchAt("ccaba", "aba", 0) by { assert "ccaba"[0..3][0] != "aba"[0]; }
    assert Scan("ccaba", "aba", t, 3) == [];
  }

  /** The search with Horspool's table: exactly the match positions, in increasing order. */
  method SearchAllCorrected(text: string, pattern: string) returns (r: Result<seq<int>>)
    ensures r.Failure? <==> |pattern| == 0 || |text| == 0 || |pattern| > |text|
    ensures r.Success? ==> forall k :: k in r.value <==> MatchAt(text, pattern, k)
    ensures r.Success? ==> forall k, l :: 0 <= k < l < |r.value| ==> r.value[k] < r.value[l]
  {
    if |pattern| == 0 {
      return Failure("Pattern is empty");
    }
    if |text| == 0 {
      return Failure("Text is empty");
    }
    if |pattern| > |text| {
      return Failure("Pattern length longer than text length");
    }
    var table := BuildCorrectedShiftTable(pattern);
    var occurrences := Search(text, pattern, table.value);
    ScanSound(text, pattern, table.value, 0);
    ScanIncreasing(text, pattern, table.value, 0);
    forall k | MatchAt(text, pattern, k)
      ensures k in occurrences
    {
      ScanComplete(text, pattern, table.value, 0, k);
    }
    return Success(occurrences);
  }
}

=== FILE: matrix.dfy ===
/**
 * Dense real matrices stored row-major in one vector (ArtamonovEA/matrix.cpp):
 * checked indexing, element-wise and matrix arithmetic, equality,
 * transpose, and the square-matrix operations identity (which fills every
 * entry with one), minor, determinant by expansion along the first row,
 * and integer powers.  Doubles are modelled as reals.
 */
module Matrices {
  import opened Wrappers

  /** The value of a rows-by-cols matrix, row by row. */
  datatype Mat = Mat(rows: nat, cols: nat, entries: seq<seq<real>>)

  predicate WellFormed(m: Mat) {
    |m.entries| == m.rows && forall r :: 0 <= r < m.rows ==> |m.entries[r]| == m.cols
  }

  predicate SameShape(a: Mat, b: Mat) {
    a.rows == b.rows && a.cols == b.cols
  }

  /** Entry (r, c); zero outside the matrix. */
  function At(m: Mat, r: int, c: int): real {
    if 0 <= r < |m.entries| && 0 <= c < |m.entries[r]| then m.entries[r][c] else 0.0
  }

  /** The rows-by-cols matrix whose entry (r, c) is f(r, c). */
  function Build(rows: nat, cols: nat, f: (nat, nat) -> real): (m: Mat)
    ensures WellFormed(m) && m.rows == rows && m.cols == cols
    ensures forall r, c :: 0 <= r < rows && 0 <= c < cols ==> At(m, r, c) == f(r, c)
  {
    Mat(rows, cols, seq(rows, r requires 0 <= r => seq(cols, c requires 0 <= c => f(r, c))))
  }

  /** Matrices of the same shape with the same entries are equal. */
  lemma Extensional(a: Mat, b: Mat)
    requires WellFormed(a) && WellFormed(b) && SameShape(a, b)
    requires forall r, c :: 0 <= r < a.rows && 0 <= c < a.cols ==> At(a, r, c) == At(b, r, c)
    ensures a == b
  {
    forall r | 0 <= r < a.rows
      ensures a.entries[r] == b.entries[r]
    {
      forall c | 0 <= c < a.cols
        ensures a.entries[r][c] == b.entries[r][c]
      {
        assert At(a, r, c) == At(b, r, c);
      }
    }
  }

  // Row-major storage: entry (r, c) of a rows-by-cols matrix sits at r * cols + c.

  lemma MulMono(a: nat, b: nat, c: nat)
    requires a <= b
    ensures a * c <= b * c
  {
    var d := b - a;
    assert b * c == a * c + d * c;
  }

  lemma RowFits(r: nat, rows: nat, cols: nat)
    requires r < rows
    ensures r * cols + cols <= rows * cols
  {
    MulMono(r + 1, rows, cols);
  }

  /** Different cells have different indices. */
  lemma IndexUnique(r1: nat, c1: nat, r2: nat, c2: nat, cols: nat)
    requires c1 < cols && c2 < cols && r1 * cols + c1 == r2 * cols + c2
    ensures r1 == r2 && c1 == c2
  {
    if r1 < r2 {
      MulMono(r1 + 1, r2, cols);
    } else if r2 < r1 {
      MulMono(r2 + 1, r1, cols);
    }
  }

  /** Every index below rows * cols is the index of a cell. */
  lemma IndexCell(k: nat, rows: nat, cols: nat)
    requires k < rows * cols
    ensures cols > 0 && k / cols < rows && k % cols < cols && k == (k / cols) * cols + k % cols
  {
    var r := k / cols;
    if r >= rows {
      MulMono(rows, r, cols);
    }
  }

  /** The matrix whose row-major storage is data. */
  function FromFlat(rows: nat, cols: nat, data: seq<real>): (m: Mat)
    requires |data| == rows * cols
    ensures WellFormed(m) && m.rows == rows && m.cols == cols
  {
    Mat(rows, cols, seq(rows, r requires 0 <= r < rows => RowFits(r, rows, cols); Slice(data, r * cols, cols)))
  }

  function Slice(data: seq<real>, start: nat, len: nat): (s: seq<real>)
    requires start + len <= |data|
    ensures |s| == len && forall i :: 0 <= i < len ==> s[i] == data[start + i]
  {
    data[start .. start + len]
  }

  lemma FlatEntry(rows: nat, cols: nat, data: seq<real>, r: nat, c: nat)
    requires |data| == rows * cols && r < rows && c < cols
    ensures 0 <= r * cols + c < |data| && At(FromFlat(rows, cols, data), r, c) == data[r * cols + c]
  {
    RowFits(r, rows, cols);
    assert FromFlat(rows, cols, data).entries[r] == Slice(data, r * cols, cols);
  }

  /** Two storages describe the same matrix only if they are the same. */
  lemma FromFlatInjective(rows: nat, cols: nat, d1: seq<real>, d2: seq<real>)
    requires |d1| == rows * cols && |d2| == rows * cols
    ensures FromFlat(rows, cols, d1) == FromFlat(rows, cols, d2) <==> d1 == d2
  {
    if FromFlat(rows, cols, d1) == FromFlat(rows, cols, d2) {
      forall k | 0 <= k < |d1|
        ensures d1[k] == d2[k]
      {
        IndexCell(k, rows, cols);
        FlatEntry(rows, cols, d1, k / cols, k % cols);
        FlatEntry(rows, cols, d2, k / cols, k % cols);
      }
    }
  }

  // Element-wise operations.

  /** The matrix whose entries are op applied to the matching entries of a and b. */
  function Pointwise(a: Mat, b: Mat, op: (real, real) -> real): (m: Mat)
    ensures WellFormed(m) && SameShape(m, a)
    ensures forall r, c :: 0 <= r < a.rows && 0 <= c < a.cols ==> At(m, r, c) == op(At(a, r, c), At(b, r, c))
  {
    Build(a.rows, a.cols, (r, c) => op(At(a, r, c), At(b, r, c)))
  }

  /** The matrix whose entries are f applied to the entries of a. */
  function Map(a: Mat, f: real -> real): (m: Mat)
    ensures WellFormed(m) && SameShape(m, a)
    ensures forall r, c :: 0 <= r < a.rows && 0 <= c < a.cols ==> At(m, r, c) == f(At(a, r, c))
  {
    Build(a.rows, a.cols, (r, c) => f(At(a, r, c)))
  }

  /** Storage filled index by index with op of two storages holds their Pointwise matrix. */
  lemma FlatPointwise(rows: nat, cols: nat, x: seq<real>, a: seq<real>, b: seq<real>, op: (real, real) -> real)
    requires |x| == rows * cols && |a| == rows * cols && |b| == rows * cols
    requires forall k :: 0 <= k < |x| ==> x[k] == op(a[k], b[k])
    ensures FromFlat(rows, cols, x) == Pointwise(FromFlat(rows, cols, a), FromFlat(rows, cols, b), op)
  {
    var m, ma, mb := FromFlat(rows, cols, x), FromFlat(rows, cols, a), FromFlat(rows, cols, b);
    forall r, c | 0 <= r < rows && 0 <= c < cols
      ensures At(m, r, c) == At(Pointwise(ma, mb, op), r, c)
    {
      FlatEntry(rows, cols, x, r, c);
      FlatEntry(rows, cols, a, r, c);
      FlatEntry(rows, cols, b, r, c);
    }
    Extensional(m, Pointwise(ma, mb, op));
  }

  /** Storage filled index by index with f of another storage holds its Map matrix. */
  lemma FlatMap(rows: nat, cols: nat, x: seq<real>, a: seq<real>, f: real -> real)
    requires |x| == rows * cols && |a| == rows * cols
    requires forall k :: 0 <= k < |x| ==> x[k] == f(a[k])
    ensures FromFlat(rows, cols, x) == Map(FromFlat(rows, cols, a), f)
  {
    var m, ma := FromFlat(rows, cols, x), FromFlat(rows, cols, a);
    forall r, c | 0 <= r < rows && 0 <= c < cols
      ensures At(m, r, c) == At(Map(ma, f), r, c)
    {
      FlatEntry(rows, cols, x, r, c);
      FlatEntry(rows, cols, a, r, c);
    }
    Extensional(m, Map(ma, f));
  }

  function Plus(x: real, y: real): real { x + y }
  function Minus(x: real, y: real): real { x - y }

  function MatAdd(a: Mat, b: Mat): Mat { Pointwise(a, b, Plus) }
  function MatSub(a: Mat, b: Mat): Mat { Pointwise(a, b, Minus) }
  function MatAddScalar(a: Mat, s: real): Mat { Map(a, x => x + s) }
  function MatSubScalar(a: Mat, s: real): Mat { Map(a, x => x - s) }
  function MatMulScalar(a: Mat, s: real): Mat { Map(a, x => x * s) }

  function MatDivScalar(a: Mat, s: real): Mat
    requires s != 0.0
  {
    Map(a, x => x / s)
  }

  /** Subtracting b undoes adding b. */
  lemma AddSubInverse(a: Mat, b: Mat)
    requires WellFormed(a) && SameShape(a, b)
    ensures MatSub(MatAdd(a, b), b) == a
  {
    Extensional(MatSub(MatAdd(a, b), b), a);
  }

  lemma AddCommutes(a: Mat, b: Mat)
    requires SameShape(a, b)
    ensures MatAdd(a, b) == MatAdd(b, a)
  {
    Extensional(MatAdd(a, b), MatAdd(b, a));
  }

  /** Scalar subtraction undoes scalar addition, and division by a non-zero scalar undoes multiplication. */
  lemma ScalarInverses(a: Mat, s: real)
    requires WellFormed(a)
    ensures MatSubScalar(MatAddScalar(a, s), s) == a
    ensures s != 0.0 ==> MatDivScalar(MatMulScalar(a, s), s) == a
  {
    Extensional(MatSubScalar(MatAddScalar(a, s), s), a);
    if s != 0.0 {
      Extensional(MatDivScalar(MatMulScalar(a, s), s), a);
    }
  }

  // Transpose and product.

  function Transposed(m: Mat): (t: Mat)
    ensures WellFormed(t) && t.rows == m.cols && t.cols == m.rows
    ensures forall r, c :: 0 <= r < t.rows && 0 <= c < t.cols ==> At(t, r, c) == At(m, c, r)
  {
    Build(m.cols, m.rows, (r, c) => At(m, c, r))
  }

  lemma TransposeInvolution(m: Mat)
    requires WellFormed(m)
    ensures Transposed(Transposed(m)) == m
  {
    Extensional(Transposed(Transposed(m)), m);
  }

  /** Row r of a times column c of b over the first n terms, summed in index order. */
  function Dot(a: Mat, b: Mat, r: int, c: int, n: nat): real {
    if n == 0 then 0.0 else Dot(a, b, r, c, n - 1) + At(a, r, n - 1) * At(b, n - 1, c)
  }

  lemma DotStep(a: Mat, b: Mat, r: int, c: int, n: nat, x: real, y: real)
    requires At(a, r, n) == x && At(b, n, c) == y
    ensures Dot(a, b, r, c, n + 1) == Dot(a, b, r, c, n) + x * y
  {
  }

  function MatMul(a: Mat, b: Mat): (p: Mat)
    ensures WellFormed(p) && p.rows == a.rows && p.cols == b.cols
    ensures forall r, c :: 0 <= r < a.rows && 0 <= c < b.cols ==> At(p, r, c) == Dot(a, b, r, c, a.cols)
  {
    Build(a.rows, b.cols, (r, c) => Dot(a, b, r, c, a.cols))
  }

  lemma {:induction false} DotTransposed(a: Mat, b: Mat, r: nat, c: nat, n: nat)
    requires a.cols == b.rows && n <= a.cols && r < a.rows && c < b.cols
    ensures Dot(a, b, r, c, n) == Dot(Transposed(b), Transposed(a), c, r, n)
  {
    if n > 0 {
      DotTransposed(a, b, r, c, n - 1);
      var x, y := At(a, r, n - 1), At(b, n - 1, c);
      assert At(Transposed(b), c, n - 1) == y;
      assert At(Transposed(a), n - 1, r) == x;
      assert x * y == y * x;
    }
  }

  /** (A B)^T = B^T A^T. */
  lemma TransposeOfProduct(a: Mat, b: Mat)
    requires a.cols == b.rows
    ensures Transposed(MatMul(a, b)) == MatMul(Transposed(b), Transposed(a))
  {
    var lhs := Transposed(MatMul(a, b));
    var rhs := MatMul(Transposed(b), Transposed(a));
    forall r, c | 0 <= r < lhs.rows && 0 <= c < lhs.cols
      ensures At(lhs, r, c) == At(rhs, r, c)
    {
      DotTransposed(a, b, c, r, a.cols);
    }
    Extensional(lhs, rhs);
  }

  /** The sum over l < q of a[r][l] times the first p terms of row l of b times column col of c. */
  function NestedDot(a: Mat, b: Mat, c: Mat, r: int, col: int, q: nat, p: nat): real {
    if q == 0 then 0.0 else NestedDot(a, b, c, r, col, q - 1, p) + At(a, r, q - 1) * Dot(b, c, q - 1, col, p)
  }

  /** Adding one more column term to every inner sum adds one term of (a b) c. */
  lemma {:induction false} NestedDotStep(a: Mat, b: Mat, c: Mat, r: int, col: int, q: nat, p: nat)
    requires p >= 1
    ensures NestedDot(a, b, c, r, col, q, p)
         == NestedDot(a, b, c, r, col, q, p - 1) + Dot(a, b, r, p - 1, q) * At(c, p - 1, col)
  {
    if q > 0 {
      NestedDotStep(a, b, c, r, col, q - 1, p);
      var x, y, z := At(a, r, q - 1), At(b, q - 1, p - 1), At(c, p - 1, col);
      var d := Dot(b, c, q - 1, col, p - 1);
      assert Dot(b, c, q - 1, col, p) == d + y * z;
      assert x * (d + y * z) == x * d + (x * y) * z;
      assert Dot(a, b, r, p - 1, q) * z == Dot(a, b, r, p - 1, q - 1) * z + (x * y) * z;
    }
  }

  lemma {:induction false} NestedDotEmpty(a: Mat, b: Mat, c: Mat, r: int, col: int, q: nat)
    ensures NestedDot(a, b, c, r, col, q, 0) == 0.0
  {
    if q > 0 {
      NestedDotEmpty(a, b, c, r, col, q - 1);
    }
  }

  lemma {:induction false} DotOfProduct(a: Mat, b: Mat, c: Mat, r: int, col: int, p: nat)
    ensures Dot(MatMul(a, b), c, r, col, p) == NestedDot(a, b, c, r, col, a.cols, p)
    requires 0 <= r < a.rows && p <= b.cols
  {
    if p > 0 {
      DotOfProduct(a, b, c, r, col, p - 1);
      NestedDotStep(a, b, c, r, col, a.cols, p);
      var e, z := At(MatMul(a, b), r, p - 1), At(c, p - 1, col);
      assert e == Dot(a, b, r, p - 1, a.cols);
      assert Dot(MatMul(a, b), c, r, col, p) == Dot(MatMul(a, b), c, r, col, p - 1) + e * z;
    } else {
      NestedDotEmpty(a, b, c, r, col, a.cols);
    }
  }

  lemma {:induction false} NestedDotIsDot(a: Mat, b: Mat, c: Mat, r: int, col: int, q: nat)
    requires q <= b.rows && 0 <= col < c.cols
    ensures NestedDot(a, b, c, r, col, q, b.cols) == Dot(a, MatMul(b, c), r, col, q)
  {
    if q > 0 {
      NestedDotIsDot(a, b, c, r, col, q - 1);
    }
  }

  /** (A B) C = A (B C). */
  lemma MulAssoc(a: Mat, b: Mat, c: Mat)
    requires a.cols == b.rows && b.cols == c.rows
    ensures MatMul(MatMul(a, b), c) == MatMul(a, MatMul(b, c))
  {
    var lhs, rhs := MatMul(MatMul(a, b), c), MatMul(a, MatMul(b, c));
    forall r, col | 0 <= r < lhs.rows && 0 <= col < lhs.cols
      ensures At(lhs, r, col) == At(rhs, r, col)
    {
      DotOfProduct(a, b, c, r, col, b.cols);
      NestedDotIsDot(a, b, c, r, col, a.cols);
    }
    Extensional(lhs, rhs);
  }

  // Square matrices.

  /** What identity builds: the n-by-n matrix with every entry one. */
  function Ones(n: nat): (m: Mat)
    ensures WellFormed(m) && m.rows == n && m.cols == n
    ensures forall r, c :: 0 <= r < n && 0 <= c < n ==> At(m, r, c) == 1.0
  {
    Build(n, n, (r, c) => 1.0)
  }

  /** Index in the original of index i of what is left after dropping index e. */
  function Skip(i: nat, e: nat): (k: nat)
    ensures k != e && (k < e <==> i < e)
  {
    if i < e then i else i + 1
  }

  /** m without row i and column j; an (n-1)-by-(n-1) matrix. */
  function MinorOf(m: Mat, i: nat, j: nat): (s: Mat)
    requires m.rows >= 1 && m.cols >= 1
    ensures WellFormed(s) && s.rows == m.rows - 1 && s.cols == m.cols - 1
    ensures forall r, c :: 0 <= r < s.rows && 0 <= c < s.cols ==> At(s, r, c) == At(m, Skip(r, i), Skip(c, j))
  {
    Build(m.rows - 1, m.cols - 1, (r: nat, c: nat) => At(m, Skip(r, i), Skip(c, j)))
  }

  /** Taking a minor commutes with transposing. */
  lemma MinorOfTransposed(m: Mat, i: nat, j: nat)
    requires m.rows >= 1 && m.cols >= 1
    ensures MinorOf(Transposed(m), j, i) == Transposed(MinorOf(m, i, j))
  {
    Extensional(MinorOf(Transposed(m), j, i), Transposed(MinorOf(m, i, j)));
  }

  predicate IsSquare(m: Mat) {
    WellFormed(m) && m.rows == m.cols
  }

  function Sign(k: nat): real {
    if k % 2 == 0 then 1.0 else -1.0
  }

  /**
   * The determinant as the source computes it: the entry itself for 1-by-1,
   * ad - bc for 2-by-2, and expansion along the first row otherwise.
   */
  function Det(m: Mat): real
    requires IsSquare(m) && m.rows >= 1
    decreases m.rows, 1
  {
    if m.rows == 1 then At(m, 0, 0)
    else if m.rows == 2 then At(m, 0, 0) * At(m, 1, 1) - At(m, 0, 1) * At(m, 1, 0)
    else Laplace(m, m.cols)
  }

  /** The first n terms of the expansion of Det(m) along row 0. */
  function Laplace(m: Mat, n: nat): real
    requires IsSquare(m) && m.rows >= 2 && n <= m.cols
    decreases m.rows, 0, n
  {
    if n == 0 then 0.0 else Laplace(m, n - 1) + Term(m, n - 1)
  }

  /** Term n of that expansion: the signed entry (0, n) times the determinant of its minor. */
  function Term(m: Mat, n: nat): real
    requires IsSquare(m) && m.rows >= 2 && n < m.cols
    decreases m.rows, 0, 0
  {
    Sign(n) * At(m, 0, n) * Det(MinorOf(m, 0, n))
  }

  lemma TermOf(m: Mat, n: nat, x: real, d: real)
    requires IsSquare(m) && m.rows >= 2 && n < m.cols
    requires At(m, 0, n) == x && Det(MinorOf(m, 0, n)) == d
    ensures Term(m, n) == Sign(n) * x * d
  {
  }

  /** The 2-by-2 shortcut agrees with expansion along the first row. */
  lemma DetTwoByTwo(m: Mat)
    requires IsSquare(m) && m.rows == 2
    ensures Det(m) == Laplace(m, 2)
  {
    var m0, m1 := MinorOf(m, 0, 0), MinorOf(m, 0, 1);
    assert Det(m0) == At(m, 1, 1);
    assert Det(m1) == At(m, 1, 0);
    assert Laplace(m, 1) == At(m, 0, 0) * At(m, 1, 1);
    assert Laplace(m, 2) == Laplace(m, 1) - At(m, 0, 1) * At(m, 1, 0);
  }

  /** A matrix whose first row is zero has determinant zero. */
  lemma DetZeroFirstRow(m: Mat)
    requires IsSquare(m) && m.rows >= 1
    requires forall c :: 0 <= c < m.cols ==> At(m, 0, c) == 0.0
    ensures Det(m) == 0.0
  {
    if m.rows > 2 {
      LaplaceZeroFirstRow(m, m.cols);
    }
  }

  lemma {:induction false} LaplaceZeroFirstRow(m: Mat, n: nat)
    requires IsSquare(m) && m.rows >= 2 && n <= m.cols
    requires forall c :: 0 <= c < m.cols ==> At(m, 0, c) == 0.0
    ensures Laplace(m, n) == 0.0
  {
    if n > 0 {
      LaplaceZeroFirstRow(m, n - 1);
      assert At(m, 0, n - 1) == 0.0;
    }
  }

  /** m raised to power k as pow computes it: all ones for 0, else repeated right multiplication by m. */
  function MatPow(m: Mat, k: nat): (p: Mat)
    requires IsSquare(m)
    ensures IsSquare(p) && p.rows == m.rows
  {
    if k == 0 then Ones(m.rows)
    else if k == 1 then m
    else MatMul(MatPow(m, k - 1), m)
  }

  lemma PowSucc(m: Mat, k: nat)
    requires IsSquare(m) && k >= 1
    ensures MatPow(m, k + 1) == MatMul(MatPow(m, k), m)
  {
  }

  /** Powers add: m^(j+k) = m^j m^k for positive exponents. */
  lemma {:induction false} PowAdd(m: Mat, j: nat, k: nat)
    requires IsSquare(m) && j >= 1 && k >= 1
    ensures MatPow(m, j + k) == MatMul(MatPow(m, j), MatPow(m, k))
  {
    if k == 1 {
    } else {
      PowAdd(m, j, k - 1);
      MulAssoc(MatPow(m, j), MatPow(m, k - 1), m);
    }
  }

  // Storage-level facts used by the methods.

  function Zeros(rows: nat, cols: nat): (m: Mat)
    ensures WellFormed(m) && m.rows == rows && m.cols == cols
    ensures forall r, c :: 0 <= r < rows && 0 <= c < cols ==> At(m, r, c) == 0.0
  {
    Build(rows, cols, (r, c) => 0.0)
  }

  /** Storage holding v everywhere describes the matrix with every entry v. */
  lemma FlatConst(rows: nat, cols: nat, d: seq<real>, v: real)
    requires |d| == rows * cols && forall k :: 0 <= k < |d| ==> d[k] == v
    ensures FromFlat(rows, cols, d) == Build(rows, cols, (r, c) => v)
  {
    forall r, c | 0 <= r < rows && 0 <= c < cols
      ensures At(FromFlat(rows, cols, d), r, c) == v
    {
      FlatEntry(rows, cols, d, r, c);
    }
    Extensional(FromFlat(rows, cols, d), Build(rows, cols, (r, c) => v));
  }

  /** Writing index row * cols + col changes entry (row, col) and no other. */
  lemma FlatUpdate(rows: nat, cols: nat, d: seq<real>, row: nat, col: nat, v: real)
    requires |d| == rows * cols && row < rows && col < cols
    ensures 0 <= row * cols + col < |d|
    ensures forall r, c :: 0 <= r < rows && 0 <= c < cols ==>
      At(FromFlat(rows, cols, d[row * cols + col := v]), r, c) == if r == row && c == col then v else At(FromFlat(rows, cols, d), r, c)
  {
    FlatEntry(rows, cols, d, row, col);
    var d' := d[row * cols + col := v];
    forall r, c | 0 <= r < rows && 0 <= c < cols
      ensures At(FromFlat(rows, cols, d'), r, c) == if r == row && c == col then v else At(FromFlat(rows, cols, d), r, c)
    {
      FlatEntry(rows, cols, d, r, c);
      FlatEntry(rows, cols, d', r, c);
      if r * cols + c == row * cols + col {
        IndexUnique(r, c, row, col, cols);
      }
    }
  }

  /** Entries (r, c) with r < row, or r == row and c < col, of p are those of the product a b. */
  ghost predicate ProductDone(p: Mat, a: Mat, b: Mat, row: nat, col: nat) {
    forall r, c :: 0 <= r < a.rows && 0 <= c < b.cols && (r < row || (r == row && c < col)) ==>
      At(p, r, c) == Dot(a, b, r, c, a.cols)
  }

  /** Entries (r, c) with r < row, or r == row and c < col, of m are in place in t as (c, r). */
  ghost predicate TransposeDone(t: Mat, m: Mat, row: nat, col: nat) {
    forall r, c :: 0 <= r < m.rows && 0 <= c < m.cols && (r < row || (r == row && c < col)) ==>
      At(t, c, r) == At(m, r, c)
  }

  /** Copying entry (row, col) of the storage d into place (col, row) of td extends TransposeDone by one. */
  lemma TransposeStep(rows: nat, cols: nat, d: seq<real>, td: seq<real>, row: nat, col: nat)
    requires |d| == rows * cols && |td| == cols * rows && row < rows && col < cols
    requires TransposeDone(FromFlat(cols, rows, td), FromFlat(rows, cols, d), row, col)
    ensures 0 <= row * cols + col < |d| && 0 <= col * rows + row < |td|
    ensures TransposeDone(FromFlat(cols, rows, td[col * rows + row := d[row * cols + col]]), FromFlat(rows, cols, d), row, col + 1)
  {
    FlatEntry(rows, cols, d, row, col);
    FlatUpdate(cols, rows, td, col, row, d[row * cols + col]);
    var m, t, t' := FromFlat(rows, cols, d), FromFlat(cols, rows, td), FromFlat(cols, rows, td[col * rows + row := d[row * cols + col]]);
    forall r, c | 0 <= r < rows && 0 <= c < cols && (r < row || (r == row && c < col + 1))
      ensures At(t', c, r) == At(m, r, c)
    {
      if r != row || c != col {
        assert At(t', c, r) == At(t, c, r);
      }
    }
  }

  /** Storage with every entry in place holds the transpose. */
  lemma TransposeComplete(rows: nat, cols: nat, d: seq<real>, td: seq<real>)
    requires |d| == rows * cols && |td| == cols * rows
    requires TransposeDone(FromFlat(cols, rows, td), FromFlat(rows, cols, d), rows, 0)
    ensures FromFlat(cols, rows, td) == Transposed(FromFlat(rows, cols, d))
  {
    Extensional(FromFlat(cols, rows, td), Transposed(FromFlat(rows, cols, d)));
  }

  /** The storage of the transpose of the rows-by-cols matrix stored in d, entry by entry. */
  method TransposeStorage(rows: nat, cols: nat, d: seq<real>) returns (td: seq<real>)
    requires |d| == rows * cols
    ensures |td| == cols * rows && FromFlat(cols, rows, td) == Transposed(FromFlat(rows, cols, d))
  {
    td := seq(cols * rows, _ => 0.0);
    var row := 0;
    while row < rows
      invariant 0 <= row <= rows && |td| == cols * rows
      invariant TransposeDone(FromFlat(cols, rows, td), FromFlat(rows, cols, d), row, 0)
    {
      td := TransposeRow(rows, cols, d, td, row);
      row := row + 1;
    }
    TransposeComplete(rows, cols, d, td);
  }

  /** Copies row row of the storage d into column row of the storage td. */
  method TransposeRow(rows: nat, cols: nat, d: seq<real>, td: seq<real>, row: nat) returns (td': seq<real>)
    requires |d| == rows * cols && |td| == cols * rows && row < rows
    requires TransposeDone(FromFlat(cols, rows, td), FromFlat(rows, cols, d), row, 0)
    ensures |td'| == cols * rows
    ensures TransposeDone(FromFlat(cols, rows, td'), FromFlat(rows, cols, d), row + 1, 0)
  {
    td' := td;
    var col := 0;
    while col < cols
      invariant 0 <= col <= cols && |td'| == cols * rows
      invariant TransposeDone(FromFlat(cols, rows, td'), FromFlat(rows, cols, d), row, col)
    {
      TransposeStep(rows, cols, d, td', row, col);
      td' := td'[col * rows + row := d[row * cols + col]];
      col := col + 1;
    }
  }

  /** Where index x lands once index e is dropped: the inverse of Skip. */
  function SubIndex(x: nat, e: nat): nat {
    if e < x then x - 1 else x
  }

  lemma SkipSubIndex(x: nat, e: nat)
    ensures x != e ==> Skip(SubIndex(x, e), e) == x
    ensures SubIndex(Skip(x, e), e) == x
  {
  }

  /**
   * Whether minor(i, j) of an n-by-n matrix fails: some copied entry lands
   * outside the (n-1)-by-(n-1) result.  That happens when i or j is outside
   * the matrix and something is copied at all.
   */
  predicate MinorFails(n: nat, i: nat, j: nat) {
    (i >= n || j >= n) && (n >= 2 || (i >= n && j >= n))
  }

  /** Whether cell (x, y) lies inside the minor of an n-by-n matrix. */
  predicate InMinor(n: nat, x: nat, y: nat) {
    x < n - 1 && y < n - 1
  }

  /** Every copy from a row before row lands inside the minor. */
  ghost predicate MinorFits(n: nat, i: nat, j: nat, row: nat) {
    forall r, c :: 0 <= r < row && r != i && 0 <= c < n && c != j ==> InMinor(n, SubIndex(r, i), SubIndex(c, j))
  }

  /** Rows before row of m, without row i and column j, are in place in mv. */
  ghost predicate MinorRowsDone(mv: Mat, m: Mat, i: nat, j: nat, row: nat) {
    forall r, c :: 0 <= r < row && r != i && 0 <= c < m.cols && c != j ==>
      At(mv, SubIndex(r, i), SubIndex(c, j)) == At(m, r, c)
  }

  /** Columns before col of row row of m, without column j, are in place in row subRow of mv. */
  ghost predicate MinorRowPart(mv: Mat, m: Mat, j: nat, row: nat, subRow: nat, col: nat) {
    forall c :: 0 <= c < col && c != j ==>
      InMinor(m.rows, subRow, SubIndex(c, j)) && At(mv, subRow, SubIndex(c, j)) == At(m, row, c)
  }

  /** Writing entry (row, col) of m at its place keeps the earlier copies and extends the current row. */
  lemma MinorWrite(mv: Mat, mv2: Mat, m: Mat, i: nat, j: nat, row: nat, subRow: nat, col: nat, v: real)
    requires IsSquare(m) && m.rows >= 1 && WellFormed(mv) && mv.rows == m.rows - 1 && mv.cols == m.rows - 1
    requires row != i && subRow == SubIndex(row, i) && col != j && subRow < mv.rows && SubIndex(col, j) < mv.cols
    requires forall r, c :: 0 <= r < mv.rows && 0 <= c < mv.cols ==>
      At(mv2, r, c) == if r == subRow && c == SubIndex(col, j) then v else At(mv, r, c)
    requires MinorFits(m.rows, i, j, row) && MinorRowsDone(mv, m, i, j, row)
    requires MinorRowPart(mv, m, j, row, subRow, col) && v == At(m, row, col)
    ensures MinorRowsDone(mv2, m, i, j, row) && MinorRowPart(mv2, m, j, row, subRow, col + 1)
  {
    forall r, c | 0 <= r < row && r != i && 0 <= c < m.cols && c != j
      ensures At(mv2, SubIndex(r, i), SubIndex(c, j)) == At(m, r, c)
    {
      assert InMinor(m.rows, SubIndex(r, i), SubIndex(c, j));
      assert SubIndex(r, i) < subRow;
    }
    forall c | 0 <= c < col + 1 && c != j
      ensures InMinor(m.rows, subRow, SubIndex(c, j)) && At(mv2, subRow, SubIndex(c, j)) == At(m, row, c)
    {
      if c < col {
        assert SubIndex(c, j) < SubIndex(col, j);
      }
    }
  }

  /** MinorWrite, stated on the storage of the minor. */
  lemma MinorWriteStorage(d: seq<real>, m: Mat, n: nat, i: nat, j: nat, row: nat, subRow: nat, col: nat, subCol: nat, v: real)
    requires IsSquare(m) && m.rows >= 1 && n == m.rows - 1 && |d| == n * n
    requires row != i && subRow == SubIndex(row, i) && col != j && subCol == SubIndex(col, j) && InMinor(m.rows, subRow, subCol)
    requires MinorFits(m.rows, i, j, row) && MinorRowsDone(FromFlat(n, n, d), m, i, j, row)
    requires MinorRowPart(FromFlat(n, n, d), m, j, row, subRow, col) && v == At(m, row, col)
    ensures 0 <= subRow * n + subCol < |d|
    ensures MinorRowsDone(FromFlat(n, n, d[subRow * n + subCol := v]), m, i, j, row)
    ensures MinorRowPart(FromFlat(n, n, d[subRow * n + subCol := v]), m, j, row, subRow, col + 1)
  {
    FlatUpdate(n, n, d, subRow, subCol, v);
    MinorWrite(FromFlat(n, n, d), FromFlat(n, n, d[subRow * n + subCol := v]), m, i, j, row, subRow, col, v);
  }

  /** MinorWriteStorage with the copied value read from the storage d of the n-by-n matrix. */
  lemma MinorCopy(d: seq<real>, md: seq<real>, n: nat, k: nat, i: nat, j: nat, row: nat, subRow: nat, col: nat, subCol: nat)
    requires n >= 1 && |d| == n * n && k == n - 1 && |md| == k * k && row < n && col < n
    requires row != i && subRow == SubIndex(row, i) && col != j && subCol == SubIndex(col, j) && InMinor(n, subRow, subCol)
    requires MinorFits(n, i, j, row) && MinorRowsDone(FromFlat(k, k, md), FromFlat(n, n, d), i, j, row)
    requires MinorRowPart(FromFlat(k, k, md), FromFlat(n, n, d), j, row, subRow, col)
    ensures 0 <= row * n + col < |d| && 0 <= subRow * k + subCol < |md|
    ensures MinorRowsDone(FromFlat(k, k, md[subRow * k + subCol := d[row * n + col]]), FromFlat(n, n, d), i, j, row)
    ensures MinorRowPart(FromFlat(k, k, md[subRow * k + subCol := d[row * n + col]]), FromFlat(n, n, d), j, row, subRow, col + 1)
  {
    FlatEntry(n, n, d, row, col);
    MinorWriteStorage(md, FromFlat(n, n, d), k, i, j, row, subRow, col, subCol, d[row * n + col]);
  }

  /** A completed row turns into a completed row of copies. */
  lemma MinorRowFinish(mv: Mat, m: Mat, i: nat, j: nat, row: nat, subRow: nat)
    requires IsSquare(m) && row != i && subRow == SubIndex(row, i)
    requires MinorFits(m.rows, i, j, row) && MinorRowsDone(mv, m, i, j, row)
    requires MinorRowPart(mv, m, j, row, subRow, m.cols)
    ensures MinorFits(m.rows, i, j, row + 1) && MinorRowsDone(mv, m, i, j, row + 1)
  {
    forall r, c | 0 <= r < row + 1 && r != i && 0 <= c < m.rows && c != j
      ensures InMinor(m.rows, SubIndex(r, i), SubIndex(c, j))
      ensures At(mv, SubIndex(r, i), SubIndex(c, j)) == At(m, r, c)
    {
      if r == row {
        assert InMinor(m.rows, subRow, SubIndex(c, j)) && At(mv, subRow, SubIndex(c, j)) == At(m, row, c);
      }
    }
  }

  lemma OutsideWriteFails(n: nat, i: nat, j: nat, row: nat, col: nat)
    requires row < n && col < n && row != i && col != j
    requires !InMinor(n, SubIndex(row, i), SubIndex(col, j))
    ensures MinorFails(n, i, j)
  {
  }

  /** A copy that lands outside the minor, whenever minor(i, j) fails. */
  function WitnessRow(n: nat, i: nat, j: nat): nat
    requires n >= 1
  {
    if i >= n then n - 1 else if i == 0 then 1 else 0
  }

  function WitnessCol(n: nat, i: nat, j: nat): nat {
    if i >= n then (if j == 0 then 1 else 0) else n - 1
  }

  lemma MinorFailsWitness(n: nat, i: nat, j: nat)
    requires n >= 1
    ensures MinorFails(n, i, j) ==>
      var r, c := WitnessRow(n, i, j), WitnessCol(n, i, j);
      r < n && r != i && c < n && c != j && !InMinor(n, SubIndex(r, i), SubIndex(c, j))
  {
  }

  lemma MinorComplete(mv: Mat, m: Mat, i: nat, j: nat)
    requires IsSquare(m) && m.rows >= 1 && !MinorFails(m.rows, i, j)
    requires WellFormed(mv) && mv.rows == m.rows - 1 && mv.cols == m.rows - 1
    requires MinorRowsDone(mv, m, i, j, m.rows)
    ensures mv == MinorOf(m, i, j)
  {
    forall r, c | 0 <= r < mv.rows && 0 <= c < mv.cols
      ensures At(mv, r, c) == At(MinorOf(m, i, j), r, c)
    {
      SkipSubIndex(r, i);
      SkipSubIndex(c, j);
      assert At(mv, SubIndex(Skip(r, i), i), SubIndex(Skip(c, j), j)) == At(m, Skip(r, i), Skip(c, j));
    }
    Extensional(mv, MinorOf(m, i, j));
  }

  /** A matrix: its shape and its entries stored row-major in data. */
  class Matrix {
    var rows: nat
    var cols: nat
    var data: seq<real>

    ghost predicate Valid()
      reads this
    {
      |data| == rows * cols
    }

    ghost function Value(): Mat
      reads this
      requires Valid()
    {
      FromFlat(rows, cols, data)
    }

    /** The empty 0-by-0 matrix. */
    constructor Empty()
      ensures Valid() && rows == 0 && cols == 0
    {
      rows, cols, data := 0, 0, [];
    }

    /** A rows-by-cols matrix of zeros. */
    constructor(rows: nat, cols: nat)
      ensures Valid() && this.rows == rows && this.cols == cols && Value() == Zeros(rows, cols)
    {
      this.rows, this.cols := rows, cols;
      data := seq(rows * cols, _ => 0.0);
      new;
      FlatConst(rows, cols, data, 0.0);
    }

    constructor Copy(other: Matrix)
      requires other.Valid()
      ensures Valid() && Value() == other.Value()
    {
      rows, cols, data := other.rows, other.cols, other.data;
    }

    /** Checked read of entry (row, col). */
    method Get(row: nat, col: nat) returns (r: Result<real>)
      requires Valid()
      ensures r.Success? <==> row < rows && col < cols
      ensures r.Success? ==> r.value == At(Value(), row, col)
    {
      if row >= rows || col >= cols {
        return Failure("size mismatch");
      }
      FlatEntry(rows, cols, data, row, col);
      return Success(data[row * cols + col]);
    }

    /** Checked write of entry (row, col); every other entry is kept. */
    method Set(row: nat, col: nat, v: real) returns (r: Result<()>)
      requires Valid()
      modifies this
      ensures Valid() && rows == old(rows) && cols == old(cols)
      ensures r.Success? <==> row < rows && col < cols
      ensures r.Failure? ==> data == old(data)
      ensures r.Success? ==> forall i, j :: 0 <= i < rows && 0 <= j < cols ==>
        At(Value(), i, j) == if i == row && j == col then v else At(old(Value()), i, j)
    {
      if row >= rows || col >= cols {
        return Failure("size mismatch");
      }
      FlatUpdate(rows, cols, data, row, col, v);
      data := data[row * cols + col := v];
      return Success(());
    }

    function GetRows(): (n: nat)
      reads this
      ensures Valid() ==> |data| == n * cols
    {
      rows
    }

    /** get_cols as written: it answers the number of rows. */
    function GetColsAsWritten(): (n: nat)
      reads this
      ensures n == rows
    {
      rows
    }

    /** get_cols as intended: with GetRows it describes the storage. */
    function GetCols(): (n: nat)
      reads this
      ensures Valid() ==> |data| == GetRows() * n
    {
      cols
    }

    predicate EqualSize(other: Matrix)
      reads this, other
    {
      rows == other.rows && cols == other.cols
    }

    method Add(other: Matrix) returns (r: Result<Matrix>)
      requires Valid() && other.Valid()
      ensures r.Success? <==> EqualSize(other)
      ensures r.Success? ==> fresh(r.value) && r.value.Valid() && r.value.Value() == MatAdd(Value(), other.Value())
    {
      if !EqualSize(other) {
        return Failure("size mismatch");
      }
      var result := new Matrix(rows, cols);
      var idx := 0;
      while idx < rows * cols
        invariant 0 <= idx <= rows * cols
        invariant result.rows == rows && result.cols == cols && |result.data| == rows * cols
        invariant forall k :: 0 <= k < idx ==> result.data[k] == data[k] + other.data[k]
      {
        result.data := result.data[idx := data[idx] + other.data[idx]];
        idx := idx + 1;
      }
      FlatPointwise(rows, cols, result.data, data, other.data, Plus);
      return Success(result);
    }

    method Sub(other: Matrix) returns (r: Result<Matrix>)
      requires Valid() && other.Valid()
      ensures r.Success? <==> EqualSize(other)
      ensures r.Success? ==> fresh(r.value) && r.value.Valid() && r.value.Value() == MatSub(Value(), other.Value())
    {
      if !EqualSize(other) {
        return Failure("size mismatch");
      }
      var result := new Matrix(rows, cols);
      var idx := 0;
      while idx < rows * cols
        invariant 0 <= idx <= rows * cols
        invariant result.rows == rows && result.cols == cols && |result.data| == rows * cols
        invariant forall k :: 0 <= k < idx ==> result.data[k] == data[k] - other.data[k]
      {
        result.data := result.data[idx := data[idx] - other.data[idx]];
        idx := idx + 1;
      }
      FlatPointwise(rows, cols, result.data, data, other.data, Minus);
      return Success(result);
    }

    /** Division by another matrix is undefined and always fails. */
    method DivMatrix(other: Matrix) returns (r: Result<Matrix>)
      ensures r.Failure?
    {
      return Failure("undefined operation");
    }

    /** A fresh matrix whose storage is f applied to this one's, index by index. */
    method MapScalar(f: real -> real) returns (result: Matrix)
      requires Valid()
      ensures fresh(result) && result.Valid() && result.Value() == Map(Value(), f)
    {
      result := new Matrix(rows, cols);
      var idx := 0;
      while idx < rows * cols
        invariant 0 <= idx <= rows * cols
        invariant result.rows == rows && result.cols == cols && |result.data| == rows * cols
        invariant forall k :: 0 <= k < idx ==> result.data[k] == f(data[k])
      {
        result.data := result.data[idx := f(data[idx])];
        idx := idx + 1;
      }
      FlatMap(rows, cols, result.data, data, f);
    }

    method AddScalar(s: real) returns (result: Matrix)
      requires Valid()
      ensures fresh(result) && result.Valid() && result.Value() == MatAddScalar(Value(), s)
    {
      result := MapScalar(x => x + s);
    }

    method SubScalar(s: real) returns (result: Matrix)
      requires Valid()
      ensures fresh(result) && result.Valid() && result.Value() == MatSubScalar(Value(), s)
    {
      result := MapScalar(x => x - s);
    }

    method MulScalar(s: real) returns (result: Matrix)
      requires Valid()
      ensures fresh(result) && result.Valid() && result.Value() == MatMulScalar(Value(), s)
    {
      result := MapScalar(x => x * s);
    }

    /** Division by a scalar; dividing by zero fails. */
    method DivScalar(s: real) returns (r: Result<Matrix>)
      requires Valid()
      ensures r.Success? <==> s != 0.0
      ensures r.Success? ==> fresh(r.value) && r.value.Valid() && r.value.Value() == MatDivScalar(Value(), s)
    {
      if s == 0.0 {
        return Failure("division by zero");
      }
      var result := MapScalar(x => x / s);
      return Success(result);
    }

    /** Element-wise comparison; matrices of different shapes are unequal. */
    method Equals(other: Matrix) returns (eq: bool)
      requires Valid() && other.Valid()
      ensures eq <==> Value() == other.Value()
    {
      if !EqualSize(other) {
        return false;
      }
      FromFlatInjective(rows, cols, data, other.data);
      var idx := 0;
      while idx < rows * cols
        invariant 0 <= idx <= rows * cols
        invariant forall k :: 0 <= k < idx ==> data[k] == other.data[k]
      {
        if data[idx] != other.data[idx] {
          return false;
        }
        idx := idx + 1;
      }
      return true;
    }

    method NotEquals(other: Matrix) returns (ne: bool)
      requires Valid() && other.Valid()
      ensures ne <==> Value() != other.Value()
    {
      var eq := Equals(other);
      return !eq;
    }

    /** Storage-level op of this and other, written back into this, for += and -=. */
    method ZipAssign(other: Matrix, op: (real, real) -> real) returns (r: Result<()>)
      requires Valid() && other.Valid()
      modifies this
      ensures Valid() && rows == old(rows) && cols == old(cols)
      ensures r.Success? <==> old(EqualSize(other))
      ensures r.Failure? ==> data == old(data)
      ensures r.Success? ==> Value() == Pointwise(old(Value()), old(other.Value()), op)
    {
      if rows != other.rows || cols != other.cols {
        return Failure("size mismatch");
      }
      ghost var a, b := data, other.data;
      var idx := 0;
      while idx < rows * cols
        invariant 0 <= idx <= rows * cols
        invariant rows == old(rows) && cols == old(cols) && |data| == rows * cols
        invariant other.rows == rows && other.cols == cols
        invariant forall k :: 0 <= k < idx ==> data[k] == op(a[k], b[k])
        invariant forall k :: idx <= k < rows * cols ==> data[k] == a[k] && other.data[k] == b[k]
      {
        data := data[idx := op(data[idx], other.data[idx])];
        idx := idx + 1;
      }
      FlatPointwise(rows, cols, data, a, b, op);
      return Success(());
    }

    method AddAssign(other: Matrix) returns (r: Result<()>)
      requires Valid() && other.Valid()
      modifies this
      ensures Valid() && rows == old(rows) && cols == old(cols)
      ensures r.Success? <==> old(EqualSize(other))
      ensures r.Failure? ==> data == old(data)
      ensures r.Success? ==> Value() == MatAdd(old(Value()), old(other.Value()))
    {
      r := ZipAssign(other, Plus);
    }

    method SubAssign(other: Matrix) returns (r: Result<()>)
      requires Valid() && other.Valid()
      modifies this
      ensures Valid() && rows == old(rows) && cols == old(cols)
      ensures r.Success? <==> old(EqualSize(other))
      ensures r.Failure? ==> data == old(data)
      ensures r.Success? ==> Value() == MatSub(old(Value()), old(other.Value()))
    {
      r := ZipAssign(other, Minus);
    }

    /** Storage-level f written back into this, for the scalar compound assignments. */
    method MapAssign(f: real -> real)
      requires Valid()
      modifies this
      ensures Valid() && rows == old(rows) && cols == old(cols)
      ensures Value() == Map(old(Value()), f)
    {
      ghost var a := data;
      var idx := 0;
      while idx < rows * cols
        invariant 0 <= idx <= rows * cols
        invariant rows == old(rows) && cols == old(cols) && |data| == rows * cols
        invariant forall k :: 0 <= k < idx ==> data[k] == f(a[k])
        invariant forall k :: idx <= k < rows * cols ==> data[k] == a[k]
      {
        data := data[idx := f(data[idx])];
        idx := idx + 1;
      }
      FlatMap(rows, cols, data, a, f);
    }

    method AddScalarAssign(s: real)
      requires Valid()
      modifies this
      ensures Valid() && Value() == MatAddScalar(old(Value()), s)
    {
      MapAssign(x => x + s);
    }

    method SubScalarAssign(s: real)
      requires Valid()
      modifies this
      ensures Valid() && Value() == MatSubScalar(old(Value()), s)
    {
      MapAssign(x => x - s);
    }

    method MulScalarAssign(s: real)
      requires Valid()
      modifies this
      ensures Valid() && Value() == MatMulScalar(old(Value()), s)
    {
      MapAssign(x => x * s);
    }

    method DivScalarAssign(s: real)
      requires Valid() && s != 0.0
      modifies this
      ensures Valid() && Value() == MatDivScalar(old(Value()), s)
    {
      MapAssign(x => x / s);
    }

    /** Row row of this times column col of other, accumulated in index order. */
    method RowDot(other: Matrix, row: nat, col: nat) returns (sum: real)
      requires Valid() && other.Valid() && cols == other.rows && row < rows && col < other.cols
      ensures sum == Dot(Value(), other.Value(), row, col, cols)
    {
      ghost var a, b := Value(), other.Value();
      sum := 0.0;
      var idx := 0;
      while idx < cols
        invariant 0 <= idx <= cols
        invariant sum == Dot(a, b, row, col, idx)
      {
        FlatEntry(rows, cols, data, row, idx);
        FlatEntry(other.rows, other.cols, other.data, idx, col);
        var x, y := data[row * cols + idx], other.data[idx * other.cols + col];
        assert At(a, row, idx) == x;
        assert At(b, idx, col) == y;
        DotStep(a, b, row, col, idx, x, y);
        sum := sum + x * y;
        idx := idx + 1;
      }
    }

    /** Fills row row of result with the products of that row of this and the columns of other. */
    method ProductRow(other: Matrix, result: Matrix, row: nat)
      requires Valid() && other.Valid() && cols == other.rows && row < rows
      requires result != this && result != other
      requires result.Valid() && result.rows == rows && result.cols == other.cols
      requires ProductDone(result.Value(), Value(), other.Value(), row, 0)
      modifies result
      ensures result.Valid() && result.rows == rows && result.cols == other.cols
      ensures ProductDone(result.Value(), Value(), other.Value(), row + 1, 0)
    {
      var col := 0;
      while col < other.cols
        invariant 0 <= col <= other.cols
        invariant result.Valid() && result.rows == rows && result.cols == other.cols
        invariant ProductDone(result.Value(), Value(), other.Value(), row, col)
      {
        var sum := RowDot(other, row, col);
        FlatUpdate(rows, other.cols, result.data, row, col, sum);
        result.data := result.data[row * other.cols + col := sum];
        col := col + 1;
      }
    }

    /** The product of this and other, which must have as many rows as this has columns. */
    method Product(other: Matrix) returns (result: Matrix)
      requires Valid() && other.Valid() && cols == other.rows
      ensures fresh(result) && result.Valid() && result.Value() == MatMul(Value(), other.Value())
    {
      result := new Matrix(rows, other.cols);
      var row := 0;
      while row < rows
        invariant 0 <= row <= rows
        invariant fresh(result) && result.Valid() && result.rows == rows && result.cols == other.cols
        invariant ProductDone(result.Value(), Value(), other.Value(), row, 0)
      {
        ProductRow(other, result, row);
        row := row + 1;
      }
      Extensional(result.Value(), MatMul(Value(), other.Value()));
    }

    method Mul(other: Matrix) returns (r: Result<Matrix>)
      requires Valid() && other.Valid()
      ensures r.Success? <==> cols == other.rows
      ensures r.Success? ==> fresh(r.value) && r.value.Valid() && r.value.Value() == MatMul(Value(), other.Value())
    {
      if cols != other.rows {
        return Failure("size mismatch");
      }
      var result := Product(other);
      return Success(result);
    }

    method MulAssign(other: Matrix) returns (r: Result<()>)
      requires Valid() && other.Valid()
      modifies this
      ensures Valid()
      ensures r.Success? <==> old(cols) == old(other.rows)
      ensures r.Failure? ==> rows == old(rows) && cols == old(cols) && data == old(data)
      ensures r.Success? ==> Value() == MatMul(old(Value()), old(other.Value()))
    {
      if cols != other.rows {
        return Failure("size mismatch");
      }
      var result := Product(other);
      rows, cols, data := result.rows, result.cols, result.data;
      return Success(());
    }

    /** The transpose of this as a fresh matrix. */
    method TransposedCopy() returns (result: Matrix)
      requires Valid()
      ensures fresh(result) && result.Valid() && result.Value() == Transposed(Value())
    {
      var td := TransposeStorage(rows, cols, data);
      result := new Matrix(cols, rows);
      result.data := td;
    }

    /** Transposes into a fresh matrix, or into this when inplace (then nothing is returned). */
    method Transpose(inplace: bool) returns (r: Option<Matrix>)
      requires Valid()
      modifies this
      ensures Valid()
      ensures inplace ==> r.None? && Value() == Transposed(old(Value()))
      ensures !inplace ==> (r.Some? && fresh(r.value) && r.value.Valid() && r.value.Value() == Transposed(Value())
        && rows == old(rows) && cols == old(cols) && data == old(data))
    {
      var result := TransposedCopy();
      if inplace {
        rows, cols, data := result.rows, result.cols, result.data;
        return None;
      }
      return Some(result);
    }

    /** The square-matrix view of this; a matrix that is not square is refused. */
    method AsSquare() returns (r: Result<Matrix>)
      requires Valid()
      ensures r.Success? <==> rows == cols
      ensures r.Success? ==> fresh(r.value) && r.value.Valid() && r.value.Value() == Value()
    {
      if rows != cols {
        return Failure("matrix is not square");
      }
      var copy := new Matrix.Copy(this);
      return Success(copy);
    }

    /** What identity does: a matrix of ones of this size, which also replaces this when inplace. */
    method Identity(inplace: bool) returns (m: Matrix)
      requires Valid() && rows == cols
      modifies this
      ensures fresh(m) && m.Valid() && m.Value() == Ones(old(rows))
      ensures Valid()
      ensures inplace ==> Value() == Ones(old(rows))
      ensures !inplace ==> rows == old(rows) && cols == old(cols) && data == old(data)
    {
      var ones := NewOnes(rows);
      if inplace {
        rows, cols, data := ones.rows, ones.cols, ones.data;
        m := new Matrix.Copy(this);
        return;
      }
      m := ones;
    }

    /**
     * Copies row row of this, without column j, into row subRow of minor;
     * false when a write falls outside minor.  The row is assembled in a
     * copy of minor's storage that replaces it once the row is done.
     */
    method MinorRow(minor: Matrix, i: nat, j: nat, row: nat, subRow: nat) returns (ok: bool)
      requires Valid() && rows == cols && rows >= 1
      requires minor != this && minor.Valid() && minor.rows == rows - 1 && minor.cols == rows - 1
      requires row < rows && row != i && subRow == SubIndex(row, i)
      requires MinorFits(rows, i, j, row) && MinorRowsDone(minor.Value(), Value(), i, j, row)
      modifies minor
      ensures minor.Valid() && minor.rows == rows - 1 && minor.cols == rows - 1
      ensures ok ==> MinorFits(rows, i, j, row + 1) && MinorRowsDone(minor.Value(), Value(), i, j, row + 1)
      ensures !ok ==> MinorFails(rows, i, j)
    {
      var n, d := rows, data;
      var k, md := minor.rows, minor.data;
      var subCol := 0;
      var col := 0;
      while col < n
        invariant 0 <= col <= n
        invariant subCol == (if j < col then col - 1 else col)
        invariant |md| == k * k && unchanged(minor)
        invariant MinorFits(n, i, j, row) && MinorRowsDone(FromFlat(k, k, md), FromFlat(n, n, d), i, j, row)
        invariant MinorRowPart(FromFlat(k, k, md), FromFlat(n, n, d), j, row, subRow, col)
      {
        if col != j {
          if !InMinor(n, subRow, subCol) {
            OutsideWriteFails(n, i, j, row, col);
            return false;
          }
          MinorCopy(d, md, n, k, i, j, row, subRow, col, subCol);
          md := md[subRow * k + subCol := d[row * n + col]];
          subCol := subCol + 1;
        }
        col := col + 1;
      }
      MinorRowFinish(FromFlat(k, k, md), FromFlat(n, n, d), i, j, row, subRow);
      minor.data := md;
      return true;
    }

    /**
     * minor(i, j): this without row i and column j.  The writes go through
     * the checked index, so an excluded index outside the matrix fails
     * (except that a 1-by-1 matrix fails only when both are outside).
     */
    method Minor(i: nat, j: nat) returns (r: Result<Matrix>)
      requires Valid() && rows == cols && rows >= 1
      ensures r.Failure? <==> MinorFails(rows, i, j)
      ensures r.Success? ==> fresh(r.value) && r.value.Valid() && r.value.Value() == MinorOf(Value(), i, j)
    {
      var n := rows;
      var minor := new Matrix(n - 1, n - 1);
      var subRow := 0;
      var row := 0;
      while row < n
        invariant 0 <= row <= n
        invariant subRow == (if i < row then row - 1 else row)
        invariant fresh(minor) && minor.Valid() && minor.rows == n - 1 && minor.cols == n - 1
        invariant MinorFits(n, i, j, row) && MinorRowsDone(minor.Value(), Value(), i, j, row)
      {
        if row != i {
          var ok := MinorRow(minor, i, j, row, subRow);
          if !ok {
            return Failure("size mismatch");
          }
          subRow := subRow + 1;
        }
        row := row + 1;
      }
      MinorFailsWitness(n, i, j);
      assert !MinorFails(n, i, j);
      MinorComplete(minor.Value(), Value(), i, j);
      return Success(minor);
    }

    /** Determinant; a 0-by-0 matrix is refused. */
    method Determinant() returns (r: Result<real>)
      requires Valid() && rows == cols
      ensures r.Success? <==> rows != 0
      ensures r.Success? ==> rows >= 1 && r.value == Det(Value())
      decreases rows, 3
    {
      if rows == 0 || cols == 0 {
        return Failure("matrix is not square");
      }
      FlatEntry(rows, cols, data, 0, 0);
      if rows == 1 {
        return Success(data[0]);
      }
      FlatEntry(rows, cols, data, 0, 1);
      FlatEntry(rows, cols, data, 1, 0);
      FlatEntry(rows, cols, data, 1, 1);
      if rows == 2 {
        return Success(data[0] * data[3] - data[1] * data[2]);
      }
      var det := ExpandFirstRow();
      return Success(det);
    }

    /** Expansion along the first row, each minor's determinant computed recursively. */
    method ExpandFirstRow() returns (det: real)
      requires Valid() && rows == cols && rows >= 2
      ensures det == Laplace(Value(), cols)
      decreases rows, 2
    {
      ghost var m := Value();
      det := 0.0;
      var col := 0;
      while col < cols
        invariant 0 <= col <= cols
        invariant det == Laplace(m, col)
      {
        var term := ExpansionTerm(col);
        det := det + term;
        col := col + 1;
      }
    }

    /** Term col of the expansion: signed entry (0, col) times the determinant of its minor. */
    method ExpansionTerm(col: nat) returns (term: real)
      requires Valid() && rows == cols && rows >= 2 && col < cols
      ensures term == Term(Value(), col)
      decreases rows, 1
    {
      FlatEntry(rows, cols, data, 0, col);
      var d := MinorDeterminant(col);
      term := Sign(col) * data[col] * d;
      TermOf(Value(), col, data[col], d);
    }

    /** The determinant of the minor that leaves out row 0 and column col. */
    method MinorDeterminant(col: nat) returns (d: real)
      requires Valid() && rows == cols && rows >= 2 && col < cols
      ensures d == Det(MinorOf(Value(), 0, col))
      decreases rows, 0
    {
      var minor := Minor(0, col);
      var sub := minor.value.Determinant();
      d := sub.value;
    }

    /** m^power as a fresh matrix, for power >= 1: repeated multiplication by a copy of this. */
    method PowerCopy(power: nat) returns (result: Matrix)
      requires Valid() && rows == cols && power >= 1
      ensures fresh(result) && result.Valid() && result.Value() == MatPow(Value(), power)
    {
      ghost var a := Value();
      result := new Matrix.Copy(this);
      var base := new Matrix.Copy(this);
      var idx := 1;
      while idx < power
        invariant 1 <= idx <= power
        invariant fresh(result) && fresh(base) && result != base
        invariant base.Valid() && base.Value() == a && base.rows == a.rows
        invariant result.Valid() && result.Value() == MatPow(a, idx) && result.cols == a.rows
      {
        var _ := result.MulAssign(base);
        PowSucc(a, idx);
        idx := idx + 1;
      }
    }

    /** pow: ones for power 0, otherwise the power by repeated multiplication; replaces this when inplace. */
    method Pow(power: nat, inplace: bool) returns (m: Matrix)
      requires Valid() && rows == cols
      modifies this
      ensures fresh(m) && m.Valid() && m.Value() == MatPow(old(Value()), power)
      ensures Valid()
      ensures inplace ==> Value() == MatPow(old(Value()), power)
      ensures !inplace ==> rows == old(rows) && cols == old(cols) && data == old(data)
    {
      if power == 0 {
        m := Identity(inplace);
        return;
      }
      var result := PowerCopy(power);
      if inplace {
        rows, cols, data := result.rows, result.cols, result.data;
        m := new Matrix.Copy(this);
        return;
      }
      m := result;
    }
  }

  /** A fresh n-by-n matrix of ones, filled index by index. */
  method NewOnes(n: nat) returns (m: Matrix)
    ensures fresh(m) && m.Valid() && m.Value() == Ones(n)
  {
    m := new Matrix(n, n);
    var idx := 0;
    while idx < n * n
      invariant 0 <= idx <= n * n
      invariant m.rows == n && m.cols == n && |m.data| == n * n
      invariant forall k :: 0 <= k < idx ==> m.data[k] == 1.0
    {
      m.data := m.data[idx := 1.0];
      idx := idx + 1;
    }
    FlatConst(n, n, m.data, 1.0);
    Extensional(m.Value(), Ones(n));
  }

  // Worked examples and the get_cols discrepancy.

  /** [[1, 2, 3], [4, 5, 6]] transposes to [[1, 4], [2, 5], [3, 6]]. */
  lemma TransposeExample()
    ensures Transposed(Mat(2, 3, [[1.0, 2.0, 3.0], [4.0, 5.0, 6.0]])) == Mat(3, 2, [[1.0, 4.0], [2.0, 5.0], [3.0, 6.0]])
  {
    var t, e := Transposed(Mat(2, 3, [[1.0, 2.0, 3.0], [4.0, 5.0, 6.0]])), Mat(3, 2, [[1.0, 4.0], [2.0, 5.0], [3.0, 6.0]]);
    Extensional(t, e);
  }

  /** For [[1, 2], [3, 4]], minor(0, 0) is [[4]] and the determinant is -2. */
  lemma MinorAndDetExample()
    ensures MinorOf(Mat(2, 2, [[1.0, 2.0], [3.0, 4.0]]), 0, 0) == Mat(1, 1, [[4.0]])
    ensures Det(Mat(2, 2, [[1.0, 2.0], [3.0, 4.0]])) == -2.0
  {
    var s := Mat(2, 2, [[1.0, 2.0], [3.0, 4.0]]);
    assert At(MinorOf(s, 0, 0), 0, 0) == At(s, 1, 1);
    Extensional(MinorOf(s, 0, 0), Mat(1, 1, [[4.0]]));
  }

  /** A 2-by-3 matrix: get_cols as written answers 2, and rows times that is not the size of the storage. */
  lemma ColsAsWrittenWrong(m: Matrix)
    requires m.Valid() && m.rows == 2 && m.cols == 3
    ensures m.GetColsAsWritten() == 2 != m.cols
    ensures |m.data| != m.GetRows() * m.GetColsAsWritten()
  {
  }
}

=== FILE: merkle_tree.dfy ===
/**
 * Merkle tree construction (KorhutMA/coursework/merkle_tree.c).
 *
 * SHA-256 is a foreign call; it is a parameter H here, an arbitrary
 * function from strings to digests.  Nodes are values: a node owns its
 * digest and its children.  In a layer of odd length the last node is
 * paired with itself, so both child links of that parent are the same node.
 */
module MerkleTree {
  import opened Wrappers
  import opened Sequences

  datatype Node = Node(hash: string, left: Option<Node>, right: Option<Node>)

  /** A leaf: the digest of its data and no children. */
  function CreateLeaf(H: string -> string, data: string): (n: Node)
    ensures n.hash == H(data) && n.left.None? && n.right.None?
  {
    Node(H(data), None, None)
  }

  /** A parent digests the concatenation of its children's digests, the left one twice if there is no right one. */
  function BuildParent(H: string -> string, left: Node, right: Option<Node>): (p: Node)
    ensures p.left == Some(left) && p.right == right
    ensures right.Some? ==> p.hash == H(left.hash + right.value.hash)
    ensures right.None? ==> p.hash == H(left.hash + left.hash)
  {
    var rightHash := if right.Some? then right.value.hash else left.hash;
    Node(H(left.hash + rightHash), Some(left), right)
  }

  /** Every inner node carries the digest of its children's digests. */
  predicate WellFormed(H: string -> string, t: Node) {
    match t
    case Node(_, None, None) => true
    case Node(h, Some(l), r) =>
      WellFormed(H, l) && (r.Some? ==> WellFormed(H, r.value)) &&
      h == H(l.hash + (if r.Some? then r.value.hash else l.hash))
    case Node(_, None, Some(_)) => false
  }

  function Height(t: Node): nat {
    match t
    case Node(_, None, None) => 0
    case Node(_, Some(l), None) => 1 + Height(l)
    case Node(_, None, Some(r)) => 1 + Height(r)
    case Node(_, Some(l), Some(r)) => 1 + if Height(l) >= Height(r) then Height(l) else Height(r)
  }

  /** The index of the right partner of node 2i in a layer of count nodes. */
  function RightIndex(i: nat, count: nat): (r: nat)
    requires 2 * i < count
    ensures r < count
    ensures r == 2 * i + 1 || (r == 2 * i && count == 2 * i + 1)
  {
    if 2 * i + 1 < count then 2 * i + 1 else 2 * i
  }

  /** The layer above: (count + 1) / 2 parents, the odd last node paired with itself. */
  function ParentLayer(H: string -> string, nodes: seq<Node>): (ps: seq<Node>)
    ensures |ps| == (|nodes| + 1) / 2
    ensures forall i :: 0 <= i < |ps| ==> ps[i] == BuildParent(H, nodes[2 * i], Some(nodes[RightIndex(i, |nodes|)]))
  {
    seq((|nodes| + 1) / 2, i requires 0 <= i < (|nodes| + 1) / 2 =>
      BuildParent(H, nodes[2 * i], Some(nodes[RightIndex(i, |nodes|)])))
  }

  /** Fills the parent layer one pair at a time. */
  method BuildLayer(H: string -> string, nodes: seq<Node>) returns (parents: seq<Node>)
    ensures parents == ParentLayer(H, nodes)
  {
    var count := |nodes|;
    var newCount := (count + 1) / 2;
    parents := [];
    for i := 0 to newCount
      invariant |parents| == i
      invariant forall k :: 0 <= k < i ==> parents[k] == ParentLayer(H, nodes)[k]
    {
      var leftIdx := 2 * i;
      var rightIdx := if leftIdx + 1 < count then leftIdx + 1 else leftIdx;
      parents := parents + [BuildParent(H, nodes[leftIdx], Some(nodes[rightIdx]))];
    }
  }

  /** The root built from a non-empty layer: layers are paired up until one node is left. */
  function LayerRoot(H: string -> string, nodes: seq<Node>): Node
    requires |nodes| >= 1
    decreases |nodes|
  {
    if |nodes| == 1 then nodes[0] else LayerRoot(H, ParentLayer(H, nodes))
  }

  /** Pairs nodes up, layer by layer, and returns the single node left. */
  method BuildMerkleLayer(H: string -> string, nodes: seq<Node>) returns (root: Node)
    requires |nodes| >= 1
    ensures root == LayerRoot(H, nodes)
    decreases |nodes|
  {
    if |nodes| == 1 {
      return nodes[0];
    }
    var parents := BuildLayer(H, nodes);
    root := BuildMerkleLayer(H, parents);
  }

  /** The tree over the data items; none for no data. */
  method BuildMerkleTree(H: string -> string, data: seq<string>) returns (root: Option<Node>)
    ensures |data| == 0 <==> root.None?
    ensures root.Some? ==> root.value == LayerRoot(H, Leaves(H, data))
  {
    if |data| == 0 {
      return None;
    }
    var leaves := [];
    for i := 0 to |data|
      invariant leaves == Leaves(H, data[..i])
    {
      leaves := leaves + [CreateLeaf(H, data[i])];
    }
    assert data[..|data|] == data;
    var r := BuildMerkleLayer(H, leaves);
    return Some(r);
  }

  /** The leaves for the data items, in order. */
  function Leaves(H: string -> string, data: seq<string>): (ls: seq<Node>)
    ensures |ls| == |data|
    ensures forall i :: 0 <= i < |data| ==> ls[i] == CreateLeaf(H, data[i])
  {
    seq(|data|, i requires 0 <= i < |data| => CreateLeaf(H, data[i]))
  }

  /** The root's digest, or none for an empty tree. */
  function GetMerkleRoot(root: Option<Node>): (h: Option<string>)
    ensures root.None? <==> h.None?
    ensures root.Some? ==> h == Some(root.value.hash)
  {
    if root.Some? then Some(root.value.hash) else None
  }

  /** Reference definition on digests alone: pair digests up until one is left. */
  function RootHash(H: string -> string, hashes: seq<string>): string
    requires |hashes| >= 1
    decreases |hashes|
  {
    if |hashes| == 1 then hashes[0]
    else
      RootHash(H, seq((|hashes| + 1) / 2, i requires 0 <= i < (|hashes| + 1) / 2 =>
        H(hashes[2 * i] + hashes[RightIndex(i, |hashes|)])))
  }

  function Hashes(nodes: seq<Node>): (hs: seq<string>)
    ensures |hs| == |nodes| && forall i :: 0 <= i < |nodes| ==> hs[i] == nodes[i].hash
  {
    seq(|nodes|, i requires 0 <= i < |nodes| => nodes[i].hash)
  }

  /** Number of pairing rounds from count nodes to one. */
  function Rounds(count: nat): nat
    requires count >= 1
  {
    if count == 1 then 0 else 1 + Rounds((count + 1) / 2)
  }

  /**
   * The root built from a layer depends only on the layer's digests, is
   * well formed, and has height Rounds(count) above a layer of equal height.
   */
  lemma {:induction false} LayerRootProperties(H: string -> string, nodes: seq<Node>, height: nat)
    requires |nodes| >= 1
    requires forall i :: 0 <= i < |nodes| ==> WellFormed(H, nodes[i]) && Height(nodes[i]) == height
    ensures LayerRoot(H, nodes).hash == RootHash(H, Hashes(nodes))
    ensures WellFormed(H, LayerRoot(H, nodes))
    ensures Height(LayerRoot(H, nodes)) == height + Rounds(|nodes|)
    decreases |nodes|
  {
    if |nodes| > 1 {
      var ps := ParentLayer(H, nodes);
      forall i | 0 <= i < |ps|
        ensures WellFormed(H, ps[i]) && Height(ps[i]) == height + 1
      {
        var l, r := nodes[2 * i], nodes[RightIndex(i, |nodes|)];
        assert ps[i] == Node(H(l.hash + r.hash), Some(l), Some(r));
      }
      LayerRootProperties(H, ps, height + 1);
      var hs := Hashes(nodes);
      assert Hashes(ps) == seq((|hs| + 1) / 2, i requires 0 <= i < (|hs| + 1) / 2 =>
        H(hs[2 * i] + hs[RightIndex(i, |hs|)]));
    }
  }

  /**
   * The tree over non-empty data is well formed, its root digest is the
   * pairwise digest of the items' digests, and it has Rounds(count) levels
   * of parents.
   */
  lemma MerkleTreeProperties(H: string -> string, data: seq<string>)
    requires |data| >= 1
    ensures WellFormed(H, LayerRoot(H, Leaves(H, data)))
    ensures LayerRoot(H, Leaves(H, data)).hash ==
              RootHash(H, seq(|data|, i requires 0 <= i < |data| => H(data[i])))
    ensures Height(LayerRoot(H, Leaves(H, data))) == Rounds(|data|)
  {
    var ls := Leaves(H, data);
    LayerRootProperties(H, ls, 0);
    assert Hashes(ls) == seq(|data|, i requires 0 <= i < |data| => H(data[i]));
  }

  /** The number of rounds is the base-2 logarithm of the count, rounded up. */
  lemma {:induction false} RoundsIsCeilLog2(count: nat)
    requires count >= 1
    ensures count <= Pow2(Rounds(count))
    ensures count > 1 ==> Pow2(Rounds(count) - 1) < count
    decreases count
  {
    if count > 1 {
      RoundsIsCeilLog2((count + 1) / 2);
    }
  }
}

=== FILE: mortgage.dfy ===
/**
 * Month-by-month finance simulation of two people (OrlovMS/task1.c).
 *
 * A person is a record updated in place every month; here it is a class
 * whose fields the monthly operations reassign.  Each operation is tied to
 * a pure function on a snapshot of the fields, and the properties of the
 * simulation (the loan is amortised exactly over its term, money moved to
 * the deposit is conserved, the loop runs a fixed number of months) are
 * proved about those functions.
 *
 * Money is a 64-bit integer in the source; here it is an unbounded int.
 * Rates are doubles in the source and reals here; a conversion from a
 * double to Money truncates toward zero, and so does Trunc below.
 */
module Mortgage {

  /** Conversion of a fractional amount to whole money: truncation toward zero. */
  function Trunc(x: real): (r: int)
    ensures x >= 0.0 ==> 0 <= r && r as real <= x < r as real + 1.0
    ensures x < 0.0 ==> r <= 0 && r as real - 1.0 < x <= r as real
  {
    if x >= 0.0 then x.Floor else -((-x).Floor)
  }

  /** One month of growth at a yearly rate, truncated to whole money. */
  function MonthlyInterest(value: int, rate: real): (r: int)
    ensures value >= 0 && rate >= 0.0 ==> r >= 0
  {
    Trunc(value as real * rate / 12.0)
  }

  /** The fields of a person, as one value. */
  datatype PersonState = PersonState(
    money: int, salary: int,
    capital: int, depositRate: real,
    estateCost: int,
    loan: int, remainingMonths: nat, loanRate: real,
    rentCost: int, foodCost: int, serviceCost: int, personnelCost: int)
  {
    /** The loan can be serviced: it is never negative, and a loan still owed has months left. */
    predicate LoanValid() {
      loan >= 0 && (loan != 0 ==> remainingMonths > 0)
    }
  }

  lemma MulAtLeast(q: int, b: int)
    requires q >= 0 && b >= 1
    ensures q * b >= q
  {
    assert q * b == q * (b - 1) + q;
  }

  lemma MulNegative(q: int, b: int)
    requires q < 0 && b >= 1
    ensures q * b <= -b
  {
    MulAtLeast(b, -q);
    assert q * b == -(b * -q);
  }

  /** The principal paid this month: the outstanding loan spread over the remaining months. */
  function Principal(loan: int, remainingMonths: nat): (p: int)
    requires loan >= 0 && remainingMonths > 0
    ensures 0 <= p <= loan
    ensures remainingMonths == 1 ==> p == loan
    ensures remainingMonths > 1 && loan > 0 ==> p < loan
  {
    DivisionBounds(loan, remainingMonths);
    loan / remainingMonths
  }

  lemma DivisionBounds(a: int, b: int)
    requires a >= 0 && b > 0
    ensures 0 <= a / b <= a
    ensures b > 1 && a > 0 ==> a / b < a
  {
    var q := a / b;
    var r := a % b;
    assert q * b + r == a && 0 <= r < b;
    assert q >= 0 by {
      if q < 0 { MulNegative(q, b); }
    }
    MulAtLeast(q, b);
    if b > 1 && a > 0 {
      assert q * b >= q + q by { MulAtLeast(q, b - 1); }
      assert q >= 1 ==> q < a;
    }
  }

  function AddSalary(p: PersonState): (q: PersonState)
    ensures q.money == p.money + p.salary
    ensures q == p.(money := q.money)
  {
    p.(money := p.money + p.salary)
  }

  /**
   * The mortgage payment: interest on the outstanding loan and one share of
   * the principal leave the cash; the principal share leaves the loan.
   */
  function PayMortgage(p: PersonState): (q: PersonState)
    requires p.LoanValid()
    ensures q.LoanValid()
    ensures p.loan == 0 ==> q == p
    ensures p.loan != 0 ==>
              q.loan == p.loan - Principal(p.loan, p.remainingMonths) &&
              q.remainingMonths == p.remainingMonths - 1 &&
              q.money == p.money - MonthlyInterest(p.loan, p.loanRate) - (p.loan - q.loan)
    ensures q.loan <= p.loan
  {
    if p.loan == 0 then p
    else
      var interest := MonthlyInterest(p.loan, p.loanRate);
      var principal := Principal(p.loan, p.remainingMonths);
      p.(money := p.money - interest - principal,
         loan := p.loan - principal,
         remainingMonths := p.remainingMonths - 1)
  }

  function PayRent(p: PersonState): PersonState {
    p.(money := p.money - p.rentCost)
  }

  function PayBills(p: PersonState): PersonState {
    p.(money := p.money - p.foodCost - p.serviceCost - p.personnelCost)
  }

  /** All cash goes to the deposit. */
  function AddDeposit(p: PersonState): (q: PersonState)
    ensures q.money == 0
    ensures q.capital + q.money == p.capital + p.money
    ensures q.(money := p.money, capital := p.capital) == p
  {
    p.(capital := p.capital + p.money, money := 0)
  }

  /** The yearly-rate processes applied at the end of a month. */
  function Processes(p: PersonState): PersonState {
    p.(capital := p.capital + MonthlyInterest(p.capital, p.depositRate),
       salary := p.salary + MonthlyInterest(p.salary, 0.08),
       foodCost := p.foodCost + MonthlyInterest(p.foodCost, 0.08),
       serviceCost := p.serviceCost + MonthlyInterest(p.serviceCost, 0.08),
       personnelCost := p.personnelCost + MonthlyInterest(p.personnelCost, 0.08),
       rentCost := p.rentCost + MonthlyInterest(p.rentCost, 0.08),
       estateCost := p.estateCost + MonthlyInterest(p.estateCost, 0.08))
  }

  /** One month of operations, in the order the source applies them. */
  function Month(p: PersonState): (q: PersonState)
    requires p.LoanValid()
    ensures q.LoanValid()
    ensures q.money == 0
    ensures q.loan == PayMortgage(p).loan && q.remainingMonths == PayMortgage(p).remainingMonths
  {
    Processes(AddDeposit(PayBills(PayRent(PayMortgage(AddSalary(p))))))
  }

  /** The outstanding loan after n monthly payments. */
  function LoanAfter(loan: int, remainingMonths: nat, n: nat): (r: int)
    requires loan >= 0 && (loan != 0 ==> remainingMonths > 0)
    decreases n
  {
    if n == 0 || loan == 0 then loan
    else LoanAfter(loan - Principal(loan, remainingMonths), remainingMonths - 1, n - 1)
  }

  /** Months left on the loan after n monthly payments. */
  function MonthsAfter(loan: int, remainingMonths: nat, n: nat): nat
    requires loan >= 0 && (loan != 0 ==> remainingMonths > 0)
    decreases n
  {
    if n == 0 || loan == 0 then remainingMonths
    else MonthsAfter(loan - Principal(loan, remainingMonths), remainingMonths - 1, n - 1)
  }

  /** A month of operations advances the loan exactly one payment. */
  lemma {:induction false} MonthAdvancesLoan(p: PersonState, n: nat)
    requires p.LoanValid()
    ensures Month(p).LoanValid()
    ensures LoanAfter(Month(p).loan, Month(p).remainingMonths, n) == LoanAfter(p.loan, p.remainingMonths, n + 1)
    ensures MonthsAfter(Month(p).loan, Month(p).remainingMonths, n) == MonthsAfter(p.loan, p.remainingMonths, n + 1)
  {
    if p.loan == 0 {
      ZeroLoanStays(p.remainingMonths, n);
      ZeroLoanStays(p.remainingMonths, n + 1);
    }
  }

  lemma {:induction false} ZeroLoanStays(remainingMonths: nat, n: nat)
    ensures LoanAfter(0, remainingMonths, n) == 0
    ensures MonthsAfter(0, remainingMonths, n) == remainingMonths
  {
  }

  /**
   * Equal-principal amortisation repays the loan exactly: after as many
   * payments as there are months left (or more), nothing is owed.
   */
  lemma {:induction false} LoanRepaidAtTerm(loan: int, remainingMonths: nat, n: nat)
    requires loan >= 0 && (loan != 0 ==> remainingMonths > 0)
    requires n >= remainingMonths
    ensures LoanAfter(loan, remainingMonths, n) == 0
    decreases n
  {
    if n == 0 || loan == 0 {
    } else {
      var next := loan - Principal(loan, remainingMonths);
      if remainingMonths == 1 {
        ZeroLoanStays(0, n - 1);
      } else {
        LoanRepaidAtTerm(next, remainingMonths - 1, n - 1);
      }
    }
  }

  /** The loan never grows and never becomes negative. */
  lemma {:induction false} LoanAfterBounds(loan: int, remainingMonths: nat, n: nat)
    requires loan >= 0 && (loan != 0 ==> remainingMonths > 0)
    ensures 0 <= LoanAfter(loan, remainingMonths, n) <= loan
    decreases n
  {
    if n == 0 || loan == 0 {
    } else {
      LoanAfterBounds(loan - Principal(loan, remainingMonths), remainingMonths - 1, n - 1);
    }
  }

  class Person {
    var money: int
    var salary: int
    var capital: int
    var depositRate: real
    var estateCost: int
    var loan: int
    var remainingMonths: nat
    var loanRate: real
    var rentCost: int
    var foodCost: int
    var serviceCost: int
    var personnelCost: int

    /** The person's fields as one value. */
    function State(): PersonState
      reads this
    {
      PersonState(money, salary, capital, depositRate, estateCost,
                  loan, remainingMonths, loanRate,
                  rentCost, foodCost, serviceCost, personnelCost)
    }

    predicate Valid()
      reads this
    {
      State().LoanValid()
    }

    method Set(s: PersonState)
      modifies this
      ensures State() == s
    {
      money, salary, capital, depositRate, estateCost := s.money, s.salary, s.capital, s.depositRate, s.estateCost;
      loan, remainingMonths, loanRate := s.loan, s.remainingMonths, s.loanRate;
      rentCost, foodCost, serviceCost, personnelCost := s.rentCost, s.foodCost, s.serviceCost, s.personnelCost;
    }

    /** A buyer: a flat bought with a 1 000 000 down payment and a 30-year loan at 17%. */
    constructor AliceInit()
      ensures Valid()
      ensures State() == PersonState(0, 300_000, 0, 0.2, 15_000_000,
                                     14_000_000, 360, 0.17,
                                     0, 20_000, 10_000, 15_000)
    {
      money, salary, capital, depositRate, estateCost := 0, 300_000, 0, 0.2, 15_000_000;
      loan, remainingMonths, loanRate := 14_000_000, 360, 0.17;
      rentCost, foodCost, serviceCost, personnelCost := 0, 20_000, 10_000, 15_000;
    }

    /** A renter who keeps 1 000 000 on deposit and owes nothing. */
    constructor BobInit()
      ensures Valid()
      ensures State() == PersonState(0, 300_000, 1_000_000, 0.2, 0,
                                     0, 0, 0.0,
                                     30_000, 20_000, 10_000, 15_000)
    {
      money, salary, capital, depositRate, estateCost := 0, 300_000, 1_000_000, 0.2, 0;
      loan, remainingMonths, loanRate := 0, 0, 0.0;
      rentCost, foodCost, serviceCost, personnelCost := 30_000, 20_000, 10_000, 15_000;
    }

    method PayMortgageStep()
      requires Valid()
      modifies this
      ensures Valid()
      ensures State() == PayMortgage(old(State()))
    {
      if loan != 0 {
        money := money - MonthlyInterest(loan, loanRate);
        var payment := loan / remainingMonths;
        money := money - payment;
        loan := loan - payment;
        remainingMonths := remainingMonths - 1;
      }
    }

    method AddDepositStep()
      modifies this
      ensures State() == AddDeposit(old(State()))
    {
      capital := capital + money;
      money := 0;
    }

    method AddSalaryStep()
      modifies this
      ensures State() == AddSalary(old(State()))
    {
      money := money + salary;
    }

    method PayRentStep()
      modifies this
      ensures State() == PayRent(old(State()))
    {
      money := money - rentCost;
    }

    method PayBillsStep()
      modifies this
      ensures State() == PayBills(old(State()))
    {
      money := money - foodCost;
      money := money - serviceCost;
      money := money - personnelCost;
    }

    method ProcessesStep()
      modifies this
      ensures State() == Processes(old(State()))
    {
      capital := capital + MonthlyInterest(capital, depositRate);
      salary := salary + MonthlyInterest(salary, 0.08);
      foodCost := foodCost + MonthlyInterest(foodCost, 0.08);
      serviceCost := serviceCost + MonthlyInterest(serviceCost, 0.08);
      personnelCost := personnelCost + MonthlyInterest(personnelCost, 0.08);
      rentCost := rentCost + MonthlyInterest(rentCost, 0.08);
      estateCost := estateCost + MonthlyInterest(estateCost, 0.08);
    }

    /** All of a month's operations, in order. */
    method MonthOperations()
      requires Valid()
      modifies this
      ensures Valid()
      ensures State() == Month(old(State()))
    {
      AddSalaryStep();
      PayMortgageStep();
      PayRentStep();
      PayBillsStep();
      AddDepositStep();
      ProcessesStep();
    }
  }

  class Date {
    var year: int
    var month: int

    constructor(year: int, month: int)
      ensures this.year == year && this.month == month
    {
      this.year := year;
      this.month := month;
    }

    /** Months since year 0, January. */
    function Index(): int
      reads this
    {
      year * 12 + (month - 1)
    }

    /** Same year and same month. */
    predicate EqualTo(other: Date)
      reads this, other
    {
      year == other.year && month == other.month
    }

    /** Advances to the next month, wrapping December into January of the next year. */
    method Increment()
      modifies this
      ensures old(month) == 12 ==> month == 1 && year == old(year) + 1
      ensures old(month) != 12 ==> month == old(month) + 1 && year == old(year)
      ensures 1 <= old(month) <= 12 ==> 1 <= month <= 12 && Index() == old(Index()) + 1
    {
      month := month + 1;
      if month == 13 {
        month := 1;
        year := year + 1;
      }
    }
  }

  /** Two dates are equal exactly when they denote the same month. */
  lemma DateEqualIndex(a: Date, b: Date)
    requires 1 <= a.month <= 12 && 1 <= b.month <= 12
    ensures a.EqualTo(b) <==> a.Index() == b.Index()
  {
  }

  /** Duration of the simulation in years. */
  const Duration := 30

  /**
   * Runs the simulation from September 2024 to September 2054, one
   * month of operations for each person per month.  It runs exactly
   * Duration * 12 months, so a loan taken for at most that term is repaid.
   */
  method Simulation(alice: Person, bob: Person) returns (months: nat)
    requires alice != bob
    requires alice.Valid() && bob.Valid()
    modifies alice, bob
    ensures months == Duration * 12
    ensures alice.Valid() && bob.Valid()
    ensures alice.loan == LoanAfter(old(alice.loan), old(alice.remainingMonths), months)
    ensures bob.loan == LoanAfter(old(bob.loan), old(bob.remainingMonths), months)
    ensures old(alice.remainingMonths) <= Duration * 12 ==> alice.loan == 0
    ensures old(bob.remainingMonths) <= Duration * 12 ==> bob.loan == 0
  {
    var current := new Date(2024, 9);
    var end := new Date(2024, 9);
    end.year := end.year + Duration;
    months := 0;
    ghost var a0, ar0 := alice.loan, alice.remainingMonths;
    ghost var b0, br0 := bob.loan, bob.remainingMonths;
    while !current.EqualTo(end)
      invariant 1 <= current.month <= 12 && end.month == 9 && end.year == 2054
      invariant current.Index() == 2024 * 12 + 8 + months
      invariant months <= Duration * 12
      invariant alice.Valid() && bob.Valid()
      invariant alice.loan == LoanAfter(a0, ar0, months) && alice.remainingMonths == MonthsAfter(a0, ar0, months)
      invariant bob.loan == LoanAfter(b0, br0, months) && bob.remainingMonths == MonthsAfter(b0, br0, months)
      decreases end.Index() - current.Index()
    {
      DateEqualIndex(current, end);
      MonthAdvancesLoanAt(a0, ar0, months, alice.State());
      MonthAdvancesLoanAt(b0, br0, months, bob.State());
      alice.MonthOperations();
      bob.MonthOperations();
      current.Increment();
      months := months + 1;
    }
    DateEqualIndex(current, end);
    if ar0 <= Duration * 12 { LoanRepaidAtTerm(a0, ar0, months); }
    if br0 <= Duration * 12 { LoanRepaidAtTerm(b0, br0, months); }
  }

  /** Step lemma for the simulation loop. */
  lemma {:induction false} MonthAdvancesLoanAt(loan0: int, months0: nat, n: nat, p: PersonState)
    requires loan0 >= 0 && (loan0 != 0 ==> months0 > 0)
    requires p.LoanValid()
    requires p.loan == LoanAfter(loan0, months0, n) && p.remainingMonths == MonthsAfter(loan0, months0, n)
    ensures Month(p).loan == LoanAfter(loan0, months0, n + 1)
    ensures Month(p).remainingMonths == MonthsAfter(loan0, months0, n + 1)
    decreases n
  {
    if n == 0 {
    } else if loan0 == 0 {
      ZeroLoanStays(months0, n + 1);
    } else {
      var next := loan0 - Principal(loan0, months0);
      MonthAdvancesLoanAt(next, months0 - 1, n - 1, p);
    }
  }
}

=== FILE: pathfinder.dfy ===
// Bellman-Ford and Floyd-Warshall shortest paths over a graph keyed by
// point name (KlestovAD/Coursework/pathfinder.cpp). The graph's hash map is
// modelled as a sequence of entries in its iteration order. Distances are
// unbounded integers: the C `int` overflow of distance + weight is not
// modelled; INT_MAX keeps its role as "unreached".

module PathFinder {

  import opened Sequences

  const INT_MAX: int := 2147483647

  datatype Edge = Edge(destination: string, weight: int)
  datatype Point = Point(point: string, edges: seq<Edge>)
  /** One key/value pair of the graph map. */
  datatype Entry = Entry(key: string, value: Point)

  /**
   * What a search returns: a path with its length (the source's pair), the
   * negative-cycle exception, or `Diverges` when the source's path assembly
   * loop would run forever.
   */
  datatype Outcome = Route(path: seq<string>, distance: int) | NegativeCycle | Diverges

  function Keys(graph: seq<Entry>): (ks: seq<string>)
    ensures |ks| == |graph| && forall i :: 0 <= i < |graph| ==> ks[i] == graph[i].key
  {
    seq(|graph|, i requires 0 <= i < |graph| => graph[i].key)
  }

  /**
   * Map keys are distinct (the first entry with each key is the entry
   * itself), and no key is the empty name, which the source uses as its
   * "no predecessor" marker.
   */
  ghost predicate WellFormed(graph: seq<Entry>)
  {
    forall i :: 0 <= i < |graph| ==> IndexOfKey(Keys(graph), graph[i].key) == i && |graph[i].key| > 0
  }

  /** Distinct positions hold distinct keys. */
  lemma KeysDistinct(graph: seq<Entry>, i: nat, j: nat)
    requires WellFormed(graph) && i < |graph| && j < |graph| && i != j
    ensures graph[i].key != graph[j].key
  {
    assert IndexOfKey(Keys(graph), graph[i].key) == i;
    assert IndexOfKey(Keys(graph), graph[j].key) == j;
  }

  ghost predicate HasEdge(graph: seq<Entry>, u: string, v: string)
  {
    exists i, k :: 0 <= i < |graph| && 0 <= k < |graph[i].value.edges| &&
      graph[i].key == u && graph[i].value.edges[k].destination == v
  }

  ghost predicate IsWalk(graph: seq<Entry>, w: seq<string>)
  {
    forall i :: 0 <= i < |w| - 1 ==> HasEdge(graph, w[i], w[i + 1])
  }

  ghost predicate Reachable(graph: seq<Entry>, s: string, t: string)
  {
    exists w :: |w| > 0 && w[0] == s && w[|w| - 1] == t && IsWalk(graph, w)
  }

  lemma ReachableStep(graph: seq<Entry>, s: string, u: string, v: string)
    requires Reachable(graph, s, u) && HasEdge(graph, u, v)
    ensures Reachable(graph, s, v)
  {
    var w :| |w| > 0 && w[0] == s && w[|w| - 1] == u && IsWalk(graph, w);
    IsWalkSnoc(graph, w, v);
    assert (w + [v])[0] == s && (w + [v])[|w|] == v;
  }

  /** A map read through C++ operator[]: a missing key reads as the default. */
  function Get<V>(m: map<string, V>, k: string, default: V): V
  {
    if k in m then m[k] else default
  }

  // ---------------------------------------------------------------------
  // Weighted walks, on the points' indices in map order.

  /** An edge from point i to point j of the given weight exists. */
  ghost predicate HasEdgeOfWeight(graph: seq<Entry>, i: nat, j: nat, w: int)
  {
    i < |graph| && j < |graph| &&
    exists k :: 0 <= k < |graph[i].value.edges| &&
      graph[i].value.edges[k].destination == graph[j].key && graph[i].value.edges[k].weight == w
  }

  function Sum(ws: seq<int>): int
  {
    if ws == [] then 0 else ws[0] + Sum(ws[1..])
  }

  lemma {:induction false} SumConcat(a: seq<int>, b: seq<int>)
    ensures Sum(a + b) == Sum(a) + Sum(b)
  {
    if a == [] {
      assert a + b == b;
    } else {
      assert (a + b)[1..] == a[1..] + b;
      SumConcat(a[1..], b);
    }
  }

  /** vs is a walk of points whose l-th step is an edge of weight ws[l]. */
  ghost predicate IsPath(graph: seq<Entry>, vs: seq<nat>, ws: seq<int>)
  {
    |vs| == |ws| + 1 &&
    (forall l :: 0 <= l < |vs| ==> vs[l] < |graph|) &&
    (forall l :: 0 <= l < |ws| ==> HasEdgeOfWeight(graph, vs[l], vs[l + 1], ws[l]))
  }

  /** Some walk from point i to point j weighs exactly d. */
  ghost predicate WalkOfWeight(graph: seq<Entry>, i: nat, j: nat, d: int)
  {
    exists vs, ws :: IsPath(graph, vs, ws) && vs[0] == i && vs[|vs| - 1] == j && Sum(ws) == d
  }

  lemma WalkEmpty(graph: seq<Entry>, i: nat)
    requires i < |graph|
    ensures WalkOfWeight(graph, i, i, 0)
  {
    assert IsPath(graph, [i], []);
  }

  lemma WalkEdge(graph: seq<Entry>, i: nat, j: nat, w: int)
    requires i < |graph| && j < |graph| && HasEdgeOfWeight(graph, i, j, w)
    ensures WalkOfWeight(graph, i, j, w)
  {
    assert Sum([w]) == w + Sum([]);
    assert IsPath(graph, [i, j], [w]);
  }

  /** A walk from i to k followed by a walk from k to j is a walk from i to j. */
  lemma WalkJoin(graph: seq<Entry>, i: nat, k: nat, j: nat, a: int, b: int)
    requires WalkOfWeight(graph, i, k, a) && WalkOfWeight(graph, k, j, b)
    ensures WalkOfWeight(graph, i, j, a + b)
  {
    var vs1, ws1 :| IsPath(graph, vs1, ws1) && vs1[0] == i && vs1[|vs1| - 1] == k && Sum(ws1) == a;
    var vs2, ws2 :| IsPath(graph, vs2, ws2) && vs2[0] == k && vs2[|vs2| - 1] == j && Sum(ws2) == b;
    var vs, ws := vs1 + vs2[1..], ws1 + ws2;
    assert forall l :: 0 <= l < |vs1| ==> vs[l] == vs1[l];
    assert forall l :: |vs1| - 1 <= l < |vs| ==> vs[l] == vs2[l - |vs1| + 1];
    forall l | 0 <= l < |ws|
      ensures HasEdgeOfWeight(graph, vs[l], vs[l + 1], ws[l])
    {
      if l < |ws1| {
        assert ws[l] == ws1[l];
      } else {
        assert ws[l] == ws2[l - |ws1|];
      }
    }
    SumConcat(ws1, ws2);
    assert IsPath(graph, vs, ws);
  }

  lemma WalkSnoc(graph: seq<Entry>, i: nat, a: nat, b: nat, d: int, w: int)
    requires a < |graph| && b < |graph| && WalkOfWeight(graph, i, a, d) && HasEdgeOfWeight(graph, a, b, w)
    ensures WalkOfWeight(graph, i, b, d + w)
  {
    WalkEdge(graph, a, b, w);
    WalkJoin(graph, i, a, b, d, w);
  }

  /** The walk's first l steps, and its steps from l on, are walks. */
  lemma PathSplit(graph: seq<Entry>, vs: seq<nat>, ws: seq<int>, l: nat)
    requires IsPath(graph, vs, ws) && l < |vs|
    ensures IsPath(graph, vs[..l + 1], ws[..l]) && IsPath(graph, vs[l..], ws[l..])
    ensures ws == ws[..l] + ws[l..]
  {
    var vs2, ws2 := vs[l..], ws[l..];
    forall m | 0 <= m < |ws2|
      ensures HasEdgeOfWeight(graph, vs2[m], vs2[m + 1], ws2[m])
    {
      assert vs2[m] == vs[l + m] && vs2[m + 1] == vs[l + m + 1] && ws2[m] == ws[l + m];
    }
  }

  // ---------------------------------------------------------------------
  // Bellman-Ford (lines 17-74)

  /** e is one edge of the graph paired with the key of the point it leaves. */
  ghost predicate IsEdgeOf(graph: seq<Entry>, e: (string, Edge))
  {
    exists i, k :: 0 <= i < |graph| && 0 <= k < |graph[i].value.edges| &&
      e == (graph[i].key, graph[i].value.edges[k])
  }

  /**
   * Every edge of the graph as a (source key, edge) pair, in map order
   * (lines 34-39).
   */
  method CollectEdges(graph: seq<Entry>) returns (edges: seq<(string, Edge)>)
    ensures forall k :: 0 <= k < |edges| ==> IsEdgeOf(graph, edges[k])
    ensures forall i, k :: 0 <= i < |graph| && 0 <= k < |graph[i].value.edges| ==>
      (graph[i].key, graph[i].value.edges[k]) in edges
  {
    edges := [];
    var i := 0;
    while i < |graph|
      invariant 0 <= i <= |graph|
      invariant forall k :: 0 <= k < |edges| ==> IsEdgeOf(graph, edges[k])
      invariant forall i', k :: 0 <= i' < i && 0 <= k < |graph[i'].value.edges| ==>
        (graph[i'].key, graph[i'].value.edges[k]) in edges
    {
      var mine := EdgesOf(graph, i);
      edges := edges + mine;
      i := i + 1;
    }
  }

  /** The edges of entry i, each paired with its key (the inner loop of lines 34-39). */
  method EdgesOf(graph: seq<Entry>, i: nat) returns (edges: seq<(string, Edge)>)
    requires i < |graph|
    ensures forall k :: 0 <= k < |edges| ==> IsEdgeOf(graph, edges[k]) && edges[k].0 == graph[i].key
    ensures forall k :: 0 <= k < |graph[i].value.edges| ==> (graph[i].key, graph[i].value.edges[k]) in edges
  {
    var out := graph[i].value.edges;
    edges := [];
    var k := 0;
    while k < |out|
      invariant 0 <= k <= |out|
      invariant forall k :: 0 <= k < |edges| ==> IsEdgeOf(graph, edges[k]) && edges[k].0 == graph[i].key
      invariant forall k' :: 0 <= k' < k ==> (graph[i].key, out[k']) in edges
    {
      assert IsEdgeOf(graph, (graph[i].key, out[k])) by {
        assert 0 <= i < |graph| && 0 <= k < |graph[i].value.edges|;
      }
      edges := edges + [(graph[i].key, out[k])];
      k := k + 1;
    }
  }

  /** A listed edge is an edge of its key's point, and its key is a key. */
  lemma EdgeOfFacts(graph: seq<Entry>, e: (string, Edge))
    requires IsEdgeOf(graph, e)
    ensures e.0 in Keys(graph) && HasEdge(graph, e.0, e.1.destination)
  {
    var i, k :| 0 <= i < |graph| && 0 <= k < |graph[i].value.edges| && e == (graph[i].key, graph[i].value.edges[k]);
    assert Keys(graph)[i] == e.0;
  }

  /**
   * What holds between relaxation passes: every key has a distance of at
   * most INT_MAX; a key other than start with a finite distance has a
   * predecessor; a predecessor is a key with a finite distance and an edge
   * to its node; and every key with a finite distance is reachable from start.
   */
  ghost predicate BFInv(graph: seq<Entry>, start: string, distance: map<string, int>, order: map<string, string>)
  {
    PredecessorsOk(graph, start, distance, order) &&
    (forall v :: v in Keys(graph) && distance[v] < INT_MAX ==> Reachable(graph, start, v))
  }

  /** The part of BFInv about distances and predecessors. */
  ghost predicate PredecessorsOk(graph: seq<Entry>, start: string, distance: map<string, int>, order: map<string, string>)
  {
    start in Keys(graph) &&
    (forall v :: v in Keys(graph) ==> v in distance && distance[v] <= INT_MAX) &&
    (forall v {:trigger order[v]} :: v in order ==>
       order[v] in Keys(graph) && HasEdge(graph, order[v], v) && Get(distance, order[v], 0) < INT_MAX) &&
    (forall v :: v in Keys(graph) && v != start && distance[v] < INT_MAX ==> v in order)
  }

  /** Every key with a distance below INT_MAX is reached from point s by a walk of exactly that weight. */
  ghost predicate DistancesWalked(graph: seq<Entry>, s: nat, distance: map<string, int>)
  {
    forall j :: 0 <= j < |graph| && graph[j].key in distance && distance[graph[j].key] < INT_MAX ==>
      WalkOfWeight(graph, s, j, distance[graph[j].key])
  }

  /** Every prefix of ws, the whole included, weighs less than INT_MAX. */
  ghost predicate PrefixesBelowMax(ws: seq<int>)
  {
    forall m :: 0 <= m <= |ws| ==> Sum(ws[..m]) < INT_MAX
  }

  /**
   * The distance of each key is at most the weight of every walk to it from
   * point s with at most `passes` edges whose prefixes stay below INT_MAX.
   */
  ghost predicate PassBound(graph: seq<Entry>, s: nat, distance: map<string, int>, passes: nat)
  {
    forall vs, ws :: IsPath(graph, vs, ws) && vs[0] == s && |ws| <= passes && PrefixesBelowMax(ws) ==>
      Get(distance, graph[vs[|vs| - 1]].key, 0) <= Sum(ws)
  }

  /**
   * One pass over all edges (lines 43-49): an edge u -> v with a finite
   * distance at u lowers v's distance to u's plus the weight when that is
   * smaller, and records u as v's predecessor. After the pass each edge's
   * destination is no further than its source was before the pass plus the
   * weight, and no distance has grown.
   */
  method RelaxAll(graph: seq<Entry>, start: string, ghost s: nat, edges: seq<(string, Edge)>,
                  distance: map<string, int>, order: map<string, string>)
    returns (distance': map<string, int>, order': map<string, string>)
    requires WellFormed(graph) && s < |graph| && graph[s].key == start
    requires BFInv(graph, start, distance, order) && DistancesWalked(graph, s, distance)
    requires forall k :: 0 <= k < |edges| ==> IsEdgeOf(graph, edges[k])
    ensures BFInv(graph, start, distance', order') && DistancesWalked(graph, s, distance')
    ensures NoneRaised(distance, distance') && EdgesBounded(edges, distance, distance', |edges|)
  {
    distance', order' := distance, order;
    var k := 0;
    while k < |edges|
      invariant k <= |edges|
      invariant BFInv(graph, start, distance', order') && DistancesWalked(graph, s, distance')
      invariant NoneRaised(distance, distance') && EdgesBounded(edges, distance, distance', k)
    {
      var (from, e) := edges[k];
      if Get(distance', from, 0) != INT_MAX && Get(distance', from, 0) + e.weight < Get(distance', e.destination, 0) {
        ghost var before, orderBefore := distance', order';
        distance' := distance'[e.destination := Get(distance', from, 0) + e.weight];
        order' := order'[e.destination := from];
        RelaxStep(graph, start, s, edges, distance, k, from, e, before, orderBefore, distance', order');
      } else {
        SkipLowers(edges, distance, distance', k);
      }
      k := k + 1;
    }
  }

  /** No distance in cur exceeds its value in distance. */
  ghost predicate NoneRaised(distance: map<string, int>, cur: map<string, int>)
  {
    forall v :: Get(cur, v, 0) <= Get(distance, v, 0)
  }

  /** Each of the first k edges with a finite source in distance brings its destination in cur within the weight. */
  ghost predicate EdgesBounded(edges: seq<(string, Edge)>, distance: map<string, int>, cur: map<string, int>, k: nat)
    requires k <= |edges|
  {
    forall q :: 0 <= q < k && Get(distance, edges[q].0, 0) < INT_MAX ==>
      Get(cur, edges[q].1.destination, 0) <= Get(distance, edges[q].0, 0) + edges[q].1.weight
  }

  /** Relaxing edge k, which improves its destination, keeps every invariant of RelaxAll's loop. */
  lemma RelaxStep(graph: seq<Entry>, start: string, s: nat, edges: seq<(string, Edge)>, distance: map<string, int>,
                  k: nat, from: string, e: Edge, cur: map<string, int>, order: map<string, string>,
                  cur': map<string, int>, order': map<string, string>)
    requires WellFormed(graph) && s < |graph| && graph[s].key == start
    requires k < |edges| && edges[k] == (from, e) && IsEdgeOf(graph, (from, e))
    requires BFInv(graph, start, cur, order) && DistancesWalked(graph, s, cur)
    requires NoneRaised(distance, cur) && EdgesBounded(edges, distance, cur, k)
    requires Get(cur, from, 0) != INT_MAX && Get(cur, from, 0) + e.weight < Get(cur, e.destination, 0)
    requires cur' == cur[e.destination := Get(cur, from, 0) + e.weight]
    requires order' == order[e.destination := from]
    ensures BFInv(graph, start, cur', order') && DistancesWalked(graph, s, cur')
    ensures NoneRaised(distance, cur') && EdgesBounded(edges, distance, cur', k + 1)
  {
    EdgeOfFacts(graph, (from, e));
    RelaxKeepsInv(graph, start, cur, order, from, e, cur', order');
    RelaxKeepsWalked(graph, s, cur, from, e, cur');
    RelaxLowers(edges, distance, cur, k, from, e, cur');
  }

  /** The distance bounds of RelaxAll's loop survive relaxing edge k. */
  lemma RelaxLowers(edges: seq<(string, Edge)>, distance: map<string, int>, cur: map<string, int>, k: nat,
                    from: string, e: Edge, cur': map<string, int>)
    requires k < |edges| && edges[k] == (from, e)
    requires NoneRaised(distance, cur) && EdgesBounded(edges, distance, cur, k)
    requires Get(cur, from, 0) + e.weight < Get(cur, e.destination, 0)
    requires cur' == cur[e.destination := Get(cur, from, 0) + e.weight]
    ensures NoneRaised(distance, cur') && EdgesBounded(edges, distance, cur', k + 1)
  {
    forall v
      ensures Get(cur', v, 0) <= Get(distance, v, 0)
    {
      assert Get(cur', v, 0) <= Get(cur, v, 0);
    }
    forall q | 0 <= q < k + 1 && Get(distance, edges[q].0, 0) < INT_MAX
      ensures Get(cur', edges[q].1.destination, 0) <= Get(distance, edges[q].0, 0) + edges[q].1.weight
    {
      assert Get(cur', edges[q].1.destination, 0) <= Get(cur, edges[q].1.destination, 0);
      if q == k {
        assert Get(cur, edges[k].0, 0) <= Get(distance, edges[k].0, 0);
      }
    }
  }

  /** The distance bounds of RelaxAll's loop survive skipping an edge that does not improve its destination. */
  lemma SkipLowers(edges: seq<(string, Edge)>, distance: map<string, int>, cur: map<string, int>, k: nat)
    requires k < |edges|
    requires NoneRaised(distance, cur) && EdgesBounded(edges, distance, cur, k)
    requires !(Get(cur, edges[k].0, 0) != INT_MAX &&
               Get(cur, edges[k].0, 0) + edges[k].1.weight < Get(cur, edges[k].1.destination, 0))
    ensures EdgesBounded(edges, distance, cur, k + 1)
  {
    assert Get(cur, edges[k].0, 0) <= Get(distance, edges[k].0, 0);
  }

  /** Relaxing one edge out of a reached key keeps BFInv. */
  lemma RelaxKeepsInv(graph: seq<Entry>, start: string, distance: map<string, int>, order: map<string, string>,
                      from: string, e: Edge, distance': map<string, int>, order': map<string, string>)
    requires BFInv(graph, start, distance, order) && HasEdge(graph, from, e.destination) && from in Keys(graph)
    requires Get(distance, from, 0) != INT_MAX && Get(distance, from, 0) + e.weight < Get(distance, e.destination, 0)
    requires distance' == distance[e.destination := Get(distance, from, 0) + e.weight]
    requires order' == order[e.destination := from]
    ensures BFInv(graph, start, distance', order')
  {
    RelaxKeepsPredecessors(graph, start, distance, order, from, e, distance', order');
    assert Reachable(graph, start, from);
    ReachableStep(graph, start, from, e.destination);
    forall v | v in Keys(graph) && distance'[v] < INT_MAX
      ensures Reachable(graph, start, v)
    {
      if v != e.destination {
        assert distance'[v] == distance[v];
      }
    }
  }

  /** The PredecessorsOk half of RelaxKeepsInv. */
  lemma RelaxKeepsPredecessors(graph: seq<Entry>, start: string, distance: map<string, int>,
                               order: map<string, string>, from: string, e: Edge,
                               distance': map<string, int>, order': map<string, string>)
    requires PredecessorsOk(graph, start, distance, order) && HasEdge(graph, from, e.destination) && from in Keys(graph)
    requires Get(distance, from, 0) != INT_MAX && Get(distance, from, 0) + e.weight < Get(distance, e.destination, 0)
    requires distance' == distance[e.destination := Get(distance, from, 0) + e.weight]
    requires order' == order[e.destination := from]
    ensures PredecessorsOk(graph, start, distance', order')
  {
    forall v | v in Keys(graph)
      ensures v in distance' && distance'[v] <= INT_MAX
    {
    }
    forall v | v in order'
      ensures order'[v] in Keys(graph) && HasEdge(graph, order'[v], v) && Get(distance', order'[v], 0) < INT_MAX
    {
      assert Get(distance', order'[v], 0) <= Get(distance, order'[v], 0);
      if v != e.destination {
        assert order'[v] == order[v];
      }
    }
    forall v | v in Keys(graph) && v != start && distance'[v] < INT_MAX
      ensures v in order'
    {
      if v != e.destination {
        assert distance'[v] == distance[v];
      }
    }
  }

  /** Lowering an edge's destination to its source's distance plus the weight keeps every distance a walk's weight. */
  lemma RelaxKeepsWalked(graph: seq<Entry>, s: nat, distance: map<string, int>, from: string, e: Edge,
                         distance': map<string, int>)
    requires WellFormed(graph) && IsEdgeOf(graph, (from, e)) && DistancesWalked(graph, s, distance)
    requires from in distance && distance[from] < INT_MAX
    requires distance' == distance[e.destination := Get(distance, from, 0) + e.weight]
    ensures DistancesWalked(graph, s, distance')
  {
    var edge := (from, e);
    var a, m :| 0 <= a < |graph| && 0 <= m < |graph[a].value.edges| && edge == (graph[a].key, graph[a].value.edges[m]);
    forall j | 0 <= j < |graph| && graph[j].key in distance' && distance'[graph[j].key] < INT_MAX
      ensures WalkOfWeight(graph, s, j, distance'[graph[j].key])
    {
      if graph[j].key == edge.1.destination {
        assert HasEdgeOfWeight(graph, a, j, edge.1.weight);
        WalkSnoc(graph, s, a, j, distance[edge.0], edge.1.weight);
      }
    }
  }

  /** Before the first pass only start is reached, by the empty walk. */
  lemma InitialBounds(graph: seq<Entry>, start: string, s: nat, distance: map<string, int>)
    requires WellFormed(graph) && s < |graph| && graph[s].key == start
    requires forall v :: v in distance <==> v in Keys(graph)
    requires distance[start] == 0 && forall v :: v in distance && v != start ==> distance[v] == INT_MAX
    ensures DistancesWalked(graph, s, distance) && PassBound(graph, s, distance, 0)
  {
    WalkEmpty(graph, s);
    forall j | 0 <= j < |graph| && graph[j].key in distance && distance[graph[j].key] < INT_MAX
      ensures WalkOfWeight(graph, s, j, distance[graph[j].key])
    {
      assert graph[j].key == graph[s].key;
    }
    forall vs, ws | IsPath(graph, vs, ws) && vs[0] == s && |ws| <= 0 && PrefixesBelowMax(ws)
      ensures Get(distance, graph[vs[|vs| - 1]].key, 0) <= Sum(ws)
    {
      assert Keys(graph)[s] == start;
    }
  }

  /** The bound of PassBound read at one point t, for walks that stay below INT_MAX. */
  lemma BoundAtEnd(graph: seq<Entry>, s: nat, t: nat, distance: map<string, int>, passes: nat)
    requires PassBound(graph, s, distance, passes) && t < |graph|
    ensures forall vs, ws ::
      (IsPath(graph, vs, ws) && vs[0] == s && vs[|vs| - 1] == t && |ws| <= passes && PrefixesBelowMax(ws)) ==>
      Get(distance, graph[t].key, 0) <= Sum(ws) < INT_MAX
  {
    forall vs, ws | IsPath(graph, vs, ws) && vs[0] == s && vs[|vs| - 1] == t && |ws| <= passes && PrefixesBelowMax(ws)
      ensures Get(distance, graph[t].key, 0) <= Sum(ws) < INT_MAX
    {
      assert ws[..|ws|] == ws;
    }
  }

  /**
   * A pass that brings each edge's destination within its source's old
   * distance plus the weight extends the bound by one edge.
   */
  lemma PassStep(graph: seq<Entry>, s: nat, edges: seq<(string, Edge)>,
                 distance: map<string, int>, distance': map<string, int>, passes: nat)
    requires PassBound(graph, s, distance, passes)
    requires forall i, k :: 0 <= i < |graph| && 0 <= k < |graph[i].value.edges| ==>
      (graph[i].key, graph[i].value.edges[k]) in edges
    requires NoneRaised(distance, distance') && EdgesBounded(edges, distance, distance', |edges|)
    ensures PassBound(graph, s, distance', passes + 1)
  {
    forall vs, ws | IsPath(graph, vs, ws) && vs[0] == s && |ws| <= passes + 1 && PrefixesBelowMax(ws)
      ensures Get(distance', graph[vs[|vs| - 1]].key, 0) <= Sum(ws)
    {
      if |ws| <= passes {
        assert Get(distance, graph[vs[|vs| - 1]].key, 0) <= Sum(ws);
      } else {
        var m := |ws| - 1;
        PathSplit(graph, vs, ws, m);
        var vs', ws' := vs[..m + 1], ws[..m];
        assert PrefixesBelowMax(ws') by {
          forall x | 0 <= x <= |ws'|
            ensures Sum(ws'[..x]) < INT_MAX
          {
            assert ws'[..x] == ws[..x];
          }
        }
        assert Get(distance, graph[vs[m]].key, 0) <= Sum(ws');
        var u, v := vs[m], vs[m + 1];
        var k :| 0 <= k < |graph[u].value.edges| &&
          graph[u].value.edges[k].destination == graph[v].key && graph[u].value.edges[k].weight == ws[m];
        var q :| 0 <= q < |edges| && edges[q] == (graph[u].key, graph[u].value.edges[k]);
        assert ws[m..] == [ws[m]];
        assert Sum([ws[m]]) == ws[m] + Sum([]);
        SumConcat(ws', [ws[m]]);
      }
    }
  }

  /**
   * Bellman-Ford from start to end (lines 17-74). Missing endpoints and an
   * unreached end give an empty path and INT_MAX. Otherwise the predecessor
   * chain from end is followed back and reversed. The negative-cycle check
   * of lines 53-60 has its throw commented out and does nothing; with a
   * negative cycle the chain can loop, which is `Diverges`. A returned
   * distance is the weight of a walk from start to end, and no walk from
   * start to end with fewer edges than there are points, and with every
   * prefix below INT_MAX, is lighter.
   */
  method BellmanFord(graph: seq<Entry>, start: string, end: string) returns (r: Outcome)
    requires WellFormed(graph)
    ensures start !in Keys(graph) || end !in Keys(graph) ==> r == Route([], INT_MAX)
    ensures !r.NegativeCycle?
    ensures r.Route? && r.path == [] ==> r.distance == INT_MAX
    ensures r.Route? && r.path != [] ==>
      r.path[0] == start && r.path[|r.path| - 1] == end && IsWalk(graph, r.path) && r.distance < INT_MAX
    ensures start in Keys(graph) && end in Keys(graph) && !Reachable(graph, start, end) ==>
      r == Route([], INT_MAX)
    ensures start in Keys(graph) && end in Keys(graph) && r.Route? && r.path != [] ==>
      WalkOfWeight(graph, IndexOfKey(Keys(graph), start), IndexOfKey(Keys(graph), end), r.distance)
    ensures start in Keys(graph) && end in Keys(graph) ==>
      forall vs, ws ::
        (IsPath(graph, vs, ws) && vs[0] == IndexOfKey(Keys(graph), start) &&
         vs[|vs| - 1] == IndexOfKey(Keys(graph), end) && |ws| < |graph| && PrefixesBelowMax(ws)) ==>
        r.Diverges? || (r.Route? && r.path != [] && r.distance <= Sum(ws))
  {
    var keys := Keys(graph);
    if start !in keys || end !in keys {
      return Route([], INT_MAX);
    }
    var distance, order := Distances(graph, start, end, IndexOfKey(keys, start), IndexOfKey(keys, end));
    if Get(distance, end, 0) == INT_MAX {
      return Route([], INT_MAX);
    }
    r := TraceBack(graph, start, end, distance, order);
  }

  /**
   * Lines 24-50: every key starts at INT_MAX except start at 0, the edges
   * are collected, and |graph| - 1 passes relax them all. Afterwards the
   * predecessors lead along edges, a finite distance at end (point t) is the
   * weight of a walk from start (point s), and no walk from s to t with
   * fewer edges than there are points, and with every prefix below INT_MAX,
   * is lighter.
   */
  method Distances(graph: seq<Entry>, start: string, ghost end: string, ghost s: nat, ghost t: nat)
    returns (distance': map<string, int>, order': map<string, string>)
    requires WellFormed(graph) && s < |graph| && graph[s].key == start && t < |graph| && graph[t].key == end
    ensures PredecessorsOk(graph, start, distance', order')
    ensures Get(distance', end, 0) < INT_MAX ==>
      Reachable(graph, start, end) && WalkOfWeight(graph, s, t, Get(distance', end, 0))
    ensures forall vs, ws ::
      (IsPath(graph, vs, ws) && vs[0] == s && vs[|vs| - 1] == t && |ws| < |graph| && PrefixesBelowMax(ws)) ==>
      Get(distance', end, 0) <= Sum(ws) < INT_MAX
  {
    var distance := InitDistances(graph, start);
    var order: map<string, string> := map[];
    assert Reachable(graph, start, start) by {
      assert IsWalk(graph, [start]);
    }
    InitialBounds(graph, start, s, distance);
    var edges := CollectEdges(graph);
    distance', order' := distance, order;
    var idx := 0;
    while idx < |graph| - 1
      invariant 0 <= idx <= |graph| - 1
      invariant BFInv(graph, start, distance', order') && DistancesWalked(graph, s, distance')
      invariant PassBound(graph, s, distance', idx)
    {
      ghost var before := distance';
      distance', order' := RelaxAll(graph, start, s, edges, distance', order');
      PassStep(graph, s, edges, before, distance', idx);
      idx := idx + 1;
    }
    BoundAtEnd(graph, s, t, distance', |graph| - 1);
    assert graph[t].key in Keys(graph);
  }


  /** Every key at INT_MAX except start at 0 (lines 26-31). */
  method InitDistances(graph: seq<Entry>, start: string) returns (distance: map<string, int>)
    requires start in Keys(graph)
    ensures forall v :: v in distance <==> v in Keys(graph)
    ensures distance[start] == 0
    ensures forall v :: v in distance && v != start ==> distance[v] == INT_MAX
  {
    var keys := Keys(graph);
    distance := map[];
    var i := 0;
    while i < |graph|
      invariant 0 <= i <= |graph|
      invariant forall j :: 0 <= j < i ==> keys[j] in distance
      invariant forall v :: v in distance ==> v in keys && distance[v] == INT_MAX
    {
      distance := distance[keys[i] := INT_MAX];
      i := i + 1;
    }
    distance := distance[start := 0];
  }

  /** One predecessor link: the recorded predecessor, or "" where none is recorded. */
  ghost function Predecessor(order: map<string, string>): string -> string
  {
    at => Get(order, at, "")
  }

  /** No key is the empty name. */
  lemma KeyNotEmpty(graph: seq<Entry>, v: string)
    requires WellFormed(graph) && v in Keys(graph)
    ensures v != ""
  {
    var i :| 0 <= i < |Keys(graph)| && Keys(graph)[i] == v;
    assert graph[i].key == v;
  }

  /**
   * The path of lines 66-71: predecessors are followed from end until one
   * reads as "" and the names collected are reversed. When the chain has
   * not ended after as many steps as there are keys it has revisited a
   * point, so it never ends and the source loops forever: `Diverges`.
   */
  method TraceBack(graph: seq<Entry>, start: string, end: string,
                   distance: map<string, int>, order: map<string, string>) returns (r: Outcome)
    requires WellFormed(graph) && PredecessorsOk(graph, start, distance, order)
    requires end in Keys(graph) && distance[end] < INT_MAX
    ensures r.Route? ==>
      r.path != [] && r.path[0] == start && r.path[|r.path| - 1] == end &&
      IsWalk(graph, r.path) && r.distance == distance[end]
    ensures r.Route? ==>
      Iterate(Predecessor(order), end, |r.path|) == "" &&
      forall m :: 0 <= m < |r.path| ==> r.path[|r.path| - 1 - m] == Iterate(Predecessor(order), end, m) != ""
    ensures r.Diverges? ==> forall n: nat :: Iterate(Predecessor(order), end, n) != ""
    ensures r.Route? || r.Diverges?
  {
    // Follow predecessors from end; an absent one reads as "".
    var path: seq<string> := [];
    var at := end;
    while at != ""
      invariant TraceInv(graph, start, distance, order, end, path, at)
      decreases |graph| + 1 - |path|, if at == "" then 0 else 1
    {
      if |path| > |graph| {
        PredecessorsLoop(graph, order, end, path);
        return Diverges;
      }
      TraceStep(graph, start, distance, order, end, path, at);
      path := path + [at];
      at := Get(order, at, "");
    }
    TraceDone(graph, start, distance, order, end, path);
    return Route(Reverse(path), distance[end]);
  }

  /** When the chain has ended, the reversed names form a walk from start to end. */
  lemma TraceDone(graph: seq<Entry>, start: string, distance: map<string, int>, order: map<string, string>,
                  end: string, path: seq<string>)
    requires WellFormed(graph) && TraceInv(graph, start, distance, order, end, path, "")
    ensures Reverse(path) != [] && Reverse(path)[0] == start && Reverse(path)[|path| - 1] == end
    ensures IsWalk(graph, Reverse(path)) && Iterate(Predecessor(order), end, |path|) == ""
    ensures forall m :: 0 <= m < |path| ==> Reverse(path)[|path| - 1 - m] == Iterate(Predecessor(order), end, m) != ""
  {
    var walk := Reverse(path);
    ReversedBackChain(graph, path);
    forall m | 0 <= m < |walk|
      ensures walk[|walk| - 1 - m] == Iterate(Predecessor(order), end, m) != ""
    {
      KeyNotEmpty(graph, path[m]);
    }
  }

  /**
   * What holds while TraceBack follows predecessors: path lists the names
   * visited so far, from end, each a key with an edge to the one before it;
   * at is the next name, a reached key unless the chain has ended at start.
   */
  ghost predicate TraceInv(graph: seq<Entry>, start: string, distance: map<string, int>, order: map<string, string>,
                           end: string, path: seq<string>, at: string)
  {
    TraceEnds(graph, start, distance, end, path, at) && BackChain(graph, path) &&
    (forall m :: 0 <= m < |path| ==> path[m] in Keys(graph)) &&
    at == Iterate(Predecessor(order), end, |path|) && IsOrbit(Predecessor(order), end, path)
  }

  /** The part of TraceInv about the two ends of path and the next name. */
  ghost predicate TraceEnds(graph: seq<Entry>, start: string, distance: map<string, int>,
                            end: string, path: seq<string>, at: string)
  {
    (at != "" ==> at in Keys(graph) && at in distance && distance[at] < INT_MAX) &&
    (at == "" ==> path != [] && path[|path| - 1] == start) &&
    (path == [] ==> at == end) &&
    (path != [] ==> path[0] == end) &&
    (at != "" && path != [] ==> HasEdge(graph, at, path[|path| - 1]))
  }

  /** Taking one more predecessor keeps TraceInv. */
  lemma TraceStep(graph: seq<Entry>, start: string, distance: map<string, int>, order: map<string, string>,
                  end: string, path: seq<string>, at: string)
    requires WellFormed(graph) && PredecessorsOk(graph, start, distance, order)
    requires TraceInv(graph, start, distance, order, end, path, at) && at != ""
    ensures TraceInv(graph, start, distance, order, end, path + [at], Get(order, at, ""))
  {
    TraceEndsStep(graph, start, distance, order, end, path, at);
    BackChainSnoc(graph, path, at);
    OrbitSnoc(Predecessor(order), end, path);
    assert Iterate(Predecessor(order), end, |path| + 1) == Predecessor(order)(at);
  }

  lemma TraceEndsStep(graph: seq<Entry>, start: string, distance: map<string, int>, order: map<string, string>,
                      end: string, path: seq<string>, at: string)
    requires WellFormed(graph) && PredecessorsOk(graph, start, distance, order)
    requires TraceEnds(graph, start, distance, end, path, at) && at != ""
    ensures TraceEnds(graph, start, distance, end, path + [at], Get(order, at, ""))
  {
    PredecessorStep(graph, start, distance, order, at);
  }

  /** A predecessor chain that visits more keys than there are never reaches "". */
  lemma PredecessorsLoop(graph: seq<Entry>, order: map<string, string>, end: string, path: seq<string>)
    requires WellFormed(graph) && |path| > |graph|
    requires IsOrbit(Predecessor(order), end, path) && forall m :: 0 <= m < |path| ==> path[m] in Keys(graph)
    ensures forall n: nat :: Iterate(Predecessor(order), end, n) != ""
  {
    forall n: nat
      ensures Iterate(Predecessor(order), end, n) != ""
    {
      IterateTrapped(Predecessor(order), end, path, Keys(graph), n);
      var m :| 0 <= m < |path| && path[m] == Iterate(Predecessor(order), end, n);
      KeyNotEmpty(graph, path[m]);
    }
  }

  /** Each point of path has an edge to the point before it. */
  ghost predicate BackChain(graph: seq<Entry>, path: seq<string>)
  {
    forall j :: 0 <= j < |path| - 1 ==> HasEdge(graph, path[j + 1], path[j])
  }

  lemma BackChainSnoc(graph: seq<Entry>, path: seq<string>, at: string)
    requires BackChain(graph, path) && (path != [] ==> HasEdge(graph, at, path[|path| - 1]))
    ensures BackChain(graph, path + [at])
  {
  }

  lemma ReversedBackChain(graph: seq<Entry>, path: seq<string>)
    requires BackChain(graph, path)
    ensures IsWalk(graph, Reverse(path))
  {
    var walk := Reverse(path);
    forall j | 0 <= j < |walk| - 1
      ensures HasEdge(graph, walk[j], walk[j + 1])
    {
      assert walk[j] == path[|path| - 1 - j] && walk[j + 1] == path[|path| - 2 - j];
    }
  }

  /**
   * A reached point other than start has a recorded predecessor, which is a
   * reached key with an edge to it; the chain may stop only at start.
   */
  lemma PredecessorStep(graph: seq<Entry>, start: string, distance: map<string, int>,
                        order: map<string, string>, at: string)
    requires WellFormed(graph) && PredecessorsOk(graph, start, distance, order)
    requires at in Keys(graph) && distance[at] < INT_MAX
    ensures at !in order ==> at == start
    ensures at in order ==>
              order[at] != "" && order[at] in Keys(graph) &&
              distance[order[at]] < INT_MAX && HasEdge(graph, order[at], at)
  {
    if at in order {
      KeyNotEmpty(graph, order[at]);
    }
  }

  // ---------------------------------------------------------------------
  // Floyd-Warshall (lines 77-144), on the points' indices in map order.

  function Init(i: int, j: int): int
  {
    if i == j then 0 else INT_MAX
  }

  ghost predicate IsSquare<T>(m: seq<seq<T>>, n: nat)
  {
    |m| == n && forall i :: 0 <= i < n ==> |m[i]| == n
  }

  /** The next hop from point i towards j is unset or a key with an edge from i. */
  ghost predicate NextHopsOk(graph: seq<Entry>, next: seq<seq<string>>)
    requires IsSquare(next, |graph|)
  {
    forall i, j :: 0 <= i < |graph| && 0 <= j < |graph| ==>
      next[i][j] == "" || (next[i][j] in Keys(graph) && HasEdge(graph, graph[i].key, next[i][j]))
  }

  /**
   * Every entry is at most its initial value, and a next hop is set exactly
   * where the entry has fallen below it: off the diagonal once the entry is
   * finite, on the diagonal once it is negative.
   */
  ghost predicate HopsSet(dist: seq<seq<int>>, next: seq<seq<string>>, n: nat)
    requires IsSquare(dist, n) && IsSquare(next, n)
  {
    forall i, j :: 0 <= i < n && 0 <= j < n ==>
      dist[i][j] <= Init(i, j) && (next[i][j] != "" <==> dist[i][j] < Init(i, j))
  }

  /** Every entry below INT_MAX is the weight of a walk between its two points. */
  ghost predicate Witnessed(graph: seq<Entry>, dist: seq<seq<int>>)
    requires IsSquare(dist, |graph|)
  {
    forall i, j :: 0 <= i < |graph| && 0 <= j < |graph| && dist[i][j] < INT_MAX ==>
      WalkOfWeight(graph, i, j, dist[i][j])
  }

  /** What the tables keep from their initialisation through the triple loop. */
  ghost predicate TablesOk(graph: seq<Entry>, dist: seq<seq<int>>, next: seq<seq<string>>)
  {
    IsSquare(dist, |graph|) && IsSquare(next, |graph|) && NextHopsOk(graph, next) &&
    HopsSet(dist, next, |graph|) && Witnessed(graph, dist)
  }

  /** No point repeats, except that the walk may end where it started. */
  ghost predicate IsSimple(vs: seq<nat>)
  {
    forall a, b :: 0 <= a < b < |vs| && (a != 0 || b != |vs| - 1) ==> vs[a] != vs[b]
  }

  /** Every stretch of consecutive weights adds up to less than INT_MAX. */
  ghost predicate SegmentsBelowMax(ws: seq<int>)
  {
    forall a, b :: 0 <= a <= b <= |ws| ==> Sum(ws[a..b]) < INT_MAX
  }

  /** Every point strictly inside the walk has an index below k. */
  ghost predicate InnerBelow(vs: seq<nat>, k: nat)
  {
    forall l :: 0 < l < |vs| - 1 ==> vs[l] < k
  }

  /**
   * Entry (i, j) is at most the weight of every simple walk from i to j
   * whose inner points come before point k in map order and whose stretches
   * stay below INT_MAX.
   */
  ghost predicate ThroughBound(graph: seq<Entry>, dist: seq<seq<int>>, k: nat)
    requires IsSquare(dist, |graph|)
  {
    forall vs, ws :: IsPath(graph, vs, ws) && IsSimple(vs) && SegmentsBelowMax(ws) && InnerBelow(vs, k) ==>
      dist[vs[0]][vs[|vs| - 1]] <= Sum(ws)
  }

  /** No entry of d' is above the same entry of d. */
  ghost predicate Lowered(d: seq<seq<int>>, d': seq<seq<int>>, n: nat)
    requires IsSquare(d, n) && IsSquare(d', n)
  {
    forall i, j :: 0 <= i < n && 0 <= j < n ==> d'[i][j] <= d[i][j]
  }

  /**
   * The first m entries of row i of d' are no heavier than going through k
   * in d, wherever both legs are finite.
   */
  ghost predicate ThroughK(d: seq<seq<int>>, d': seq<seq<int>>, n: nat, k: nat, i: nat, m: nat)
    requires IsSquare(d, n) && IsSquare(d', n) && k < n && i < n && m <= n
  {
    forall j :: 0 <= j < m && d[i][k] < INT_MAX && d[k][j] < INT_MAX ==> d'[i][j] <= d[i][k] + d[k][j]
  }

  /** The first r rows of d' are no heavier than going through k in d. */
  ghost predicate RowsThrough(d: seq<seq<int>>, d': seq<seq<int>>, n: nat, k: nat, r: nat)
    requires IsSquare(d, n) && IsSquare(d', n) && k < n && r <= n
  {
    forall i :: 0 <= i < r ==> ThroughK(d, d', n, k, i, n)
  }

  function IndexOfKey(keys: seq<string>, s: string): (i: nat)
    requires s in keys
    ensures i < |keys| && keys[i] == s
  {
    if keys[0] == s then 0 else 1 + IndexOfKey(keys[1..], s)
  }

  lemma IndexOfKeyUnique(graph: seq<Entry>, j: nat)
    requires WellFormed(graph) && j < |graph|
    ensures IndexOfKey(Keys(graph), graph[j].key) == j
  {
  }

  /**
   * Every entry is at most its initial value, and an entry either still
   * holds its initial value with no next hop, or is lower and holds the
   * weight of an edge with that edge's destination as next hop.
   */
  ghost predicate TablesFromEdges(graph: seq<Entry>, dist: seq<seq<int>>, next: seq<seq<string>>)
    requires IsSquare(dist, |graph|) && IsSquare(next, |graph|)
  {
    forall i, j :: 0 <= i < |graph| && 0 <= j < |graph| ==>
      dist[i][j] <= Init(i, j) &&
      ((dist[i][j] == Init(i, j) && next[i][j] == "") ||
       (dist[i][j] < Init(i, j) && HasEdgeOfWeight(graph, i, j, dist[i][j]) && next[i][j] == graph[j].key))
  }

  /** Row p of dist is no heavier than the first e edges leaving point p. */
  ghost predicate RowBounded(graph: seq<Entry>, dist: seq<seq<int>>, p: nat, e: nat)
    requires IsSquare(dist, |graph|) && p < |graph| && e <= |graph[p].value.edges|
  {
    forall k, j :: 0 <= k < e && 0 <= j < |graph| && graph[p].value.edges[k].destination == graph[j].key ==>
      dist[p][j] <= graph[p].value.edges[k].weight
  }

  /** Keeping the lighter of an entry and a parallel edge keeps the tables' shape. */
  lemma LighterEdgeKeepsTables(graph: seq<Entry>, dist: seq<seq<int>>, next: seq<seq<string>>, p: nat, q: nat, w: int)
    requires IsSquare(dist, |graph|) && IsSquare(next, |graph|) && TablesFromEdges(graph, dist, next)
    requires p < |graph| && q < |graph| && w < dist[p][q] && HasEdgeOfWeight(graph, p, q, w)
    ensures IsSquare(dist[p := dist[p][q := w]], |graph|) && IsSquare(next[p := next[p][q := graph[q].key]], |graph|)
    ensures TablesFromEdges(graph, dist[p := dist[p][q := w]], next[p := next[p][q := graph[q].key]])
  {
  }

  /** The edges leaving point p, applied to the tables (lines 105-110). */
  method AddEdgesOf(graph: seq<Entry>, p: nat, dist: seq<seq<int>>, next: seq<seq<string>>)
    returns (dist': seq<seq<int>>, next': seq<seq<string>>)
    requires WellFormed(graph) && p < |graph|
    requires IsSquare(dist, |graph|) && IsSquare(next, |graph|) && TablesFromEdges(graph, dist, next)
    ensures IsSquare(dist', |graph|) && IsSquare(next', |graph|) && TablesFromEdges(graph, dist', next')
    ensures RowBounded(graph, dist', p, |graph[p].value.edges|)
    ensures forall i :: 0 <= i < |graph| && i != p ==> dist'[i] == dist[i]
  {
    var keys := Keys(graph);
    var out := graph[p].value.edges;
    dist', next' := dist, next;
    var e := 0;
    while e < |out|
      invariant 0 <= e <= |out|
      invariant IsSquare(dist', |graph|) && IsSquare(next', |graph|) && TablesFromEdges(graph, dist', next')
      invariant RowBounded(graph, dist', p, e)
      invariant forall i :: 0 <= i < |graph| && i != p ==> dist'[i] == dist[i]
    {
      var dest := out[e].destination;
      if dest in keys {
        var q := IndexOfKey(keys, dest);
        IndexOfKeyUnique(graph, q);
        if dist'[p][q] > out[e].weight {
          assert HasEdgeOfWeight(graph, p, q, out[e].weight) by {
            assert out[e].destination == graph[q].key;
          }
          LighterEdgeKeepsTables(graph, dist', next', p, q, out[e].weight);
          RowBoundedLower(graph, dist', p, e, q, out[e].weight);
          dist' := dist'[p := dist'[p][q := out[e].weight]];
          next' := next'[p := next'[p][q := dest]];
        }
        forall j | 0 <= j < |graph| && dest == graph[j].key
          ensures dist'[p][j] <= out[e].weight
        {
          IndexOfKeyUnique(graph, j);
        }
      } else {
        forall j | 0 <= j < |graph|
          ensures dest != graph[j].key
        {
          assert keys[j] == graph[j].key;
        }
      }
      RowBoundedStep(graph, dist', p, e);
      e := e + 1;
    }
  }

  /** Lowering one entry of row p keeps the row bounded. */
  lemma RowBoundedLower(graph: seq<Entry>, dist: seq<seq<int>>, p: nat, e: nat, q: nat, w: int)
    requires IsSquare(dist, |graph|) && p < |graph| && q < |graph| && e <= |graph[p].value.edges|
    requires RowBounded(graph, dist, p, e) && w <= dist[p][q]
    ensures IsSquare(dist[p := dist[p][q := w]], |graph|)
    ensures RowBounded(graph, dist[p := dist[p][q := w]], p, e)
  {
  }

  /** Row p bounded by e edges and by edge e is bounded by e + 1 edges. */
  lemma RowBoundedStep(graph: seq<Entry>, dist: seq<seq<int>>, p: nat, e: nat)
    requires IsSquare(dist, |graph|) && p < |graph| && e < |graph[p].value.edges|
    requires RowBounded(graph, dist, p, e)
    requires forall j :: 0 <= j < |graph| && graph[p].value.edges[e].destination == graph[j].key ==>
      dist[p][j] <= graph[p].value.edges[e].weight
    ensures RowBounded(graph, dist, p, e + 1)
  {
  }

  /**
   * The distance and next-hop tables after lines 95-111: the diagonal is 0
   * and every other entry INT_MAX unless an edge is lighter; each entry that
   * moved holds the weight of an edge and that edge's destination as next
   * hop; and no entry exceeds the weight of any parallel edge. Edges to a
   * name that is not a key create table entries that are never read again
   * and are skipped.
   */
  method InitTables(graph: seq<Entry>) returns (dist: seq<seq<int>>, next: seq<seq<string>>)
    requires WellFormed(graph)
    ensures IsSquare(dist, |graph|) && IsSquare(next, |graph|)
    ensures TablesFromEdges(graph, dist, next)
    ensures forall p :: 0 <= p < |graph| ==> RowBounded(graph, dist, p, |graph[p].value.edges|)
    ensures TablesOk(graph, dist, next) && ThroughBound(graph, dist, 0)
  {
    var n := |graph|;
    dist := seq(n, i => seq(n, j => Init(i, j)));
    next := seq(n, i => seq(n, j => ""));
    var p := 0;
    while p < n
      invariant 0 <= p <= n && IsSquare(dist, n) && IsSquare(next, n)
      invariant TablesFromEdges(graph, dist, next)
      invariant forall i :: 0 <= i < p ==> RowBounded(graph, dist, i, |graph[i].value.edges|)
    {
      ghost var before := dist;
      dist, next := AddEdgesOf(graph, p, dist, next);
      forall i | 0 <= i < p
        ensures RowBounded(graph, dist, i, |graph[i].value.edges|)
      {
        assert dist[i] == before[i];
        assert RowBounded(graph, before, i, |graph[i].value.edges|);
      }
      p := p + 1;
    }
    TablesHopsOk(graph, dist, next);
    EdgeBound(graph, dist);
  }

  /**
   * Tables built from edges: next hops are edges, set exactly where an entry
   * moved, and every finite entry is the weight of the empty walk or of an edge.
   */
  lemma TablesHopsOk(graph: seq<Entry>, dist: seq<seq<int>>, next: seq<seq<string>>)
    requires WellFormed(graph) && IsSquare(dist, |graph|) && IsSquare(next, |graph|)
    requires TablesFromEdges(graph, dist, next)
    ensures TablesOk(graph, dist, next)
  {
    var keys := Keys(graph);
    forall i, j | 0 <= i < |graph| && 0 <= j < |graph| && next[i][j] != ""
      ensures next[i][j] in keys && HasEdge(graph, graph[i].key, next[i][j])
    {
      assert dist[i][j] < Init(i, j) && HasEdgeOfWeight(graph, i, j, dist[i][j]) && next[i][j] == graph[j].key;
      var k :| 0 <= k < |graph[i].value.edges| &&
        graph[i].value.edges[k].destination == graph[j].key && graph[i].value.edges[k].weight == dist[i][j];
      assert keys[j] == next[i][j];
    }
    forall i, j | 0 <= i < |graph| && 0 <= j < |graph|
      ensures next[i][j] != "" <==> dist[i][j] < Init(i, j)
    {
      if dist[i][j] < Init(i, j) {
        assert keys[j] == graph[j].key;
        KeyNotEmpty(graph, graph[j].key);
      }
    }
    forall i, j | 0 <= i < |graph| && 0 <= j < |graph| && dist[i][j] < INT_MAX
      ensures WalkOfWeight(graph, i, j, dist[i][j])
    {
      if dist[i][j] == Init(i, j) {
        WalkEmpty(graph, i);
      } else {
        WalkEdge(graph, i, j, dist[i][j]);
      }
    }
  }

  /** A walk with no inner point below 0 has no inner point at all. */
  lemma NoInnerPoint(vs: seq<nat>)
    ensures InnerBelow(vs, 0) ==> |vs| <= 2
  {
    if |vs| > 2 {
      assert vs[1] >= 0;
    }
  }

  /** Before the triple loop each entry is at most the empty walk or any single edge. */
  lemma EdgeBound(graph: seq<Entry>, dist: seq<seq<int>>)
    requires IsSquare(dist, |graph|)
    requires forall i :: 0 <= i < |graph| ==> dist[i][i] <= 0
    requires forall p :: 0 <= p < |graph| ==> RowBounded(graph, dist, p, |graph[p].value.edges|)
    ensures ThroughBound(graph, dist, 0)
  {
    forall vs, ws | IsPath(graph, vs, ws) && IsSimple(vs) && SegmentsBelowMax(ws) && InnerBelow(vs, 0)
      ensures dist[vs[0]][vs[|vs| - 1]] <= Sum(ws)
    {
      NoInnerPoint(vs);
      if |vs| == 2 {
        var k :| 0 <= k < |graph[vs[0]].value.edges| &&
          graph[vs[0]].value.edges[k].destination == graph[vs[1]].key && graph[vs[0]].value.edges[k].weight == ws[0];
        assert Sum(ws) == ws[0] + Sum([]);
      }
    }
  }

  /** Going from i to j through k, where that is lighter, keeps the tables consistent (lines 117-122). */
  lemma RelaxKeepsTables(graph: seq<Entry>, dist: seq<seq<int>>, next: seq<seq<string>>, i: nat, k: nat, j: nat,
                         dist': seq<seq<int>>, next': seq<seq<string>>)
    requires TablesOk(graph, dist, next) && i < |graph| && k < |graph| && j < |graph|
    requires dist[i][k] != INT_MAX && dist[k][j] != INT_MAX && dist[i][k] + dist[k][j] < dist[i][j]
    requires dist' == dist[i := dist[i][j := dist[i][k] + dist[k][j]]]
    requires next' == next[i := next[i][j := next[i][k]]]
    ensures TablesOk(graph, dist', next') && Lowered(dist, dist', |graph|)
  {
    var n := |graph|;
    Update2D(dist, n, i, j, dist[i][k] + dist[k][j]);
    Update2D(next, n, i, j, next[i][k]);
    assert dist[i][k] < Init(i, k);
    WalkJoin(graph, i, k, j, dist[i][k], dist[k][j]);
    KeepsNextHops(graph, next, next', i, j);
    KeepsHopsSet(dist, next, dist', next', n, i, j);
    KeepsWitnessed(graph, dist, dist', i, j);
    KeepsLowered(dist, dist', n, i, j);
  }

  /** m' equals m everywhere except possibly at entry (i, j). */
  ghost predicate SameExcept<T>(m: seq<seq<T>>, m': seq<seq<T>>, n: nat, i: nat, j: nat)
  {
    IsSquare(m, n) && IsSquare(m', n) && i < n && j < n &&
    forall a, b :: 0 <= a < n && 0 <= b < n && (a != i || b != j) ==> m'[a][b] == m[a][b]
  }

  /** Setting entry (i, j) of a square table changes that entry and no other. */
  lemma Update2D<T>(m: seq<seq<T>>, n: nat, i: nat, j: nat, x: T)
    requires IsSquare(m, n) && i < n && j < n
    ensures SameExcept(m, m[i := m[i][j := x]], n, i, j) && m[i := m[i][j := x]][i][j] == x
  {
  }

  lemma KeepsNextHops(graph: seq<Entry>, next: seq<seq<string>>, next': seq<seq<string>>, i: nat, j: nat)
    requires SameExcept(next, next', |graph|, i, j) && NextHopsOk(graph, next)
    requires next'[i][j] == "" || (next'[i][j] in Keys(graph) && HasEdge(graph, graph[i].key, next'[i][j]))
    ensures NextHopsOk(graph, next')
  {
  }

  lemma KeepsHopsSet(dist: seq<seq<int>>, next: seq<seq<string>>, dist': seq<seq<int>>, next': seq<seq<string>>,
                     n: nat, i: nat, j: nat)
    requires SameExcept(dist, dist', n, i, j) && SameExcept(next, next', n, i, j) && HopsSet(dist, next, n)
    requires dist'[i][j] <= Init(i, j) && (next'[i][j] != "" <==> dist'[i][j] < Init(i, j))
    ensures HopsSet(dist', next', n)
  {
  }

  lemma KeepsWitnessed(graph: seq<Entry>, dist: seq<seq<int>>, dist': seq<seq<int>>, i: nat, j: nat)
    requires SameExcept(dist, dist', |graph|, i, j) && Witnessed(graph, dist)
    requires dist'[i][j] < INT_MAX ==> WalkOfWeight(graph, i, j, dist'[i][j])
    ensures Witnessed(graph, dist')
  {
  }

  lemma KeepsLowered(dist: seq<seq<int>>, dist': seq<seq<int>>, n: nat, i: nat, j: nat)
    requires SameExcept(dist, dist', n, i, j) && dist'[i][j] <= dist[i][j]
    ensures Lowered(dist, dist', n)
  {
  }

  /** Relaxing entry (i, j) through k extends the loop invariants of RelaxRow to column j + 1. */
  lemma RowRelaxStep(graph: seq<Entry>, dist: seq<seq<int>>, cur: seq<seq<int>>, next: seq<seq<string>>,
                     k: nat, i: nat, j: nat, cur': seq<seq<int>>, next': seq<seq<string>>)
    requires IsSquare(dist, |graph|) && k < |graph| && i < |graph| && j < |graph|
    requires TablesOk(graph, cur, next) && Lowered(dist, cur, |graph|) && ThroughK(dist, cur, |graph|, k, i, j)
    requires cur[i][k] != INT_MAX && cur[k][j] != INT_MAX && cur[i][k] + cur[k][j] < cur[i][j]
    requires cur' == cur[i := cur[i][j := cur[i][k] + cur[k][j]]]
    requires next' == next[i := next[i][j := next[i][k]]]
    ensures TablesOk(graph, cur', next') && Lowered(dist, cur', |graph|) && ThroughK(dist, cur', |graph|, k, i, j + 1)
  {
    RelaxKeepsTables(graph, cur, next, i, k, j, cur', next');
    assert cur[i][k] <= dist[i][k] && cur[k][j] <= dist[k][j];
  }

  /** Skipping entry (i, j), which going through k does not improve, extends ThroughK to column j + 1. */
  lemma RowSkipStep(dist: seq<seq<int>>, cur: seq<seq<int>>, n: nat, k: nat, i: nat, j: nat)
    requires IsSquare(dist, n) && IsSquare(cur, n) && k < n && i < n && j < n
    requires Lowered(dist, cur, n) && ThroughK(dist, cur, n, k, i, j)
    requires !(cur[i][k] != INT_MAX && cur[k][j] != INT_MAX && cur[i][k] + cur[k][j] < cur[i][j])
    ensures ThroughK(dist, cur, n, k, i, j + 1)
  {
    assert cur[i][k] <= dist[i][k] && cur[k][j] <= dist[k][j];
  }

  /** Row i of the triple loop for one k (the innermost loop of lines 116-123). */
  method RelaxRow(graph: seq<Entry>, dist: seq<seq<int>>, next: seq<seq<string>>, k: nat, i: nat)
    returns (dist': seq<seq<int>>, next': seq<seq<string>>)
    requires TablesOk(graph, dist, next) && k < |graph| && i < |graph|
    ensures TablesOk(graph, dist', next') && Lowered(dist, dist', |graph|)
    ensures ThroughK(dist, dist', |graph|, k, i, |graph|)
  {
    var n := |graph|;
    dist', next' := dist, next;
    var j := 0;
    while j < n
      invariant j <= n && TablesOk(graph, dist', next') && Lowered(dist, dist', n) && ThroughK(dist, dist', n, k, i, j)
    {
      if dist'[i][k] != INT_MAX && dist'[k][j] != INT_MAX && dist'[i][k] + dist'[k][j] < dist'[i][j] {
        ghost var before, nextBefore := dist', next';
        dist' := dist'[i := dist'[i][j := dist'[i][k] + dist'[k][j]]];
        next' := next'[i := next'[i][j := next'[i][k]]];
        RowRelaxStep(graph, dist, before, nextBefore, k, i, j, dist', next');
      } else {
        RowSkipStep(dist, dist', n, k, i, j);
      }
      j := j + 1;
    }
  }

  /** Relaxing row i after rows before it extends the loop invariants of RelaxRound to row i + 1. */
  lemma RoundStep(d0: seq<seq<int>>, d1: seq<seq<int>>, d2: seq<seq<int>>, n: nat, k: nat, i: nat)
    requires IsSquare(d0, n) && IsSquare(d1, n) && IsSquare(d2, n) && k < n && i < n
    requires Lowered(d0, d1, n) && RowsThrough(d0, d1, n, k, i)
    requires Lowered(d1, d2, n) && ThroughK(d1, d2, n, k, i, n)
    ensures Lowered(d0, d2, n) && RowsThrough(d0, d2, n, k, i + 1)
  {
    forall r | 0 <= r < i + 1
      ensures ThroughK(d0, d2, n, k, r, n)
    {
      if r < i {
        assert ThroughK(d0, d1, n, k, r, n);
      } else {
        assert d1[i][k] <= d0[i][k];
        forall j | 0 <= j < n && d0[i][k] < INT_MAX && d0[k][j] < INT_MAX
          ensures d2[i][j] <= d0[i][k] + d0[k][j]
        {
          assert d1[k][j] <= d0[k][j];
        }
      }
    }
  }

  /** One value of k in the triple loop (the middle loop of lines 115-124). */
  method RelaxRound(graph: seq<Entry>, dist: seq<seq<int>>, next: seq<seq<string>>, k: nat)
    returns (dist': seq<seq<int>>, next': seq<seq<string>>)
    requires TablesOk(graph, dist, next) && k < |graph|
    ensures TablesOk(graph, dist', next') && Lowered(dist, dist', |graph|)
    ensures RowsThrough(dist, dist', |graph|, k, |graph|)
  {
    var n := |graph|;
    dist', next' := dist, next;
    var i := 0;
    while i < n
      invariant i <= n && TablesOk(graph, dist', next') && Lowered(dist, dist', n) && RowsThrough(dist, dist', n, k, i)
    {
      ghost var before := dist';
      dist', next' := RelaxRow(graph, dist', next', k, i);
      RoundStep(dist, before, dist', n, k, i);
      i := i + 1;
    }
  }

  /** The part of a simple walk with inner points before k + 1 up to where it passes k avoids k inside. */
  lemma SplitLeft(graph: seq<Entry>, vs: seq<nat>, ws: seq<int>, k: nat, l: nat)
    requires IsPath(graph, vs, ws) && IsSimple(vs) && SegmentsBelowMax(ws) && InnerBelow(vs, k + 1)
    requires 0 < l < |vs| - 1 && vs[l] == k
    ensures IsPath(graph, vs[..l + 1], ws[..l]) && IsSimple(vs[..l + 1])
    ensures SegmentsBelowMax(ws[..l]) && InnerBelow(vs[..l + 1], k) && Sum(ws[..l]) < INT_MAX
  {
    PathSplit(graph, vs, ws, l);
    var v1, w1 := vs[..l + 1], ws[..l];
    forall a, b | 0 <= a <= b <= |w1|
      ensures Sum(w1[a..b]) < INT_MAX
    {
      assert w1[a..b] == ws[a..b];
    }
    forall m | 0 < m < |v1| - 1
      ensures v1[m] < k
    {
      assert v1[m] == vs[m] != vs[l];
    }
    assert w1[0..|w1|] == w1;
  }

  /** The part of a simple walk with inner points before k + 1 from where it passes k avoids k inside. */
  lemma SplitRight(graph: seq<Entry>, vs: seq<nat>, ws: seq<int>, k: nat, l: nat)
    requires IsPath(graph, vs, ws) && IsSimple(vs) && SegmentsBelowMax(ws) && InnerBelow(vs, k + 1)
    requires 0 < l < |vs| - 1 && vs[l] == k
    ensures IsPath(graph, vs[l..], ws[l..]) && IsSimple(vs[l..])
    ensures SegmentsBelowMax(ws[l..]) && InnerBelow(vs[l..], k) && Sum(ws[l..]) < INT_MAX
  {
    PathSplit(graph, vs, ws, l);
    var v2, w2 := vs[l..], ws[l..];
    forall a, b | 0 <= a <= b <= |w2|
      ensures Sum(w2[a..b]) < INT_MAX
    {
      assert w2[a..b] == ws[l + a..l + b];
    }
    forall m | 0 < m < |v2| - 1
      ensures v2[m] < k
    {
      assert v2[m] == vs[l + m] != vs[l];
    }
    forall a, b | 0 <= a < b < |v2|
      ensures v2[a] != v2[b]
    {
      assert v2[a] == vs[l + a] && v2[b] == vs[l + b];
    }
    assert w2[0..|w2|] == w2;
  }

  /** A simple walk through k is no lighter than what a round through k left between its ends. */
  lemma ThroughPoint(graph: seq<Entry>, d: seq<seq<int>>, d': seq<seq<int>>, k: nat, vs: seq<nat>, ws: seq<int>, l: nat)
    requires IsSquare(d, |graph|) && IsSquare(d', |graph|) && k < |graph|
    requires ThroughBound(graph, d, k) && RowsThrough(d, d', |graph|, k, |graph|)
    requires IsPath(graph, vs, ws) && IsSimple(vs) && SegmentsBelowMax(ws) && InnerBelow(vs, k + 1)
    requires 0 < l < |vs| - 1 && vs[l] == k
    ensures d'[vs[0]][vs[|vs| - 1]] <= Sum(ws)
  {
    LeftBound(graph, d, k, vs, ws, l);
    RightBound(graph, d, k, vs, ws, l);
    assert ws == ws[..l] + ws[l..];
    SumConcat(ws[..l], ws[l..]);
    ThroughAt(d, d', |graph|, k, vs[0], vs[|vs| - 1]);
  }

  /** The part of a walk before its point l = k is no lighter than d from its start to k. */
  lemma LeftBound(graph: seq<Entry>, d: seq<seq<int>>, k: nat, vs: seq<nat>, ws: seq<int>, l: nat)
    requires IsSquare(d, |graph|) && k < |graph| && ThroughBound(graph, d, k)
    requires IsPath(graph, vs, ws) && IsSimple(vs) && SegmentsBelowMax(ws) && InnerBelow(vs, k + 1)
    requires 0 < l < |vs| - 1 && vs[l] == k
    ensures d[vs[0]][k] <= Sum(ws[..l]) < INT_MAX
  {
    SplitLeft(graph, vs, ws, k, l);
    var v1 := vs[..l + 1];
    BoundOf(graph, d, k, v1, ws[..l]);
    assert v1[0] == vs[0] && v1[|v1| - 1] == k;
  }

  /** The part of a walk after its point l = k is no lighter than d from k to its end. */
  lemma RightBound(graph: seq<Entry>, d: seq<seq<int>>, k: nat, vs: seq<nat>, ws: seq<int>, l: nat)
    requires IsSquare(d, |graph|) && k < |graph| && ThroughBound(graph, d, k)
    requires IsPath(graph, vs, ws) && IsSimple(vs) && SegmentsBelowMax(ws) && InnerBelow(vs, k + 1)
    requires 0 < l < |vs| - 1 && vs[l] == k
    ensures d[k][vs[|vs| - 1]] <= Sum(ws[l..]) < INT_MAX
  {
    SplitRight(graph, vs, ws, k, l);
    var v2 := vs[l..];
    BoundOf(graph, d, k, v2, ws[l..]);
    assert v2[0] == k && v2[|v2| - 1] == vs[|vs| - 1];
  }

  /** ThroughBound read at one walk. */
  lemma BoundOf(graph: seq<Entry>, d: seq<seq<int>>, k: nat, vs: seq<nat>, ws: seq<int>)
    requires IsSquare(d, |graph|) && ThroughBound(graph, d, k)
    requires IsPath(graph, vs, ws) && IsSimple(vs) && SegmentsBelowMax(ws) && InnerBelow(vs, k)
    ensures d[vs[0]][vs[|vs| - 1]] <= Sum(ws)
  {
  }

  /** ThroughK read at one column j. */
  lemma ThroughAt(d: seq<seq<int>>, d': seq<seq<int>>, n: nat, k: nat, i: nat, j: nat)
    requires IsSquare(d, n) && IsSquare(d', n) && k < n && i < n && j < n
    requires RowsThrough(d, d', n, k, n) && d[i][k] < INT_MAX && d[k][j] < INT_MAX
    ensures d'[i][j] <= d[i][k] + d[k][j]
  {
    assert ThroughK(d, d', n, k, i, n);
  }

  /** A round that relaxes every row through k extends the bound to walks through k. */
  lemma ThroughStep(graph: seq<Entry>, d: seq<seq<int>>, d': seq<seq<int>>, k: nat)
    requires IsSquare(d, |graph|) && IsSquare(d', |graph|) && k < |graph|
    requires ThroughBound(graph, d, k) && Lowered(d, d', |graph|)
    requires RowsThrough(d, d', |graph|, k, |graph|)
    ensures ThroughBound(graph, d', k + 1)
  {
    forall vs, ws | IsPath(graph, vs, ws) && IsSimple(vs) && SegmentsBelowMax(ws) && InnerBelow(vs, k + 1)
      ensures d'[vs[0]][vs[|vs| - 1]] <= Sum(ws)
    {
      if InnerBelow(vs, k) {
        assert d[vs[0]][vs[|vs| - 1]] <= Sum(ws);
      } else {
        var l :| 0 < l < |vs| - 1 && vs[l] >= k;
        ThroughPoint(graph, d, d', k, vs, ws, l);
      }
    }
  }

  /**
   * The triple loop of lines 114-125: for every k, i, j in map order, a
   * finite i -> k -> j that is shorter replaces dist[i][j], and the next hop
   * towards j becomes the next hop towards k. No entry grows, every finite
   * entry stays the weight of a walk, and afterwards each entry is at most
   * the weight of every simple walk between its points whose stretches stay
   * below INT_MAX.
   */
  method RelaxThrough(graph: seq<Entry>, dist: seq<seq<int>>, next: seq<seq<string>>)
    returns (dist': seq<seq<int>>, next': seq<seq<string>>)
    requires TablesOk(graph, dist, next) && ThroughBound(graph, dist, 0)
    ensures TablesOk(graph, dist', next') && Lowered(dist, dist', |graph|)
    ensures ThroughBound(graph, dist', |graph|)
  {
    var n := |graph|;
    dist', next' := dist, next;
    var k := 0;
    while k < n
      invariant 0 <= k <= n && TablesOk(graph, dist', next') && Lowered(dist, dist', n)
      invariant ThroughBound(graph, dist', k)
    {
      ghost var before := dist';
      dist', next' := RelaxRound(graph, dist', next', k);
      ThroughStep(graph, before, dist', k);
      k := k + 1;
    }
  }

  /**
   * The tables after the triple loop (lines 95-125): next hops are edges,
   * set exactly where an entry fell below its initial value; every finite
   * entry is the weight of a walk between its points, and no simple walk
   * whose stretches stay below INT_MAX is lighter.
   */
  method Tables(graph: seq<Entry>) returns (dist: seq<seq<int>>, next: seq<seq<string>>)
    requires WellFormed(graph)
    ensures TablesOk(graph, dist, next) && ThroughBound(graph, dist, |graph|)
  {
    dist, next := InitTables(graph);
    dist, next := RelaxThrough(graph, dist, next);
  }

  /** A closed walk through point s weighs less than zero. */
  ghost predicate NegativeClosedWalk(graph: seq<Entry>, s: nat)
  {
    exists vs, ws :: IsPath(graph, vs, ws) && vs[0] == s && vs[|vs| - 1] == s && Sum(ws) < 0
  }

  /** A simple cycle through point s, with every stretch below INT_MAX, weighs less than zero. */
  ghost predicate NegativeSimpleCycle(graph: seq<Entry>, s: nat)
  {
    exists vs, ws :: IsPath(graph, vs, ws) && IsSimple(vs) && SegmentsBelowMax(ws) &&
      vs[0] == s && vs[|vs| - 1] == s && Sum(ws) < 0
  }

  /** After the triple loop an entry is at most every simple walk between its points. */
  lemma FullBound(graph: seq<Entry>, dist: seq<seq<int>>, vs: seq<nat>, ws: seq<int>)
    requires IsSquare(dist, |graph|) && ThroughBound(graph, dist, |graph|)
    requires IsPath(graph, vs, ws) && IsSimple(vs) && SegmentsBelowMax(ws)
    ensures dist[vs[0]][vs[|vs| - 1]] <= Sum(ws)
  {
    assert InnerBelow(vs, |graph|);
  }

  /** A negative diagonal entry is the weight of a negative closed walk. */
  lemma NegativeDiagonal(graph: seq<Entry>, dist: seq<seq<int>>, s: nat)
    requires IsSquare(dist, |graph|) && Witnessed(graph, dist) && s < |graph| && dist[s][s] < 0
    ensures NegativeClosedWalk(graph, s)
  {
    assert WalkOfWeight(graph, s, s, dist[s][s]);
  }

  /** A negative simple cycle makes the diagonal entry negative. */
  lemma CycleMakesDiagonalNegative(graph: seq<Entry>, dist: seq<seq<int>>, s: nat)
    requires IsSquare(dist, |graph|) && ThroughBound(graph, dist, |graph|) && s < |graph|
    requires NegativeSimpleCycle(graph, s)
    ensures dist[s][s] < 0
  {
    var vs, ws :| IsPath(graph, vs, ws) && IsSimple(vs) && SegmentsBelowMax(ws) &&
      vs[0] == s && vs[|vs| - 1] == s && Sum(ws) < 0;
    FullBound(graph, dist, vs, ws);
  }

  /**
   * Floyd-Warshall from start to end (lines 77-144). Missing endpoints give
   * an empty path and INT_MAX; a negative diagonal entry at start or end
   * throws, which happens when there is a negative simple cycle through one
   * of them and only when there is a negative closed walk through one of
   * them; an unset next hop gives an empty path and INT_MAX; otherwise the
   * next hops towards end are followed from start, and the distance
   * returned is the weight of a walk from start to end that no simple walk
   * between them is lighter than. A next hop that is not a key makes the
   * source loop forever, which is `Diverges`.
   */
  method FloydWarshall(graph: seq<Entry>, start: string, end: string) returns (r: Outcome)
    requires WellFormed(graph)
    ensures start !in Keys(graph) || end !in Keys(graph) ==> r == Route([], INT_MAX)
    ensures r.Route? && r.path == [] ==> r.distance == INT_MAX
    ensures r.Route? && r.path != [] ==>
      r.path[0] == start && r.path[|r.path| - 1] == end && IsWalk(graph, r.path)
    ensures start == end && r.Route? ==> r.path == []
    ensures start in Keys(graph) && end in Keys(graph) && r.NegativeCycle? ==>
      NegativeClosedWalk(graph, IndexOfKey(Keys(graph), start)) ||
      NegativeClosedWalk(graph, IndexOfKey(Keys(graph), end))
    ensures (start in Keys(graph) && end in Keys(graph) &&
             (NegativeSimpleCycle(graph, IndexOfKey(Keys(graph), start)) ||
              NegativeSimpleCycle(graph, IndexOfKey(Keys(graph), end)))) ==> r.NegativeCycle?
    ensures start in Keys(graph) && end in Keys(graph) && r.Route? && r.path != [] ==>
      WalkOfWeight(graph, IndexOfKey(Keys(graph), start), IndexOfKey(Keys(graph), end), r.distance)
    ensures start in Keys(graph) && end in Keys(graph) && start != end ==>
      forall vs, ws ::
        (IsPath(graph, vs, ws) && IsSimple(vs) && SegmentsBelowMax(ws) &&
         vs[0] == IndexOfKey(Keys(graph), start) && vs[|vs| - 1] == IndexOfKey(Keys(graph), end)) ==>
        r.NegativeCycle? || r.Diverges? || (r.Route? && r.path != [] && r.distance <= Sum(ws))
  {
    var keys := Keys(graph);
    if start !in keys || end !in keys {
      return Route([], INT_MAX);
    }
    var dist, next := Tables(graph);
    var s := IndexOfKey(keys, start);
    var t := IndexOfKey(keys, end);
    if dist[s][s] < 0 || dist[t][t] < 0 {
      if dist[s][s] < 0 {
        NegativeDiagonal(graph, dist, s);
      } else {
        NegativeDiagonal(graph, dist, t);
      }
      return NegativeCycle;
    }
    if NegativeSimpleCycle(graph, s) {
      CycleMakesDiagonalNegative(graph, dist, s);
    }
    if NegativeSimpleCycle(graph, t) {
      CycleMakesDiagonalNegative(graph, dist, t);
    }
    forall vs, ws | IsPath(graph, vs, ws) && IsSimple(vs) && SegmentsBelowMax(ws) && vs[0] == s && vs[|vs| - 1] == t
      ensures dist[s][t] <= Sum(ws)
    {
      FullBound(graph, dist, vs, ws);
    }
    if next[s][t] == "" {
      forall vs, ws | IsPath(graph, vs, ws) && IsSimple(vs) && SegmentsBelowMax(ws) && vs[0] == s && vs[|vs| - 1] == t
        ensures s == t
      {
        assert Sum(ws[0..|ws|]) < INT_MAX;
        assert ws[0..|ws|] == ws;
      }
      return Route([], INT_MAX);
    }
    assert dist[s][t] < INT_MAX;
    r := FollowHops(graph, next, start, end, t, dist[s][t]);
  }

  /** One next hop towards point t; a name that is not a key has no row and reads as unset. */
  ghost function NextHop(graph: seq<Entry>, next: seq<seq<string>>, t: nat): string -> string
    requires IsSquare(next, |graph|) && t < |graph|
  {
    at => if at in Keys(graph) then next[IndexOfKey(Keys(graph), at)][t] else ""
  }

  /**
   * The path loop of lines 137-143: next hops towards end (index t) are
   * followed from start. A hop that is not a key, or a walk longer than
   * the number of points, means the hops never reach end and the source
   * loops forever: `Diverges`.
   */
  method FollowHops(graph: seq<Entry>, next: seq<seq<string>>, start: string, end: string, t: nat, d: int)
    returns (r: Outcome)
    requires WellFormed(graph) && IsSquare(next, |graph|) && NextHopsOk(graph, next)
    requires start in Keys(graph) && t < |graph| && graph[t].key == end
    ensures r.Route? ==>
      r.path != [] && r.path[0] == start && r.path[|r.path| - 1] == end &&
      IsWalk(graph, r.path) && r.distance == d
    ensures r.Route? ==>
      (forall m :: 0 <= m < |r.path| ==> r.path[m] == Iterate(NextHop(graph, next, t), start, m)) &&
      (forall m :: 0 <= m < |r.path| - 1 ==> r.path[m] != end)
    ensures r.Diverges? ==> forall n: nat :: Iterate(NextHop(graph, next, t), start, n) != end
    ensures r.Route? || r.Diverges?
  {
    var keys := Keys(graph);
    var path: seq<string> := [];
    var at := start;
    while at != end
      invariant HopsInv(graph, next, t, start, end, path, at)
      decreases |graph| + 1 - |path|
    {
      if |path| > |graph| {
        HopsLoop(graph, next, t, start, end, path);
        return Diverges;
      }
      var a := IndexOfKey(keys, at);
      var hop := next[a][t];
      HopNext(graph, next, t, start, path, at);
      if hop !in keys {
        HopsStuck(graph, next, t, start, end, path);
        return Diverges;
      }
      HopsStep(graph, next, t, start, end, path, at);
      path := path + [at];
      at := hop;
    }
    IsWalkSnoc(graph, path, end);
    OrbitSnoc(NextHop(graph, next, t), start, path);
    path := path + [end];
    return Route(path, d);
  }

  /**
   * What holds while FollowHops walks: path lists the points visited so
   * far from start, none of them end, as a walk that continues to at; at is
   * the next key the hops reach.
   */
  ghost predicate HopsInv(graph: seq<Entry>, next: seq<seq<string>>, t: nat, start: string, end: string,
                          path: seq<string>, at: string)
    requires IsSquare(next, |graph|) && t < |graph|
  {
    at in Keys(graph) &&
    (path == [] ==> at == start) &&
    (path != [] ==> path[0] == start && HasEdge(graph, path[|path| - 1], at)) &&
    IsWalk(graph, path) &&
    at == Iterate(NextHop(graph, next, t), start, |path|) && IsOrbit(NextHop(graph, next, t), start, path) &&
    end !in path && (forall m :: 0 <= m < |path| ==> path[m] in Keys(graph))
  }

  /** The hop after a key is the entry of the next-hop table for that key's row. */
  lemma HopNext(graph: seq<Entry>, next: seq<seq<string>>, t: nat, start: string, path: seq<string>, at: string)
    requires IsSquare(next, |graph|) && t < |graph|
    requires at in Keys(graph) && at == Iterate(NextHop(graph, next, t), start, |path|)
    ensures Iterate(NextHop(graph, next, t), start, |path| + 1) == next[IndexOfKey(Keys(graph), at)][t]
  {
    assert Iterate(NextHop(graph, next, t), start, |path| + 1) == NextHop(graph, next, t)(at);
  }

  /** Taking a hop that is a key keeps HopsInv. */
  lemma HopsStep(graph: seq<Entry>, next: seq<seq<string>>, t: nat, start: string, end: string,
                 path: seq<string>, at: string)
    requires WellFormed(graph) && IsSquare(next, |graph|) && NextHopsOk(graph, next) && t < |graph|
    requires HopsInv(graph, next, t, start, end, path, at) && at != end
    requires next[IndexOfKey(Keys(graph), at)][t] in Keys(graph)
    requires Iterate(NextHop(graph, next, t), start, |path| + 1) == next[IndexOfKey(Keys(graph), at)][t]
    ensures HopsInv(graph, next, t, start, end, path + [at], next[IndexOfKey(Keys(graph), at)][t])
  {
    var a := IndexOfKey(Keys(graph), at);
    NextHopEdge(graph, next, a, t);
    IsWalkSnoc(graph, path, at);
    OrbitSnoc(NextHop(graph, next, t), start, path);
  }

  /** Next hops that visit more keys than there are, none of them end, never reach end. */
  lemma HopsLoop(graph: seq<Entry>, next: seq<seq<string>>, t: nat, start: string, end: string, path: seq<string>)
    requires IsSquare(next, |graph|) && t < |graph| && |path| > |graph|
    requires IsOrbit(NextHop(graph, next, t), start, path) && end !in path
    requires forall m :: 0 <= m < |path| ==> path[m] in Keys(graph)
    ensures forall n: nat :: Iterate(NextHop(graph, next, t), start, n) != end
  {
    forall n: nat
      ensures Iterate(NextHop(graph, next, t), start, n) != end
    {
      IterateTrapped(NextHop(graph, next, t), start, path, Keys(graph), n);
    }
  }

  /** The hop from a name that is not a key is the empty name. */
  lemma HopFromNonKey(graph: seq<Entry>, next: seq<seq<string>>, t: nat, y: string)
    requires WellFormed(graph) && IsSquare(next, |graph|) && t < |graph| && y !in Keys(graph)
    ensures NextHop(graph, next, t)(y) == "" && "" !in Keys(graph)
  {
    if "" in Keys(graph) {
      KeyNotEmpty(graph, "");
    }
  }

  /**
   * Next hops that have not met end along path nor at the point after it,
   * and then reach a name that is not a key, stay on the empty name for ever.
   */
  lemma HopsStuck(graph: seq<Entry>, next: seq<seq<string>>, t: nat, start: string, end: string, path: seq<string>)
    requires WellFormed(graph) && IsSquare(next, |graph|) && t < |graph| && end in Keys(graph)
    requires IsOrbit(NextHop(graph, next, t), start, path) && end !in path
    requires Iterate(NextHop(graph, next, t), start, |path|) != end
    requires Iterate(NextHop(graph, next, t), start, |path| + 1) !in Keys(graph)
    ensures forall n: nat :: Iterate(NextHop(graph, next, t), start, n) != end
  {
    forall n: nat
      ensures Iterate(NextHop(graph, next, t), start, n) != end
    {
      StuckAt(graph, next, t, start, end, path, n);
    }
  }

  /** HopsStuck for one number of hops n. */
  lemma StuckAt(graph: seq<Entry>, next: seq<seq<string>>, t: nat, start: string, end: string, path: seq<string>, n: nat)
    requires WellFormed(graph) && IsSquare(next, |graph|) && t < |graph| && end in Keys(graph)
    requires IsOrbit(NextHop(graph, next, t), start, path) && end !in path
    requires Iterate(NextHop(graph, next, t), start, |path|) != end
    requires Iterate(NextHop(graph, next, t), start, |path| + 1) !in Keys(graph)
    ensures Iterate(NextHop(graph, next, t), start, n) != end
  {
    if n > |path| + 1 {
      StuckAfter(graph, next, t, start, end, |path| + 1, n);
    } else if n < |path| {
      assert path[n] == Iterate(NextHop(graph, next, t), start, n);
    } else if n == |path| + 1 {
      assert Iterate(NextHop(graph, next, t), start, n) !in Keys(graph);
    }
  }

  /** Once the hops reach a name that is not a key, every later hop is the empty name. */
  lemma StuckAfter(graph: seq<Entry>, next: seq<seq<string>>, t: nat, start: string, end: string, p: nat, n: nat)
    requires WellFormed(graph) && IsSquare(next, |graph|) && t < |graph| && end in Keys(graph)
    requires Iterate(NextHop(graph, next, t), start, p) !in Keys(graph) && p < n
    ensures Iterate(NextHop(graph, next, t), start, n) != end
  {
    var f := NextHop(graph, next, t);
    HopFromNonKey(graph, next, t, Iterate(f, start, p));
    HopFromNonKey(graph, next, t, "");
    IterateSettles(f, start, p, n, "");
    KeyNotEmpty(graph, end);
  }

  /** A next hop that is a key is reached from its row's point by an edge. */
  lemma NextHopEdge(graph: seq<Entry>, next: seq<seq<string>>, a: nat, t: nat)
    requires WellFormed(graph) && IsSquare(next, |graph|) && NextHopsOk(graph, next)
    requires a < |graph| && t < |graph| && next[a][t] in Keys(graph)
    ensures HasEdge(graph, graph[a].key, next[a][t])
  {
    KeyNotEmpty(graph, next[a][t]);
  }

  lemma IsWalkSnoc(graph: seq<Entry>, w: seq<string>, v: string)
    requires IsWalk(graph, w) && (w != [] ==> HasEdge(graph, w[|w| - 1], v))
    ensures IsWalk(graph, w + [v])
  {
    var w' := w + [v];
    forall i | 0 <= i < |w'| - 1
      ensures HasEdge(graph, w'[i], w'[i + 1])
    {
      if i < |w| - 1 {
        assert w'[i] == w[i] && w'[i + 1] == w[i + 1];
      }
    }
  }
}

=== FILE: rabin_karp.dfy ===
/**
 * Rabin-Karp substring search (DubininBV/coursework/RabinCarp.cpp).
 *
 * Characters are the source's plain `char`, a signed byte; the hash is the
 * base-256 value of a window reduced modulo 101.  C's `%` truncates toward
 * zero, so a remainder takes the sign of the dividend; CMod models that.
 */
module RabinKarp {
  import opened Wrappers

  newtype Char = x: int | -128 <= x < 128

  const Base := 256
  const Module := 101

  /** C's remainder by 101: truncating division, so the result has the dividend's sign. */
  function CMod(a: int): (r: int)
    ensures -Module < r < Module
    ensures r % Module == a % Module
    ensures a >= 0 ==> r == a % Module
    ensures a < 0 ==> r <= 0
  {
    if a >= 0 then a % Module else -((-a) % Module)
  }

  /** b to the power e. */
  function Power(b: int, e: nat): int {
    if e == 0 then 1 else b * Power(b, e - 1)
  }

  lemma {:induction false} PowerAdd(b: int, e1: nat, e2: nat)
    ensures Power(b, e1 + e2) == Power(b, e1) * Power(b, e2)
    decreases e1
  {
    if e1 > 0 {
      PowerAdd(b, e1 - 1, e2);
    }
  }

  lemma {:induction false} PowerSquare(b: int, e: nat)
    ensures Power(b * b, e) == Power(b, 2 * e)
    decreases e
  {
    if e > 0 {
      PowerSquare(b, e - 1);
      PowerAdd(b, 2, 2 * (e - 1));
    }
  }

  lemma ModMul(a: int, b: int)
    ensures (a * b) % Module == ((a % Module) * b) % Module
  {
    var q, r := a / Module, a % Module;
    assert a == q * Module + r;
    calc {
      a * b;
      (q * Module + r) * b;
      r * b + (q * b) * Module;
    }
    ModAddMultiple(r * b, q * b);
  }

  lemma {:induction false} PowerMod(b: int, e: nat)
    ensures Power(b, e) % Module == Power(b % Module, e) % Module
    decreases e
  {
    if e > 0 {
      PowerMod(b, e - 1);
      ModMul(b, Power(b, e - 1));
      ModMul(Power(b, e - 1), b % Module);
      ModMul(Power(b % Module, e - 1), b % Module);
    }
  }

  lemma ModMulRight(a: int, b: int)
    ensures (a * b) % Module == (a * (b % Module)) % Module
  {
    ModMul(b, a);
    ModMul(b % Module, a);
  }

  /** The next result of a square-and-multiply round. */
  function NextResult(result: int, x: int, e: nat): int {
    if e % 2 == 1 then (result * x) % Module else result
  }

  lemma PowerSplit(x: int, e: nat)
    ensures Power(x, e) == (if e % 2 == 1 then x else 1) * Power(x * x, e / 2)
  {
    PowerSquare(x, e / 2);
    PowerAdd(x, e % 2, 2 * (e / 2));
  }

  /** One round of square-and-multiply keeps result * x^e unchanged modulo 101. */
  lemma PowStep(result: int, x: int, e: nat)
    requires e > 0 && 0 <= result < Module
    ensures (NextResult(result, x, e) * Power((x * x) % Module, e / 2)) % Module == (result * Power(x, e)) % Module
  {
    var p := Power(x * x, e / 2);
    var q := Power((x * x) % Module, e / 2);
    var r' := NextResult(result, x, e);
    PowerSplit(x, e);
    assert (result * Power(x, e)) % Module == (r' * p) % Module by {
      if e % 2 == 1 {
        assert result * Power(x, e) == (result * x) * p;
        ModMul(result * x, p);
      } else {
        assert Power(x, e) == p;
      }
    }
    PowerMod(x * x, e / 2);
    assert p % Module == q % Module;
    ModMulRight(r', p);
    ModMulRight(r', q);
  }

  /**
   * Modular exponentiation by squaring: a to the power b, modulo 101,
   * for a non-negative base; a non-positive exponent gives 1.
   */
  method Pow(a: int, b: int) returns (result: int)
    requires a >= 0
    ensures b <= 0 ==> result == 1
    ensures b > 0 ==> result == Power(a, b) % Module
    ensures b == 0 ==> result == Power(a, b) % Module
  {
    result := 1;
    var x := a % Module;
    var e := b;
    ghost var goal := if b > 0 then Power(a, b) % Module else 1;
    if b > 0 {
      PowerMod(a, b);
      ModMulRight(1, Power(a % Module, b));
    }
    while e > 0
      invariant 0 <= x < Module && 0 <= result < Module
      invariant e > 0 ==> (result * Power(x, e)) % Module == goal
      invariant e <= 0 ==> result == goal
      decreases e
    {
      PowStep(result, x, e);
      if e % 2 == 1 {
        result := (result * x) % Module;
      }
      x := (x * x) % Module;
      e := e / 2;
    }
  }


  /** The base-256 value of a sequence of characters, most significant first. */
  function Value(s: seq<Char>): int
  {
    if |s| == 0 then 0 else Base * Value(s[..|s| - 1]) + s[|s| - 1] as int
  }

  /** The first character's weight is 256 to the power of the remaining length. */
  lemma {:induction false} ValueFirst(s: seq<Char>)
    requires |s| >= 1
    ensures Value(s) == s[0] as int * Power(Base, |s| - 1) + Value(s[1..])
    decreases |s|
  {
    if |s| == 1 {
      assert s[1..] == [];
      assert s[..0] == [];
    } else {
      var init := s[..|s| - 1];
      ValueFirst(init);
      assert init[1..] == s[1..][..|s[1..]| - 1];
      assert init[0] == s[0];
      calc {
        Value(s);
        Base * Value(init) + s[|s| - 1] as int;
        Base * (s[0] as int * Power(Base, |s| - 2) + Value(init[1..])) + s[|s| - 1] as int;
        { assert Base * (s[0] as int * Power(Base, |s| - 2)) == s[0] as int * Power(Base, |s| - 1); }
        s[0] as int * Power(Base, |s| - 1) + (Base * Value(init[1..]) + s[|s| - 1] as int);
      }
    }
  }

  lemma ModIdempotent(x: int)
    ensures (x % Module) % Module == x % Module
  {
  }

  lemma ModAddMultiple(x: int, j: int)
    ensures (x + j * Module) % Module == x % Module
  {
  }

  /** Congruence is preserved by a Horner step. */
  lemma CongruentStep(a: int, b: int, c: int)
    requires a % Module == b % Module
    ensures (Base * a + c) % Module == (Base * b + c) % Module
  {
    var k := a / Module - b / Module;
    assert a - b == k * Module;
    assert Base * a + c == (Base * b + c) + (Base * k) * Module;
    ModAddMultiple(Base * b + c, Base * k);
  }

  /** The hash as the source computes it for the first window: Horner's rule with C's remainder. */
  function HashC(s: seq<Char>): (h: int)
    ensures -Module < h < Module
    ensures h % Module == Value(s) % Module
  {
    if |s| == 0 then 0
    else
      var prev := HashC(s[..|s| - 1]);
      CongruentStep(prev, Value(s[..|s| - 1]), s[|s| - 1] as int);
      CMod(Base * prev + s[|s| - 1] as int)
  }

  /** A C remainder brought into [0, 101). */
  function Normalize(x: int): int {
    if x < 0 then x + Module else x
  }

  lemma NormalizeCMod(a: int)
    ensures Normalize(CMod(a)) == a % Module
  {
  }

  /** The hash with every remainder brought into [0, 101): the value modulo 101. */
  function HashE(s: seq<Char>): (h: int)
    ensures h == Value(s) % Module
  {
    if |s| == 0 then 0
    else
      var prev := HashE(s[..|s| - 1]);
      CongruentStep(prev, Value(s[..|s| - 1]), s[|s| - 1] as int);
      NormalizeCMod(Base * prev + s[|s| - 1] as int);
      Normalize(CMod(Base * prev + s[|s| - 1] as int))
  }

  /** The rolling update: drop the outgoing character, shift, add the incoming one, normalise. */
  function Roll(hash: int, outgoing: Char, incoming: Char, h: int): int {
    Normalize(CMod(Base * (hash - outgoing as int * h) + incoming as int))
  }

  /** The text hash at window i, starting from the hash of window 0. */
  function WindowHash(text: seq<Char>, m: nat, h: int, first: int, i: nat): int
    requires i + m <= |text|
  {
    if i == 0 then first
    else Roll(WindowHash(text, m, h, first, i - 1), text[i - 1], text[i - 1 + m], h)
  }

  predicate MatchAt(text: seq<Char>, pattern: seq<Char>, i: int) {
    0 <= i && i + |pattern| <= |text| && text[i..i + |pattern|] == pattern
  }

  /** The windows below k whose hash equals the pattern hash and whose characters match. */
  function Hits(text: seq<Char>, pattern: seq<Char>, h: int, hp: int, first: int, k: nat): seq<int>
    requires k + |pattern| <= |text| + 1
  {
    if k == 0 then []
    else
      Hits(text, pattern, h, hp, first, k - 1) +
      (if WindowHash(text, |pattern|, h, first, k - 1) == hp && MatchAt(text, pattern, k - 1) then [k - 1] else [])
  }

  /** Hits reports only matches, in increasing order below k. */
  lemma {:induction false} HitsSound(text: seq<Char>, pattern: seq<Char>, h: int, hp: int, first: int, k: nat)
    requires k + |pattern| <= |text| + 1
    ensures forall t :: 0 <= t < |Hits(text, pattern, h, hp, first, k)| ==>
              0 <= Hits(text, pattern, h, hp, first, k)[t] < k &&
              MatchAt(text, pattern, Hits(text, pattern, h, hp, first, k)[t])
    ensures forall t, u :: 0 <= t < u < |Hits(text, pattern, h, hp, first, k)| ==>
              Hits(text, pattern, h, hp, first, k)[t] < Hits(text, pattern, h, hp, first, k)[u]
  {
    if k > 0 {
      HitsSound(text, pattern, h, hp, first, k - 1);
    }
  }

  /** A window's position is reported exactly when its hash equals the pattern hash and it matches. */
  lemma {:induction false} HitsMembership(text: seq<Char>, pattern: seq<Char>, h: int, hp: int, first: int, k: nat, i: nat)
    requires k + |pattern| <= |text| + 1
    requires i < k
    ensures i in Hits(text, pattern, h, hp, first, k) <==>
              WindowHash(text, |pattern|, h, first, i) == hp && MatchAt(text, pattern, i)
  {
    var prev := Hits(text, pattern, h, hp, first, k - 1);
    var last := k - 1;
    var cond := WindowHash(text, |pattern|, h, first, last) == hp && MatchAt(text, pattern, last);
    assert Hits(text, pattern, h, hp, first, k) == prev + (if cond then [last] else []);
    if i < last {
      HitsMembership(text, pattern, h, hp, first, last, i);
    } else {
      HitsSound(text, pattern, h, hp, first, last);
      assert i !in prev;
    }
  }

  lemma DivisibleMul(a: int, k: int)
    requires a % Module == 0
    ensures (k * a) % Module == 0
  {
    ModMul(a, k);
    assert k * a == a * k;
  }

  lemma CongruentFromDifference(x: int, y: int)
    requires (x - y) % Module == 0
    ensures x % Module == y % Module
  {
    var j := (x - y) / Module;
    assert x - y == j * Module;
    ModAddMultiple(y, j);
  }

  lemma DifferenceFromCongruent(x: int, y: int)
    requires x % Module == y % Module
    ensures (x - y) % Module == 0
  {
    var k := x / Module - y / Module;
    assert x - y == k * Module;
    ModAddMultiple(0, k);
  }

  lemma DivisibleSub(a: int, b: int)
    requires a % Module == 0 && b % Module == 0
    ensures (a - b) % Module == 0
  {
    CongruentFromDifference(a - b + b, b);
    DifferenceFromCongruent(a, b);
  }

  /** Rolling arithmetic: replacing the hash and h by congruent values keeps the result congruent. */
  lemma RollCongruent(hash: int, v: int, h: int, p: int, w0: int, c: int)
    requires hash % Module == v % Module && h % Module == p % Module
    ensures (Base * (hash - w0 * h) + c) % Module == (Base * (v - w0 * p) + c) % Module
  {
    var dh, dp := hash - v, h - p;
    DifferenceFromCongruent(hash, v);
    DifferenceFromCongruent(h, p);
    DivisibleMul(dp, w0);
    DivisibleSub(dh, w0 * dp);
    var d := dh - w0 * dp;
    DivisibleMul(d, Base);
    var x := Base * (hash - w0 * h) + c;
    var y := Base * (v - w0 * p) + c;
    assert w0 * dp == w0 * h - w0 * p;
    assert x - y == Base * d;
    CongruentFromDifference(x, y);
  }

  /** The rolling update maps the hash of one window to the hash of the next. */
  lemma RollStep(w: seq<Char>, c: Char, hash: int, h: int)
    requires |w| >= 1
    requires hash % Module == Value(w) % Module
    requires h % Module == Power(Base, |w| - 1) % Module
    ensures Roll(hash, w[0], c, h) == Value(w[1..] + [c]) % Module
  {
    var next := w[1..] + [c];
    assert next[..|next| - 1] == w[1..];
    ValueFirst(w);
    var p := Power(Base, |w| - 1);
    assert Value(next) == Base * (Value(w) - w[0] as int * p) + c as int;
    RollCongruent(hash, Value(w), h, p, w[0] as int, c as int);
    NormalizeCMod(Base * (hash - w[0] as int * h) + c as int);
  }

  /**
   * Once the first window's hash is its value modulo 101 and h is 256 to
   * the power m-1 modulo 101, every window's hash is its value modulo 101.
   */
  lemma {:induction false} WindowHashCorrect(text: seq<Char>, m: nat, h: int, first: int, i: nat)
    requires m >= 1 && i + m <= |text|
    requires first == Value(text[..m]) % Module
    requires h == Power(Base, m - 1) % Module
    ensures WindowHash(text, m, h, first, i) == Value(text[i..i + m]) % Module
  {
    if i == 0 {
      assert text[0..m] == text[..m];
    } else {
      WindowHashCorrect(text, m, h, first, i - 1);
      var w := text[i - 1..i - 1 + m];
      var prev := WindowHash(text, m, h, first, i - 1);
      assert w[1..] + [text[i - 1 + m]] == text[i..i + m];
      ModIdempotent(Value(w));
      ModIdempotent(Power(Base, m - 1));
      RollStep(w, text[i - 1 + m], prev, h);
    }
  }

  /**
   * With every hash normalised, every match below k is reported: equal
   * windows have equal hashes.
   */
  lemma HitsComplete(text: seq<Char>, pattern: seq<Char>, k: nat, i: nat)
    requires |pattern| >= 1 && k + |pattern| <= |text| + 1
    requires i < k && MatchAt(text, pattern, i)
    ensures i in Hits(text, pattern, Power(Base, |pattern| - 1) % Module, HashE(pattern), HashE(text[..|pattern|]), k)
  {
    var m := |pattern|;
    WindowHashCorrect(text, m, Power(Base, m - 1) % Module, HashE(text[..m]), i);
    HitsMembership(text, pattern, Power(Base, m - 1) % Module, HashE(pattern), HashE(text[..m]), k, i);
  }

  /**
   * With normalised hashes and h = 256^(m-1) mod 101, the hits are exactly
   * the match positions, in increasing order.
   */
  lemma CorrectedHits(text: seq<Char>, pattern: seq<Char>, h: int, hp: int, first: int)
    requires 1 <= |pattern| <= |text|
    requires h == Power(Base, |pattern| - 1) % Module && hp == HashE(pattern) && first == HashE(text[..|pattern|])
    ensures var hits := Hits(text, pattern, h, hp, first, |text| - |pattern| + 1);
      (forall i :: i in hits <==> MatchAt(text, pattern, i)) &&
      (forall t, u :: 0 <= t < u < |hits| ==> hits[t] < hits[u])
  {
    var k := |text| - |pattern| + 1;
    HitsSound(text, pattern, h, hp, first, k);
    forall i | MatchAt(text, pattern, i)
      ensures i in Hits(text, pattern, h, hp, first, k)
    {
      HitsComplete(text, pattern, k, i);
    }
  }

  /** The two hashes of the prefixes of length m, as the source computes them. */
  method InitialHashes(text: seq<Char>, pattern: seq<Char>) returns (hashPattern: int, hashText: int)
    requires |pattern| <= |text|
    ensures hashPattern == HashC(pattern) && hashText == HashC(text[..|pattern|])
  {
    var m := |pattern|;
    hashPattern, hashText := 0, 0;
    for i := 0 to m
      invariant hashPattern == HashC(pattern[..i]) && hashText == HashC(text[..i])
    {
      assert pattern[..i + 1][..i] == pattern[..i] && text[..i + 1][..i] == text[..i];
      hashPattern := CMod(Base * hashPattern + pattern[i] as int);
      hashText := CMod(Base * hashText + text[i] as int);
    }
    assert pattern[..m] == pattern;
  }

  /** The prefix hashes with each remainder brought into [0, 101). */
  method InitialHashesNormalized(text: seq<Char>, pattern: seq<Char>) returns (hashPattern: int, hashText: int)
    requires |pattern| <= |text|
    ensures hashPattern == HashE(pattern) && hashText == HashE(text[..|pattern|])
  {
    var m := |pattern|;
    hashPattern, hashText := 0, 0;
    for i := 0 to m
      invariant hashPattern == HashE(pattern[..i]) && hashText == HashE(text[..i])
    {
      assert pattern[..i + 1][..i] == pattern[..i] && text[..i + 1][..i] == text[..i];
      hashPattern := CMod(Base * hashPattern + pattern[i] as int);
      if hashPattern < 0 { hashPattern := hashPattern + Module; }
      hashText := CMod(Base * hashText + text[i] as int);
      if hashText < 0 { hashText := hashText + Module; }
    }
    assert pattern[..m] == pattern;
  }

  /** Compares the window at i with the pattern character by character. */
  method WindowMatches(text: seq<Char>, pattern: seq<Char>, i: nat) returns (matched: bool)
    requires i + |pattern| <= |text|
    ensures matched == MatchAt(text, pattern, i)
  {
    matched := true;
    var j := 0;
    while j < |pattern|
      invariant 0 <= j <= |pattern|
      invariant forall t :: 0 <= t < j ==> text[i + t] == pattern[t]
    {
      if text[i + j] != pattern[j] {
        assert text[i..i + |pattern|][j] != pattern[j];
        matched := false;
        break;
      }
      j := j + 1;
    }
    if matched {
      assert text[i..i + |pattern|] == pattern;
    }
  }

  /**
   * The window loop: a window is checked character by character only when
   * its hash equals the pattern's; the hash then rolls to the next window.
   */
  method ScanWindows(text: seq<Char>, pattern: seq<Char>, h: int, hashPattern: int, first: int)
    returns (indices: seq<int>)
    requires 1 <= |pattern| <= |text|
    ensures indices == Hits(text, pattern, h, hashPattern, first, |text| - |pattern| + 1)
  {
    var n, m := |text|, |pattern|;
    indices := [];
    var hashText := first;
    for i := 0 to n - m + 1
      invariant indices == Hits(text, pattern, h, hashPattern, first, i)
      invariant i <= n - m ==> hashText == WindowHash(text, m, h, first, i)
    {
      if hashPattern == hashText {
        var matched := WindowMatches(text, pattern, i);
        if matched {
          indices := indices + [i];
        }
      }
      if i < n - m {
        hashText := RollHash(hashText, text[i], text[i + m], h);
      }
    }
  }

  /** The hash of the next window: C's remainder, brought into [0, 101) when negative. */
  method RollHash(hash: int, outgoing: Char, incoming: Char, h: int) returns (next: int)
    ensures next == Roll(hash, outgoing, incoming, h)
    ensures 0 <= next < Module
  {
    next := CMod(Base * (hash - outgoing as int * h) + incoming as int);
    if next < 0 {
      next := next + Module;
    }
  }

  /** What the source reports: the first window's hash is left as C's remainder leaves it. */
  function AsWrittenSearch(text: seq<Char>, pattern: seq<Char>): seq<int>
    requires 1 <= |pattern| <= |text|
  {
    Hits(text, pattern, Power(Base, |pattern| - 1) % Module, HashC(pattern), HashC(text[..|pattern|]),
         |text| - |pattern| + 1)
  }

  /**
   * The search as written: fails on an empty pattern, an empty text or a
   * pattern longer than the text; every reported index is a match and the
   * indices increase.
   */
  method SearchAll(text: seq<Char>, pattern: seq<Char>) returns (r: Result<seq<int>>)
    ensures r.Failure? <==> |pattern| == 0 || |text| == 0 || |pattern| > |text|
    ensures r.Success? ==> r.value == AsWrittenSearch(text, pattern)
    ensures r.Success? ==> forall t :: 0 <= t < |r.value| ==> MatchAt(text, pattern, r.value[t])
    ensures r.Success? ==> forall t, u :: 0 <= t < u < |r.value| ==> r.value[t] < r.value[u]
  {
    var n, m := |text|, |pattern|;
    if m == 0 {
      return Failure("Pattern is empty");
    }
    if n == 0 {
      return Failure("Text is empty");
    }
    if m > n {
      return Failure("Pattern length longer than text length");
    }
    var h := Pow(Base, m - 1);
    var hashPattern, hashText := InitialHashes(text, pattern);
    var indices := ScanWindows(text, pattern, h, hashPattern, hashText);
    HitsSound(text, pattern, h, hashPattern, hashText, n - m + 1);
    return Success(indices);
  }

  /**
   * With negative (non-ASCII) characters the first window's hash can be
   * negative while rolled hashes never are: for text [65, -1] and pattern
   * [-1] the pattern hash is -1, the second window's rolled hash is 100,
   * and the match at 1 is not reported.
   */
  lemma AsWrittenMissesNegativeChar()
    ensures MatchAt([65 as Char, -1 as Char], [-1 as Char], 1)
    ensures AsWrittenSearch([65 as Char, -1 as Char], [-1 as Char]) == []
  {
    var text: seq<Char> := [65, -1];
    var pattern: seq<Char> := [-1];
    assert text[1..2] == pattern;
    assert pattern[..0] == [] && text[..1][..0] == [] && text[..1] == [65];
    assert HashC(pattern) == -1;
    assert HashC(text[..1]) == 65;
    assert Power(Base, 0) % Module == 1;
    assert WindowHash(text, 1, 1, 65, 1) == 100;
    assert !MatchAt(text, pattern, 0);
  }

  /**
   * The search with the first window's hashes normalised like the rolled
   * ones: it reports exactly the match positions, in increasing order.
   */
  method SearchAllCorrected(text: seq<Char>, pattern: seq<Char>) returns (r: Result<seq<int>>)
    ensures r.Failure? <==> |pattern| == 0 || |text| == 0 || |pattern| > |text|
    ensures r.Success? ==> forall i :: i in r.value <==> MatchAt(text, pattern, i)
    ensures r.Success? ==> forall t, u :: 0 <= t < u < |r.value| ==> r.value[t] < r.value[u]
  {
    var n, m := |text|, |pattern|;
    if m == 0 {
      return Failure("Pattern is empty");
    }
    if n == 0 {
      return Failure("Text is empty");
    }
    if m > n {
      return Failure("Pattern length longer than text length");
    }
    var h := Pow(Base, m - 1);
    var hashPattern, hashText := InitialHashesNormalized(text, pattern);
    var indices := ScanWindows(text, pattern, h, hashPattern, hashText);
    CorrectedHits(text, pattern, h, hashPattern, hashText);
    return Success(indices);
  }
}

=== FILE: rpn_calc.dfy ===
/**
 * Infix calculator (Zhavoronkov_IA/Coursework/rpn_calc.cpp): a tokenizer
 * that folds a unary sign into the following number, a shunting-yard
 * converter to reverse Polish notation, and a stack evaluator.  Numbers
 * are modelled as reals; exponentiation is a parameter.
 */
module RpnCalc {
  import opened Wrappers

  datatype Token = Number(value: real) | Operator(op: char, isUnary: bool) | LeftParen | RightParen

  /** The token a single character stands for. */
  function CharToken(c: char): (t: Token)
    ensures c == '(' <==> t == LeftParen
    ensures c == ')' <==> t == RightParen
    ensures c != '(' && c != ')' ==> t == Operator(c, false)
  {
    if c == '(' then LeftParen else if c == ')' then RightParen else Operator(c, false)
  }

  /** Operator precedence: unary 4, ^ 3, * and / 2, + and - 1, anything else 0. */
  function Priority(t: Token): (p: int)
    ensures 0 <= p <= 4
    ensures p == 4 <==> t.Operator? && t.isUnary
    ensures p == 3 <==> t.Operator? && !t.isUnary && t.op == '^'
    ensures p == 2 <==> t.Operator? && !t.isUnary && (t.op == '*' || t.op == '/')
    ensures p == 1 <==> t.Operator? && !t.isUnary && (t.op == '+' || t.op == '-')
  {
    if t.Operator? then
      if t.isUnary then 4
      else if t.op == '^' then 3
      else if t.op == '*' || t.op == '/' then 2
      else if t.op == '+' || t.op == '-' then 1
      else 0
    else 0
  }

  predicate IsDigit(c: char) { '0' <= c <= '9' }

  predicate IsOperatorChar(c: char) {
    c == '+' || c == '-' || c == '*' || c == '/' || c == '^' || c == '(' || c == ')'
  }

  // ---------------------------------------------------------------------
  // Numbers, as the C++ library's stod reads a run of digits and dots
  // ---------------------------------------------------------------------

  /** The end of the run of digits that starts at i. */
  function DigitsEnd(s: string, i: nat): (e: nat)
    requires i <= |s|
    ensures i <= e <= |s| && (e == |s| || !IsDigit(s[e]))
    ensures forall k :: i <= k < e ==> IsDigit(s[k])
    decreases |s| - i
  {
    if i < |s| && IsDigit(s[i]) then DigitsEnd(s, i + 1) else i
  }

  function DigitValue(c: char): nat
    requires IsDigit(c)
  {
    c as int - '0' as int
  }

  function DigitsValue(ds: string): nat
    requires forall k :: 0 <= k < |ds| ==> IsDigit(ds[k])
  {
    if |ds| == 0 then 0
    else 10 * DigitsValue(ds[..|ds| - 1]) + DigitValue(ds[|ds| - 1])
  }

  function Pow10(n: nat): (p: nat)
    ensures p >= 1
  {
    if n == 0 then 1 else 10 * Pow10(n - 1)
  }

  /**
   * The value of the longest prefix of s of the form digits, optionally
   * followed by a dot and digits, with at least one digit; a failure when
   * there is no digit before the first non-digit other than one dot.
   */
  function Stod(s: string): (r: Result<real>)
    ensures r.Failure? <==> DigitsEnd(s, 0) == 0 && (|s| == 0 || s[0] != '.' || DigitsEnd(s, 1) == 1)
  {
    var a := DigitsEnd(s, 0);
    var whole := DigitsValue(s[..a]) as real;
    if a < |s| && s[a] == '.' then
      var b := DigitsEnd(s, a + 1);
      if a == 0 && b == a + 1 then Failure("stod")
      else Success(whole + DigitsValue(s[a + 1..b]) as real / Pow10(b - a - 1) as real)
    else if a == 0 then Failure("stod")
    else Success(whole)
  }

  // ---------------------------------------------------------------------
  // Tokenizer
  // ---------------------------------------------------------------------

  /** The first position at or after pos that is not a space. */
  function SkipSpaces(expr: string, pos: nat): (p: nat)
    requires pos <= |expr|
    ensures pos <= p <= |expr| && (p == |expr| || expr[p] != ' ')
    ensures forall k :: pos <= k < p ==> expr[k] == ' '
    decreases |expr| - pos
  {
    if pos < |expr| && expr[pos] == ' ' then SkipSpaces(expr, pos + 1) else pos
  }

  /** The last position before pos that is not a space, or -1. */
  function PrevNonSpace(expr: string, pos: nat): (p: int)
    requires pos <= |expr|
    ensures -1 <= p < pos && (p >= 0 ==> expr[p] != ' ')
    ensures forall k :: p < k < pos ==> expr[k] == ' '
  {
    if pos == 0 then -1 else if expr[pos - 1] != ' ' then pos - 1 else PrevNonSpace(expr, pos - 1)
  }

  /**
   * A sign at pos is unary when it starts the expression, follows only
   * spaces, or follows an opening parenthesis or an operator.
   */
  predicate UnaryAt(expr: string, pos: nat)
    requires pos <= |expr|
  {
    var p := PrevNonSpace(expr, pos);
    pos == 0 || p < 0 || expr[p] in "(+-*/^"
  }

  /** The end of the run of digits and dots that starts at i. */
  function NumberEnd(expr: string, i: nat): (e: nat)
    requires i <= |expr|
    ensures i <= e <= |expr| && (e == |expr| || !(IsDigit(expr[e]) || expr[e] == '.'))
    decreases |expr| - i
  {
    if i < |expr| && (IsDigit(expr[i]) || expr[i] == '.') then NumberEnd(expr, i + 1) else i
  }

  /**
   * The token that starts at or after pos, and the position after it.  A
   * unary sign reads the next token, which must be a number, and negates
   * it for '-'.
   */
  function NextToken(expr: string, pos: nat): (r: Result<(Token, nat)>)
    requires pos <= |expr|
    ensures r.Success? ==> pos < r.value.1 <= |expr|
    decreases |expr| - pos
  {
    var p := SkipSpaces(expr, pos);
    if p >= |expr| then Failure("Unexpected end")
    else if (expr[p] == '+' || expr[p] == '-') && UnaryAt(expr, p) then SignedNumber(expr[p], NextToken(expr, p + 1))
    else if IsDigit(expr[p]) || expr[p] == '.' then NumberToken(expr, p)
    else if IsOperatorChar(expr[p]) then Success((CharToken(expr[p]), p + 1))
    else Failure("Invalid character: " + [expr[p]])
  }

  /** A unary sign applied to the token after it: that token must be a number. */
  function SignedNumber(sign: char, next: Result<(Token, nat)>): (r: Result<(Token, nat)>)
    ensures r.Success? <==> next.Success? && next.value.0.Number?
    ensures r.Success? ==> r.value.1 == next.value.1 && r.value.0.Number? &&
                           r.value.0.value == (if sign == '-' then -next.value.0.value else next.value.0.value)
  {
    match next
    case Failure(e) => Failure(e)
    case Success(n) =>
      if n.0.Number? then Success((if sign == '-' then Number(-n.0.value) else n.0, n.1))
      else Failure("Unary operator must precede a number")
  }

  /** The run of digits and dots at p, read as a number by Stod. */
  function NumberToken(expr: string, p: nat): (r: Result<(Token, nat)>)
    requires p < |expr| && (IsDigit(expr[p]) || expr[p] == '.')
    ensures r.Success? <==> Stod(expr[p..NumberEnd(expr, p)]).Success?
    ensures r.Success? ==> r.value == (Number(Stod(expr[p..NumberEnd(expr, p)]).value), NumberEnd(expr, p))
    ensures r.Success? ==> p < r.value.1 <= |expr|
  {
    var e := NumberEnd(expr, p);
    match Stod(expr[p..e])
    case Failure(msg) => Failure(msg)
    case Success(v) => Success((Number(v), e))
  }

  /** Prepends tokens to a successful tokenization. */
  function Prepend(ts: seq<Token>, r: Result<seq<Token>>): Result<seq<Token>> {
    match r
    case Success(rest) => Success(ts + rest)
    case Failure(e) => Failure(e)
  }

  /** The tokens of expr from pos on, read until the end. */
  function TokenizeFrom(expr: string, pos: nat): (r: Result<seq<Token>>)
    requires pos <= |expr|
    decreases |expr| - pos
  {
    if pos >= |expr| then Success([])
    else
      match NextToken(expr, pos)
      case Failure(e) => Failure(e)
      case Success(next) => Prepend([next.0], TokenizeFrom(expr, next.1))
  }

  function Tokenize(expr: string): Result<seq<Token>> {
    TokenizeFrom(expr, 0)
  }

  /** Only spaces left, or a character outside digits, dot, operators and parentheses, is an error. */
  lemma NextTokenErrors(expr: string, pos: nat)
    requires pos <= |expr|
    ensures SkipSpaces(expr, pos) == |expr| ==> NextToken(expr, pos).Failure?
    ensures var p := SkipSpaces(expr, pos);
            p < |expr| && !(IsDigit(expr[p]) || expr[p] == '.' || IsOperatorChar(expr[p])) ==> NextToken(expr, pos).Failure?
  {
  }

  /** The tokenizer never yields a unary operator: a unary sign is folded into its number. */
  lemma {:induction false} NoUnaryTokens(expr: string, pos: nat)
    requires pos <= |expr|
    ensures NextToken(expr, pos).Success? ==> !NextToken(expr, pos).value.0.Operator? || !NextToken(expr, pos).value.0.isUnary
    decreases |expr| - pos
  {
    var p := SkipSpaces(expr, pos);
    if p < |expr| && (expr[p] == '+' || expr[p] == '-') && UnaryAt(expr, p) {
      NoUnaryTokens(expr, p + 1);
    }
  }

  /** A lone digit at i, not followed by a digit or dot, reads as its value. */
  lemma SingleDigitToken(e: string, i: nat)
    requires i < |e| && IsDigit(e[i])
    requires i + 1 == |e| || !(IsDigit(e[i + 1]) || e[i + 1] == '.')
    ensures NextToken(e, i) == Success((Number(DigitValue(e[i]) as real), i + 1))
  {
    assert SkipSpaces(e, i) == i;
    assert NumberEnd(e, i) == i + 1;
    var d := e[i..i + 1];
    assert d == [e[i]] && d[..0] == [] && d[..1] == d;
    assert DigitsEnd(d, 1) == 1;
    assert DigitsEnd(d, 0) == 1;
    assert DigitsValue(d) == DigitValue(e[i]);
    assert Stod(d) == Success(DigitValue(e[i]) as real);
  }

  /** An operator character at i that is not a unary sign reads as itself. */
  lemma OperatorToken(e: string, i: nat)
    requires i < |e| && IsOperatorChar(e[i]) && !((e[i] == '+' || e[i] == '-') && UnaryAt(e, i))
    ensures NextToken(e, i) == Success((CharToken(e[i]), i + 1))
  {
    assert SkipSpaces(e, i) == i;
  }

  /** A unary sign at i is applied to the token after it. */
  lemma SignToken(e: string, i: nat)
    requires i < |e| && (e[i] == '+' || e[i] == '-') && UnaryAt(e, i)
    ensures NextToken(e, i) == SignedNumber(e[i], NextToken(e, i + 1))
  {
    assert SkipSpaces(e, i) == i;
  }

  /** Reading from pos is reading from the first non-space at or after pos. */
  lemma NextTokenSkipsSpaces(e: string, pos: nat)
    requires pos <= |e|
    ensures NextToken(e, pos) == NextToken(e, SkipSpaces(e, pos))
  {
    var p := SkipSpaces(e, pos);
    assert SkipSpaces(e, p) == p;
  }

  /** A successful token is followed by the tokens after it. */
  lemma TokenizeStep(e: string, pos: nat, t: Token, next: nat)
    requires pos < |e| && NextToken(e, pos) == Success((t, next))
    ensures TokenizeFrom(e, pos) == Prepend([t], TokenizeFrom(e, next))
  {
  }

  /** A sign after an operator is folded into the number. */
  lemma UnaryAfterOperator()
    ensures Tokenize("2*-3") == Success([Number(2.0), Operator('*', false), Number(-3.0)])
  {
    var e := "2*-3";
    assert |e| == 4 && e[0] == '2' && e[1] == '*' && e[2] == '-' && e[3] == '3';
    SingleDigitToken(e, 0);
    OperatorToken(e, 1);
    SingleDigitToken(e, 3);
    assert PrevNonSpace(e, 2) == 1;
    SignToken(e, 2);
    TokenizeStep(e, 2, Number(-3.0), 4);
    TokenizeStep(e, 1, Operator('*', false), 2);
    TokenizeStep(e, 0, Number(2.0), 1);
    assert [Number(-3.0)] + [] == [Number(-3.0)];
    assert [Number(2.0)] + ([Operator('*', false)] + [Number(-3.0)]) == [Number(2.0), Operator('*', false), Number(-3.0)];
  }

  /** A sign after a number is a binary operator. */
  lemma BinaryAfterNumber()
    ensures Tokenize("2-3") == Success([Number(2.0), Operator('-', false), Number(3.0)])
  {
    var e := "2-3";
    assert |e| == 3 && e[0] == '2' && e[1] == '-' && e[2] == '3';
    SingleDigitToken(e, 0);
    assert PrevNonSpace(e, 1) == 0;
    OperatorToken(e, 1);
    SingleDigitToken(e, 2);
    TokenizeStep(e, 2, Number(3.0), 3);
    TokenizeStep(e, 1, Operator('-', false), 2);
    TokenizeStep(e, 0, Number(2.0), 1);
    assert [Number(3.0)] + [] == [Number(3.0)];
    assert [Number(2.0)] + ([Operator('-', false)] + [Number(3.0)]) == [Number(2.0), Operator('-', false), Number(3.0)];
  }

  /** A trailing space is read as an unexpected end. */
  lemma TrailingSpaceFails()
    ensures Tokenize("1 ").Failure?
  {
    var e := "1 ";
    assert e[0..1] == "1" && DigitsValue("1") == 1;
    assert NextToken(e, 0) == Success((Number(1.0), 1));
    assert SkipSpaces(e, 1) == 2;
  }

  /**
   * A token read with the position after it agrees with NextToken's answer:
   * the same token and position, and failure exactly when it fails.
   */
  ghost predicate Agrees(r: Result<Token>, pos: nat, spec: Result<(Token, nat)>)
  {
    (r.Success? <==> spec.Success?) && (r.Success? ==> r.value == spec.value.0 && pos == spec.value.1)
  }

  /** What applying a unary sign does to a token read as `next`. */
  lemma SignedAgrees(op: char, next: Result<Token>, p: nat, after: Result<(Token, nat)>)
    requires Agrees(next, p, after)
    ensures next.Failure? ==> SignedNumber(op, after).Failure?
    ensures next.Success? && next.value.Number? ==>
      SignedNumber(op, after) == Success((if op == '-' then Number(-next.value.value) else next.value, p))
    ensures next.Success? && !next.value.Number? ==> SignedNumber(op, after).Failure?
  {
  }

  class Tokenizer {
    const expr: string
    var pos: nat

    constructor(s: string)
      ensures expr == s && pos == 0
    {
      expr := s;
      pos := 0;
    }

    predicate IsEnd()
      reads this
    {
      pos >= |expr|
    }

    /** Reads the next token, advancing pos past it. */
    method Next() returns (r: Result<Token>)
      requires pos <= |expr|
      modifies this
      ensures pos <= |expr|
      ensures Agrees(r, pos, NextToken(expr, old(pos)))
      decreases |expr| - pos, 1
    {
      ghost var start := pos;
      SkipSpaceChars();
      NextTokenSkipsSpaces(expr, start);
      if pos >= |expr| {
        return Failure("Unexpected end");
      }
      if expr[pos] == '+' || expr[pos] == '-' {
        var isUnary := SignIsUnary();
        if isUnary {
          r := NextSigned();
          return;
        }
      }
      r := NextPlain();
    }

    /** Reads a unary sign at pos and the number it applies to. */
    method NextSigned() returns (r: Result<Token>)
      requires pos < |expr| && (expr[pos] == '+' || expr[pos] == '-') && UnaryAt(expr, pos)
      modifies this
      ensures pos <= |expr|
      ensures Agrees(r, pos, NextToken(expr, old(pos)))
      decreases |expr| - pos, 0
    {
      SignToken(expr, pos);
      var op := expr[pos];
      pos := pos + 1;
      var next := Next();
      SignedAgrees(op, next, pos, NextToken(expr, old(pos) + 1));
      if next.Failure? {
        return next;
      }
      if next.value.Number? {
        if op == '-' {
          return Success(Number(-next.value.value));
        }
        return next;
      }
      return Failure("Unary operator must precede a number");
    }

    /** Reads a number, an operator or a parenthesis at pos, or fails on another character. */
    method NextPlain() returns (r: Result<Token>)
      requires pos < |expr| && expr[pos] != ' ' && !((expr[pos] == '+' || expr[pos] == '-') && UnaryAt(expr, pos))
      modifies this
      ensures pos <= |expr|
      ensures Agrees(r, pos, NextToken(expr, old(pos)))
    {
      assert SkipSpaces(expr, pos) == pos;
      if IsDigit(expr[pos]) || expr[pos] == '.' {
        r := ReadNumber();
        return;
      }
      var c := expr[pos];
      pos := pos + 1;
      if IsOperatorChar(c) {
        return Success(CharToken(c));
      }
      return Failure("Invalid character: " + [c]);
    }

    method SkipSpaceChars()
      requires pos <= |expr|
      modifies this
      ensures pos == SkipSpaces(expr, old(pos))
    {
      while pos < |expr| && expr[pos] == ' '
        invariant old(pos) <= pos <= |expr| && SkipSpaces(expr, old(pos)) == SkipSpaces(expr, pos)
      {
        pos := pos + 1;
      }
    }

    /** Whether the sign at pos is unary, found by scanning back over spaces. */
    method SignIsUnary() returns (isUnary: bool)
      requires pos < |expr|
      ensures isUnary == UnaryAt(expr, pos)
    {
      if pos == 0 {
        return true;
      }
      var prev: int := pos - 1;
      while prev >= 0 && expr[prev] == ' '
        invariant -1 <= prev < pos && PrevNonSpace(expr, pos) == PrevNonSpace(expr, prev + 1)
      {
        prev := prev - 1;
      }
      if prev < 0 {
        return true;
      }
      var prevChar := expr[prev];
      isUnary := prevChar == '(' || prevChar == '+' || prevChar == '-' ||
                 prevChar == '*' || prevChar == '/' || prevChar == '^';
    }

    /** Reads the run of digits and dots at pos as a number. */
    method ReadNumber() returns (r: Result<Token>)
      requires pos < |expr|
      modifies this
      ensures pos == NumberEnd(expr, old(pos))
      ensures r.Success? <==> Stod(expr[old(pos)..pos]).Success?
      ensures r.Success? ==> r.value == Number(Stod(expr[old(pos)..pos]).value)
    {
      var first := pos;
      while pos < |expr| && (IsDigit(expr[pos]) || expr[pos] == '.')
        invariant first <= pos <= |expr| && NumberEnd(expr, first) == NumberEnd(expr, pos)
      {
        pos := pos + 1;
      }
      var v := Stod(expr[first..pos]);
      if v.Failure? {
        return Failure(v.error);
      }
      return Success(Number(v.value));
    }
  }

  // ---------------------------------------------------------------------
  // Shunting-yard conversion
  // ---------------------------------------------------------------------

  /** The operator stack (top last) and the output queue. */
  datatype Shunting = Shunting(stack: seq<Token>, output: seq<Token>)

  /**
   * Whether the operator on top of the stack leaves before tok is pushed:
   * it binds tighter, or equally tight and tok is not the right-associative ^.
   */
  predicate ShouldPop(top: Token, tok: Token)
    requires tok.Operator?
  {
    (Priority(top) > Priority(tok) || (Priority(top) == Priority(tok) && tok.op != '^')) && !top.LeftParen?
  }

  /** ^ is right-associative; the other binary operators are left-associative. */
  lemma Associativity(top: Token, tok: Token)
    requires top.Operator? && tok.Operator? && !top.isUnary && !tok.isUnary
    requires top.op in "+-*/^" && tok.op in "+-*/^" && Priority(top) == Priority(tok)
    ensures ShouldPop(top, tok) <==> tok.op != '^'
    ensures tok.op == '^' ==> top.op == '^'
  {
  }

  function PopOperators(st: Shunting, tok: Token): Shunting
    requires tok.Operator?
    decreases |st.stack|
  {
    if |st.stack| > 0 && ShouldPop(st.stack[|st.stack| - 1], tok) then
      PopOperators(Shunting(st.stack[..|st.stack| - 1], st.output + [st.stack[|st.stack| - 1]]), tok)
    else st
  }

  function PopToParen(st: Shunting): Result<Shunting>
    decreases |st.stack|
  {
    if |st.stack| == 0 then Failure("Mismatched parentheses")
    else if st.stack[|st.stack| - 1].LeftParen? then Success(Shunting(st.stack[..|st.stack| - 1], st.output))
    else PopToParen(Shunting(st.stack[..|st.stack| - 1], st.output + [st.stack[|st.stack| - 1]]))
  }

  /** One token of the conversion. */
  function ShuntStep(st: Shunting, t: Token): Result<Shunting> {
    match t
    case Number(_) => Success(Shunting(st.stack, st.output + [t]))
    case LeftParen => Success(Shunting(st.stack + [t], st.output))
    case RightParen => PopToParen(st)
    case Operator(_, _) =>
      var popped := PopOperators(st, t);
      Success(Shunting(popped.stack + [t], popped.output))
  }

  /** The state after converting ts from the empty state. */
  function ShuntFold(ts: seq<Token>): Result<Shunting> {
    if |ts| == 0 then Success(Shunting([], []))
    else
      match ShuntFold(ts[..|ts| - 1])
      case Failure(e) => Failure(e)
      case Success(st) => ShuntStep(st, ts[|ts| - 1])
  }

  /** Moves the remaining operators to the output; a left parenthesis left over is an error. */
  function Finish(st: Shunting): Result<seq<Token>>
    decreases |st.stack|
  {
    if |st.stack| == 0 then Success(st.output)
    else if st.stack[|st.stack| - 1].LeftParen? then Failure("Mismatched parentheses")
    else Finish(Shunting(st.stack[..|st.stack| - 1], st.output + [st.stack[|st.stack| - 1]]))
  }

  function Shunt(ts: seq<Token>): Result<seq<Token>> {
    match ShuntFold(ts)
    case Failure(e) => Failure(e)
    case Success(st) => Finish(st)
  }

  /** The reverse Polish form of expr, or the first error the conversion meets. */
  function Convert(expr: string): Result<seq<Token>> {
    match Tokenize(expr)
    case Failure(e) => Failure(e)
    case Success(ts) => Shunt(ts)
  }

  // Properties of the conversion.

  /** Opening minus closing parentheses. */
  function Depth(ts: seq<Token>): int {
    if |ts| == 0 then 0
    else Depth(ts[..|ts| - 1]) + (if ts[|ts| - 1].LeftParen? then 1 else if ts[|ts| - 1].RightParen? then -1 else 0)
  }

  /** No prefix closes more parentheses than it opens, and all of them are closed. */
  ghost predicate Balanced(ts: seq<Token>) {
    (forall k :: 0 <= k <= |ts| ==> Depth(ts[..k]) >= 0) && Depth(ts) == 0
  }

  function OpenCount(stack: seq<Token>): nat {
    if |stack| == 0 then 0
    else OpenCount(stack[..|stack| - 1]) + (if stack[|stack| - 1].LeftParen? then 1 else 0)
  }

  /** The numbers of ts, in order. */
  function Numbers(ts: seq<Token>): seq<real> {
    if |ts| == 0 then []
    else Numbers(ts[..|ts| - 1]) + (if ts[|ts| - 1].Number? then [ts[|ts| - 1].value] else [])
  }

  /** ts without its parentheses. */
  function NonParen(ts: seq<Token>): seq<Token> {
    if |ts| == 0 then []
    else NonParen(ts[..|ts| - 1]) + (if ts[|ts| - 1].LeftParen? || ts[|ts| - 1].RightParen? then [] else [ts[|ts| - 1]])
  }

  /** The stack holds only operators and left parentheses. */
  ghost predicate StackTokens(stack: seq<Token>) {
    forall i :: 0 <= i < |stack| ==> stack[i].Operator? || stack[i].LeftParen?
  }

  ghost predicate NoParens(output: seq<Token>) {
    forall i :: 0 <= i < |output| ==> output[i].Number? || output[i].Operator?
  }

  /** What the conversion keeps: the numbers in order, every non-parenthesis token exactly once. */
  ghost predicate Keeps(st: Shunting, ts: seq<Token>) {
    StackTokens(st.stack) && NoParens(st.output) &&
    OpenCount(st.stack) == Depth(ts) &&
    Numbers(st.output) == Numbers(ts) &&
    multiset(st.output) + multiset(NonParen(st.stack)) == multiset(NonParen(ts))
  }

  /** Moving the top operator of the stack to the output keeps everything Keeps counts. */
  lemma MoveTop(st: Shunting, ts: seq<Token>)
    requires Keeps(st, ts) && |st.stack| > 0 && !st.stack[|st.stack| - 1].LeftParen?
    ensures Keeps(Shunting(st.stack[..|st.stack| - 1], st.output + [st.stack[|st.stack| - 1]]), ts)
  {
    var top := st.stack[|st.stack| - 1];
    SplitLast(st.stack);
    SnocParts(st.output, top);
    SnocParts(st.stack[..|st.stack| - 1], top);
  }

  lemma SplitLast(s: seq<Token>)
    requires |s| > 0
    ensures s == s[..|s| - 1] + [s[|s| - 1]]
  {
  }

  /** How each counting function of a token sequence grows by one more token. */
  lemma SnocParts(ts: seq<Token>, t: Token)
    ensures Depth(ts + [t]) == Depth(ts) + (if t.LeftParen? then 1 else if t.RightParen? then -1 else 0)
    ensures OpenCount(ts + [t]) == OpenCount(ts) + (if t.LeftParen? then 1 else 0)
    ensures Numbers(ts + [t]) == Numbers(ts) + (if t.Number? then [t.value] else [])
    ensures NonParen(ts + [t]) == NonParen(ts) + (if t.LeftParen? || t.RightParen? then [] else [t])
  {
    assert (ts + [t])[..|ts|] == ts;
  }

  lemma {:induction false} PopOperatorsKeeps(st: Shunting, tok: Token, ts: seq<Token>)
    requires tok.Operator? && Keeps(st, ts)
    ensures Keeps(PopOperators(st, tok), ts)
    decreases |st.stack|
  {
    if |st.stack| > 0 && ShouldPop(st.stack[|st.stack| - 1], tok) {
      MoveTop(st, ts);
      PopOperatorsKeeps(Shunting(st.stack[..|st.stack| - 1], st.output + [st.stack[|st.stack| - 1]]), tok, ts);
    }
  }

  /** Closing a parenthesis fails exactly when none is open, and otherwise closes one. */
  lemma {:induction false} PopToParenKeeps(st: Shunting, ts: seq<Token>)
    requires Keeps(st, ts)
    ensures PopToParen(st).Success? <==> OpenCount(st.stack) > 0
    ensures PopToParen(st).Success? ==> Keeps(PopToParen(st).value, ts + [RightParen])
    decreases |st.stack|
  {
    SnocParts(ts, RightParen);
    if |st.stack| > 0 {
      var top := st.stack[|st.stack| - 1];
      var rest := st.stack[..|st.stack| - 1];
      SplitLast(st.stack);
      SnocParts(rest, top);
      if top.LeftParen? {
        assert PopToParen(st) == Success(Shunting(rest, st.output));
        assert forall i :: 0 <= i < |rest| ==> rest[i] == st.stack[i];
      } else {
        MoveTop(st, ts);
        PopToParenKeeps(Shunting(rest, st.output + [top]), ts);
      }
    }
  }

  lemma StepNumber(st: Shunting, ts: seq<Token>, t: Token)
    requires Keeps(st, ts) && t.Number?
    ensures Keeps(Shunting(st.stack, st.output + [t]), ts + [t])
  {
    SnocParts(ts, t);
    SnocParts(st.output, t);
    NoParensSnoc(st.output, t);
    assert multiset(st.output + [t]) == multiset(st.output) + multiset{t};
  }

  lemma NoParensSnoc(output: seq<Token>, t: Token)
    requires NoParens(output) && (t.Number? || t.Operator?)
    ensures NoParens(output + [t])
  {
    assert forall i :: 0 <= i < |output| ==> (output + [t])[i] == output[i];
  }

  lemma StackTokensSnoc(stack: seq<Token>, t: Token)
    requires StackTokens(stack) && (t.Operator? || t.LeftParen?)
    ensures StackTokens(stack + [t])
  {
    assert forall i :: 0 <= i < |stack| ==> (stack + [t])[i] == stack[i];
  }

  lemma StepLeftParen(st: Shunting, ts: seq<Token>)
    requires Keeps(st, ts)
    ensures Keeps(Shunting(st.stack + [LeftParen], st.output), ts + [LeftParen])
  {
    SnocParts(ts, LeftParen);
    SnocParts(st.stack, LeftParen);
    StackTokensSnoc(st.stack, LeftParen);
  }

  lemma StepOperator(st: Shunting, ts: seq<Token>, t: Token)
    requires Keeps(st, ts) && t.Operator?
    ensures Keeps(Shunting(PopOperators(st, t).stack + [t], PopOperators(st, t).output), ts + [t])
  {
    PopOperatorsKeeps(st, t, ts);
    var popped := PopOperators(st, t);
    SnocParts(ts, t);
    SnocParts(popped.stack, t);
    StackTokensSnoc(popped.stack, t);
    assert multiset(NonParen(popped.stack) + [t]) == multiset(NonParen(popped.stack)) + multiset{t};
  }

  /** One conversion step keeps what Keeps counts, and fails only on an unmatched ')'. */
  lemma StepKeeps(st: Shunting, ts: seq<Token>, t: Token)
    requires Keeps(st, ts)
    ensures ShuntStep(st, t).Success? <==> !(t.RightParen? && Depth(ts) == 0)
    ensures ShuntStep(st, t).Success? ==> Keeps(ShuntStep(st, t).value, ts + [t])
  {
    match t
    case Number(v) => StepNumber(st, ts, t);
    case LeftParen => StepLeftParen(st, ts);
    case RightParen => PopToParenKeeps(st, ts);
    case Operator(_, _) => StepOperator(st, ts, t);
  }

  /** No prefix of ts closes a parenthesis it has not opened. */
  ghost predicate PrefixesOpen(ts: seq<Token>) {
    forall k :: 0 <= k <= |ts| ==> Depth(ts[..k]) >= 0
  }

  lemma PrefixesOpenSnoc(init: seq<Token>, t: Token)
    ensures PrefixesOpen(init + [t]) <==> PrefixesOpen(init) && Depth(init + [t]) >= 0
  {
    var ts := init + [t];
    assert forall k :: 0 <= k <= |init| ==> ts[..k] == init[..k];
    assert ts[..|ts|] == ts;
    if PrefixesOpen(ts) {
      forall k | 0 <= k <= |init|
        ensures Depth(init[..k]) >= 0
      {
        assert ts[..k] == init[..k];
      }
    }
  }

  /** The conversion so far succeeds exactly when no prefix closes an unopened parenthesis. */
  lemma {:induction false} FoldKeeps(ts: seq<Token>)
    ensures ShuntFold(ts).Success? <==> PrefixesOpen(ts)
    ensures ShuntFold(ts).Success? ==> Keeps(ShuntFold(ts).value, ts)
    decreases |ts|
  {
    if |ts| == 0 {
      assert forall k :: 0 <= k <= |ts| ==> ts[..k] == [];
    } else {
      var init := ts[..|ts| - 1];
      var t := ts[|ts| - 1];
      FoldKeeps(init);
      assert ts == init + [t];
      PrefixesOpenSnoc(init, t);
      if ShuntFold(init).Success? {
        StepKeeps(ShuntFold(init).value, init, t);
      }
    }
  }

  /** Emptying the stack fails exactly when a parenthesis is still open. */
  lemma {:induction false} FinishKeeps(st: Shunting, ts: seq<Token>)
    requires Keeps(st, ts)
    ensures Finish(st).Success? <==> OpenCount(st.stack) == 0
    ensures Finish(st).Success? ==> NoParens(Finish(st).value) && Numbers(Finish(st).value) == Numbers(ts) &&
                                    multiset(Finish(st).value) == multiset(NonParen(ts))
    decreases |st.stack|
  {
    if |st.stack| == 0 {
      assert multiset(NonParen(st.stack)) == multiset{};
    } else {
      var top := st.stack[|st.stack| - 1];
      SplitLast(st.stack);
      SnocParts(st.stack[..|st.stack| - 1], top);
      if !top.LeftParen? {
        MoveTop(st, ts);
        FinishKeeps(Shunting(st.stack[..|st.stack| - 1], st.output + [top]), ts);
      }
    }
  }

  /**
   * The conversion succeeds exactly on balanced parentheses; its output
   * has no parentheses, keeps the numbers in their order and holds every
   * other token of the input exactly once.
   */
  lemma ShuntCorrect(ts: seq<Token>)
    ensures Shunt(ts).Success? <==> Balanced(ts)
    ensures Shunt(ts).Success? ==> NoParens(Shunt(ts).value) && Numbers(Shunt(ts).value) == Numbers(ts) &&
                                   multiset(Shunt(ts).value) == multiset(NonParen(ts))
  {
    FoldKeeps(ts);
    assert ts[..|ts|] == ts;
    if ShuntFold(ts).Success? {
      FinishKeeps(ShuntFold(ts).value, ts);
    }
  }

  /** Once a prefix fails, the whole conversion fails. */
  lemma {:induction false} FoldFailurePersists(ts: seq<Token>, more: seq<Token>)
    requires ShuntFold(ts).Failure?
    ensures ShuntFold(ts + more).Failure?
    decreases |more|
  {
    if |more| == 0 {
      assert ts + more == ts;
    } else {
      var init := ts + more[..|more| - 1];
      FoldFailurePersists(ts, more[..|more| - 1]);
      var whole := ts + more;
      assert whole[..|whole| - 1] == init;
    }
  }

  lemma PrependAssoc(a: seq<Token>, b: seq<Token>, r: Result<seq<Token>>)
    ensures Prepend(a, Prepend(b, r)) == Prepend(a + b, r)
  {
    if r.Success? {
      assert a + (b + r.value) == (a + b) + r.value;
    }
  }

  /** Pops operators while they bind at least as tightly as tok. */
  method PopOperatorsLoop(stack: seq<Token>, output: seq<Token>, tok: Token) returns (stack': seq<Token>, output': seq<Token>)
    requires tok.Operator?
    ensures Shunting(stack', output') == PopOperators(Shunting(stack, output), tok)
  {
    stack', output' := stack, output;
    while |stack'| > 0 &&
          (Priority(stack'[|stack'| - 1]) > Priority(tok) ||
           (Priority(stack'[|stack'| - 1]) == Priority(tok) && tok.op != '^')) &&
          !stack'[|stack'| - 1].LeftParen?
      invariant PopOperators(Shunting(stack', output'), tok) == PopOperators(Shunting(stack, output), tok)
    {
      output' := output' + [stack'[|stack'| - 1]];
      stack' := stack'[..|stack'| - 1];
    }
  }

  /** Pops operators up to the nearest '(' and drops it; an error when there is none. */
  method PopToParenLoop(stack: seq<Token>, output: seq<Token>) returns (r: Result<Shunting>)
    ensures r == PopToParen(Shunting(stack, output))
  {
    var stack', output' := stack, output;
    while |stack'| > 0 && !stack'[|stack'| - 1].LeftParen?
      invariant PopToParen(Shunting(stack', output')) == PopToParen(Shunting(stack, output))
    {
      output' := output' + [stack'[|stack'| - 1]];
      stack' := stack'[..|stack'| - 1];
    }
    if |stack'| == 0 {
      return Failure("Mismatched parentheses");
    }
    return Success(Shunting(stack'[..|stack'| - 1], output'));
  }

  /** Moves what is left on the stack to the output. */
  method FinishLoop(stack: seq<Token>, output: seq<Token>) returns (r: Result<seq<Token>>)
    ensures r == Finish(Shunting(stack, output))
  {
    var stack', output' := stack, output;
    while |stack'| > 0
      invariant Finish(Shunting(stack', output')) == Finish(Shunting(stack, output))
    {
      if stack'[|stack'| - 1].LeftParen? {
        return Failure("Mismatched parentheses");
      }
      output' := output' + [stack'[|stack'| - 1]];
      stack' := stack'[..|stack'| - 1];
    }
    return Success(output');
  }

  /**
   * Converts an infix expression to reverse Polish notation, reading
   * tokens one at a time.  It fails exactly when the expression does not
   * tokenize or its parentheses do not balance.
   */
  method InfixToRPN(expr: string) returns (r: Result<seq<Token>>)
    ensures r.Success? <==> Convert(expr).Success?
    ensures r.Success? ==> r == Convert(expr)
  {
    var tokenizer := new Tokenizer(expr);
    var stack: seq<Token> := [];
    var output: seq<Token> := [];
    ghost var consumed: seq<Token> := [];
    assert Prepend([], TokenizeFrom(expr, 0)) == TokenizeFrom(expr, 0) by {
      if TokenizeFrom(expr, 0).Success? {
        assert [] + TokenizeFrom(expr, 0).value == TokenizeFrom(expr, 0).value;
      }
    }
    while !tokenizer.IsEnd()
      invariant tokenizer.expr == expr && tokenizer.pos <= |expr|
      invariant Tokenize(expr) == Prepend(consumed, TokenizeFrom(expr, tokenizer.pos))
      invariant ShuntFold(consumed) == Success(Shunting(stack, output))
      decreases |expr| - tokenizer.pos
    {
      ghost var before := tokenizer.pos;
      var next := tokenizer.Next();
      if next.Failure? {
        return Failure(next.error);
      }
      var token := next.value;
      ghost var consumed' := consumed + [token];
      assert consumed'[..|consumed'| - 1] == consumed;
      PrependAssoc(consumed, [token], TokenizeFrom(expr, tokenizer.pos));
      var step: Result<Shunting>;
      if token.Number? {
        step := Success(Shunting(stack, output + [token]));
      } else if token.LeftParen? {
        step := Success(Shunting(stack + [token], output));
      } else if token.RightParen? {
        step := PopToParenLoop(stack, output);
      } else {
        var stack', output' := PopOperatorsLoop(stack, output, token);
        step := Success(Shunting(stack' + [token], output'));
      }
      assert step == ShuntStep(Shunting(stack, output), token);
      if step.Failure? {
        ConvertFails(expr, consumed', tokenizer.pos);
        return Failure(step.error);
      }
      stack, output := step.value.stack, step.value.output;
      consumed := consumed';
    }
    assert consumed + [] == consumed;
    assert Tokenize(expr) == Success(consumed);
    r := FinishLoop(stack, output);
  }

  lemma ConvertFails(expr: string, consumed: seq<Token>, pos: nat)
    requires pos <= |expr|
    requires Tokenize(expr) == Prepend(consumed, TokenizeFrom(expr, pos))
    requires ShuntFold(consumed).Failure?
    ensures Convert(expr).Failure?
  {
    if TokenizeFrom(expr, pos).Success? {
      FoldFailurePersists(consumed, TokenizeFrom(expr, pos).value);
    }
  }

  // ---------------------------------------------------------------------
  // Evaluation
  // ---------------------------------------------------------------------

  /**
   * One operator applied to its operands: unary + and -, binary + - * /
   * and ^ (computed by pow); division by zero and any other operator are
   * errors.
   */
  function ApplyOp(op: char, a: real, b: real, isUnary: bool, pow: (real, real) -> real): (r: Result<real>)
    ensures isUnary ==> (r.Success? <==> op == '+' || op == '-')
    ensures !isUnary ==> (r.Success? <==> op in "+-*^" || (op == '/' && b != 0.0))
    ensures r.Success? && isUnary ==> r.value == (if op == '-' then -a else a)
    ensures r.Success? && !isUnary && op == '/' ==> r.value * b == a
  {
    if isUnary then
      if op == '+' then Success(a)
      else if op == '-' then Success(-a)
      else Failure("Unknown unary operator")
    else if op == '+' then Success(a + b)
    else if op == '-' then Success(a - b)
    else if op == '*' then Success(a * b)
    else if op == '/' then
      if b == 0.0 then Failure("Division by zero") else Success(a / b)
    else if op == '^' then Success(pow(a, b))
    else Failure("Unknown operator")
  }

  /** The character a non-number token carries. */
  function OpChar(t: Token): char
    requires !t.Number?
  {
    match t
    case Operator(op, _) => op
    case LeftParen => '('
    case RightParen => ')'
  }

  /** One token against the value stack (top last). */
  function EvalStep(stack: seq<real>, t: Token, pow: (real, real) -> real): (r: Result<seq<real>>)
    ensures t.Number? ==> r == Success(stack + [t.value])
    ensures !t.Number? && t.Operator? && t.isUnary && |stack| == 0 ==> r.Failure?
    ensures !t.Number? && !(t.Operator? && t.isUnary) && |stack| < 2 ==> r.Failure?
    ensures r.Success? && !t.Number? && t.Operator? && t.isUnary ==> |r.value| == |stack|
    ensures r.Success? && !t.Number? && !(t.Operator? && t.isUnary) ==> |r.value| == |stack| - 1
  {
    if t.Number? then Success(stack + [t.value])
    else if t.Operator? && t.isUnary then
      if |stack| == 0 then Failure("Not enough operands")
      else
        match ApplyOp(t.op, stack[|stack| - 1], 0.0, true, pow)
        case Failure(e) => Failure(e)
        case Success(v) => Success(stack[..|stack| - 1] + [v])
    else if |stack| < 2 then Failure("Not enough operands")
    else
      match ApplyOp(OpChar(t), stack[|stack| - 2], stack[|stack| - 1], false, pow)
      case Failure(e) => Failure(e)
      case Success(v) => Success(stack[..|stack| - 2] + [v])
  }

  /** Evaluates the remaining queue on stack; the result is the single value left. */
  function EvalFrom(stack: seq<real>, rpn: seq<Token>, pow: (real, real) -> real): Result<real>
    decreases |rpn|
  {
    if |rpn| == 0 then
      if |stack| != 1 then Failure("Invalid expression") else Success(stack[0])
    else
      match EvalStep(stack, rpn[0], pow)
      case Failure(e) => Failure(e)
      case Success(stack') => EvalFrom(stack', rpn[1..], pow)
  }

  method EvaluateRPN(rpn: seq<Token>, pow: (real, real) -> real) returns (r: Result<real>)
    ensures r == EvalFrom([], rpn, pow)
  {
    var stack: seq<real> := [];
    var i := 0;
    while i < |rpn|
      invariant 0 <= i <= |rpn|
      invariant EvalFrom(stack, rpn[i..], pow) == EvalFrom([], rpn, pow)
    {
      var token := rpn[i];
      assert rpn[i..][1..] == rpn[i + 1..];
      i := i + 1;
      if token.Number? {
        stack := stack + [token.value];
      } else if token.Operator? && token.isUnary {
        if |stack| == 0 {
          return Failure("Not enough operands");
        }
        var a := stack[|stack| - 1];
        stack := stack[..|stack| - 1];
        var result := ApplyOp(token.op, a, 0.0, true, pow);
        if result.Failure? {
          return Failure(result.error);
        }
        stack := stack + [result.value];
      } else {
        if |stack| < 2 {
          return Failure("Not enough operands");
        }
        var b := stack[|stack| - 1];
        var a := stack[|stack| - 2];
        stack := stack[..|stack| - 2];
        var result := ApplyOp(OpChar(token), a, b, false, pow);
        if result.Failure? {
          return Failure(result.error);
        }
        stack := stack + [result.value];
      }
    }
    if |stack| != 1 {
      return Failure("Invalid expression");
    }
    return Success(stack[0]);
  }

  /** An expression tree over the same operators. */
  datatype Expr = Num(v: real) | Unary(op: char, e: Expr) | Binary(op: char, left: Expr, right: Expr)

  /** The value of a tree, left operand first, with the same errors as ApplyOp. */
  function EvalExpr(e: Expr, pow: (real, real) -> real): Result<real> {
    match e
    case Num(v) => Success(v)
    case Unary(op, x) =>
      (match EvalExpr(x, pow)
       case Failure(m) => Failure(m)
       case Success(a) => ApplyOp(op, a, 0.0, true, pow))
    case Binary(op, l, r) =>
      match EvalExpr(l, pow)
      case Failure(m) => Failure(m)
      case Success(a) =>
        match EvalExpr(r, pow)
        case Failure(m) => Failure(m)
        case Success(b) => ApplyOp(op, a, b, false, pow)
  }

  /** The tree in reverse Polish order. */
  function Postfix(e: Expr): seq<Token> {
    match e
    case Num(v) => [Number(v)]
    case Unary(op, x) => Postfix(x) + [Operator(op, true)]
    case Binary(op, l, r) => Postfix(l) + Postfix(r) + [Operator(op, false)]
  }

  /** Evaluating a tree's postfix form pushes the tree's value, or fails as the tree does. */
  lemma {:induction false} PostfixEval(e: Expr, stack: seq<real>, rest: seq<Token>, pow: (real, real) -> real)
    ensures EvalFrom(stack, Postfix(e) + rest, pow) ==
            match EvalExpr(e, pow)
            case Failure(m) => Failure(m)
            case Success(v) => EvalFrom(stack + [v], rest, pow)
    decreases e
  {
    match e
    case Num(v) =>
      assert ([Number(v)] + rest)[1..] == rest;
    case Unary(op, x) =>
      var tail := [Operator(op, true)] + rest;
      assert Postfix(e) + rest == Postfix(x) + tail;
      PostfixEval(x, stack, tail, pow);
      if EvalExpr(x, pow).Success? {
        var a := EvalExpr(x, pow).value;
        assert tail[1..] == rest;
        assert (stack + [a])[..|stack|] == stack;
      }
    case Binary(op, l, r) =>
      var tail := [Operator(op, false)] + rest;
      assert Postfix(e) + rest == Postfix(l) + (Postfix(r) + tail);
      PostfixEval(l, stack, Postfix(r) + tail, pow);
      if EvalExpr(l, pow).Success? {
        var a := EvalExpr(l, pow).value;
        PostfixEval(r, stack + [a], tail, pow);
        if EvalExpr(r, pow).Success? {
          var b := EvalExpr(r, pow).value;
          var s2 := stack + [a] + [b];
          assert s2[..|s2| - 2] == stack && s2[|s2| - 2] == a && s2[|s2| - 1] == b;
          assert tail[1..] == rest;
        }
      }
  }

  /** The evaluator computes the value of any tree from its postfix form. */
  lemma EvaluatesTrees(e: Expr, pow: (real, real) -> real)
    ensures EvalFrom([], Postfix(e), pow) == EvalExpr(e, pow)
  {
    PostfixEval(e, [], [], pow);
    assert Postfix(e) + [] == Postfix(e);
  }

  /** A queue that leaves more or fewer than one value is an error. */
  lemma LeftoverFails(stack: seq<real>, pow: (real, real) -> real)
    ensures EvalFrom(stack, [], pow).Success? <==> |stack| == 1
  {
  }
}

=== FILE: search_tree.dfy ===
/**
 * The unbalanced binary search tree of KhomenkoVS/splay_tree_2.cpp: lookup
 * by a pointer walk, recursive insertion and deletion (the latter using the
 * in-order successor for a node with two children), and depth.
 *
 * The tree is a value: a recursive rewrite of child links becomes building
 * the rewritten tree.
 */
module SearchTree {
  import opened Sequences

  datatype Tree = Nil | Node(left: Tree, x: int, right: Tree)

  ghost function Keys(t: Tree): set<int>
  {
    match t
    case Nil => {}
    case Node(l, x, r) => Keys(l) + {x} + Keys(r)
  }

  /** Smaller keys to the left, larger to the right, at every node. */
  ghost predicate Ordered(t: Tree)
  {
    match t
    case Nil => true
    case Node(l, x, r) =>
      Ordered(l) && Ordered(r) &&
      (forall k :: k in Keys(l) ==> k < x) &&
      (forall k :: k in Keys(r) ==> x < k)
  }

  function Size(t: Tree): nat
  {
    match t
    case Nil => 0
    case Node(l, _, r) => Size(l) + 1 + Size(r)
  }

  /** The outcome of the search walk for y: the walk the lookup loop takes. */
  function Search(t: Tree, y: int): bool
  {
    match t
    case Nil => false
    case Node(l, x, r) => x == y || (if y < x then Search(l, y) else Search(r, y))
  }

  /** In an ordered tree the search walk finds y exactly when y is a key. */
  lemma {:induction false} SearchFindsKeys(t: Tree, y: int)
    requires Ordered(t)
    ensures Search(t, y) <==> y in Keys(t)
  {
    match t
    case Nil =>
    case Node(l, x, r) =>
      SearchFindsKeys(l, y);
      SearchFindsKeys(r, y);
  }

  /** Lines 29-37: the lookup loop, walking down from the root. */
  method Exist(root: Tree, y: int) returns (found: bool)
    ensures found == Search(root, y)
    ensures Ordered(root) ==> (found <==> y in Keys(root))
  {
    if Ordered(root) {
      SearchFindsKeys(root, y);
    }
    var cur := root;
    while cur != Nil
      invariant Search(cur, y) == Search(root, y)
      decreases cur
    {
      if cur.x == y {
        return true;
      }
      cur := if y < cur.x then cur.left else cur.right;
    }
    found := false;
  }

  /**
   * Lines 41-56: a key the search finds leaves the tree as it is; otherwise
   * the key goes to a new leaf at the end of its search path.
   */
  function Insert(t: Tree, y: int): (r: Tree)
    ensures Search(t, y) ==> r == t
    ensures t == Nil ==> r == Node(Nil, y, Nil)
    ensures Keys(r) == Keys(t) + {y}
    ensures Ordered(t) ==> Ordered(r)
  {
    if Search(t, y) then
      SearchContainsKey(t, y);
      t
    else
      match t
      case Nil => Node(Nil, y, Nil)
      case Node(l, x, rt) =>
        if y < x then Node(Insert(l, y), x, rt)
        else if y > x then Node(l, x, Insert(rt, y))
        else t
  }

  /** Whatever the shape, a search that succeeds has met the key. */
  lemma {:induction false} SearchContainsKey(t: Tree, y: int)
    requires Search(t, y)
    ensures y in Keys(t)
  {
    match t
    case Nil =>
    case Node(l, x, r) =>
      if x != y {
        if y < x {
          SearchContainsKey(l, y);
        } else {
          SearchContainsKey(r, y);
        }
      }
  }

  /** Lines 59-63: 0 for the empty tree, one more than the deeper subtree. */
  function Depth(t: Tree): nat
  {
    match t
    case Nil => 0
    case Node(l, _, r) => 1 + Max(Depth(l), Depth(r))
  }

  function Max(a: nat, b: nat): nat
  {
    if a < b then b else a
  }

  /** A tree is at least as large as it is deep, and holds fewer than 2^depth nodes. */
  lemma {:induction false} DepthBounds(t: Tree)
    ensures Depth(t) <= Size(t) < Pow2(Depth(t))
  {
    match t
    case Nil =>
    case Node(l, _, r) =>
      DepthBounds(l);
      DepthBounds(r);
      PowMonotone(Depth(l), Depth(t) - 1);
      PowMonotone(Depth(r), Depth(t) - 1);
  }

  /** One insertion deepens the tree by at most one level. */
  lemma {:induction false} InsertDepth(t: Tree, y: int)
    ensures Depth(t) <= Depth(Insert(t, y)) <= Depth(t) + 1
  {
    if !Search(t, y) {
      match t
      case Nil =>
      case Node(l, x, r) =>
        if y < x {
          InsertDepth(l, y);
        } else if y > x {
          InsertDepth(r, y);
        }
    }
  }

  /** The key at the end of the left spine. */
  ghost function LeftmostKey(t: Tree): int
    requires t.Node?
  {
    if t.left == Nil then t.x else LeftmostKey(t.left)
  }

  /** In an ordered tree the leftmost key is the smallest key. */
  lemma {:induction false} LeftmostIsMin(t: Tree)
    requires t.Node? && Ordered(t)
    ensures LeftmostKey(t) in Keys(t)
    ensures forall k :: k in Keys(t) ==> LeftmostKey(t) <= k
  {
    if t.left != Nil {
      LeftmostIsMin(t.left);
    }
  }

  /**
   * Lines 66-105: removes data from an ordered tree. A node with at most one
   * child is replaced by that child; a node with two takes the key of its
   * in-order successor, which is then deleted from the right subtree.
   */
  method DeleteNode(root: Tree, data: int) returns (r: Tree)
    ensures Ordered(root) ==> Ordered(r) && Keys(r) == Keys(root) - {data}
    ensures Keys(r) <= Keys(root)
    ensures data !in Keys(root) ==> Keys(r) == Keys(root)
    decreases root
  {
    if root == Nil {
      return root;
    }
    var l, x, rt := root.left, root.x, root.right;
    if data < x {
      var nl := DeleteNode(l, data);
      r := Node(nl, x, rt);
    } else if data > x {
      var nr := DeleteNode(rt, data);
      r := Node(l, x, nr);
    } else if l == Nil {
      r := rt;
    } else if rt == Nil {
      r := l;
    } else {
      var temp := rt;
      while temp.left != Nil
        invariant temp.Node? && LeftmostKey(temp) == LeftmostKey(rt)
        invariant Keys(temp) <= Keys(rt)
        decreases temp
      {
        temp := temp.left;
      }
      var nr := DeleteNode(rt, temp.x);
      r := Node(l, temp.x, nr);
      if Ordered(root) {
        LeftmostIsMin(rt);
      }
    }
  }
}

=== FILE: sequences.dfy ===
// Facts about sequences (mostly of natural numbers used as lists of graph nodes) and powers of two.

module Sequences {

  /** Position of the first occurrence of `x` in `s`. */
  function IndexOf(s: seq<nat>, x: nat): (p: nat)
    requires x in s
    ensures p < |s| && s[p] == x
    ensures forall q :: 0 <= q < p ==> s[q] != x
  {
    if s[0] == x then 0 else 1 + IndexOf(s[1..], x)
  }

  predicate Distinct(s: seq<nat>)
  {
    forall i, j :: 0 <= i < j < |s| ==> s[i] != s[j]
  }

  lemma IndexOfDistinct(s: seq<nat>, p: nat)
    requires Distinct(s) && p < |s|
    ensures IndexOf(s, s[p]) == p
  {
  }

  function Reverse<T>(s: seq<T>): (r: seq<T>)
    ensures |r| == |s|
    ensures forall i :: 0 <= i < |s| ==> r[i] == s[|s| - 1 - i]
  {
    if s == [] then [] else Reverse(s[1..]) + [s[0]]
  }

  /** The set {0, ..., n-1}. */
  function Upto(n: nat): (s: set<nat>)
    ensures forall x: nat :: x in s <==> x < n
    ensures |s| == n
  {
    if n == 0 then {} else Upto(n - 1) + {n - 1}
  }

  /** A distinct sequence of nodes below n that contains them all has length n. */
  lemma DistinctCovers(s: seq<nat>, n: nat)
    requires Distinct(s)
    requires forall x: nat :: x in s <==> x < n
    ensures |s| == n
  {
    DistinctCard(s);
    assert Elems(s) == Upto(n);
  }

  ghost function Elems(s: seq<nat>): set<nat>
  {
    set x | x in s
  }

  lemma {:induction false} DistinctCard(s: seq<nat>)
    requires Distinct(s)
    ensures |Elems(s)| == |s|
  {
    if s != [] {
      DistinctCard(s[1..]);
      assert forall j :: 0 <= j < |s[1..]| ==> s[1..][j] == s[j + 1] != s[0];
      assert s[0] !in Elems(s[1..]);
      assert Elems(s) == Elems(s[1..]) + {s[0]};
    }
  }

  /** A proper subset is strictly smaller. */
  lemma ProperSubsetSmaller<T>(a: set<T>, b: set<T>)
    requires a < b
    ensures |a| < |b|
  {
    assert exists x :: x in b && x !in a;
    var x :| x in b && x !in a;
    assert b == a + (b - a);
    assert |b - a| >= 1 by {
      assert x in b - a;
    }
  }

  /** The elements of xs with x put in at position p. */
  lemma InsertAtIndex<T>(xs: seq<T>, p: nat, x: T)
    requires p <= |xs|
    ensures |xs[..p] + [x] + xs[p..]| == |xs| + 1
    ensures forall j :: 0 <= j < |xs| + 1 ==>
      (xs[..p] + [x] + xs[p..])[j] == if j < p then xs[j] else if j == p then x else xs[j - 1]
  {
  }

  /** A sequence is its prefix before i, its element at i and its suffix after i. */
  lemma SplitAround<T>(xs: seq<T>, i: nat)
    requires i < |xs|
    ensures xs == xs[..i] + [xs[i]] + xs[i + 1..]
  {
  }

  /** The elements of xs without the one at position k. */
  lemma RemoveAtIndex<T>(xs: seq<T>, k: nat)
    requires k < |xs|
    ensures |xs[..k] + xs[k + 1..]| == |xs| - 1
    ensures forall j :: 0 <= j < |xs| - 1 ==>
      (xs[..k] + xs[k + 1..])[j] == if j < k then xs[j] else xs[j + 1]
  {
  }

  /** The elements of xs with the two at positions k and k + 1 replaced by x. */
  lemma CollapseAtIndex<T>(xs: seq<T>, k: nat, x: T)
    requires k + 1 < |xs|
    ensures |xs[..k] + [x] + xs[k + 2..]| == |xs| - 1
    ensures forall j :: 0 <= j < |xs| - 1 ==>
      (xs[..k] + [x] + xs[k + 2..])[j] == if j < k then xs[j] else if j == k then x else xs[j + 1]
  {
  }

  /**
   * Position of the first largest element: what std::max_element returns
   * with `<` as the comparison, and what a left-to-right scan keeps when it
   * replaces its candidate only on a strictly larger value.
   */
  function FirstMax(s: seq<int>): (m: nat)
    requires |s| > 0
    ensures m < |s|
    ensures forall j :: 0 <= j < |s| ==> s[j] <= s[m]
    ensures forall j :: 0 <= j < m ==> s[j] < s[m]
  {
    if |s| == 1 then 0
    else
      var m := FirstMax(s[..|s| - 1]);
      if s[|s| - 1] > s[m] then |s| - 1 else m
  }

  function Pow2(n: nat): (p: nat)
    ensures p >= 1
  {
    if n == 0 then 1 else 2 * Pow2(n - 1)
  }

  lemma {:induction false} PowMonotone(a: nat, b: nat)
    requires a <= b
    ensures Pow2(a) <= Pow2(b)
  {
    if a < b {
      PowMonotone(a, b - 1);
    }
  }

  /** Exponents add. */
  lemma {:induction false} Pow2Sum(a: nat, b: nat)
    ensures Pow2(a + b) == Pow2(a) * Pow2(b)
  {
    if a > 0 {
      Pow2Sum(a - 1, b);
      assert Pow2(a + b) == 2 * Pow2(a - 1 + b);
    }
  }
  /** A sequence has no more distinct elements than positions. */
  lemma {:induction false} SetOfCard<T>(s: seq<T>)
    ensures |set x | x in s| <= |s|
  {
    if s != [] {
      SetOfCard(s[1..]);
      assert (set x | x in s) == (set x | x in s[1..]) + {s[0]};
    }
  }

  /** A sequence longer than the set it draws from repeats an element. */
  lemma {:induction false} PigeonholeSet<T>(s: seq<T>, u: set<T>)
    requires forall x :: x in s ==> x in u
    requires |s| > |u|
    ensures exists i, j :: 0 <= i < j < |s| && s[i] == s[j]
  {
    if s[0] in s[1..] {
      var j :| 0 <= j < |s[1..]| && s[1..][j] == s[0];
      assert s[0] == s[j + 1];
    } else {
      assert u == (u - {s[0]}) + {s[0]};
      PigeonholeSet(s[1..], u - {s[0]});
      var i, j :| 0 <= i < j < |s[1..]| && s[1..][i] == s[1..][j];
      assert s[i + 1] == s[j + 1];
    }
  }

  /** A sequence drawn from a shorter one repeats an element. */
  lemma Pigeonhole<T>(s: seq<T>, from: seq<T>)
    requires forall x :: x in s ==> x in from
    requires |s| > |from|
    ensures exists i, j :: 0 <= i < j < |s| && s[i] == s[j]
  {
    SetOfCard(from);
    PigeonholeSet(s, set x | x in from);
  }
  /** x after n applications of f. */
  function Iterate<T>(f: T -> T, x: T, n: nat): T
  {
    if n == 0 then x else f(Iterate(f, x, n - 1))
  }

  lemma {:induction false} IterateShift<T>(f: T -> T, x: T, i: nat, j: nat, m: nat)
    requires Iterate(f, x, i) == Iterate(f, x, j)
    ensures Iterate(f, x, i + m) == Iterate(f, x, j + m)
  {
    if m == 0 {
      assert i + m == i && j + m == j;
    } else {
      IterateShift(f, x, i, j, m - 1);
      var y := Iterate(f, x, i + (m - 1));
      assert Iterate(f, x, i + m) == f(y);
      assert Iterate(f, x, j + m) == f(y);
    }
  }

  /** Once an iteration repeats a value, every later value is one of the first j. */
  lemma {:induction false} IterateRepeats<T>(f: T -> T, x: T, i: nat, j: nat, n: nat)
    requires i < j && Iterate(f, x, i) == Iterate(f, x, j)
    ensures exists m :: 0 <= m < j && Iterate(f, x, n) == Iterate(f, x, m)
    decreases n
  {
    if n < j {
      assert Iterate(f, x, n) == Iterate(f, x, n);
    } else {
      var p := n - (j - i);
      IterateShift(f, x, i, j, n - j);
      assert i + (n - j) == p && j + (n - j) == n;
      IterateRepeats(f, x, i, j, p);
      var m :| 0 <= m < j && Iterate(f, x, p) == Iterate(f, x, m);
      assert Iterate(f, x, n) == Iterate(f, x, m);
    }
  }

  /** Once an iteration reaches a fixed point of f it stays there. */
  lemma {:induction false} IterateStays<T>(f: T -> T, x: T, p: nat, n: nat)
    requires f(Iterate(f, x, p)) == Iterate(f, x, p) && p <= n
    ensures Iterate(f, x, n) == Iterate(f, x, p)
    decreases n
  {
    if n > p {
      IterateStays(f, x, p, n - 1);
    }
  }
  /** An iteration that steps onto a fixed point z of f stays on z from then on. */
  lemma IterateSettles<T>(f: T -> T, x: T, p: nat, n: nat, z: T)
    requires f(Iterate(f, x, p)) == z && f(z) == z && p < n
    ensures Iterate(f, x, n) == z
  {
    assert Iterate(f, x, p + 1) == z;
    IterateStays(f, x, p + 1, n);
  }

  /** s lists the first |s| values of iterating f from x. */
  ghost predicate IsOrbit<T>(f: T -> T, x: T, s: seq<T>)
  {
    forall m :: 0 <= m < |s| ==> s[m] == Iterate(f, x, m)
  }

  lemma OrbitSnoc<T>(f: T -> T, x: T, s: seq<T>)
    requires IsOrbit(f, x, s)
    ensures IsOrbit(f, x, s + [Iterate(f, x, |s|)])
  {
  }

  /**
   * An iteration whose first |s| values all lie in a shorter sequence
   * `from` never leaves the values it has already taken.
   */
  lemma IterateTrapped<T>(f: T -> T, x: T, s: seq<T>, from: seq<T>, n: nat)
    requires IsOrbit(f, x, s)
    requires forall y :: y in s ==> y in from
    requires |s| > |from|
    ensures Iterate(f, x, n) in s
  {
    Pigeonhole(s, from);
    var i, j :| 0 <= i < j < |s| && s[i] == s[j];
    IterateRepeats(f, x, i, j, n);
    var m :| 0 <= m < j && Iterate(f, x, n) == Iterate(f, x, m);
    assert s[m] == Iterate(f, x, n);
  }
}

=== FILE: topo_sort.dfy ===
// Depth-first topological sort with three-colour cycle detection over a
// graph whose edges are generated from a random rank assignment
// (VasilievGV/kursach.cpp). The random draws are parameters: `rank` holds
// the rank drawn for each node and `keep` decides each candidate edge.

module TopoSort {

  import opened Sequences

  const WHITE := 0
  const GREY := 1
  const BLACK := 2

  /** Nodes 0..n-1 grouped by rank, each group in increasing node order. */
  ghost predicate IsBuckets(buckets: seq<seq<nat>>, rank: seq<nat>, n: nat)
    requires |rank| == n
  {
    |buckets| == n &&
    (forall r, x :: 0 <= r < n && x in buckets[r] ==> 0 <= x < n && rank[x] == r) &&
    (forall x :: 0 <= x < n ==> rank[x] < n && x in buckets[rank[x]]) &&
    (forall r, p, q :: 0 <= r < n && 0 <= p < q < |buckets[r]| ==> buckets[r][p] < buckets[r][q])
  }

  /** Sorts the nodes into rank buckets, in node order (lines 94-100). */
  method BuildBuckets(rank: seq<nat>, n: nat) returns (buckets: seq<seq<nat>>)
    requires |rank| == n && forall i :: 0 <= i < n ==> rank[i] < n
    ensures IsBuckets(buckets, rank, n)
  {
    buckets := seq(n, _ => []);
    var i: nat := 0;
    while i < n
      invariant i <= n && |buckets| == n
      invariant forall r, x :: 0 <= r < n && x in buckets[r] ==> x < i
      invariant forall r, x :: 0 <= r < n && x in buckets[r] ==> rank[x] == r
      invariant forall x :: 0 <= x < i ==> x in buckets[rank[x]]
      invariant forall r, p, q :: 0 <= r < n && 0 <= p < q < |buckets[r]| ==> buckets[r][p] < buckets[r][q]
    {
      var b := buckets[rank[i]];
      assert forall p :: 0 <= p < |b| ==> b[p] in buckets[rank[i]];
      buckets := buckets[rank[i] := b + [i]];
      i := i + 1;
    }
  }

  /**
   * The out-edges of node u: for every higher rank, in increasing order,
   * every node of that rank whose coin says so (lines 106-115).
   */
  method Successors(u: nat, rank: seq<nat>, buckets: seq<seq<nat>>, n: nat, keep: (nat, nat) -> bool)
    returns (s: seq<nat>)
    requires |rank| == n && u < n && IsBuckets(buckets, rank, n)
    requires forall i :: 0 <= i < n ==> rank[i] < n
    ensures forall v: nat :: v in s <==> v < n && rank[u] < rank[v] && keep(u, v)
  {
    s := [];
    var rankLow := rank[u] + 1;
    while rankLow < n
      invariant rank[u] + 1 <= rankLow || rank[u] + 1 > n
      invariant forall v: nat :: v in s <==> v < n && rank[u] < rank[v] < rankLow && keep(u, v)
    {
      var bucket := buckets[rankLow];
      var link := 0;
      while link < |bucket|
        invariant 0 <= link <= |bucket|
        invariant forall v: nat :: v in s <==>
          v < n && keep(u, v) && (rank[u] < rank[v] < rankLow || v in bucket[..link])
      {
        if keep(u, bucket[link]) {
          s := s + [bucket[link]];
        }
        assert bucket[..link + 1] == bucket[..link] + [bucket[link]];
        link := link + 1;
      }
      assert bucket[..|bucket|] == bucket;
      rankLow := rankLow + 1;
    }
  }

  /**
   * The finishing stack of a search: it holds exactly the black nodes, each
   * once, and each node's successors were pushed before it.
   */
  ghost predicate FinishOrder(color: seq<int>, edges: seq<seq<nat>>, stack: seq<nat>)
  {
    (forall x: nat :: x in stack <==> x < |color| && color[x] == BLACK) &&
    Distinct(stack) &&
    (forall i, k :: 0 <= i < |stack| && stack[i] < |edges| && 0 <= k < |edges[stack[i]]| ==>
       edges[stack[i]][k] in stack[..i])
  }

  /** Pushing a grey node whose successors are all black keeps the stack a finishing order. */
  lemma PushFinished(color: seq<int>, edges: seq<seq<nat>>, stack: seq<nat>, cur: nat)
    requires FinishOrder(color, edges, stack)
    requires cur < |color| && cur < |edges| && color[cur] == GREY
    requires forall k :: 0 <= k < |edges[cur]| ==> edges[cur][k] < |color| && color[edges[cur][k]] == BLACK
    ensures FinishOrder(color[cur := BLACK], edges, stack + [cur])
  {
    var s := stack + [cur];
    assert cur !in stack;
    forall j, k | 0 <= j < |s| && s[j] < |edges| && 0 <= k < |edges[s[j]]|
      ensures edges[s[j]][k] in s[..j]
    {
      if j < |stack| {
        assert s[..j] == stack[..j];
      } else {
        assert s[..j] == stack;
        assert edges[cur][k] in stack;
      }
    }
  }

  lemma ReverseSameMembers(s: seq<nat>)
    ensures forall x :: x in Reverse(s) <==> x in s
  {
    var r := Reverse(s);
    var n := |s|;
    forall x
      ensures x in r <==> x in s
    {
      if x in r {
        var p :| 0 <= p < n && r[p] == x;
        assert s[n - 1 - p] == x;
      }
      if x in s {
        var q :| 0 <= q < n && s[q] == x;
        assert r[n - 1 - q] == x;
      }
    }
  }

  lemma ReverseDistinct(s: seq<nat>)
    requires Distinct(s)
    ensures Distinct(Reverse(s))
  {
    var r := Reverse(s);
    var n := |s|;
    forall i, j | 0 <= i < j < n
      ensures r[i] != r[j]
    {
      assert r[i] == s[n - 1 - i] && r[j] == s[n - 1 - j];
    }
  }

  /** Reversing a finishing order makes every edge point forward. */
  lemma ReverseFinishOrder(edges: seq<seq<nat>>, stack: seq<nat>)
    requires forall i, k :: 0 <= i < |stack| && stack[i] < |edges| && 0 <= k < |edges[stack[i]]| ==>
      edges[stack[i]][k] in stack[..i]
    ensures forall i, k :: 0 <= i < |stack| && Reverse(stack)[i] < |edges| && 0 <= k < |edges[Reverse(stack)[i]]| ==>
      edges[Reverse(stack)[i]][k] in Reverse(stack)[i + 1..]
  {
    var result := Reverse(stack);
    var n := |stack|;
    forall i, k | 0 <= i < n && result[i] < |edges| && 0 <= k < |edges[result[i]]|
      ensures edges[result[i]][k] in result[i + 1..]
    {
      var j := n - 1 - i;
      assert result[i] == stack[j];
      var v := edges[stack[j]][k];
      assert v in stack[..j];
      var q :| 0 <= q < j && stack[q] == v;
      assert result[n - 1 - q] == v;
      assert result[i + 1..][n - 2 - q - i] == v;
    }
  }

  /**
   * Colours only darken, so successors already black stay black; with the
   * i-th successor now black too, the first i + 1 are.
   */
  lemma BlackPrefixGrows(c0: seq<int>, c1: seq<int>, succ: seq<nat>, i: nat)
    requires |c0| == |c1| && i < |succ| && forall k :: 0 <= k < |succ| ==> succ[k] < |c0|
    requires forall x :: 0 <= x < |c0| ==> c0[x] <= c1[x] <= BLACK
    requires forall k :: 0 <= k < i ==> c0[succ[k]] == BLACK
    requires c1[succ[i]] == BLACK
    ensures forall k :: 0 <= k < i + 1 ==> c1[succ[k]] == BLACK
  {
  }

  class Graph {
    var amount: nat
    var edges: seq<seq<nat>>
    var color: seq<int>

    ghost predicate Valid()
      reads this
    {
      |edges| == amount && |color| == amount &&
      (forall u, k :: 0 <= u < amount && 0 <= k < |edges[u]| ==> edges[u][k] < amount) &&
      (forall u :: 0 <= u < amount ==> color[u] == WHITE || color[u] == GREY || color[u] == BLACK)
    }

    ghost predicate AllWhite()
      reads this
    {
      forall u :: 0 <= u < |color| ==> color[u] == WHITE
    }

    ghost predicate Edge(u: nat, v: nat)
      reads this`edges
    {
      u < |edges| && v in edges[u]
    }

    /** A closed walk of at least one edge. */
    ghost predicate IsCycle(c: seq<nat>)
      reads this`edges
    {
      |c| >= 2 && c[0] == c[|c| - 1] &&
      forall i :: 0 <= i < |c| - 1 ==> Edge(c[i], c[i + 1])
    }

    ghost predicate HasCycle()
      reads this`edges
    {
      exists c :: IsCycle(c)
    }

    /**
     * `order` lists every node exactly once, and every edge leads from a node
     * to one listed after it.
     */
    ghost predicate IsTopologicalOrder(order: seq<nat>)
      reads this`amount, this`edges
    {
      |order| == amount && Distinct(order) &&
      (forall x: nat :: x in order <==> x < amount) &&
      (forall i, k :: 0 <= i < |order| && order[i] < |edges| && 0 <= k < |edges[order[i]]| ==>
         edges[order[i]][k] in order[i + 1..])
    }

    /** The nodes not yet visited. */
    ghost function Whites(): set<nat>
      reads this
    {
      set x: nat | x < |color| && color[x] == WHITE
    }

    ghost predicate StackOk(stack: seq<nat>)
      reads this
    {
      FinishOrder(color, edges, stack)
    }

    /** The grey node cur, met again at the end of the grey walk, closes a cycle. */
    lemma GreyCycle(path: seq<nat>, cur: nat)
      requires forall i :: 0 <= i < |path| - 1 ==> Edge(path[i], path[i + 1])
      requires |path| > 0 && Edge(path[|path| - 1], cur) && cur in path
      ensures HasCycle()
    {
      var j :| 0 <= j < |path| && path[j] == cur;
      var c := path[j..] + [cur];
      assert IsCycle(c);
    }

    /** The grey nodes are those of `path`, a walk along edges. */
    ghost predicate GreyPath(path: seq<nat>)
      reads this
    {
      (forall x: nat :: x < |color| && color[x] == GREY <==> x in path) &&
      (forall i :: 0 <= i < |path| - 1 ==> Edge(path[i], path[i + 1]))
    }

    /**
     * Builds a graph of `size` nodes: node i gets rank rank[i], and an edge
     * u -> v is added exactly when rank[u] < rank[v] and the coin keep(u, v)
     * comes up (lines 85-118). All nodes start white.
     */
    constructor(size: nat, rank: seq<nat>, keep: (nat, nat) -> bool)
      requires |rank| == size && forall i :: 0 <= i < size ==> rank[i] < size
      ensures Valid() && AllWhite() && amount == size
      ensures forall u: nat, v: nat :: u < size && v < size ==>
        (Edge(u, v) <==> rank[u] < rank[v] && keep(u, v))
      ensures forall u, k :: 0 <= u < size && 0 <= k < |edges[u]| ==> rank[u] < rank[edges[u][k]]
    {
      var buckets := BuildBuckets(rank, size);
      var es: seq<seq<nat>> := seq(size, _ => []);
      var r: nat := 0;
      while r + 1 < size
        invariant |es| == size
        invariant forall u: nat, v: nat :: u < size ==>
          (v in es[u] <==> v < size && rank[u] < r && rank[u] < rank[v] && keep(u, v))
      {
        var bucket := buckets[r];
        var curNode: nat := 0;
        while curNode < |bucket|
          invariant 0 <= curNode <= |bucket| && |es| == size
          invariant forall u: nat, v: nat :: u < size ==>
            (v in es[u] <==> v < size && (rank[u] < r || u in bucket[..curNode]) && rank[u] < rank[v] && keep(u, v))
        {
          var u := bucket[curNode];
          assert r < size && u in buckets[r];
          assert IsBuckets(buckets, rank, size);
          assert u in buckets[r] <==> u < size && rank[u] == r;
          var succ := Successors(u, rank, buckets, size, keep);
          es := es[u := succ];
          assert bucket[..curNode + 1] == bucket[..curNode] + [u];
          curNode := curNode + 1;
        }
        assert bucket[..|bucket|] == bucket;
        r := r + 1;
      }
      forall u: nat, k | u < size && 0 <= k < |es[u]|
        ensures es[u][k] < size && rank[u] < rank[es[u][k]]
      {
        var v := es[u][k];
        assert v in es[u];
        assert v in es[u] <==> v < size && rank[u] < r && rank[u] < rank[v] && keep(u, v);
      }
      amount := size;
      edges := es;
      color := seq(size, _ => WHITE);
    }

    /**
     * Depth-first search from cur (lines 136-162). A grey node reached again
     * closes a cycle; a black node is skipped; a white node turns grey, its
     * successors are searched in order, and it is pushed and turns black.
     */
    method Dfs(cur: nat, stack: seq<nat>, ghost path: seq<nat>) returns (found: bool, stack': seq<nat>)
      requires Valid() && cur < amount
      requires StackOk(stack) && GreyPath(path)
      requires |path| > 0 ==> Edge(path[|path| - 1], cur)
      modifies this`color
      ensures Valid()
      ensures forall x :: 0 <= x < amount ==> old(color[x]) <= color[x]
      ensures found ==> HasCycle()
      ensures old(color[cur]) == GREY ==> found
      ensures old(color[cur]) == BLACK ==> !found && stack' == stack
      ensures !found ==> StackOk(stack') && color[cur] == BLACK && GreyPath(path)
      decreases |Whites()|, 1
    {
      if color[cur] == GREY {
        GreyCycle(path, cur);
        return true, stack;
      }
      if color[cur] == BLACK {
        return false, stack;
      }
      ghost var whitesBefore := Whites();
      color := color[cur := GREY];
      assert Whites() < whitesBefore by {
        assert cur in whitesBefore && cur !in Whites();
      }
      found, stack' := VisitSuccessors(cur, stack, path + [cur], whitesBefore);
      if found {
        return;
      }
      PushFinished(color, edges, stack', cur);
      stack' := stack' + [cur];
      color := color[cur := BLACK];
    }

    /**
     * The loop over the successors of the grey node cur (lines 149-157):
     * each is searched in turn, stopping at the first cycle found; if none
     * is, every successor ends black.
     */
    method VisitSuccessors(cur: nat, stack: seq<nat>, ghost path: seq<nat>, ghost bound: set<nat>)
      returns (found: bool, stack': seq<nat>)
      requires Valid() && cur < amount && color[cur] == GREY
      requires StackOk(stack) && GreyPath(path) && |path| > 0 && path[|path| - 1] == cur
      requires Whites() < bound
      modifies this`color
      ensures Valid()
      ensures forall x :: 0 <= x < amount ==> old(color[x]) <= color[x]
      ensures found ==> HasCycle()
      ensures !found ==> StackOk(stack') && GreyPath(path)
      ensures !found ==> forall k :: 0 <= k < |edges[cur]| ==> color[edges[cur][k]] == BLACK
      decreases |bound|, 0
    {
      var edgeCount := |edges[cur]|;
      var i := 0;
      stack' := stack;
      while i < edgeCount
        invariant 0 <= i <= edgeCount
        invariant Valid() && StackOk(stack') && GreyPath(path)
        invariant forall x :: 0 <= x < amount ==> old(color[x]) <= color[x]
        invariant Whites() < bound
        invariant forall k :: 0 <= k < i ==> color[edges[cur][k]] == BLACK
      {
        var link := edges[cur][i];
        ghost var w0 := Whites();
        ghost var c0 := color;
        ProperSubsetSmaller(Whites(), bound);
        var f;
        f, stack' := Dfs(link, stack', path);
        if f {
          return true, stack';
        }
        BlackPrefixGrows(c0, color, edges[cur], i);
        assert Whites() <= w0;
        i := i + 1;
      }
      found := false;
    }

    /**
     * Runs the search from every white node in order (lines 164-182); on a
     * cycle it reports failure, otherwise the reversed finishing stack.
     */
    method TopologicalSort() returns (ok: bool, result: seq<nat>)
      requires Valid() && AllWhite()
      modifies this`color
      ensures Valid()
      ensures ok ==> IsTopologicalOrder(result)
      ensures !ok ==> HasCycle()
      ensures ok <==> !HasCycle()
    {
      var stack: seq<nat> := [];
      var i := 0;
      while i < amount
        invariant 0 <= i <= amount
        invariant Valid() && StackOk(stack) && GreyPath([])
        invariant forall x :: 0 <= x < i ==> color[x] == BLACK
      {
        if color[i] == WHITE {
          var f;
          f, stack := Dfs(i, stack, []);
          if f {
            return false, [];
          }
        }
        i := i + 1;
      }
      result := Reverse(stack);
      ReversedStackIsOrder(stack, result);
      OrderExcludesCycle(result);
      ok := true;
    }

    lemma ReversedStackIsOrder(stack: seq<nat>, result: seq<nat>)
      requires Valid() && StackOk(stack) && result == Reverse(stack)
      requires forall x :: 0 <= x < amount ==> color[x] == BLACK
      ensures IsTopologicalOrder(result)
    {
      forall x: nat
        ensures x in stack <==> x < amount
      {
        if x < amount {
          assert color[x] == BLACK;
        }
      }
      ReverseSameMembers(stack);
      ReverseDistinct(stack);
      ReverseFinishOrder(edges, stack);
      DistinctCovers(result, amount);
    }

    /**
     * Any strictly increasing potential along every edge rules out cycles.
     */
    lemma PotentialExcludesCycle(f: nat -> int)
      requires forall u: nat, v: nat :: Edge(u, v) ==> f(u) < f(v)
      ensures !HasCycle()
    {
      if c :| IsCycle(c) {
        PotentialGrows(f, c, |c| - 1);
        assert false;
      }
    }

    lemma {:induction false} PotentialGrows(f: nat -> int, c: seq<nat>, i: nat)
      requires forall u: nat, v: nat :: Edge(u, v) ==> f(u) < f(v)
      requires IsCycle(c) && 0 < i < |c|
      ensures f(c[0]) + i <= f(c[i])
    {
      assert Edge(c[i - 1], c[i]);
      if i > 1 {
        PotentialGrows(f, c, i - 1);
      }
    }

    /** A graph with a topological order has no cycle. */
    lemma OrderExcludesCycle(order: seq<nat>)
      requires |edges| == amount && IsTopologicalOrder(order)
      ensures !HasCycle()
    {
      var f := (x: nat) => if x in order then IndexOf(order, x) as int else 0;
      forall u: nat, v: nat | Edge(u, v)
        ensures f(u) < f(v)
      {
        assert u in order;
        var p := IndexOf(order, u);
        var k :| 0 <= k < |edges[u]| && edges[u][k] == v;
        assert order[p] == u;
        assert v in order[p + 1..];
        var q :| p < q < |order| && order[q] == v;
        IndexOfDistinct(order, q);
      }
      PotentialExcludesCycle(f);
    }

    /** A graph built by the constructor never has a cycle (lines 102-117). */
    lemma RankedIsAcyclic(rank: seq<nat>)
      requires Valid() && |rank| == amount
      requires forall u, k :: 0 <= u < amount && 0 <= k < |edges[u]| ==> rank[u] < rank[edges[u][k]]
      ensures !HasCycle()
    {
      var n := amount;
      var f := (x: nat) => if x < n then rank[x] as int else 0;
      forall u: nat, v: nat | Edge(u, v)
        ensures f(u) < f(v)
      {
        var k :| 0 <= k < |edges[u]| && edges[u][k] == v;
      }
      PotentialExcludesCycle(f);
    }
  }

  /** Sorting a freshly built ranked graph always succeeds. */
  method SortRanked(size: nat, rank: seq<nat>, keep: (nat, nat) -> bool) returns (ok: bool, order: seq<nat>)
    requires |rank| == size && forall i :: 0 <= i < size ==> rank[i] < size
    ensures ok && |order| == size && Distinct(order)
  {
    var g := new Graph(size, rank, keep);
    g.RankedIsAcyclic(rank);
    ok, order := g.TopologicalSort();
  }
}

=== FILE: wrappers.dfy ===
/** Optional values and results with an error description, shared by the models. */
module Wrappers {

  datatype Option<T> = None | Some(value: T)
  {
    predicate IsSome() {
      Some?
    }
  }

  datatype Result<T> = Success(value: T) | Failure(error: string)
  {
    predicate IsFailure() {
      Failure?
    }
  }
}
